=== FILE: README.md ===
# Atlas, modelled in Dafny

Atlas is a Windows desktop companion for gamers: a Tauri application whose Rust
back end detects installed games and running gaming sessions, tracks performance
and bottlenecks, kills background processes before a game and restores them
afterwards, manages downloads, machine-learning jobs, gacha (wish) history, a
friends/chat service and a remote server, and delegates audio and playlist work to
Python workers (audio-event detection and its training pipeline, a Valorant store
checker, a playlist downloader with Chinese-title handling and a VPS sync).

This project models the logic of those components as pure Dafny functions and
methods over immutable data, and proves what their callers rely on: parsing and
serialising round trips, the error paths, ordering and deduplication, counters
that add up, and the invariants each update keeps. One Dafny module stands for
one source file (or a small group of related files); the modules `Wrappers`,
`Numeric`, `Strings`, `Paths`, `WinPaths`, `Sorting` and `Records` are shared
helpers (option/result types, Python and Rust number and string semantics, path
handling, stable sorting, keyed records) and carry no rows below.

Conventions used throughout:

- Files are `Option<Result<T>>`: `None` is a missing file, `Err` an unreadable
  one. A command returns its result together with what it would write, and most
  commands assume the write succeeds. A failed write or removal is a parameter
  only for `Launcher.SaveBoth`, `Launcher.RemoveFromLibrary`, `Launcher.LaunchGame`,
  `Profiles.SaveProfile`, `RiotAuth.Logout`, `ServerCommands.ClearSshCredentials`
  and `Downloads.DeleteDownload`.
- Clocks, random ids, process lists, the network and operating-system queries are
  parameters (values or functions in a record of answers).
- Floating point is exact `real` arithmetic; Python's `round` is round-half-even
  on exact values. Fixed-width integers are `nat` unless the width matters, in
  which case the wrap-around is written out.
- A JSON object read with `get(key, default)` is a record with one `Option` per
  key.

## Model

| member | source | states |
|---|---|---|
| AudioTypes.ModelConfigFromDict | python_workers/common/audio_types.py:53-72 | every key missing from the object takes its own default independently: no model path, 1000 ms windows, 250 ms hop, threshold 0.7, 500 ms minimum segment, 300 ms merge gap |
| AudioTypes.ModelConfigRoundTrip | python_workers/common/audio_types.py:63-72 | an object listing every field reads back to the same configuration, so each key feeds its own field |
| AudioTypes.ModelConfigEmptyIsDefault | python_workers/common/audio_types.py:53-72 | an empty object yields the dataclass defaults 1000/250/0.7/500/300 |
| AudioTypes.SegmentToDict | python_workers/common/audio_types.py:27-33 | the serialised segment's times are within 0.005 of the originals, its confidence within 0.0005, and the label is kept |
| AudioTypes.SegmentToDictStable | python_workers/common/audio_types.py:27-33 | serialising an already-rounded segment writes the same values again: rounding is idempotent |
| AudioTypes.ResultToDict | python_workers/common/audio_types.py:44-50 | the result lists one serialised segment per segment, in order, with the two durations within 0.005 and the model version unchanged |
| AudioTypes.ManifestFromDict | python_workers/common/audio_types.py:97-109 | a missing sample list reads as empty |
| AudioTypes.ManifestToDict | python_workers/common/audio_types.py:111-116 | the manifest is written under exactly the three keys positive_samples, negative_samples, hard_negatives |
| AudioTypes.ManifestRoundTrip | python_workers/common/audio_types.py:97-116 | writing a manifest and reading it back gives the same manifest |
| AudioTypes.ManifestDictRoundTrip | python_workers/common/audio_types.py:97-116 | reading an object with exactly the three keys and writing it again gives the object back |
| AudioTypes.TrainingConfigFromDict | python_workers/common/audio_types.py:142-160 | a missing augmentation object gives widths 5 and 10, gain range [-3, 3] and mixup 0.2; missing class weights give 1.0 and 1.0 |
| AudioTypes.TrainingConfigRoundTrip | python_workers/common/audio_types.py:142-160 | a full object, nested objects included, reads back to the same configuration |
| AudioTypes.TrainingConfigDefaults | python_workers/common/audio_types.py:119-160 | an empty object, or one with empty nested objects, gives the defaults (batch 32, 100 epochs, patience 10, learning rate 0.001) |
| AudioUtils.SegmentWindow | python_workers/ml_training/audio_utils.py:45-52 | a window holds exactly the requested number of samples: the audio from its start, then zeros past the end |
| AudioUtils.SegmentAudio | python_workers/ml_training/audio_utils.py:36-54 | a zero hop is an error, as `range` raises, and a negative hop gives no windows |
| AudioUtils.SegmentAudioShape | python_workers/ml_training/audio_utils.py:36-54 | with a positive hop there are ceil(len/hop) windows, none for empty audio; window k starts at k*hop and has exactly the window size |
| AudioUtils.SplitByTimestamps | python_workers/ml_training/audio_utils.py:107-119 | there is one slice per timestamp pair, in order |
| AudioUtils.SplitExact | python_workers/ml_training/audio_utils.py:107-119 | a pair whose times fall on whole samples inside the audio yields exactly the samples between them |
| AudioUtils.IsValidAudioFile | python_workers/ml_training/audio_utils.py:81-104 | a file is valid exactly when it exists, its lower-cased extension is one of the eight supported formats, and its duration can be read and is positive; a valid file has a suffix |
| AudioUtils.MeanSquare | python_workers/ml_training/audio_utils.py:122-125 | the mean of the squared samples is never negative |
| AudioUtils.HasSufficientEnergy | python_workers/ml_training/audio_utils.py:128-134 | the root-free energy test; no contract of its own, its agreement with the RMS test is AudioUtils.EnergyIsRmsTest |
| AudioUtils.EnergyIsRmsTest | python_workers/ml_training/audio_utils.py:122-134 | the root-free comparison of the model is the same test as "RMS energy above the threshold" |
| Bottleneck.Band | src-tauri/src/gaming/bottleneck.rs:148-188 | the severity is 1 to 3; it is 3 exactly from the upper cut and 1 exactly below the lower cut |
| Bottleneck.ThermalSeverity | src-tauri/src/gaming/bottleneck.rs:148-160 | the thermal severity is between 1 and 3 (cuts at 5 and 10 degrees over) |
| Bottleneck.UsageSeverity | src-tauri/src/gaming/bottleneck.rs:162-174 | the usage severity is between 1 and 3 (cuts at 4 and 8 points over) |
| Bottleneck.BoundSeverity | src-tauri/src/gaming/bottleneck.rs:176-188 | the bound severity is between 1 and 3 (cuts at gaps of 25 and 40 points) |
| Bottleneck.BandMonotone | src-tauri/src/gaming/bottleneck.rs:148-188 | a larger excess never gets a lower severity |
| Bottleneck.DetectBottleneck | src-tauri/src/gaming/bottleneck.rs:47-102 | the severity is 0 exactly when the system is balanced and 1 to 3 otherwise; the CPU-bound and GPU-bound verdicts need a GPU reading |
| Bottleneck.DetectPriority | src-tauri/src/gaming/bottleneck.rs:47-102 | each type is reported exactly when its own test fires and no test earlier in the order CPU thermal, GPU thermal, VRAM, RAM, CPU-bound, GPU-bound does |
| Bottleneck.DetectSeverity | src-tauri/src/gaming/bottleneck.rs:49-97 | each type's severity is the band of its excess over its threshold (or of the CPU/GPU gap for the bound types) |
| Bottleneck.NoGpuNoBound | src-tauri/src/gaming/bottleneck.rs:84-98 | without a GPU reading neither bound type is reported, whatever the CPU does |
| Bottleneck.Analyze | src-tauri/src/gaming/bottleneck.rs:35-45 | the status carries the detected type and severity, the metrics unchanged and a zero duration |
| Bottleneck.IsBottleneckActive | src-tauri/src/gaming/bottleneck.rs:104-108 | a type is active exactly when it is the analysed type |
| Bottleneck.ExactlyOneActive | src-tauri/src/gaming/bottleneck.rs:104-108 | no two different types are active for the same snapshot |
| Bottleneck.DefaultExamples | src-tauri/src/gaming/bottleneck.rs:190-237 | under the default thresholds the four example snapshots classify as balanced, CPU-bound, GPU-bound and RAM-limited |
| Bottleneck.CpuBoundExampleSeverity | src-tauri/src/gaming/bottleneck.rs:214-220 | the CPU-bound example (a 55-point gap) is reported at severity 3 |
| Categorizer.DisplayNamesDistinct | src-tauri/src/task_monitor/models.rs:31-45 | no two process categories share a display name |
| Categorizer.Categorize | src-tauri/src/task_monitor/categorizer.rs:3-39 | under the built-in tables, the category chosen matches the lower-cased name and path by its rule and no category earlier in the rule order matches |
| Categorizer.CategorizeWith | src-tauri/src/task_monitor/categorizer.rs:3-39 | for any rule tables, the category chosen matches the lower-cased name and path by its rule, and no rule earlier in the order anti-cheat, system-critical, security, driver, Microsoft bloat, system service, background service, user application matches (Unknown matches everything) |
| Categorizer.CategorizeUnique | src-tauri/src/task_monitor/categorizer.rs:3-39 | any category that matches and beats every earlier rule is the one chosen, so the first match is unique |
| Categorizer.KillableNotProtected | src-tauri/src/task_monitor/categorizer.rs:3-39 | a process that may be killed never matched the anti-cheat, system-critical, security or driver rule |
| Categorizer.CanKill | src-tauri/src/task_monitor/categorizer.rs:423-435 | the killable categories are exactly those ranked after the driver rule, except system services |
| Categorizer.AntiCheatWins | src-tauri/src/task_monitor/categorizer.rs:41-86 | a name containing any anti-cheat token is protected and never killable, whatever else it matches |
| Categorizer.VanguardPathProtected | src-tauri/src/task_monitor/categorizer.rs:41-86 | an executable under a Riot Vanguard folder is protected whatever its name |
| Categorizer.XboxStoreAppNotBloatPath | src-tauri/src/task_monitor/categorizer.rs:287-294 | a store app under an Xbox folder is not bloat by its path unless the path also names Microsoft Edge |
| Categorizer.FirstRuleFrom | src-tauri/src/task_monitor/categorizer.rs:3-39 | from any place in the rule order, the category found matches and no rule between that place and it matches |
| Categorizer.AntiCheatFirst | src-tauri/src/task_monitor/categorizer.rs:6-8 | an anti-cheat process is protected whatever later rules it would also match |
| Categorizer.ContainsAnyIff | src-tauri/src/task_monitor/categorizer.rs:41-86 | a name matches a token list exactly when one of the tokens occurs in it |
| ChineseText.IsChinese | python_workers/playlist_uploader/chinese_utils.py:18-25 | a text is Chinese exactly when some character lies in U+4E00..U+9FFF; the empty text is not |
| ChineseText.ToSimplified | python_workers/playlist_uploader/chinese_utils.py:28-32 | the text is converted only when OpenCC is present and the text is Chinese, and is otherwise returned unchanged |
| ChineseText.ToPinyin | python_workers/playlist_uploader/chinese_utils.py:35-50 | the readings are joined with the separator (a space, or nothing) only when pypinyin is present and the text is Chinese, and are empty otherwise |
| ChineseText.NormalizeQuery | python_workers/playlist_uploader/chinese_utils.py:53-57 | the empty text normalises to the empty text |
| ChineseText.NormalizeShape | python_workers/playlist_uploader/chinese_utils.py:53-57 | a normalised query has no upper-case letter, its only whitespace is single spaces, and it has no space at either end |
| ChineseText.NormalizeIdempotent | python_workers/playlist_uploader/chinese_utils.py:53-57 | normalising twice is normalising once |
| ChineseText.SortedUniqueProps | python_workers/playlist_uploader/chinese_utils.py:96-98 | sorting the set of terms yields strictly increasing strings in code-point order holding exactly the input's strings |
| ChineseText.DistinctTermsProps | python_workers/playlist_uploader/chinese_utils.py:96-98 | discarding the empty term and sorting yields strictly increasing strings that are exactly the non-empty candidates |
| ChineseText.SearchTerms | python_workers/playlist_uploader/chinese_utils.py:60-98 | the candidate terms de-duplicated and sorted; no contract of its own, see ChineseText.SearchTermsProps and ChineseText.SearchTermsBasic |
| ChineseText.SearchTermsProps | python_workers/playlist_uploader/chinese_utils.py:60-98 | the search terms are strictly increasing, never empty, and are exactly the non-empty terms the function adds |
| ChineseText.SearchTermsBasic | python_workers/playlist_uploader/chinese_utils.py:64-71 | with a title and an artist, the normalised title, artist and both "title artist" orders are search terms whenever they are not empty |
| ChineseText.SeparatorFrom | python_workers/playlist_uploader/chinese_utils.py:103-107 | the separator chosen is the first of " - ", en dash, em dash and " \| " that occurs in the title |
| ChineseText.BracketSplit | python_workers/playlist_uploader/chinese_utils.py:124-132 | a bracket split only succeeds with a non-empty inside and a non-empty outside |
| ChineseText.StripSuffixes | python_workers/playlist_uploader/chinese_utils.py:134-137 | stripping the uploader suffixes never lengthens the name, and changes nothing when no suffix ends it |
| ChineseText.ExtractArtistFromTitle | python_workers/playlist_uploader/chinese_utils.py:101-139 | with a separator the two trimmed parts are returned, swapped only when the second part has no title keyword and the first has one; otherwise the first usable bracket pair gives (outside, inside); otherwise the uploader without its suffixes is the artist and the title is kept |
| DataPrep.LowEnergyIsRmsTest | python_workers/ml_training/data_prep.py:181-184 | the root-free low-energy test of the model is the same as "RMS energy below the minimum" |
| DataPrep.ProcessSamples | python_workers/ml_training/data_prep.py:159-199 | every window produced carries the class label it was processed with |
| DataPrep.ProcessSamplesAppend | python_workers/ml_training/data_prep.py:169-197 | samples are processed file by file: the windows of a concatenation are the windows of its parts, in order |
| DataPrep.SkippedFile | python_workers/ml_training/data_prep.py:172-197 | an invalid, unreadable or low-energy file contributes no window |
| DataPrep.SplitPartition | python_workers/ml_training/data_prep.py:103-110 | for any split fraction the validation part followed by the training part is the whole shuffled list |
| DataPrep.SplitSizes | python_workers/ml_training/data_prep.py:103-110 | with a fraction in [0, 1] the validation part has int(n * val_split) items and the training part the rest |
| DataPrep.CreateDataset | python_workers/ml_training/data_prep.py:21-156 | the train and validation totals add up; the positive windows are split without loss or duplication, and so are the negatives together with the hard negatives; hard negatives are counted as windows and files but never as train or validation entries of their own |
| DataPrep.SaveSamples | python_workers/ml_training/data_prep.py:202-210 | one file name is produced per sample, by position |
| DataPrep.SampleNameRoundTrip | python_workers/ml_training/data_prep.py:208-209 | the index can be read back from the zero-padded name, so different positions never share a file |
| DataPrep.SaveSamplesDistinct | python_workers/ml_training/data_prep.py:202-210 | no two samples are saved under the same name |
| DataPrep.FileErrors | python_workers/ml_training/data_prep.py:254-258 | there is at most one error per sample |
| DataPrep.FileErrorsEmpty | python_workers/ml_training/data_prep.py:254-258 | there is no file error exactly when every file exists and is valid audio |
| DataPrep.ValidateManifest | python_workers/ml_training/data_prep.py:236-266 | the manifest is valid exactly when there is no error; a load failure is the single error "Failed to load manifest: ..." |
| DataPrep.ValidateManifestIff | python_workers/ml_training/data_prep.py:236-266 | a loaded manifest is valid exactly when all files of the three lists exist and are valid audio and there are at least two plain positives and two plain negatives; hard negatives do not count toward the minimum |
| Descriptions.Get | src-tauri/src/task_monitor/descriptions.rs:1442 | the exact lookup finds an entry exactly when some key equals the name, and what it finds is stored under that key |
| Descriptions.GetUnique | src-tauri/src/task_monitor/descriptions.rs:1442 | with unique keys the exact lookup returns the entry stored under the key |
| Descriptions.FirstRelated | src-tauri/src/task_monitor/descriptions.rs:1446-1451 | the partial match is the first entry, in iteration order, whose key contains the name or is contained in it; there is none exactly when no key is related |
| Descriptions.LookupProps | src-tauri/src/task_monitor/descriptions.rs:1437-1475 | an entry whose key equals the lower-cased name wins over every partial match; otherwise the first related entry is found; nothing is found exactly when no key is related |
| Descriptions.EmptyNameFindsEntry | src-tauri/src/task_monitor/descriptions.rs:1446-1451 | every key contains the empty string, so an empty name finds an entry in any non-empty table |
| Descriptions.ProcessDescriptionOf | src-tauri/src/task_monitor/descriptions.rs:1437-1454 | a description is returned exactly when the lookup finds an entry, and it is that entry's description |
| Descriptions.FriendlyName | src-tauri/src/task_monitor/descriptions.rs:1457-1475 | the friendly name is the found entry's, or else the name exactly as given, not lower-cased |
| Descriptions.FullDescription | src-tauri/src/task_monitor/descriptions.rs:1479-1484 | exact lookup of the lower-cased name; no contract of its own, see Descriptions.FullDescriptionExact |
| Descriptions.FullDescriptionExact | src-tauri/src/task_monitor/descriptions.rs:1479-1484 | the full description exists exactly when the lower-cased name is a key, and then agrees with the lookup and the friendly name |
| Descriptions.LookupIgnoresCase | src-tauri/src/task_monitor/descriptions.rs:1437-1454 | names that differ only in case get the same description |
| DetectionJobs.Submit | src-tauri/src/commands/audio_detection.rs:37-73 | a missing input file fails first and an existing but unreadable jobs file fails with its read error; otherwise exactly one pending job with the fresh id is added after the jobs already stored, and an absent store starts empty |
| DetectionJobs.Start | src-tauri/src/commands/audio_detection.rs:77-113 | the list is written exactly when the store is readable and holds the job pending, and then that job alone becomes processing; a missing or unreadable store, an unknown id and a non-pending job ("Cannot start job with status" and its name) write nothing; after the write a missing model is the "Model not found" error, otherwise the job's input file and the model path go to the worker |
| DetectionJobs.NoModelLeavesProcessing | src-tauri/src/commands/audio_detection.rs:97-113 | a start that finds no model reports "Model not found" but has already written the job as processing; that job can never be started again ("Cannot start job with status Processing"), and cancelling it still succeeds |
| DetectionJobs.WorkerConfigReadBack | src-tauri/src/commands/audio_detection.rs:116-129 | the configuration the shell sends the detector is read back by the detector as the chosen configuration, or the default one, without the model path |
| DetectionJobs.ApplyProgress | src-tauri/src/commands/audio_detection.rs:140-163 | a progress message changes only the job with the id, and an unknown id changes nothing |
| DetectionJobs.FinishJob | src-tauri/src/commands/audio_detection.rs:168-222 | the list is read again and an unreadable one is the error with nothing written; a successful worker completes the job at full progress with its result; a failed one marks it failed with the error, which is also the reply; a vanished job is an error and nothing is written |
| DetectionJobs.Cancel | src-tauri/src/commands/audio_detection.rs:227-260 | a job is cancelled exactly when the store is readable and the first job with the id is pending or processing; a missing store, an unreadable one (its read error), an unknown id and any other status ("Cannot cancel job with status" and its name) are errors |
| DetectionJobs.Delete | src-tauri/src/commands/audio_detection.rs:264-287 | deletion succeeds exactly when the store exists, is readable and holds the job, and removes the first job with the id; an unreadable store is its read error |
| DetectionJobs.DeleteRemovesOne | src-tauri/src/commands/audio_detection.rs:264-287 | deletion removes one job, and with unique ids none with that id remains |
| DetectionJobs.GetJob | src-tauri/src/commands/audio_detection.rs:304-316 | a job is returned exactly when the store exists, is readable and holds one with the id, and it is that stored job; an unreadable store is its read error |
| DetectionJobs.TerminalStatusesStay | src-tauri/src/commands/audio_detection.rs:97-107 | a cancelled, completed or failed job can be neither started nor cancelled again, and a refused start writes nothing |
| DetectionJobs.FinishIgnoresCancel | src-tauri/src/commands/audio_detection.rs:168-222 | finishing does not check the status, so a job cancelled while its worker ran ends up completed or failed |
| DetectionJobs.SaveSession | src-tauri/src/commands/audio_detection.rs:396-412 | saving fails exactly when the sessions file exists but cannot be read; otherwise the saved session is stored, ids stay unique, the count grows only for a new id, and every stored session with another id keeps its place unchanged |
| DetectionJobs.DeleteSession | src-tauri/src/commands/audio_detection.rs:426-434 | deleting sessions needs an existing, readable file (an unreadable one is its read error), leaves no session with the id and keeps every other one |
| DetectionJobs.TrainingSelection | src-tauri/src/commands/audio_detection.rs:438-470 | training needs an existing, readable sessions file (an unreadable one is its read error), at least one selected stored session, and two samples or a bulk positive file; every session returned is a stored one whose id was selected, and every stored session whose id was selected is returned |
| DetectionJobs.TrainingSelectionAccepts | src-tauri/src/commands/audio_detection.rs:438-470 | one selected stored session holding two samples is enough to pass the guards |
| DetectorInference.MsToSamples | python_workers/audio_event_detector.py:281-283 | a duration in milliseconds is sixteen samples per millisecond at the 16 kHz rate, with no rounding loss for whole milliseconds |
| DetectorInference.PyRangeShape | python_workers/audio_event_detector.py:300 | the window-start range is the arithmetic progression from the start by the step, stopping below the end, with the count Python's range gives |
| DetectorInference.WindowStartsShape | python_workers/audio_event_detector.py:300 | window starts are 0, H, 2H, ..., every window lies inside the audio, and there are (L - W) div H + 1 of them when the audio holds one window and none otherwise |
| DetectorInference.TotalWindows | python_workers/audio_event_detector.py:297 | the progress denominator is at least one and at least the number of windows, and equals it when the audio holds a window |
| DetectorInference.BatchSize | python_workers/audio_event_detector.py:291-292 | batches are never empty |
| DetectorInference.UpdateFrequency | python_workers/audio_event_detector.py:339 | the reporting period is never zero |
| DetectorInference.BatchesPartition | python_workers/audio_event_detector.py:302-303 | the batches are consecutive non-empty slices of at most the batch size, all full except the last, and concatenated they give back every window start |
| DetectorInference.InferencePercent | python_workers/audio_event_detector.py:341 | an inference percentage lies between 20 and 75 and is 75 once every window is done |
| DetectorInference.InferencePercentMonotone | python_workers/audio_event_detector.py:341 | more finished windows never give a smaller percentage |
| DetectorInference.ReportsAppend | python_workers/audio_event_detector.py:337-342 | a report for a larger count keeps the report list increasing and within bounds |
| DetectorInference.PredictBatch | python_workers/audio_event_detector.py:327-334 | every window start of a batch yields, in order, one prediction at its time in seconds carrying the classifier's probability for that window |
| DetectorInference.InferBatches | python_workers/audio_event_detector.py:302-344 | the predictions follow the window starts one for one; progress reports have strictly increasing counts and non-decreasing percentages in 20..75, and the last report counts every window |
| DetectorInference.RunInference | python_workers/audio_event_detector.py:262-344 | a zero hop is the only failure; otherwise there is one prediction per window start, in order, at the start's time in seconds, and the reports have strictly increasing counts, non-decreasing percentages in 20..75 over the fixed denominator, ending at 75 when any window exists |
| DetectorProcess.ValidateInput | python_workers/audio_event_detector.py:59-75 | a request passes exactly when both fields are present and both files exist, and the first failing check names the missing field or file |
| DetectorProcess.ChooseConfigIsFromDict | python_workers/audio_event_detector.py:90-92 | falling back to the default for an empty or missing configuration is the same as reading an empty object, so the truthiness test never changes the configuration |
| DetectorProcess.Process | python_workers/audio_event_detector.py:77-190 | a zero hop is the only failure; otherwise the result is the detected segments with the model version, and progress runs from 0 to 100 without ever going back |
| DetectorProcess.MilestonesMonotone | python_workers/audio_event_detector.py:94-180 | inference reports within 20..75 in order make the whole progress sequence 0, 10, 20, reports, 75, 100 non-decreasing |
| DetectorProcess.ReportedDurationBound | python_workers/audio_event_detector.py:175-190 | the reported detected duration is, up to its rounding, at least the number of reported segments times the minimum duration |
| DetectorSegments.Positives | python_workers/audio_event_detector.py:373 | the positive windows are exactly the predictions at or above the threshold |
| DetectorSegments.PositivesAscending | python_workers/audio_event_detector.py:373 | thresholding keeps the order of the windows |
| DetectorSegments.RunsConcat | python_workers/audio_event_detector.py:378-400 | the runs partition the positive windows: concatenated they give the windows back, nothing lost or reordered |
| DetectorSegments.RunsChained | python_workers/audio_event_detector.py:386-390 | inside a run every window starts no later than the previous window's end plus the merge gap |
| DetectorSegments.RunsBreak | python_workers/audio_event_detector.py:391-398 | the first window of each run starts later than the previous run's last window's end plus the gap |
| DetectorSegments.RunsSnoc | python_workers/audio_event_detector.py:386-398 | one more window either extends the last run or opens a new one |
| DetectorSegments.BuildSegments | python_workers/audio_event_detector.py:378-400 | the single-pass builder produces exactly one segment per run of joined windows, with the run's start, last end and probabilities |
| DetectorSegments.BuildStep | python_workers/audio_event_detector.py:386-398 | one loop iteration keeps the closed and open segments equal to the segments of the windows seen so far |
| DetectorSegments.Finalize | python_workers/audio_event_detector.py:402-414 | only segments at least the minimum duration are kept, labelled as the target |
| DetectorSegments.PostprocessPredictions | python_workers/audio_event_detector.py:346-414 | post-processing is thresholding, the run builder and the duration filter, and no positive window gives no segment |
| DetectorSegments.NoPositivesNoSegments | python_workers/audio_event_detector.py:375-376 | when no window reaches the threshold nothing is detected |
| DetectorSegments.RawConfidencesPartition | python_workers/audio_event_detector.py:383-397 | the probabilities collected by the segments, in order, are those of the positive windows |
| DetectorSegments.RawSeparated | python_workers/audio_event_detector.py:388-398 | consecutive segments are separated by more than the merge gap |
| DetectorSegments.RawAtLeastWindow | python_workers/audio_event_detector.py:380-397 | for ascending starts every segment lasts at least one window |
| DetectorSegments.RawOrdered | python_workers/audio_event_detector.py:378-400 | for ascending starts and non-negative window and gap, every later segment starts more than the gap after any earlier one ends |
| DetectorSegments.RawConfidenceBounds | python_workers/audio_event_detector.py:383-397 | bounds on the windows' probabilities bound every collected confidence |
| DetectorSegments.DetectProperties | python_workers/audio_event_detector.py:346-414 | every output segment is at least the minimum duration, has a mean confidence between the threshold and the largest probability, and carries the target label; there are no more segments than positive windows |
| DetectorSegments.DetectedDuration | python_workers/audio_event_detector.py:176-178 | the segment lengths added up; no contract of its own, see DetectorSegments.DetectedDurationLowerBound |
| DetectorSegments.DetectedDurationLowerBound | python_workers/audio_event_detector.py:176-178 | the detected duration is at least the number of segments times the minimum duration |
| Downloads.NewDownload | src-tauri/src/models/download.rs:31-46 | a new download is pending at zero progress with nothing yet known about it |
| Downloads.ListDownloads | src-tauri/src/commands/downloads.rs:219-227 | a missing queue file lists nothing and an unreadable one is an error |
| Downloads.AddDownload | src-tauri/src/commands/downloads.rs:231-256 | adding puts one new pending download at the end of the queue and keeps the rest |
| Downloads.ActiveCount | src-tauri/src/commands/downloads.rs:97-111 | the running count is zero exactly when no download is in progress |
| Downloads.ActiveCountUpdate | src-tauri/src/commands/downloads.rs:97-111 | replacing one entry changes the running count by the difference of the two entries |
| Downloads.StartDownload | src-tauri/src/commands/downloads.rs:260-299 | a start is refused at the concurrency limit, for an unknown id, or when the first entry with the id is not pending; otherwise exactly that entry becomes downloading |
| Downloads.StartRespectsLimit | src-tauri/src/commands/downloads.rs:267-295 | a start adds exactly one running download and never takes the count past the limit |
| Downloads.Outcome | src-tauri/src/commands/downloads.rs:371-413 | the worker's success completes the entry at 100% and its failure marks it failed with the error, the identity fields staying as they were |
| Downloads.FinishDownload | src-tauri/src/commands/downloads.rs:364-431 | the queue is read again and the entry must still exist; the first entry with the id records the outcome and the reply is the file path or the worker's error |
| Downloads.StartThenFinish | src-tauri/src/commands/downloads.rs:260-431 | a download started and then finished is no longer running, so the running count is back to what it was |
| Downloads.CancelDownload | src-tauri/src/commands/downloads.rs:460-496 | only the first entry with the id is considered; it is cancelled when pending or downloading, and any other status or an unknown id is refused |
| Downloads.CancelIsFinal | src-tauri/src/commands/downloads.rs:460-496 | a cancelled download can be neither cancelled again nor started |
| Downloads.CancelledRefused | src-tauri/src/commands/downloads.rs:260-290 | when the first entry with the id is cancelled, cancelling it again is refused with its status and starting it is refused |
| Downloads.FileToRemove | src-tauri/src/commands/downloads.rs:516-525 | a file is removed only when asked for and the entry's file exists |
| Downloads.DeleteDownload | src-tauri/src/commands/downloads.rs:500-536 | the first entry with the id is removed after its file when that was asked for, and a failed removal of the file changes nothing |
| Downloads.AddThenDelete | src-tauri/src/commands/downloads.rs:231-256 | deleting a freshly added download gives the queue back unchanged |
| Downloads.FirstDigit | src-tauri/src/commands/downloads.rs:439 | the position found is the first decimal digit of the text, and there is none exactly when the text holds no digit |
| Downloads.ParseStageInfo | src-tauri/src/commands/downloads.rs:434-456 | the speed and the ETA are parsed independently of each other, each as Downloads.ParseSpeed and Downloads.ParseEta state |
| Downloads.ParseSpeed | src-tauri/src/commands/downloads.rs:438-446 | a speed is found exactly when the text from its first digit mentions a megabyte or kilobyte rate |
| Downloads.SpeedShape | src-tauri/src/commands/downloads.rs:438-446 | a parsed speed starts at the first digit and ends at the first "/s" after it |
| Downloads.ParseEta | src-tauri/src/commands/downloads.rs:448-453 | an ETA is found exactly when the text contains the ETA marker, and it is the trimmed text after the first one |
| Downloads.SpeedExample | src-tauri/src/commands/downloads.rs:434-456 | the worker's text "Downloading... 1.5 MB/s ETA: 30s" gives the speed "1.5 MB/s" |
| Downloads.EtaExample | src-tauri/src/commands/downloads.rs:434-456 | the same text gives the ETA "30s" |
| Downloads.NoSpeedExample | src-tauri/src/commands/downloads.rs:438-446 | without a rate the digits of an ETA do not make a speed |
| Downloads.SpecialKind | src-tauri/src/commands/downloads.rs:33-43 | the special folder names are recognised up to case, and only those |
| Downloads.ResolveSpecialFolder | src-tauri/src/commands/downloads.rs:33-43 | a recognised name stands for the user's folder of that kind, and any other name for nothing |
| Downloads.ResolveIgnoresCase | src-tauri/src/commands/downloads.rs:34 | resolving ignores the case of the name |
| Downloads.DownloadDirectory | src-tauri/src/commands/downloads.rs:46-84 | a missing or blank setting gives the default folder, and a special folder name gives that folder |
| Downloads.ValidateDownloadPath | src-tauri/src/commands/downloads.rs:130-215 | a blank path is valid and means the default folder; a special name is a special folder; only an absolute path that is a file, or that is missing along with its parent, is invalid; a relative path is joined to the default folder |
| Downloads.DirectoryMatchesValidation | src-tauri/src/commands/downloads.rs:46-215 | downloads go to the directory validation reports for the same setting |
| FeatureExtraction.FloorDiv | python_workers/ml_training/feature_extraction.py:92 | Python's floor division: the quotient rounds toward minus infinity for either sign of the divisor |
| FeatureExtraction.ExpectedShape | python_workers/ml_training/feature_extraction.py:75-93 | the expected shape has the mel bands and enough frames for the window at the hop length, one more than the whole hops it holds; a zero hop is a division error |
| FeatureExtraction.DefaultShape | python_workers/ml_training/feature_extraction.py:75-93 | with the default one-second window the model input is 128 by 32 |
| FeatureExtraction.TimeMasking | python_workers/ml_training/feature_extraction.py:96-120 | time masking keeps the shape and zeroes exactly the columns some mask covers, leaving every other cell |
| FeatureExtraction.FrequencyMasking | python_workers/ml_training/feature_extraction.py:123-147 | frequency masking keeps the shape and zeroes exactly the rows some mask covers, leaving every other cell |
| FeatureExtraction.LastFrameNeverMasked | python_workers/ml_training/feature_extraction.py:116-117 | a mask narrower than the spectrogram never covers the last frame, because its start is drawn below frames minus width |
| FeatureExtraction.Gain | python_workers/ml_training/feature_extraction.py:150-165 | gain shifts every cell by the same amount and keeps the shape |
| FeatureExtraction.Augment | python_workers/ml_training/feature_extraction.py:168-203 | augmentation keeps the shape |
| FeatureExtraction.AugmentChecked | python_workers/ml_training/feature_extraction.py:168-203 | augmenting fails exactly when an enabled masking step has a maximum width below 1, since drawing its width from an empty range raises (lines 116 and 143); otherwise it is the augmentation, with drawable masks, and keeps the shape |
| FeatureExtraction.AugmentCells | python_workers/ml_training/feature_extraction.py:192-203 | because gain comes last, a masked cell ends at the gain value rather than zero, and every other cell is shifted by the gain |
| FeatureExtraction.Mixup | python_workers/ml_training/feature_extraction.py:226-235 | the mixed spectrogram lies, cell by cell, the coefficient's fraction of the way from the second spectrogram to the first |
| FeatureExtraction.MixupLabelBounds | python_workers/ml_training/feature_extraction.py:227-233 | with a coefficient in [0, 1] two binary labels mix to a label in [0, 1], and equal labels stay as they are |
| FriendsCommands.GetLocalUser | src-tauri/src/commands/friends.rs:134-141 | a missing profile reads as the default profile, and an unreadable one is an error |
| FriendsCommands.UserOrDefault | src-tauri/src/commands/friends.rs:37-44 | an unreadable profile also counts as the default one where the commands ignore the error |
| FriendsCommands.Read | src-tauri/src/commands/friends.rs:265-272 | a missing list store reads as empty, and an unreadable one is an error |
| FriendsCommands.ServerUrl | src-tauri/src/commands/friends.rs:37-44 | the server is the profile's address, or the default server when none is set |
| FriendsCommands.SetFriendsServerUrl | src-tauri/src/commands/friends.rs:253-259 | setting the server address changes nothing else in the profile |
| FriendsCommands.ClearedUrlUsesDefault | src-tauri/src/commands/friends.rs:37-44 | clearing the server address falls back to the default server |
| FriendsCommands.Utf8Width | src-tauri/src/commands/friends.rs:210 | a character takes one to four bytes in UTF-8, and one exactly when it is ASCII |
| FriendsCommands.AsciiByteLength | src-tauri/src/commands/friends.rs:210 | ASCII text has as many bytes as characters |
| FriendsCommands.CheckFriendCode | src-tauri/src/commands/friends.rs:152-162 | a code is accepted exactly when its trimmed form is non-empty and at most 32 bytes, and the trimmed form is what is kept |
| FriendsCommands.CheckFriendCodeIdempotent | src-tauri/src/commands/friends.rs:152-162 | an accepted code is accepted again unchanged |
| FriendsCommands.SetFriendCode | src-tauri/src/commands/friends.rs:152-205 | a valid code is saved with an id, keeping the name, server and sync mark; a registration the server accepts supplies the id and token, and otherwise a fresh local id is used |
| FriendsCommands.SetUsername | src-tauri/src/commands/friends.rs:209-249 | a name is refused exactly when it is empty or over 32 bytes; otherwise it is saved, an existing id kept or a fresh one given, and nothing else changes |
| FriendsCommands.UsernameLimitInBytes | src-tauri/src/commands/friends.rs:209-212 | the limit counts bytes although its message speaks of characters: eleven three-byte characters are refused, and a name of blanks is accepted |
| FriendsCommands.GenerateCode | src-tauri/src/commands/friends.rs:116-121 | a generated code is "ATLAS-" followed by six characters of the upper-case letter and digit alphabet |
| FriendsCommands.GeneratedCodeValid | src-tauri/src/commands/friends.rs:116-162 | a generated code passes the friend-code validation unchanged |
| FriendsCommands.FirstPartner | src-tauri/src/commands/friends.rs:283-288 | the partner is a partner entry with no partner entry before it, and there is none exactly when no entry is a partner |
| FriendsCommands.GetPartner | src-tauri/src/commands/friends.rs:283-288 | the partner lookup fails only when the list cannot be read |
| FriendsCommands.PartnerCountZero | src-tauri/src/commands/friends.rs:283-288 | no partner is found exactly when none is listed |
| FriendsCommands.CheckCanAdd | src-tauri/src/commands/friends.rs:308-330 | adding needs a profile with an id, and adding a partner also needs a readable list holding no partner |
| FriendsCommands.NewPresence | src-tauri/src/models/friends.rs:162-177 | a new presence is offline, seen and updated now, with nothing else known |
| FriendsCommands.NewFriend | src-tauri/src/commands/friends.rs:407-458 | the entry added links the local user to the friend with the relationship, no nickname and a fresh offline presence |
| FriendsCommands.AddFriendLocally | src-tauri/src/commands/friends.rs:407-458 | a friend added locally is appended to the list, an unreadable list counting as empty, exactly when the add checks pass |
| FriendsCommands.ValidateFriendCode | src-tauri/src/commands/friends.rs:292-304 | a not-found answer means an unknown code rather than an error, and a failed call is an error |
| FriendsCommands.AddFriendByCode | src-tauri/src/commands/friends.rs:308-403 | the code must be known to the server; the added entry names the server's user, and a partner is linked on the server only when a token is held and the link succeeds |
| FriendsCommands.AddKeepsOnePartner | src-tauri/src/commands/friends.rs:308-458 | adding keeps at most one partner in the list, and a partner just added is the one the partner lookup finds |
| FriendsCommands.UnreadableListReplaced | src-tauri/src/commands/friends.rs:440-452 | a friend added while the list cannot be read replaces the whole list |
| FriendsCommands.RemoveFriend | src-tauri/src/commands/friends.rs:462-468 | every entry with the id is dropped and every other entry kept, in order |
| FriendsCommands.RemoveFriendIdempotent | src-tauri/src/commands/friends.rs:462-468 | removing a friend twice is removing it once |
| FriendsCommands.UpdateFriendNickname | src-tauri/src/commands/friends.rs:472-482 | the first entry with the id gets the nickname and nothing else changes; an unknown id is an error |
| FriendsCommands.LocalId | src-tauri/src/commands/friends.rs:488-492 | the commands that need the local user fail exactly when the profile has no id |
| FriendsCommands.GetLocalPresence | src-tauri/src/commands/friends.rs:488-492 | the local presence is a fresh offline presence for the local user |
| FriendsCommands.UpdatePresenceOf | src-tauri/src/commands/friends.rs:496-548 | the announced presence carries the given status, offline when absent, and the given game and mood |
| FriendsCommands.GetPartnerPresence | src-tauri/src/commands/friends.rs:563-569 | the partner's cached presence is returned, and nothing when there is no partner |
| FriendsCommands.Couple | src-tauri/src/commands/friends.rs:588-600 | memories, events and messages need both a local user and a partner, and are filed under the two ids |
| FriendsCommands.CreateMemoryOf | src-tauri/src/commands/friends.rs:588-610 | a new memory is filed under the couple with the request's fields and appended to the store |
| FriendsCommands.GetCountdowns | src-tauri/src/commands/friends.rs:639-645 | the countdowns are exactly the stored countdown memories |
| FriendsCommands.CountdownListed | src-tauri/src/commands/friends.rs:628-645 | a countdown created is listed by the countdown query afterwards |
| FriendsCommands.DeleteMemoryOf | src-tauri/src/commands/friends.rs:614-624 | every memory with the id is dropped and every other one kept |
| FriendsCommands.CreateCalendarEventOf | src-tauri/src/commands/friends.rs:831-859 | a new event takes every field from the request, an absent reminder included, and is appended |
| FriendsCommands.UpdateCalendarEventOf | src-tauri/src/commands/friends.rs:863-874 | the first event with the id is replaced and every other kept; an unknown id is an error |
| FriendsCommands.DeleteCalendarEventOf | src-tauri/src/commands/friends.rs:878-887 | every event with the id is dropped and every other one kept |
| FriendsCommands.UpcomingEvents | src-tauri/src/commands/friends.rs:891-903 | fails exactly when reading the calendar fails; otherwise every stored event from now to a week ahead, ends included, and only stored events in that window |
| FriendsCommands.UpcomingIff | src-tauri/src/commands/friends.rs:891-903 | an event is upcoming exactly when it is stored and falls from now to a week ahead, both ends included |
| FriendsCommands.AddWishlistItem | src-tauri/src/commands/friends.rs:942-969 | a wishlist item is appended under the local user with the given fields |
| FriendsCommands.RemoveWishlistItem | src-tauri/src/commands/friends.rs:973-982 | every item with the id is dropped and every other one kept |
| FriendsCommands.PageIsWindow | src-tauri/src/commands/friends.rs:651-665 | despite the 32-bit wrap-arounds, a page is the window from the offset of the given length, cut at the end of the list |
| FriendsCommands.GetMessages | src-tauri/src/commands/friends.rs:651-665 | a page has at most the requested number of messages and is that window of the cache |
| FriendsCommands.CachedMessages | src-tauri/src/commands/friends.rs:678-679 | the cache as the send and mark commands see it is its first thousand messages |
| FriendsCommands.SendMessageOf | src-tauri/src/commands/friends.rs:669-723 | the sent message goes from the local user to the partner and is appended to the first thousand cached messages; it is queued for later when there is no token or the server does not take it |
| FriendsCommands.SendDropsPreviousSend | src-tauri/src/commands/friends.rs:669-723 | once the cache holds a thousand messages, a second send leaves the first sent message out of the cache |
| FriendsCommands.Newest | src-tauri/src/commands/friends.rs:669-723 | the messages kept are the newest ones, at most a thousand |
| FriendsCommands.SendMessageNewest | src-tauri/src/commands/friends.rs:669-723 | the sent message ends the cache, which never exceeds a thousand messages |
| FriendsCommands.NewestKeepsBothSends | src-tauri/src/commands/friends.rs:669-723 | keeping the newest messages, two sends leave both messages in the cache in order |
| FriendsCommands.MarkRead | src-tauri/src/commands/friends.rs:727-742 | listed unread messages get a read time, already read and unlisted messages stay as they were, and nothing else changes |
| FriendsCommands.MarkMessagesRead | src-tauri/src/commands/friends.rs:727-742 | marking writes back only the first thousand cached messages |
| FriendsCommands.MarkReadIdempotent | src-tauri/src/commands/friends.rs:727-742 | marking again changes nothing, since a read time is kept once set |
| FriendsCommands.UnreadCount | src-tauri/src/commands/friends.rs:746-756 | the unread count is that of the messages to the local user among the first thousand cached |
| FriendsCommands.MarkReadLowersUnread | src-tauri/src/commands/friends.rs:727-756 | marking never raises the unread count, and marking every message clears it |
| FriendsCommands.MergeNew | src-tauri/src/commands/friends.rs:1116-1123 | merging keeps the cache as a prefix, appends only incoming messages, leaves every incoming id present, and keeps ids unique |
| FriendsCommands.MergeNewPresent | src-tauri/src/commands/friends.rs:1119-1122 | incoming records already present add nothing |
| FriendsCommands.MergeNewIdempotent | src-tauri/src/commands/friends.rs:1164-1171 | receiving the same records twice stores them once |
| FriendsCommands.UpsertAll | src-tauri/src/commands/friends.rs:1178-1187 | every incoming event ends up stored, ids stay unique, the last incoming event is present, and events no incoming event names are untouched |
| FriendsCommands.StatusOf | src-tauri/src/commands/friends.rs:1146-1151 | the three known status names map to their statuses and any other text means offline |
| FriendsCommands.StatusRoundTrip | src-tauri/src/commands/friends.rs:1146-1151 | reading a status back from its name gives the same status |
| FriendsCommands.UpdatePartnerPresence | src-tauri/src/commands/friends.rs:1137-1162 | the first friend with the reporting user's id gets the reported presence; without a match nothing is written |
| FriendsCommands.SyncNow | src-tauri/src/commands/friends.rs:1089-1215 | syncing needs a token; a failed poll reports failure with the old sync mark, and a successful one records its timestamp and merges the messages, presence, memories and events it brings |
| FriendsCommands.QueueOfflineAction | src-tauri/src/commands/friends.rs:98-113 | an offline action joins the end of the queue |
| FriendsCommands.ProcessOfflineQueue | src-tauri/src/commands/friends.rs:1218-1284 | the queue is taken; without a readable profile holding a token it is dropped, otherwise exactly the supported actions that fail again are kept, in order, and saved |
| FriendsCommands.ProcessAgainStable | src-tauri/src/commands/friends.rs:1218-1284 | processing the re-queued actions again with the same failures leaves them as they are |
| FriendsCommands.ConnectionStatusName | src-tauri/src/commands/friends.rs:1002-1011 | the status names; no contract of its own, see FriendsCommands.ConnectionNames |
| FriendsCommands.ConnectionNames | src-tauri/src/commands/friends.rs:995-1011 | the connected check agrees with the status name, and different states have different names |
| FriendsCommands.ConnectToServer | src-tauri/src/commands/friends.rs:1015-1073 | connecting needs a token; a failure before the probe leaves the state and queue alone, a failed probe sets the error state, and a successful one connects, records the sync mark and runs the offline queue |
| GachaModels.GameKeysDistinct | src-tauri/src/models/gacha.rs:16-57 | different games have different display names, short names, UIGF keys and numbers |
| GachaModels.Rarity | src-tauri/src/models/gacha.rs:115-117 | a rarity is a byte value |
| GachaModels.RarityOfNumber | src-tauri/src/models/gacha.rs:115-117 | a rank written as a number up to 255 is that rarity |
| GachaModels.RarityDefaults | src-tauri/src/models/gacha.rs:115-117 | a rank that does not parse as a byte, such as an empty, spelled-out, negative, too large or padded one, counts as three stars |
| GachaModels.NewRecordsCount | src-tauri/src/models/gacha.rs:149-158 | a record is added exactly when it is incoming with an id not already stored, as often as it comes in, repeats within the batch included |
| GachaModels.Merge | src-tauri/src/models/gacha.rs:148-168 | merging keeps the game, account and region, sets the sync time, adds exactly the new records to the stored ones, counts them, and leaves the history sorted by id, newest first |
| GachaModels.MergeAgainAddsNothing | src-tauri/src/models/gacha.rs:148-168 | merging the same batch again adds nothing and keeps the same records |
| GachaModels.LatestId | src-tauri/src/models/gacha.rs:171-173 | the latest id exists exactly when the history has records, and is one of their ids |
| GachaModels.LatestIdIsMax | src-tauri/src/models/gacha.rs:160-173 | after a merge the latest id is the largest id of the history |
| GachaModels.CountsDisjoint | src-tauri/src/models/gacha.rs:187-190 | a record has one rarity, so the three counts together are at most the total |
| GachaModels.PityAccounting | src-tauri/src/models/gacha.rs:205-222 | every pull is counted exactly once, in the pity of the five-star that ended its streak or in the current pity; each recorded pity is at least one, there is one per five-star, and the current pity is the pulls since the newest five-star |
| GachaModels.AveragePity | src-tauri/src/models/gacha.rs:226-228 | the average pity is the mean of the recorded pities, and 0 when there are none |
| GachaModels.AveragePityAtLeastOne | src-tauri/src/models/gacha.rs:226-228 | since every pity is at least one, so is their mean |
| GachaModels.BannerStatsOf | src-tauri/src/models/gacha.rs:201-231 | a banner's total is its record count, its pities and current pity add up to that total, and it has one pity per five-star |
| GachaModels.BannerRecords | src-tauri/src/models/gacha.rs:180-185 | a banner's records all have its type and come from the history |
| GachaModels.CalculateStats | src-tauri/src/models/gacha.rs:176-199 | the statistics count every record, have one banner entry exactly per banner type present, each with at least one pull, and rarity counts that fit the total |
| GachaModels.BannerTotalsSum | src-tauri/src/models/gacha.rs:176-199 | every record belongs to exactly one banner, so the banner totals add up to the total pulls |
| GachaModels.BannerCountsSum | src-tauri/src/models/gacha.rs:180-185 | counting each record under the banner of its type counts every record once |
| GachaModels.RatesArePercentages | src-tauri/src/models/gacha.rs:246-258 | the five-star and four-star rates are percentages, and 0 without pulls |
| GachaCommands.CacheUsableIff | src-tauri/src/commands/gacha.rs:89-106 | a cache from the past is used exactly when it has the current version and is under a day old; a future timestamp wraps to a huge age, so that cache is refreshed unless it lies within a day of the wrap-around |
| GachaCommands.SupportedGames | src-tauri/src/commands/gacha.rs:85-127 | a missing cache or one of another version is replaced by a fresh detection |
| GachaCommands.GachaGameOf | src-tauri/src/commands/gacha.rs:161-166 | exactly the three launcher names of games with gacha history are recognised, Star Rail under its launcher name |
| GachaCommands.Candidates | src-tauri/src/commands/gacha.rs:160-180 | at most one candidate per installation is found |
| GachaCommands.DetectGachaGames | src-tauri/src/commands/gacha.rs:155-186 | sorts the candidates by game and keeps the first of each; no contract of its own, see GachaCommands.DetectOrdered, GachaCommands.DetectKeepsFirst and GachaCommands.DetectKeepsEveryGame |
| GachaCommands.DetectOrdered | src-tauri/src/commands/gacha.rs:182-186 | detection lists games in strictly increasing declaration order, so at most once each |
| GachaCommands.DetectKeepsFirst | src-tauri/src/commands/gacha.rs:182-184 | the entry kept for a game is its first installation in scan order |
| GachaCommands.DetectKeepsEveryGame | src-tauri/src/commands/gacha.rs:182-184 | every game the scan finds is in the result |
| GachaCommands.FirstCached | src-tauri/src/commands/gacha.rs:245-250 | the directory taken is the first holding a cache file, and there is none exactly when no directory holds one |
| GachaCommands.FindCachePath | src-tauri/src/commands/gacha.rs:205-254 | the direct cache path wins; without it and without the web-cache directory there is nothing; a version directory found holds a cache |
| GachaCommands.FindCachePathNewest | src-tauri/src/commands/gacha.rs:226-250 | without a direct cache a version directory is found exactly when one holds a cache, and it has the highest version among those that do |
| GachaCommands.VersionDescOrder | src-tauri/src/commands/gacha.rs:226-240 | the newest-version-first comparison is total and transitive, so the sort is well defined |
| GachaCommands.AccountOf | src-tauri/src/commands/gacha.rs:47-53 | an account carries its history's game, uid and record count |
| GachaCommands.GetGachaAccounts | src-tauri/src/commands/gacha.rs:32-62 | there is one account per readable history, most recently synced first |
| GachaCommands.GetGachaHistory | src-tauri/src/commands/gacha.rs:66-74 | a history is returned exactly when its file exists and reads, and a missing one is an error naming the game and uid |
| GachaCommands.GetGachaStats | src-tauri/src/commands/gacha.rs:78-81 | statistics exist exactly when the history does, and count all its records |
| GachaCommands.LoadOrNew | src-tauri/src/commands/gacha.rs:437-442 | a missing or unreadable history file starts a new history |
| GachaCommands.RefreshGachaHistory | src-tauri/src/commands/gacha.rs:258-358 | the fetched records are merged into the stored history, the region changes only when the worker reports one, the sync time is set and the history is written back |
| GachaCommands.DeleteGachaHistory | src-tauri/src/commands/gacha.rs:362-371 | deleting removes that history and no other |
| GachaCommands.UigfRoundTrip | src-tauri/src/models/gacha.rs:344-355 | exporting a record and importing it under its own uid gives the record back |
| GachaCommands.Push | src-tauri/src/commands/gacha.rs:402-412 | adding an account's entry extends only its game's list, creating it when absent |
| GachaCommands.ExportLoop | src-tauri/src/commands/gacha.rs:393-413 | export fails exactly when some account has no history, and keeps the document header |
| GachaCommands.ExportGachaUigf | src-tauri/src/commands/gacha.rs:375-416 | export fails exactly when some account has no history, and the header names the app, its version, the time and UIGF v4.0 |
| GachaCommands.ExportLists | src-tauri/src/commands/gacha.rs:393-413 | each game's list holds, in account order, one entry per account of that game with its uid and records |
| GachaCommands.EntriesOfEmpty | src-tauri/src/commands/gacha.rs:388-412 | a game without accounts is left out of the document |
| GachaCommands.ImportEntry | src-tauri/src/commands/gacha.rs:433-472 | importing an entry writes its history under its game and uid and nothing else is added |
| GachaCommands.ImportedAccount | src-tauri/src/commands/gacha.rs:466-472 | the reported account has the imported game and the merged history's uid and size |
| GachaCommands.ImportGame | src-tauri/src/commands/gacha.rs:429-477 | one account is reported per entry, all of the game imported |
| GachaCommands.ImportGachaUigf | src-tauri/src/commands/gacha.rs:420-486 | one account is reported per entry, the Genshin entries first, then Star Rail, then Zenless Zone Zero |
| GachaCommands.ExportImportRoundTrip | src-tauri/src/commands/gacha.rs:375-486 | exporting one account and importing it where it is absent restores the same records under the same uid, sorted newest first |
| GachaCommands.SingleExport | src-tauri/src/commands/gacha.rs:393-413 | the export of one account holds exactly its entry under its game |
| GachaCommands.ImportSingleGame | src-tauri/src/commands/gacha.rs:479-481 | a document whose only entry is under one game imports exactly that entry |
| GameDetector.LoadWhitelist | src-tauri/src/gaming/detector.rs:32-35 | An unreadable whitelist file yields the built-in whitelist of ten enabled games; a readable one is used as stored |
| GameDetector.ProcessKeyDropsExe | src-tauri/src/gaming/detector.rs:79-89 | A trailing ".exe" on a whitelist entry never affects matching |
| GameDetector.DefaultNameExamples | src-tauri/src/models/gaming.rs:183-248 | The built-in Counter-Strike entry matches the process name as listed and in capitals |
| GameDetector.FindGame | src-tauri/src/gaming/detector.rs:79-89 | The game found is the first enabled whitelist entry matching the process, and none is found exactly when no enabled entry matches |
| GameDetector.CurrentGames | src-tauri/src/gaming/detector.rs:58-89 | A process is in the pass's game set exactly when it is running and some enabled entry watches it |
| GameDetector.StartPhase | src-tauri/src/gaming/detector.rs:90-106 | Starting sessions never touches the saved sessions, and with a session already active every start is refused |
| GameDetector.StartPhaseStarts | src-tauri/src/gaming/detector.rs:90-106 | Without an active session, a newly seen game gets a session named after its whitelist entry; with no new game nothing changes |
| GameDetector.StopPhase | src-tauri/src/gaming/detector.rs:110-124 | The active session ends exactly when its process was seen on the previous pass and has stopped; otherwise nothing changes |
| GameDetector.EndEachOnce | src-tauri/src/gaming/detector.rs:110-124 | Ending the stopped processes in any order ends the active session exactly when its process is among them |
| GameDetector.StopOrderIrrelevant | src-tauri/src/gaming/detector.rs:110-124 | The outcome of the stop half does not depend on the iteration order of the stopped set |
| GameDetector.DetectionPass | src-tauri/src/gaming/detector.rs:58-130 | After a pass, the detected set is exactly the running watched processes |
| GameDetector.DetectionPassMissesGame | src-tauri/src/gaming/detector.rs:90-126 | A game started on the pass on which the tracked game exits never gets a session, on that pass or the next |
| GameDetector.DetectionPassEndsFirst | src-tauri/src/gaming/detector.rs:58-130 | With ends handled before starts, the detected set is still exactly the running watched processes |
| GameDetector.EndsFirstTracksNewGame | src-tauri/src/gaming/detector.rs:90-126 | With ends first, a pass that sees a new game always leaves a session active for a running game |
| GameDetector.StartDetection | src-tauri/src/gaming/detector.rs:46-50 | The running flag ends up set and a detection loop starts only when none was running |
| GameDetector.DetectedGame | src-tauri/src/gaming/detector.rs:149-180 | The result is the first running process some enabled entry watches, with that entry's name; none exactly when no running process is watched |
| GamingCommands.AddGame | src-tauri/src/commands/gaming.rs:37-51 | An unreadable whitelist is an error; a process name already listed up to case is refused; otherwise the game is appended and nothing else changes |
| GamingCommands.RemoveGame | src-tauri/src/commands/gaming.rs:55-68 | Removal fails exactly when no entry has the process name up to case; afterwards no entry has it, every other entry is kept and nothing is added |
| GamingCommands.AddThenRemove | src-tauri/src/commands/gaming.rs:37-68 | Adding a game and then removing it by its process name gives back the original whitelist |
| GamingCommands.ToggleGame | src-tauri/src/commands/gaming.rs:72-86 | Toggling fails exactly when no entry has the process name up to case; otherwise only the first such entry changes, and only its enabled flag |
| GamingCommands.ToggleIdempotent | src-tauri/src/commands/gaming.rs:72-86 | Setting the same enabled flag twice is the same as setting it once |
| GamingCommands.GamingSessions | src-tauri/src/commands/gaming.rs:139-142 | The stored session list, or an empty list when it cannot be read |
| GamingCommands.SessionDetails | src-tauri/src/commands/gaming.rs:146-149 | Details exist exactly for sessions whose data was saved, and are that data |
| GamingCommands.DeleteGamingSession | src-tauri/src/commands/gaming.rs:139-167 | Every session with the id and its data are gone, every other session and data file is kept, an unreadable list is written back empty, and the active session is untouched |
| GamingCommands.DeleteIdempotent | src-tauri/src/commands/gaming.rs:153-167 | Deleting a session twice is the same as deleting it once |
| GamingCommands.Thresholds | src-tauri/src/commands/gaming.rs:183-186 | An unreadable thresholds file yields the default thresholds of models/gaming.rs: CPU and GPU high 90, CPU and GPU low 70, RAM high 90, 2048 MB minimum available RAM, VRAM high 90, CPU thermal limit 90, GPU thermal limit 85; a readable one is used as stored |
| GamingSession.CloseLast | src-tauri/src/gaming/session.rs:137-143 | Only the last event changes, and afterwards no event at the end is open; an open last event gets its duration up to the given time |
| GamingSession.Transition | src-tauri/src/gaming/session.rs:134-157 | The same bottleneck type changes nothing; a new type closes the open event, opens one of the new type unless it is balanced, and becomes the current type |
| GamingSession.TransitionConsistent | src-tauri/src/gaming/session.rs:134-157 | The bookkeeping keeps its invariant: only the last event may be open, and it is open exactly when the current type is a bottleneck |
| GamingSession.RecordTick | src-tauri/src/gaming/session.rs:107-158 | No reading changes nothing; the first three readings are only counted; later readings are stored and tracked |
| GamingSession.WarmupDiscards | src-tauri/src/gaming/session.rs:107-132 | A run of readings stores exactly the available readings after the remaining warm-up ones |
| GamingSession.NewRecorderSkipsThree | src-tauri/src/gaming/session.rs:107-132 | A fresh recorder stores every available reading except the first three |
| GamingSession.RecordRunOk | src-tauri/src/gaming/session.rs:107-158 | Any run of readings keeps the recorder's invariant |
| GamingSession.Min | src-tauri/src/gaming/session.rs:443-465 | The minimum is one of the values and at most each of them |
| GamingSession.Max | src-tauri/src/gaming/session.rs:443-465 | The maximum is one of the values and at least each of them |
| GamingSession.P95Index | src-tauri/src/gaming/session.rs:443-465 | The percentile position is a valid index of the sorted values |
| GamingSession.CalculateStats | src-tauri/src/gaming/session.rs:443-465 | No values give all zeros; otherwise the minimum, maximum and percentile come from the values |
| GamingSession.StatsOrdered | src-tauri/src/gaming/session.rs:443-465 | The minimum is at most the mean and the percentile, and both are at most the maximum |
| GamingSession.StatsP95Rank | src-tauri/src/gaming/session.rs:443-465 | The percentile has rank 95 percent: fewer values than its position lie strictly below it and more lie at or below it |
| GamingSession.AscendingSorted | src-tauri/src/gaming/session.rs:443-465 | The sort used for the percentile puts the values in ascending order |
| GamingSession.TopTwoCores | src-tauri/src/gaming/session.rs:414-440 | A first core exists exactly when there is a core, a second exactly when there are two |
| GamingSession.TopCoreFirst | src-tauri/src/gaming/session.rs:414-440 | The first core has the largest usage and the lowest index among the cores with that usage |
| GamingSession.TopCoreSecond | src-tauri/src/gaming/session.rs:414-440 | The second core differs from the first, has the largest usage among the others, and the lowest index among those others with that usage |
| GamingSession.SortedCoresStable | src-tauri/src/gaming/session.rs:414-440 | Cores of equal usage keep their index order in the sort |
| GamingSession.AddEventLookup | src-tauri/src/gaming/session.rs:329-340 | Adding an event adds its duration and one to its type's entry, creating it if missing, and leaves other types alone |
| GamingSession.TallyLookup | src-tauri/src/gaming/session.rs:329-340 | Each type's totals in the tally are the summed duration and the number of that type's events |
| GamingSession.TallyTypesOf | src-tauri/src/gaming/session.rs:329-340 | The tally has an entry for exactly the types that occur among the events |
| GamingSession.TallyDistinct | src-tauri/src/gaming/session.rs:329-340 | No type has two entries in the tally, as in a map |
| GamingSession.CountOfTypePositive | src-tauri/src/gaming/session.rs:329-340 | A type has events exactly when it occurs among the events |
| GamingSession.Percentage | src-tauri/src/gaming/session.rs:341-356 | The share times the session length is the type's time times one hundred; a session of no length gives zero |
| GamingSession.CalculateBreakdown | src-tauri/src/gaming/session.rs:326-356 | Exactly the occurring types, none twice, each with its events' total time, their number and its share of the session |
| GamingSession.TallyTotals | src-tauri/src/gaming/session.rs:329-340 | The tally keeps every event: counts add up to the number of events and the non-balanced times to the non-balanced events' time |
| GamingSession.BottleneckSeconds | src-tauri/src/gaming/session.rs:295-300 | the time of the non-balanced entries added up; no contract of its own, see GamingSession.BreakdownTotals |
| GamingSession.BreakdownTotals | src-tauri/src/gaming/session.rs:295-300 | The breakdown's counts add up to the number of events and its bottleneck time is that of the non-balanced events |
| GamingSession.DominantIndex | src-tauri/src/gaming/session.rs:302-307 | The dominant entry is a longest non-balanced one, the last of equally long ones; there is none exactly when every entry is balanced |
| GamingSession.DominantBottleneck | src-tauri/src/gaming/session.rs:302-307 | Balanced exactly when every entry is balanced; otherwise a type that has an entry |
| GamingSession.Present | src-tauri/src/gaming/session.rs:272-283 | Exactly the present readings are kept, none when all are missing |
| GamingSession.OptionalStats | src-tauri/src/gaming/session.rs:287-292 | Statistics are missing exactly when every reading is missing |
| GamingSession.GenerateSummary | src-tauri/src/gaming/session.rs:255-324 | The summary's duration, event count, breakdown and bottleneck time agree with the snapshots and events; the dominant type is balanced exactly when every event is |
| GamingSession.SummaryUsageBounds | src-tauri/src/gaming/session.rs:270-286 | Every snapshot's CPU and RAM usage lie between the summary's minimum and maximum |
| GamingSession.SummaryGpuPresence | src-tauri/src/gaming/session.rs:272-290 | Each GPU statistic is present exactly when some snapshot has that reading |
| GamingSession.SummaryCpuPresence | src-tauri/src/gaming/session.rs:274-292 | Each CPU temperature and core statistic is present exactly when some snapshot has that reading |
| GamingSession.DominantOfEvents | src-tauri/src/gaming/session.rs:295-307 | The dominant type is balanced exactly when no event is a bottleneck |
| GamingSession.StartSession | src-tauri/src/gaming/session.rs:44-74 | Refused exactly when a session is active; otherwise a new active session with no end and no summary is appended to the list, and an unreadable list is replaced by one holding only the new session |
| GamingSession.Tick | src-tauri/src/gaming/session.rs:112-158 | A recording pass touches only the active session's recorder, and without one does nothing |
| GamingSession.TickRunRecords | src-tauri/src/gaming/session.rs:112-158 | A run of passes records into the active session and changes nothing else |
| GamingSession.FinalEvents | src-tauri/src/gaming/session.rs:218-226 | The saved events are the recorded ones, the last closed at the last snapshot's time when it is open and a snapshot exists |
| GamingSession.EndSession | src-tauri/src/gaming/session.rs:207-253 | Refused exactly when no session is active; otherwise the session is completed with its summary, saved under its id, replaces the first list entry with its id (an unreadable list is written back empty), and none is active |
| GamingSession.EndSessionByProcess | src-tauri/src/gaming/session.rs:183-193 | Ends the session only when the active one belongs to the process, and then exactly as ending it directly |
| GamingSession.GetActiveSession | src-tauri/src/gaming/session.rs:202-205 | The active session exactly when there is one |
| GamingSession.EndClosesEvents | src-tauri/src/gaming/session.rs:207-243 | After a session recorded with a consistent recorder ends, every saved event is closed and is a bottleneck, not balanced |
| GamingSession.SessionLifecycle | src-tauri/src/gaming/session.rs:44-253 | A started, recorded and ended session is completed and listed after the earlier ones, its saved data holds every reading after the first three, and ending again is refused |
| GamingSession.UnreadableListReplaced | src-tauri/src/gaming/session.rs:358-377 | A session started and ended while the list file cannot be read is afterwards the only listed session: the earlier ones are lost |
| Launcher.FindById | src-tauri/src/models/launcher.rs:58-60 | A game is found exactly when one has the id, and it is the first such game |
| Launcher.FindByProcessName | src-tauri/src/models/launcher.rs:67-71 | A game is found exactly when one has the process name up to case, and it is the first such game |
| Launcher.HasGameWithPath | src-tauri/src/models/launcher.rs:73-77 | True exactly when some game has the executable path up to case |
| Launcher.AddGame | src-tauri/src/models/launcher.rs:79-81 | Adding makes the library one game longer |
| Launcher.AddGameKeepsFinds | src-tauri/src/models/launcher.rs:58-81 | After adding, the new path is present, earlier finds by id and path still succeed with the same game, and an absent id now finds the added game |
| Launcher.RemoveGame | src-tauri/src/models/launcher.rs:83-87 | Exactly the games with the id go, and the answer is true exactly when some game had it |
| Launcher.RemoveGameIdempotent | src-tauri/src/models/launcher.rs:83-87 | A second removal changes nothing and reports that nothing was found |
| Launcher.HoyoPlayGamesDistinct | src-tauri/src/models/launcher.rs:99-135 | The four HoYoPlay games each watch their own executable, and no two share one |
| Launcher.MimeType | src-tauri/src/commands/launcher.rs:28-34 | JPEG exactly for "jpg" and "jpeg", GIF for "gif", WebP for "webp", PNG for every other or missing extension, case-sensitively |
| Launcher.IconDataUrl | src-tauri/src/commands/launcher.rs:18-37 | A missing icon and an unreadable one are errors; a readable one always gives a data URL |
| Launcher.DataUrlReadBack | src-tauri/src/commands/launcher.rs:36 | A data URL built from a MIME type without ';' reads back as that type and payload |
| Launcher.IconDataUrlReadBack | src-tauri/src/commands/launcher.rs:18-37 | The data URL of a readable icon reads back as its extension's MIME type and the encoded bytes |
| Launcher.SaveBoth | src-tauri/src/commands/launcher.rs:115-119 | Library then whitelist are written; success exactly when both writes succeed, and a failed library write leaves both files as they were |
| Launcher.ScanForGames | src-tauri/src/commands/launcher.rs:48-68 | Exactly the Steam and HoYoPlay detections whose executable is not yet in the library are offered |
| Launcher.ProcessName | src-tauri/src/commands/launcher.rs:82-86 | The process name is never empty: the executable's file name, without separators and ending the path, or "unknown.exe" |
| Launcher.WatchProcess | src-tauri/src/commands/launcher.rs:104-113 | Afterwards the process is watched; an already watched process leaves the whitelist unchanged, otherwise one enabled entry is appended |
| Launcher.AddBatch | src-tauri/src/commands/launcher.rs:76-113 | Adding a batch only ever extends the library and the whitelist |
| Launcher.AddDetected | src-tauri/src/commands/launcher.rs:76-113 | one step of the batch add; no contract of its own, its properties are the Launcher.AddDetected lemmas below |
| Launcher.AddDetectedProps | src-tauri/src/commands/launcher.rs:76-113 | A detected game ends up in the library; paths and watched names stay unique; when anything changes, the game was appended and its process is watched |
| Launcher.AddDetectedFinds | src-tauri/src/commands/launcher.rs:76-101 | after one detected game the library holds its path and every path it held before |
| Launcher.AddDetectedUnique | src-tauri/src/commands/launcher.rs:76-113 | one detected game keeps the paths unique up to case and the watched process names unique |
| Launcher.AddDetectedWatches | src-tauri/src/commands/launcher.rs:104-113 | one detected game keeps every watched name and, when it is added, watches its process |
| Launcher.AddDetectedAt | src-tauri/src/commands/launcher.rs:88-101 | one detected game leaves every earlier game in its place and, when added, comes last |
| Launcher.AddBatchCovers | src-tauri/src/commands/launcher.rs:76-113 | After a batch every detected path is in the library |
| Launcher.AddBatchUnique | src-tauri/src/commands/launcher.rs:76-113 | Paths unique up to case stay unique, even when a path repeats within the batch, and so do watched process names |
| Launcher.AddBatchWatched | src-tauri/src/commands/launcher.rs:76-113 | Every game the batch adds has its process watched |
| Launcher.AddBatchNewGames | src-tauri/src/commands/launcher.rs:88-101 | Every game the batch adds has no playtime and has never been played |
| Launcher.AddDetectedGames | src-tauri/src/commands/launcher.rs:72-122 | On success the library extends the old one, holds every detected path, and keeps paths unique |
| Launcher.AddManualGame | src-tauri/src/commands/launcher.rs:126-180 | A path already in the library is refused; otherwise exactly one manual game is appended, installed in the executable's folder, with no playtime, and paths stay unique |
| Launcher.RemoveFromLibrary | src-tauri/src/commands/launcher.rs:184-196 | An unreadable library and an unknown id are errors; on success the id is gone and the written library is the one returned |
| Launcher.LaunchGame | src-tauri/src/commands/launcher.rs:200-233 | An unreadable library and an unknown id are errors; success means the spawn succeeded and returns the game's executable path |
| Launcher.LaunchStampsOneGame | src-tauri/src/commands/launcher.rs:207-214 | Launching stamps the first game with the id as played now and changes no other game |
| MlJobs.NewJob | src-tauri/src/models/ml_job.rs:36-50 | A new job keeps its inputs and is pending, with no progress, stage, output, error or completion time |
| MlJobs.ListJobs | src-tauri/src/commands/ml_jobs.rs:15-23 | No job file means no jobs; otherwise the file's list or its read error |
| MlJobs.SubmitJob | src-tauri/src/commands/ml_jobs.rs:26-68 | A missing input file is refused; otherwise exactly one new pending job is appended to the stored list |
| MlJobs.StartJob | src-tauri/src/commands/ml_jobs.rs:71-107 | A missing file or unknown id is refused; on success the first job with the id was pending and is now processing, with its output directory defaulted, and no other job changes |
| MlJobs.StartOnce | src-tauri/src/commands/ml_jobs.rs:87-92 | A started job cannot be started again from the list the start wrote |
| MlJobs.CompletionWritten | src-tauri/src/commands/ml_jobs.rs:126-144 | A progress message of 100 percent is always written |
| MlJobs.WritesSpaced | src-tauri/src/commands/ml_jobs.rs:126-144 | Every written message other than a completion comes at least the debounce interval after the previous write |
| MlJobs.SkipsAreRecent | src-tauri/src/commands/ml_jobs.rs:126-144 | A skipped message is never a completion and comes within the interval of the previous write |
| MlJobs.Debounced | src-tauri/src/commands/ml_jobs.rs:126 | one write decision per progress message, and a first message stamped no earlier than the worker's start is always written |
| MlJobs.ApplyProgress | src-tauri/src/commands/ml_jobs.rs:133-142 | A written message sets the first job with the id to its percent and stage and leaves the list's ids and every other job alone |
| MlJobs.ApplyWrites | src-tauri/src/commands/ml_jobs.rs:120-156 | Progress writes never add, drop or reorder jobs |
| MlJobs.CompletionRecorded | src-tauri/src/commands/ml_jobs.rs:126-144 | When the last message is a completion, the file ends up recording 100 percent for the job, whatever was skipped before |
| MlJobs.OutputFiles | src-tauri/src/commands/ml_jobs.rs:171-181 | Exactly the reply's entries with both a stem and a path become output files |
| MlJobs.Outcome | src-tauri/src/commands/ml_jobs.rs:168-211 | Success completes the job at 100 percent with no stage; failure marks it failed with the worker's message and changes nothing else |
| MlJobs.FinishJob | src-tauri/src/commands/ml_jobs.rs:161-226 | The re-read list must still hold the job; the reply carries the parsed output files on success and the worker's error on failure |
| MlJobs.CancelJob | src-tauri/src/commands/ml_jobs.rs:230-261 | Only a pending or processing job can be cancelled, and then only it changes; a missing file or unknown id is refused |
| MlJobs.CancelIsFinal | src-tauri/src/commands/ml_jobs.rs:230-261 | A cancelled job can be neither cancelled again nor started |
| MlJobs.CancelledRefused | src-tauri/src/commands/ml_jobs.rs:71-92 | when the first job with the id is cancelled, both cancelling and starting it are refused with its status |
| MlJobs.FilesToRemove | src-tauri/src/commands/ml_jobs.rs:319-330 | Only present output files are removed, and none unless removal was asked for |
| MlJobs.DeleteJob | src-tauri/src/commands/ml_jobs.rs:304-344 | Deletion fails exactly when no job has the id; otherwise exactly the first job with the id is removed |
| MlJobs.SubmitThenDelete | src-tauri/src/commands/ml_jobs.rs:26-68 | Deleting a freshly submitted job gives back the original list |
| MlJobs.AvailableModels | src-tauri/src/commands/ml_jobs.rs:264-300 | The three Demucs models, each marked downloaded exactly when the demucs directory and its own directory exist |
| ModelEnhancer.ValidateInput | python_workers/model_enhancer.py:45-51 | The request is accepted exactly when feedback sessions, bulk positives or bulk negatives are present and non-empty |
| ModelEnhancer.Params | python_workers/model_enhancer.py:62-75 | Missing settings default to fine-tuning with 15 epochs at rate 0.0001, or 30 epochs at 0.001 without fine-tuning, and 1 s windows every 0.5 s; given settings are used as given |
| ModelEnhancer.PretrainedPath | python_workers/model_enhancer.py:78-89 | A checkpoint is used exactly when fine-tuning, an original model path is given and `best_model.pt` exists beside it |
| ModelEnhancer.ReviewedSplit | python_workers/model_enhancer.py:102-111 | Every reviewed sample of a session lands in exactly one of the correct and wrong lists |
| ModelEnhancer.ReviewedSplitAll | python_workers/model_enhancer.py:99-111 | Over all sessions, the correct and wrong lists together hold every reviewed sample |
| ModelEnhancer.ReviewedLabels | python_workers/model_enhancer.py:108-111 | A sample marked "correct" is among the positives, any other label among the negatives |
| ModelEnhancer.BulkWindows | python_workers/model_enhancer.py:135-142 | As many windows as whole windows fit in the file |
| ModelEnhancer.WindowFits | python_workers/model_enhancer.py:136 | Window k fits in the file exactly when k is below the window count |
| ModelEnhancer.BulkWindowsInside | python_workers/model_enhancer.py:135-142 | Every bulk window belongs to its file and lies inside it |
| ModelEnhancer.SliceBulk | python_workers/model_enhancer.py:135-142 | The slicing loop produces exactly the bulk windows |
| ModelEnhancer.NonPositiveHopNeverEnds | python_workers/model_enhancer.py:135-142 | with a hop of zero or less and one window that fits, the loop guard still holds after any number of iterations, so the slicing loop as written never ends |
| ModelEnhancer.Assemble | python_workers/model_enhancer.py:175-210 | Training needs at least two samples; positives are the correct, manual and bulk positive samples, negatives the wrong and bulk negative ones |
| ModelEnhancer.Extracted | python_workers/model_enhancer.py:213-223 | No more segments are extracted than requested |
| ModelEnhancer.ExtractionGuard | python_workers/model_enhancer.py:246-252 | Training is refused exactly when no positive segment was extracted; missing negatives do not stop it |
| ModelEnhancer.ExtractionPercent | python_workers/model_enhancer.py:225-227 | Extraction progress stays between 15 and 25 percent |
| ModelEnhancer.TrainingPercent | python_workers/model_enhancer.py:270-276 | Training progress stays between 30 and 95 percent and reaches 95 at the last epoch |
| PlaylistDownloader.SanitizeFilename | python_workers/playlist_uploader/downloader.py:23-32 | a sanitised name is never empty, and an empty name becomes the default name |
| PlaylistDownloader.SanitizeAvoids | python_workers/playlist_uploader/downloader.py:27-28 | a sanitised name holds no character Windows forbids in file names and no colon |
| PlaylistDownloader.SanitizeEnds | python_workers/playlist_uploader/downloader.py:30-32 | a sanitised name neither starts nor ends with a space or a dot |
| PlaylistDownloader.SanitizeSpaces | python_workers/playlist_uploader/downloader.py:29 | every whitespace character in a sanitised name is a plain space, and no two are adjacent |
| PlaylistDownloader.IsSingleVideoUrl | python_workers/playlist_uploader/downloader.py:66-72 | a URL names a single video exactly when it has a watch or short-link marker and no list parameter |
| PlaylistDownloader.ScanEntry | python_workers/playlist_uploader/downloader.py:107-135 | a kept playlist entry has an eleven-character id, a real title that is neither private nor deleted, a thumbnail, and its duration or zero; a null entry is skipped |
| PlaylistDownloader.ScanPrefix | python_workers/playlist_uploader/downloader.py:107-109 | stopping the scan early, as cancellation does, keeps a prefix of the full scan's videos in order |
| PlaylistDownloader.ScanEntries | python_workers/playlist_uploader/downloader.py:102-138 | the playlist scan yields at most one video per entry, each with an eleven-character id |
| PlaylistDownloader.SingleVideo | python_workers/playlist_uploader/downloader.py:140-156 | a single video without an id gives no videos; otherwise exactly one, with a non-empty id |
| PlaylistDownloader.FetchMetadata | python_workers/playlist_uploader/downloader.py:74-161 | an extractor error or empty answer gives no videos, and every video found has an id |
| PlaylistDownloader.DownloadSingle | python_workers/playlist_uploader/downloader.py:163-218 | a cached track is a success without download; cancellation before downloading is reported as cancelled; otherwise success exactly when yt-dlp leaves a non-empty file |
| PlaylistDownloader.NewIdsAppend | python_workers/playlist_uploader/downloader.py:245-250 | new track ids are collected in completion order |
| PlaylistDownloader.DownloadVideos | python_workers/playlist_uploader/downloader.py:220-265 | every handled completion is counted exactly once as new, cached or failed, the total is the number of videos, and the new ids are those of the new downloads in completion order |
| PlaylistDownloader.EntryOf | python_workers/playlist_uploader/downloader.py:278-301 | an index record carries the simplified title and artist, the video's thumbnail, and its duration truncated toward zero to a whole number of seconds, as Python's `int` does |
| PlaylistDownloader.EntryTerms | python_workers/playlist_uploader/downloader.py:284-292 | an index record's search terms are strictly increasing and non-empty, and include every generated term of its title and artist and the downloaded title's normalised form when simplifying changed it |
| PlaylistDownloader.BuildIndex | python_workers/playlist_uploader/downloader.py:267-304 | the index holds exactly the ids of the videos whose track file exists |
| PlaylistDownloader.BuildIndexLatest | python_workers/playlist_uploader/downloader.py:271-302 | an id listed twice holds the record of its last video |
| PlaylistDownloader.SaveIndex | python_workers/playlist_uploader/downloader.py:306-321 | the saved index is the stored one, empty when missing or unreadable, overridden by the new records, and its size is reported |
| PlaylistDownloader.SaveIndexIdempotent | python_workers/playlist_uploader/downloader.py:316 | saving the same records twice gives what saving them once gives |
| PlaylistDownloader.TrackIds | python_workers/playlist_uploader/downloader.py:325-328 | the playlist lists exactly the ids whose track file exists |
| PlaylistDownloader.TrackIdsAppend | python_workers/playlist_uploader/downloader.py:325-328 | the playlist keeps the videos' order |
| PlaylistDownloader.SavePlaylist | python_workers/playlist_uploader/downloader.py:323-339 | the file written and its track count; no contract of its own, see PlaylistDownloader.SavePlaylistProps |
| PlaylistDownloader.SavePlaylistProps | python_workers/playlist_uploader/downloader.py:323-339 | the playlist file is named after the sanitised name, holds the given name and the present tracks, and the count returned is its length |
| PlaylistDownloader.AdoptName | python_workers/playlist_uploader/downloader.py:353-356 | a single video fetched with a playlist name takes that name as its title and no playlist is saved; otherwise nothing changes |
| PlaylistDownloader.Run | python_workers/playlist_uploader/downloader.py:341-380 | no videos and cancellation are the two failures; otherwise every completion is counted once, the index size is reported, and a playlist is saved exactly when a non-empty name remains |
| Profiles.DefaultProfiles | src-tauri/src/task_monitor/profiles.rs:84-136 | three profiles carrying the three fresh ids in order, of which only the first is the default |
| Profiles.DefaultProfilesProps | src-tauri/src/task_monitor/profiles.rs:84-136 | There are three built-in profiles, and exactly one, the first, is the default |
| Profiles.GetProfiles | src-tauri/src/task_monitor/profiles.rs:6-15 | Without a profile file the built-in profiles; otherwise the file's profiles or its read error |
| Profiles.GetDefaultProfile | src-tauri/src/task_monitor/profiles.rs:79-82 | The profile returned is marked default, listed, and no listed profile before it is the default; none is returned only when no listed profile is the default |
| Profiles.FirstDefault | src-tauri/src/task_monitor/profiles.rs:81 | A profile found is listed, marked default, and no profile before it is the default; none only when no profile is |
| Profiles.SaveProfile | src-tauri/src/task_monitor/profiles.rs:17-32 | An unreadable file is an error and nothing is written; otherwise the written list holds the profile, upserted by id, and a missing file starts a list of just that profile |
| Profiles.SaveProfileReplaces | src-tauri/src/task_monitor/profiles.rs:25-29 | Saving under a listed id keeps the count and every other profile; a new id is appended at the end |
| Profiles.DeleteProfile | src-tauri/src/task_monitor/profiles.rs:34-50 | A missing file or an id nobody has is "Profile not found" with nothing written; otherwise exactly the profiles with the id are dropped |
| Profiles.WithDefault | src-tauri/src/task_monitor/profiles.rs:61-69 | Every profile keeps its place and is the default exactly when it has the id |
| Profiles.WithDefaultOne | src-tauri/src/task_monitor/profiles.rs:61-69 | With unique ids, setting a listed id as default leaves exactly one default profile |
| Profiles.SetDefaultProfile | src-tauri/src/task_monitor/profiles.rs:52-76 | A missing file is "No profiles exist" and an unknown id "Profile not found", with nothing written; otherwise the profiles are written with the new default |
| Profiles.InitializeProfiles | src-tauri/src/task_monitor/profiles.rs:138-149 | The built-in profiles are written only when there is no profile file |
| PythonWorker.LastErrorIsLast | src-tauri/src/process_manager/python_worker.rs:139-172 | The remembered error is the message of the last error line; none exactly when no line is an error |
| PythonWorker.LastResultIsLast | src-tauri/src/process_manager/python_worker.rs:139-172 | The remembered result is the data of the last result line; none exactly when no line is a result |
| PythonWorker.ForwardedMembers | src-tauri/src/process_manager/python_worker.rs:145-167 | A message is forwarded exactly when it is progress or a stdout/stderr log and appears on some line |
| PythonWorker.UnparsedIgnored | src-tauri/src/process_manager/python_worker.rs:169-171 | Unparsable lines change neither the remembered result and error nor what is forwarded |
| PythonWorker.Outcome | src-tauri/src/process_manager/python_worker.rs:180-191 | Any error wins; then a non-zero or missing exit code fails; then the last result, or "No result from Python worker" without one |
| PythonWorker.SpawnWorker | src-tauri/src/process_manager/python_worker.rs:89-192 | A missing script fails before anything runs; otherwise the outcome is decided from the last result, last error and exit code, and exactly the forwardable messages are forwarded in order |
| PythonWorker.AnyErrorFails | src-tauri/src/process_manager/python_worker.rs:153-185 | One error line anywhere fails the call with the last error, whatever the exit code and the results |
| Restore.LoadRestoreList | src-tauri/src/task_monitor/restore.rs:36-44 | A missing list file is the empty list; otherwise the file's list or its read error |
| Restore.Added | src-tauri/src/task_monitor/restore.rs:62-71 | Afterwards the path is listed, every earlier path still is and no other is added; an already listed path changes nothing, otherwise the process is appended |
| Restore.AddedKeepsUnique | src-tauri/src/task_monitor/restore.rs:62-71 | Adding keeps paths unique, and adding the same path again changes nothing |
| Restore.AddToRestoreList | src-tauri/src/task_monitor/restore.rs:62-71 | A read error is returned and nothing written; an already listed path succeeds without writing; otherwise the list with the process appended is written |
| Restore.Marked | src-tauri/src/task_monitor/restore.rs:73-87 | The entries of the path are flagged self-restoring and the path is noted as a respawn once; nothing else changes |
| Restore.MarkedIdempotent | src-tauri/src/task_monitor/restore.rs:73-87 | Marking a path twice is the same as marking it once, and it is then noted as a respawn |
| Restore.MarkedFlags | src-tauri/src/task_monitor/restore.rs:76-80 | Marking keeps the listed paths and flags exactly the entries of the path, leaving the others' flags alone |
| Restore.MarkAsSelfRestoring | src-tauri/src/task_monitor/restore.rs:73-87 | A read error is returned and nothing written; otherwise the marked list is written |
| Restore.RestoreProcess | src-tauri/src/task_monitor/restore.rs:90-145 | restoring succeeds exactly for an entry that is not self-restoring, whose executable exists and which the shell opens; a self-restoring entry is refused with the skip message and a missing executable with the not-found message naming it |
| Restore.RestoreProcessProps | src-tauri/src/task_monitor/restore.rs:90-145 | A self-restoring entry is refused as such; success means the entry is not self-restoring, its file exists and the shell answered above 32 |
| Restore.LaunchedNotSelfRestoring | src-tauri/src/task_monitor/restore.rs:155-173 | Only entries that are not self-restoring and whose file exists are ever handed to the shell |
| Restore.RestoreAll | src-tauri/src/task_monitor/restore.rs:152-177 | Every entry is counted exactly once as restored, skipped as self-restoring or failed, and each failure carries one error |
| RiotAuth.FullIsComplete | src-tauri/src/models/auth.rs:21-34 | a full set of the five cookies is always complete (the session cookie is among them), and the capture time affects neither test |
| RiotAuth.Collect | src-tauri/src/commands/auth.rs:56-72 | the record built from the sign-in window's cookies carries no capture time yet |
| RiotAuth.CollectLast | src-tauri/src/commands/auth.rs:58-72 | each of tdid, clid, csid, ssid and sub holds the value of the last cookie with that name, and nothing when there is none |
| RiotAuth.CollectIgnoresOthers | src-tauri/src/commands/auth.rs:64-71 | a cookie with any other name changes nothing |
| RiotAuth.CaptureAuthCookies | src-tauri/src/commands/auth.rs:43-105 | the capture answers true exactly when the cookies were written and the settings update succeeded; written cookies are complete and stamped with the capture time; without the session cookie it answers false and writes nothing; the settings are written only when the player id was captured |
| RiotAuth.CaptureWritesCollected | src-tauri/src/commands/auth.rs:56-84 | what is written is exactly the collected cookies, stamped, and it is written only when the session cookie was among them |
| RiotAuth.UpdateSettingsPuuid | src-tauri/src/commands/auth.rs:119-139 | the update fails exactly when the settings cannot be read; existing credentials keep user name and region and get the player id; absent credentials become new ones for region "ap"; no other setting changes |
| RiotAuth.Readable | src-tauri/src/commands/auth.rs:147-151 | an unreadable auth file counts as no cookies |
| RiotAuth.GetAuthStatus | src-tauri/src/commands/auth.rs:143-189 | the status fails only when the settings cannot be read; signed in means the session cookie is present, full cookies means all five are; the player id comes from the cookies and the region defaults to "ap" |
| RiotAuth.ExpiresHint | src-tauri/src/commands/auth.rs:181-187 | the validity hint is "3 weeks" with every cookie, "1 week" with the session cookie alone, and absent otherwise |
| RiotAuth.GetStoredCredentials | src-tauri/src/commands/auth.rs:193-207 | no file gives no credentials, an unreadable file an error, and a readable file its cookies exactly when they are complete |
| RiotAuth.CaptureThenStored | src-tauri/src/commands/auth.rs:43-105 | cookies written by a capture are what the store checker is then handed, and the status reports them as signed in |
| RiotAuth.Logout | src-tauri/src/commands/auth.rs:211-220 | logout removes the auth file; it fails only when an existing file cannot be removed |
| RiotAuth.LogoutSignsOut | src-tauri/src/commands/auth.rs:193-220 | after a logout no credentials are handed out and the status is signed out |
| RiotDetector.RiotGamesDistinct | src-tauri/src/launcher/riot_detector.rs:28-65 | the list holds three games with different product ids, none containing a space, all on the live patchline |
| RiotDetector.LaunchArgs | src-tauri/src/launcher/riot_detector.rs:67-69 | builds the product and patchline flags; no contract of its own, its read-back property is RiotDetector.LaunchArgsReadBack |
| RiotDetector.LaunchArgsReadBack | src-tauri/src/launcher/riot_detector.rs:67-69 | the launch arguments of a product id without spaces read back as exactly that product id and patchline, so each game's arguments name its own product |
| RiotDetector.FindRiotRoot | src-tauri/src/launcher/riot_detector.rs:488-511 | walks at most two parents up; no contract of its own, the first-ancestor property is RiotDetector.FindRiotRootFirst |
| RiotDetector.FindRiotRootFirst | src-tauri/src/launcher/riot_detector.rs:488-511 | the root is the first of the path, its parent and its grandparent whose last component is "Riot Games" in any case, or the path itself when none is |
| RiotDetector.CandidateRoots | src-tauri/src/launcher/riot_detector.rs:343-357 | sorts and de-duplicates ignoring case; no contract of its own, its order, uniqueness and coverage are RiotDetector.CandidateRootsProps |
| RiotDetector.CandidateRootsProps | src-tauri/src/launcher/riot_detector.rs:343-357 | the candidate roots are in case-insensitive order, no two differ only in case, each is one of the found paths, and every found path is represented |
| RiotDetector.ScanRootWellFormed | src-tauri/src/launcher/riot_detector.rs:79-129 | scanning a root adds only Riot games launched through the Riot Client with their own app id and arguments |
| RiotDetector.ScanRootUnique | src-tauri/src/launcher/riot_detector.rs:94-98 | scanning a root never adds a second game with an app id already detected |
| RiotDetector.ScanRootFinds | src-tauri/src/launcher/riot_detector.rs:79-98 | after a root is scanned a game's app id is present exactly when it was before or the root has both the Riot Client and that game |
| RiotDetector.DetectRiotGames | src-tauri/src/launcher/riot_detector.rs:74-132 | scans the roots in order; no contract of its own, its properties are RiotDetector.DetectRiotGamesProps and RiotDetector.DetectRiotGamesFinds |
| RiotDetector.DetectRiotGamesProps | src-tauri/src/launcher/riot_detector.rs:74-132 | over all roots the detected games have unique app ids and each is a well-formed Riot game |
| RiotDetector.DetectRiotGamesFinds | src-tauri/src/launcher/riot_detector.rs:74-132 | a game is detected exactly when some candidate root has both the Riot Client and that game |
| ServerCommands.GetServerConfig | src-tauri/src/commands/server.rs:29-37 | without a file the configuration is the default one (no host, port 22), otherwise what reading the file yields |
| ServerCommands.UpdateServerConfig | src-tauri/src/commands/server.rs:41-67 | the update fails exactly when the stored configuration cannot be read; otherwise every given field replaces the stored one and every missing field is kept |
| ServerCommands.UpdateServerConfigIdempotent | src-tauri/src/commands/server.rs:41-67 | repeating an update on what it wrote changes nothing, and an update naming no field leaves the configuration as read |
| ServerCommands.SaveSshCredentials | src-tauri/src/commands/server.rs:71-83 | after saving, the credentials file exists, is readable and holds the given password |
| ServerCommands.GetSshCredentials | src-tauri/src/commands/server.rs:87-96 | no file means no credentials, a readable file gives its credentials, and an unreadable one is an error |
| ServerCommands.HasSshCredentials | src-tauri/src/commands/server.rs:100-103 | credentials are reported present exactly when reading them would not answer "none", even when the file is unreadable |
| ServerCommands.ClearSshCredentials | src-tauri/src/commands/server.rs:107-117 | after a successful clear there is no file, and clearing fails exactly when a file exists and cannot be removed |
| ServerCommands.ResolvePassword | src-tauri/src/commands/server.rs:143-150 | a password given with the request wins; otherwise the saved one is used, and with nothing saved the request fails with the "No SSH credentials saved" message |
| ServerCommands.SavedPasswordUsed | src-tauri/src/commands/server.rs:71-117 | a request without a password uses the password just saved, and after the credentials are cleared it fails for want of one |
| ServerCommands.FinalCommand | src-tauri/src/commands/server.rs:155-162 | a command that mentions pm2 is prefixed with the export of the Node path, any other is sent unchanged, and the original command always ends what is sent |
| ServerCommands.ToI32 | src-tauri/src/commands/server.rs:209-212 | the cast lands in the 32-bit signed range, keeps every value already in it, and differs from its input by a multiple of 2^32 |
| ServerCommands.ResultOf | src-tauri/src/commands/server.rs:207-269 | a command result is never left running, counts as completed exactly when the cast exit code is 0, and a failed worker is a failed result carrying its error and no exit code |
| ServerCommands.ExecuteSshCommand | src-tauri/src/commands/server.rs:135-270 | running a command fails only when the configuration or a password cannot be had; otherwise the worker receives the configured host, port and user, the resolved password and the final command, and the reported command is the one asked for |
| ServerCommands.ExitCodeCast | src-tauri/src/commands/server.rs:209-227 | an exit code of 2^32 wraps to 0 in the cast and the command counts as completed, while an exit code of 1 counts as failed |
| ServerCommands.GetSystemStatus | src-tauri/src/commands/server.rs:274-352 | with a configuration and a password, the worker is sent a status query (not a command request) with the configured host, port and user and the resolved password, and a status is returned exactly when it succeeds; each of the seven fields shows the value the worker reported, or "Unknown" when it left it out; without configuration or password there is no status |
| ServerCommands.StatusOnlyAsksStatus | src-tauri/src/commands/server.rs:290-299 | the status depends only on the worker's answer to the status query; its answers to command requests make no difference |
| ServerCommands.EmptyStatusIsUnknown | src-tauri/src/commands/server.rs:308-346 | a worker that reports no field gives "Unknown" in all seven fields |
| ServerCommands.TestSshConnection | src-tauri/src/commands/server.rs:356-377 | the test is an error only when the configuration cannot be read, and is true exactly when the worker answers the echo command with exit code 0 |
| ServerCommands.TestDoesNotCast | src-tauri/src/commands/server.rs:356-377 | with a worker answering exit code 2^32 the connection test reports failure while running the same echo command reports it completed |
| ServerCommands.EchoHasNoPm2 | src-tauri/src/commands/server.rs:155-162 | the connection test's echo command would be sent unchanged by the command path |
| ServerCommands.UploadFileToServer | src-tauri/src/commands/server.rs:381-484 | an upload succeeds exactly when configuration, password and the transfer all succeed, and then returns the transfer's reply |
| ServerCommands.ReadLocalFile | src-tauri/src/commands/server.rs:488-497 | a missing file is the "File not found" error, and the read succeeds exactly when the file exists and is readable, returning its content |
| ServerCommands.GetQuickActions | src-tauri/src/commands/server.rs:121-131 | without a file the built-in actions are returned, otherwise what reading the file yields |
| AppSettings.GetSettings | src-tauri/src/commands/settings.rs:27-35 | without a file the defaults are returned, otherwise whatever reading the file yields, an unreadable file being an error |
| AppSettings.CurrentSettings | src-tauri/src/task_monitor/mod.rs:48 | the settings other parts of the app read are the stored ones when readable and the defaults otherwise, never an error |
| AppSettings.TextOrNone | src-tauri/src/commands/settings.rs:61-81 | an optional text setting is cleared exactly when the new value is the empty string, and otherwise holds that value |
| AppSettings.ListOrNone | src-tauri/src/commands/settings.rs:85-98 | an optional list setting is cleared exactly when the new list is empty, and otherwise holds that list |
| AppSettings.UpdateSettings | src-tauri/src/commands/settings.rs:39-114 | an update fails exactly when the settings file exists but cannot be read, with that error; otherwise it applies the fields to the stored settings or to the defaults |
| AppSettings.ApplyFields | src-tauri/src/commands/settings.rs:49-108 | each of the thirteen fields given in the update is taken: the eight plain ones verbatim, and each optional text or list is cleared exactly when it is empty and set to it otherwise |
| AppSettings.AbsentFieldsKept | src-tauri/src/commands/settings.rs:49-108 | every one of the thirteen fields left out of the update keeps its previous value |
| AppSettings.NoChangesIsIdentity | src-tauri/src/commands/settings.rs:49-108 | an update that names no field writes back exactly the settings it read |
| AppSettings.UpdateIdempotent | src-tauri/src/commands/settings.rs:39-114 | repeating an update on the file the first one wrote gives the same settings again |
| AppSettings.UpdateThenGet | src-tauri/src/commands/settings.rs:27-35 | reading the settings right after a successful update returns the settings the update reported |
| SteamDetector.IsBlacklisted | src-tauri/src/launcher/steam_detector.rs:33-37 | the definition of the blacklist test (listed, or a crash*.exe, after lower-casing); no contract of its own, see SteamDetector.ListsIgnoreCase |
| SteamDetector.IsWhitelisted | src-tauri/src/launcher/steam_detector.rs:39-42 | the definition of the whitelist test (listed after lower-casing); no contract of its own, see SteamDetector.ListsIgnoreCase |
| SteamDetector.ListsIgnoreCase | src-tauri/src/launcher/steam_detector.rs:33-42 | the blacklist and whitelist tests give the same answer for a name and its lower-cased form |
| SteamDetector.Normalized | src-tauri/src/launcher/steam_detector.rs:44-56 | the normalised name holds only letters and digits |
| SteamDetector.MatchesGameName | src-tauri/src/launcher/steam_detector.rs:44-56 | the definition of the name match (one normalised name contains the other); no contract of its own, see SteamDetector.EmptyGameNameMatchesAll and SteamDetector.NamedAfterGame |
| SteamDetector.EmptyGameNameMatchesAll | src-tauri/src/launcher/steam_detector.rs:44-56 | a game name with no letters or digits matches every executable |
| SteamDetector.NamedAfterGame | src-tauri/src/launcher/steam_detector.rs:44-56 | an executable named after the game plus ".exe" matches the game whatever the case |
| SteamDetector.ExtractVdfValue | src-tauri/src/launcher/steam_detector.rs:127-134 | there is no value exactly when the line has fewer than four quote-separated pieces, and a value never holds a quote |
| SteamDetector.VdfValueReadBack | src-tauri/src/launcher/steam_detector.rs:127-134 | the value of a quoted key-value line without inner quotes reads back unchanged |
| SteamDetector.AcfFieldsFromLastLine | src-tauri/src/launcher/steam_detector.rs:137-153 | each manifest field holds the value of the last line that starts with its key |
| SteamDetector.ParseAcf | src-tauri/src/launcher/steam_detector.rs:136-159 | a manifest is parsed exactly when it can be read and the app id, name and install folder are all found, and then all three are set |
| SteamDetector.FindGameExecutable | src-tauri/src/launcher/steam_detector.rs:168-227 | the pick is an executable of the listing whose name is not blacklisted, and there is none exactly when the folder is missing or has no such executable |
| SteamDetector.PreferredWins | src-tauri/src/launcher/steam_detector.rs:192-199 | the first whitelisted executable wins over every other rule |
| SteamDetector.NamedNext | src-tauri/src/launcher/steam_detector.rs:201-208 | without a whitelisted executable the first one named like the game wins |
| SteamDetector.LargestLast | src-tauri/src/launcher/steam_detector.rs:210-226 | otherwise the pick is the only eligible executable or the largest one |
| SteamDetector.Fallback | src-tauri/src/launcher/steam_detector.rs:210-226 | the last resort picks an eligible executable no smaller than any other, and none only when there is none |
| SteamDetector.LibraryFolders | src-tauri/src/launcher/steam_detector.rs:97-124 | the folder list starts with the Steam folder and is only that when the file is missing or unreadable |
| SteamDetector.LibraryFoldersProps | src-tauri/src/launcher/steam_detector.rs:97-124 | every folder after the Steam folder exists and no folder is listed twice |
| SteamDetector.ExeFiles | src-tauri/src/launcher/steam_detector.rs:173-186 | a listed path is kept exactly when its entry is a file with a case-insensitive "exe" extension |
| SteamDetector.FirstWith | src-tauri/src/launcher/steam_detector.rs:192-208 | the path found satisfies the test and no earlier path does; nothing is found exactly when no path passes |
| SteamDetector.LargestIndex | src-tauri/src/launcher/steam_detector.rs:224-226 | the chosen path is at least as large as every other and strictly larger than every later one, so ties go to the last |
| SteamDetector.LibraryLinesProps | src-tauri/src/launcher/steam_detector.rs:111-121 | every folder the file adds exists and no folder is listed twice |
| TaskMonitor.FindPid | src-tauri/src/task_monitor/mod.rs:35-36 | the process found carries the pid and is in the snapshot, and none is found exactly when no process has that pid |
| TaskMonitor.KillOutcome | src-tauri/src/task_monitor/mod.rs:31-79 | a kill succeeds exactly for a listed, killable process that the system opens and terminates; an unknown pid is refused as not found and a protected process is refused by name |
| TaskMonitor.Tracked | src-tauri/src/task_monitor/mod.rs:46-61 | a restore record is made exactly for a listed, killable process with an executable while auto-restore is on, independently of whether termination then succeeds; it keeps the executable and name, is not self-restoring and is stamped with the kill time |
| TaskMonitor.KillMultiple | src-tauri/src/task_monitor/mod.rs:86-106 | every pid is counted once, as killed when its kill succeeds or as failed with exactly one error line, the error lines following the pids' order |
| TaskMonitor.KillByCategory | src-tauri/src/task_monitor/mod.rs:108-128 | a category that may not be killed attempts nothing and reports one error naming it; otherwise exactly the category's killable processes are attempted |
| TaskMonitor.CategoryTargetsExact | src-tauri/src/task_monitor/mod.rs:119-124 | a pid is attempted for a category exactly when some process with that pid is in the category and killable |
| TaskMonitor.AnyName | src-tauri/src/task_monitor/mod.rs:132-139 | a process is matched exactly when its lower-cased name contains one of the lower-cased names |
| TaskMonitor.KillByNames | src-tauri/src/task_monitor/mod.rs:130-144 | the processes attempted are exactly the killable ones matched by a name, each counted once and its failures reported |
| TaskMonitor.NameTargetsExact | src-tauri/src/task_monitor/mod.rs:134-141 | a pid is attempted by name exactly when some killable process with that pid has a name containing one of the names, ignoring case |
| TaskMonitor.EmptyNameTargetsAll | src-tauri/src/task_monitor/mod.rs:132-139 | an empty string among the names matches every killable process |
| TaskMonitor.ExecuteProfile | src-tauri/src/task_monitor/mod.rs:146-154 | unreadable profiles and an unknown profile id are errors that kill nothing; otherwise the processes named by the first profile with the id are killed |
| TaskMonitor.KillRecommendations | src-tauri/src/task_monitor/mod.rs:156-170 | a process is recommended exactly when it is in the snapshot, killable, uses at least the given memory and is bloat or a background service |
| TaskMonitor.RecommendationsMonotone | src-tauri/src/task_monitor/mod.rs:156-170 | raising the memory threshold never adds a recommendation |
| Train.Step | python_workers/ml_training/train.py:121-132 | a call keeps patience and margin, always leaves a best score, never clears a stop once signalled, adopts an improving score with the miss count reset, and counts a miss otherwise |
| Train.RunSticky | python_workers/ml_training/train.py:121-132 | once early stopping is signalled it stays signalled whatever scores follow |
| Train.StopMeansStreak | python_workers/ml_training/train.py:121-132 | with positive patience, stopping is signalled only after some prefix of the scores ends in a run of `patience` misses, and while it is not signalled the miss count stays below the patience |
| Train.BestNonDecreasing | python_workers/ml_training/train.py:121-132 | with a non-negative margin the best score never decreases |
| Train.RunSnoc | python_workers/ml_training/train.py:121-132 | feeding one more score to the stopper is one more call on the state the earlier scores left |
| Train.TrainLoop | python_workers/ml_training/train.py:351-397 | the loop runs at most the configured epochs; a checkpoint is written at exactly those epochs that ran whose validation F1 is above 0 and above every earlier epoch's, in increasing order; the best F1 bounds every epoch's F1 and is that of the last checkpoint; the loop ends at the first epoch after which early stopping is signalled, and only then before the last epoch |
| Train.DatasetSamples | python_workers/ml_training/train.py:56-69 | the dataset holds one sample per positive and per negative file |
| Train.DatasetLabels | python_workers/ml_training/train.py:64-69 | a sample is labelled 1 exactly when it comes from the positive files, positives first and each sample carrying its own file |
| Train.GetItem | python_workers/ml_training/train.py:76-92 | the sample is left alone unless augmentation is on for the training split, and augmenting keeps its shape |
| Train.TrainAugment | python_workers/ml_training/train.py:94-109 | the three coin flips select the augmentations; no contract of its own, see Train.GetItem and Train.NoCoinNoChange |
| Train.NoCoinNoChange | python_workers/ml_training/train.py:94-109 | when none of the three coin draws falls below one half, the training sample is returned unchanged |
| ValorantCommands.RotationStart | src-tauri/src/commands/valorant.rs:10-29 | the current rotation started at most one day before now, and not after it |
| ValorantCommands.RotationIsUtcMidnight | src-tauri/src/commands/valorant.rs:10-29 | 08:00 in GMT+8 is midnight UTC, so the rotation starts at the UTC day boundary at or before now |
| ValorantCommands.SameRotation | src-tauri/src/commands/valorant.rs:10-29 | an earlier moment is in the same rotation as a later one exactly when it is not before the later one's rotation start |
| ValorantCommands.ShouldAutoRefresh | src-tauri/src/commands/valorant.rs:34-68 | an unreadable file is an error; otherwise no refresh is needed exactly when the last saved store has a check time that parses and is not before the current rotation's start |
| ValorantCommands.GetValorantStore | src-tauri/src/commands/valorant.rs:72-83 | no file or an empty history gives no store, a readable history gives its last entry, and an unreadable one is an error |
| ValorantCommands.ItemOf | src-tauri/src/commands/valorant.rs:127-140 | the price is cast into the unsigned 32-bit range, unchanged when it fits, and a missing item type reads "skin" |
| ValorantCommands.Items | src-tauri/src/commands/valorant.rs:122-143 | every item comes from a reply entry with a name and a price, every such entry gives an item, and when all entries have both none is dropped |
| ValorantCommands.StoreOf | src-tauri/src/commands/valorant.rs:109-154 | the store keeps the reply's date and check time (empty when missing), its real-data flag, and the usable items, none when the reply has no item list |
| ValorantCommands.WorkerRegion | src-tauri/src/commands/valorant.rs:88 | the region asked about is the given one, "na" when none is given |
| ValorantCommands.SaveStore | src-tauri/src/commands/valorant.rs:163-177 | saving replaces an entry dated today without changing the length, appends when there is none, always stores the new entry, and keeps every entry of another date in place |
| ValorantCommands.SaveKeepsDatesUnique | src-tauri/src/commands/valorant.rs:163-177 | when dates are unique and the store is dated today, saving keeps them unique |
| ValorantCommands.CheckStore | src-tauri/src/commands/valorant.rs:87-185 | a failing worker or an unreadable history is an error; otherwise the store built from the reply is returned and saved into the history |
| ValorantCommands.CheckEndsRefresh | src-tauri/src/commands/valorant.rs:34-185 | after a check saves a new day's store checked now, no refresh is asked for at any later moment of the same rotation |
| ValorantCommands.DateDescOrder | src-tauri/src/commands/valorant.rs:198 | ordering stores by date, latest first, is total and transitive, so the history sort is well defined |
| ValorantCommands.StoreHistory | src-tauri/src/commands/valorant.rs:189-208 | no file gives an empty history and an unreadable one an error; otherwise the entries sorted latest date first, cut to the limit, 30 when none is given |
| ValorantCommands.HistoryKeepsLatest | src-tauri/src/commands/valorant.rs:197-205 | every entry of the history is stored, and every entry the limit drops is dated no later than every entry kept |
| ValorantChecker.Shard | python_workers/valorant_checker.py:59-67 | the shard is always a known shard: Latin America and Brazil go to North America's, a known shard name is its own shard, and a missing or unknown region goes to Asia-Pacific |
| ValorantChecker.ShardIdempotent | python_workers/valorant_checker.py:59-67 | looking up the shard of a shard gives it back |
| ValorantChecker.CleanSkinName | python_workers/valorant_checker.py:336-341 | a cleaned skin name neither starts nor ends with whitespace |
| ValorantChecker.CleanWithoutDigits | python_workers/valorant_checker.py:336-341 | a name without digits cannot end in a level suffix, so cleaning only trims it |
| ValorantChecker.CleanRemovesLevel | python_workers/valorant_checker.py:336-341 | a name ending in a visible character followed by whitespace, "Level" in any case, whitespace and digits is cleaned to the trimmed name alone, so an earlier "Level N" inside it stays |
| ValorantChecker.LevelSuffixFound | python_workers/valorant_checker.py:340 | the suffix pattern matches exactly where the whitespace before "level" begins |
| ValorantChecker.TrailingCount | python_workers/valorant_checker.py:340 | the count is the length of the longest suffix whose characters all pass the test |
| ValorantChecker.IndexOfChar | python_workers/valorant_checker.py:139-140 | the index found holds the first occurrence of the character, and there is none exactly when the character does not occur |
| ValorantChecker.PairOf | python_workers/valorant_checker.py:140 | a piece is split exactly when it holds an equals sign, into a key without one and the rest, which join back to the piece |
| ValorantChecker.Lookup | python_workers/valorant_checker.py:140 | a key has a value exactly when some pair has that key, and the value is one paired with it |
| ValorantChecker.Fragment | python_workers/valorant_checker.py:138-139 | a uri has a fragment exactly when it contains '#' |
| ValorantChecker.ParseTokenUri | python_workers/valorant_checker.py:133-151 | tokens are found exactly when the uri has a fragment whose pairs include an access token |
| ValorantChecker.PairOfEncoded | python_workers/valorant_checker.py:140 | a key without an equals sign, joined to its value by one, splits back into that key and value |
| ValorantChecker.PairsOfEncoded | python_workers/valorant_checker.py:140 | encoding pairs and splitting each piece gives back exactly the pairs |
| ValorantChecker.PairsRoundTrip | python_workers/valorant_checker.py:139-140 | splitting a fragment that encodes pairs on '&' and '=' gives back exactly those pairs |
| ValorantChecker.TokenUriRoundTrip | python_workers/valorant_checker.py:138-151 | a redirect uri whose fragment encodes pairs with an access token yields the decoded access and id tokens, the token type and the lifetime those pairs name, a repeated key's last value winning and missing optional keys taking "", "Bearer" and "3600" |
| ValorantChecker.Cost | python_workers/valorant_checker.py:421-423 | an offer without a price in Valorant Points costs 0 |
| ValorantChecker.Prefix8 | python_workers/valorant_checker.py:441 | the prefix is the first eight characters, or the whole string when it is shorter |
| ValorantChecker.SkinInfoOf | python_workers/valorant_checker.py:343-376 | a skin level found by the first endpoint always has a name, and no information is found exactly when neither endpoint knows the uuid |
| ValorantChecker.ItemFor | python_workers/valorant_checker.py:437-445 | an item carries its uuid and the offer's price and is always a skin |
| ValorantChecker.UnknownSkinName | python_workers/valorant_checker.py:437-445 | a skin neither endpoint knows is named "Skin" and its uuid's first eight characters, without an image |
| ValorantChecker.OfferItems | python_workers/valorant_checker.py:418-457 | an offer gives one skin item per reward, in reward order, or one for its id when it has no rewards and a non-empty id; each at the offer's price |
| ValorantChecker.OffersItems | python_workers/valorant_checker.py:418-457 | the offers give as many items as they have rewards or usable ids, every one a skin |
| ValorantChecker.ItemsFromOffers | python_workers/valorant_checker.py:418-457 | every item comes from one of the offers, at that offer's price |
| ValorantChecker.OffersItemsAppend | python_workers/valorant_checker.py:418-457 | the items of two lists of offers are the items of the first followed by those of the second |
| ValorantChecker.ParseStorefront | python_workers/valorant_checker.py:378-456 | without a skins panel nothing is parsed; otherwise the store offers are parsed, or the plain single-item offers when there are no store offers |
| ValorantChecker.PlayerId | python_workers/valorant_checker.py:491-500 | the player id is the fresh one from the user info when it has one, the cookie's otherwise |
| ValorantChecker.FetchStorefront | python_workers/valorant_checker.py:467-527 | a storefront is only ever fetched when the cookies carry an `ssid` |
| ValorantChecker.Process | python_workers/valorant_checker.py:458-547 | the store is real exactly when the storefront was fetched, is then the parsed storefront, is empty otherwise, and carries the given date and check time |
| ValorantChecker.NoSsidNoRequests | python_workers/valorant_checker.py:467-536 | without an `ssid` cookie the reply depends on no request: an empty store marked not real |
| ValorantChecker.StorefrontRequest | python_workers/valorant_checker.py:478-513 | when every step answers, the storefront is asked for on the region's shard with the decoded access token, the entitlement and the player id |
| VpsSync.WsEnd | python_workers/playlist_uploader/vps_sync.py:278 | the index reached skips exactly the run of whitespace that starts at `i` |
| VpsSync.RunEnd | python_workers/playlist_uploader/vps_sync.py:278 | the index reached is the first stopping character at or after `i`, or the end of the text |
| VpsSync.BlockAt | python_workers/playlist_uploader/vps_sync.py:278-283 | a block matched at an index starts with ".addChoices", optional whitespace and '(', and ends at the first ')' after it |
| VpsSync.BlockFrom | python_workers/playlist_uploader/vps_sync.py:279-283 | no block is read exactly when no index from the start matches; otherwise the block read is the group of a match |
| VpsSync.NameAt | python_workers/playlist_uploader/vps_sync.py:284-285 | a name match is non-empty and moves forward, and as written the name it reads holds no quote of either kind |
| VpsSync.ScanMatched | python_workers/playlist_uploader/vps_sync.py:285 | every name a left-to-right scan lists was matched at some index the scan passed |
| VpsSync.NamesFrom | python_workers/playlist_uploader/vps_sync.py:285 | every name listed in the block is the name of a match at some index of the block |
| VpsSync.ParsePlaylistChoices | python_workers/playlist_uploader/vps_sync.py:276-285 | without a block no names are read, and every name read is non-empty and holds no quote |
| VpsSync.ParseChoicesMatched | python_workers/playlist_uploader/vps_sync.py:276-285 | without a block the corrected reader reads no names either |
| VpsSync.NoBlockNoChoices | python_workers/playlist_uploader/vps_sync.py:279-281 | a text that never mentions ".addChoices" lists no choices, under either reader |
| VpsSync.QuotedNameNeverListed | python_workers/playlist_uploader/vps_sync.py:284-294 | a name holding a quote is never among the choices the code as written reads, whatever the text |
| VpsSync.ScanReaches | python_workers/playlist_uploader/vps_sync.py:285 | a scan reaches a match when no match starting earlier runs past it |
| VpsSync.QuoteFor | python_workers/playlist_uploader/vps_sync.py:294 | a new entry is quoted with double quotes exactly when the name holds an apostrophe |
| VpsSync.EntryReadBack | python_workers/playlist_uploader/vps_sync.py:284-295 | the corrected reader reads the name of a new entry back, wherever in the block the entry sits, whenever the name is non-empty and does not hold both kinds of quote |
| VpsSync.EntryParts | python_workers/playlist_uploader/vps_sync.py:284-295 | a new entry has the brace, the key, the opening quote, the name and the matching closing quote where the name pattern expects them |
| VpsSync.NameAtMatched | python_workers/playlist_uploader/vps_sync.py:284 | with the brace, the key and the quotes where the pattern expects them, the corrected reader reads exactly the text between the quotes |
| VpsSync.EntryLayout | python_workers/playlist_uploader/vps_sync.py:294-295 | the characters of a new entry sit at fixed offsets around its name |
| VpsSync.AddedEntryListed | python_workers/playlist_uploader/vps_sync.py:284-312 | with the corrected reader, a block holding a new entry lists its name, provided no earlier match runs into the entry |
| VpsSync.RunEndAt | python_workers/playlist_uploader/vps_sync.py:284 | a run ends at the first stopping character |
| VpsSync.EntryNotReadBack | python_workers/playlist_uploader/vps_sync.py:284-295 | the code as written reads a new entry for a name holding an apostrophe as a different name, or not at all |
| VpsSync.AddMatchAt | python_workers/playlist_uploader/vps_sync.py:297 | a match of the add pattern starts with ".addChoices", its first group ends after a newline, and it ends at the first ')' with only whitespace between the entries and it |
| VpsSync.LastNewline | python_workers/playlist_uploader/vps_sync.py:297 | the index found is the last newline of the range, and there is none exactly when the range holds no newline |
| VpsSync.WsRunStart | python_workers/playlist_uploader/vps_sync.py:297 | the index found starts the whitespace run ending at `e`, without going below `lo` |
| VpsSync.IndentFrom | python_workers/playlist_uploader/vps_sync.py:304-305 | an indentation found is non-empty whitespace |
| VpsSync.WithComma | python_workers/playlist_uploader/vps_sync.py:307-308 | the entries end with a comma, one being added only when missing |
| VpsSync.Replacement | python_workers/playlist_uploader/vps_sync.py:299-310 | the replacement is longer than the text it replaces |
| VpsSync.ReplacementShape | python_workers/playlist_uploader/vps_sync.py:299-310 | the replacement is the opening group, the entries with a comma ensured, the new entry on its own line indented with whitespace, and the closing group |
| VpsSync.DefaultIndentBlank | python_workers/playlist_uploader/vps_sync.py:305 | the default indentation is all whitespace |
| VpsSync.GroupTrimmed | python_workers/playlist_uploader/vps_sync.py:301 | the entries group never ends in whitespace, so right-trimming keeps it whole |
| VpsSync.NextAddMatch | python_workers/playlist_uploader/vps_sync.py:312 | the match found is the first one from `i`, and there is none exactly when nothing from `i` matches |
| VpsSync.SubFrom | python_workers/playlist_uploader/vps_sync.py:312 | without a match the rest is copied unchanged, and with one the text grows |
| VpsSync.AddPlaylistChoice | python_workers/playlist_uploader/vps_sync.py:288-312 | corrected version, reading the existing names with the corrected reader (a name runs to the quote that opened it) rather than the code as written: a name already listed, or a text without an add match, is left unchanged; otherwise the text grows |
| VpsSync.AddPlaylistChoiceAsWritten | python_workers/playlist_uploader/vps_sync.py:288-312 | as written, a name the code reads among the choices, or a text without an add match, is left unchanged |
| VpsSync.ApostropheAlwaysAppended | python_workers/playlist_uploader/vps_sync.py:288-312 | as written, a name with an apostrophe is added again on every call, so the text keeps growing |
| VpsSync.UpdateLocalPlaylistJs | python_workers/playlist_uploader/vps_sync.py:315-337 | as written: the file is rewritten exactly when it exists, is readable and `parse_playlist_choices` does not list the name, and then holds the text `add_playlist_choice` produces |
| VpsSync.UpdateAlwaysRewritesApostrophe | python_workers/playlist_uploader/vps_sync.py:315-337 | as written, a readable file with an add match is rewritten with a further entry for a name holding an apostrophe on every call, however often it was added before |
| VpsSync.UpdateLocalPlaylistJsCorrected | python_workers/playlist_uploader/vps_sync.py:315-337 | corrected: the file is rewritten exactly when it exists, is readable and the corrected reader does not list the name, and then holds the corrected added text |
| VpsSync.IntDuration | python_workers/playlist_uploader/vps_sync.py:109-111 | a track keeps its other fields and whether it has a duration, and its duration becomes an integer, an integer one being left alone |
| VpsSync.PullIndex | python_workers/playlist_uploader/vps_sync.py:87-116 | the merged index has the keys of both indexes, the remote record winning a shared key, a missing or unreadable index counting as empty, and every duration an integer |
| VpsSync.PushFileName | python_workers/playlist_uploader/vps_sync.py:183-188 | push's own cleaning of the name; no contract of its own, see VpsSync.PushPlaylist and VpsSync.PushNameOfMix |
| VpsSync.PushPlaylist | python_workers/playlist_uploader/vps_sync.py:181-206 | as written, a playlist is pushed exactly when the file named by push's own cleaning exists and the upload succeeds |
| VpsSync.PushPlaylistSanitized | python_workers/playlist_uploader/vps_sync.py:181-206 | corrected, a playlist is pushed exactly when the file the downloader named exists and the upload succeeds |
| VpsSync.PushFindsSavedPlaylist | python_workers/playlist_uploader/downloader.py:23-32 | the corrected push always finds the file the downloader saved for the same name |
| VpsSync.PushMissesTrailingDot | python_workers/playlist_uploader/vps_sync.py:183-188 | as written, push does not find the file "Mix.json" the downloader saved for the name "Mix."; it looks under another name |
| VpsSync.PushFindsUploaderCopy | python_workers/playlist_uploader_worker.py:160-172 | the uploader writes the playlist under push's own cleaned name before pushing, so the push finds that copy and succeeds exactly when the upload does |
| VpsSync.CleanMix | python_workers/playlist_uploader/vps_sync.py:183-186 | cleaning the characters of "Mix." changes nothing |
| VpsSync.PushNameOfMix | python_workers/playlist_uploader/vps_sync.py:183-188 | push looks for "Mix." under a file name of four characters before the extension |
| VpsSync.SanitizedMix | python_workers/playlist_uploader/downloader.py:23-32 | the downloader saves "Mix." under the name "Mix" |
| VpsSync.StripOneTrailing | python_workers/playlist_uploader/downloader.py:30 | a text that starts with a kept character and ends with exactly one stripped character loses only that last character |
| VpsSync.PushTracks | python_workers/playlist_uploader/vps_sync.py:208-248 | no tracks or an unusable remote directory uploads and skips nothing; otherwise the tracks present locally and already on the remote listing are skipped, those present locally and absent there whose upload succeeds are counted uploaded, and an unreadable listing counts as empty |

## Left out

- File and process I/O: JSON files are read and written whole by the callers of the modelled functions, and directory creation, logging and the events sent to the window (`emit`) are not modelled. Each file a command reads is an argument of the member that models it: an `Option<Result<..>>` where the source tells a missing file from an unreadable one, otherwise a `Result` (unreadable is `Err`) or an `Option` (missing or unreadable is `None`), as each member's signature shows.
- Failed writes are left out everywhere except the members listed under the conventions above. The other commands that write a JSON file propagate its failure with `?` (for example settings.rs, gaming.rs, auth.rs, server.rs, valorant.rs, friends.rs, ml_jobs.rs, downloads.rs, audio_detection.rs and gacha.rs). Their contracts assume the write succeeds, so where they say a command fails exactly when its read fails, a failed write is a further error the model omits.
- Clocks, fresh UUIDs, random draws and shuffles are parameters, because they are sources of nondeterminism.
- Threads, sleeps and polling loops (the game-detection thread, the session recorder, the worker's progress task, the downloader's thread pool) are not modelled; only one pass or tick of each is.
- Signal processing and machine learning are opaque. Audio loading, mel spectrograms, dB conversion, normalisation, the ONNX session and its CUDA provider, the torch models and their export, and the sklearn metrics are out: the classifier is a function from a window to a probability, and training yields a validation F1 per epoch.
- Floating point is exact real arithmetic, so results that IEEE rounding moves across a threshold or band boundary are not captured.
- Network and transport are parameters or out: the friends server's HTTP calls, the Riot and valorant-api requests, the gacha API paging, the SSH worker and the SFTP methods of the VPS sync. Each appears only as the reply it hands back.
- Operating-system queries are parameters: the process list, process termination, the registry, drive scans, Steam's registry path, the Riot install file and the icon search.
- The task monitor's system and GPU trackers (`get_all_processes`, `get_system_summary`) are not modelled, because they read live system state.
- The mod.rs re-export files, `lib.rs`, the command wrappers that only forward fields, and the Python workers' stdin/stdout envelope are not modelled, because they hold no logic beyond plumbing.
- HashMap iteration order is unspecified. The breakdown tally and the description table use first-occurrence or table order, and their contracts are stated independently of order.
- Case folding is ASCII-only and whitespace is the ASCII set. Rust's `to_lowercase`, `trim`, `char::is_numeric` and `char::is_alphanumeric`, and Python's `lower` and `strip`, also cover the rest of Unicode, which the model does not.
- Fixed-width integers are `nat` unless wrap-around matters. The `u64` cache age, the `u32`/`usize` page bounds and `as u32` casts are written out with their wrap-around.
- The settings record holds every field the update command writes, including those absent from the settings model file. Their defaults are the ones the command assumes.
- DetectorInference.RunInference: a negative hop size is excluded by its requires. In the source, `range(0, len(audio) - window_samples + 1, hop)` with a negative hop yields no windows when the audio holds at least `window_samples - 1` samples. For shorter audio it counts down, giving windows at 0, hop, 2·hop, … while the start stays above that stop, and Python slices negative starts from the end of the audio. A zero hop is modelled as the error it raises.
- DetectorProcess.Process: a negative hop size is excluded by its requires, as for DetectorInference.RunInference, so the downward-counting windows that short audio gets from a negative hop are not modelled.
- ServerCommands.ExecuteSshCommand: the fresh `session_id` that `execute_ssh_command`, `test_ssh_connection` and `upload_file_to_server` put into the worker request (server.rs:152-171, server.rs:365 and server.rs:399-410) is not part of the modelled request. It is a random id that only labels the events sent to the window, and those events are not modelled.
- ServerCommands.GetServerConfig: ports are `u16` in the source, so the server members require a stored port below 65536 rather than modelling the deserialiser's rejection of larger ones.
- FeatureExtraction.Mixup: requires two spectrograms of equal shape. numpy would broadcast or raise on other shapes, which the training code never passes.
- Bottleneck.DetectBottleneck: percentages and temperatures are exact reals rather than `f32`.
- Restore.RestoreAll: the pause after each restarted process is not modelled.
- ModelEnhancer.SliceBulk: requires a positive hop. With a hop of zero or less and one fitting window the loop in the source never ends (ModelEnhancer.NonPositiveHopNeverEnds); the app passes no hop, so the default of 0.5 s applies.
- FeatureExtraction.Augment: requires drawable mask widths, at least 1 for each enabled masking step. The `ValueError` raised otherwise is modelled by FeatureExtraction.AugmentChecked.
- Train.GetItem: requires drawable mask widths as FeatureExtraction.Augment does, so the `ValueError` of a configured maximum width below 1 is not carried through a training sample.
- SteamDetector.Normalized: keeps ASCII letters and digits and the CJK ideographs U+4E00..U+9FFF, while Rust's `char::is_alphanumeric` keeps every Unicode letter and number (kana, Hangul, Cyrillic, accented Latin), so the model drops characters the source keeps.
- SteamDetector.MatchesGameName: inherits that narrower filter, so a game name made only of kana, Hangul or Cyrillic normalises to "" in the model and matches every executable, while in the source it keeps its letters and matches only executables whose names contain them.
- SteamDetector.EmptyGameNameMatchesAll: holds in the source only for names with no Unicode letter or number at all; in the model it also covers names whose only letters lie outside ASCII and U+4E00..U+9FFF.
- SteamDetector.LibraryFolders: folders are de-duplicated by comparing path strings, while `PathBuf` equality compares component by component, so two spellings of one folder (a trailing separator, say) both stay.

## Findings

| source | as written | input that shows it | evidently intended | confidence | as-written member | corrected member |
|---|---|---|---|---|---|---|
| src-tauri/src/gaming/detector.rs:90-126 | a detection pass starts sessions for new games before it ends the sessions of games that stopped | game A is tracked; on one pass A has exited and game B is running. Starting B is refused because A's session is still active, A's session is then ended, and on the next pass B is no longer new, so B never gets a session | end the stopped games' sessions before starting new ones, so a newly seen game always gets a session | not executed | GameDetector.DetectionPassMissesGame | GameDetector.EndsFirstTracksNewGame |
| src-tauri/src/commands/friends.rs:669-723 | `send_message` reloads the cache with `get_messages(1000, 0)`, which keeps the oldest thousand messages, then appends the new one and writes that back | a cache already holding 1000 messages: each send rewrites it as those 1000 plus the new message, so the second of two sends drops the first | the newest messages are kept, so consecutive sends all stay cached | not executed | FriendsCommands.SendDropsPreviousSend | FriendsCommands.NewestKeepsBothSends |
| python_workers/playlist_uploader/vps_sync.py:284-295 | a name holding an apostrophe is written between double quotes, but the reader's pattern stops a name at either quote character | playlist name `it's`: the new entry is read back as `it`, so the name is never found as existing and every call appends a duplicate entry | the reader accepts the other quote character inside a name, so an added entry is listed afterwards | not executed | VpsSync.ApostropheAlwaysAppended | VpsSync.AddedEntryListed |
| python_workers/playlist_uploader/vps_sync.py:183-188 | `push_playlist` cleans the name itself and strips only whitespace, while the downloader's `sanitize_filename` (downloader.py:23-32) also collapses whitespace and strips trailing dots | playlist name `Mix.`: the downloader saves `Mix.json`, but push looks for `Mix..json`. The uploader worker (playlist_uploader_worker.py:160-172) writes `Mix..json` itself just before pushing, so the push succeeds; the effect is a second playlist file beside the downloader's `Mix.json`, not a lost push | one file name per playlist: the push derives it with the downloader's `sanitize_filename` | not executed; low, since the only caller hides the mismatch | VpsSync.PushMissesTrailingDot | VpsSync.PushFindsSavedPlaylist |

=== FILE: audio_types.dfy ===
/** Shared types of the audio-event-detection workers: the inference
    configuration, detected segments and their JSON form, the training
    manifest and the training configuration, with the feature constants.

    The JSON key `label` is the field `tag` here (`label` is reserved in Dafny).
    A JSON object read with `dict.get(key, default)` is modelled as a record
    with one `Option` per key: `None` is a missing key. */
module AudioTypes {
  import opened Wrappers
  import opened Numeric

  // ---------------------------------------------------------------- constants

  const SAMPLE_RATE: nat := 16000
  const N_MELS: nat := 128
  const N_FFT: nat := 2048
  const HOP_LENGTH: nat := 512

  const TARGET_LABEL: string := "target_audio"

  // ---------------------------------------------------------------- inference configuration

  /** Durations are whole milliseconds; the threshold is a probability. */
  datatype ModelConfig = ModelConfig(
    modelPath: Option<string>,
    windowSizeMs: int,
    hopSizeMs: int,
    confidenceThreshold: real,
    minSegmentDurationMs: int,
    mergeGapMs: int)

  const DefaultModelConfig: ModelConfig := ModelConfig(None, 1000, 250, 0.7, 500, 300)

  /** The `config` object of a detection request; every key may be missing. */
  datatype ModelConfigDict = ModelConfigDict(
    modelPath: Option<string>,
    windowSizeMs: Option<int>,
    hopSizeMs: Option<int>,
    confidenceThreshold: Option<real>,
    minSegmentDurationMs: Option<int>,
    mergeGapMs: Option<int>)

  const EmptyModelConfigDict: ModelConfigDict := ModelConfigDict(None, None, None, None, None, None)

  /** `ModelConfig.from_dict`: each missing key independently takes its default. */
  function ModelConfigFromDict(d: ModelConfigDict): (c: ModelConfig)
    ensures d.windowSizeMs.None? ==> c.windowSizeMs == DefaultModelConfig.windowSizeMs
    ensures d.hopSizeMs.None? ==> c.hopSizeMs == DefaultModelConfig.hopSizeMs
    ensures d.confidenceThreshold.None? ==> c.confidenceThreshold == DefaultModelConfig.confidenceThreshold
    ensures d.minSegmentDurationMs.None? ==> c.minSegmentDurationMs == DefaultModelConfig.minSegmentDurationMs
    ensures d.mergeGapMs.None? ==> c.mergeGapMs == DefaultModelConfig.mergeGapMs
    ensures d.modelPath.None? ==> c.modelPath.None?
  {
    ModelConfig(
      d.modelPath,
      d.windowSizeMs.GetOr(1000),
      d.hopSizeMs.GetOr(250),
      d.confidenceThreshold.GetOr(0.7),
      d.minSegmentDurationMs.GetOr(500),
      d.mergeGapMs.GetOr(300))
  }

  /** The object that lists every field of a configuration. */
  function ModelConfigToFullDict(c: ModelConfig): ModelConfigDict
  {
    ModelConfigDict(c.modelPath, Some(c.windowSizeMs), Some(c.hopSizeMs),
      Some(c.confidenceThreshold), Some(c.minSegmentDurationMs), Some(c.mergeGapMs))
  }

  /** Reading an object that lists every field recovers the configuration,
      so each key feeds its own field. */
  lemma ModelConfigRoundTrip(c: ModelConfig)
    ensures ModelConfigFromDict(ModelConfigToFullDict(c)) == c
  {
  }

  /** The empty object yields the defaults 1000/250/0.7/500/300. */
  lemma ModelConfigEmptyIsDefault()
    ensures ModelConfigFromDict(EmptyModelConfigDict) == DefaultModelConfig
    ensures DefaultModelConfig.windowSizeMs == 1000 && DefaultModelConfig.hopSizeMs == 250
    ensures DefaultModelConfig.confidenceThreshold == 0.7
    ensures DefaultModelConfig.minSegmentDurationMs == 500 && DefaultModelConfig.mergeGapMs == 300
  {
  }

  // ---------------------------------------------------------------- segments

  datatype TimestampSegment = TimestampSegment(
    startSeconds: real,
    endSeconds: real,
    confidence: real,
    tag: string)

  /** The JSON object written for a segment. */
  datatype SegmentDict = SegmentDict(
    startSeconds: real,
    endSeconds: real,
    confidence: real,
    tag: string)

  /** `TimestampSegment.to_dict`: times to 2 decimals, confidence to 3, label unchanged. */
  function SegmentToDict(s: TimestampSegment): (d: SegmentDict)
    ensures s.startSeconds - 0.005 <= d.startSeconds <= s.startSeconds + 0.005
    ensures s.endSeconds - 0.005 <= d.endSeconds <= s.endSeconds + 0.005
    ensures s.confidence - 0.0005 <= d.confidence <= s.confidence + 0.0005
    ensures d.tag == s.tag
  {
    RoundError(s.startSeconds, Hundredths);
    RoundError(s.endSeconds, Hundredths);
    RoundError(s.confidence, Thousandths);
    SegmentDict(
      PyRound(s.startSeconds, Hundredths),
      PyRound(s.endSeconds, Hundredths),
      PyRound(s.confidence, Thousandths),
      s.tag)
  }

  /** Serialising a segment whose values are already rounded writes them unchanged. */
  lemma SegmentToDictStable(s: TimestampSegment)
    ensures var d := SegmentToDict(s);
      SegmentToDict(TimestampSegment(d.startSeconds, d.endSeconds, d.confidence, d.tag)) == d
  {
    RoundIdempotent(s.startSeconds, Hundredths);
    RoundIdempotent(s.endSeconds, Hundredths);
    RoundIdempotent(s.confidence, Thousandths);
  }

  datatype AudioDetectionResult = AudioDetectionResult(
    segments: seq<TimestampSegment>,
    totalDurationSeconds: real,
    detectedDurationSeconds: real,
    modelVersion: string)

  datatype ResultDict = ResultDict(
    segments: seq<SegmentDict>,
    totalDurationSeconds: real,
    detectedDurationSeconds: real,
    modelVersion: string)

  function SegmentsToDicts(ss: seq<TimestampSegment>): (ds: seq<SegmentDict>)
    ensures |ds| == |ss|
    ensures forall i :: 0 <= i < |ss| ==> ds[i] == SegmentToDict(ss[i])
  {
    if |ss| == 0 then [] else [SegmentToDict(ss[0])] + SegmentsToDicts(ss[1..])
  }

  /** `AudioDetectionResult.to_dict`: segments in order, durations to 2 decimals. */
  function ResultToDict(r: AudioDetectionResult): (d: ResultDict)
    ensures |d.segments| == |r.segments|
    ensures forall i :: 0 <= i < |r.segments| ==> d.segments[i] == SegmentToDict(r.segments[i])
    ensures r.totalDurationSeconds - 0.005 <= d.totalDurationSeconds <= r.totalDurationSeconds + 0.005
    ensures r.detectedDurationSeconds - 0.005 <= d.detectedDurationSeconds <= r.detectedDurationSeconds + 0.005
    ensures d.modelVersion == r.modelVersion
  {
    RoundError(r.totalDurationSeconds, Hundredths);
    RoundError(r.detectedDurationSeconds, Hundredths);
    ResultDict(
      SegmentsToDicts(r.segments),
      PyRound(r.totalDurationSeconds, Hundredths),
      PyRound(r.detectedDurationSeconds, Hundredths),
      r.modelVersion)
  }

  // ---------------------------------------------------------------- training manifest

  datatype TrainingSample = TrainingSample(file: string, tag: string, source: string)

  datatype TrainingManifest = TrainingManifest(
    positiveSamples: seq<TrainingSample>,
    negativeSamples: seq<TrainingSample>,
    hardNegatives: seq<TrainingSample>)

  const POSITIVE_KEY: string := "positive_samples"
  const NEGATIVE_KEY: string := "negative_samples"
  const HARD_NEGATIVE_KEY: string := "hard_negatives"

  /** A manifest file's object: sample lists by key. */
  type ManifestDict = map<string, seq<TrainingSample>>

  function ListOrEmpty(d: ManifestDict, key: string): seq<TrainingSample>
  {
    if key in d then d[key] else []
  }

  /** `TrainingManifest.from_dict`: a missing list is empty; other keys are ignored. */
  function ManifestFromDict(d: ManifestDict): (m: TrainingManifest)
    ensures POSITIVE_KEY !in d ==> m.positiveSamples == []
    ensures NEGATIVE_KEY !in d ==> m.negativeSamples == []
    ensures HARD_NEGATIVE_KEY !in d ==> m.hardNegatives == []
  {
    TrainingManifest(
      ListOrEmpty(d, POSITIVE_KEY),
      ListOrEmpty(d, NEGATIVE_KEY),
      ListOrEmpty(d, HARD_NEGATIVE_KEY))
  }

  /** `TrainingManifest.to_dict`: exactly the three keys. */
  function ManifestToDict(m: TrainingManifest): (d: ManifestDict)
    ensures d.Keys == {POSITIVE_KEY, NEGATIVE_KEY, HARD_NEGATIVE_KEY}
  {
    map[POSITIVE_KEY := m.positiveSamples,
        NEGATIVE_KEY := m.negativeSamples,
        HARD_NEGATIVE_KEY := m.hardNegatives]
  }

  /** Writing then reading a manifest gives it back. */
  lemma ManifestRoundTrip(m: TrainingManifest)
    ensures ManifestFromDict(ManifestToDict(m)) == m
  {
  }

  /** Reading then writing an object with exactly the three keys gives it back,
      so the keys are positive_samples, negative_samples and hard_negatives. */
  lemma ManifestDictRoundTrip(d: ManifestDict)
    requires d.Keys == {POSITIVE_KEY, NEGATIVE_KEY, HARD_NEGATIVE_KEY}
    ensures ManifestToDict(ManifestFromDict(d)) == d
  {
    var e := ManifestToDict(ManifestFromDict(d));
    assert e.Keys == d.Keys;
    forall k | k in d.Keys
      ensures e[k] == d[k]
    {
    }
  }

  // ---------------------------------------------------------------- training configuration

  datatype TrainingConfig = TrainingConfig(
    batchSize: int,
    learningRate: real,
    weightDecay: real,
    epochs: int,
    earlyStoppingPatience: int,
    timeMaskMaxWidth: int,
    freqMaskMaxWidth: int,
    gainRange: seq<real>,
    mixupAlpha: real,
    positiveWeight: real,
    negativeWeight: real,
    outputDir: string,
    exportOnnx: bool)

  const DefaultTrainingConfig: TrainingConfig := TrainingConfig(
    32, 0.001, 0.01, 100, 10, 5, 10, [-3.0, 3.0], 0.2, 1.0, 1.0, "./trained_models", true)

  /** The nested `augmentation` object. */
  datatype AugmentationDict = AugmentationDict(
    timeMaskMaxWidth: Option<int>,
    freqMaskMaxWidth: Option<int>,
    gainRange: Option<seq<real>>,
    mixupAlpha: Option<real>)

  /** The nested `class_weights` object. */
  datatype ClassWeightsDict = ClassWeightsDict(positive: Option<real>, negative: Option<real>)

  datatype TrainingConfigDict = TrainingConfigDict(
    batchSize: Option<int>,
    learningRate: Option<real>,
    weightDecay: Option<real>,
    epochs: Option<int>,
    earlyStoppingPatience: Option<int>,
    augmentation: Option<AugmentationDict>,
    classWeights: Option<ClassWeightsDict>,
    outputDir: Option<string>,
    exportOnnx: Option<bool>)

  const EmptyAugmentation: AugmentationDict := AugmentationDict(None, None, None, None)
  const EmptyClassWeights: ClassWeightsDict := ClassWeightsDict(None, None)

  /** `TrainingConfig.from_dict`: top-level keys, then the two nested objects,
      a missing nested object behaving as an empty one. */
  function TrainingConfigFromDict(d: TrainingConfigDict): (c: TrainingConfig)
    ensures d.augmentation.None? ==>
      c.timeMaskMaxWidth == 5 && c.freqMaskMaxWidth == 10 && c.gainRange == [-3.0, 3.0] && c.mixupAlpha == 0.2
    ensures d.classWeights.None? ==> c.positiveWeight == 1.0 && c.negativeWeight == 1.0
  {
    var aug := d.augmentation.GetOr(EmptyAugmentation);
    var weights := d.classWeights.GetOr(EmptyClassWeights);
    TrainingConfig(
      d.batchSize.GetOr(32),
      d.learningRate.GetOr(0.001),
      d.weightDecay.GetOr(0.01),
      d.epochs.GetOr(100),
      d.earlyStoppingPatience.GetOr(10),
      aug.timeMaskMaxWidth.GetOr(5),
      aug.freqMaskMaxWidth.GetOr(10),
      aug.gainRange.GetOr([-3.0, 3.0]),
      aug.mixupAlpha.GetOr(0.2),
      weights.positive.GetOr(1.0),
      weights.negative.GetOr(1.0),
      d.outputDir.GetOr("./trained_models"),
      d.exportOnnx.GetOr(true))
  }

  /** The object that lists every field, with the nested objects filled in. */
  function TrainingConfigToFullDict(c: TrainingConfig): TrainingConfigDict
  {
    TrainingConfigDict(
      Some(c.batchSize), Some(c.learningRate), Some(c.weightDecay), Some(c.epochs),
      Some(c.earlyStoppingPatience),
      Some(AugmentationDict(Some(c.timeMaskMaxWidth), Some(c.freqMaskMaxWidth), Some(c.gainRange), Some(c.mixupAlpha))),
      Some(ClassWeightsDict(Some(c.positiveWeight), Some(c.negativeWeight))),
      Some(c.outputDir), Some(c.exportOnnx))
  }

  /** Each nested key feeds its own field: a full object reads back to the configuration. */
  lemma TrainingConfigRoundTrip(c: TrainingConfig)
    ensures TrainingConfigFromDict(TrainingConfigToFullDict(c)) == c
  {
  }

  /** An empty object, or one whose nested objects are empty, gives the defaults. */
  lemma TrainingConfigDefaults()
    ensures TrainingConfigFromDict(TrainingConfigDict(None, None, None, None, None, None, None, None, None))
      == DefaultTrainingConfig
    ensures TrainingConfigFromDict(TrainingConfigDict(None, None, None, None, None,
      Some(EmptyAugmentation), Some(EmptyClassWeights), None, None)) == DefaultTrainingConfig
    ensures DefaultTrainingConfig.batchSize == 32 && DefaultTrainingConfig.epochs == 100
    ensures DefaultTrainingConfig.earlyStoppingPatience == 10 && DefaultTrainingConfig.learningRate == 0.001
  {
  }
}

=== FILE: audio_utils.dfy ===
/** Audio helpers of the training pipeline: fixed-size zero-padded segmentation,
    slicing by timestamps, the audio-file validity test and the RMS energy test.

    Audio is a sequence of real samples. Loading and decoding are outside the
    model; a file's existence and readable duration are parameters. */
module AudioUtils {
  import opened Wrappers
  import opened Numeric
  import opened Strings
  import opened Paths
  import opened DetectorInference

  // ---------------------------------------------------------------- Python slicing

  /** A slice bound as Python normalises it: negative counts from the end, and
      both sides are clamped to the sequence. */
  function SliceBound(i: int, n: nat): (r: nat)
    ensures r <= n
    ensures 0 <= i <= n ==> r == i
  {
    if i < 0 then (if n + i < 0 then 0 else n + i) else if i > n then n else i
  }

  /** `xs[a:b]`. */
  function PySlice<T>(xs: seq<T>, a: int, b: int): (r: seq<T>)
    ensures |r| <= |xs|
    ensures 0 <= a <= b <= |xs| ==> r == xs[a..b]
    ensures 0 <= b <= a ==> r == []
  {
    var lo := SliceBound(a, |xs|);
    var hi := SliceBound(b, |xs|);
    if lo < hi then xs[lo..hi] else []
  }

  function Zeros(n: nat): (r: seq<real>)
    ensures |r| == n && forall i :: 0 <= i < n ==> r[i] == 0.0
  {
    seq(n, _ => 0.0)
  }

  // ---------------------------------------------------------------- segmentation

  /** One window of `segment_audio`: the audio from `start`, padded with zeros at the
      end to exactly `w` samples. */
  function SegmentWindow(audio: seq<real>, start: nat, w: nat): (r: seq<real>)
    ensures |r| == w
    ensures forall i :: 0 <= i < w ==> r[i] == if start + i < |audio| then audio[start + i] else 0.0
  {
    var s := PySlice(audio, start, start + w);
    assert start < |audio| ==> s == audio[start..if start + w <= |audio| then start + w else |audio|];
    s + Zeros(w - |s|)
  }

  /** `segment_audio`: a window at every multiple of the hop below the audio length.
      A zero hop is the `range` error; a negative hop gives an empty range. The
      window size is a sample count, so it is never negative. */
  function SegmentAudio(audio: seq<real>, w: nat, hop: int): (r: Result<seq<seq<real>>>)
    ensures r.Err? <==> hop == 0
    ensures hop < 0 ==> r == Ok([])
  {
    if hop == 0 then Err("range() arg 3 must not be zero")
    else if hop < 0 then Ok([])
    else
      var starts := PyRange(0, |audio|, hop);
      Ok(seq(|starts|, k requires 0 <= k < |starts| => SegmentWindow(audio, if starts[k] < 0 then 0 else starts[k], w)))
  }

  /** With a positive hop there are ceil(len / hop) windows, none for empty audio;
      window k starts at k * hop, and every window has exactly `w` samples. */
  lemma SegmentAudioShape(audio: seq<real>, w: nat, hop: int)
    requires hop > 0
    ensures var r := SegmentAudio(audio, w, hop).value;
      && |r| == (|audio| + hop - 1) / hop
      && (|audio| == 0 ==> r == [])
      && forall k :: 0 <= k < |r| ==> k * hop < |audio| && r[k] == SegmentWindow(audio, k * hop, w) && |r[k]| == w
  {
    var r := SegmentAudio(audio, w, hop).value;
    PyRangeShape(0, |audio|, hop);
    WindowCount(|audio|, hop);
    forall k | 0 <= k < |r| ensures k * hop < |audio| && r[k] == SegmentWindow(audio, k * hop, w) {
      SegmentAt(audio, w, hop, k);
    }
  }

  /** Window k starts at the k-th element of the range, k * hop. */
  lemma SegmentAt(audio: seq<real>, w: nat, hop: int, k: nat)
    requires hop > 0 && k < |SegmentAudio(audio, w, hop).value|
    ensures k * hop < |audio| && SegmentAudio(audio, w, hop).value[k] == SegmentWindow(audio, k * hop, w)
  {
    var starts := PyRange(0, |audio|, hop);
    PyRangeShape(0, |audio|, hop);
    assert starts[k] == k * hop;
  }

  /** A range of length ceil(n / hop): none for nothing. */
  lemma WindowCount(n: nat, hop: int)
    requires hop > 0
    ensures (if 0 < n then (n - 1) / hop + 1 else 0) == (n + hop - 1) / hop
  {
    if n > 0 {
      DivShift(n - 1, hop);
    }
  }

  /** `split_audio_by_timestamps`: one slice per pair, in order. */
  function SplitByTimestamps(audio: seq<real>, stamps: seq<(real, real)>, sr: nat): (r: seq<seq<real>>)
    ensures |r| == |stamps|
    ensures forall k :: 0 <= k < |stamps| ==>
      r[k] == StampSlice(audio, Scaled(stamps[k].0, sr), Scaled(stamps[k].1, sr))
  {
    seq(|stamps|, k requires 0 <= k < |stamps| => StampSlice(audio, Scaled(stamps[k].0, sr), Scaled(stamps[k].1, sr)))
  }

  /** A time in seconds as a (fractional) sample position. */
  function Scaled(t: real, sr: nat): real
  {
    t * sr as real
  }

  /** The samples between `int(lo)` and `int(hi)`, the times scaled to samples. */
  function StampSlice(audio: seq<real>, lo: real, hi: real): seq<real>
  {
    PySlice(audio, Trunc(lo), Trunc(hi))
  }

  /** A pair of whole-sample times inside the audio yields exactly those samples. */
  lemma SplitExact(audio: seq<real>, stamps: seq<(real, real)>, sr: nat, k: nat, a: nat, b: nat)
    requires k < |stamps| && a <= b <= |audio|
    requires stamps[k].0 * sr as real == a as real && stamps[k].1 * sr as real == b as real
    ensures SplitByTimestamps(audio, stamps, sr)[k] == audio[a..b]
  {
    TruncWhole(Scaled(stamps[k].0, sr), a);
    TruncWhole(Scaled(stamps[k].1, sr), b);
    StampExact(audio, Scaled(stamps[k].0, sr), Scaled(stamps[k].1, sr), a, b);
  }

  lemma StampExact(audio: seq<real>, lo: real, hi: real, a: nat, b: nat)
    requires a <= b <= |audio| && Trunc(lo) == a && Trunc(hi) == b
    ensures StampSlice(audio, lo, hi) == audio[a..b]
  {
  }

  lemma TruncWhole(x: real, a: nat)
    requires x == a as real
    ensures Trunc(x) == a
  {
  }

  // ---------------------------------------------------------------- file validity

  const SUPPORTED_FORMATS: seq<string> := ["mp3", "wav", "flac", "ogg", "m4a", "aac", "wma", "opus"]

  /** The lower-cased suffix without its dot. */
  function AudioExtension(path: string): string
  {
    StripStart(Lower(PySuffix(path)), {'.'})
  }

  /** `is_valid_audio_file`: the file exists, its extension is supported, and its
      duration can be read and is positive (`duration` is None when reading fails). */
  function IsValidAudioFile(path: string, fileExists: string -> bool, duration: string -> Option<real>): (ok: bool)
    ensures ok <==>
      && fileExists(path)
      && AudioExtension(path) in SUPPORTED_FORMATS
      && duration(path).Some? && duration(path).value > 0.0
    ensures ok ==> PySuffix(path) != ""
  {
    if !fileExists(path) then false
    else if AudioExtension(path) !in SUPPORTED_FORMATS then false
    else
      assert PySuffix(path) == "" ==> AudioExtension(path) == "";
      match duration(path)
      case None => false
      case Some(d) => d > 0.0
  }

  // ---------------------------------------------------------------- energy

  function Squares(xs: seq<real>): (r: seq<real>)
    ensures |r| == |xs| && forall i :: 0 <= i < |xs| ==> r[i] == xs[i] * xs[i]
  {
    seq(|xs|, i requires 0 <= i < |xs| => xs[i] * xs[i])
  }

  /** The mean of the squared samples, the square of the RMS energy. */
  function MeanSquare(audio: seq<real>): (m: real)
    requires |audio| > 0
    ensures m >= 0.0
  {
    var sq := Squares(audio);
    MeanAtLeast(sq, 0.0);
    Mean(sq)
  }

  /** `has_sufficient_energy`: RMS energy strictly above the threshold. The RMS of
      empty audio is NaN, which is above nothing. */
  function HasSufficientEnergy(audio: seq<real>, threshold: real): bool
  {
    |audio| > 0 && (threshold < 0.0 || MeanSquare(audio) > threshold * threshold)
  }

  /** The test is `rms > threshold` for the non-negative square root `rms` of the mean
      square, comparing without taking a root. */
  lemma EnergyIsRmsTest(audio: seq<real>, threshold: real, rms: real)
    requires |audio| > 0 && rms >= 0.0 && rms * rms == MeanSquare(audio)
    ensures HasSufficientEnergy(audio, threshold) <==> rms > threshold
  {
    if threshold >= 0.0 {
      if rms > threshold {
        MulStrictBoth(threshold, rms);
      } else {
        MulMonoBoth(rms, threshold);
      }
    }
  }

  lemma MulStrictBoth(a: real, b: real)
    requires 0.0 <= a < b
    ensures a * a < b * b
  {
    MulStrict(0.0, b - a, b + a);
    assert (b - a) * (b + a) == b * b - a * a;
  }

  lemma MulMonoBoth(a: real, b: real)
    requires 0.0 <= a <= b
    ensures a * a <= b * b
  {
    MulMono(0.0, b - a, b + a);
    assert (b - a) * (b + a) == b * b - a * a;
  }
}

=== FILE: auth.dfy ===
/** Riot sign-in: the captured cookies, the status shown to the user, the credentials
    handed to the store checker, the player id copied into the settings, and logout.

    The auth file is `None` when it does not exist and `Some(Err(..))` when it cannot
    be read, as the settings file is. */
module RiotAuth {
  import opened Wrappers
  import opened AppSettings

  // ---------------------------------------------------------------- cookies

  datatype RiotAuthCookies = RiotAuthCookies(
    tdid: Option<string>,
    clid: Option<string>,
    csid: Option<string>,
    ssid: Option<string>,
    sub: Option<string>,
    capturedAt: Option<string>)

  const NoCookies := RiotAuthCookies(None, None, None, None, None, None)

  /** Re-authorisation needs the session cookie. */
  predicate IsComplete(c: RiotAuthCookies) { c.ssid.Some? }

  /** All five cookies give the longest re-authorisation. */
  predicate HasFullAuth(c: RiotAuthCookies)
  {
    c.tdid.Some? && c.clid.Some? && c.csid.Some? && c.ssid.Some? && c.sub.Some?
  }

  /** A full set of cookies is complete, and the capture time plays no part in either. */
  lemma FullIsComplete(c: RiotAuthCookies, at: Option<string>)
    ensures HasFullAuth(c) ==> IsComplete(c)
    ensures IsComplete(c.(capturedAt := at)) == IsComplete(c)
    ensures HasFullAuth(c.(capturedAt := at)) == HasFullAuth(c)
  {
  }

  type AuthFile = Option<Result<RiotAuthCookies>>

  // ---------------------------------------------------------------- capture

  /** One cookie of the sign-in window for the Riot auth domain. */
  datatype Cookie = Cookie(name: string, value: string)

  const CookieNames: set<string> := {"tdid", "clid", "csid", "ssid", "sub"}

  /** The field of the record that stores the cookie called `name`. */
  function Field(c: RiotAuthCookies, name: string): Option<string>
    requires name in CookieNames
  {
    match name
    case "tdid" => c.tdid
    case "clid" => c.clid
    case "csid" => c.csid
    case "ssid" => c.ssid
    case _ => c.sub
  }

  /** Stores one cookie into its own field; cookies with other names are ignored. */
  function Store(c: RiotAuthCookies, k: Cookie): RiotAuthCookies
  {
    match k.name
    case "tdid" => c.(tdid := Some(k.value))
    case "clid" => c.(clid := Some(k.value))
    case "csid" => c.(csid := Some(k.value))
    case "ssid" => c.(ssid := Some(k.value))
    case "sub" => c.(sub := Some(k.value))
    case _ => c
  }

  /** The record built from the window's cookies, in order. */
  function Collect(cs: seq<Cookie>): (r: RiotAuthCookies)
    ensures r.capturedAt.None?
    decreases |cs|
  {
    if |cs| == 0 then NoCookies else Store(Collect(cs[..|cs| - 1]), cs[|cs| - 1])
  }

  /** The value of the last cookie called `name`. */
  predicate LastCookie(cs: seq<Cookie>, name: string, v: Option<string>)
  {
    if v.None? then forall i :: 0 <= i < |cs| ==> cs[i].name != name
    else exists i :: 0 <= i < |cs| && cs[i] == Cookie(name, v.value) && forall j :: i < j < |cs| ==> cs[j].name != name
  }

  /** Each of the five fields holds the value of the last cookie with its name, and
      nothing when there is none. */
  lemma {:induction false} CollectLast(cs: seq<Cookie>, name: string)
    requires name in CookieNames
    ensures LastCookie(cs, name, Field(Collect(cs), name))
    decreases |cs|
  {
    if |cs| > 0 {
      var init := cs[..|cs| - 1];
      var k := cs[|cs| - 1];
      CollectLast(init, name);
      StoreField(Collect(init), k, name);
      assert cs == init + [k];
      LastCookieStep(init, k, name, Field(Collect(init), name));
    }
  }

  /** Storing a cookie sets its own field and leaves the others. */
  lemma StoreField(c: RiotAuthCookies, k: Cookie, name: string)
    requires name in CookieNames
    ensures Field(Store(c, k), name) == if k.name == name then Some(k.value) else Field(c, name)
  {
  }

  /** Appending a cookie makes it the last one with its name and keeps the last one of
      every other name. */
  lemma LastCookieStep(cs: seq<Cookie>, k: Cookie, name: string, v: Option<string>)
    requires LastCookie(cs, name, v)
    ensures LastCookie(cs + [k], name, if k.name == name then Some(k.value) else v)
  {
    var r := cs + [k];
    assert r[|cs|] == k;
    assert forall i :: 0 <= i < |cs| ==> r[i] == cs[i];
    if k.name != name && v.Some? {
      var i :| 0 <= i < |cs| && cs[i] == Cookie(name, v.value) && forall j :: i < j < |cs| ==> cs[j].name != name;
      assert r[i] == Cookie(name, v.value);
    }
  }

  /** A cookie with any other name changes nothing. */
  lemma CollectIgnoresOthers(cs: seq<Cookie>, k: Cookie)
    requires k.name !in CookieNames
    ensures Collect(cs + [k]) == Collect(cs)
  {
    assert (cs + [k])[..|cs|] == cs;
  }

  /** What `capture_auth_cookies` answers and writes. */
  datatype Capture = Capture(reply: Result<bool>, authWritten: Option<RiotAuthCookies>, settingsWritten: Option<Settings>)

  /** `capture_auth_cookies`: without a sign-in window, or when its cookies cannot be
      read, it fails; without a session cookie it answers false and writes nothing;
      otherwise it stamps and writes the cookies, then copies the player id into the
      settings, failing (after the auth file is written) when they cannot be read. */
  function CaptureAuthCookies(windowOpen: bool, cookies: Result<seq<Cookie>>, now: string, settings: SettingsFile): (r: Capture)
    ensures r.reply == Ok(true) <==> r.authWritten.Some? && r.reply.Ok?
    ensures r.authWritten.Some? ==> IsComplete(r.authWritten.value) && r.authWritten.value.capturedAt == Some(now)
    ensures r.reply == Ok(false) ==> r.authWritten.None? && r.settingsWritten.None?
    ensures r.settingsWritten.Some? ==> r.authWritten.Some? && r.authWritten.value.sub.Some?
  {
    if !windowOpen then Capture(Err("Auth window not found"), None, None)
    else if cookies.Err? then Capture(Err("Failed to get cookies: " + cookies.error), None, None)
    else
      var c := Collect(cookies.value);
      if !IsComplete(c) then Capture(Ok(false), None, None)
      else
        var stamped := c.(capturedAt := Some(now));
        if stamped.sub.None? then Capture(Ok(true), Some(stamped), None)
        else
          match UpdateSettingsPuuid(settings, stamped.sub.value)
          case Err(e) => Capture(Err(e), Some(stamped), None)
          case Ok(s) => Capture(Ok(true), Some(stamped), Some(s))
  }

  /** The capture writes exactly the collected cookies, and only when the session
      cookie was among them. */
  lemma CaptureWritesCollected(windowOpen: bool, cookies: Result<seq<Cookie>>, now: string, settings: SettingsFile)
    ensures var r := CaptureAuthCookies(windowOpen, cookies, now, settings);
      r.authWritten.Some? <==> windowOpen && cookies.Ok? && IsComplete(Collect(cookies.value))
    ensures var r := CaptureAuthCookies(windowOpen, cookies, now, settings);
      r.authWritten.Some? ==> r.authWritten.value == Collect(cookies.value).(capturedAt := Some(now))
  {
  }

  /** `update_settings_puuid`: existing credentials keep their user name and region and
      get the player id; without credentials new ones are made for region "ap". No other
      setting changes. */
  function UpdateSettingsPuuid(file: SettingsFile, puuid: string): (r: Result<Settings>)
    ensures r.Ok? <==> GetSettings(file).Ok?
    ensures r.Ok? ==> r.value.(valorantCredentials := GetSettings(file).value.valorantCredentials) == GetSettings(file).value
    ensures r.Ok? ==> r.value.valorantCredentials.Some? && r.value.valorantCredentials.value.puuid == Some(puuid)
    ensures r.Ok? && GetSettings(file).value.valorantCredentials.Some? ==>
      var prev := GetSettings(file).value.valorantCredentials.value;
      r.value.valorantCredentials.value.username == prev.username && r.value.valorantCredentials.value.region == prev.region
    ensures r.Ok? && GetSettings(file).value.valorantCredentials.None? ==>
      r.value.valorantCredentials.value == ValorantCredentials(None, "ap", Some(puuid))
  {
    var s :- GetSettings(file);
    match s.valorantCredentials
    case Some(creds) => Ok(s.(valorantCredentials := Some(creds.(puuid := Some(puuid)))))
    case None => Ok(s.(valorantCredentials := Some(ValorantCredentials(None, "ap", Some(puuid)))))
  }

  // ---------------------------------------------------------------- status

  datatype AuthStatus = AuthStatus(
    isAuthenticated: bool,
    hasFullCookies: bool,
    username: Option<string>,
    region: string,
    puuid: Option<string>,
    expiresHint: Option<string>)

  /** The cookies the status looks at: an unreadable auth file counts as none. */
  function Readable(file: AuthFile): (r: Option<RiotAuthCookies>)
    ensures r.Some? <==> file.Some? && file.value.Ok?
  {
    if file.Some? && file.value.Ok? then Some(file.value.value) else None
  }

  /** `get_auth_status`: fails only when the settings cannot be read. */
  function GetAuthStatus(auth: AuthFile, settings: SettingsFile): (r: Result<AuthStatus>)
    ensures r.Ok? <==> GetSettings(settings).Ok?
    ensures r.Ok? ==> (r.value.isAuthenticated <==> Readable(auth).Some? && IsComplete(Readable(auth).value))
    ensures r.Ok? ==> (r.value.hasFullCookies <==> Readable(auth).Some? && HasFullAuth(Readable(auth).value))
    ensures r.Ok? ==> r.value.puuid == (if Readable(auth).Some? then Readable(auth).value.sub else None)
    ensures r.Ok? && GetSettings(settings).value.valorantCredentials.None? ==> r.value.region == "ap" && r.value.username.None?
    ensures r.Ok? && GetSettings(settings).value.valorantCredentials.Some? ==>
      r.value.region == GetSettings(settings).value.valorantCredentials.value.region
  {
    var s :- GetSettings(settings);
    var cookies := Readable(auth);
    var complete := cookies.Some? && IsComplete(cookies.value);
    var full := cookies.Some? && HasFullAuth(cookies.value);
    var creds := s.valorantCredentials;
    Ok(AuthStatus(
      complete,
      full,
      if creds.Some? then creds.value.username else None,
      if creds.Some? then creds.value.region else "ap",
      if cookies.Some? then cookies.value.sub else None,
      if full then Some("3 weeks") else if complete then Some("1 week") else None))
  }

  /** The validity hint: three weeks with every cookie, one week with the session
      cookie alone, and none without it. */
  lemma ExpiresHint(auth: AuthFile, settings: SettingsFile)
    requires GetAuthStatus(auth, settings).Ok?
    ensures var st := GetAuthStatus(auth, settings).value;
      && (st.expiresHint == Some("3 weeks") <==> st.hasFullCookies)
      && (st.expiresHint == Some("1 week") <==> st.isAuthenticated && !st.hasFullCookies)
      && (st.expiresHint.None? <==> !st.isAuthenticated)
  {
    var c := Readable(auth);
    if c.Some? {
      FullIsComplete(c.value, None);
    }
  }

  // ---------------------------------------------------------------- credentials and logout

  /** `get_stored_credentials`: the cookies only when they are complete; no file is no
      credentials, an unreadable one an error. */
  function GetStoredCredentials(auth: AuthFile): (r: Result<Option<RiotAuthCookies>>)
    ensures auth.None? ==> r == Ok(None)
    ensures auth.Some? && auth.value.Err? ==> r == Err(auth.value.error)
    ensures r.Ok? && r.value.Some? ==> IsComplete(r.value.value) && auth == Some(Ok(r.value.value))
    ensures auth.Some? && auth.value.Ok? && IsComplete(auth.value.value) ==> r == Ok(Some(auth.value.value))
  {
    match auth
    case None => Ok(None)
    case Some(Err(e)) => Err(e)
    case Some(Ok(c)) => if IsComplete(c) then Ok(Some(c)) else Ok(None)
  }

  /** The cookies a capture writes are what the store checker is then given, and the
      status reports them as signed in. */
  lemma CaptureThenStored(windowOpen: bool, cookies: Result<seq<Cookie>>, now: string, settings: SettingsFile)
    requires CaptureAuthCookies(windowOpen, cookies, now, settings).authWritten.Some?
    ensures var written := CaptureAuthCookies(windowOpen, cookies, now, settings).authWritten.value;
      GetStoredCredentials(Some(Ok(written))) == Ok(Some(written))
    ensures var written := CaptureAuthCookies(windowOpen, cookies, now, settings).authWritten.value;
      GetSettings(settings).Ok? ==> GetAuthStatus(Some(Ok(written)), settings).value.isAuthenticated
  {
  }

  /** `logout`: the auth file is removed; failing to remove it is an error. */
  function Logout(auth: AuthFile, removeError: Option<string>): (r: Result<AuthFile>)
    ensures r.Ok? ==> r.value.None?
    ensures r.Err? <==> auth.Some? && removeError.Some?
  {
    if auth.Some? && removeError.Some? then Err("Failed to remove auth file: " + removeError.value)
    else Ok(None)
  }

  /** After a logout no credentials are handed out and the status is signed out. */
  lemma LogoutSignsOut(auth: AuthFile, removeError: Option<string>, settings: SettingsFile)
    requires Logout(auth, removeError).Ok?
    ensures GetStoredCredentials(Logout(auth, removeError).value) == Ok(None)
    ensures GetSettings(settings).Ok? ==>
      var st := GetAuthStatus(Logout(auth, removeError).value, settings).value;
      !st.isAuthenticated && !st.hasFullCookies && st.expiresHint.None?
  {
  }
}

=== FILE: bottleneck.dfy ===
/** The gaming analyser's bottleneck classifier: one metrics snapshot is classified
    into a bottleneck type by a fixed priority of tests against configurable
    thresholds, and given a severity band of 1 to 3 (0 when balanced).

    Percentages and temperatures are `f32` in the system; here they are exact reals,
    so no claim is made about rounding at the band boundaries. */
module Bottleneck {
  import opened Wrappers

  // ---------------------------------------------------------------- data

  datatype BottleneckType =
    | CpuBound | GpuBound | RamLimited | VramLimited | CpuThermal | GpuThermal | Balanced

  /** One core of the processor and its usage. */
  datatype TopCoreInfo = TopCoreInfo(coreIndex: nat, usagePercent: real)

  /** One reading of the system; the timestamp is in milliseconds. */
  datatype MetricsSnapshot = MetricsSnapshot(
    timestamp: int,
    cpuPercent: real,
    topCore1: Option<TopCoreInfo>,
    topCore2: Option<TopCoreInfo>,
    gpuPercent: Option<real>,
    ramPercent: real,
    vramPercent: Option<real>,
    cpuTemp: Option<real>,
    gpuTemp: Option<real>)

  datatype BottleneckThresholds = BottleneckThresholds(
    cpuHigh: real,
    gpuHigh: real,
    cpuLow: real,
    gpuLow: real,
    ramHigh: real,
    ramAvailableMinMb: nat,
    vramHigh: real,
    cpuThermalLimit: real,
    gpuThermalLimit: real)

  const DefaultThresholds: BottleneckThresholds :=
    BottleneckThresholds(90.0, 90.0, 70.0, 70.0, 90.0, 2048, 90.0, 90.0, 85.0)

  /** What `analyze` reports; the active duration is filled in by the session. */
  datatype CurrentBottleneckStatus = CurrentBottleneckStatus(
    bottleneckType: BottleneckType,
    severity: nat,
    activeDurationSeconds: real,
    metrics: MetricsSnapshot)

  // ---------------------------------------------------------------- severity bands

  /** A three-band severity: 3 from `high` up, 2 from `mid` up, else 1. */
  function Band(x: real, mid: real, high: real): (r: nat)
    requires mid <= high
    ensures 1 <= r <= 3
    ensures r == 3 <==> x >= high
    ensures r == 1 <==> x < mid
  {
    if x >= high then 3 else if x >= mid then 2 else 1
  }

  /** Degrees over the limit: 10 or more is 3, 5 or more is 2. */
  function ThermalSeverity(degreesOver: real): (r: nat)
    ensures 1 <= r <= 3
  {
    Band(degreesOver, 5.0, 10.0)
  }

  /** Percentage points over the threshold: 8 or more is 3, 4 or more is 2. */
  function UsageSeverity(percentOver: real): (r: nat)
    ensures 1 <= r <= 3
  {
    Band(percentOver, 4.0, 8.0)
  }

  /** The gap between the busy and the idle unit: 40 or more is 3, 25 or more is 2. */
  function BoundSeverity(delta: real): (r: nat)
    ensures 1 <= r <= 3
  {
    Band(delta, 25.0, 40.0)
  }

  /** A larger excess never gets a lower severity. */
  lemma BandMonotone(x: real, y: real, mid: real, high: real)
    requires mid <= high && x <= y
    ensures Band(x, mid, high) <= Band(y, mid, high)
  {
  }

  // ---------------------------------------------------------------- the tests, by priority

  predicate CpuThermalFires(m: MetricsSnapshot, t: BottleneckThresholds)
  {
    m.cpuTemp.Some? && m.cpuTemp.value >= t.cpuThermalLimit
  }

  predicate GpuThermalFires(m: MetricsSnapshot, t: BottleneckThresholds)
  {
    m.gpuTemp.Some? && m.gpuTemp.value >= t.gpuThermalLimit
  }

  predicate VramFires(m: MetricsSnapshot, t: BottleneckThresholds)
  {
    m.vramPercent.Some? && m.vramPercent.value >= t.vramHigh
  }

  predicate RamFires(m: MetricsSnapshot, t: BottleneckThresholds)
  {
    m.ramPercent >= t.ramHigh
  }

  predicate CpuBoundFires(m: MetricsSnapshot, t: BottleneckThresholds)
  {
    m.gpuPercent.Some? && m.cpuPercent >= t.cpuHigh && m.gpuPercent.value < t.gpuLow
  }

  predicate GpuBoundFires(m: MetricsSnapshot, t: BottleneckThresholds)
  {
    m.gpuPercent.Some? && m.gpuPercent.value >= t.gpuHigh && m.cpuPercent < t.cpuLow
  }

  /** `detect_bottleneck`: the first test that fires, with its severity, else balanced. */
  function DetectBottleneck(m: MetricsSnapshot, t: BottleneckThresholds): (r: (BottleneckType, nat))
    ensures r.1 == 0 <==> r.0 == Balanced
    ensures r.0 != Balanced ==> 1 <= r.1 <= 3
    ensures (r.0 == CpuBound || r.0 == GpuBound) ==> m.gpuPercent.Some?
  {
    if CpuThermalFires(m, t) then (CpuThermal, ThermalSeverity(m.cpuTemp.value - t.cpuThermalLimit))
    else if GpuThermalFires(m, t) then (GpuThermal, ThermalSeverity(m.gpuTemp.value - t.gpuThermalLimit))
    else if VramFires(m, t) then (VramLimited, UsageSeverity(m.vramPercent.value - t.vramHigh))
    else if RamFires(m, t) then (RamLimited, UsageSeverity(m.ramPercent - t.ramHigh))
    else if CpuBoundFires(m, t) then (CpuBound, BoundSeverity(m.cpuPercent - m.gpuPercent.value))
    else if GpuBoundFires(m, t) then (GpuBound, BoundSeverity(m.gpuPercent.value - m.cpuPercent))
    else (Balanced, 0)
  }

  /** The fixed priority: a type is reported exactly when its own test fires and no
      test of higher priority does. */
  lemma DetectPriority(m: MetricsSnapshot, t: BottleneckThresholds)
    ensures var k := DetectBottleneck(m, t).0;
      && (k == CpuThermal <==> CpuThermalFires(m, t))
      && (k == GpuThermal <==> !CpuThermalFires(m, t) && GpuThermalFires(m, t))
      && (k == VramLimited <==> !CpuThermalFires(m, t) && !GpuThermalFires(m, t) && VramFires(m, t))
      && (k == RamLimited <==>
            !CpuThermalFires(m, t) && !GpuThermalFires(m, t) && !VramFires(m, t) && RamFires(m, t))
      && (k == CpuBound <==>
            !CpuThermalFires(m, t) && !GpuThermalFires(m, t) && !VramFires(m, t) && !RamFires(m, t)
            && CpuBoundFires(m, t))
      && (k == GpuBound <==>
            !CpuThermalFires(m, t) && !GpuThermalFires(m, t) && !VramFires(m, t) && !RamFires(m, t)
            && !CpuBoundFires(m, t) && GpuBoundFires(m, t))
      && (k == Balanced <==>
            !CpuThermalFires(m, t) && !GpuThermalFires(m, t) && !VramFires(m, t) && !RamFires(m, t)
            && !CpuBoundFires(m, t) && !GpuBoundFires(m, t))
  {
  }

  /** The severity of each type is the band of its excess over its threshold. */
  lemma DetectSeverity(m: MetricsSnapshot, t: BottleneckThresholds)
    ensures var (k, s) := DetectBottleneck(m, t);
      && (k == CpuThermal ==> s == Band(m.cpuTemp.value - t.cpuThermalLimit, 5.0, 10.0))
      && (k == GpuThermal ==> s == Band(m.gpuTemp.value - t.gpuThermalLimit, 5.0, 10.0))
      && (k == VramLimited ==> s == Band(m.vramPercent.value - t.vramHigh, 4.0, 8.0))
      && (k == RamLimited ==> s == Band(m.ramPercent - t.ramHigh, 4.0, 8.0))
      && (k == CpuBound ==> s == Band(m.cpuPercent - m.gpuPercent.value, 25.0, 40.0))
      && (k == GpuBound ==> s == Band(m.gpuPercent.value - m.cpuPercent, 25.0, 40.0))
  {
  }

  /** Without a GPU reading neither bound type can be reported, whatever the CPU does. */
  lemma NoGpuNoBound(m: MetricsSnapshot, t: BottleneckThresholds)
    requires m.gpuPercent.None?
    ensures DetectBottleneck(m, t).0 !in {CpuBound, GpuBound}
  {
  }

  /** `analyze`: the detected type and severity, the metrics unchanged, duration 0. */
  function Analyze(m: MetricsSnapshot, t: BottleneckThresholds): (r: CurrentBottleneckStatus)
    ensures r.metrics == m && r.activeDurationSeconds == 0.0
    ensures (r.bottleneckType, r.severity) == DetectBottleneck(m, t)
  {
    var (k, s) := DetectBottleneck(m, t);
    CurrentBottleneckStatus(k, s, 0.0, m)
  }

  /** `is_bottleneck_active`: whether the queried type is the detected one. */
  function IsBottleneckActive(m: MetricsSnapshot, t: BottleneckThresholds, check: BottleneckType): (r: bool)
    ensures r <==> Analyze(m, t).bottleneckType == check
  {
    DetectBottleneck(m, t).0 == check
  }

  /** Exactly one type is active for any snapshot. */
  lemma ExactlyOneActive(m: MetricsSnapshot, t: BottleneckThresholds, a: BottleneckType, b: BottleneckType)
    requires IsBottleneckActive(m, t, a) && IsBottleneckActive(m, t, b)
    ensures a == b
  {
  }

  /** A snapshot with the given CPU, optional GPU and RAM usage and nothing else. */
  function TestSnapshot(cpu: real, gpu: Option<real>, ram: real): MetricsSnapshot
  {
    MetricsSnapshot(0, cpu, None, None, gpu, ram, None, None, None)
  }

  /** The classifications the analyser's own examples expect under the default
      thresholds. */
  lemma DefaultExamples()
    ensures DetectBottleneck(TestSnapshot(50.0, Some(50.0), 50.0), DefaultThresholds).0 == Balanced
    ensures DetectBottleneck(TestSnapshot(95.0, Some(40.0), 50.0), DefaultThresholds).0 == CpuBound
    ensures DetectBottleneck(TestSnapshot(40.0, Some(95.0), 50.0), DefaultThresholds).0 == GpuBound
    ensures DetectBottleneck(TestSnapshot(50.0, Some(50.0), 95.0), DefaultThresholds).0 == RamLimited
  {
  }

  /** The CPU-bound example has a 55-point gap, so it is reported at severity 3. */
  lemma CpuBoundExampleSeverity()
    ensures DetectBottleneck(TestSnapshot(95.0, Some(40.0), 50.0), DefaultThresholds) == (CpuBound, 3)
  {
  }
}

=== FILE: categorizer.dfy ===
/** How the task monitor sorts a running process into a category, and which
    categories it lets the user kill.

    Every rule looks at the lower-cased process name; the rules that also look at
    the executable's path lower-case the path. The rules are tried in a fixed order
    and the first that matches decides. */
module Categorizer {
  import opened Wrappers
  import opened Strings

  datatype ProcessCategory =
    | AntiCheatProtected
    | SystemCritical
    | SystemService
    | MicrosoftBloat
    | SecuritySoftware
    | UserApplication
    | BackgroundService
    | DriverHardware
    | Unknown

  /** `ProcessCategory::display_name`. */
  function DisplayName(c: ProcessCategory): string
  {
    match c
    case AntiCheatProtected => "Protected"
    case SystemCritical => "System"
    case SystemService => "Service"
    case MicrosoftBloat => "Bloat"
    case SecuritySoftware => "Security"
    case UserApplication => "App"
    case BackgroundService => "Background"
    case DriverHardware => "Driver"
    case Unknown => "Unknown"
  }

  /** No two categories share a display name. */
  lemma DisplayNamesDistinct(a: ProcessCategory, b: ProcessCategory)
    requires a != b
    ensures DisplayName(a) != DisplayName(b)
  {
  }

  // ---------------------------------------------------------------- token lists

  function AntiCheatNames(): seq<string>
  {
    [ "vgc", "vgk", "vgtray", "valorant", "riotclient", "riot", "easyanticheat", "eac_",
      "beservice", "beclient", "battleye", "vac", "punkbuster", "fairfight", "xigncode",
      "gameguard", "nprotect", "hackshield" ]
  }

  function AntiCheatPaths(): seq<string>
  {
    [ "riot games", "riot vanguard", "easyanticheat", "battleye", "anti-cheat", "anticheat" ]
  }

  function CriticalProcesses(): seq<string>
  {
    [ "csrss.exe", "wininit.exe", "lsass.exe", "services.exe", "smss.exe", "dwm.exe",
      "winlogon.exe", "system", "system idle process", "registry", "memory compression",
      "svchost.exe", "ntoskrnl.exe", "explorer.exe", "spoolsv.exe", "lsm.exe", "sihost.exe",
      "fontdrvhost.exe", "dashost.exe", "ctfmon.exe", "conhost.exe", "runtimebroker.exe",
      "taskhostw.exe", "audiodg.exe", "wudfhost.exe", "lsaiso.exe", "secure system", "idle",
      "ngciso.exe", "applicationframehost.exe", "shellexperiencehost.exe", "textinputhost.exe",
      "shellhost.exe", "lockapp.exe", "chsime.exe", "unsecapp.exe" ]
  }

  const CsrssPrefix := "csrss"

  function SecurityNames(): seq<string>
  {
    [ "msmpeng.exe", "nissrv.exe", "securityhealthservice.exe", "securityhealthsystray.exe",
      "msseces.exe", "mpdefendercoreservice.exe", "avp.exe", "avgui.exe", "avguard.exe",
      "bdagent.exe", "mcshield.exe", "nortonsecurity.exe" ]
  }

  function SecurityPaths(): seq<string>
  {
    [ "windows defender", "antivirus", "kaspersky", "norton", "mcafee", "bitdefender", "avast",
      "avg", "malwarebytes" ]
  }

  function DriverNames(): seq<string>
  {
    [ "nvdisplay.container.exe", "nvcontainer.exe", "nvspcaps64.exe", "amdow.exe", "amdrsserv.exe",
      "amddvr.exe", "igfxcuiservice.exe", "igfxtray.exe", "igfxem.exe", "intelaudioservice.exe",
      "intel_pie_service.exe", "intelcphdcpsvc.exe", "oneapp.igcc.winservice.exe", "jhi_service.exe",
      "esrv_svc.exe", "realtek", "rtkauduservice64.exe", "dax3api.exe", "nahimic",
      "thunderboltservice.exe", "asusnumpadservice.exe", "razer", "corsair", "logitech",
      "logi_lamparray_service.exe", "steelseries" ]
  }

  function DriverPaths(): seq<string>
  {
    ["nvidia corporation", "amd", "intel", "realtek", "dolby"]
  }

  function BloatNames(): seq<string>
  {
    [ "msedge.exe", "searchindexer.exe", "searchprotocolhost.exe", "searchfilterhost.exe",
      "searchhost.exe", "cortana.exe", "searchapp.exe", "startmenuexperiencehost.exe",
      "yourphone.exe", "phoneexperiencehost.exe", "gamebar", "gamebarft", "gamebarpresencewriter",
      "gameinputsvc.exe", "gamingservices.exe", "gamingservicesnet.exe", "gameinputredistservice.exe",
      "gamesdk.exe", "onedrive.exe", "onedrivesetup.exe", "msteams.exe", "xboxpcapp.exe",
      "widgets.exe", "widgetservice.exe", "feedback", "msn", "tips", "skype",
      "officeclicktorun.exe", "crossdeviceresume.exe", "aggregatorhost.exe" ]
  }

  const StoreApps := "windowsapps"
  const Xbox := "xbox"
  const EdgeFolder := "microsoft edge"

  function ServiceNames(): seq<string>
  {
    [ "wlanext.exe", "wlanapi.dll", "networkservice", "localservice", "wuauserv", "bits",
      "cryptsvc", "dnscache", "iphlpsvc", "netprofm", "nlasvc", "nsi", "w32time", "winmgmt",
      "msedgewebview2.exe" ]
  }

  function BackgroundNames(): seq<string>
  {
    [ "backgroundtaskhost.exe", "backgroundtransfersvc", "apphelp", "compattelrunner.exe",
      "diagtrack", "dllhost.exe", "wmiapsrv.exe", "wmiprvse.exe", "smartscreen.exe",
      "crashreporter", "updater", "update.exe", "glidexservice.exe", "glidexserviceext.exe",
      "glidexremoteservice.exe", "glidexnearservice.exe", "rogliveservice.exe",
      "armourycrate.service.exe", "lightingservice.exe", "aborcontrolservice.exe",
      "asusoptimization.exe", "asuslinksvc.exe", "mdnsresponder.exe",
      "applemobiledeviceservice.exe", "teamviewer_service.exe", "collector_service.exe",
      "telemetry_agent.exe", "presentmonservice.exe" ]
  }

  function UserAppNames(): seq<string>
  {
    [ "chrome.exe", "firefox.exe", "brave.exe", "opera.exe", "discord.exe", "spotify.exe",
      "slack.exe", "telegram.exe", "whatsapp.exe", "zoom.exe", "steam.exe", "steamwebhelper.exe",
      "epicgameslauncher.exe", "code.exe", "notepad.exe", "notepad++.exe", "atlas.exe",
      "python.exe", "pythonw.exe", "claude.exe", "cargo.exe", "esbuild.exe", "uv.exe", "node.exe",
      "git.exe", "aria2c.exe", "cmd.exe", "powershell.exe", "pwsh.exe", "ghelper.exe", "vlc.exe",
      "obs64.exe", "obs32.exe", "systemsettings.exe" ]
  }

  function UserAppPaths(): seq<string>
  {
    ["program files", "programdata"]
  }


  /** The token lists the rules consult. The rules are stated over any tables so that
      their order can be reasoned about apart from the lists' contents; `Builtin` holds
      the lists the monitor ships with. */
  datatype RuleTables = RuleTables(
    antiCheatNames: seq<string>,
    antiCheatPaths: seq<string>,
    critical: seq<string>,
    securityNames: seq<string>,
    securityPaths: seq<string>,
    driverNames: seq<string>,
    driverPaths: seq<string>,
    bloatNames: seq<string>,
    serviceNames: seq<string>,
    backgroundNames: seq<string>,
    userAppNames: seq<string>,
    userAppPaths: seq<string>)

  function Builtin(): RuleTables
  {
    RuleTables(
      AntiCheatNames(), AntiCheatPaths(), CriticalProcesses(), SecurityNames(), SecurityPaths(),
      DriverNames(), DriverPaths(), BloatNames(), ServiceNames(), BackgroundNames(),
      UserAppNames(), UserAppPaths())
  }

  // ---------------------------------------------------------------- matching

  /** `tokens.iter().any(|t| s.contains(t))`. */
  predicate ContainsAny(s: string, tokens: seq<string>)
  {
    ContainsAnyFrom(s, tokens, 0)
  }

  /** Whether one of the tokens from place `k` on occurs in the string. */
  predicate ContainsAnyFrom(s: string, tokens: seq<string>, k: nat)
    decreases |tokens| - k
  {
    k < |tokens| && (Contains(s, tokens[k]) || ContainsAnyFrom(s, tokens, k + 1))
  }

  /** Some token occurs in the string exactly when one of them is contained in it. */
  lemma ContainsAnyIff(s: string, tokens: seq<string>)
    ensures ContainsAny(s, tokens) <==> exists i :: 0 <= i < |tokens| && Contains(s, tokens[i])
  {
    ContainsAnyFromIff(s, tokens, 0);
  }

  lemma {:induction false} ContainsAnyFromIff(s: string, tokens: seq<string>, k: nat)
    ensures ContainsAnyFrom(s, tokens, k) <==> exists i :: k <= i < |tokens| && Contains(s, tokens[i])
    decreases |tokens| - k
  {
    if k < |tokens| {
      ContainsAnyFromIff(s, tokens, k + 1);
    }
  }

  /** `tokens.iter().any(|t| s == *t)`. */
  predicate EqualsAny(s: string, tokens: seq<string>)
  {
    s in tokens
  }

  /** The path is known and its lower-cased form contains one of the tokens. */
  predicate PathHas(path: Option<string>, tokens: seq<string>)
  {
    path.Some? && ContainsAny(Lower(path.value), tokens)
  }

  // The rules; `name` is already lower-cased by the caller.

  predicate IsAntiCheat(t: RuleTables, name: string, path: Option<string>)
  {
    ContainsAny(name, t.antiCheatNames) || PathHas(path, t.antiCheatPaths)
  }

  /** An exact entry of the list, or any name starting "csrss". The source tests the
      prefix inside the `any` over the list, which is the same since the list is not
      empty. */
  predicate IsSystemCritical(t: RuleTables, name: string)
  {
    EqualsAny(name, t.critical) || StartsWith(name, CsrssPrefix)
  }

  predicate IsSecuritySoftware(t: RuleTables, name: string, path: Option<string>)
  {
    EqualsAny(name, t.securityNames) || PathHas(path, t.securityPaths)
  }

  predicate IsDriverHardware(t: RuleTables, name: string, path: Option<string>)
  {
    ContainsAny(name, t.driverNames) || PathHas(path, t.driverPaths)
  }

  /** A store app outside the Xbox folders, or anything under Microsoft Edge. */
  predicate BloatPath(path: string)
  {
    var p := Lower(path);
    (Contains(p, StoreApps) && !Contains(p, Xbox)) || Contains(p, EdgeFolder)
  }

  predicate IsMicrosoftBloat(t: RuleTables, name: string, path: Option<string>)
  {
    ContainsAny(name, t.bloatNames) || (path.Some? && BloatPath(path.value))
  }

  predicate IsSystemService(t: RuleTables, name: string) { ContainsAny(name, t.serviceNames) }

  predicate IsBackgroundService(t: RuleTables, name: string) { ContainsAny(name, t.backgroundNames) }

  predicate IsUserApplication(t: RuleTables, name: string, path: Option<string>)
  {
    ContainsAny(name, t.userAppNames) || PathHas(path, t.userAppPaths)
  }

  /** Whether the rule of a category matches; `Unknown` always does. */
  predicate Matches(t: RuleTables, c: ProcessCategory, name: string, path: Option<string>)
  {
    match c
    case AntiCheatProtected => IsAntiCheat(t, name, path)
    case SystemCritical => IsSystemCritical(t, name)
    case SecuritySoftware => IsSecuritySoftware(t, name, path)
    case DriverHardware => IsDriverHardware(t, name, path)
    case MicrosoftBloat => IsMicrosoftBloat(t, name, path)
    case SystemService => IsSystemService(t, name)
    case BackgroundService => IsBackgroundService(t, name)
    case UserApplication => IsUserApplication(t, name, path)
    case Unknown => true
  }

  /** The place of a category's rule in the order the rules are tried. */
  function Rank(c: ProcessCategory): nat
  {
    match c
    case AntiCheatProtected => 0
    case SystemCritical => 1
    case SecuritySoftware => 2
    case DriverHardware => 3
    case MicrosoftBloat => 4
    case SystemService => 5
    case BackgroundService => 6
    case UserApplication => 7
    case Unknown => 8
  }

  /** The category whose rule is tried at place `k`. */
  function RuleAt(k: nat): (c: ProcessCategory)
    requires k <= 8
    ensures Rank(c) == k
  {
    if k == 0 then AntiCheatProtected
    else if k == 1 then SystemCritical
    else if k == 2 then SecuritySoftware
    else if k == 3 then DriverHardware
    else if k == 4 then MicrosoftBloat
    else if k == 5 then SystemService
    else if k == 6 then BackgroundService
    else if k == 7 then UserApplication
    else Unknown
  }

  /** Each place in the rule order belongs to one category. */
  lemma RankInjective(a: ProcessCategory, b: ProcessCategory)
    requires Rank(a) == Rank(b)
    ensures a == b
  {
  }

  /** The first rule, from place `k` on, that matches. */
  function FirstRuleFrom(t: RuleTables, n: string, path: Option<string>, k: nat): (r: ProcessCategory)
    requires k <= 8
    ensures k <= Rank(r) && Matches(t, r, n, path)
    ensures forall c :: k <= Rank(c) < Rank(r) ==> !Matches(t, c, n, path)
    decreases 8 - k
  {
    if k == 8 || Matches(t, RuleAt(k), n, path) then RuleAt(k)
    else
      var r := FirstRuleFrom(t, n, path, k + 1);
      assert forall c :: Rank(c) == k ==> c == RuleAt(k) by {
        forall c | Rank(c) == k ensures c == RuleAt(k) { RankInjective(c, RuleAt(k)); }
      }
      r
  }

  /** The category under the given tables: the first category, in rule order
      (anti-cheat, system critical, security, driver, bloat, service, background, user
      application, unknown), whose rule matches the lower-cased name and the path. */
  function CategorizeWith(t: RuleTables, name: string, path: Option<string>): (r: ProcessCategory)
    ensures Matches(t, r, Lower(name), path)
    ensures forall c :: Rank(c) < Rank(r) ==> !Matches(t, c, Lower(name), path)
  {
    FirstRuleFrom(t, Lower(name), path, 0)
  }

  /** `categorize_process`: the rules under the built-in tables. */
  function Categorize(name: string, path: Option<string>): (r: ProcessCategory)
    ensures Matches(Builtin(), r, Lower(name), path)
    ensures forall c :: Rank(c) < Rank(r) ==> !Matches(Builtin(), c, Lower(name), path)
  {
    CategorizeWith(Builtin(), name, path)
  }

  /** The categories are totally ordered by their rules, so the first match is unique:
      any category that matches and beats every earlier rule is the one chosen. */
  lemma CategorizeUnique(t: RuleTables, name: string, path: Option<string>, c: ProcessCategory)
    requires Matches(t, c, Lower(name), path)
    requires forall d :: Rank(d) < Rank(c) ==> !Matches(t, d, Lower(name), path)
    ensures CategorizeWith(t, name, path) == c
  {
    var r := CategorizeWith(t, name, path);
    if Rank(r) == Rank(c) { RankInjective(r, c); }
  }

  /** `can_kill_process`: of the categories after the driver rule in rule order, all but
      system services may be killed; nothing matched by an earlier rule may. */
  function CanKill(c: ProcessCategory): (r: bool)
    ensures r <==> Rank(c) > Rank(DriverHardware) && c != SystemService
  {
    match c
    case AntiCheatProtected => false
    case SystemCritical => false
    case SystemService => false
    case SecuritySoftware => false
    case DriverHardware => false
    case MicrosoftBloat => true
    case UserApplication => true
    case BackgroundService => true
    case Unknown => true
  }

  /** A killable process never matched the anti-cheat, system-critical, security or
      driver rule. */
  lemma KillableNotProtected(t: RuleTables, name: string, path: Option<string>)
    ensures CanKill(CategorizeWith(t, name, path)) ==>
      && !IsAntiCheat(t, Lower(name), path) && !IsSystemCritical(t, Lower(name))
      && !IsSecuritySoftware(t, Lower(name), path) && !IsDriverHardware(t, Lower(name), path)
  {
    var r := CategorizeWith(t, name, path);
    if CanKill(r) {
      assert !Matches(t, AntiCheatProtected, Lower(name), path);
      assert !Matches(t, SystemCritical, Lower(name), path);
      assert !Matches(t, SecuritySoftware, Lower(name), path);
      assert !Matches(t, DriverHardware, Lower(name), path);
    }
  }

  /** A name holding any anti-cheat token is protected, whatever else it matches. */
  lemma AntiCheatWins(name: string, path: Option<string>, i: nat)
    requires i < |AntiCheatNames()| && Contains(Lower(name), AntiCheatNames()[i])
    ensures Categorize(name, path) == AntiCheatProtected
    ensures !CanKill(Categorize(name, path))
  {
    ContainsAnyIff(Lower(name), AntiCheatNames());
    AntiCheatFirst(Builtin(), name, path);
  }

  /** An exe under a Riot Vanguard folder is protected whatever its name. */
  lemma VanguardPathProtected(name: string, path: string)
    requires Contains(Lower(path), "riot vanguard")
    ensures Categorize(name, Some(path)) == AntiCheatProtected
  {
    VanguardPathMatches(path);
    AntiCheatFirst(Builtin(), name, Some(path));
  }

  lemma VanguardPathMatches(path: string)
    requires Contains(Lower(path), "riot vanguard")
    ensures PathHas(Some(path), AntiCheatPaths())
  {
    assert AntiCheatPaths()[1] == "riot vanguard";
    ContainsAnyIff(Lower(path), AntiCheatPaths());
  }

  /** The anti-cheat rule is tried first, so when it matches it decides. */
  lemma AntiCheatFirst(t: RuleTables, name: string, path: Option<string>)
    requires IsAntiCheat(t, Lower(name), path)
    ensures CategorizeWith(t, name, path) == AntiCheatProtected
  {
    CategorizeUnique(t, name, path, AntiCheatProtected);
  }

  /** The bloat path rule: a store app outside the Xbox folders, or Microsoft Edge;
      an Xbox store app is bloat only when its path also names Microsoft Edge. */
  lemma XboxStoreAppNotBloatPath(path: string)
    requires Contains(Lower(path), Xbox) && !Contains(Lower(path), EdgeFolder)
    ensures !BloatPath(path)
  {
  }
}

=== FILE: chinese_utils.dfy ===
/** Text helpers of the playlist uploader: detecting Chinese text, normalising search
    queries, building the search terms of a track and guessing artist and title from a
    video title. The conversion libraries (OpenCC for simplified characters, pypinyin for
    readings) are parameters: `None` when the library is not installed. */
module ChineseText {
  import opened Wrappers
  import opened Strings
  import opened Sorting
  import opened Records

  // ---------------------------------------------------------------- detection and conversion

  /** The CJK Unified Ideographs block U+4E00..U+9FFF. */
  predicate IsCjk(c: char) { '\U{4E00}' <= c <= '\U{9FFF}' }

  /** `is_chinese`: some character is a CJK ideograph. */
  function IsChinese(text: string): (r: bool)
    ensures r <==> exists i :: 0 <= i < |text| && IsCjk(text[i])
    ensures text == "" ==> !r
  {
    if |text| == 0 then false
    else if IsCjk(text[0]) then true
    else
      var rest := IsChinese(text[1..]);
      assert rest <==> exists i :: 1 <= i < |text| && IsCjk(text[i]) by {
        if rest {
          var i :| 0 <= i < |text[1..]| && IsCjk(text[1..][i]);
          assert text[i + 1] == text[1..][i];
        }
        if exists i :: 1 <= i < |text| && IsCjk(text[i]) {
          var i :| 1 <= i < |text| && IsCjk(text[i]);
          assert text[1..][i - 1] == text[i];
        }
      }
      rest
  }

  /** `to_simplified`: converted only when OpenCC is present and the text is Chinese. */
  function ToSimplified(text: string, opencc: Option<string -> string>): (r: string)
    ensures opencc.None? || !IsChinese(text) ==> r == text
    ensures opencc.Some? && IsChinese(text) ==> r == opencc.value(text)
  {
    if opencc.None? || text == "" || !IsChinese(text) then text else opencc.value(text)
  }

  /** `to_pinyin` (`sep` " ") and `to_pinyin_no_spaces` (`sep` ""): the first reading of
      each character pypinyin returns, joined; empty without pypinyin or Chinese text. */
  function ToPinyin(text: string, pinyin: Option<string -> seq<string>>, sep: string): (r: string)
    ensures pinyin.None? || !IsChinese(text) ==> r == ""
    ensures pinyin.Some? && IsChinese(text) ==> r == Join(pinyin.value(text), sep)
  {
    if pinyin.None? || text == "" || !IsChinese(text) then "" else Join(pinyin.value(text), sep)
  }

  // ---------------------------------------------------------------- normalisation

  /** `normalize_query`: lower-cased, trimmed, each whitespace run one space. */
  function NormalizeQuery(text: string): (r: string)
    ensures text == "" ==> r == ""
  {
    if text == "" then "" else CollapseWhitespace(Trim(Lower(text)))
  }

  predicate NoUpper(s: string) { forall i :: 0 <= i < |s| ==> !IsUpper(s[i]) }

  /** A normalised query has no upper-case letter, no whitespace but single spaces, and
      no space at either end. */
  lemma NormalizeShape(text: string)
    ensures var r := NormalizeQuery(text);
      && NoUpper(r)
      && (forall i :: 0 <= i < |r| && r[i] in Whitespace ==> r[i] == ' ')
      && (forall i :: 0 <= i < |r| - 1 && r[i] in Whitespace ==> r[i + 1] !in Whitespace)
      && (|r| > 0 ==> r[0] !in Whitespace && r[|r| - 1] !in Whitespace)
  {
    if text != "" {
      var x := Trim(Lower(text));
      var r := CollapseWhitespace(x);
      CollapseSpaces(x);
      CollapseNoRuns(x);
      CollapseChars(x);
      TrimNoUpper(Lower(text));
      if |r| > 0 {
        CollapseLast(x);
      }
    }
  }

  /** Trimming keeps a text free of upper-case letters. */
  lemma TrimNoUpper(s: string)
    requires NoUpper(s)
    ensures NoUpper(Trim(s))
  {
    var r := Trim(s);
    var k :| OccursAt(s, r, k);
    forall i | 0 <= i < |r| ensures !IsUpper(r[i]) {
      assert r[i] == s[k..k + |r|][i] == s[k + i];
    }
  }

  lemma LowerNoUpper(s: string)
    requires NoUpper(s)
    ensures Lower(s) == s
  {
  }

  /** Normalising twice is normalising once. */
  lemma NormalizeIdempotent(text: string)
    ensures NormalizeQuery(NormalizeQuery(text)) == NormalizeQuery(text)
  {
    var r := NormalizeQuery(text);
    if r != "" {
      NormalizeShape(text);
      LowerNoUpper(r);
      TrimUnchanged(r);
      CollapseIdempotent(Trim(Lower(text)));
    }
  }

  // ---------------------------------------------------------------- search terms

  function StrOrder(): (string, string) -> bool { (a: string, b: string) => StrLe(a, b) }
  function SameStr(): (string, string) -> bool { (a: string, b: string) => a == b }

  lemma StrOrderProps()
    ensures Total(StrOrder()) && Transitive(StrOrder()) && Equivalence(SameStr(), StrOrder())
    ensures Reflexive(SameStr()) && Symmetric(SameStr())
  {
    forall a: string, b: string ensures StrOrder()(a, b) || StrOrder()(b, a) {
      StrLeTotal(a, b);
    }
    forall a: string, b: string, c: string | StrOrder()(a, b) && StrOrder()(b, c)
      ensures StrOrder()(a, c)
    {
      StrLeTrans(a, b, c);
    }
    forall a: string, b: string ensures SameStr()(a, b) <==> StrOrder()(a, b) && StrOrder()(b, a) {
      StrLeTotal(a, a);
      if StrLe(a, b) && StrLe(b, a) { StrLeAntisym(a, b); }
    }
  }

  /** A non-decreasing list without equal neighbours has no duplicates at all. */
  lemma SortedDistinct(r: seq<string>)
    requires forall i, j :: 0 <= i < j < |r| ==> StrLe(r[i], r[j])
    requires forall i :: 0 < i < |r| ==> r[i] != r[i - 1]
    ensures forall i, j :: 0 <= i < j < |r| ==> r[i] != r[j]
  {
    forall i, j | 0 <= i < j < |r| ensures r[i] != r[j] {
      if j == i + 1 {
        assert r[j] != r[j - 1];
      } else if r[i] == r[j] {
        StrLeAntisym(r[i], r[i + 1]);
        assert false;
      }
    }
  }

  /** `sorted(set(xs))`. */
  function SortedUnique(xs: seq<string>): seq<string>
  {
    DedupBy(SortBy(xs, StrOrder()), SameStr())
  }

  /** The result is strictly increasing in code-point order and holds exactly the input's
      strings. */
  lemma SortedUniqueProps(xs: seq<string>)
    ensures var r := SortedUnique(xs);
      && (forall i, j :: 0 <= i < j < |r| ==> StrLe(r[i], r[j]) && r[i] != r[j])
      && (forall x :: x in r <==> x in xs)
  {
    var le, same := StrOrder(), SameStr();
    var sorted := SortBy(xs, le);
    var r := DedupBy(sorted, same);
    StrOrderProps();
    SortBySorted(xs, le);
    DedupSorted(sorted, same, le);
    DedupNeighbours(sorted, same);
    assert forall i, j :: 0 <= i < j < |r| ==> StrLe(r[i], r[j]) by {
      forall i, j | 0 <= i < j < |r| ensures StrLe(r[i], r[j]) {
        assert le(r[i], r[j]);
      }
    }
    assert forall i :: 0 < i < |r| ==> r[i] != r[i - 1] by {
      forall i | 0 < i < |r| ensures r[i] != r[i - 1] {
        assert !same(r[i], r[i - 1]);
      }
    }
    SortedDistinct(r);
    forall x ensures x in r <==> x in xs {
      SortByMembers(xs, le, x);
      if x in sorted {
        var k :| 0 <= k < |sorted| && sorted[k] == x;
        DedupCovers(sorted, same, k);
      }
    }
  }

  /** The plain terms `generate_search_terms` adds: title, artist and both orders. */
  function BasicTerms(title: string, artist: string): seq<string>
  {
    (if title != "" then [NormalizeQuery(title)] else [])
    + (if artist != "" then [NormalizeQuery(artist)] else [])
    + (if title != "" && artist != ""
       then [NormalizeQuery(title + " " + artist), NormalizeQuery(artist + " " + title)] else [])
  }

  /** The reading terms it adds when pypinyin is installed. */
  function PinyinTerms(title: string, artist: string, pinyin: Option<string -> seq<string>>): seq<string>
  {
    if pinyin.None? then []
    else
      var tp, tn := ToPinyin(title, pinyin, " "), ToPinyin(title, pinyin, "");
      var ap, an := ToPinyin(artist, pinyin, " "), ToPinyin(artist, pinyin, "");
      var titlePart := if IsChinese(title) then tp else title;
      var artistPart := if IsChinese(artist) then ap else artist;
      (if IsChinese(title) && tp != "" then [NormalizeQuery(tp)] else [])
      + (if IsChinese(title) && tn != "" then [NormalizeQuery(tn)] else [])
      + (if IsChinese(artist) && ap != "" then [NormalizeQuery(ap)] else [])
      + (if IsChinese(artist) && an != "" then [NormalizeQuery(an)] else [])
      + (if (IsChinese(title) || IsChinese(artist)) && titlePart != "" && artistPart != ""
         then [NormalizeQuery(titlePart + " " + artistPart)] else [])
  }

  /** Every term added, in program order, before the empty string is discarded. */
  function Candidates(title: string, artist: string, pinyin: Option<string -> seq<string>>): seq<string>
  {
    BasicTerms(title, artist) + PinyinTerms(title, artist, pinyin)
  }

  /** `generate_search_terms`: the candidate terms without the empty one, sorted, each once. */
  function SearchTerms(title: string, artist: string, pinyin: Option<string -> seq<string>>): seq<string>
  {
    DistinctTerms(Candidates(title, artist, pinyin))
  }

  /** `sorted(set(c) - {""})`. */
  function DistinctTerms(c: seq<string>): seq<string>
  {
    SortedUnique(Retain(c, (t: string) => t != ""))
  }

  lemma DistinctTermsProps(c: seq<string>)
    ensures var r := DistinctTerms(c);
      && (forall i, j :: 0 <= i < j < |r| ==> StrLe(r[i], r[j]) && r[i] != r[j])
      && (forall t :: t in r <==> t in c && t != "")
  {
    var kept := Retain(c, (t: string) => t != "");
    SortedUniqueProps(kept);
    forall t ensures t in kept <==> t in c && t != "" {
      if t in c && t != "" {
        var i :| 0 <= i < |c| && c[i] == t;
      }
      if t in kept {
        var i :| 0 <= i < |kept| && kept[i] == t;
      }
    }
  }

  /** Search terms are strictly increasing, never empty strings, and are exactly the
      non-empty candidates. */
  lemma SearchTermsProps(title: string, artist: string, pinyin: Option<string -> seq<string>>)
    ensures var r := SearchTerms(title, artist, pinyin);
      && (forall i, j :: 0 <= i < j < |r| ==> StrLe(r[i], r[j]) && r[i] != r[j])
      && (forall t :: t in r <==> t in Candidates(title, artist, pinyin) && t != "")
  {
    DistinctTermsProps(Candidates(title, artist, pinyin));
  }

  /** With a title and an artist, the normalised title, artist and both orders of the two
      are search terms whenever they are not empty. */
  lemma SearchTermsBasic(title: string, artist: string, pinyin: Option<string -> seq<string>>)
    requires title != "" && artist != ""
    ensures var r := SearchTerms(title, artist, pinyin);
      && (NormalizeQuery(title) != "" ==> NormalizeQuery(title) in r)
      && (NormalizeQuery(artist) != "" ==> NormalizeQuery(artist) in r)
      && (NormalizeQuery(title + " " + artist) != "" ==> NormalizeQuery(title + " " + artist) in r)
      && (NormalizeQuery(artist + " " + title) != "" ==> NormalizeQuery(artist + " " + title) in r)
  {
    SearchTermsProps(title, artist, pinyin);
    BasicCandidates(title, artist, pinyin);
    BasicFour(title, artist);
  }

  /** Every basic term is a candidate. */
  lemma BasicCandidates(title: string, artist: string, pinyin: Option<string -> seq<string>>)
    ensures forall t :: t in BasicTerms(title, artist) ==> t in Candidates(title, artist, pinyin)
  {
    var b, p := BasicTerms(title, artist), PinyinTerms(title, artist, pinyin);
    assert forall i :: 0 <= i < |b| ==> (b + p)[i] == b[i];
  }

  /** With a title and an artist, the basic terms are the normalised title, artist and
      both orders of the two. */
  lemma BasicFour(title: string, artist: string)
    requires title != "" && artist != ""
    ensures var b := BasicTerms(title, artist);
      && NormalizeQuery(title) in b && NormalizeQuery(artist) in b
      && NormalizeQuery(title + " " + artist) in b && NormalizeQuery(artist + " " + title) in b
  {
    var both := [NormalizeQuery(title + " " + artist), NormalizeQuery(artist + " " + title)];
    assert BasicTerms(title, artist) == [NormalizeQuery(title)] + [NormalizeQuery(artist)] + both;
    ListsFour(BasicTerms(title, artist), NormalizeQuery(title), NormalizeQuery(artist), both[0], both[1]);
  }

  lemma ListsFour(b: seq<string>, x0: string, x1: string, x2: string, x3: string)
    requires b == [x0] + [x1] + [x2, x3]
    ensures x0 in b && x1 in b && x2 in b && x3 in b
  {
    assert b[0] == x0 && b[1] == x1 && b[2] == x2 && b[3] == x3;
  }

  // ---------------------------------------------------------------- artist and title

  /** Tried in this order; the dashes are U+2013 and U+2014. */
  const Separators: seq<string> := [" - ", " \U{2013} ", " \U{2014} ", " | "]
  const TitleKeywords: seq<string> := ["mv", "official", "lyric", "audio", "video", "cover", "live"]
  const ArtistSuffixes: seq<string> := [" - Topic", "VEVO", " Official", " Music"]

  /** The first separator, from index `k` on, that occurs in the title. */
  function SeparatorFrom(title: string, k: nat): (r: Option<nat>)
    requires k <= |Separators|
    ensures r.Some? ==> k <= r.value < |Separators| && Contains(title, Separators[r.value])
    ensures r.Some? ==> forall j :: k <= j < r.value ==> !Contains(title, Separators[j])
    ensures r.None? ==> forall j :: k <= j < |Separators| ==> !Contains(title, Separators[j])
    decreases |Separators| - k
  {
    if k == |Separators| then None
    else if Contains(title, Separators[k]) then Some(k)
    else SeparatorFrom(title, k + 1)
  }

  /** `title.split(sep, 1)` with both parts trimmed. */
  function SplitOnce(title: string, sep: string): (string, string)
    requires Contains(title, sep)
  {
    var i := Find(title, sep).value;
    (Trim(title[..i]), Trim(title[i + |sep|..]))
  }

  /** Some title keyword occurs in the lower-cased text. */
  predicate HasKeyword(s: string)
  {
    exists k :: 0 <= k < |TitleKeywords| && Contains(Lower(s), TitleKeywords[k])
  }

  /** The first bracket pair, from index `k` on, that encloses a non-empty inside with a
      non-empty outside; its (outside, inside). */
  function BracketSplit(title: string, k: nat): (r: Option<(string, string)>)
    requires k <= 2
    ensures r.Some? ==> r.value.0 != "" && r.value.1 != ""
    decreases 2 - k
  {
    if k == 2 then None
    else
      var (openB, closeB) := if k == 0 then ('\U{300C}', '\U{300D}') else ('\U{300E}', '\U{300F}');
      var start, end := Find(title, [openB]), Find(title, [closeB]);
      if start.Some? && end.Some? && start.value < end.value then
        var inside := Trim(title[start.value + 1..end.value]);
        var outside := Trim(title[..start.value] + title[end.value + 1..]);
        if inside != "" && outside != "" then Some((outside, inside)) else BracketSplit(title, k + 1)
      else BracketSplit(title, k + 1)
  }

  /** Strips each of the uploader suffixes from index `k` on, at most once each, in order. */
  function StripSuffixes(artist: string, k: nat): (r: string)
    requires k <= |ArtistSuffixes|
    ensures |r| <= |artist|
    ensures (forall j :: k <= j < |ArtistSuffixes| ==> !EndsWith(artist, ArtistSuffixes[j])) ==> r == artist
    decreases |ArtistSuffixes| - k
  {
    if k == |ArtistSuffixes| then artist
    else
      var suffix := ArtistSuffixes[k];
      if EndsWith(artist, suffix) then
        StripSuffixes(Trim(artist[..|artist| - |suffix|]), k + 1)
      else StripSuffixes(artist, k + 1)
  }

  /** `extract_artist_from_title`: (artist, title). */
  function ExtractArtistFromTitle(title: string, uploader: string): (r: (string, string))
    ensures SeparatorFrom(title, 0).Some? ==>
      (var parts := SplitOnce(title, Separators[SeparatorFrom(title, 0).value]);
       && (r == parts || r == (parts.1, parts.0))
       && (HasKeyword(parts.1) ==> r == parts)
       && (!HasKeyword(parts.1) && HasKeyword(parts.0) ==> r == (parts.1, parts.0))
       && (!HasKeyword(parts.1) && !HasKeyword(parts.0) ==> r == parts))
    ensures SeparatorFrom(title, 0).None? && BracketSplit(title, 0).Some? ==> r == BracketSplit(title, 0).value
    ensures SeparatorFrom(title, 0).None? && BracketSplit(title, 0).None? ==>
      r.1 == title && r.0 == StripSuffixes(uploader, 0)
  {
    match SeparatorFrom(title, 0)
    case Some(k) =>
      var (p1, p2) := SplitOnce(title, Separators[k]);
      if HasKeyword(p2) then (p1, p2)
      else if HasKeyword(p1) then (p2, p1)
      else (p1, p2)
    case None =>
      match BracketSplit(title, 0)
      case Some(pair) => pair
      case None => (StripSuffixes(uploader, 0), title)
  }
}

=== FILE: data_prep.dfy ===
/** Preparing a training dataset from a manifest: per-file window extraction with
    its skip rules, the train/validation split, the statistics and metadata, the
    sample file names, and manifest validation.

    Windows are an abstract type `W`. Loading a file, cutting it into windows and
    shuffling are parameters; a `None` from a loader stands for the exception the
    worker catches. */
module DataPrep {
  import opened Wrappers
  import opened Numeric
  import opened Strings
  import opened AudioTypes
  import opened AudioUtils

  // ---------------------------------------------------------------- processing samples

  /** The RMS energy test of `process_samples`: `rms < min_energy`. The RMS of empty
      audio is NaN, which is below nothing, so empty audio is never low-energy. */
  predicate LowEnergy(audio: seq<real>, minEnergy: real)
  {
    |audio| > 0 && minEnergy > 0.0 && MeanSquare(audio) < minEnergy * minEnergy
  }

  /** The test is `rms < min_energy` for the non-negative square root of the mean square. */
  lemma LowEnergyIsRmsTest(audio: seq<real>, minEnergy: real, rms: real)
    requires |audio| > 0 && rms >= 0.0 && rms * rms == MeanSquare(audio)
    ensures LowEnergy(audio, minEnergy) <==> rms < minEnergy
  {
    if minEnergy > 0.0 {
      if rms < minEnergy {
        MulStrictBoth(rms, minEnergy);
      } else {
        MulMonoBoth(minEnergy, rms);
      }
    }
  }

  /** How one manifest entry is read: validity, the decoded audio, its windows. */
  datatype Loader<W> = Loader(
    isValid: string -> bool,
    load: string -> Option<seq<real>>,
    windows: seq<real> -> Option<seq<W>>)

  /** The windows one file contributes: none when the file is invalid, cannot be
      loaded, has low energy or cannot be cut into windows. */
  function FileWindows<W>(file: string, ld: Loader<W>, minEnergy: real): seq<W>
  {
    if !ld.isValid(file) then []
    else match ld.load(file)
      case None => []
      case Some(audio) =>
        if LowEnergy(audio, minEnergy) then []
        else ld.windows(audio).GetOr([])
  }

  /** `process_samples`: the windows of every file in manifest order, each paired with
      the class label. */
  function ProcessSamples<W>(samples: seq<TrainingSample>, classLabel: int, ld: Loader<W>, minEnergy: real): (r: seq<(W, int)>)
    ensures forall i :: 0 <= i < |r| ==> r[i].1 == classLabel
  {
    if |samples| == 0 then []
    else
      var ws := FileWindows(samples[0].file, ld, minEnergy);
      seq(|ws|, k requires 0 <= k < |ws| => (ws[k], classLabel)) + ProcessSamples(samples[1..], classLabel, ld, minEnergy)
  }

  /** Processing is file by file: a list processes as its parts. */
  lemma {:induction false} ProcessSamplesAppend<W>(a: seq<TrainingSample>, b: seq<TrainingSample>, classLabel: int, ld: Loader<W>, minEnergy: real)
    ensures ProcessSamples(a + b, classLabel, ld, minEnergy) == ProcessSamples(a, classLabel, ld, minEnergy) + ProcessSamples(b, classLabel, ld, minEnergy)
    decreases |a|
  {
    if |a| > 0 {
      assert (a + b)[1..] == a[1..] + b;
      ProcessSamplesAppend(a[1..], b, classLabel, ld, minEnergy);
    } else {
      assert a + b == b;
    }
  }

  /** An invalid, unreadable or low-energy file contributes no window. */
  lemma SkippedFile<W>(s: TrainingSample, classLabel: int, ld: Loader<W>, minEnergy: real)
    requires !ld.isValid(s.file) || ld.load(s.file).None? || LowEnergy(ld.load(s.file).value, minEnergy)
    ensures ProcessSamples([s], classLabel, ld, minEnergy) == []
  {
    assert [s][1..] == [];
  }

  // ---------------------------------------------------------------- splitting

  /** `int(n * val_split)`. */
  function ValSize(n: nat, valSplit: real): int
  {
    Trunc(n as real * valSplit)
  }

  /** The validation part `xs[:k]` and the training part `xs[k:]`. */
  datatype Split<T> = Split(train: seq<T>, val: seq<T>)

  function SplitAt<T>(xs: seq<T>, valSplit: real): (s: Split<T>)
  {
    var k := ValSize(|xs|, valSplit);
    Split(PySlice(xs, k, |xs|), PySlice(xs, 0, k))
  }

  /** For any split fraction the validation part followed by the training part is the
      whole list, so the parts are disjoint by position and cover it. */
  lemma SplitPartition<T>(xs: seq<T>, valSplit: real)
    ensures SplitAt(xs, valSplit).val + SplitAt(xs, valSplit).train == xs
  {
  }

  /** With a fraction in [0, 1] the validation part has `int(n * val_split)` items. */
  lemma SplitSizes<T>(xs: seq<T>, valSplit: real)
    requires 0.0 <= valSplit <= 1.0
    ensures |SplitAt(xs, valSplit).val| == ValSize(|xs|, valSplit)
    ensures |SplitAt(xs, valSplit).train| == |xs| - ValSize(|xs|, valSplit)
  {
    var n := |xs| as real;
    MulMono(valSplit, 1.0, n);
    MulNonNeg(n, valSplit);
  }

  // ---------------------------------------------------------------- dataset

  datatype ClassStats = ClassStats(totalWindows: nat, train: nat, val: nat, files: nat)

  datatype SplitTotals = SplitTotals(positive: nat, negative: nat, total: nat)

  datatype Metadata = Metadata(
    positive: ClassStats,
    negative: ClassStats,
    hardNegative: ClassStats,
    train: SplitTotals,
    val: SplitTotals)

  /** The four saved sets and the metadata. */
  datatype Dataset<W> = Dataset(
    trainPositive: seq<(W, int)>,
    trainNegative: seq<(W, int)>,
    valPositive: seq<(W, int)>,
    valNegative: seq<(W, int)>,
    metadata: Metadata)

  ghost predicate IsShuffle<T(!new)>(shuffle: seq<T> -> seq<T>)
  {
    forall xs :: multiset(shuffle(xs)) == multiset(xs)
  }

  /** `create_training_dataset`: positives, negatives and hard negatives processed
      separately; hard negatives join the negatives before shuffling and splitting. */
  function CreateDataset<W(!new)>(m: TrainingManifest, ld: Loader<W>, minEnergy: real, valSplit: real,
                                  shuffle: seq<(W, int)> -> seq<(W, int)>): (d: Dataset<W>)
    requires IsShuffle(shuffle)
    ensures d.metadata.train.total == |d.trainPositive| + |d.trainNegative|
    ensures d.metadata.val.total == |d.valPositive| + |d.valNegative|
    ensures multiset(d.valPositive + d.trainPositive) == multiset(ProcessSamples(m.positiveSamples, 1, ld, minEnergy))
    ensures multiset(d.valNegative + d.trainNegative)
         == multiset(ProcessSamples(m.negativeSamples + m.hardNegatives, 0, ld, minEnergy))
    ensures d.metadata.positive.train + d.metadata.positive.val == d.metadata.positive.totalWindows
    ensures d.metadata.negative.train + d.metadata.negative.val
         == d.metadata.negative.totalWindows + d.metadata.hardNegative.totalWindows
    ensures d.metadata.hardNegative.train == 0 && d.metadata.hardNegative.val == 0
    ensures d.metadata.positive.files == |m.positiveSamples| && d.metadata.hardNegative.files == |m.hardNegatives|
  {
    var pos := ProcessSamples(m.positiveSamples, 1, ld, minEnergy);
    var neg := ProcessSamples(m.negativeSamples, 0, ld, minEnergy);
    var hard := ProcessSamples(m.hardNegatives, 0, ld, minEnergy);
    ProcessSamplesAppend(m.negativeSamples, m.hardNegatives, 0, ld, minEnergy);
    var sp := shuffle(pos);
    var sn := shuffle(neg + hard);
    var ps := SplitAt(sp, valSplit);
    var ns := SplitAt(sn, valSplit);
    SplitPartition(sp, valSplit);
    SplitPartition(sn, valSplit);
    assert |ps.val| + |ps.train| == |pos| by {
      assert |multiset(sp)| == |multiset(pos)|;
    }
    assert |ns.val| + |ns.train| == |neg| + |hard| by {
      assert |multiset(sn)| == |multiset(neg + hard)|;
    }
    Dataset(ps.train, ns.train, ps.val, ns.val,
      Metadata(
        ClassStats(|pos|, |ps.train|, |ps.val|, |m.positiveSamples|),
        ClassStats(|neg|, |ns.train|, |ns.val|, |m.negativeSamples|),
        ClassStats(|hard|, 0, 0, |m.hardNegatives|),
        SplitTotals(|ps.train|, |ns.train|, |ps.train| + |ns.train|),
        SplitTotals(|ps.val|, |ns.val|, |ps.val| + |ns.val|)))
  }

  // ---------------------------------------------------------------- file names

  /** `f"{prefix}_{i:06d}.npy"`. */
  function SampleName(prefix: string, i: nat): string
  {
    prefix + "_" + PadLeft(NatToString(i), 6, '0') + ".npy"
  }

  /** `save_samples`: one name per sample, by position. */
  function SaveSamples<T>(samples: seq<T>, prefix: string): (names: seq<string>)
    ensures |names| == |samples|
  {
    seq(|samples|, i requires 0 <= i < |samples| => SampleName(prefix, i))
  }

  /** Reads the index back from a file name written for `prefix`. */
  function SampleIndex(prefix: string, name: string): nat
  {
    if |name| >= |prefix| + 5 then DigitsValue(name[|prefix| + 1..|name| - 4]) else 0
  }

  /** The index can be read back from its name, so names of different positions differ
      and no sample overwrites another. */
  lemma SampleNameRoundTrip(prefix: string, i: nat)
    ensures SampleIndex(prefix, SampleName(prefix, i)) == i
  {
    var digits := NatToString(i);
    var padded := PadLeft(digits, 6, '0');
    var name := SampleName(prefix, i);
    assert name[|prefix| + 1..|name| - 4] == padded;
    NatToStringValue(i);
    if |digits| < 6 {
      assert padded == seq(6 - |digits|, _ => '0') + digits;
      LeadingZerosValue(6 - |digits|, digits);
    }
  }

  lemma SaveSamplesDistinct<T>(samples: seq<T>, prefix: string)
    ensures forall i, j :: 0 <= i < j < |samples| ==> SaveSamples(samples, prefix)[i] != SaveSamples(samples, prefix)[j]
  {
    forall i, j | 0 <= i < j < |samples|
      ensures SaveSamples(samples, prefix)[i] != SaveSamples(samples, prefix)[j]
    {
      SampleNameRoundTrip(prefix, i);
      SampleNameRoundTrip(prefix, j);
    }
  }

  // ---------------------------------------------------------------- validation

  /** One error for a file that is missing or is not valid audio. */
  function FileErrors(samples: seq<TrainingSample>, fileExists: string -> bool, isValid: string -> bool): (errs: seq<string>)
    ensures |errs| <= |samples|
  {
    if |samples| == 0 then []
    else
      var f := samples[0].file;
      var e := if !fileExists(f) then ["File not found: " + f]
               else if !isValid(f) then ["Invalid audio file: " + f] else [];
      e + FileErrors(samples[1..], fileExists, isValid)
  }

  lemma {:induction false} FileErrorsEmpty(samples: seq<TrainingSample>, fileExists: string -> bool, isValid: string -> bool)
    ensures FileErrors(samples, fileExists, isValid) == [] <==>
      forall i :: 0 <= i < |samples| ==> fileExists(samples[i].file) && isValid(samples[i].file)
    decreases |samples|
  {
    if |samples| > 0 {
      FileErrorsEmpty(samples[1..], fileExists, isValid);
      assert forall i :: 1 <= i < |samples| ==> samples[i] == samples[1..][i - 1];
    }
  }

  /** `validate_manifest`: a load failure is the only error; otherwise one error per bad
      file across all three lists, then the two count checks on plain positives and
      plain negatives. Valid iff there is no error. */
  function ValidateManifest(loaded: Result<TrainingManifest>, fileExists: string -> bool, isValid: string -> bool)
    : (r: (bool, seq<string>))
    ensures r.0 <==> |r.1| == 0
    ensures loaded.Err? ==> r == (false, ["Failed to load manifest: " + loaded.error])
  {
    match loaded
    case Err(e) => (false, ["Failed to load manifest: " + e])
    case Ok(m) =>
      var all := m.positiveSamples + m.negativeSamples + m.hardNegatives;
      var errs := FileErrors(all, fileExists, isValid)
        + (if |m.positiveSamples| < 2 then ["Need at least 2 positive samples, got " + NatToString(|m.positiveSamples|)] else [])
        + (if |m.negativeSamples| < 2 then ["Need at least 2 negative samples, got " + NatToString(|m.negativeSamples|)] else []);
      (|errs| == 0, errs)
  }

  /** A loaded manifest is valid exactly when every file of the three lists exists and
      is valid audio and there are at least two plain positives and two plain negatives;
      hard negatives do not count toward the minimum. */
  lemma ValidateManifestIff(m: TrainingManifest, fileExists: string -> bool, isValid: string -> bool)
    ensures var all := m.positiveSamples + m.negativeSamples + m.hardNegatives;
      ValidateManifest(Ok(m), fileExists, isValid).0 <==>
        && (forall i :: 0 <= i < |all| ==> fileExists(all[i].file) && isValid(all[i].file))
        && |m.positiveSamples| >= 2 && |m.negativeSamples| >= 2
  {
    FileErrorsEmpty(m.positiveSamples + m.negativeSamples + m.hardNegatives, fileExists, isValid);
  }
}

=== FILE: descriptions.dfy ===
/** Friendly names and descriptions of well-known processes.

    The table maps lower-case executable names to descriptions. Lookups lower-case
    the queried name, try the exact key first and then any key that contains the
    name or is contained in it. The table is a hash map, so the partial match returns
    whichever matching entry the map's iteration order reaches first; the model
    takes that order as the order of the table's entries. */
module Descriptions {
  import opened Wrappers
  import opened Strings

  datatype ProcessDescription = ProcessDescription(
    friendlyName: string,
    description: string,
    impactIfKilled: string,
    respawns: bool,
    respawnWhen: Option<string>)

  /** The entries in the map's iteration order. Keys are unique, as in a map. */
  type Table = seq<(string, ProcessDescription)>

  predicate KeysUnique(t: Table)
  {
    forall i, j :: 0 <= i < j < |t| ==> t[i].0 != t[j].0
  }

  /** `HashMap::get`: the entry with exactly this key. */
  function Get(t: Table, key: string): (r: Option<ProcessDescription>)
    ensures r.Some? <==> exists i :: 0 <= i < |t| && t[i].0 == key
    ensures r.Some? ==> exists i :: 0 <= i < |t| && t[i] == (key, r.value)
  {
    if |t| == 0 then None
    else if t[0].0 == key then Some(t[0].1)
    else
      var r := Get(t[1..], key);
      assert forall i :: 1 <= i < |t| ==> t[i] == t[1..][i - 1];
      r
  }

  /** In a table with unique keys the entry found is the one stored under the key. */
  lemma GetUnique(t: Table, i: nat)
    requires KeysUnique(t) && i < |t|
    ensures Get(t, t[i].0) == Some(t[i].1)
  {
    var r := Get(t, t[i].0);
    var j :| 0 <= j < |t| && t[j] == (t[i].0, r.value);
    assert j == i;
  }

  /** The key and the name are related by containment in either direction. */
  predicate Related(key: string, name: string)
  {
    Contains(name, key) || Contains(key, name)
  }

  /** The first entry, in iteration order, whose key is related to the name. */
  function FirstRelated(t: Table, name: string): (r: Option<nat>)
    ensures r.Some? ==> r.value < |t| && Related(t[r.value].0, name)
    ensures r.Some? ==> forall j :: 0 <= j < r.value ==> !Related(t[j].0, name)
    ensures r.None? <==> forall j :: 0 <= j < |t| ==> !Related(t[j].0, name)
  {
    if |t| == 0 then None
    else if Related(t[0].0, name) then Some(0)
    else
      match FirstRelated(t[1..], name)
      case None =>
        assert forall j :: 1 <= j < |t| ==> t[j] == t[1..][j - 1];
        None
      case Some(k) =>
        assert forall j :: 1 <= j < |t| ==> t[j] == t[1..][j - 1];
        Some(k + 1)
  }

  /** The lookup shared by both queries: exact key first, then the first related key. */
  function Lookup(t: Table, name: string): (r: Option<ProcessDescription>)
  {
    var n := Lower(name);
    match Get(t, n)
    case Some(d) => Some(d)
    case None =>
      match FirstRelated(t, n)
      case Some(i) => Some(t[i].1)
      case None => None
  }

  /** An entry whose key equals the lower-cased name wins over every partial match;
      otherwise the first related entry is found; nothing is found only when no key
      is related to the lower-cased name. */
  lemma LookupProps(t: Table, name: string)
    requires KeysUnique(t)
    ensures forall i :: 0 <= i < |t| && t[i].0 == Lower(name) ==> Lookup(t, name) == Some(t[i].1)
    ensures (forall i :: 0 <= i < |t| ==> t[i].0 != Lower(name)) && FirstRelated(t, Lower(name)).Some? ==>
      Lookup(t, name) == Some(t[FirstRelated(t, Lower(name)).value].1)
    ensures Lookup(t, name).None? <==> forall i :: 0 <= i < |t| ==> !Related(t[i].0, Lower(name))
  {
    forall i | 0 <= i < |t| && t[i].0 == Lower(name) ensures Lookup(t, name) == Some(t[i].1) {
      GetUnique(t, i);
    }
    if Lookup(t, name).None? {
      assert Get(t, Lower(name)).None?;
    } else if Get(t, Lower(name)).Some? {
      var i :| 0 <= i < |t| && t[i].0 == Lower(name);
      ContainsAt(Lower(name), t[i].0, 0);
      assert Lower(name)[0..|t[i].0|] == t[i].0;
      assert Related(t[i].0, Lower(name));
    }
  }

  /** Every key contains the empty string, so an empty name finds an entry in any
      non-empty table. */
  lemma EmptyNameFindsEntry(t: Table)
    requires |t| > 0
    ensures Lookup(t, "").Some?
  {
    ContainsAt(t[0].0, "", 0);
    assert Related(t[0].0, Lower(""));
  }

  /** `get_process_description`. */
  function ProcessDescriptionOf(t: Table, name: string): (r: Option<string>)
    ensures r.Some? <==> Lookup(t, name).Some?
    ensures r.Some? ==> r.value == Lookup(t, name).value.description
  {
    match Lookup(t, name)
    case Some(d) => Some(d.description)
    case None => None
  }

  /** `get_friendly_name`: the entry's friendly name, or the name exactly as given. */
  function FriendlyName(t: Table, name: string): (r: string)
    ensures Lookup(t, name).None? ==> r == name
    ensures Lookup(t, name).Some? ==> r == Lookup(t, name).value.friendlyName
  {
    match Lookup(t, name)
    case Some(d) => d.friendlyName
    case None => name
  }

  /** `get_full_description`: exact key only. */
  function FullDescription(t: Table, name: string): (r: Option<ProcessDescription>)
  {
    Get(t, Lower(name))
  }

  /** The full description exists exactly when the lower-cased name is a key; then it
      agrees with the lookup, while the lookup may also succeed by a partial match. */
  lemma FullDescriptionExact(t: Table, name: string)
    requires KeysUnique(t)
    ensures FullDescription(t, name).Some? <==> exists i :: 0 <= i < |t| && t[i].0 == Lower(name)
    ensures FullDescription(t, name).Some? ==> Lookup(t, name) == FullDescription(t, name)
    ensures FullDescription(t, name).Some? ==> FriendlyName(t, name) == FullDescription(t, name).value.friendlyName
  {
  }

  /** The lookup ignores the case of the queried name. */
  lemma LookupIgnoresCase(t: Table, a: string, b: string)
    requires EqualsIgnoreCase(a, b)
    ensures Lookup(t, a) == Lookup(t, b)
    ensures ProcessDescriptionOf(t, a) == ProcessDescriptionOf(t, b)
  {
  }
}

=== FILE: detection_jobs.dfy ===
/** The detection-job store and the feedback-session store of the desktop
    shell: submitting, starting, finishing, cancelling and deleting detection
    jobs, the configuration handed to the detector worker, and the guards
    before model training.

    A store is the list read from its JSON file: `None` when the file does not
    exist, `Err` when it cannot be read. Whether an input file exists, fresh ids and the current time are
    parameters. */
module DetectionJobs {
  import opened Wrappers
  import opened Records
  import opened AudioTypes

  datatype JobStatus = Pending | Processing | Completed | Failed | Cancelled

  datatype DetectionJob = DetectionJob(
    id: string,
    inputFile: string,
    status: JobStatus,
    progress: int,
    stage: Option<string>,
    createdAt: string,
    completedAt: Option<string>,
    error: Option<string>,
    result: Option<AudioDetectionResult>)

  function JobId(j: DetectionJob): string { j.id }

  /** `AudioDetectionJob::new`: pending, no progress, nothing finished. */
  function NewJob(id: string, inputFile: string, now: string): DetectionJob
  {
    DetectionJob(id, inputFile, Pending, 0, None, now, None, None, None)
  }

  /** The name `{:?}` prints for a status. */
  function StatusName(s: JobStatus): string
  {
    match s
    case Pending => "Pending"
    case Processing => "Processing"
    case Completed => "Completed"
    case Failed => "Failed"
    case Cancelled => "Cancelled"
  }

  /** A store file: `None` when it does not exist, `Err` when it cannot be read. */
  type JobsFile = Option<Result<seq<DetectionJob>>>

  /** A store read with `if path.exists() { read_json_file(&path)? } else { vec![] }`. */
  function ReadList<T>(f: Option<Result<seq<T>>>): (r: Result<seq<T>>)
    ensures f.None? ==> r == Ok([])
    ensures f.Some? ==> r == f.value
  {
    if f.None? then Ok([]) else f.value
  }

  const NO_JOBS_FILE: string := "No audio detection jobs file found"
  const NO_MODEL: string := "Model not found. Please train or import a model first."

  // ---------------------------------------------------------------- lifecycle

  /** `submit_audio_detection_job`: a missing input file fails first, then an
      unreadable store; otherwise one pending job is appended to the (possibly
      absent) list. */
  function Submit(store: JobsFile, inputFile: string, inputExists: bool, newId: string, now: string)
    : (r: Result<seq<DetectionJob>>)
    ensures !inputExists ==> r == Err("Input file not found: " + inputFile)
    ensures inputExists && store.Some? && store.value.Err? ==> r == Err(store.value.error)
    ensures r.Ok? <==> inputExists && (store.None? || store.value.Ok?)
    ensures r.Ok? ==> var before := ReadList(store).value;
      && |r.value| == |before| + 1
      && r.value[..|before|] == before
      && r.value[|before|].id == newId && r.value[|before|].status == Pending && r.value[|before|].progress == 0
      && r.value[|before|].inputFile == inputFile
  {
    if !inputExists then Err("Input file not found: " + inputFile)
    else
      var jobs :- ReadList(store);
      assert (jobs + [NewJob(newId, inputFile, now)])[..|jobs|] == jobs;
      Ok(jobs + [NewJob(newId, inputFile, now)])
  }

  /** What a start leaves behind: the list written with the job marked Processing
      (`None` when nothing was written), and the input file and model path handed to
      the worker, or the error. */
  datatype Started = Started(written: Option<seq<DetectionJob>>, launch: Result<(string, string)>)

  /** `start_audio_detection_job` up to the worker: only a stored pending job may
      start. It is written as Processing before the model is looked up, so a missing
      model is an error that leaves the job Processing. `model` is the model's path
      when its file exists. */
  function Start(store: JobsFile, id: string, model: Option<string>): (r: Started)
    ensures r.written.Some? <==>
      && store.Some? && store.value.Ok? && IndexOf(store.value.value, JobId, id).Some?
      && store.value.value[IndexOf(store.value.value, JobId, id).value].status == Pending
    ensures r.written.Some? ==> var jobs := store.value.value; var i := IndexOf(jobs, JobId, id).value;
      && |r.written.value| == |jobs|
      && r.written.value[i] == jobs[i].(status := Processing)
      && (forall j :: 0 <= j < |jobs| && j != i ==> r.written.value[j] == jobs[j])
    ensures r.launch.Ok? <==> r.written.Some? && model.Some?
    ensures r.launch.Ok? ==>
      r.launch.value == (store.value.value[IndexOf(store.value.value, JobId, id).value].inputFile, model.value)
    ensures r.written.Some? && model.None? ==> r.launch == Err(NO_MODEL)
    ensures store.None? ==> r.launch == Err(NO_JOBS_FILE)
    ensures store.Some? && store.value.Err? ==> r.launch == Err(store.value.error)
    ensures store.Some? && store.value.Ok? && IndexOf(store.value.value, JobId, id).Some? ==>
      var job := store.value.value[IndexOf(store.value.value, JobId, id).value];
      job.status != Pending ==> r.launch == Err("Cannot start job with status " + StatusName(job.status))
  {
    if store.None? then Started(None, Err(NO_JOBS_FILE))
    else if store.value.Err? then Started(None, Err(store.value.error))
    else
      var jobs := store.value.value;
      match IndexOf(jobs, JobId, id)
      case None => Started(None, Err("Audio detection job not found: " + id))
      case Some(i) =>
        if jobs[i].status != Pending then Started(None, Err("Cannot start job with status " + StatusName(jobs[i].status)))
        else
          var written := jobs[i := jobs[i].(status := Processing)];
          if model.None? then Started(Some(written), Err(NO_MODEL))
          else Started(Some(written), Ok((jobs[i].inputFile, model.value)))
  }

  /** A start that finds no model leaves its job Processing: the job can never be
      started again, and cancelling it is what still works. */
  lemma NoModelLeavesProcessing(store: JobsFile, id: string, model: Option<string>)
    requires Start(store, id, None).written.Some?
    ensures Start(store, id, None).launch == Err(NO_MODEL)
    ensures var after: JobsFile := Some(Ok(Start(store, id, None).written.value));
      && Start(after, id, model).written.None?
      && Start(after, id, model).launch == Err("Cannot start job with status Processing")
      && Cancel(after, id).Ok?
  {
    var jobs := store.value.value;
    var i := IndexOf(jobs, JobId, id).value;
    IndexOfAt(Start(store, id, None).written.value, JobId, id, i);
  }

  /** The worker's `config` object: the five fields of the given configuration, or of
      the default one; the model path is sent separately. */
  function WorkerConfig(config: Option<ModelConfig>): (d: ModelConfigDict)
    ensures d.modelPath.None?
  {
    var c := config.GetOr(DefaultModelConfig);
    ModelConfigDict(None, Some(c.windowSizeMs), Some(c.hopSizeMs), Some(c.confidenceThreshold),
      Some(c.minSegmentDurationMs), Some(c.mergeGapMs))
  }

  /** The detector reads back exactly the configuration the shell chose. */
  lemma WorkerConfigReadBack(config: Option<ModelConfig>)
    ensures ModelConfigFromDict(WorkerConfig(config)) == config.GetOr(DefaultModelConfig).(modelPath := None)
  {
  }

  /** A forwarded progress message updates the first job with the id; other jobs and
      an unknown id are untouched. */
  function ApplyProgress(jobs: seq<DetectionJob>, id: string, percent: int, stage: string): (r: seq<DetectionJob>)
    ensures |r| == |jobs|
    ensures forall j :: 0 <= j < |jobs| && jobs[j].id != id ==> r[j] == jobs[j]
    ensures IndexOf(jobs, JobId, id).Some? ==> var i := IndexOf(jobs, JobId, id).value;
      r[i] == jobs[i].(progress := percent, stage := Some(stage))
    ensures IndexOf(jobs, JobId, id).None? ==> r == jobs
  {
    match IndexOf(jobs, JobId, id)
    case None => jobs
    case Some(i) => jobs[i := jobs[i].(progress := percent, stage := Some(stage))]
  }

  /** The list written after the worker returns (`None` when nothing is written), and
      the command's reply. */
  datatype Finish = Finish(written: Option<seq<DetectionJob>>, reply: Result<Option<AudioDetectionResult>>)

  /** After the worker the list is read again: an unreadable (or vanished) file is
      the error and nothing is written. Then success completes the job at 100% with
      the parsed result; failure marks it Failed with the error text, and the error
      is also the reply. A job that vanished meanwhile is an error and nothing is
      written. */
  function FinishJob(reread: Result<seq<DetectionJob>>, id: string, worker: Result<Option<AudioDetectionResult>>,
                     now: string): (f: Finish)
    ensures reread.Err? ==> f == Finish(None, Err(reread.error))
    ensures reread.Ok? && IndexOf(reread.value, JobId, id).None? ==> f.written.None? && f.reply.Err?
    ensures reread.Ok? && IndexOf(reread.value, JobId, id).Some? ==>
      var jobs := reread.value; var i := IndexOf(jobs, JobId, id).value;
      && f.written.Some? && |f.written.value| == |jobs|
      && (forall j :: 0 <= j < |jobs| && j != i ==> f.written.value[j] == jobs[j])
      && (worker.Ok? ==>
            && f.written.value[i].status == Completed && f.written.value[i].progress == 100
            && f.written.value[i].stage.None? && f.written.value[i].completedAt == Some(now)
            && f.written.value[i].result == worker.value && f.reply == worker)
      && (worker.Err? ==>
            && f.written.value[i].status == Failed && f.written.value[i].error == Some(worker.error)
            && f.reply == Err(worker.error))
  {
    if reread.Err? then Finish(None, Err(reread.error))
    else
      var jobs := reread.value;
      match IndexOf(jobs, JobId, id)
      case None => Finish(None, Err("Audio detection job not found after worker: " + id))
      case Some(i) =>
        var job := jobs[i];
        if worker.Ok? then
          Finish(Some(jobs[i := job.(status := Completed, progress := 100, stage := None,
            completedAt := Some(now), result := worker.value)]), worker)
        else
          Finish(Some(jobs[i := job.(status := Failed, error := Some(worker.error))]), Err(worker.error))
  }

  /** `cancel_audio_detection_job`: the first job with the id is cancelled when pending
      or processing; any other status, an unknown id, or a missing or unreadable
      store is an error. */
  function Cancel(store: JobsFile, id: string): (r: Result<seq<DetectionJob>>)
    ensures r.Ok? <==>
      && store.Some? && store.value.Ok? && IndexOf(store.value.value, JobId, id).Some?
      && store.value.value[IndexOf(store.value.value, JobId, id).value].status in {Pending, Processing}
    ensures store.None? ==> r == Err(NO_JOBS_FILE)
    ensures store.Some? && store.value.Err? ==> r == Err(store.value.error)
    ensures store.Some? && store.value.Ok? && IndexOf(store.value.value, JobId, id).Some? ==>
      var job := store.value.value[IndexOf(store.value.value, JobId, id).value];
      job.status !in {Pending, Processing} ==> r == Err("Cannot cancel job with status " + StatusName(job.status))
    ensures r.Ok? ==> var jobs := store.value.value; var i := IndexOf(jobs, JobId, id).value;
      && |r.value| == |jobs|
      && r.value[i] == jobs[i].(status := Cancelled)
      && (forall j :: 0 <= j < |jobs| && j != i ==> r.value[j] == jobs[j])
  {
    if store.None? then Err(NO_JOBS_FILE)
    else if store.value.Err? then Err(store.value.error)
    else
      var jobs := store.value.value;
      match IndexOf(jobs, JobId, id)
      case None => Err("Audio detection job not found: " + id)
      case Some(i) =>
        if jobs[i].status == Pending || jobs[i].status == Processing then Ok(jobs[i := jobs[i].(status := Cancelled)])
        else Err("Cannot cancel job with status " + StatusName(jobs[i].status))
  }

  /** `delete_audio_detection_job`: removes the first job with the id. */
  function Delete(store: JobsFile, id: string): (r: Result<seq<DetectionJob>>)
    ensures r.Ok? <==> store.Some? && store.value.Ok? && IndexOf(store.value.value, JobId, id).Some?
    ensures store.None? ==> r == Err(NO_JOBS_FILE)
    ensures store.Some? && store.value.Err? ==> r == Err(store.value.error)
    ensures r.Ok? ==> r.value == RemoveAt(store.value.value, IndexOf(store.value.value, JobId, id).value)
  {
    if store.None? then Err(NO_JOBS_FILE)
    else if store.value.Err? then Err(store.value.error)
    else
      match IndexOf(store.value.value, JobId, id)
      case None => Err("Audio detection job not found: " + id)
      case Some(i) => Ok(RemoveAt(store.value.value, i))
  }

  /** Deleting removes exactly one job; when ids are unique, no job with the id remains. */
  lemma DeleteRemovesOne(store: JobsFile, id: string)
    requires Delete(store, id).Ok?
    ensures |Delete(store, id).value| == |store.value.value| - 1
    ensures UniqueKeys(store.value.value, JobId) ==> !HasKey(Delete(store, id).value, JobId, id)
  {
    var jobs := store.value.value;
    var i := IndexOf(jobs, JobId, id).value;
    var r := Delete(store, id).value;
    if UniqueKeys(jobs, JobId) {
      forall j | 0 <= j < |r|
        ensures r[j].id != id
      {
        if j >= i {
          assert r[j] == jobs[j + 1];
          assert JobId(jobs[i]) != JobId(jobs[j + 1]);
        }
      }
    }
  }

  /** `get_audio_detection_job`: the first job with the id. */
  function GetJob(store: JobsFile, id: string): (r: Result<DetectionJob>)
    ensures r.Ok? <==> store.Some? && store.value.Ok? && HasKey(store.value.value, JobId, id)
    ensures store.Some? && store.value.Err? ==> r == Err(store.value.error)
    ensures r.Ok? ==> r.value.id == id && r.value in store.value.value
  {
    if store.None? then Err(NO_JOBS_FILE)
    else if store.value.Err? then Err(store.value.error)
    else
      HasKeyIndex(store.value.value, JobId, id);
      match IndexOf(store.value.value, JobId, id)
      case None => Err("Audio detection job not found: " + id)
      case Some(i) => Ok(store.value.value[i])
  }

  /** A cancelled, completed or failed job is never started or cancelled again. */
  lemma TerminalStatusesStay(jobs: seq<DetectionJob>, id: string, model: Option<string>)
    requires IndexOf(jobs, JobId, id).Some?
    requires jobs[IndexOf(jobs, JobId, id).value].status in {Completed, Failed, Cancelled}
    ensures Start(Some(Ok(jobs)), id, model).written.None? && Start(Some(Ok(jobs)), id, model).launch.Err?
    ensures Cancel(Some(Ok(jobs)), id).Err?
  {
  }

  /** Finishing does not look at the status: a job cancelled while its worker ran is
      overwritten as Completed or Failed when the worker returns. */
  lemma FinishIgnoresCancel(jobs: seq<DetectionJob>, id: string, worker: Result<Option<AudioDetectionResult>>, now: string)
    requires IndexOf(jobs, JobId, id).Some? && jobs[IndexOf(jobs, JobId, id).value].status == Cancelled
    ensures FinishJob(Ok(jobs), id, worker, now).written.value[IndexOf(jobs, JobId, id).value].status != Cancelled
  {
  }

  // ---------------------------------------------------------------- feedback sessions

  /** A reviewed detection: its span and the user's verdict ("correct" or not). */
  datatype FeedbackSample = FeedbackSample(startSeconds: real, endSeconds: real, userLabel: string)

  /** A span the user marked as a missed detection. */
  datatype ManualPositive = ManualPositive(startSeconds: real, endSeconds: real)

  datatype FeedbackSession = FeedbackSession(
    id: string,
    sourceFile: string,
    samples: seq<FeedbackSample>,
    manualPositives: seq<ManualPositive>)

  function SessionId(s: FeedbackSession): string { s.id }

  type SessionsFile = Option<Result<seq<FeedbackSession>>>

  const NO_SESSIONS: string := "No feedback sessions found"

  /** `save_feedback_session`: an unreadable file is the error; otherwise the session
      replaces the one with the same id, or else is appended. */
  function SaveSession(store: SessionsFile, s: FeedbackSession): (r: Result<seq<FeedbackSession>>)
    ensures r.Ok? <==> store.None? || store.value.Ok?
    ensures store.Some? && store.value.Err? ==> r == Err(store.value.error)
    ensures r.Ok? ==> var before := ReadList(store).value;
      && s in r.value
      && (UniqueKeys(before, SessionId) ==> UniqueKeys(r.value, SessionId))
      && |r.value| == (if HasKey(before, SessionId, s.id) then |before| else |before| + 1)
      && (forall j :: 0 <= j < |before| && before[j].id != s.id ==> r.value[j] == before[j])
  {
    var before :- ReadList(store);
    UpsertProperties(before, SessionId, s);
    Ok(Upsert(before, SessionId, s))
  }

  /** `delete_feedback_session`: drops every session with the id. */
  function DeleteSession(store: SessionsFile, id: string): (r: Result<seq<FeedbackSession>>)
    ensures r.Ok? <==> store.Some? && store.value.Ok?
    ensures store.None? ==> r == Err(NO_SESSIONS)
    ensures store.Some? && store.value.Err? ==> r == Err(store.value.error)
    ensures r.Ok? ==> !HasKey(r.value, SessionId, id)
    ensures r.Ok? ==> forall j :: 0 <= j < |store.value.value| && store.value.value[j].id != id ==>
      store.value.value[j] in r.value
  {
    if store.None? then Err(NO_SESSIONS)
    else if store.value.Err? then Err(store.value.error)
    else Ok(Retain(store.value.value, (s: FeedbackSession) => s.id != id))
  }

  /** The samples a session contributes before slicing: reviewed samples and manual positives. */
  function SessionSamples(s: FeedbackSession): nat { |s.samples| + |s.manualPositives| }

  function TotalSamples(ss: seq<FeedbackSession>): nat
  {
    if |ss| == 0 then 0 else SessionSamples(ss[0]) + TotalSamples(ss[1..])
  }

  /** `start_model_training` guards: the sessions file must exist and be readable,
      some listed session must be selected, and there must be 2 samples or a bulk
      positive file. The selected sessions, in file order, are returned. */
  function TrainingSelection(store: SessionsFile, ids: seq<string>, bulkPositiveFiles: seq<string>)
    : (r: Result<seq<FeedbackSession>>)
    ensures r.Ok? ==> |r.value| > 0 && (TotalSamples(r.value) >= 2 || |bulkPositiveFiles| > 0)
    ensures store.None? ==> r == Err(NO_SESSIONS)
    ensures store.Some? && store.value.Err? ==> r == Err(store.value.error)
    ensures r.Ok? ==> store.Some? && store.value.Ok?
    ensures r.Ok? ==> forall k :: 0 <= k < |r.value| ==> r.value[k].id in ids && r.value[k] in store.value.value
    ensures r.Ok? ==> forall k :: 0 <= k < |store.value.value| && store.value.value[k].id in ids ==>
      store.value.value[k] in r.value
  {
    if store.None? then Err(NO_SESSIONS)
    else if store.value.Err? then Err(store.value.error)
    else
      var selected := Retain(store.value.value, (s: FeedbackSession) => s.id in ids);
      if |selected| == 0 then Err("No feedback sessions selected")
      else if TotalSamples(selected) < 2 && |bulkPositiveFiles| == 0 then
        Err("Need at least 2 feedback samples or bulk positive files to train")
      else Ok(selected)
  }

  /** Selecting sessions that exist always passes the session guard: with one listed
      session holding two samples, training proceeds. */
  lemma TrainingSelectionAccepts(store: seq<FeedbackSession>, ids: seq<string>, k: nat)
    requires k < |store| && store[k].id in ids && SessionSamples(store[k]) >= 2
    ensures TrainingSelection(Some(Ok(store)), ids, []).Ok?
  {
    var selected := Retain(store, (s: FeedbackSession) => s.id in ids);
    assert store[k] in selected;
    TotalSamplesAtLeast(selected, store[k]);
  }

  lemma {:induction false} TotalSamplesAtLeast(ss: seq<FeedbackSession>, s: FeedbackSession)
    requires s in ss
    ensures TotalSamples(ss) >= SessionSamples(s)
    decreases |ss|
  {
    if ss[0] != s {
      assert s in ss[1..];
      TotalSamplesAtLeast(ss[1..], s);
    }
  }
}

=== FILE: detector_inference.dfy ===
/** Sliding-window inference of the audio event detector: window and hop
    sizes in samples, the window start positions, their partition into
    batches, the prediction list and the progress reports.

    The classifier is opaque: `classify` maps a window's start sample to the
    probability the model returns for that window. */
module DetectorInference {
  import opened Wrappers
  import opened Numeric
  import opened AudioTypes

  /** `int(ms * sr / 1000)` at the 16 kHz sample rate. */
  function MsToSamples(ms: int): (n: int)
    ensures n == 16 * ms
  {
    var x := ms as real * SAMPLE_RATE as real / 1000.0;
    assert x == (16 * ms) as real;
    Trunc(x)
  }

  /** Python's `range(start, stop, step)` for a positive step. */
  function PyRange(start: int, stop: int, step: int): seq<int>
    requires step > 0
    decreases stop - start
  {
    if start >= stop then [] else [start] + PyRange(start + step, stop, step)
  }

  /** The range is the arithmetic progression start, start+step, ... below stop. */
  lemma PyRangeShape(start: int, stop: int, step: int)
    requires step > 0
    ensures |PyRange(start, stop, step)| == if start < stop then (stop - start - 1) / step + 1 else 0
    ensures forall i :: 0 <= i < |PyRange(start, stop, step)| ==>
      PyRange(start, stop, step)[i] == start + i * step && PyRange(start, stop, step)[i] < stop
  {
    PyRangeLength(start, stop, step);
    PyRangeElements(start, stop, step);
  }

  lemma {:induction false} PyRangeLength(start: int, stop: int, step: int)
    requires step > 0
    ensures |PyRange(start, stop, step)| == if start < stop then (stop - start - 1) / step + 1 else 0
    decreases stop - start
  {
    if start < stop {
      PyRangeLength(start + step, stop, step);
      if start + step < stop {
        DivShift(stop - start - step - 1, step);
      } else {
        assert (stop - start - 1) / step == 0;
      }
    }
  }

  lemma {:induction false} PyRangeElements(start: int, stop: int, step: int)
    requires step > 0
    ensures forall i :: 0 <= i < |PyRange(start, stop, step)| ==>
      PyRange(start, stop, step)[i] == start + i * step && PyRange(start, stop, step)[i] < stop
    decreases stop - start
  {
    if start < stop {
      var r := PyRange(start, stop, step);
      var rest := PyRange(start + step, stop, step);
      PyRangeElements(start + step, stop, step);
      forall i | 0 <= i < |r|
        ensures r[i] == start + i * step && r[i] < stop
      {
        if i > 0 {
          assert r[i] == rest[i - 1];
          assert start + step + (i - 1) * step == start + i * step;
        }
      }
    }
  }

  lemma DivShift(a: int, b: int)
    requires b > 0 && a >= -1
    ensures (a + b) / b == a / b + 1
  {
    var q := a / b;
    var r := a % b;
    assert a == q * b + r && 0 <= r < b;
    assert a + b == (q + 1) * b + r;
    DivUnique(a + b, b, q + 1, r);
  }

  /** Euclidean division is determined by any quotient and remainder that fit. */
  lemma DivUnique(n: int, b: int, q: int, r: int)
    requires b > 0 && 0 <= r < b && n == q * b + r
    ensures n / b == q
  {
    var q0 := n / b;
    var r0 := n % b;
    var d := q - q0;
    assert q * b - q0 * b == r0 - r;
    assert d * b == q * b - q0 * b;
    assert -b < d * b < b;
    if d >= 1 {
      MulAtLeast(d, b);
    } else if d <= -1 {
      MulAtLeast(-d, b);
    }
  }

  lemma MulAtLeast(d: int, b: int)
    requires d >= 1 && b > 0
    ensures d * b >= b
  {
  }

  /** `range(0, len(audio) - window_samples + 1, hop_samples)`. */
  function WindowStarts(audioLen: nat, window: int, hop: int): seq<int>
    requires hop > 0
  {
    PyRange(0, audioLen - window + 1, hop)
  }

  /** The windows start at 0, H, 2H, ... and each lies inside the audio; there are
      (L - W) // H + 1 of them when L >= W and none when L < W. */
  lemma WindowStartsShape(audioLen: nat, window: int, hop: int)
    requires hop > 0
    ensures var starts := WindowStarts(audioLen, window, hop);
      && |starts| == (if audioLen >= window then (audioLen - window) / hop + 1 else 0)
      && (forall i :: 0 <= i < |starts| ==> starts[i] == i * hop && starts[i] + window <= audioLen)
  {
    PyRangeShape(0, audioLen - window + 1, hop);
  }

  /** `max(1, (len(audio) - window_samples) // hop_samples + 1)`: the progress denominator. */
  function TotalWindows(audioLen: nat, window: int, hop: int): (t: int)
    requires hop > 0
    ensures t >= 1
    ensures t >= |WindowStarts(audioLen, window, hop)|
    ensures audioLen >= window ==> t == |WindowStarts(audioLen, window, hop)|
  {
    WindowStartsShape(audioLen, window, hop);
    assert audioLen < window ==> (audioLen - window) / hop < 0;
    var n := (audioLen - window) / hop + 1;
    if n > 1 then n else 1
  }

  /** Batch size: 32 windows when the CUDA provider is active, else 1. */
  function BatchSize(usingGpu: bool): (b: nat)
    ensures b > 0
  {
    if usingGpu then 32 else 1
  }

  /** How often progress is reported: every batch on the GPU, every 10 windows otherwise. */
  function UpdateFrequency(usingGpu: bool): (f: nat)
    ensures f > 0
  {
    if usingGpu then BatchSize(usingGpu) else 10
  }

  /** `window_starts[batch_idx:batch_idx + batch_size]` for batch_idx = from, from + bs, ... */
  function BatchesFrom(xs: seq<int>, bs: nat, from: nat): seq<seq<int>>
    requires bs > 0
    decreases |xs| - from
  {
    if from >= |xs| then []
    else
      var end := if from + bs < |xs| then from + bs else |xs|;
      [xs[from..end]] + BatchesFrom(xs, bs, from + bs)
  }

  function Batches(xs: seq<int>, bs: nat): seq<seq<int>>
    requires bs > 0
  {
    BatchesFrom(xs, bs, 0)
  }

  function Flatten(bss: seq<seq<int>>): seq<int>
  {
    if |bss| == 0 then [] else bss[0] + Flatten(bss[1..])
  }

  /** Batches are consecutive non-empty slices of at most `bs` starts, all full but
      the last, and together they are exactly the start list. */
  lemma {:induction false} BatchesPartition(xs: seq<int>, bs: nat, from: nat)
    requires bs > 0 && from <= |xs|
    ensures Flatten(BatchesFrom(xs, bs, from)) == xs[from..]
    ensures forall k :: 0 <= k < |BatchesFrom(xs, bs, from)| ==>
      0 < |BatchesFrom(xs, bs, from)[k]| <= bs
    ensures forall k :: 0 <= k < |BatchesFrom(xs, bs, from)| - 1 ==>
      |BatchesFrom(xs, bs, from)[k]| == bs
    decreases |xs| - from
  {
    var bss := BatchesFrom(xs, bs, from);
    if from < |xs| {
      var end := if from + bs < |xs| then from + bs else |xs|;
      if from + bs <= |xs| {
        BatchesPartition(xs, bs, from + bs);
        assert xs[from..] == xs[from..end] + xs[from + bs..];
      } else {
        assert BatchesFrom(xs, bs, from + bs) == [];
      }
      assert bss[1..] == BatchesFrom(xs, bs, from + bs);
    }
  }

  /** One progress report: percentage and windows done out of the denominator. */
  datatype ProgressEvent = ProgressEvent(percent: int, done: nat, total: nat)

  /** `int((progress / total_windows) * 55) + 20`. */
  function InferencePercent(done: nat, total: nat): (p: int)
    requires 0 < done <= total
    ensures 20 <= p <= 75
    ensures done == total ==> p == 75
  {
    RatioScaleBounds(done as real, total as real, 55.0);
    Trunc(done as real / total as real * 55.0) + 20
  }

  /** More finished windows never give a smaller percentage. */
  lemma InferencePercentMonotone(d1: nat, d2: nat, total: nat)
    requires 0 < d1 <= d2 <= total
    ensures InferencePercent(d1, total) <= InferencePercent(d2, total)
  {
    var t := total as real;
    DivMono(d1 as real, d2 as real, t);
    ScaleMono(d1 as real / t, d2 as real / t, 55.0);
  }

  lemma ScaleMono(a: real, b: real, k: real)
    requires a <= b && k >= 0.0
    ensures a * k <= b * k
  {
  }

  lemma RatioScaleBounds(a: real, b: real, k: real)
    requires 0.0 < a <= b && k > 0.0
    ensures 0.0 <= a / b * k <= k
    ensures a == b ==> a / b * k == k
  {
    var q := a / b;
    assert q * b == a;
    assert 0.0 < q <= 1.0;
    assert a == b ==> q == 1.0;
  }

  /** A window's start in seconds and the probability for it. */
  datatype Prediction = Prediction(startSeconds: real, probability: real)

  /** The prediction list the inference must produce: window i at its start time in
      seconds, with the classifier's probability for that window. */
  function WindowPredictions(audioLen: nat, window: int, hop: int, classify: int -> real): (r: seq<Prediction>)
    requires hop > 0
  {
    var starts := WindowStarts(audioLen, window, hop);
    seq(|starts|, i requires 0 <= i < |starts| =>
      Prediction(starts[i] as real / SAMPLE_RATE as real, classify(starts[i])))
  }

  datatype InferenceOutput = InferenceOutput(predictions: seq<Prediction>, reports: seq<ProgressEvent>)

  /** Reports so far, with windows finished up to `upTo` out of `total`: each carries
      the percentage of its own count, counts strictly increase, percentages never fall. */
  predicate ReportsValid(reports: seq<ProgressEvent>, total: nat, upTo: nat)
  {
    && (forall k :: 0 <= k < |reports| ==> 0 < reports[k].done <= upTo && reports[k].done <= total)
    && (forall k :: 0 <= k < |reports| ==> reports[k].total == total)
    && (forall k :: 0 <= k < |reports| ==> reports[k].percent == InferencePercent(reports[k].done, total))
    && (forall k, l :: 0 <= k < l < |reports| ==> reports[k].done < reports[l].done)
    && (forall k, l :: 0 <= k < l < |reports| ==> reports[k].percent <= reports[l].percent)
  }

  /** A report for a larger count keeps the reports valid. */
  lemma ReportsAppend(reports: seq<ProgressEvent>, total: nat, upTo: nat, progress: nat)
    requires ReportsValid(reports, total, upTo) && upTo < progress <= total
    ensures ReportsValid(reports + [ProgressEvent(InferencePercent(progress, total), progress, total)], total, progress)
  {
    forall k | 0 <= k < |reports| {
      InferencePercentMonotone(reports[k].done, progress, total);
    }
  }

  /** One batch through the classifier: a prediction per window start, in order. */
  method PredictBatch(batch: seq<int>, classify: int -> real) returns (ps: seq<Prediction>)
    ensures |ps| == |batch|
    ensures forall i :: 0 <= i < |batch| ==>
      ps[i] == Prediction(batch[i] as real / SAMPLE_RATE as real, classify(batch[i]))
  {
    ps := [];
    var j := 0;
    while j < |batch|
      invariant 0 <= j <= |batch| && |ps| == j
      invariant forall i :: 0 <= i < j ==>
        ps[i] == Prediction(batch[i] as real / SAMPLE_RATE as real, classify(batch[i]))
    {
      ps := ps + [Prediction(batch[j] as real / SAMPLE_RATE as real, classify(batch[j]))];
      j := j + 1;
    }
  }

  /** The predictions so far are those of the first window starts, in order. */
  predicate PredictsPrefix(preds: seq<Prediction>, starts: seq<int>, classify: int -> real)
  {
    |preds| <= |starts| &&
    forall i :: 0 <= i < |preds| ==>
      preds[i] == Prediction(starts[i] as real / SAMPLE_RATE as real, classify(starts[i]))
  }

  /** Appending the predictions of the next batch of starts extends the prefix. */
  lemma PredictsPrefixExtend(preds: seq<Prediction>, ps: seq<Prediction>, starts: seq<int>, classify: int -> real, end: nat)
    requires PredictsPrefix(preds, starts, classify) && |preds| <= end <= |starts|
    requires |ps| == end - |preds|
    requires forall i :: 0 <= i < |ps| ==>
      ps[i] == Prediction(starts[|preds|..end][i] as real / SAMPLE_RATE as real, classify(starts[|preds|..end][i]))
    ensures PredictsPrefix(preds + ps, starts, classify) && |preds + ps| == end
  {
    var n := preds + ps;
    forall i | 0 <= i < |n|
      ensures n[i] == Prediction(starts[i] as real / SAMPLE_RATE as real, classify(starts[i]))
    {
      if i >= |preds| {
        assert n[i] == ps[i - |preds|];
        assert starts[|preds|..end][i - |preds|] == starts[i];
      }
    }
  }

  /** The batch loop of `_run_inference` over the window starts, reporting progress
      against the denominator `total` every `freq` windows and at the end. */
  method InferBatches(starts: seq<int>, total: nat, bs: nat, freq: nat, classify: int -> real)
    returns (preds: seq<Prediction>, reports: seq<ProgressEvent>)
    requires bs > 0 && freq > 0 && (|starts| == 0 || |starts| == total)
    ensures |preds| == |starts|
    ensures forall i :: 0 <= i < |preds| ==>
      preds[i] == Prediction(starts[i] as real / SAMPLE_RATE as real, classify(starts[i]))
    ensures ReportsValid(reports, total, |starts|)
    ensures |starts| > 0 ==> |reports| > 0 && reports[|reports| - 1].done == |starts|
  {
    preds := [];
    reports := [];
    var batchIdx := 0;
    while batchIdx < |starts|
      invariant |preds| == batchIdx <= |starts|
      invariant PredictsPrefix(preds, starts, classify)
      invariant ReportsValid(reports, total, batchIdx)
      invariant batchIdx == |starts| && |starts| > 0 ==> |reports| > 0 && reports[|reports| - 1].done == |starts|
      decreases |starts| - batchIdx
    {
      var end := if batchIdx + bs < |starts| then batchIdx + bs else |starts|;
      var batch := starts[batchIdx..end];
      var ps := PredictBatch(batch, classify);
      PredictsPrefixExtend(preds, ps, starts, classify, end);
      preds := preds + ps;
      var progress := batchIdx + |batch|;
      if progress % freq == 0 || progress >= total {
        ReportsAppend(reports, total, batchIdx, progress);
        reports := reports + [ProgressEvent(InferencePercent(progress, total), progress, total)];
      }
      batchIdx := progress;
    }
  }

  /** `_run_inference`: batches over the window starts, one prediction per window
      in start order, and a progress report whenever the count of finished windows
      is a multiple of the update frequency or reaches the denominator.
      A zero hop divides by zero in the source. */
  method RunInference(audioLen: nat, cfg: ModelConfig, usingGpu: bool, classify: int -> real)
    returns (r: Result<InferenceOutput>)
    requires cfg.hopSizeMs >= 0
    ensures cfg.hopSizeMs == 0 <==> r.Err?
    ensures r.Ok? ==>
      var w := MsToSamples(cfg.windowSizeMs);
      var h := MsToSamples(cfg.hopSizeMs);
      var starts := WindowStarts(audioLen, w, h);
      var preds := r.value.predictions;
      && preds == WindowPredictions(audioLen, w, h, classify)
      && |preds| == |starts|
      && (forall i :: 0 <= i < |preds| ==>
            preds[i] == Prediction(starts[i] as real / SAMPLE_RATE as real, classify(starts[i])))
      && (forall k :: 0 <= k < |r.value.reports| ==> 20 <= r.value.reports[k].percent <= 75)
      && (forall k :: 0 <= k < |r.value.reports| ==> r.value.reports[k].total == TotalWindows(audioLen, w, h))
      && (forall k, l :: 0 <= k < l < |r.value.reports| ==> r.value.reports[k].done < r.value.reports[l].done)
      && (forall k, l :: 0 <= k < l < |r.value.reports| ==>
            r.value.reports[k].percent <= r.value.reports[l].percent)
      && (|starts| > 0 ==> |r.value.reports| > 0 && r.value.reports[|r.value.reports| - 1].percent == 75)
  {
    var w := MsToSamples(cfg.windowSizeMs);
    var h := MsToSamples(cfg.hopSizeMs);
    if h == 0 {
      return Err("integer division or modulo by zero");
    }
    var total := TotalWindows(audioLen, w, h);
    var starts := WindowStarts(audioLen, w, h);
    var preds, reports := InferBatches(starts, total, BatchSize(usingGpu), UpdateFrequency(usingGpu), classify);
    return Ok(InferenceOutput(preds, reports));
  }
}

=== FILE: detector_process.dfy ===
/** The detection worker's request handling: input validation, the choice of
    configuration, the progress milestones around inference, and the result
    object with the detected duration.

    Existence of files is a parameter (`fileExists`); loading and normalising the
    audio is summarised by its length in samples; the classifier is opaque. */
module DetectorProcess {
  import opened Wrappers
  import opened AudioTypes
  import opened DetectorInference
  import opened DetectorSegments

  const MODEL_VERSION: string := "v1.0.0"

  /** A detection request: the two paths and the optional `config` object. */
  datatype DetectionRequest = DetectionRequest(
    inputFile: Option<string>,
    modelPath: Option<string>,
    config: Option<ModelConfigDict>)

  /** `validate_input`: both fields present, then both files exist; the first failing
      check names the problem. */
  function ValidateInput(req: DetectionRequest, fileExists: string -> bool): (err: Option<string>)
    ensures err.None? <==>
      req.inputFile.Some? && req.modelPath.Some? && fileExists(req.inputFile.value) && fileExists(req.modelPath.value)
    ensures req.inputFile.None? ==> err == Some("Missing required field: input_file")
    ensures req.inputFile.Some? && req.modelPath.None? ==> err == Some("Missing required field: model_path")
  {
    if req.inputFile.None? then Some("Missing required field: input_file")
    else if req.modelPath.None? then Some("Missing required field: model_path")
    else if !fileExists(req.inputFile.value) then Some("Input file not found: " + req.inputFile.value)
    else if !fileExists(req.modelPath.value) then Some("Model file not found: " + req.modelPath.value)
    else None
  }

  /** `ModelConfig.from_dict(config_dict) if config_dict else ModelConfig()`: a missing or
      empty object gives the default configuration. */
  function ChooseConfig(config: Option<ModelConfigDict>): (c: ModelConfig)
  {
    if config.None? || config.value == EmptyModelConfigDict then DefaultModelConfig
    else ModelConfigFromDict(config.value)
  }

  /** The truthiness test is immaterial: reading the object, or an empty one when it
      is missing, gives the same configuration in every case. */
  lemma ChooseConfigIsFromDict(config: Option<ModelConfigDict>)
    ensures ChooseConfig(config) == ModelConfigFromDict(config.GetOr(EmptyModelConfigDict))
  {
    ModelConfigEmptyIsDefault();
  }

  /** What `process` returns, with the progress percentages it wrote, in order. */
  datatype ProcessOutput = ProcessOutput(result: ResultDict, progress: seq<int>)

  /** The result object the worker must return for an audio of `audioLen` samples. */
  function ExpectedResult(audioLen: nat, cfg: ModelConfig, classify: int -> real): ResultDict
    requires cfg.hopSizeMs > 0
  {
    var preds := WindowPredictions(audioLen, MsToSamples(cfg.windowSizeMs), MsToSamples(cfg.hopSizeMs), classify);
    var segs := Detect(preds, cfg);
    ResultToDict(AudioDetectionResult(segs, audioLen as real / SAMPLE_RATE as real, DetectedDuration(segs), MODEL_VERSION))
  }

  /** `process`: progress 0 and 10 while loading, 20 before inference, the inference
      reports, 75 before post-processing and 100 at the end. A zero hop fails inside
      inference. */
  method Process(req: DetectionRequest, audioLen: nat, usingGpu: bool, classify: int -> real)
    returns (r: Result<ProcessOutput>)
    requires ChooseConfig(req.config).hopSizeMs >= 0
    ensures var cfg := ChooseConfig(req.config);
      r.Err? <==> cfg.hopSizeMs == 0
    ensures r.Ok? ==> r.value.result == ExpectedResult(audioLen, ChooseConfig(req.config), classify)
    ensures r.Ok? ==> r.value.result.modelVersion == MODEL_VERSION
    ensures r.Ok? ==>
      && |r.value.progress| >= 5 && r.value.progress[0] == 0
      && r.value.progress[|r.value.progress| - 1] == 100
    ensures r.Ok? ==> forall k, l :: 0 <= k < l < |r.value.progress| ==> r.value.progress[k] <= r.value.progress[l]
  {
    var cfg := ChooseConfig(req.config);
    var inference := RunInference(audioLen, cfg, usingGpu, classify);
    if inference.Err? {
      return Err(inference.error);
    }
    var preds := inference.value.predictions;
    var segs := PostprocessPredictions(preds, cfg);
    var detected := DetectedDuration(segs);
    var result := AudioDetectionResult(segs, audioLen as real / SAMPLE_RATE as real, detected, MODEL_VERSION);
    var progress := Milestones(inference.value.reports);
    MilestonesMonotone(inference.value.reports);
    return Ok(ProcessOutput(ResultToDict(result), progress));
  }

  /** The progress percentages of a run: 0, 10, 20, the inference reports, 75, 100. */
  function Milestones(reports: seq<ProgressEvent>): (ps: seq<int>)
    ensures |ps| == |reports| + 5
    ensures ps[0] == 0 && ps[|ps| - 1] == 100
  {
    [0, 10, 20] + Percents(reports) + [75, 100]
  }

  /** Inference reports within [20, 75] in non-decreasing order make the whole
      progress sequence non-decreasing. */
  lemma MilestonesMonotone(reports: seq<ProgressEvent>)
    requires forall k :: 0 <= k < |reports| ==> 20 <= reports[k].percent <= 75
    requires forall k, l :: 0 <= k < l < |reports| ==> reports[k].percent <= reports[l].percent
    ensures var ps := Milestones(reports);
      forall k, l :: 0 <= k < l < |ps| ==> ps[k] <= ps[l]
  {
    var ps := Milestones(reports);
    var middle := Percents(reports);
    assert forall k :: 3 <= k < 3 + |middle| ==> ps[k] == reports[k - 3].percent;
  }

  function Percents(reports: seq<ProgressEvent>): (ps: seq<int>)
    ensures |ps| == |reports|
    ensures forall k :: 0 <= k < |reports| ==> ps[k] == reports[k].percent
  {
    seq(|reports|, k requires 0 <= k < |reports| => reports[k].percent)
  }

  /** The reported detected duration is, up to rounding, at least the number of
      reported segments times the minimum duration. */
  lemma ReportedDurationBound(segs: seq<TimestampSegment>, total: real, minDuration: real)
    requires forall k :: 0 <= k < |segs| ==> segs[k].endSeconds - segs[k].startSeconds >= minDuration
    ensures ResultToDict(AudioDetectionResult(segs, total, DetectedDuration(segs), MODEL_VERSION)).detectedDurationSeconds + 0.005
      >= |ResultToDict(AudioDetectionResult(segs, total, DetectedDuration(segs), MODEL_VERSION)).segments| as real * minDuration
  {
    DetectedDurationLowerBound(segs, minDuration);
    RoundedBound(segs, total, DetectedDuration(segs), minDuration);
  }

  /** Rounding to hundredths keeps a detected duration of at least `n * m` within
      0.005 of that bound. */
  lemma RoundedBound(segs: seq<TimestampSegment>, total: real, dd: real, minDuration: real)
    requires dd >= |segs| as real * minDuration
    ensures ResultToDict(AudioDetectionResult(segs, total, dd, MODEL_VERSION)).detectedDurationSeconds + 0.005
      >= |ResultToDict(AudioDetectionResult(segs, total, dd, MODEL_VERSION)).segments| as real * minDuration
  {
    var res := ResultToDict(AudioDetectionResult(segs, total, dd, MODEL_VERSION));
    assert |res.segments| == |segs|;
  }
}

=== FILE: detector_segments.dfy ===
/** Post-processing of the detector's predictions into timestamp segments:
    thresholding, the single-pass gap-merging builder, the minimum-duration
    filter and the mean confidence, plus the detected-duration total.

    `Runs` is an independent reference definition of the builder: the
    positive windows cut into maximal runs in which each window starts no
    later than the previous window's end plus the merge gap. The builder
    method follows the source loop and is proved to produce exactly the
    segments of those runs. */
module DetectorSegments {
  import opened Numeric
  import opened AudioTypes
  import opened DetectorInference

  // ---------------------------------------------------------------- thresholding

  /** `[(t, p) for t, p in predictions if p >= threshold]`. */
  function Positives(preds: seq<Prediction>, threshold: real): (r: seq<Prediction>)
    ensures |r| <= |preds|
    ensures forall i :: 0 <= i < |r| ==> r[i].probability >= threshold
    ensures forall x :: x in r <==> x in preds && x.probability >= threshold
  {
    if |preds| == 0 then []
    else if preds[0].probability >= threshold then [preds[0]] + Positives(preds[1..], threshold)
    else Positives(preds[1..], threshold)
  }

  /** Filtering keeps the input order: an ascending input gives an ascending output. */
  lemma {:induction false} PositivesAscending(preds: seq<Prediction>, threshold: real)
    requires Ascending(preds)
    ensures Ascending(Positives(preds, threshold))
  {
    if |preds| > 0 {
      PositivesAscending(preds[1..], threshold);
      var rest := Positives(preds[1..], threshold);
      forall j | 0 <= j < |rest|
        ensures preds[0].startSeconds <= rest[j].startSeconds
      {
        assert rest[j] in preds[1..];
      }
    }
  }

  predicate Ascending(ps: seq<Prediction>) {
    forall i, j :: 0 <= i < j < |ps| ==> ps[i].startSeconds <= ps[j].startSeconds
  }

  // ---------------------------------------------------------------- reference: maximal runs

  /** Window `next` joins a segment whose last window is `prev`: it starts no later
      than that segment's end (`prev` start + window duration) plus the gap. */
  predicate Joins(prev: Prediction, next: Prediction, wd: real, gap: real) {
    next.startSeconds <= prev.startSeconds + wd + gap
  }

  function Last<T>(s: seq<T>): T
    requires |s| > 0
  {
    s[|s| - 1]
  }

  /** The positive windows cut before every window that does not join its predecessor. */
  function Runs(ps: seq<Prediction>, wd: real, gap: real): (r: seq<seq<Prediction>>)
    ensures |ps| == 0 <==> |r| == 0
    ensures |r| <= |ps|
    ensures forall k :: 0 <= k < |r| ==> |r[k]| > 0
    ensures |ps| > 0 ==> r[0][0] == ps[0]
    ensures |ps| > 0 ==> Last(Last(r)) == Last(ps)
  {
    if |ps| == 0 then []
    else if |ps| == 1 then [ps]
    else PrependRun(ps[0], Joins(ps[0], ps[1], wd, gap), Runs(ps[1..], wd, gap))
  }

  /** Puts `p` in front of the first run when `joins`, else in a run of its own. */
  function PrependRun(p: Prediction, joins: bool, runs: seq<seq<Prediction>>): seq<seq<Prediction>>
    requires |runs| > 0
  {
    if joins then [[p] + runs[0]] + runs[1..] else [[p]] + runs
  }

  /** Puts `x` at the end of the last run when `joins`, else in a run of its own. */
  function AppendRun(runs: seq<seq<Prediction>>, joins: bool, x: Prediction): seq<seq<Prediction>>
    requires |runs| > 0
  {
    if joins then runs[..|runs| - 1] + [Last(runs) + [x]] else runs + [[x]]
  }

  /** Adding at the front and adding at the back commute. */
  lemma PrependAppend(p: Prediction, j1: bool, runs: seq<seq<Prediction>>, j2: bool, x: Prediction)
    requires |runs| > 0
    ensures PrependRun(p, j1, AppendRun(runs, j2, x)) == AppendRun(PrependRun(p, j1, runs), j2, x)
  {
    var n := |runs|;
    var a := AppendRun(runs, j2, x);
    var b := PrependRun(p, j1, runs);
    if !j1 {
      assert b == [[p]] + runs;
      if j2 {
        assert b[..|b| - 1] == [[p]] + runs[..n - 1];
        assert Last(b) == Last(runs);
      }
    } else if !j2 {
      assert a[0] == runs[0];
      assert a[1..] == runs[1..] + [[x]];
    } else if n == 1 {
      assert a == [runs[0] + [x]];
      assert b == [[p] + runs[0]];
      assert [p] + (runs[0] + [x]) == ([p] + runs[0]) + [x];
    } else {
      assert a[0] == runs[0];
      assert a[1..] == runs[1..n - 1] + [Last(runs) + [x]];
      assert b[..|b| - 1] == [[p] + runs[0]] + runs[1..n - 1];
    }
  }

  function Concat(rs: seq<seq<Prediction>>): seq<Prediction>
  {
    if |rs| == 0 then [] else rs[0] + Concat(rs[1..])
  }

  /** The runs are a partition of the windows: nothing lost, nothing reordered. */
  lemma {:induction false} RunsConcat(ps: seq<Prediction>, wd: real, gap: real)
    ensures Concat(Runs(ps, wd, gap)) == ps
  {
    if |ps| > 1 {
      var rest := Runs(ps[1..], wd, gap);
      RunsConcat(ps[1..], wd, gap);
      if Joins(ps[0], ps[1], wd, gap) {
        var r := [[ps[0]] + rest[0]] + rest[1..];
        assert r[1..] == rest[1..];
        assert Concat(rest) == rest[0] + Concat(rest[1..]);
      } else {
        assert ([[ps[0]]] + rest)[1..] == rest;
      }
      assert ps == [ps[0]] + ps[1..];
    } else if |ps| == 1 {
      assert Concat([ps]) == ps + Concat([]);
    }
  }

  /** Inside a run every window joins the one before it. */
  lemma {:induction false} RunsChained(ps: seq<Prediction>, wd: real, gap: real)
    ensures forall k, j :: 0 <= k < |Runs(ps, wd, gap)| && 0 < j < |Runs(ps, wd, gap)[k]| ==>
      Joins(Runs(ps, wd, gap)[k][j - 1], Runs(ps, wd, gap)[k][j], wd, gap)
  {
    if |ps| > 1 {
      var rest := Runs(ps[1..], wd, gap);
      RunsChained(ps[1..], wd, gap);
      var r := Runs(ps, wd, gap);
      if Joins(ps[0], ps[1], wd, gap) {
        assert r[0] == [ps[0]] + rest[0];
        assert rest[0][0] == ps[1];
        forall k, j | 0 <= k < |r| && 0 < j < |r[k]|
          ensures Joins(r[k][j - 1], r[k][j], wd, gap)
        {
          if k == 0 {
            if j > 1 {
              assert r[0][j - 1] == rest[0][j - 2] && r[0][j] == rest[0][j - 1];
            }
          } else {
            assert r[k] == rest[k];
          }
        }
      } else {
        forall k, j | 0 <= k < |r| && 0 < j < |r[k]|
          ensures Joins(r[k][j - 1], r[k][j], wd, gap)
        {
          assert k > 0 && r[k] == rest[k - 1];
        }
      }
    }
  }

  /** Between runs, the first window of a run does not join the last window of the run before. */
  lemma {:induction false} RunsBreak(ps: seq<Prediction>, wd: real, gap: real)
    ensures forall k :: 0 < k < |Runs(ps, wd, gap)| ==>
      !Joins(Last(Runs(ps, wd, gap)[k - 1]), Runs(ps, wd, gap)[k][0], wd, gap)
  {
    if |ps| > 1 {
      var rest := Runs(ps[1..], wd, gap);
      RunsBreak(ps[1..], wd, gap);
      var r := Runs(ps, wd, gap);
      if Joins(ps[0], ps[1], wd, gap) {
        forall k | 0 < k < |r|
          ensures !Joins(Last(r[k - 1]), r[k][0], wd, gap)
        {
          assert r[k] == rest[k];
          if k == 1 {
            assert Last(r[0]) == Last(rest[0]);
          } else {
            assert r[k - 1] == rest[k - 1];
          }
        }
      } else {
        forall k | 0 < k < |r|
          ensures !Joins(Last(r[k - 1]), r[k][0], wd, gap)
        {
          assert r[k] == rest[k - 1];
          if k > 1 {
            assert r[k - 1] == rest[k - 2];
          }
        }
      }
    }
  }

  /** Appending a window either extends the last run or opens a new one. */
  lemma {:induction false} RunsSnoc(ps: seq<Prediction>, x: Prediction, wd: real, gap: real)
    requires |ps| > 0
    ensures Runs(ps + [x], wd, gap) == AppendRun(Runs(ps, wd, gap), Joins(Last(ps), x, wd, gap), x)
  {
    var ps' := ps + [x];
    if |ps| == 1 {
      assert ps' == [ps[0], x];
      assert ps'[1..] == [x];
      assert Runs([x], wd, gap) == [[x]];
      assert Runs(ps, wd, gap) == [ps];
      assert Runs(ps', wd, gap) == PrependRun(ps[0], Joins(ps[0], x, wd, gap), [[x]]);
      assert [ps[0]] + [x] == ps + [x];
    } else {
      RunsSnoc(ps[1..], x, wd, gap);
      assert ps'[1..] == ps[1..] + [x];
      assert ps'[0] == ps[0] && ps'[1] == ps[1];
      assert Last(ps[1..]) == Last(ps);
      PrependAppend(ps[0], Joins(ps[0], ps[1], wd, gap), Runs(ps[1..], wd, gap), Joins(Last(ps), x, wd, gap), x);
    }
  }

  // ---------------------------------------------------------------- raw segments

  /** A segment under construction: start, end and the absorbed probabilities. */
  datatype RawSegment = RawSegment(start: real, end: real, confidences: seq<real>)

  function Probabilities(ps: seq<Prediction>): (r: seq<real>)
    ensures |r| == |ps|
    ensures forall i :: 0 <= i < |ps| ==> r[i] == ps[i].probability
  {
    if |ps| == 0 then [] else [ps[0].probability] + Probabilities(ps[1..])
  }

  /** The segment a run becomes: from its first start to its last start plus the window. */
  function SegmentOfRun(run: seq<Prediction>, wd: real): RawSegment
    requires |run| > 0
  {
    RawSegment(run[0].startSeconds, Last(run).startSeconds + wd, Probabilities(run))
  }

  function SegmentsOfRuns(runs: seq<seq<Prediction>>, wd: real): (r: seq<RawSegment>)
    requires forall k :: 0 <= k < |runs| ==> |runs[k]| > 0
    ensures |r| == |runs|
    ensures forall k :: 0 <= k < |runs| ==> r[k] == SegmentOfRun(runs[k], wd)
  {
    seq(|runs|, k requires 0 <= k < |runs| => SegmentOfRun(runs[k], wd))
  }

  /** The raw segments the builder must produce from the positive windows. */
  function RawSegments(pos: seq<Prediction>, wd: real, gap: real): (r: seq<RawSegment>)
    ensures |r| <= |pos|
  {
    SegmentsOfRuns(Runs(pos, wd, gap), wd)
  }

  /** `_postprocess_predictions` steps 2: one pass over the positive windows, keeping
      an open segment that a window joins when it starts no later than the open end
      plus the gap; otherwise the open segment is closed and a new one opened.
      The last open segment is always closed. */
  method BuildSegments(pos: seq<Prediction>, wd: real, gap: real) returns (segs: seq<RawSegment>)
    requires |pos| > 0
    ensures segs == RawSegments(pos, wd, gap)
  {
    segs := [];
    var cur := Open(pos[0], wd);
    BuildInit(pos, wd, gap);
    var i := 1;
    while i < |pos|
      invariant 1 <= i <= |pos|
      invariant Built(pos, i, segs, cur, wd, gap)
    {
      var x := pos[i];
      BuildStep(pos, i, segs, cur, wd, gap);
      if x.startSeconds <= cur.end + gap {
        cur := Absorb(cur, x, wd);
      } else {
        segs := segs + [cur];
        cur := Open(x, wd);
      }
      i := i + 1;
    }
    BuildDone(pos, segs, cur, wd, gap);
    segs := segs + [cur];
  }

  /** After the last window, closing the open segment gives the segments of all windows. */
  lemma BuildDone(pos: seq<Prediction>, segs: seq<RawSegment>, cur: RawSegment, wd: real, gap: real)
    requires |pos| > 0 && Built(pos, |pos|, segs, cur, wd, gap)
    ensures segs + [cur] == RawSegments(pos, wd, gap)
  {
    assert pos[..|pos|] == pos;
  }

  /** The closed segments and the open one are the segments of the first `i` windows,
      and the open one ends a window after the last of them starts. */
  predicate Built(pos: seq<Prediction>, i: nat, segs: seq<RawSegment>, cur: RawSegment, wd: real, gap: real)
    requires 1 <= i <= |pos|
  {
    segs + [cur] == RawSegments(pos[..i], wd, gap) && cur.end == pos[i - 1].startSeconds + wd
  }

  /** Before the loop: the first window alone is one open segment. */
  lemma BuildInit(pos: seq<Prediction>, wd: real, gap: real)
    requires |pos| > 0
    ensures Built(pos, 1, [], Open(pos[0], wd), wd, gap)
  {
    assert pos[..1] == [pos[0]];
    assert Probabilities([pos[0]]) == [pos[0].probability];
  }

  /** The open segment after absorbing window `x`. */
  function Absorb(cur: RawSegment, x: Prediction, wd: real): RawSegment
  {
    cur.(end := x.startSeconds + wd, confidences := cur.confidences + [x.probability])
  }

  /** The segment a single window opens. */
  function Open(x: Prediction, wd: real): RawSegment
  {
    RawSegment(x.startSeconds, x.startSeconds + wd, [x.probability])
  }

  /** One iteration of the builder keeps the open and closed segments equal to the
      segments of the runs of the windows seen so far. */
  lemma BuildStep(pos: seq<Prediction>, i: nat, segs: seq<RawSegment>, cur: RawSegment, wd: real, gap: real)
    requires 1 <= i < |pos|
    requires Built(pos, i, segs, cur, wd, gap)
    ensures pos[i].startSeconds <= cur.end + gap ==> Built(pos, i + 1, segs, Absorb(cur, pos[i], wd), wd, gap)
    ensures pos[i].startSeconds > cur.end + gap ==> Built(pos, i + 1, segs + [cur], Open(pos[i], wd), wd, gap)
  {
    var x := pos[i];
    var before := pos[..i];
    assert pos[..i + 1] == before + [x];
    assert Last(before) == pos[i - 1];
    var r := Runs(before, wd, gap);
    var j := Joins(pos[i - 1], x, wd, gap);
    RawSegmentsSnoc(before, x, wd, gap);
    assert j <==> x.startSeconds <= cur.end + gap;
    var segsR := SegmentsOfRuns(r, wd);
    assert segsR == segs + [cur];
    SegmentsOfAppend(r, j, x, wd);
    assert segsR[..|segsR| - 1] == segs;
    assert segs + [cur] + [Open(x, wd)] == (segs + [cur]) + [Open(x, wd)];
  }

  /** The raw segments of a window list extended by one window. */
  lemma RawSegmentsSnoc(ps: seq<Prediction>, x: Prediction, wd: real, gap: real)
    requires |ps| > 0
    ensures RawSegments(ps + [x], wd, gap)
      == SegmentsOfRuns(AppendRun(Runs(ps, wd, gap), Joins(Last(ps), x, wd, gap), x), wd)
  {
    RunsSnoc(ps, x, wd, gap);
  }

  /** The segments of extended runs. */
  lemma SegmentsOfAppend(runs: seq<seq<Prediction>>, joins: bool, x: Prediction, wd: real)
    requires |runs| > 0
    requires forall k :: 0 <= k < |runs| ==> |runs[k]| > 0
    ensures var segs := SegmentsOfRuns(runs, wd);
      SegmentsOfRuns(AppendRun(runs, joins, x), wd) ==
        if joins then segs[..|segs| - 1] + [Absorb(Last(segs), x, wd)]
        else segs + [Open(x, wd)]
  {
    var segs := SegmentsOfRuns(runs, wd);
    var r := SegmentsOfRuns(AppendRun(runs, joins, x), wd);
    var n := |runs|;
    if joins {
      AbsorbRun(Last(runs), x, wd);
      assert r[n - 1] == Absorb(Last(segs), x, wd);
      assert forall k :: 0 <= k < n - 1 ==> r[k] == segs[k];
    } else {
      OpenRun(x, wd);
      assert r[n] == Open(x, wd);
      assert forall k :: 0 <= k < n ==> r[k] == segs[k];
    }
  }

  /** Extending a run extends its segment by the window. */
  lemma AbsorbRun(run: seq<Prediction>, x: Prediction, wd: real)
    requires |run| > 0
    ensures SegmentOfRun(run + [x], wd) == Absorb(SegmentOfRun(run, wd), x, wd)
  {
    assert Probabilities(run + [x]) == Probabilities(run) + [x.probability];
  }

  /** A run of one window is the segment it opens. */
  lemma OpenRun(x: Prediction, wd: real)
    ensures SegmentOfRun([x], wd) == Open(x, wd)
  {
    assert Probabilities([x]) == [x.probability];
  }

  // ---------------------------------------------------------------- final segments

  /** Step 3: keep segments at least `minDuration` long, with the mean confidence. */
  function Finalize(raw: seq<RawSegment>, minDuration: real): (r: seq<TimestampSegment>)
    requires forall k :: 0 <= k < |raw| ==> |raw[k].confidences| > 0
    ensures |r| <= |raw|
    ensures forall k :: 0 <= k < |r| ==> r[k].endSeconds - r[k].startSeconds >= minDuration
    ensures forall k :: 0 <= k < |r| ==> r[k].tag == TARGET_LABEL
  {
    if |raw| == 0 then []
    else
      var s := raw[0];
      var rest := Finalize(raw[1..], minDuration);
      if s.end - s.start >= minDuration then
        [TimestampSegment(s.start, s.end, Mean(s.confidences), TARGET_LABEL)] + rest
      else rest
  }

  function Seconds(ms: int): real { ms as real / 1000.0 }

  /** The reference result of post-processing under a configuration. */
  function Detect(preds: seq<Prediction>, cfg: ModelConfig): seq<TimestampSegment>
  {
    var pos := Positives(preds, cfg.confidenceThreshold);
    var raw := RawSegments(pos, Seconds(cfg.windowSizeMs), Seconds(cfg.mergeGapMs));
    RawConfidencesNonEmpty(pos, Seconds(cfg.windowSizeMs), Seconds(cfg.mergeGapMs));
    Finalize(raw, Seconds(cfg.minSegmentDurationMs))
  }

  lemma RawConfidencesNonEmpty(pos: seq<Prediction>, wd: real, gap: real)
    ensures forall k :: 0 <= k < |RawSegments(pos, wd, gap)| ==> |RawSegments(pos, wd, gap)[k].confidences| > 0
  {
  }

  /** `_postprocess_predictions`: threshold, build, filter. */
  method PostprocessPredictions(preds: seq<Prediction>, cfg: ModelConfig) returns (segs: seq<TimestampSegment>)
    ensures segs == Detect(preds, cfg)
  {
    var threshold := cfg.confidenceThreshold;
    var minDuration := Seconds(cfg.minSegmentDurationMs);
    var gap := Seconds(cfg.mergeGapMs);
    var wd := Seconds(cfg.windowSizeMs);
    var pos := Positives(preds, threshold);
    if |pos| == 0 {
      return [];
    }
    var raw := BuildSegments(pos, wd, gap);
    RawConfidencesNonEmpty(pos, wd, gap);
    segs := Finalize(raw, minDuration);
  }

  // ---------------------------------------------------------------- properties of the result

  /** No window at or above the threshold: no segment. */
  lemma NoPositivesNoSegments(preds: seq<Prediction>, cfg: ModelConfig)
    requires forall i :: 0 <= i < |preds| ==> preds[i].probability < cfg.confidenceThreshold
    ensures Detect(preds, cfg) == []
  {
    var pos := Positives(preds, cfg.confidenceThreshold);
    assert forall i | 0 <= i < |pos| :: pos[i] in pos;
  }

  /** The absorbed probabilities of the raw segments, in order, are those of the positive windows. */
  lemma {:induction false} RawConfidencesPartition(pos: seq<Prediction>, wd: real, gap: real)
    ensures ConcatReals(ConfidencesOf(RawSegments(pos, wd, gap))) == Probabilities(pos)
  {
    var runs := Runs(pos, wd, gap);
    RunsConcat(pos, wd, gap);
    ProbabilitiesOfConcat(runs, wd);
  }

  function ConfidencesOf(raw: seq<RawSegment>): (r: seq<seq<real>>)
    ensures |r| == |raw|
    ensures forall k :: 0 <= k < |raw| ==> r[k] == raw[k].confidences
  {
    seq(|raw|, k requires 0 <= k < |raw| => raw[k].confidences)
  }

  function ConcatReals(xss: seq<seq<real>>): seq<real>
  {
    if |xss| == 0 then [] else xss[0] + ConcatReals(xss[1..])
  }

  lemma {:induction false} ProbabilitiesAppend(a: seq<Prediction>, b: seq<Prediction>)
    ensures Probabilities(a + b) == Probabilities(a) + Probabilities(b)
  {
  }

  lemma {:induction false} ProbabilitiesOfConcat(runs: seq<seq<Prediction>>, wd: real)
    requires forall k :: 0 <= k < |runs| ==> |runs[k]| > 0
    ensures ConcatReals(ConfidencesOf(SegmentsOfRuns(runs, wd))) == Probabilities(Concat(runs))
  {
    if |runs| > 0 {
      ProbabilitiesOfConcat(runs[1..], wd);
      ProbabilitiesAppend(runs[0], Concat(runs[1..]));
      assert ConfidencesOf(SegmentsOfRuns(runs, wd))[1..] == ConfidencesOf(SegmentsOfRuns(runs[1..], wd));
    }
  }

  /** Each raw segment ends more than `gap` before the next one starts, for any input. */
  lemma RawSeparated(pos: seq<Prediction>, wd: real, gap: real)
    ensures var raw := RawSegments(pos, wd, gap);
      forall k :: 0 < k < |raw| ==> raw[k].start > raw[k - 1].end + gap
  {
    RunsBreak(pos, wd, gap);
  }

  /** For ascending window starts, a raw segment spans at least one window. */
  lemma RawAtLeastWindow(pos: seq<Prediction>, wd: real, gap: real)
    requires Ascending(pos)
    ensures var raw := RawSegments(pos, wd, gap);
      forall k :: 0 <= k < |raw| ==> raw[k].end - raw[k].start >= wd
  {
    var runs: seq<seq<Prediction>> := Runs(pos, wd, gap);
    RunsConcat(pos, wd, gap);
    forall k: nat | k < |runs|
      ensures runs[k][0].startSeconds <= Last(runs[k]).startSeconds
    {
      RunAscending(runs, k);
    }
  }

  /** A run cut from an ascending sequence starts no later than its last window. */
  lemma RunAscending(runs: seq<seq<Prediction>>, k: nat)
    requires Ascending(Concat(runs)) && k < |runs| && |runs[k]| > 0
    ensures runs[k][0].startSeconds <= Last(runs[k]).startSeconds
  {
    RunInside(runs, k);
    var off := |Concat(runs[..k])|;
    assert runs[k][0] == Concat(runs)[off];
    assert Last(runs[k]) == Concat(runs)[off + |runs[k]| - 1];
  }

  /** Run `k` occupies positions |Concat(runs[..k])| .. of the concatenation. */
  lemma {:induction false} RunInside(runs: seq<seq<Prediction>>, k: nat)
    requires k < |runs|
    ensures var off := |Concat(runs[..k])|;
      off + |runs[k]| <= |Concat(runs)| && Concat(runs)[off..off + |runs[k]|] == runs[k]
  {
    if k == 0 {
      assert runs[..0] == [];
    } else {
      RunInside(runs[1..], k - 1);
      assert runs[1..][..k - 1] == runs[..k][1..];
      assert Concat(runs[..k]) == runs[0] + Concat(runs[..k][1..]);
    }
  }

  /** For ascending starts and non-negative window and gap, raw segments are in ascending
      start order and every later segment starts more than `gap` after any earlier one ends. */
  lemma RawOrdered(pos: seq<Prediction>, wd: real, gap: real)
    requires Ascending(pos) && wd >= 0.0 && gap >= 0.0
    ensures var raw := RawSegments(pos, wd, gap);
      forall i, j :: 0 <= i < j < |raw| ==> raw[j].start > raw[i].end + gap
  {
    var raw := RawSegments(pos, wd, gap);
    RawSeparated(pos, wd, gap);
    RawAtLeastWindow(pos, wd, gap);
    forall i, j | 0 <= i < j < |raw|
      ensures raw[j].start > raw[i].end + gap
    {
      var m := j;
      while m > i + 1
        invariant i + 1 <= m <= j
        invariant raw[j].start >= raw[m].start
        decreases m
      {
        assert raw[m].start > raw[m - 1].end + gap >= raw[m - 1].start;
        m := m - 1;
      }
    }
  }

  /** Every window of every run is one of the input windows. */
  lemma RunMember(ps: seq<Prediction>, wd: real, gap: real, k: nat, j: nat)
    requires k < |Runs(ps, wd, gap)| && j < |Runs(ps, wd, gap)[k]|
    ensures Runs(ps, wd, gap)[k][j] in ps
  {
    var runs := Runs(ps, wd, gap);
    RunsConcat(ps, wd, gap);
    RunInside(runs, k);
    var off := |Concat(runs[..k])|;
    assert runs[k][j] == Concat(runs)[off + j];
  }

  /** Bounds on the positive windows' probabilities bound every absorbed confidence. */
  lemma RawConfidenceBounds(pos: seq<Prediction>, wd: real, gap: real, lo: real, hi: real)
    requires forall x :: x in pos ==> lo <= x.probability <= hi
    ensures var raw := RawSegments(pos, wd, gap);
      forall k :: 0 <= k < |raw| ==>
        forall j :: 0 <= j < |raw[k].confidences| ==> lo <= raw[k].confidences[j] <= hi
  {
    var raw := RawSegments(pos, wd, gap);
    forall k, j | 0 <= k < |raw| && 0 <= j < |raw[k].confidences|
      ensures lo <= raw[k].confidences[j] <= hi
    {
      RunMember(pos, wd, gap, k, j);
    }
  }

  /** The output segments: each at least min_duration long, mean confidence at least the
      threshold and at most the largest probability, label "target_audio". */
  lemma DetectProperties(preds: seq<Prediction>, cfg: ModelConfig, maxProb: real)
    requires forall i :: 0 <= i < |preds| ==> preds[i].probability <= maxProb
    ensures var segs := Detect(preds, cfg);
      && |segs| <= |Positives(preds, cfg.confidenceThreshold)|
      && forall k :: 0 <= k < |segs| ==>
        && segs[k].endSeconds - segs[k].startSeconds >= Seconds(cfg.minSegmentDurationMs)
        && cfg.confidenceThreshold <= segs[k].confidence <= maxProb
        && segs[k].tag == TARGET_LABEL
  {
    var thr := cfg.confidenceThreshold;
    var wd := Seconds(cfg.windowSizeMs);
    var gap := Seconds(cfg.mergeGapMs);
    var pos := Positives(preds, thr);
    RawConfidencesNonEmpty(pos, wd, gap);
    RawConfidenceBounds(pos, wd, gap, thr, maxProb);
    FinalizeConfidence(RawSegments(pos, wd, gap), Seconds(cfg.minSegmentDurationMs), thr, maxProb);
  }

  lemma {:induction false} FinalizeConfidence(raw: seq<RawSegment>, minDuration: real, lo: real, hi: real)
    requires forall k :: 0 <= k < |raw| ==> |raw[k].confidences| > 0
    requires forall k :: 0 <= k < |raw| ==>
      forall j :: 0 <= j < |raw[k].confidences| ==> lo <= raw[k].confidences[j] <= hi
    ensures forall k :: 0 <= k < |Finalize(raw, minDuration)| ==>
      lo <= Finalize(raw, minDuration)[k].confidence <= hi
  {
    if |raw| > 0 {
      FinalizeConfidence(raw[1..], minDuration, lo, hi);
      MeanAtLeast(raw[0].confidences, lo);
      MeanAtMost(raw[0].confidences, hi);
    }
  }

  /** `detected_duration`: the sum of the unrounded lengths of the output segments. */
  function DetectedDuration(segs: seq<TimestampSegment>): (d: real)
  {
    if |segs| == 0 then 0.0
    else (segs[0].endSeconds - segs[0].startSeconds) + DetectedDuration(segs[1..])
  }

  /** Every kept segment is at least min_duration long, so the total is at least count * min_duration. */
  lemma {:induction false} DetectedDurationLowerBound(segs: seq<TimestampSegment>, minDuration: real)
    requires forall k :: 0 <= k < |segs| ==> segs[k].endSeconds - segs[k].startSeconds >= minDuration
    ensures DetectedDuration(segs) >= |segs| as real * minDuration
  {
    if |segs| > 0 {
      DetectedDurationLowerBound(segs[1..], minDuration);
      assert (|segs| - 1) as real * minDuration + minDuration == |segs| as real * minDuration;
    }
  }
}

=== FILE: downloader.dfy ===
/** The playlist uploader's download manager: scanning a YouTube URL into video records,
    downloading each track, building the search index and writing the playlist file.
    yt-dlp, the file system and the cancel flag set from another thread are parameters:
    the extractor's answer, which track files exist, and at which point cancellation is
    observed. */
module PlaylistDownloader {
  import opened Wrappers
  import opened Numeric
  import opened Strings
  import opened Sorting
  import opened ChineseText

  // ---------------------------------------------------------------- file names

  /** The characters `sanitize_filename` removes. */
  const Forbidden: set<char> := {'\\', '/', '*', '?', '"', '<', '>', '|'}

  function ColonToDash(c: char): string { if c == ':' then " -" else [c] }
  function DropForbidden(c: char): string { if c in Forbidden then "" else [c] }

  /** `name.replace(':', ' -')` followed by removing the forbidden characters; the
      uploader's `push_playlist` shares these two steps. */
  function CleanChars(name: string): string
  {
    MapChars(MapChars(name, ColonToDash), DropForbidden)
  }

  /** `sanitize_filename`. */
  function SanitizeFilename(name: string): (r: string)
    ensures r != ""
    ensures name == "" ==> r == DefaultName
  {
    if name == "" then DefaultName
    else
      var s := Tidy(CleanChars(name));
      if s == "" then DefaultName else s
  }

  /** `re.sub(r'\s+', ' ', s).strip(' .')`. */
  function Tidy(s: string): string
  {
    Strip(CollapseWhitespace(s), {' ', '.'})
  }

  /** The name used when nothing of the given one survives. */
  const DefaultName: string := "playlist"

  lemma DefaultNameLetters()
    ensures forall i :: 0 <= i < |DefaultName| ==> 'a' <= DefaultName[i] <= 'z'
  {
  }

  lemma DefaultNameClean()
    ensures forall i :: 0 <= i < |DefaultName| ==> DefaultName[i] !in Whitespace && DefaultName[i] !in Forbidden && DefaultName[i] != ':'
  {
    DefaultNameLetters();
    forall i | 0 <= i < |DefaultName|
      ensures DefaultName[i] !in Whitespace && DefaultName[i] !in Forbidden && DefaultName[i] != ':'
    {
      var c := DefaultName[i];
      assert 'a' <= c <= 'z';
    }
  }

  /** No character of the cleaned name is forbidden or a colon. */
  lemma CleanCharsAvoid(name: string, c: char)
    requires c in Forbidden || c == ':'
    ensures c !in CleanChars(name)
  {
    var s1 := MapChars(name, ColonToDash);
    MapCharsMembers(s1, DropForbidden, c);
    MapCharsMembers(name, ColonToDash, c);
  }

  /** Tidying only removes characters, and adds spaces. */
  lemma TidyChars(s: string)
    ensures var r := Tidy(s);
      forall i :: 0 <= i < |r| ==> r[i] == ' ' || r[i] in s
  {
    var s3 := CollapseWhitespace(s);
    var r := Tidy(s);
    var k :| OccursAt(s3, r, k);
    CollapseChars(s);
    forall i | 0 <= i < |r| ensures r[i] == ' ' || r[i] in s {
      assert r[i] == s3[k..k + |r|][i] == s3[k + i];
    }
  }

  /** Tidying leaves every whitespace character a space, with no two adjacent. */
  lemma TidySpaces(s: string)
    ensures var r := Tidy(s);
      && (forall i :: 0 <= i < |r| && r[i] in Whitespace ==> r[i] == ' ')
      && (forall i :: 0 <= i < |r| - 1 && r[i] in Whitespace ==> r[i + 1] !in Whitespace)
  {
    var s3 := CollapseWhitespace(s);
    var r := Tidy(s);
    var k :| OccursAt(s3, r, k);
    CollapseSpaces(s);
    CollapseNoRuns(s);
    SliceChars(s3, r, k);
  }

  lemma SliceChars(s: string, r: string, k: int)
    requires OccursAt(s, r, k)
    ensures forall i :: 0 <= i < |r| ==> r[i] == s[k + i]
  {
    forall i | 0 <= i < |r| ensures r[i] == s[k + i] {
      assert r[i] == s[k..k + |r|][i];
    }
  }

  /** A file name from `sanitize_filename` has no forbidden character and no colon. */
  lemma SanitizeAvoids(name: string)
    ensures var r := SanitizeFilename(name);
      forall i :: 0 <= i < |r| ==> r[i] !in Forbidden && r[i] != ':'
  {
    var r := SanitizeFilename(name);
    if r == DefaultName {
      DefaultNameClean();
    } else {
      TidyChars(CleanChars(name));
      forall i | 0 <= i < |r| ensures r[i] !in Forbidden && r[i] != ':' {
        if r[i] in Forbidden || r[i] == ':' {
          CleanCharsAvoid(name, r[i]);
        }
      }
    }
  }

  /** It does not start or end with a space or a dot. */
  lemma SanitizeEnds(name: string)
    ensures var r := SanitizeFilename(name);
      r[0] != ' ' && r[0] != '.' && r[|r| - 1] != ' ' && r[|r| - 1] != '.'
  {
  }

  /** Every whitespace character in it is a space, and no two are adjacent. */
  lemma SanitizeSpaces(name: string)
    ensures var r := SanitizeFilename(name);
      && (forall i :: 0 <= i < |r| && r[i] in Whitespace ==> r[i] == ' ')
      && (forall i :: 0 <= i < |r| - 1 && r[i] in Whitespace ==> r[i + 1] !in Whitespace)
  {
    if SanitizeFilename(name) == DefaultName {
      DefaultNameClean();
    } else {
      TidySpaces(CleanChars(name));
    }
  }

  // ---------------------------------------------------------------- URLs and metadata

  /** `_is_single_video_url`. */
  function IsSingleVideoUrl(url: string): (r: bool)
    ensures r <==> (Contains(url, "watch?v=") || Contains(url, "youtu.be/")) && !Contains(url, "list=")
  {
    if Contains(url, "watch?v=") && !Contains(url, "list=") then true
    else Contains(url, "youtu.be/") && !Contains(url, "list=")
  }

  /** A JSON object member: absent, present as `null`, or present with a value. */
  datatype Field<T> = Missing | Null | Given(value: T)

  /** One entry (or the whole answer, for a single video) as yt-dlp reports it. */
  datatype Entry = Entry(
    id: Field<string>, url: Field<string>, title: Field<string>, duration: Field<real>,
    thumbnail: Field<string>, uploader: Field<string>, channel: Field<string>)

  /** The extractor's answer: the entries list, and the answer's own fields. */
  datatype Info = Info(entries: Field<seq<Option<Entry>>>, top: Entry)

  datatype Video = Video(
    id: string, title: string, artist: string, originalTitle: string,
    duration: real, thumbnail: Option<string>)

  function Thumbnail(id: string): string { "https://i.ytimg.com/vi/" + id + "/hqdefault.jpg" }

  /** A Python value's truth: present and non-empty. */
  predicate Truthy(f: Field<string>) { f.Given? && f.value != "" }

  /** `get('uploader', get('channel', 'Unknown'))`; `None` for a JSON null. */
  function UploaderOf(e: Entry): Option<string>
  {
    match e.uploader
    case Given(u) => Some(u)
    case Null => None
    case Missing =>
      match e.channel
      case Given(c) => Some(c)
      case Null => None
      case Missing => Some("Unknown")
  }

  /** The last path segment of the URL before its query. */
  function IdFromUrl(url: string): string
  {
    var parts := Split(Split(url, '?')[0], '/');
    parts[|parts| - 1]
  }

  /** What the scan does with one playlist entry. */
  datatype Scan = Skip | Add(video: Video) | Raise

  const PrivateVideo: string := "[Private video]"
  const DeletedVideo: string := "[Deleted video]"

  /** One iteration of the playlist loop. A JSON null `url` raises, which ends the scan. */
  function ScanEntry(entry: Option<Entry>): (r: Scan)
    ensures r.Add? ==> (
      && entry.Some?
      && |r.video.id| == 11
      && r.video.originalTitle != "" && r.video.originalTitle != PrivateVideo
      && r.video.originalTitle != DeletedVideo
      && r.video.thumbnail.Some? && r.video.thumbnail.value != ""
      && r.video.duration == (if entry.value.duration.Given? then entry.value.duration.value else 0.0))
    ensures entry.None? ==> r.Skip?
  {
    match entry
    case None => Skip
    case Some(e) =>
      if !Truthy(e.id) && e.url.Null? then Raise
      else
        var id := if Truthy(e.id) then e.id.value else IdFromUrl(if e.url.Given? then e.url.value else "");
        if |id| != 11 then Skip
        else if !Truthy(e.title) || e.title.value == PrivateVideo || e.title.value == DeletedVideo then Skip
        else
          var title := e.title.value;
          var uploader := UploaderOf(e);
          var (artist, clean) := ExtractArtistFromTitle(title, if uploader.Some? && uploader.value != "" then uploader.value else "Unknown");
          var thumb := if Truthy(e.thumbnail) then e.thumbnail.value else Thumbnail(id);
          Add(Video(id, clean, artist, title, if e.duration.Given? then e.duration.value else 0.0, Some(thumb)))
  }

  /** A loop over entries that keeps, skips, or stops at an exception. */
  function ScanWith(es: seq<Option<Entry>>, step: Option<Entry> -> Scan): (r: seq<Video>)
    ensures |r| <= |es|
    ensures forall i :: 0 <= i < |r| ==> exists j :: 0 <= j < |es| && step(es[j]) == Add(r[i])
  {
    if |es| == 0 then []
    else
      var rest := ScanWith(es[1..], step);
      assert forall j :: 0 <= j < |es| - 1 ==> es[1..][j] == es[j + 1];
      match step(es[0])
      case Skip => rest
      case Add(v) => [v] + rest
      case Raise => []
  }

  /** The playlist loop over the entries it reaches. */
  function ScanEntries(es: seq<Option<Entry>>): (r: seq<Video>)
    ensures |r| <= |es|
    ensures forall i :: 0 <= i < |r| ==> |r[i].id| == 11
  {
    ScanWith(es, ScanEntry)
  }

  /** Stopping the scan early yields a prefix of what the whole scan yields: a cancelled
      fetch keeps the videos found so far, in order. */
  lemma {:induction false} ScanPrefix(es: seq<Option<Entry>>, step: Option<Entry> -> Scan, k: nat)
    requires k <= |es|
    ensures var full := ScanWith(es, step);
      var part := ScanWith(es[..k], step);
      |part| <= |full| && full[..|part|] == part
    decreases k
  {
    if k > 0 {
      assert es[..k][1..] == es[1..][..k - 1];
      assert es[..k][0] == es[0];
      ScanPrefix(es[1..], step, k - 1);
    }
  }

  /** The single-video branch; `None` when it raises (a JSON null title, or a null
      uploader that the artist fallback reaches). */
  function SingleVideo(top: Entry): (r: Option<seq<Video>>)
    ensures r.Some? && r.value != [] ==> |r.value| == 1 && r.value[0].id != ""
    ensures !Truthy(top.id) ==> r == Some([])
  {
    if !Truthy(top.id) then Some([])
    else if top.title.Null? then None
    else
      var id := top.id.value;
      var title := if top.title.Given? then top.title.value else "Unknown";
      var uploader := UploaderOf(top);
      if uploader.None? && SeparatorFrom(title, 0).None? && BracketSplit(title, 0).None? then None
      else
        var (artist, clean) := ExtractArtistFromTitle(title, uploader.GetOr(""));
        var thumb := match top.thumbnail case Given(t) => Some(t) case Missing => Some(Thumbnail(id)) case Null => None;
        // a null duration is stored as 0; the index converts it to 0 either way
        Some([Video(id, clean, artist, title, if top.duration.Given? then top.duration.value else 0.0, thumb)])
  }

  /** `fetch_metadata`: `stopAt` is the number of playlist entries examined before the
      cancel flag is seen; an extractor exception gives no videos. */
  function FetchMetadata(extracted: Result<Option<Info>>, stopAt: Option<nat>): (r: seq<Video>)
    ensures extracted.Err? || extracted.value.None? ==> r == []
    ensures forall i :: 0 <= i < |r| ==> r[i].id != ""
  {
    if extracted.Err? || extracted.value.None? then []
    else
      var info := extracted.value.value;
      if info.entries.Given? && |info.entries.value| > 0 then
        var es := info.entries.value;
        var reached := if stopAt.Some? && stopAt.value < |es| then es[..stopAt.value] else es;
        ScanEntries(reached)
      else
        var single := SingleVideo(info.top);
        if single.Some? then single.value else []
  }

  // ---------------------------------------------------------------- downloading

  datatype Status = Success | Failed | Cancelled
  datatype Download = Download(id: string, title: string, status: Status, cached: bool)

  /** `_download_single`: `cachedFile` is a non-empty track file before the call,
      `attempt` is whether yt-dlp left a non-empty file (`Err` when it raised). */
  function DownloadSingle(v: Video, cachedFile: bool, cancelled: bool, attempt: Result<bool>): (r: Download)
    ensures r.id == v.id && r.title == v.title
    ensures r.cached <==> cachedFile
    ensures r.status == Success <==> cachedFile || (!cancelled && attempt == Ok(true))
    ensures r.status == Cancelled <==> !cachedFile && cancelled
  {
    if cachedFile then Download(v.id, v.title, Success, true)
    else if cancelled then Download(v.id, v.title, Cancelled, false)
    else if attempt == Ok(true) then Download(v.id, v.title, Success, false)
    else Download(v.id, v.title, Failed, false)
  }

  /** A completed future: its result, or `None` when it raised. */
  predicate IsCachedHit(d: Option<Download>) { d.Some? && d.value.status == Success && d.value.cached }
  predicate IsNewTrack(d: Option<Download>) { d.Some? && d.value.status == Success && !d.value.cached }

  /** The ids of new downloads, in completion order. */
  function NewIds(done: seq<Option<Download>>): (r: seq<string>)
    ensures |r| == CountBy(done, IsNewTrack)
  {
    if |done| == 0 then []
    else
      CountByAppend([done[0]], done[1..], IsNewTrack);
      assert done == [done[0]] + done[1..];
      (if IsNewTrack(done[0]) then [done[0].value.id] else []) + NewIds(done[1..])
  }

  lemma {:induction false} NewIdsAppend(a: seq<Option<Download>>, b: seq<Option<Download>>)
    ensures NewIds(a + b) == NewIds(a) + NewIds(b)
    decreases |a|
  {
    if |a| > 0 {
      assert (a + b)[1..] == a[1..] + b;
      assert (a + b)[0] == a[0];
      NewIdsAppend(a[1..], b);
    } else {
      assert a + b == b;
    }
  }

  datatype Tally = Tally(successful: nat, cached: nat, failed: nat, total: nat, newTrackIds: seq<string>)

  /** The futures `download_videos` handles: those completed before the cancel flag is seen. */
  function Handled(completions: seq<Option<Download>>, stopAt: Option<nat>): seq<Option<Download>>
  {
    if stopAt.Some? && stopAt.value < |completions| then completions[..stopAt.value] else completions
  }

  /** Handling one more future adds it to the matching count and, when it is a new
      track, its id to the list. */
  lemma TallyStep(done: seq<Option<Download>>, i: nat)
    requires i < |done|
    ensures CountBy(done[..i + 1], IsCachedHit) == CountBy(done[..i], IsCachedHit) + (if IsCachedHit(done[i]) then 1 else 0)
    ensures CountBy(done[..i + 1], IsNewTrack) == CountBy(done[..i], IsNewTrack) + (if IsNewTrack(done[i]) then 1 else 0)
    ensures NewIds(done[..i + 1]) == NewIds(done[..i]) + (if IsNewTrack(done[i]) then [done[i].value.id] else [])
  {
    assert done[..i + 1] == done[..i] + [done[i]];
    assert done[..i + 1][..i] == done[..i];
    NewIdsAppend(done[..i], [done[i]]);
    assert NewIds([done[i]]) == (if IsNewTrack(done[i]) then [done[i].value.id] else []) + NewIds([]);
  }

  /** `download_videos`: tallies the futures in completion order until cancellation. */
  method DownloadVideos(videos: seq<Video>, completions: seq<Option<Download>>, stopAt: Option<nat>)
    returns (t: Tally)
    ensures var done := Handled(completions, stopAt);
      && t.total == |videos|
      && t.successful + t.cached + t.failed == |done|
      && t.cached == CountBy(done, IsCachedHit)
      && t.successful == CountBy(done, IsNewTrack)
      && t.newTrackIds == NewIds(done)
      && |t.newTrackIds| == t.successful
  {
    var done := Handled(completions, stopAt);
    var successful, cached, failed := 0, 0, 0;
    var ids: seq<string> := [];
    var i := 0;
    while i < |done|
      invariant 0 <= i <= |done|
      invariant successful + cached + failed == i
      invariant cached == CountBy(done[..i], IsCachedHit)
      invariant successful == CountBy(done[..i], IsNewTrack)
      invariant ids == NewIds(done[..i])
    {
      var d := done[i];
      TallyStep(done, i);
      if d.Some? && d.value.status == Success {
        if d.value.cached {
          cached := cached + 1;
        } else {
          successful := successful + 1;
          ids := ids + [d.value.id];
        }
      } else {
        failed := failed + 1;
      }
      i := i + 1;
    }
    assert done[..i] == done;
    t := Tally(successful, cached, failed, |videos|, ids);
  }

  // ---------------------------------------------------------------- the index

  datatype IndexEntry = IndexEntry(
    title: string, artist: string, titlePinyin: string, artistPinyin: string,
    searchTerms: seq<string>, duration: int, thumbnail: Option<string>)

  /** The search terms of a track whose title as downloaded is `original` and whose
      simplified title and artist are `title` and `artist`. */
  function IndexTerms(title: string, artist: string, original: string, pinyin: Option<string -> seq<string>>): seq<string>
  {
    var extra :=
      if original == title then []
      else ([NormalizeQuery(original)]
            + (if IsChinese(original) then [NormalizeQuery(ToPinyin(original, pinyin, " "))] else []));
    DistinctTerms(SearchTerms(title, artist, pinyin) + extra)
  }

  /** The index record `build_index` writes for one video. */
  function EntryOf(v: Video, opencc: Option<string -> string>, pinyin: Option<string -> seq<string>>): (r: IndexEntry)
    ensures r.title == ToSimplified(v.title, opencc) && r.artist == ToSimplified(v.artist, opencc)
    ensures v.duration >= 0.0 ==> 0 <= r.duration && r.duration as real <= v.duration < r.duration as real + 1.0
    ensures v.duration < 0.0 ==> r.duration <= 0 && r.duration as real - 1.0 < v.duration <= r.duration as real
    ensures r.thumbnail == v.thumbnail
  {
    var title := ToSimplified(v.title, opencc);
    var artist := ToSimplified(v.artist, opencc);
    IndexEntry(title, artist, ToPinyin(title, pinyin, " "), ToPinyin(artist, pinyin, " "),
      IndexTerms(title, artist, v.title, pinyin), Trunc(v.duration), v.thumbnail)
  }

  /** An index entry's search terms are strictly increasing, never empty, and hold the
      non-empty generated terms of its simplified title and artist, and the normalised
      title as downloaded when simplifying changed it. */
  lemma EntryTerms(v: Video, opencc: Option<string -> string>, pinyin: Option<string -> seq<string>>)
    ensures var e := EntryOf(v, opencc, pinyin);
      && (forall i, j :: 0 <= i < j < |e.searchTerms| ==> StrLe(e.searchTerms[i], e.searchTerms[j]) && e.searchTerms[i] != e.searchTerms[j])
      && (forall t :: t in e.searchTerms ==> t != "")
      && (forall t :: t in SearchTerms(e.title, e.artist, pinyin) ==> t in e.searchTerms)
      && (e.title != v.title && NormalizeQuery(v.title) != "" ==> NormalizeQuery(v.title) in e.searchTerms)
  {
    var e := EntryOf(v, opencc, pinyin);
    var base := SearchTerms(e.title, e.artist, pinyin);
    var extra :=
      if v.title == e.title then []
      else ([NormalizeQuery(v.title)]
            + (if IsChinese(v.title) then [NormalizeQuery(ToPinyin(v.title, pinyin, " "))] else []));
    DistinctTermsProps(base + extra);
    SearchTermsProps(e.title, e.artist, pinyin);
    if e.title != v.title {
      assert NormalizeQuery(v.title) == (base + extra)[|base|];
    }
  }

  /** `build_index`: one record per video whose track file exists; a later video with
      the same id replaces an earlier one. */
  function BuildIndex(videos: seq<Video>, hasTrack: string -> bool,
                      opencc: Option<string -> string>, pinyin: Option<string -> seq<string>>): (r: map<string, IndexEntry>)
    ensures forall k :: k in r <==> hasTrack(k) && exists i :: 0 <= i < |videos| && videos[i].id == k
  {
    IndexWith(videos, hasTrack, v => EntryOf(v, opencc, pinyin))
  }

  /** The index loop with the record of a video given by `make`. */
  function IndexWith(videos: seq<Video>, hasTrack: string -> bool, make: Video -> IndexEntry): (r: map<string, IndexEntry>)
    ensures forall k :: k in r <==> hasTrack(k) && exists i :: 0 <= i < |videos| && videos[i].id == k
  {
    if |videos| == 0 then map[]
    else
      var init := videos[..|videos| - 1];
      var v := videos[|videos| - 1];
      var m := IndexWith(init, hasTrack, make);
      assert forall i :: 0 <= i < |init| ==> init[i] == videos[i];
      if hasTrack(v.id) then m[v.id := make(v)] else m
  }

  /** Each indexed id holds the record of the last video with that id. */
  lemma {:induction false} IndexLatest(videos: seq<Video>, hasTrack: string -> bool, make: Video -> IndexEntry, i: nat)
    requires i < |videos| && hasTrack(videos[i].id)
    requires forall j :: i < j < |videos| ==> videos[j].id != videos[i].id
    ensures var r := IndexWith(videos, hasTrack, make);
      videos[i].id in r && r[videos[i].id] == make(videos[i])
    decreases |videos|
  {
    var init := videos[..|videos| - 1];
    if i < |videos| - 1 {
      assert init[i] == videos[i];
      IndexLatest(init, hasTrack, make, i);
      assert videos[|videos| - 1].id != videos[i].id;
    }
  }

  lemma BuildIndexLatest(videos: seq<Video>, hasTrack: string -> bool,
                         opencc: Option<string -> string>, pinyin: Option<string -> seq<string>>, i: nat)
    requires i < |videos| && hasTrack(videos[i].id)
    requires forall j :: i < j < |videos| ==> videos[j].id != videos[i].id
    ensures var r := BuildIndex(videos, hasTrack, opencc, pinyin);
      videos[i].id in r && r[videos[i].id] == EntryOf(videos[i], opencc, pinyin)
  {
    IndexLatest(videos, hasTrack, v => EntryOf(v, opencc, pinyin), i);
  }

  /** `save_index`: the stored index (empty when missing or unreadable) updated with
      the new records; returns the merged index and its size. */
  function SaveIndex(stored: Option<Result<map<string, IndexEntry>>>, incoming: map<string, IndexEntry>): (r: (map<string, IndexEntry>, nat))
    ensures r.0.Keys == incoming.Keys + (if stored.Some? && stored.value.Ok? then stored.value.value.Keys else {})
    ensures forall k :: k in incoming ==> r.0[k] == incoming[k]
    ensures stored.Some? && stored.value.Ok? ==>
      forall k :: k in stored.value.value && k !in incoming ==> r.0[k] == stored.value.value[k]
    ensures r.1 == |r.0.Keys| && |incoming.Keys| <= r.1
  {
    var existing := if stored.Some? && stored.value.Ok? then stored.value.value else map[];
    var merged := existing + incoming;
    assert incoming.Keys <= merged.Keys;
    SubsetCard(incoming.Keys, merged.Keys);
    (merged, |merged.Keys|)
  }

  lemma SubsetCard<T>(a: set<T>, b: set<T>)
    requires a <= b
    ensures |a| <= |b|
  {
    assert b == a + (b - a);
  }

  /** Saving the same records twice leaves the index as saving them once. */
  lemma SaveIndexIdempotent(stored: map<string, IndexEntry>, incoming: map<string, IndexEntry>)
    ensures var once := SaveIndex(Some(Ok(stored)), incoming);
      SaveIndex(Some(Ok(once.0)), incoming) == once
  {
    var once := SaveIndex(Some(Ok(stored)), incoming);
    assert once.0 + incoming == once.0;
  }

  // ---------------------------------------------------------------- playlists

  /** The ids of the videos whose track file exists, in input order. */
  function TrackIds(videos: seq<Video>, hasTrack: string -> bool): (r: seq<string>)
    ensures |r| <= |videos|
    ensures forall i :: 0 <= i < |r| ==> hasTrack(r[i])
    ensures forall k :: k in r <==> hasTrack(k) && exists i :: 0 <= i < |videos| && videos[i].id == k
  {
    if |videos| == 0 then []
    else
      var rest := TrackIds(videos[1..], hasTrack);
      assert forall i :: 1 <= i < |videos| ==> videos[i] == videos[1..][i - 1];
      if hasTrack(videos[0].id) then [videos[0].id] + rest else rest
  }

  /** The order of the kept ids is the order of the videos. */
  lemma {:induction false} TrackIdsAppend(a: seq<Video>, b: seq<Video>, hasTrack: string -> bool)
    ensures TrackIds(a + b, hasTrack) == TrackIds(a, hasTrack) + TrackIds(b, hasTrack)
    decreases |a|
  {
    if |a| > 0 {
      assert (a + b)[1..] == a[1..] + b;
      assert (a + b)[0] == a[0];
      TrackIdsAppend(a[1..], b, hasTrack);
    } else {
      assert a + b == b;
    }
  }

  const Json: string := ".json"

  datatype PlaylistFile = PlaylistFile(fileName: string, name: string, tracks: seq<string>)

  /** `save_playlist`: the file written and the number of tracks in it. */
  function SavePlaylist(name: string, videos: seq<Video>, hasTrack: string -> bool): (PlaylistFile, nat)
  {
    var tracks := TrackIds(videos, hasTrack);
    (PlaylistFile(SanitizeFilename(name) + Json, name, tracks), |tracks|)
  }

  /** The saved playlist is named after the sanitised name and keeps the name given;
      it lists exactly the videos' ids whose track files exist, and the count returned
      is the number listed, at most the number of videos. */
  lemma SavePlaylistProps(name: string, videos: seq<Video>, hasTrack: string -> bool)
    ensures var (file, n) := SavePlaylist(name, videos, hasTrack);
      && file.fileName == SanitizeFilename(name) + Json && file.name == name
      && (forall k :: k in file.tracks <==> hasTrack(k) && exists i :: 0 <= i < |videos| && videos[i].id == k)
      && n == |file.tracks| <= |videos|
  {
  }

  // ---------------------------------------------------------------- the workflow

  /** Where the cancel flag is first seen: during the playlist scan (after that many
      entries), between fetching and downloading, during the downloads (after that many
      completions), or after them. */
  datatype Cancel = NotCancelled | InFetch(entries: nat) | AfterFetch | InDownload(completed: nat) | AfterDownload

  /** `run`'s renaming of a single video: it takes the playlist name as its title. */
  function AdoptName(url: string, name: Option<string>, videos: seq<Video>): (r: (seq<Video>, Option<string>))
    ensures |r.0| == |videos|
    ensures IsSingleVideoUrl(url) && name.Some? && name.value != "" && |videos| == 1 ==>
      && r.1.None? && r.0[0].title == name.value && r.0[0].originalTitle == videos[0].title
      && r.0[0].id == videos[0].id
    ensures !(IsSingleVideoUrl(url) && name.Some? && name.value != "" && |videos| == 1) ==> r == (videos, name)
  {
    if IsSingleVideoUrl(url) && name.Some? && name.value != "" && |videos| == 1 then
      ([videos[0].(originalTitle := videos[0].title, title := name.value)], None)
    else (videos, name)
  }

  datatype RunResult =
    | RunFailed(error: string)
    | RunDone(downloaded: nat, cached: nat, failed: nat, total: nat, indexEntries: nat,
              playlistTracks: nat, newTrackIds: seq<string>, playlistName: Option<string>,
              index: map<string, IndexEntry>, playlist: Option<PlaylistFile>)

  /** `run`: fetch, rename a single video, download, index and save the playlist.
      `hasTrack` says which track files exist once the downloads are over. */
  method Run(url: string, name: Option<string>, extracted: Result<Option<Info>>, cancel: Cancel,
             completions: seq<Option<Download>>, hasTrack: string -> bool,
             stored: Option<Result<map<string, IndexEntry>>>,
             opencc: Option<string -> string>, pinyin: Option<string -> seq<string>>)
    returns (r: RunResult)
    ensures var videos := FetchMetadata(extracted, if cancel.InFetch? then Some(cancel.entries) else None);
      && (videos == [] ==> r == RunFailed("No videos found"))
      && (videos != [] && !cancel.NotCancelled? ==> r == RunFailed("Cancelled"))
      && (videos != [] && cancel.NotCancelled? ==> r.RunDone?)
    ensures r.RunDone? ==>
      && r.downloaded + r.cached + r.failed == |completions|
      && |r.newTrackIds| == r.downloaded
      && r.indexEntries == |r.index.Keys|
      && (r.playlist.Some? <==> r.playlistName.Some? && r.playlistName.value != "")
      && (r.playlist.Some? ==> r.playlistTracks == |r.playlist.value.tracks|)
      && (r.playlist.None? ==> r.playlistTracks == 0)
    ensures r.RunDone? && IsSingleVideoUrl(url) && name.Some? && name.value != "" ==>
      var videos := FetchMetadata(extracted, None);
      |videos| == 1 ==> (
        && r.playlistName.None? && r.playlist.None?
        && (hasTrack(videos[0].id) ==> videos[0].id in r.index && r.index[videos[0].id].title == ToSimplified(name.value, opencc)))
  {
    var videos := FetchMetadata(extracted, if cancel.InFetch? then Some(cancel.entries) else None);
    if videos == [] {
      return RunFailed("No videos found");
    }
    if cancel.InFetch? || cancel.AfterFetch? {
      return RunFailed("Cancelled");
    }
    var (named, playlistName) := AdoptName(url, name, videos);
    var tally := DownloadVideos(named, completions, if cancel.InDownload? then Some(cancel.completed) else None);
    if !cancel.NotCancelled? {
      return RunFailed("Cancelled");
    }
    var incoming := BuildIndex(named, hasTrack, opencc, pinyin);
    var (merged, entries) := SaveIndex(stored, incoming);
    var playlist: Option<PlaylistFile> := None;
    var tracks := 0;
    if playlistName.Some? && playlistName.value != "" {
      var (file, n) := SavePlaylist(playlistName.value, named, hasTrack);
      playlist, tracks := Some(file), n;
    }
    r := RunDone(tally.successful, tally.cached, tally.failed, tally.total, entries, tracks,
                 tally.newTrackIds, playlistName, merged, playlist);
  }
}

=== FILE: downloads.dfy ===
/** The video downloads: the queue file and the lifecycle of one entry (added as
    pending, started under a concurrency limit, completed or failed by the worker,
    cancelled, deleted), the speed and ETA read from a worker's stage text, and the
    resolution of the download directory.

    The queue file is `None` when it does not exist and `Some(Err(..))` when it cannot
    be read; the commands return the list they write back. The file system, the
    user's special folders and the clock are parameters. */
module Downloads {
  import opened Wrappers
  import opened Strings
  import opened Records

  // ---------------------------------------------------------------- data

  datatype DownloadStatus = Pending | Downloading | Completed | Failed | Cancelled

  /** The name `{:?}` prints for a status. */
  function StatusName(s: DownloadStatus): string
  {
    match s
    case Pending => "Pending"
    case Downloading => "Downloading"
    case Completed => "Completed"
    case Failed => "Failed"
    case Cancelled => "Cancelled"
  }

  datatype Download = Download(
    id: string,
    url: string,
    quality: string,
    title: Option<string>,
    status: DownloadStatus,
    progress: nat,
    speed: Option<string>,
    eta: Option<string>,
    filePath: Option<string>,
    error: Option<string>,
    createdAt: string,
    completedAt: Option<string>)

  type Queue = Option<Result<seq<Download>>>

  function Id(d: Download): string { d.id }

  const NoFile := "No downloads file found"

  // ---------------------------------------------------------------- queue

  /** `Download::new`: pending, no progress, nothing known yet. */
  function NewDownload(id: string, url: string, quality: string, now: string): (r: Download)
    ensures r.id == id && r.url == url && r.quality == quality && r.createdAt == now
    ensures r.status == Pending && r.progress == 0
    ensures r.title.None? && r.speed.None? && r.eta.None? && r.filePath.None?
    ensures r.error.None? && r.completedAt.None?
  {
    Download(id, url, quality, None, Pending, 0, None, None, None, None, now, None)
  }

  /** `list_downloads`: nothing when there is no file. */
  function ListDownloads(q: Queue): (r: Result<seq<Download>>)
    ensures q.None? ==> r == Ok([])
    ensures q.Some? ==> r == q.value
  {
    if q.None? then Ok([]) else q.value
  }

  /** `add_download`: a new pending entry with the fresh id at the end of the queue. */
  function AddDownload(q: Queue, id: string, url: string, quality: string, now: string): (r: Result<seq<Download>>)
    ensures ListDownloads(q).Err? ==> r == Err(ListDownloads(q).error)
    ensures ListDownloads(q).Ok? ==> r == Ok(ListDownloads(q).value + [NewDownload(id, url, quality, now)])
  {
    var ds :- ListDownloads(q);
    Ok(ds + [NewDownload(id, url, quality, now)])
  }

  /** How many entries are downloading. */
  function ActiveCount(ds: seq<Download>): (r: nat)
    ensures r <= |ds|
    ensures r == 0 <==> forall i :: 0 <= i < |ds| ==> ds[i].status != Downloading
  {
    if |ds| == 0 then 0
    else (if ds[0].status == Downloading then 1 else 0) + ActiveCount(ds[1..])
  }

  /** One entry's contribution to the count. */
  function Busy(d: Download): nat { if d.status == Downloading then 1 else 0 }

  /** Replacing one entry changes the count by the difference of the two entries. */
  lemma {:induction false} ActiveCountUpdate(ds: seq<Download>, k: nat, d: Download)
    requires k < |ds|
    ensures ActiveCount(ds[k := d]) + Busy(ds[k]) == ActiveCount(ds) + Busy(d)
    decreases k
  {
    if k > 0 {
      assert ds[k := d][1..] == ds[1..][k - 1 := d];
      ActiveCountUpdate(ds[1..], k - 1, d);
    } else {
      assert ds[k := d][1..] == ds[1..];
    }
  }

  // ---------------------------------------------------------------- starting

  function LimitMessage(active: nat, max: nat): string
  {
    "Maximum concurrent downloads reached (" + NatToString(active) + "/" + NatToString(max)
      + "). Please wait for a download to complete."
  }

  /** `start_download`, up to the worker: refused when the limit is reached, when the
      id is unknown, or when the first entry with the id is not pending; otherwise that
      entry becomes downloading. */
  function StartDownload(q: Queue, maxConcurrent: nat, jobId: string): (r: Result<seq<Download>>)
    ensures q.None? ==> r == Err(NoFile)
    ensures q.Some? && q.value.Ok? && ActiveCount(q.value.value) >= maxConcurrent ==>
      r == Err(LimitMessage(ActiveCount(q.value.value), maxConcurrent))
    ensures r.Ok? ==> q.Some? && q.value.Ok? && ActiveCount(q.value.value) < maxConcurrent
    ensures r.Ok? ==> var ds := q.value.value;
      exists k :: (
        && 0 <= k < |ds| && ds[k].id == jobId && ds[k].status == Pending
        && (forall j :: 0 <= j < k ==> ds[j].id != jobId)
        && r.value == ds[k := ds[k].(status := Downloading)])
    ensures (q.Some? && q.value.Ok? && ActiveCount(q.value.value) < maxConcurrent
             && !HasKey(q.value.value, Id, jobId)) ==> r == Err("Download not found: " + jobId)
  {
    if q.None? then Err(NoFile)
    else if q.value.Err? then Err(q.value.error)
    else
      var ds := q.value.value;
      var active := ActiveCount(ds);
      if active >= maxConcurrent then Err(LimitMessage(active, maxConcurrent))
      else
        HasKeyIndex(ds, Id, jobId);
        match IndexOf(ds, Id, jobId)
        case None => Err("Download not found: " + jobId)
        case Some(k) =>
          if ds[k].status != Pending then Err("Cannot start download with status " + StatusName(ds[k].status))
          else Ok(ds[k := ds[k].(status := Downloading)])
  }

  /** A start adds exactly one download to the running ones and never takes them past
      the limit. */
  lemma StartRespectsLimit(q: Queue, maxConcurrent: nat, jobId: string)
    requires StartDownload(q, maxConcurrent, jobId).Ok?
    ensures var ds := q.value.value;
      && ActiveCount(StartDownload(q, maxConcurrent, jobId).value) == ActiveCount(ds) + 1
      && ActiveCount(StartDownload(q, maxConcurrent, jobId).value) <= maxConcurrent
  {
    var ds := q.value.value;
    var k := IndexOf(ds, Id, jobId).value;
    ActiveCountUpdate(ds, k, ds[k].(status := Downloading));
  }

  // ---------------------------------------------------------------- finishing

  /** What the worker reports: the file and title on success, or its error. */
  datatype WorkerResult = WorkerOk(filePath: Option<string>, title: Option<string>) | WorkerErr(message: string)

  /** The list written after the worker, and the command's reply: the file path on
      success, the worker's error on failure. */
  datatype Finished = Finished(downloads: seq<Download>, reply: Result<Option<string>>)

  /** The entry as the worker's outcome leaves it. */
  function Outcome(d: Download, w: WorkerResult, now: string): (r: Download)
    ensures r.id == d.id && r.url == d.url && r.quality == d.quality && r.createdAt == d.createdAt
    ensures w.WorkerOk? ==> && r.status == Completed && r.progress == 100
                            && r.title == w.title && r.filePath == w.filePath
                            && r.completedAt == Some(now) && r.speed.None? && r.eta.None?
                            && r.error == d.error
    ensures w.WorkerErr? ==> r == d.(status := Failed, error := Some(w.message))
  {
    match w
    case WorkerOk(filePath, title) =>
      d.(status := Completed, progress := 100, title := title, filePath := filePath,
         completedAt := Some(now), speed := None, eta := None)
    case WorkerErr(message) => d.(status := Failed, error := Some(message))
  }

  /** `start_download`, after the worker: the queue is read again and the first entry
      with the id records the outcome. */
  function FinishDownload(file: Result<seq<Download>>, jobId: string, w: WorkerResult, now: string): (r: Result<Finished>)
    ensures file.Err? ==> r == Err(file.error)
    ensures file.Ok? ==> (r.Err? <==> !HasKey(file.value, Id, jobId))
    ensures file.Ok? && r.Err? ==> r.error == "Download not found after worker: " + jobId
    ensures r.Ok? ==> var ds := file.value;
      exists k :: (
        && 0 <= k < |ds| && ds[k].id == jobId
        && (forall j :: 0 <= j < k ==> ds[j].id != jobId)
        && r.value.downloads == ds[k := Outcome(ds[k], w, now)])
    ensures r.Ok? ==> (w.WorkerOk? ==> r.value.reply == Ok(w.filePath))
    ensures r.Ok? ==> (w.WorkerErr? ==> r.value.reply == Err(w.message))
  {
    if file.Err? then Err(file.error)
    else
      var ds := file.value;
      HasKeyIndex(ds, Id, jobId);
      match IndexOf(ds, Id, jobId)
      case None => Err("Download not found after worker: " + jobId)
      case Some(k) =>
        var reply := if w.WorkerOk? then Ok(w.filePath) else Err(w.message);
        Ok(Finished(ds[k := Outcome(ds[k], w, now)], reply))
  }

  /** A started download that the worker finishes is no longer running: the running
      count returns to what it was before the start. */
  lemma StartThenFinish(q: Queue, maxConcurrent: nat, jobId: string, w: WorkerResult, now: string)
    requires StartDownload(q, maxConcurrent, jobId).Ok?
    ensures var started := StartDownload(q, maxConcurrent, jobId).value;
      var r := FinishDownload(Ok(started), jobId, w, now);
      && r.Ok?
      && ActiveCount(r.value.downloads) == ActiveCount(q.value.value)
      && (w.WorkerOk? ==> exists k :: 0 <= k < |started| && r.value.downloads[k].status == Completed
                                     && r.value.downloads[k].progress == 100)
  {
    var ds := q.value.value;
    var k := IndexOf(ds, Id, jobId).value;
    var started := StartDownload(q, maxConcurrent, jobId).value;
    StartRespectsLimit(q, maxConcurrent, jobId);
    assert started[k].id == jobId;
    IndexOfAt(started, Id, jobId, k);
    var done := Outcome(started[k], w, now);
    ActiveCountUpdate(started, k, done);
    var r := FinishDownload(Ok(started), jobId, w, now);
    assert r.value.downloads == started[k := done];
    assert r.value.downloads[k] == done;
  }

  // ---------------------------------------------------------------- cancelling

  /** `cancel_download`: the first entry with the id, if pending or downloading,
      becomes cancelled; any other status, or no such entry, is refused. */
  function CancelDownload(q: Queue, jobId: string): (r: Result<seq<Download>>)
    ensures q.None? ==> r == Err(NoFile)
    ensures q.Some? && q.value.Ok? && !HasKey(q.value.value, Id, jobId) ==> r == Err("Download not found: " + jobId)
    ensures r.Ok? ==> q.Some? && q.value.Ok?
    ensures r.Ok? ==> var ds := q.value.value;
      exists k :: (
        && 0 <= k < |ds| && ds[k].id == jobId
        && (forall j :: 0 <= j < k ==> ds[j].id != jobId)
        && ds[k].status in {Pending, Downloading}
        && |r.value| == |ds| && r.value[k] == ds[k].(status := Cancelled)
        && forall j :: 0 <= j < |ds| && j != k ==> r.value[j] == ds[j])
  {
    if q.None? then Err(NoFile)
    else if q.value.Err? then Err(q.value.error)
    else
      var ds := q.value.value;
      HasKeyIndex(ds, Id, jobId);
      match IndexOf(ds, Id, jobId)
      case None => Err("Download not found: " + jobId)
      case Some(k) =>
        if ds[k].status == Pending || ds[k].status == Downloading then Ok(ds[k := ds[k].(status := Cancelled)])
        else Err("Cannot cancel download with status " + StatusName(ds[k].status))
  }

  /** A cancelled download can be neither cancelled again nor started. */
  lemma CancelIsFinal(q: Queue, jobId: string, maxConcurrent: nat)
    requires CancelDownload(q, jobId).Ok?
    ensures var after := Some(CancelDownload(q, jobId));
      && CancelDownload(after, jobId) == Err("Cannot cancel download with status Cancelled")
      && StartDownload(after, maxConcurrent, jobId).Err?
  {
    var ds := q.value.value;
    var k := IndexOf(ds, Id, jobId).value;
    var cancelled := CancelDownload(q, jobId).value;
    IndexOfAt(cancelled, Id, jobId, k);
    CancelledRefused(cancelled, jobId, k, maxConcurrent);
  }

  /** A queue whose first entry with the id is cancelled refuses to cancel or start it. */
  lemma CancelledRefused(ds: seq<Download>, jobId: string, k: nat, maxConcurrent: nat)
    requires k < |ds| && IndexOf(ds, Id, jobId) == Some(k) && ds[k].status == Cancelled
    ensures CancelDownload(Some(Ok(ds)), jobId) == Err("Cannot cancel download with status Cancelled")
    ensures StartDownload(Some(Ok(ds)), maxConcurrent, jobId).Err?
  {
  }

  // ---------------------------------------------------------------- deleting

  /** The files on disk: which exist, and the error removing one gives, if any. */
  datatype Disk = Disk(present: string -> bool, removeError: string -> Option<string>)

  /** The list written after a deletion, and the file removed with the entry. */
  datatype Deleted = Deleted(downloads: seq<Download>, removedFile: Option<string>)

  /** The file a deletion removes: the entry's file when asked for and present. */
  function FileToRemove(d: Download, deleteFile: bool, disk: Disk): (r: Option<string>)
    ensures r.Some? <==> deleteFile && d.filePath.Some? && disk.present(d.filePath.value)
    ensures r.Some? ==> r == d.filePath
  {
    if deleteFile && d.filePath.Some? && disk.present(d.filePath.value) then d.filePath else None
  }

  /** `delete_download`: the first entry with the id is removed, after its file when
      that was asked for; a failed file removal leaves the list untouched. */
  function DeleteDownload(q: Queue, jobId: string, deleteFile: bool, disk: Disk): (r: Result<Deleted>)
    ensures q.None? ==> r == Err(NoFile)
    ensures q.Some? && q.value.Ok? && !HasKey(q.value.value, Id, jobId) ==> r == Err("Download not found: " + jobId)
    ensures r.Ok? ==> q.Some? && q.value.Ok?
    ensures r.Ok? ==> var ds := q.value.value;
      exists k :: (
        && 0 <= k < |ds| && ds[k].id == jobId
        && (forall j :: 0 <= j < k ==> ds[j].id != jobId)
        && r.value.downloads == RemoveAt(ds, k)
        && r.value.removedFile == FileToRemove(ds[k], deleteFile, disk)
        && (r.value.removedFile.Some? ==> disk.removeError(r.value.removedFile.value).None?))
  {
    if q.None? then Err(NoFile)
    else if q.value.Err? then Err(q.value.error)
    else
      var ds := q.value.value;
      HasKeyIndex(ds, Id, jobId);
      match IndexOf(ds, Id, jobId)
      case None => Err("Download not found: " + jobId)
      case Some(k) =>
        var file := FileToRemove(ds[k], deleteFile, disk);
        if file.Some? && disk.removeError(file.value).Some? then
          Err("Failed to delete file: " + disk.removeError(file.value).value)
        else Ok(Deleted(RemoveAt(ds, k), file))
  }

  /** Deleting a freshly added download restores the queue. */
  lemma AddThenDelete(ds: seq<Download>, id: string, url: string, quality: string, now: string, disk: Disk)
    requires !HasKey(ds, Id, id)
    ensures var added := AddDownload(Some(Ok(ds)), id, url, quality, now);
      var r := DeleteDownload(Some(added), id, true, disk);
      r == Ok(Deleted(ds, None))
  {
    var added := ds + [NewDownload(id, url, quality, now)];
    IndexOfAt(added, Id, id, |ds|);
    assert RemoveAt(added, |ds|) == ds;
  }

  // ---------------------------------------------------------------- stage text

  /** The first decimal digit of `s` at or after `from`. */
  function FirstDigitFrom(s: string, from: nat): (r: Option<nat>)
    ensures r.Some? ==> from <= r.value < |s| && IsDigit(s[r.value])
    ensures r.Some? ==> forall j :: from <= j < r.value ==> !IsDigit(s[j])
    ensures r.None? ==> forall j :: from <= j < |s| ==> !IsDigit(s[j])
    decreases |s| - from
  {
    if from >= |s| then None
    else if IsDigit(s[from]) then Some(from)
    else FirstDigitFrom(s, from + 1)
  }

  function FirstDigit(s: string): (r: Option<nat>)
    ensures r.Some? ==> r.value < |s| && IsDigit(s[r.value])
    ensures r.Some? ==> forall j :: 0 <= j < r.value ==> !IsDigit(s[j])
    ensures r.None? <==> forall j :: 0 <= j < |s| ==> !IsDigit(s[j])
  {
    FirstDigitFrom(s, 0)
  }

  /** The speed in a stage text: from its first digit up to and including the first
      "/s" after it, when that rest mentions "MB/s" or "KB/s". */
  function ParseSpeed(stage: string): (r: Option<string>)
    ensures r.Some? <==> (
      && FirstDigit(stage).Some?
      && (Contains(stage[FirstDigit(stage).value..], "MB/s") || Contains(stage[FirstDigit(stage).value..], "KB/s")))
  {
    match FirstDigit(stage)
    case None => None
    case Some(start) =>
      var rest := stage[start..];
      if Contains(rest, "MB/s") || Contains(rest, "KB/s") then
        SlashSAfterUnit(rest);
        Some(rest[..Find(rest, "/s").value + 2])
      else None
  }

  /** A text that mentions a speed unit contains "/s". */
  lemma SlashSAfterUnit(rest: string)
    requires Contains(rest, "MB/s") || Contains(rest, "KB/s")
    ensures Find(rest, "/s").Some?
  {
    var u := if Contains(rest, "MB/s") then "MB/s" else "KB/s";
    var i := Find(rest, u).value;
    assert rest[i + 2..i + 4] == u[2..4];
    assert OccursAt(rest, "/s", i + 2);
  }

  /** A parsed speed is a piece of the stage text that starts at its first digit and
      ends at the first "/s" after it. */
  lemma SpeedShape(stage: string)
    requires ParseSpeed(stage).Some?
    ensures var v := ParseSpeed(stage).value;
      && |v| >= 3 && IsDigit(v[0]) && EndsWith(v, "/s")
      && OccursAt(stage, v, FirstDigit(stage).value)
      && !Contains(v[..|v| - 1], "/s")
  {
    var start := FirstDigit(stage).value;
    var rest := stage[start..];
    SlashSAfterUnit(rest);
    var end := Find(rest, "/s").value;
    var v := rest[..end + 2];
    assert v == ParseSpeed(stage).value;
    assert rest[0] == stage[start];
    assert end > 0 by { assert rest[0] != '/'; }
    assert stage[start..start + |v|] == v;
    var head := v[..|v| - 1];
    assert head == rest[..end + 1];
    forall j ensures !OccursAt(head, "/s", j) {
      if OccursAt(head, "/s", j) {
        assert j < end;
        assert rest[..end + 1][j..j + 2] == rest[j..j + 2];
        assert OccursAt(rest, "/s", j);
      }
    }
    ContainsIff(head, "/s");
  }

  /** The ETA in a stage text: the trimmed text after its first "ETA:". */
  function ParseEta(stage: string): (r: Option<string>)
    ensures r.Some? <==> Contains(stage, "ETA:")
    ensures r.Some? ==> exists k :: (
      && OccursAt(stage, "ETA:", k) && (forall j :: 0 <= j < k ==> !OccursAt(stage, "ETA:", j))
      && r.value == Trim(stage[k + 4..]))
  {
    match Find(stage, "ETA:")
    case None => None
    case Some(start) => Some(Trim(stage[start + 4..]))
  }

  /** `parse_stage_info`: the speed and the ETA, each independently. */
  function ParseStageInfo(stage: string): (r: (Option<string>, Option<string>))
    ensures r == (ParseSpeed(stage), ParseEta(stage))
  {
    (ParseSpeed(stage), ParseEta(stage))
  }

  /** The first digit of `a + b` starts `b` when `a` has none. */
  lemma FirstDigitAfter(a: string, b: string)
    requires |b| > 0 && IsDigit(b[0])
    requires forall c :: c in a ==> !IsDigit(c)
    ensures FirstDigit(a + b) == Some(|a|)
  {
    var s := a + b;
    forall j | 0 <= j < |a| ensures !IsDigit(s[j]) {
      assert s[j] == a[j];
    }
    assert s[|a|] == b[0];
  }

  /** The worker's progress text with a speed gives that speed. */
  lemma SpeedExample()
    ensures ParseSpeed("Downloading... 1.5 MB/s ETA: 30s") == Some("1.5 MB/s")
  {
    var s := "Downloading... 1.5 MB/s ETA: 30s";
    var rest := "1.5 MB/s ETA: 30s";
    assert s == "Downloading... " + rest;
    FirstDigitAfter("Downloading... ", rest);
    assert s[15..] == rest;
    SpeedRestExample();
  }

  lemma SpeedRestExample()
    ensures var rest := "1.5 MB/s ETA: 30s";
      && Contains(rest, "MB/s") && Find(rest, "/s") == Some(6) && rest[..8] == "1.5 MB/s"
  {
    var rest := "1.5 MB/s ETA: 30s";
    assert rest == "1.5 " + "MB/s" + " ETA: 30s";
    ContainsIn(rest, "MB/s", "1.5 ", " ETA: 30s");
    assert rest == "1.5 MB" + "/s" + " ETA: 30s";
    FindAfter("1.5 MB", "/s", " ETA: 30s");
  }

  /** ... and the trimmed text after "ETA:". */
  lemma EtaExample()
    ensures ParseEta("Downloading... 1.5 MB/s ETA: 30s") == Some("30s")
  {
    var s := "Downloading... 1.5 MB/s ETA: 30s";
    assert s == "Downloading... 1.5 MB/s " + "ETA:" + " 30s";
    FindAfter("Downloading... 1.5 MB/s ", "ETA:", " 30s");
    assert s[28..] == " 30s";
    TrimExample();
  }

  lemma TrimExample()
    ensures Trim(" 30s") == "30s"
  {
    assert ' ' in Whitespace && '3' !in Whitespace && 's' !in Whitespace;
    assert " 30s"[1..] == "30s";
    assert StripStart("30s", Whitespace) == "30s";
    assert StripStart(" 30s", Whitespace) == "30s";
    assert StripEnd("30s", Whitespace) == "30s";
  }

  /** Without a speed the digits of the ETA do not make one. */
  lemma NoSpeedExample()
    ensures ParseSpeed("Downloading... ETA: 30s") == None
  {
    var t := "Downloading... ETA: 30s";
    assert t == "Downloading... ETA: " + "30s";
    FirstDigitAfter("Downloading... ETA: ", "30s");
    assert t[20..] == "30s";
    assert !Contains("30s", "MB/s") && !Contains("30s", "KB/s");
  }

  // ---------------------------------------------------------------- directories

  datatype SpecialFolder = DownloadsFolder | DesktopFolder | DocumentsFolder | VideosFolder | MusicFolder | PicturesFolder

  /** The user's special folders, each possibly unknown. */
  datatype Folders = Folders(
    downloads: Option<string>,
    desktop: Option<string>,
    documents: Option<string>,
    videos: Option<string>,
    music: Option<string>,
    pictures: Option<string>)

  /** The names recognised, up to case. */
  function SpecialKind(name: string): (r: Option<SpecialFolder>)
    ensures r.Some? <==> Lower(name) in {"downloads", "download", "desktop", "documents", "document",
                                         "videos", "video", "music", "pictures", "picture"}
  {
    var n := Lower(name);
    if n == "downloads" || n == "download" then Some(DownloadsFolder)
    else if n == "desktop" then Some(DesktopFolder)
    else if n == "documents" || n == "document" then Some(DocumentsFolder)
    else if n == "videos" || n == "video" then Some(VideosFolder)
    else if n == "music" then Some(MusicFolder)
    else if n == "pictures" || n == "picture" then Some(PicturesFolder)
    else None
  }

  function FolderPath(f: Folders, k: SpecialFolder): Option<string>
  {
    match k
    case DownloadsFolder => f.downloads
    case DesktopFolder => f.desktop
    case DocumentsFolder => f.documents
    case VideosFolder => f.videos
    case MusicFolder => f.music
    case PicturesFolder => f.pictures
  }

  /** `resolve_special_folder`: the folder a recognised name stands for. */
  function ResolveSpecialFolder(name: string, f: Folders): (r: Option<string>)
    ensures SpecialKind(name).None? ==> r.None?
    ensures SpecialKind(name).Some? ==> r == FolderPath(f, SpecialKind(name).value)
  {
    match SpecialKind(name)
    case None => None
    case Some(k) => FolderPath(f, k)
  }

  /** The match ignores case. */
  lemma ResolveIgnoresCase(a: string, b: string, f: Folders)
    requires EqualsIgnoreCase(a, b)
    ensures ResolveSpecialFolder(a, f) == ResolveSpecialFolder(b, f)
  {
  }

  /** The capitalised folder name resolves to that folder. */
  lemma SpecialNameExample(f: Folders)
    ensures ResolveSpecialFolder("Music", f) == f.music
  {
    assert Lower("Music") == "music";
  }

  /** A name outside the fixed set resolves to nothing. */
  lemma UnknownNameExample(f: Folders)
    ensures ResolveSpecialFolder("Movies", f).None?
  {
    assert Lower("Movies") == "movies";
  }

  /** The paths the commands see: the special folders, the videos directory used when
      the user has no Downloads folder, and the file-system queries. */
  datatype FileSystem = FileSystem(
    folders: Folders,
    videosDir: string,
    present: string -> bool,
    isDir: string -> bool,
    isAbsolute: string -> bool,
    parent: string -> Option<string>,
    join: (string, string) -> string)

  /** The user's Downloads folder, or the videos directory without one. */
  function DefaultDir(fs: FileSystem): string
  {
    fs.folders.downloads.GetOr(fs.videosDir)
  }

  predicate ParentPresent(fs: FileSystem, p: string)
  {
    fs.parent(p).Some? && fs.present(fs.parent(p).value)
  }

  /** Where a non-blank download-path setting resolves to: a special folder, an
      absolute path as it is, or a path relative to the Downloads folder. */
  function Resolve(input: string, fs: FileSystem): string
  {
    match ResolveSpecialFolder(input, fs.folders)
    case Some(p) => p
    case None => if fs.isAbsolute(input) then input else fs.join(DefaultDir(fs), input)
  }

  /** `get_download_directory`: the resolved download-path setting, or the default
      folder when the settings file is missing or unreadable or the path is blank. */
  function DownloadDirectory(setting: Option<string>, fs: FileSystem): (r: string)
    ensures setting.None? || Trim(setting.value) == [] ==> r == DefaultDir(fs)
    ensures setting.Some? && Trim(setting.value) != [] && ResolveSpecialFolder(Trim(setting.value), fs.folders).Some? ==>
      r == ResolveSpecialFolder(Trim(setting.value), fs.folders).value
  {
    if setting.None? then DefaultDir(fs)
    else
      var input := Trim(setting.value);
      if input == [] then DefaultDir(fs) else Resolve(input, fs)
  }

  datatype DownloadPathValidation = DownloadPathValidation(
    valid: bool,
    resolvedPath: string,
    present: bool,
    isSpecialFolder: bool,
    message: string)

  /** `validate_download_path`: where a setting would resolve, whether that exists, and
      whether it is usable. */
  function ValidateDownloadPath(path: string, fs: FileSystem): (r: DownloadPathValidation)
    ensures r.present == fs.present(r.resolvedPath)
    ensures r.isSpecialFolder <==> Trim(path) == [] || ResolveSpecialFolder(Trim(path), fs.folders).Some?
    ensures Trim(path) == [] ==> r.valid && r.resolvedPath == DefaultDir(fs)
    ensures !r.valid <==>
      && !r.isSpecialFolder && fs.isAbsolute(Trim(path))
      && ((fs.present(Trim(path)) && !fs.isDir(Trim(path))) || (!fs.present(Trim(path)) && !ParentPresent(fs, Trim(path))))
    ensures !r.isSpecialFolder && !fs.isAbsolute(Trim(path)) ==>
      r.valid && r.resolvedPath == fs.join(DefaultDir(fs), Trim(path))
  {
    var input := Trim(path);
    if input == [] then
      var d := DefaultDir(fs);
      DownloadPathValidation(true, d, fs.present(d), true, "Will use default Downloads folder")
    else match ResolveSpecialFolder(input, fs.folders)
      case Some(p) =>
        DownloadPathValidation(true, p, fs.present(p), true, "Recognized as Windows " + input + " folder")
      case None =>
        if fs.isAbsolute(input) then
          if fs.present(input) then
            if fs.isDir(input) then
              DownloadPathValidation(true, input, true, false, "Path exists and is ready to use")
            else
              DownloadPathValidation(false, input, true, false, "Path exists but is a file, not a directory")
          else if ParentPresent(fs, input) then
            DownloadPathValidation(true, input, false, false, "Folder will be created when downloading")
          else
            DownloadPathValidation(false, input, false, false, "Parent directory does not exist")
        else
          var resolved := fs.join(DefaultDir(fs), input);
          var there := fs.present(resolved);
          DownloadPathValidation(true, resolved, there, false,
            "Will create \"" + input + "\" folder inside Downloads" + (if there then " (already exists)" else ""))
  }

  /** The directory downloads go to is the one validation reports for the same setting,
      whether or not validation calls it usable. */
  lemma DirectoryMatchesValidation(setting: string, fs: FileSystem)
    ensures DownloadDirectory(Some(setting), fs) == ValidateDownloadPath(setting, fs).resolvedPath
  {
  }
}

=== FILE: feature_extraction.dfy ===
/** Spectrogram shape arithmetic and the training augmentations: time and frequency
    masking, gain, their combination, and mixup.

    A spectrogram is a matrix of reals, rows are mel bands and columns are time
    frames. The random draws are parameters, constrained to the ranges the random
    generator draws from. Computing the mel spectrogram itself is outside the model. */
module FeatureExtraction {
  import opened Wrappers
  import opened Numeric
  import opened AudioTypes

  // ---------------------------------------------------------------- shape

  /** Python's `a // b`: the floor of the quotient, also for a negative divisor. */
  function FloorDiv(a: int, b: int): (q: int)
    requires b != 0
    ensures b > 0 ==> q * b <= a < q * b + b
    ensures b < 0 ==> q * b >= a > q * b + b
  {
    if b > 0 then a / b else (-a) / (-b)
  }

  /** `get_expected_spectrogram_shape`: the mel bands by `1 + window // hop_length`
      frames; a zero hop length is a division error. */
  function ExpectedShape(windowSamples: int, nMels: int, hopLength: int): (r: Result<(int, int)>)
    ensures r.Err? <==> hopLength == 0
    ensures r.Ok? ==> r.value.0 == nMels
    ensures r.Ok? && hopLength > 0 && windowSamples >= 0 ==>
      (r.value.1 - 1) * hopLength <= windowSamples < r.value.1 * hopLength
  {
    if hopLength == 0 then Err("integer division or modulo by zero")
    else Ok((nMels, 1 + FloorDiv(windowSamples, hopLength)))
  }

  /** With the default one-second window the model input is 128 x 32. */
  lemma DefaultShape()
    ensures ExpectedShape(SAMPLE_RATE, N_MELS, HOP_LENGTH) == Ok((128, 32))
  {
  }

  // ---------------------------------------------------------------- matrices

  type Spectrogram = seq<seq<real>>

  /** Both matrices have the same number of rows and the same row lengths. */
  predicate SameShape(a: Spectrogram, b: Spectrogram)
  {
    |a| == |b| && forall i :: 0 <= i < |a| ==> |a[i]| == |b[i]|
  }

  /** The frame count, read from the first row as `spec.shape` does. */
  function Frames(spec: Spectrogram): nat
  {
    if |spec| == 0 then 0 else |spec[0]|
  }

  // ---------------------------------------------------------------- masking

  /** One random mask: `width` from `randint(1, max_width + 1)`, `start` from
      `randint(0, max(1, extent - width))`. */
  datatype Mask = Mask(start: nat, width: nat)

  predicate ValidMask(m: Mask, maxWidth: int, extent: int)
  {
    1 <= m.width <= maxWidth && m.start < (if extent - m.width > 1 then extent - m.width else 1)
  }

  predicate InMask(m: Mask, i: nat) { m.start <= i < m.start + m.width }

  /** Some mask of the list covers index `i`. */
  predicate Covered(masks: seq<Mask>, i: nat)
  {
    exists k :: 0 <= k < |masks| && InMask(masks[k], i)
  }

  lemma CoveredCons(masks: seq<Mask>, i: nat)
    requires |masks| > 0
    ensures Covered(masks, i) <==> InMask(masks[0], i) || Covered(masks[1..], i)
  {
    if Covered(masks, i) && !InMask(masks[0], i) {
      var k :| 0 <= k < |masks| && InMask(masks[k], i);
      assert masks[1..][k - 1] == masks[k];
    }
    if Covered(masks[1..], i) {
      var k :| 0 <= k < |masks[1..]| && InMask(masks[1..][k], i);
      assert masks[k + 1] == masks[1..][k];
    }
  }

  /** `spec[:, start:start + width] = 0`. */
  function ZeroColumns(spec: Spectrogram, m: Mask): (r: Spectrogram)
    ensures SameShape(r, spec)
  {
    seq(|spec|, i requires 0 <= i < |spec| =>
      seq(|spec[i]|, j requires 0 <= j < |spec[i]| => if InMask(m, j) then 0.0 else spec[i][j]))
  }

  /** `spec[start:start + width, :] = 0`. */
  function ZeroRows(spec: Spectrogram, m: Mask): (r: Spectrogram)
    ensures SameShape(r, spec)
  {
    seq(|spec|, i requires 0 <= i < |spec| =>
      seq(|spec[i]|, j requires 0 <= j < |spec[i]| => if InMask(m, i) then 0.0 else spec[i][j]))
  }

  /** `apply_time_masking`: the masks applied to a copy, one after another. */
  function TimeMasking(spec: Spectrogram, masks: seq<Mask>): (r: Spectrogram)
    ensures SameShape(r, spec)
    ensures forall i, j :: 0 <= i < |spec| && 0 <= j < |spec[i]| ==>
      r[i][j] == if Covered(masks, j) then 0.0 else spec[i][j]
    decreases |masks|
  {
    if |masks| == 0 then spec
    else
      var z := ZeroColumns(spec, masks[0]);
      var r := TimeMasking(z, masks[1..]);
      assert forall i, j :: 0 <= i < |spec| && 0 <= j < |spec[i]| ==>
        r[i][j] == if Covered(masks, j) then 0.0 else spec[i][j] by {
        forall i, j | 0 <= i < |spec| && 0 <= j < |spec[i]|
          ensures r[i][j] == if Covered(masks, j) then 0.0 else spec[i][j]
        {
          CoveredCons(masks, j);
          assert i < |z| && j < |z[i]|;
          assert z[i][j] == if InMask(masks[0], j) then 0.0 else spec[i][j];
          assert r[i][j] == if Covered(masks[1..], j) then 0.0 else z[i][j];
        }
      }
      r
  }

  /** `apply_frequency_masking`: the same over mel bands. */
  function FrequencyMasking(spec: Spectrogram, masks: seq<Mask>): (r: Spectrogram)
    ensures SameShape(r, spec)
    ensures forall i, j :: 0 <= i < |spec| && 0 <= j < |spec[i]| ==>
      r[i][j] == if Covered(masks, i) then 0.0 else spec[i][j]
    decreases |masks|
  {
    if |masks| == 0 then spec
    else
      var z := ZeroRows(spec, masks[0]);
      var r := FrequencyMasking(z, masks[1..]);
      assert forall i, j :: 0 <= i < |spec| && 0 <= j < |spec[i]| ==>
        r[i][j] == if Covered(masks, i) then 0.0 else spec[i][j] by {
        forall i, j | 0 <= i < |spec| && 0 <= j < |spec[i]|
          ensures r[i][j] == if Covered(masks, i) then 0.0 else spec[i][j]
        {
          CoveredCons(masks, i);
          assert i < |z| && j < |z[i]|;
          assert z[i][j] == if InMask(masks[0], i) then 0.0 else spec[i][j];
          assert r[i][j] == if Covered(masks[1..], i) then 0.0 else z[i][j];
        }
      }
      r
  }

  /** A mask drawn for a spectrogram wider than the mask ends before the last frame:
      the start is drawn below `frames - width`, never at it. */
  lemma LastFrameNeverMasked(masks: seq<Mask>, maxWidth: int, frames: nat)
    requires forall k :: 0 <= k < |masks| ==> ValidMask(masks[k], maxWidth, frames) && masks[k].width < frames
    ensures frames > 0 ==> !Covered(masks, frames - 1)
  {
  }

  // ---------------------------------------------------------------- gain and mixup

  /** `np.random.uniform(low, high)` draws between the two bounds. */
  predicate InUniformRange(g: real, lo: real, hi: real)
  {
    (lo <= g <= hi) || (hi <= g <= lo)
  }

  /** `apply_gain_augmentation`: one constant added to every cell. */
  function Gain(spec: Spectrogram, g: real): (r: Spectrogram)
    ensures SameShape(r, spec)
    ensures forall i, j :: 0 <= i < |spec| && 0 <= j < |spec[i]| ==> r[i][j] - spec[i][j] == g
  {
    seq(|spec|, i requires 0 <= i < |spec| =>
      seq(|spec[i]|, j requires 0 <= j < |spec[i]| => spec[i][j] + g))
  }

  datatype AugmentOptions = AugmentOptions(
    timeMaskWidth: int, freqMaskWidth: int, gainLow: real, gainHigh: real,
    applyTime: bool, applyFreq: bool, applyGain: bool)

  const DefaultAugmentOptions: AugmentOptions := AugmentOptions(5, 10, -3.0, 3.0, true, true, true)

  /** The draws of one `augment_spectrogram` call; each enabled step draws one mask. */
  datatype AugmentDraws = AugmentDraws(timeMask: Mask, freqMask: Mask, gain: real)

  predicate ValidDraws(spec: Spectrogram, o: AugmentOptions, d: AugmentDraws)
  {
    && (o.applyTime ==> ValidMask(d.timeMask, o.timeMaskWidth, Frames(spec)))
    && (o.applyFreq ==> ValidMask(d.freqMask, o.freqMaskWidth, |spec|))
    && (o.applyGain ==> InUniformRange(d.gain, o.gainLow, o.gainHigh))
  }

  /** `augment_spectrogram`: time masking, then frequency masking, then gain, each
      only when enabled. */
  function Augment(spec: Spectrogram, o: AugmentOptions, d: AugmentDraws): (r: Spectrogram)
    requires ValidDraws(spec, o, d)
    ensures SameShape(r, spec)
  {
    var t := if o.applyTime then TimeMasking(spec, [d.timeMask]) else spec;
    var f := if o.applyFreq then FrequencyMasking(t, [d.freqMask]) else t;
    if o.applyGain then Gain(f, d.gain) else f
  }

  /** The draws each enabled step can make: no mask width can be drawn below 1, so a
      masking step with a maximum width below 1 draws nothing. */
  predicate PossibleDraws(spec: Spectrogram, o: AugmentOptions, d: AugmentDraws)
  {
    && (o.applyTime && o.timeMaskWidth >= 1 ==> ValidMask(d.timeMask, o.timeMaskWidth, Frames(spec)))
    && (o.applyFreq && o.freqMaskWidth >= 1 ==> ValidMask(d.freqMask, o.freqMaskWidth, |spec|))
    && (o.applyGain ==> InUniformRange(d.gain, o.gainLow, o.gainHigh))
  }

  /** `randint(1, max_width + 1)` with `max_width` below 1 raises `ValueError`. */
  const EmptyWidthRange := "ValueError: low >= high"

  /** `augment_spectrogram` with its failure: an enabled masking step whose maximum
      width is below 1 raises, time masking first; otherwise the augmentation. */
  function AugmentChecked(spec: Spectrogram, o: AugmentOptions, d: AugmentDraws): (r: Result<Spectrogram>)
    requires PossibleDraws(spec, o, d)
    ensures r.Err? <==> (o.applyTime && o.timeMaskWidth < 1) || (o.applyFreq && o.freqMaskWidth < 1)
    ensures r.Ok? ==> ValidDraws(spec, o, d) && r.value == Augment(spec, o, d) && SameShape(r.value, spec)
  {
    if o.applyTime && o.timeMaskWidth < 1 then Err(EmptyWidthRange)
    else if o.applyFreq && o.freqMaskWidth < 1 then Err(EmptyWidthRange)
    else Ok(Augment(spec, o, d))
  }

  /** Because gain comes last, a masked cell ends at the gain value rather than zero;
      every other cell is shifted by the gain. */
  lemma AugmentCells(spec: Spectrogram, o: AugmentOptions, d: AugmentDraws, i: nat, j: nat)
    requires ValidDraws(spec, o, d)
    requires i < |spec| && j < |spec[i]|
    ensures var masked := (o.applyTime && InMask(d.timeMask, j)) || (o.applyFreq && InMask(d.freqMask, i));
      Augment(spec, o, d)[i][j] == (if masked then 0.0 else spec[i][j]) + (if o.applyGain then d.gain else 0.0)
  {
    assert Covered([d.timeMask], j) <==> InMask(d.timeMask, j) by {
      if InMask(d.timeMask, j) { assert InMask([d.timeMask][0], j); }
    }
    assert Covered([d.freqMask], i) <==> InMask(d.freqMask, i) by {
      if InMask(d.freqMask, i) { assert InMask([d.freqMask][0], i); }
    }
  }

  /** `mixup`: the weighted cell-wise combination and the same combination of labels. */
  function Mixup(s1: Spectrogram, s2: Spectrogram, label1: int, label2: int, lam: real): (r: (Spectrogram, real))
    requires SameShape(s1, s2)
    ensures SameShape(r.0, s1)
    ensures forall i, j :: 0 <= i < |s1| && 0 <= j < |s1[i]| ==>
      r.0[i][j] - s2[i][j] == lam * (s1[i][j] - s2[i][j])
  {
    var mixed := seq(|s1|, i requires 0 <= i < |s1| =>
      seq(|s1[i]|, j requires 0 <= j < |s1[i]| => lam * s1[i][j] + (1.0 - lam) * s2[i][j]));
    (mixed, lam * label1 as real + (1.0 - lam) * label2 as real)
  }

  /** A coefficient from the beta distribution lies in [0, 1], so binary labels mix to a
      soft label in [0, 1]; equal labels stay as they are. */
  lemma MixupLabelBounds(s1: Spectrogram, s2: Spectrogram, label1: int, label2: int, lam: real)
    requires SameShape(s1, s2)
    requires 0.0 <= lam <= 1.0
    requires label1 in {0, 1} && label2 in {0, 1}
    ensures 0.0 <= Mixup(s1, s2, label1, label2, lam).1 <= 1.0
    ensures label1 == label2 ==> Mixup(s1, s2, label1, label2, lam).1 == label1 as real
  {
    var l := Mixup(s1, s2, label1, label2, lam).1;
    MulNonNeg(lam, label1 as real);
    MulNonNeg(1.0 - lam, label2 as real);
    MulMono(label1 as real, 1.0, lam);
    MulMono(label2 as real, 1.0, 1.0 - lam);
  }
}

=== FILE: friends.dfy ===
/** The friends and partner feature: a local user profile, a cached friends list,
    messages, shared memories, calendar events, a wishlist and an offline action
    queue. Each store is a JSON file read whole, changed and written back whole;
    the friends server is reached only through the replies passed in as parameters. */
module FriendsCommands {
  import opened Wrappers
  import opened Strings
  import opened Records

  // ---------------------------------------------------------------- data

  datatype RelationshipType = Partner | Friend
  datatype PresenceStatus = Online | Away | InGame | Offline
  datatype MemoryType = Photo | Video | Voice | Note | Countdown | Milestone
  datatype ConnectionState = Disconnected | Connecting | Connected | Error
  datatype OfflineActionType =
    | SendMessage | SendPoke | CreateMemory | CreateCalendarEvent
    | UpdateCalendarEvent | DeleteCalendarEvent | DeleteMemory | UpdatePresence

  datatype User = User(
    id: string,
    friendCode: string,
    username: string,
    avatarUrl: Option<string>,
    partnerId: Option<string>,
    createdAt: nat)

  /** The profile kept on this machine. */
  datatype LocalUserData = LocalUserData(
    id: Option<string>,
    friendCode: Option<string>,
    username: Option<string>,
    serverUrl: string,
    authToken: Option<string>,
    partnerId: Option<string>,
    lastSync: nat)

  /** One relationship (the source's `Friend` struct). */
  datatype Friendship = Friendship(
    id: string,
    userId: string,
    friendUserId: string,
    relationshipType: RelationshipType,
    nickname: Option<string>,
    createdAt: nat)

  /** Presence of a user; the performance snapshot (floating point) is not modelled. */
  datatype Presence = Presence(
    userId: string,
    status: PresenceStatus,
    currentGame: Option<string>,
    gameStartTime: Option<nat>,
    moodMessage: Option<string>,
    lastUpdated: nat,
    lastSeen: nat)

  datatype FriendWithDetails = FriendWithDetails(friend: Friendship, user: User, presence: Option<Presence>)

  datatype Memory = Memory(
    id: string,
    userId: string,
    partnerId: string,
    memoryType: MemoryType,
    contentUrl: Option<string>,
    contentText: Option<string>,
    caption: Option<string>,
    targetDate: Option<nat>,
    createdAt: nat)

  datatype Message = Message(
    id: string,
    senderId: string,
    receiverId: string,
    content: string,
    createdAt: nat,
    readAt: Option<nat>)

  datatype CalendarEvent = CalendarEvent(
    id: string,
    userId: string,
    partnerId: string,
    title: string,
    description: Option<string>,
    datetime: nat,
    timezone: string,
    reminderMinutes: Option<nat>,
    isRecurring: bool,
    recurrencePattern: Option<string>,
    createdAt: nat)

  datatype WishlistItem = WishlistItem(
    id: string,
    userId: string,
    game: string,
    itemName: string,
    itemType: string,
    priority: nat,
    createdAt: nat)

  /** An action waiting for the server; the JSON payload is kept as its one string field. */
  datatype OfflineAction = OfflineAction(id: string, actionType: OfflineActionType, payload: string, createdAt: nat)

  /** A file: `None` when it does not exist, `Some(Err)` when it cannot be read or parsed. */
  type UserFile = Option<Result<LocalUserData>>
  type Store<T> = Option<Result<seq<T>>>

  function FriendId(f: FriendWithDetails): string { f.friend.id }
  function MessageId(m: Message): string { m.id }
  function MemoryId(m: Memory): string { m.id }
  function EventId(e: CalendarEvent): string { e.id }
  function WishId(w: WishlistItem): string { w.id }

  // ---------------------------------------------------------------- files

  const DefaultUser := LocalUserData(None, None, None, "", None, None, 0)

  /** `get_local_user`: the default profile when there is no file. */
  function GetLocalUser(f: UserFile): (r: Result<LocalUserData>)
    ensures f.None? ==> r == Ok(DefaultUser)
    ensures f.Some? ==> r == f.value
  {
    if f.None? then Ok(DefaultUser) else f.value
  }

  /** `get_local_user().unwrap_or_default()`: an unreadable profile also reads as the default. */
  function UserOrDefault(f: UserFile): (r: LocalUserData)
    ensures GetLocalUser(f).Ok? ==> r == GetLocalUser(f).value
    ensures GetLocalUser(f).Err? ==> r == DefaultUser
  {
    match GetLocalUser(f)
    case Ok(u) => u
    case Err(_) => DefaultUser
  }

  /** Reading a list store: empty when there is no file. */
  function Read<T>(f: Store<T>): (r: Result<seq<T>>)
    ensures f.None? ==> r == Ok([])
    ensures f.Some? ==> r == f.value
  {
    if f.None? then Ok([]) else f.value
  }

  /** `.unwrap_or_default()` on a list store: empty when missing or unreadable. */
  function ReadOrEmpty<T>(f: Store<T>): (r: seq<T>)
    ensures Read(f).Ok? ==> r == Read(f).value
    ensures Read(f).Err? ==> r == []
  {
    match Read(f)
    case Ok(xs) => xs
    case Err(_) => []
  }

  const DefaultServerUrl := "https://atlas-api.kaic5504.com"

  /** `get_server_url`: the profile's server, or the default one when none is set. */
  function ServerUrl(f: UserFile): (r: string)
    ensures UserOrDefault(f).serverUrl != "" ==> r == UserOrDefault(f).serverUrl
    ensures UserOrDefault(f).serverUrl == "" ==> r == DefaultServerUrl
  {
    var u := UserOrDefault(f);
    if u.serverUrl == "" then DefaultServerUrl else u.serverUrl
  }

  /** `set_friends_server_url`: only the server address changes. */
  function SetFriendsServerUrl(f: UserFile, url: string): (r: LocalUserData)
    ensures r.serverUrl == url
    ensures r.(serverUrl := UserOrDefault(f).serverUrl) == UserOrDefault(f)
  {
    UserOrDefault(f).(serverUrl := url)
  }

  /** Clearing the server address falls back to the default server. */
  lemma ClearedUrlUsesDefault(f: UserFile)
    ensures ServerUrl(Some(Ok(SetFriendsServerUrl(f, "")))) == DefaultServerUrl
  {
  }

  // ---------------------------------------------------------------- profile

  /** Bytes of one character in UTF-8. */
  function Utf8Width(c: char): (r: nat)
    ensures 1 <= r <= 4
    ensures r == 1 <==> (c as int) < 0x80
  {
    if (c as int) < 0x80 then 1
    else if (c as int) < 0x800 then 2
    else if (c as int) < 0x1_0000 then 3
    else 4
  }

  /** Rust's `str::len()`: the length in UTF-8 bytes, not in characters. */
  function ByteLength(s: string): (r: nat)
    ensures |s| <= r <= 4 * |s|
  {
    if |s| == 0 then 0 else Utf8Width(s[0]) + ByteLength(s[1..])
  }

  /** ASCII text has as many bytes as characters. */
  lemma {:induction false} AsciiByteLength(s: string)
    requires forall i :: 0 <= i < |s| ==> (s[i] as int) < 0x80
    ensures ByteLength(s) == |s|
  {
    if |s| > 0 {
      assert forall i :: 0 <= i < |s[1..]| ==> (s[1..][i] as int) < 0x80 by {
        forall i | 0 <= i < |s[1..]| ensures (s[1..][i] as int) < 0x80 {
          assert s[1..][i] == s[i + 1];
        }
      }
      AsciiByteLength(s[1..]);
    }
  }

  /** `n` copies of one character take `n` times its width. */
  lemma {:induction false} RepeatedByteLength(n: nat, c: char)
    ensures ByteLength(seq(n, _ => c)) == n * Utf8Width(c)
  {
    if n > 0 {
      assert seq(n, _ => c)[1..] == seq(n - 1, _ => c);
      RepeatedByteLength(n - 1, c);
    }
  }

  const MaxNameBytes := 32
  const EmptyCode := "Friend code cannot be empty"
  const CodeTooLong := "Friend code must be 32 characters or less"
  const BadUsername := "Username must be between 1 and 32 characters"

  /** The validation of `set_friend_code`: the trimmed code, non-empty and at most 32 bytes. */
  function CheckFriendCode(code: string): (r: Result<string>)
    ensures r.Ok? <==> Trim(code) != "" && ByteLength(Trim(code)) <= MaxNameBytes
    ensures r.Ok? ==> r.value == Trim(code)
    ensures Trim(code) == "" ==> r == Err(EmptyCode)
    ensures Trim(code) != "" && ByteLength(Trim(code)) > MaxNameBytes ==> r == Err(CodeTooLong)
  {
    var trimmed := Trim(code);
    if trimmed == "" then Err(EmptyCode)
    else if ByteLength(trimmed) > MaxNameBytes then Err(CodeTooLong)
    else Ok(trimmed)
  }

  /** An accepted code is accepted again unchanged: validation is idempotent. */
  lemma CheckFriendCodeIdempotent(code: string)
    requires CheckFriendCode(code).Ok?
    ensures CheckFriendCode(CheckFriendCode(code).value) == CheckFriendCode(code)
  {
    TrimIdempotent(code);
  }

  /** What `/auth/register` answers. */
  datatype Registration = Registration(id: string, friendCode: string, authToken: string, partnerId: Option<string>)

  /** `set_friend_code`: the saved profile. `register(url, code, username)` is the
      registration request; `newId` is the fresh uuid used when offline. */
  function SetFriendCode(f: UserFile, code: string, register: (string, string, string) -> Result<Registration>, newId: string): (r: Result<LocalUserData>)
    ensures r.Ok? <==> CheckFriendCode(code).Ok?
    ensures r.Err? ==> r == Err(CheckFriendCode(code).error)
    ensures r.Ok? ==> r.value.username == UserOrDefault(f).username
    ensures r.Ok? ==> r.value.serverUrl == UserOrDefault(f).serverUrl && r.value.lastSync == UserOrDefault(f).lastSync
    ensures r.Ok? ==> r.value.id.Some? && r.value.friendCode.Some?
    ensures r.Ok? && register(ServerUrl(f), Trim(code), UserOrDefault(f).username.GetOr("User")).Ok? ==>
      (var reg := register(ServerUrl(f), Trim(code), UserOrDefault(f).username.GetOr("User")).value;
       && r.value.id == Some(reg.id)
       && r.value.friendCode == Some(reg.friendCode)
       && r.value.authToken == Some(reg.authToken)
       && r.value.partnerId == reg.partnerId)
    ensures r.Ok? && register(ServerUrl(f), Trim(code), UserOrDefault(f).username.GetOr("User")).Err? ==>
      (&& r.value.friendCode == Some(Trim(code))
       && r.value.id == (if UserOrDefault(f).id.Some? then UserOrDefault(f).id else Some(newId))
       && r.value.authToken == UserOrDefault(f).authToken
       && r.value.partnerId == UserOrDefault(f).partnerId)
  {
    var trimmed :- CheckFriendCode(code);
    var user := UserOrDefault(f);
    match register(ServerUrl(f), trimmed, user.username.GetOr("User"))
    case Ok(reg) =>
      Ok(user.(id := Some(reg.id), friendCode := Some(reg.friendCode), authToken := Some(reg.authToken), partnerId := reg.partnerId))
    case Err(_) =>
      Ok(user.(friendCode := Some(trimmed), id := if user.id.Some? then user.id else Some(newId)))
  }

  /** `set_username`: the saved profile. The name is not trimmed and its limit is in bytes;
      the server update it may send is not waited on, so its outcome does not matter. */
  function SetUsername(f: UserFile, username: string, newId: string): (r: Result<LocalUserData>)
    ensures r.Err? <==> username == "" || ByteLength(username) > MaxNameBytes
    ensures r.Err? ==> r.error == BadUsername
    ensures r.Ok? ==> r.value.username == Some(username) && r.value.id.Some?
    ensures r.Ok? && UserOrDefault(f).id.Some? ==> r.value.id == UserOrDefault(f).id
    ensures r.Ok? ==> r.value.(username := UserOrDefault(f).username, id := UserOrDefault(f).id) == UserOrDefault(f)
  {
    if username == "" || ByteLength(username) > MaxNameBytes then Err(BadUsername)
    else
      var user := UserOrDefault(f);
      Ok(user.(username := Some(username), id := if user.id.Some? then user.id else Some(newId)))
  }

  /** The username limit counts bytes although its message speaks of characters: eleven
      copies of a three-byte character are rejected, and a name of blanks is accepted. */
  lemma UsernameLimitInBytes(f: UserFile, newId: string)
    ensures SetUsername(f, seq(11, _ => '中'), newId).Err?
    ensures SetUsername(f, "   ", newId).Ok?
  {
    RepeatedByteLength(11, '中');
  }

  /** The k-th character of the code alphabet "A".."Z" then "0".."9". */
  function CodeChar(k: nat): (c: char)
    requires k < 36
    ensures 'A' <= c <= 'Z' || '0' <= c <= '9'
  {
    if k < 26 then (('A' as int) + k) as char else (('0' as int) + k - 26) as char
  }

  /** `generate_code`: "ATLAS-" and six characters of the alphabet; the six random draws
      (indices below 36) are passed in. */
  function GenerateCode(picks: seq<nat>): (r: string)
    requires |picks| == 6 && forall i :: 0 <= i < 6 ==> picks[i] < 36
    ensures |r| == 12 && r[..6] == "ATLAS-"
    ensures forall i :: 6 <= i < 12 ==> r[i] == CodeChar(picks[i - 6])
  {
    "ATLAS-" + seq(6, i requires 0 <= i < 6 => CodeChar(picks[i]))
  }

  /** A generated code passes the friend-code validation unchanged. */
  lemma GeneratedCodeValid(picks: seq<nat>)
    requires |picks| == 6 && forall i :: 0 <= i < 6 ==> picks[i] < 36
    ensures CheckFriendCode(GenerateCode(picks)) == Ok(GenerateCode(picks))
  {
    var r := GenerateCode(picks);
    assert r[0] == r[..6][0] == 'A';
    assert r[11] == CodeChar(picks[5]);
    TrimUnchanged(r);
    forall i | 0 <= i < |r| ensures (r[i] as int) < 0x80 {
      if i < 6 {
        assert r[i] == r[..6][i];
      } else {
        assert r[i] == CodeChar(picks[i - 6]);
      }
    }
    AsciiByteLength(r);
  }

  // ---------------------------------------------------------------- friends

  predicate IsPartner(f: FriendWithDetails) { f.friend.relationshipType == Partner }

  /** No entry before index `i` is a partner. */
  predicate NoPartnerBefore(fs: seq<FriendWithDetails>, i: nat)
  {
    forall j :: 0 <= j < i && j < |fs| ==> !IsPartner(fs[j])
  }

  /** `get_partner` on a list: the first partner entry. */
  function FirstPartner(fs: seq<FriendWithDetails>): (r: Option<FriendWithDetails>)
    ensures r.None? <==> forall i :: 0 <= i < |fs| ==> !IsPartner(fs[i])
    ensures r.Some? ==> IsPartner(r.value) && r.value in fs
    ensures r.Some? ==> exists i :: 0 <= i < |fs| && fs[i] == r.value && NoPartnerBefore(fs, i)
  {
    if |fs| == 0 then None
    else if IsPartner(fs[0]) then
      assert fs[0] == fs[0] && NoPartnerBefore(fs, 0);
      Some(fs[0])
    else
      var r := FirstPartner(fs[1..]);
      assert r.Some? ==> exists i :: 0 <= i < |fs| && fs[i] == r.value && NoPartnerBefore(fs, i) by {
        if r.Some? {
          var i :| 0 <= i < |fs[1..]| && fs[1..][i] == r.value && NoPartnerBefore(fs[1..], i);
          assert fs[i + 1] == r.value;
          assert NoPartnerBefore(fs, i + 1) by {
            forall j | 0 <= j < i + 1 && j < |fs| ensures !IsPartner(fs[j]) {
              if j > 0 { assert fs[j] == fs[1..][j - 1]; }
            }
          }
        }
      }
      r
  }

  /** `get_partner`. */
  function GetPartner(ff: Store<FriendWithDetails>): (r: Result<Option<FriendWithDetails>>)
    ensures r.Ok? <==> Read(ff).Ok?
    ensures r.Ok? ==> r.value == FirstPartner(Read(ff).value)
  {
    var fs :- Read(ff);
    Ok(FirstPartner(fs))
  }

  /** How many partner entries a list holds. */
  function PartnerCount(fs: seq<FriendWithDetails>): (r: nat)
    ensures r <= |fs|
  {
    if |fs| == 0 then 0 else (if IsPartner(fs[0]) then 1 else 0) + PartnerCount(fs[1..])
  }

  lemma {:induction false} PartnerCountAppend(fs: seq<FriendWithDetails>, f: FriendWithDetails)
    ensures PartnerCount(fs + [f]) == PartnerCount(fs) + (if IsPartner(f) then 1 else 0)
  {
    if |fs| > 0 {
      assert (fs + [f])[1..] == fs[1..] + [f];
      PartnerCountAppend(fs[1..], f);
    }
  }

  /** No partner found exactly when none is counted. */
  lemma {:induction false} PartnerCountZero(fs: seq<FriendWithDetails>)
    ensures PartnerCount(fs) == 0 <==> FirstPartner(fs).None?
  {
    if |fs| > 0 {
      PartnerCountZero(fs[1..]);
    }
  }

  const NotSetUp := "Local user not set up"
  const HasPartner := "You already have a partner. Remove them first to add a new one."

  /** The checks both add commands make first; the local user id on success. */
  function CheckCanAdd(uf: UserFile, ff: Store<FriendWithDetails>, rel: RelationshipType): (r: Result<string>)
    ensures r.Ok? ==> GetLocalUser(uf).Ok? && GetLocalUser(uf).value.id == Some(r.value)
    ensures GetLocalUser(uf).Ok? && GetLocalUser(uf).value.id.None? ==> r == Err(NotSetUp)
    ensures r.Ok? && rel == Partner ==> Read(ff).Ok? && FirstPartner(Read(ff).value).None?
    ensures (&& GetLocalUser(uf).Ok? && GetLocalUser(uf).value.id.Some? && rel == Partner && Read(ff).Ok?
             && FirstPartner(Read(ff).value).Some?) ==> r == Err(HasPartner)
    ensures GetLocalUser(uf).Ok? && GetLocalUser(uf).value.id.Some? && rel == Friend ==> r.Ok?
  {
    var user :- GetLocalUser(uf);
    if user.id.None? then Err(NotSetUp)
    else if rel == Partner then
      var partner :- GetPartner(ff);
      if partner.Some? then Err(HasPartner) else Ok(user.id.value)
    else Ok(user.id.value)
  }

  /** `Presence::new`: offline, nothing else known. */
  function NewPresence(userId: string, now: nat): (r: Presence)
    ensures r.userId == userId && r.status == Offline && r.lastUpdated == now && r.lastSeen == now
    ensures r.currentGame.None? && r.gameStartTime.None? && r.moodMessage.None?
  {
    Presence(userId, Offline, None, None, None, now, now)
  }

  /** The entry both add commands append. */
  function NewFriend(localId: string, friendUserId: string, code: string, username: string, rel: RelationshipType, id: string, now: nat): (r: FriendWithDetails)
    ensures r.friend.id == id && r.friend.userId == localId && r.friend.friendUserId == friendUserId
    ensures r.friend.relationshipType == rel && r.friend.nickname.None?
    ensures r.user.id == friendUserId && r.user.friendCode == code && r.user.username == username
    ensures r.presence == Some(NewPresence(friendUserId, now))
  {
    FriendWithDetails(
      Friendship(id, localId, friendUserId, rel, None, now),
      User(friendUserId, code, username, None, None, now),
      Some(NewPresence(friendUserId, now)))
  }

  /** A new entry and the friends list written with it. */
  datatype Added = Added(friend: FriendWithDetails, friends: seq<FriendWithDetails>)

  /** `add_friend_locally`: appended to the cached list (an unreadable list counts as empty). */
  function AddFriendLocally(uf: UserFile, ff: Store<FriendWithDetails>, userId: string, username: string,
                            rel: RelationshipType, id: string, now: nat, picks: seq<nat>): (r: Result<Added>)
    requires |picks| == 6 && forall i :: 0 <= i < 6 ==> picks[i] < 36
    ensures r.Ok? <==> CheckCanAdd(uf, ff, rel).Ok?
    ensures r.Err? ==> r.error == CheckCanAdd(uf, ff, rel).error
    ensures r.Ok? ==> r.value.friends == ReadOrEmpty(ff) + [r.value.friend]
    ensures r.Ok? ==> r.value.friend == NewFriend(CheckCanAdd(uf, ff, rel).value, userId, GenerateCode(picks), username, rel, id, now)
  {
    var localId :- CheckCanAdd(uf, ff, rel);
    var f := NewFriend(localId, userId, GenerateCode(picks), username, rel, id, now);
    Ok(Added(f, ReadOrEmpty(ff) + [f]))
  }

  /** `ValidateResponse`: whether the code is known, and its owner. */
  datatype ValidatedUser = ValidatedUser(id: string, username: string)
  datatype ValidateResponse = ValidateResponse(valid: bool, user: Option<ValidatedUser>)

  /** The ways the validation request can end. */
  datatype ValidateCall = Answered(response: Result<ValidateResponse>) | NotFound | CallFailed(message: string)

  /** `validate_friend_code`: a 404 means an unknown code, not an error. */
  function ValidateFriendCode(c: ValidateCall): (r: Result<ValidateResponse>)
    ensures c.NotFound? ==> r == Ok(ValidateResponse(false, None))
    ensures c.CallFailed? ==> r == Err("Failed to validate code: " + c.message)
    ensures c.Answered? ==> r == c.response
  {
    match c
    case Answered(resp) => resp
    case NotFound => Ok(ValidateResponse(false, None))
    case CallFailed(m) => Err("Failed to validate code: " + m)
  }

  const CodeNotFound := "Friend code not found. Make sure your partner has registered first."

  /** An added entry, the list written with it, and the profile when the partner link rewrote it. */
  datatype AddedByCode = AddedByCode(friend: FriendWithDetails, friends: seq<FriendWithDetails>, user: Option<LocalUserData>)

  /** `add_friend_by_code`: the code must be known to the server; a partner is also linked
      on the server when a token is held, and `linked` is whether that request succeeded. */
  function AddFriendByCode(uf: UserFile, ff: Store<FriendWithDetails>, code: string, rel: RelationshipType,
                           validation: ValidateCall, linked: bool, id: string, now: nat): (r: Result<AddedByCode>)
    ensures r.Ok? ==> CheckCanAdd(uf, ff, rel).Ok?
    ensures CheckCanAdd(uf, ff, rel).Err? ==> r == Err(CheckCanAdd(uf, ff, rel).error)
    ensures CheckCanAdd(uf, ff, rel).Ok? && ValidateFriendCode(validation).Err? ==>
      r == Err("Could not validate friend code: " + ValidateFriendCode(validation).error)
    ensures (&& CheckCanAdd(uf, ff, rel).Ok? && ValidateFriendCode(validation).Ok?
             && !(ValidateFriendCode(validation).value.valid && ValidateFriendCode(validation).value.user.Some?)) ==>
      r == Err(CodeNotFound)
    ensures r.Ok? ==>
      (var v := ValidateFriendCode(validation).value.user.value;
       && r.value.friend == NewFriend(CheckCanAdd(uf, ff, rel).value, v.id, code, v.username, rel, id, now)
       && r.value.friends == ReadOrEmpty(ff) + [r.value.friend])
    ensures r.Ok? ==> (r.value.user.Some? <==> rel == Partner && GetLocalUser(uf).value.authToken.Some? && linked)
    ensures r.Ok? && r.value.user.Some? ==>
      r.value.user.value == GetLocalUser(uf).value.(partnerId := Some(r.value.friend.user.id))
  {
    var localId :- CheckCanAdd(uf, ff, rel);
    match ValidateFriendCode(validation)
    case Err(e) => Err("Could not validate friend code: " + e)
    case Ok(v) =>
      if !(v.valid && v.user.Some?) then Err(CodeNotFound)
      else
        var owner := v.user.value;
        var local := GetLocalUser(uf).value;
        var user := if rel == Partner && local.authToken.Some? && linked
                    then Some(local.(partnerId := Some(owner.id))) else None;
        var f := NewFriend(localId, owner.id, code, owner.username, rel, id, now);
        Ok(AddedByCode(f, ReadOrEmpty(ff) + [f], user))
  }

  /** Adding keeps at most one partner in a readable list, and a partner just added is the
      one `get_partner` finds. */
  lemma AddKeepsOnePartner(uf: UserFile, ff: Store<FriendWithDetails>, userId: string, username: string,
                           rel: RelationshipType, id: string, now: nat, picks: seq<nat>)
    requires |picks| == 6 && forall i :: 0 <= i < 6 ==> picks[i] < 36
    requires PartnerCount(ReadOrEmpty(ff)) <= 1
    requires AddFriendLocally(uf, ff, userId, username, rel, id, now, picks).Ok?
    ensures PartnerCount(AddFriendLocally(uf, ff, userId, username, rel, id, now, picks).value.friends) <= 1
    ensures rel == Partner ==>
      FirstPartner(AddFriendLocally(uf, ff, userId, username, rel, id, now, picks).value.friends)
        == Some(AddFriendLocally(uf, ff, userId, username, rel, id, now, picks).value.friend)
  {
    var a := AddFriendLocally(uf, ff, userId, username, rel, id, now, picks).value;
    PartnerCountAppend(ReadOrEmpty(ff), a.friend);
    if rel == Partner {
      PartnerCountZero(ReadOrEmpty(ff));
      FirstPartnerAppend(ReadOrEmpty(ff), a.friend);
    }
  }

  /** Behind a list with no partner, an appended partner is the first one. */
  lemma {:induction false} FirstPartnerAppend(fs: seq<FriendWithDetails>, f: FriendWithDetails)
    requires FirstPartner(fs).None? && IsPartner(f)
    ensures FirstPartner(fs + [f]) == Some(f)
  {
    if |fs| > 0 {
      assert (fs + [f])[1..] == fs[1..] + [f];
      FirstPartnerAppend(fs[1..], f);
    }
  }

  /** A friend added while the friends list cannot be read replaces the whole list. */
  lemma UnreadableListReplaced(uf: UserFile, ff: Store<FriendWithDetails>, userId: string, username: string,
                               id: string, now: nat, picks: seq<nat>)
    requires |picks| == 6 && forall i :: 0 <= i < 6 ==> picks[i] < 36
    requires Read(ff).Err? && GetLocalUser(uf).Ok? && GetLocalUser(uf).value.id.Some?
    ensures AddFriendLocally(uf, ff, userId, username, Friend, id, now, picks).Ok?
    ensures AddFriendLocally(uf, ff, userId, username, Friend, id, now, picks).value.friends
      == [AddFriendLocally(uf, ff, userId, username, Friend, id, now, picks).value.friend]
  {
  }

  /** `remove_friend`: every entry with that id is dropped, the others keep their order. */
  function RemoveFriend(ff: Store<FriendWithDetails>, friendId: string): (r: Result<seq<FriendWithDetails>>)
    ensures r.Ok? <==> Read(ff).Ok?
    ensures r.Ok? ==> forall i :: 0 <= i < |r.value| ==> r.value[i].friend.id != friendId && r.value[i] in Read(ff).value
    ensures r.Ok? ==> forall i :: 0 <= i < |Read(ff).value| && Read(ff).value[i].friend.id != friendId ==>
      Read(ff).value[i] in r.value
  {
    var fs :- Read(ff);
    Ok(Retain(fs, (f: FriendWithDetails) => f.friend.id != friendId))
  }

  /** Retaining twice with the same test is retaining once. */
  lemma RetainIdempotent<T>(xs: seq<T>, keep: T -> bool)
    ensures Retain(Retain(xs, keep), keep) == Retain(xs, keep)
  {
    RetainAll(Retain(xs, keep), keep);
  }

  /** Removing a friend twice is removing it once. */
  lemma RemoveFriendIdempotent(ff: Store<FriendWithDetails>, friendId: string)
    requires RemoveFriend(ff, friendId).Ok?
    ensures RemoveFriend(Some(RemoveFriend(ff, friendId)), friendId) == RemoveFriend(ff, friendId)
  {
    RetainIdempotent(Read(ff).value, (f: FriendWithDetails) => f.friend.id != friendId);
  }

  const FriendNotFound := "Friend not found"

  /** `update_friend_nickname`: the first entry with the id gets the nickname. */
  function UpdateFriendNickname(ff: Store<FriendWithDetails>, friendId: string, nickname: Option<string>): (r: Result<seq<FriendWithDetails>>)
    ensures r.Ok? ==> Read(ff).Ok? && HasKey(Read(ff).value, FriendId, friendId)
    ensures Read(ff).Ok? && !HasKey(Read(ff).value, FriendId, friendId) ==> r == Err(FriendNotFound)
    ensures r.Ok? ==>
      (var fs := Read(ff).value;
       var i := IndexOf(fs, FriendId, friendId).value;
       && |r.value| == |fs|
       && r.value[i].friend.nickname == nickname
       && r.value[i].friend.(nickname := fs[i].friend.nickname) == fs[i].friend
       && r.value[i].user == fs[i].user && r.value[i].presence == fs[i].presence
       && forall j :: 0 <= j < |fs| && j != i ==> r.value[j] == fs[j])
  {
    var fs :- Read(ff);
    HasKeyIndex(fs, FriendId, friendId);
    match IndexOf(fs, FriendId, friendId)
    case None => Err(FriendNotFound)
    case Some(i) => Ok(fs[i := fs[i].(friend := fs[i].friend.(nickname := nickname))])
  }

  // ---------------------------------------------------------------- presence

  const NoUser := "User not set up"

  /** The local user id, as the presence, memory, message and wishlist commands need it. */
  function LocalId(uf: UserFile): (r: Result<string>)
    ensures r.Ok? <==> GetLocalUser(uf).Ok? && GetLocalUser(uf).value.id.Some?
    ensures r.Ok? ==> Some(r.value) == GetLocalUser(uf).value.id
    ensures GetLocalUser(uf).Ok? && GetLocalUser(uf).value.id.None? ==> r == Err(NoUser)
  {
    var user :- GetLocalUser(uf);
    if user.id.None? then Err(NoUser) else Ok(user.id.value)
  }

  /** `get_local_presence`: a fresh offline presence for the local user. */
  function GetLocalPresence(uf: UserFile, now: nat): (r: Result<Presence>)
    ensures r.Ok? <==> LocalId(uf).Ok?
    ensures r.Ok? ==> r.value == NewPresence(LocalId(uf).value, now)
  {
    var id :- LocalId(uf);
    Ok(NewPresence(id, now))
  }

  /** `update_presence`: the presence announced locally; an absent status means offline. */
  function UpdatePresenceOf(uf: UserFile, status: Option<PresenceStatus>, currentGame: Option<string>,
                            moodMessage: Option<string>, now: nat): (r: Result<Presence>)
    ensures r.Ok? <==> LocalId(uf).Ok?
    ensures r.Ok? ==> r.value.userId == LocalId(uf).value && r.value.status == status.GetOr(Offline)
    ensures r.Ok? ==> r.value.currentGame == currentGame && r.value.moodMessage == moodMessage
    ensures r.Ok? ==> r.value.lastUpdated == now && r.value.gameStartTime.None?
  {
    var id :- LocalId(uf);
    Ok(NewPresence(id, now).(status := status.GetOr(Offline), currentGame := currentGame, moodMessage := moodMessage))
  }

  /** `get_partner_presence`: the cached presence of the partner, if any. */
  function GetPartnerPresence(ff: Store<FriendWithDetails>): (r: Result<Option<Presence>>)
    ensures r.Ok? <==> Read(ff).Ok?
    ensures r.Ok? && FirstPartner(Read(ff).value).None? ==> r.value.None?
    ensures r.Ok? && FirstPartner(Read(ff).value).Some? ==> r.value == FirstPartner(Read(ff).value).value.presence
  {
    var p :- GetPartner(ff);
    if p.None? then Ok(None) else Ok(p.value.presence)
  }

  // ---------------------------------------------------------------- memories, calendar, wishlist

  /** A new record and the store written with it. */
  datatype Created<T> = Created(item: T, all: seq<T>)

  const NoPartner := "No partner set"

  /** The local user and partner ids that memories, events and messages are filed under. */
  function Couple(uf: UserFile, ff: Store<FriendWithDetails>): (r: Result<(string, string)>)
    ensures r.Ok? <==> LocalId(uf).Ok? && Read(ff).Ok? && FirstPartner(Read(ff).value).Some?
    ensures r.Ok? ==> r.value.0 == LocalId(uf).value && r.value.1 == FirstPartner(Read(ff).value).value.user.id
    ensures LocalId(uf).Ok? && Read(ff).Ok? && FirstPartner(Read(ff).value).None? ==> r == Err(NoPartner)
  {
    var userId :- LocalId(uf);
    var partner :- GetPartner(ff);
    if partner.None? then Err(NoPartner) else Ok((userId, partner.value.user.id))
  }

  datatype MemoryRequest = MemoryRequest(memoryType: MemoryType, contentText: Option<string>, caption: Option<string>, targetDate: Option<nat>)

  /** `create_memory`: filed under the couple and appended to the memories store. */
  function CreateMemoryOf(uf: UserFile, ff: Store<FriendWithDetails>, mf: Store<Memory>, req: MemoryRequest, id: string, now: nat): (r: Result<Created<Memory>>)
    ensures r.Ok? <==> Couple(uf, ff).Ok?
    ensures r.Ok? ==> r.value.all == ReadOrEmpty(mf) + [r.value.item]
    ensures r.Ok? ==> r.value.item.userId == Couple(uf, ff).value.0 && r.value.item.partnerId == Couple(uf, ff).value.1
    ensures r.Ok? ==> r.value.item.id == id && r.value.item.memoryType == req.memoryType && r.value.item.contentUrl.None?
    ensures r.Ok? ==> r.value.item.contentText == req.contentText && r.value.item.caption == req.caption && r.value.item.targetDate == req.targetDate
  {
    var c :- Couple(uf, ff);
    var m := Memory(id, c.0, c.1, req.memoryType, None, req.contentText, req.caption, req.targetDate, now);
    Ok(Created(m, ReadOrEmpty(mf) + [m]))
  }

  predicate IsCountdown(m: Memory) { m.memoryType == Countdown }

  /** `get_countdowns`: the countdown memories in store order. */
  function GetCountdowns(mf: Store<Memory>): (r: Result<seq<Memory>>)
    ensures r.Ok? <==> Read(mf).Ok?
    ensures r.Ok? ==> forall i :: 0 <= i < |r.value| ==> IsCountdown(r.value[i]) && r.value[i] in Read(mf).value
    ensures r.Ok? ==> forall i :: 0 <= i < |Read(mf).value| && IsCountdown(Read(mf).value[i]) ==> Read(mf).value[i] in r.value
  {
    var ms :- Read(mf);
    Ok(Retain(ms, IsCountdown))
  }

  /** `create_countdown` is `create_memory` of a countdown titled in its text, and the new
      countdown is listed by `get_countdowns` afterwards. */
  lemma CountdownListed(uf: UserFile, ff: Store<FriendWithDetails>, mf: Store<Memory>, title: string, target: nat, id: string, now: nat)
    requires CreateMemoryOf(uf, ff, mf, MemoryRequest(Countdown, Some(title), None, Some(target)), id, now).Ok?
    ensures var c := CreateMemoryOf(uf, ff, mf, MemoryRequest(Countdown, Some(title), None, Some(target)), id, now).value;
      && c.item.contentText == Some(title) && c.item.targetDate == Some(target)
      && c.item in GetCountdowns(Some(Ok(c.all))).value
  {
    var c := CreateMemoryOf(uf, ff, mf, MemoryRequest(Countdown, Some(title), None, Some(target)), id, now).value;
    assert c.all[|c.all| - 1] == c.item;
  }

  /** `delete_memory`: drops every memory with that id. */
  function DeleteMemoryOf(mf: Store<Memory>, memoryId: string): (r: Result<seq<Memory>>)
    ensures r.Ok? <==> Read(mf).Ok?
    ensures r.Ok? ==> forall i :: 0 <= i < |r.value| ==> r.value[i].id != memoryId && r.value[i] in Read(mf).value
    ensures r.Ok? ==> forall i :: 0 <= i < |Read(mf).value| && Read(mf).value[i].id != memoryId ==> Read(mf).value[i] in r.value
  {
    var ms :- Read(mf);
    Ok(Retain(ms, (m: Memory) => m.id != memoryId))
  }

  datatype EventRequest = EventRequest(
    title: string,
    description: Option<string>,
    datetime: nat,
    timezone: string,
    reminderMinutes: Option<nat>,
    isRecurring: bool,
    recurrencePattern: Option<string>)

  /** `create_calendar_event`: every field comes from the request, including an absent reminder,
      which replaces the constructor's default of 30 minutes. */
  function CreateCalendarEventOf(uf: UserFile, ff: Store<FriendWithDetails>, ef: Store<CalendarEvent>, req: EventRequest, id: string, now: nat): (r: Result<Created<CalendarEvent>>)
    ensures r.Ok? <==> Couple(uf, ff).Ok?
    ensures r.Ok? ==> r.value.all == ReadOrEmpty(ef) + [r.value.item]
    ensures r.Ok? ==> r.value.item.userId == Couple(uf, ff).value.0 && r.value.item.partnerId == Couple(uf, ff).value.1
    ensures r.Ok? ==> r.value.item.id == id && r.value.item.title == req.title && r.value.item.datetime == req.datetime
    ensures r.Ok? ==> r.value.item.reminderMinutes == req.reminderMinutes && r.value.item.isRecurring == req.isRecurring
  {
    var c :- Couple(uf, ff);
    var e := CalendarEvent(id, c.0, c.1, req.title, req.description, req.datetime, req.timezone,
                           req.reminderMinutes, req.isRecurring, req.recurrencePattern, now);
    Ok(Created(e, ReadOrEmpty(ef) + [e]))
  }

  const EventNotFound := "Event not found"

  /** `update_calendar_event`: the first event with the same id is replaced. */
  function UpdateCalendarEventOf(ef: Store<CalendarEvent>, e: CalendarEvent): (r: Result<seq<CalendarEvent>>)
    ensures r.Ok? <==> Read(ef).Ok? && HasKey(Read(ef).value, EventId, e.id)
    ensures Read(ef).Ok? && !HasKey(Read(ef).value, EventId, e.id) ==> r == Err(EventNotFound)
    ensures r.Ok? ==> |r.value| == |Read(ef).value| && e in r.value
    ensures r.Ok? ==> forall j :: 0 <= j < |Read(ef).value| && Read(ef).value[j].id != e.id ==> r.value[j] == Read(ef).value[j]
    ensures r.Ok? ==> var i := IndexOf(Read(ef).value, EventId, e.id).value;
      && r.value[i] == e
      && (forall j :: 0 <= j < |Read(ef).value| && j != i ==> r.value[j] == Read(ef).value[j])
  {
    var es :- Read(ef);
    HasKeyIndex(es, EventId, e.id);
    if !HasKey(es, EventId, e.id) then Err(EventNotFound) else Ok(ReplaceFirst(es, EventId, e))
  }

  /** `delete_calendar_event`: drops every event with that id. */
  function DeleteCalendarEventOf(ef: Store<CalendarEvent>, eventId: string): (r: Result<seq<CalendarEvent>>)
    ensures r.Ok? <==> Read(ef).Ok?
    ensures r.Ok? ==> forall i :: 0 <= i < |r.value| ==> r.value[i].id != eventId && r.value[i] in Read(ef).value
    ensures r.Ok? ==> forall i :: 0 <= i < |Read(ef).value| && Read(ef).value[i].id != eventId ==> Read(ef).value[i] in r.value
  {
    var es :- Read(ef);
    Ok(Retain(es, (e: CalendarEvent) => e.id != eventId))
  }

  /** Seven days in milliseconds. */
  const WeekMs := 7 * 24 * 60 * 60 * 1000

  predicate WithinWeek(e: CalendarEvent, now: nat) { now <= e.datetime <= now + WeekMs }

  /** `get_upcoming_events`: the events from now to a week ahead, both ends included. */
  function UpcomingEvents(ef: Store<CalendarEvent>, now: nat): (r: Result<seq<CalendarEvent>>)
    ensures r.Ok? <==> Read(ef).Ok?
    ensures r.Ok? ==> forall i :: 0 <= i < |r.value| ==> WithinWeek(r.value[i], now) && r.value[i] in Read(ef).value
    ensures r.Ok? ==> forall i :: 0 <= i < |Read(ef).value| && WithinWeek(Read(ef).value[i], now) ==> Read(ef).value[i] in r.value
  {
    var es :- Read(ef);
    Ok(Retain(es, (e: CalendarEvent) => WithinWeek(e, now)))
  }

  /** An event is upcoming exactly when it is stored and falls within the week. */
  lemma UpcomingIff(ef: Store<CalendarEvent>, now: nat, e: CalendarEvent)
    requires Read(ef).Ok?
    ensures e in UpcomingEvents(ef, now).value <==> e in Read(ef).value && now <= e.datetime <= now + 604800000
  {
    var r := UpcomingEvents(ef, now).value;
    if e in r {
      var i :| 0 <= i < |r| && r[i] == e;
    }
    if e in Read(ef).value && WithinWeek(e, now) {
      var i :| 0 <= i < |Read(ef).value| && Read(ef).value[i] == e;
    }
  }

  /** `add_wishlist_item`: appended under the local user. */
  function AddWishlistItem(uf: UserFile, wf: Store<WishlistItem>, game: string, itemName: string, itemType: string,
                           priority: nat, id: string, now: nat): (r: Result<Created<WishlistItem>>)
    requires priority < 0x100
    ensures r.Ok? <==> LocalId(uf).Ok?
    ensures r.Ok? ==> r.value.all == ReadOrEmpty(wf) + [r.value.item]
    ensures r.Ok? ==> r.value.item == WishlistItem(id, LocalId(uf).value, game, itemName, itemType, priority, now)
  {
    var userId :- LocalId(uf);
    var w := WishlistItem(id, userId, game, itemName, itemType, priority, now);
    Ok(Created(w, ReadOrEmpty(wf) + [w]))
  }

  /** `remove_wishlist_item`: drops every item with that id. */
  function RemoveWishlistItem(wf: Store<WishlistItem>, itemId: string): (r: Result<seq<WishlistItem>>)
    ensures r.Ok? <==> Read(wf).Ok?
    ensures r.Ok? ==> forall i :: 0 <= i < |r.value| ==> r.value[i].id != itemId && r.value[i] in Read(wf).value
    ensures r.Ok? ==> forall i :: 0 <= i < |Read(wf).value| && Read(wf).value[i].id != itemId ==> Read(wf).value[i] in r.value
  {
    var ws :- Read(wf);
    Ok(Retain(ws, (w: WishlistItem) => w.id != itemId))
  }

  // ---------------------------------------------------------------- messages

  const U32 := 0x1_0000_0000
  const Usize := 0x1_0000_0000_0000_0000

  /** `skip(n)`. */
  function Skip<T>(xs: seq<T>, n: nat): (r: seq<T>)
    ensures n <= |xs| ==> r == xs[n..]
    ensures n > |xs| ==> r == []
  {
    if n <= |xs| then xs[n..] else []
  }

  /** `take(n)`. */
  function Take<T>(xs: seq<T>, n: nat): (r: seq<T>)
    ensures n <= |xs| ==> r == xs[..n]
    ensures n > |xs| ==> r == xs
  {
    if n <= |xs| then xs[..n] else xs
  }

  function Min(a: nat, b: nat): nat { if a <= b then a else b }

  /** The page of `get_messages` as written: `offset + limit` wraps in `u32` and
      `end - start` wraps in `usize` (a release build; a debug build panics instead). */
  function Page(ms: seq<Message>, limit: nat, offset: nat): (r: seq<Message>)
    requires limit < U32 && offset < U32
  {
    var end := (offset + limit) % U32;
    Take(Skip(ms, offset), (end - offset) % Usize)
  }

  /** Despite both wrap-arounds, a page is the window `[offset, offset + limit)` of the
      messages, cut at the end of the list, for any list shorter than 2^32. */
  lemma PageIsWindow(ms: seq<Message>, limit: nat, offset: nat)
    requires limit < U32 && offset < U32 && |ms| < U32
    ensures Page(ms, limit, offset) == ms[Min(offset, |ms|)..Min(offset + limit, |ms|)]
  {
    var s := Skip(ms, offset);
    if offset + limit < U32 {
      assert (offset + limit) % U32 == offset + limit;
      assert (offset + limit - offset) % Usize == limit;
    } else {
      assert (offset + limit) % U32 == offset + limit - U32;
      var d := offset + limit - U32 - offset;
      assert d % Usize == d + Usize;
      assert d + Usize > |s|;
    }
  }

  lemma PageWindowWhenSmall(ms: seq<Message>, limit: nat, offset: nat)
    requires limit < U32 && offset < U32
    ensures |ms| < U32 ==> Page(ms, limit, offset) == ms[Min(offset, |ms|)..Min(offset + limit, |ms|)]
  {
    if |ms| < U32 {
      PageIsWindow(ms, limit, offset);
    }
  }

  /** `get_messages`. */
  function GetMessages(mf: Store<Message>, limit: nat, offset: nat): (r: Result<seq<Message>>)
    requires limit < U32 && offset < U32
    ensures r.Ok? <==> Read(mf).Ok?
    ensures r.Ok? && |Read(mf).value| < U32 ==> |r.value| <= limit
    ensures r.Ok? && |Read(mf).value| < U32 ==>
      r.value == Read(mf).value[Min(offset, |Read(mf).value|)..Min(offset + limit, |Read(mf).value|)]
  {
    var ms :- Read(mf);
    PageWindowWhenSmall(ms, limit, offset);
    Ok(Page(ms, limit, offset))
  }

  const CacheLimit := 1000

  /** `get_messages(1000, 0).unwrap_or_default()`: the first thousand cached messages. */
  function CachedMessages(mf: Store<Message>): (r: seq<Message>)
    ensures |r| <= CacheLimit
    ensures Read(mf).Ok? ==> r == Read(mf).value[..Min(CacheLimit, |Read(mf).value|)]
    ensures Read(mf).Err? ==> r == []
  {
    match GetMessages(mf, CacheLimit, 0)
    case Ok(ms) => ms
    case Err(_) => []
  }

  /** A sent message and the cache written with it, and whether it joined the offline queue. */
  datatype Sent = Sent(message: Message, cache: seq<Message>, queued: bool)

  /** `send_message` as written: the cache is read through its first thousand entries and the
      new message appended. `delivered` is whether the server accepted it; without a token or
      without delivery the message is queued for later. */
  function SendMessageOf(uf: UserFile, ff: Store<FriendWithDetails>, mf: Store<Message>, content: string,
                         delivered: bool, id: string, now: nat): (r: Result<Sent>)
    ensures r.Ok? <==> Couple(uf, ff).Ok?
    ensures r.Ok? ==> r.value.cache == CachedMessages(mf) + [r.value.message]
    ensures r.Ok? ==> r.value.message == Message(id, Couple(uf, ff).value.0, Couple(uf, ff).value.1, content, now, None)
    ensures r.Ok? ==> (r.value.queued <==> GetLocalUser(uf).value.authToken.None? || !delivered)
  {
    var c :- Couple(uf, ff);
    var m := Message(id, c.0, c.1, content, now, None);
    var token := GetLocalUser(uf).value.authToken;
    Ok(Sent(m, CachedMessages(mf) + [m], token.None? || !delivered))
  }

  /** Once the cache holds a thousand messages, each send overwrites the previous one: the
      second of two sends leaves the first message out of the cache. */
  lemma SendDropsPreviousSend(uf: UserFile, ff: Store<FriendWithDetails>, mf: Store<Message>,
                              c1: string, c2: string, d1: bool, d2: bool, id1: string, id2: string, t1: nat, t2: nat)
    requires Read(mf).Ok? && |Read(mf).value| >= CacheLimit
    requires Couple(uf, ff).Ok?
    ensures var s1 := SendMessageOf(uf, ff, mf, c1, d1, id1, t1).value;
      var s2 := SendMessageOf(uf, ff, Some(Ok(s1.cache)), c2, d2, id2, t2).value;
      && |s1.cache| == CacheLimit + 1
      && s2.cache == CachedMessages(mf) + [s2.message]
      && (s1.message !in CachedMessages(mf) && id1 != id2 ==> s1.message !in s2.cache)
  {
    var s1 := SendMessageOf(uf, ff, mf, c1, d1, id1, t1).value;
    assert s1.cache[..CacheLimit] == CachedMessages(mf);
  }

  /** The newest thousand of a list. */
  function Newest(ms: seq<Message>): (r: seq<Message>)
    ensures |r| == Min(|ms|, CacheLimit)
    ensures r == ms[|ms| - |r|..]
  {
    if |ms| <= CacheLimit then ms else ms[|ms| - CacheLimit..]
  }

  /** `send_message` keeping the newest thousand messages of the whole cache. */
  function SendMessageNewest(uf: UserFile, ff: Store<FriendWithDetails>, mf: Store<Message>, content: string,
                             delivered: bool, id: string, now: nat): (r: Result<Sent>)
    ensures r.Ok? <==> Couple(uf, ff).Ok?
    ensures r.Ok? ==> 1 <= |r.value.cache| <= CacheLimit && r.value.cache[|r.value.cache| - 1] == r.value.message
    ensures r.Ok? ==> r.value.message == Message(id, Couple(uf, ff).value.0, Couple(uf, ff).value.1, content, now, None)
    ensures r.Ok? ==> (r.value.queued <==> GetLocalUser(uf).value.authToken.None? || !delivered)
  {
    var c :- Couple(uf, ff);
    var m := Message(id, c.0, c.1, content, now, None);
    var token := GetLocalUser(uf).value.authToken;
    Ok(Sent(m, Newest(ReadOrEmpty(mf) + [m]), token.None? || !delivered))
  }

  /** With the newest messages kept, two sends leave both messages in the cache, in order. */
  lemma NewestKeepsBothSends(uf: UserFile, ff: Store<FriendWithDetails>, mf: Store<Message>,
                             c1: string, c2: string, d1: bool, d2: bool, id1: string, id2: string, t1: nat, t2: nat)
    requires Couple(uf, ff).Ok?
    ensures var s1 := SendMessageNewest(uf, ff, mf, c1, d1, id1, t1).value;
      var s2 := SendMessageNewest(uf, ff, Some(Ok(s1.cache)), c2, d2, id2, t2).value;
      && |s2.cache| >= 2
      && s2.cache[|s2.cache| - 2] == s1.message && s2.cache[|s2.cache| - 1] == s2.message
  {
    var s1 := SendMessageNewest(uf, ff, mf, c1, d1, id1, t1).value;
    var s2 := SendMessageNewest(uf, ff, Some(Ok(s1.cache)), c2, d2, id2, t2).value;
    var all := s1.cache + [s2.message];
    assert |s1.cache| >= 1;
    assert s2.cache == Newest(all);
    assert all[|all| - 2] == s1.message;
  }

  /** The read-marking of `mark_messages_read` on one list. */
  function MarkRead(ms: seq<Message>, ids: seq<string>, now: nat): (r: seq<Message>)
    ensures |r| == |ms|
    ensures forall i :: 0 <= i < |ms| ==> r[i].(readAt := ms[i].readAt) == ms[i]
    ensures forall i :: 0 <= i < |ms| && ms[i].id in ids ==> r[i].readAt.Some?
    ensures forall i :: 0 <= i < |ms| && (ms[i].id !in ids || ms[i].readAt.Some?) ==> r[i] == ms[i]
  {
    seq(|ms|, i requires 0 <= i < |ms| =>
      if ms[i].id in ids && ms[i].readAt.None? then ms[i].(readAt := Some(now)) else ms[i])
  }

  /** `mark_messages_read`: the written cache (only its first thousand messages survive). */
  function MarkMessagesRead(mf: Store<Message>, ids: seq<string>, now: nat): (r: seq<Message>)
    ensures r == MarkRead(CachedMessages(mf), ids, now)
  {
    MarkRead(CachedMessages(mf), ids, now)
  }

  /** Marking again changes nothing: a read time, once set, is kept. */
  lemma MarkReadIdempotent(ms: seq<Message>, ids: seq<string>, t1: nat, t2: nat)
    ensures MarkRead(MarkRead(ms, ids, t1), ids, t2) == MarkRead(ms, ids, t1)
  {
  }

  /** How many messages to `userId` are unread. */
  function Unread(ms: seq<Message>, userId: string): (r: nat)
    ensures r <= |ms|
  {
    if |ms| == 0 then 0
    else (if ms[0].receiverId == userId && ms[0].readAt.None? then 1 else 0) + Unread(ms[1..], userId)
  }

  /** `get_unread_message_count`. */
  function UnreadCount(uf: UserFile, mf: Store<Message>): (r: Result<nat>)
    ensures r.Ok? <==> LocalId(uf).Ok?
    ensures r.Ok? ==> r.value == Unread(CachedMessages(mf), LocalId(uf).value)
  {
    var id :- LocalId(uf);
    Ok(Unread(CachedMessages(mf), id))
  }

  /** Marking never raises the unread count, and marking every message clears it. */
  lemma {:induction false} MarkReadLowersUnread(ms: seq<Message>, ids: seq<string>, now: nat, userId: string)
    ensures Unread(MarkRead(ms, ids, now), userId) <= Unread(ms, userId)
    ensures (forall i :: 0 <= i < |ms| ==> ms[i].id in ids) ==> Unread(MarkRead(ms, ids, now), userId) == 0
  {
    if |ms| > 0 {
      assert MarkRead(ms, ids, now)[1..] == MarkRead(ms[1..], ids, now);
      MarkReadLowersUnread(ms[1..], ids, now, userId);
      if forall i :: 0 <= i < |ms| ==> ms[i].id in ids {
        assert forall i :: 0 <= i < |ms[1..]| ==> ms[1..][i].id in ids by {
          forall i | 0 <= i < |ms[1..]| ensures ms[1..][i].id in ids {
            assert ms[1..][i] == ms[i + 1];
          }
        }
      }
    }
  }

  // ---------------------------------------------------------------- sync

  /** The sync merge of messages and memories: each incoming record whose id is not yet
      present is appended, in arrival order. */
  function MergeNew<T>(acc: seq<T>, incoming: seq<T>, key: T -> string): (r: seq<T>)
    ensures |r| >= |acc| && r[..|acc|] == acc
    ensures forall i :: |acc| <= i < |r| ==> r[i] in incoming
    ensures forall i :: 0 <= i < |incoming| ==> HasKey(r, key, key(incoming[i]))
    ensures UniqueKeys(acc, key) ==> UniqueKeys(r, key)
    decreases |incoming|
  {
    if |incoming| == 0 then acc
    else
      var x := incoming[0];
      var next := if HasKey(acc, key, key(x)) then acc else acc + [x];
      assert HasKey(next, key, key(x)) by {
        if !HasKey(acc, key, key(x)) { assert next[|acc|] == x; }
      }
      var r := MergeNew(next, incoming[1..], key);
      assert r[..|acc|] == acc by { assert r[..|next|] == next; }
      assert HasKey(r, key, key(x)) by {
        var j :| 0 <= j < |next| && key(next[j]) == key(x);
        assert r[j] == next[j];
      }
      assert forall i :: 0 <= i < |incoming| ==> HasKey(r, key, key(incoming[i])) by {
        forall i | 0 <= i < |incoming| ensures HasKey(r, key, key(incoming[i])) {
          if i > 0 { assert incoming[i] == incoming[1..][i - 1]; }
        }
      }
      assert forall i :: |acc| <= i < |r| ==> r[i] in incoming by {
        forall i | |acc| <= i < |r| ensures r[i] in incoming {
          if i >= |next| { assert r[i] in incoming[1..]; }
          else { assert r[i] == next[i] == x; }
        }
      }
      assert UniqueKeys(acc, key) ==> UniqueKeys(next, key) by {
        if UniqueKeys(acc, key) && !HasKey(acc, key, key(x)) {
          forall a, b | 0 <= a < b < |next| ensures key(next[a]) != key(next[b]) {
            if b == |acc| { assert next[a] == acc[a]; }
          }
        }
      }
      r
  }

  /** When every incoming id is already present, merging adds nothing. */
  lemma {:induction false} MergeNewPresent<T>(acc: seq<T>, incoming: seq<T>, key: T -> string)
    requires forall i :: 0 <= i < |incoming| ==> HasKey(acc, key, key(incoming[i]))
    ensures MergeNew(acc, incoming, key) == acc
    decreases |incoming|
  {
    if |incoming| > 0 {
      assert forall i :: 0 <= i < |incoming[1..]| ==> HasKey(acc, key, key(incoming[1..][i])) by {
        forall i | 0 <= i < |incoming[1..]| ensures HasKey(acc, key, key(incoming[1..][i])) {
          assert incoming[1..][i] == incoming[i + 1];
        }
      }
      MergeNewPresent(acc, incoming[1..], key);
    }
  }

  /** Receiving the same records twice stores them once. */
  lemma MergeNewIdempotent<T>(acc: seq<T>, incoming: seq<T>, key: T -> string)
    ensures MergeNew(MergeNew(acc, incoming, key), incoming, key) == MergeNew(acc, incoming, key)
  {
    MergeNewPresent(MergeNew(acc, incoming, key), incoming, key);
  }

  /** The sync merge of calendar events: each incoming event replaces the first with its id,
      or is appended. */
  function UpsertAll<T>(acc: seq<T>, incoming: seq<T>, key: T -> string): (r: seq<T>)
    ensures |r| >= |acc|
    ensures forall i :: 0 <= i < |incoming| ==> HasKey(r, key, key(incoming[i]))
    ensures |incoming| > 0 ==> incoming[|incoming| - 1] in r
    ensures UniqueKeys(acc, key) ==> UniqueKeys(r, key)
    ensures forall j :: 0 <= j < |acc| && (forall i :: 0 <= i < |incoming| ==> key(incoming[i]) != key(acc[j])) ==> r[j] == acc[j]
    decreases |incoming|
  {
    if |incoming| == 0 then acc
    else
      var last := incoming[|incoming| - 1];
      var init := incoming[..|incoming| - 1];
      var front := UpsertAll(acc, init, key);
      UpsertProperties(front, key, last);
      var r := Upsert(front, key, last);
      assert forall i :: 0 <= i < |incoming| ==> HasKey(r, key, key(incoming[i])) by {
        forall i | 0 <= i < |incoming| ensures HasKey(r, key, key(incoming[i])) {
          if i == |incoming| - 1 {
            var j :| 0 <= j < |r| && r[j] == last;
          } else {
            assert incoming[i] == init[i];
            var j :| 0 <= j < |front| && key(front[j]) == key(incoming[i]);
            if key(front[j]) != key(last) { assert r[j] == front[j]; }
            else { var k :| 0 <= k < |r| && r[k] == last; }
          }
        }
      }
      assert forall j :: 0 <= j < |acc| && (forall i :: 0 <= i < |incoming| ==> key(incoming[i]) != key(acc[j])) ==> r[j] == acc[j] by {
        forall j | 0 <= j < |acc| && (forall i :: 0 <= i < |incoming| ==> key(incoming[i]) != key(acc[j]))
          ensures r[j] == acc[j]
        {
          assert forall i :: 0 <= i < |init| ==> key(init[i]) != key(acc[j]) by {
            forall i | 0 <= i < |init| ensures key(init[i]) != key(acc[j]) {
              assert init[i] == incoming[i];
            }
          }
          assert front[j] == acc[j];
        }
      }
      r
  }

  /** The presence as the server reports it; its status is free text. */
  datatype ServerPresence = ServerPresence(userId: string, status: string, currentGame: Option<string>, moodMessage: Option<string>, lastUpdated: nat)

  /** The status names the presence enumeration is written with. */
  function StatusName(s: PresenceStatus): string
  {
    match s
    case Online => "online"
    case Away => "away"
    case InGame => "in_game"
    case Offline => "offline"
  }

  /** The status mapping of `sync_now`; any unknown text means offline. */
  function StatusOf(s: string): (r: PresenceStatus)
    ensures r == Online <==> s == "online"
    ensures r == Away <==> s == "away"
    ensures r == InGame <==> s == "in_game"
  {
    if s == "online" then Online
    else if s == "away" then Away
    else if s == "in_game" then InGame
    else Offline
  }

  /** Reading a status back from its name gives the same status. */
  lemma StatusRoundTrip(s: PresenceStatus)
    ensures StatusOf(StatusName(s)) == s
  {
  }

  function FriendUserId(f: FriendWithDetails): string { f.user.id }

  /** The cached presence update of `sync_now`: the first friend whose user id matches gets
      the reported presence; without a match the list is not written (`None`). */
  function UpdatePartnerPresence(fs: seq<FriendWithDetails>, p: ServerPresence): (r: Option<seq<FriendWithDetails>>)
    ensures r.Some? <==> HasKey(fs, FriendUserId, p.userId)
    ensures r.Some? ==>
      (var i := IndexOf(fs, FriendUserId, p.userId).value;
       && |r.value| == |fs|
       && r.value[i].presence == Some(Presence(p.userId, StatusOf(p.status), p.currentGame, None, p.moodMessage, p.lastUpdated, p.lastUpdated))
       && r.value[i].friend == fs[i].friend && r.value[i].user == fs[i].user
       && forall j :: 0 <= j < |fs| && j != i ==> r.value[j] == fs[j])
  {
    HasKeyIndex(fs, FriendUserId, p.userId);
    match IndexOf(fs, FriendUserId, p.userId)
    case None => None
    case Some(i) =>
      var pr := Presence(p.userId, StatusOf(p.status), p.currentGame, None, p.moodMessage, p.lastUpdated, p.lastUpdated);
      Some(fs[i := fs[i].(presence := Some(pr))])
  }

  /** What `/sync/poll` answers. */
  datatype SyncPoll = SyncPoll(
    timestamp: nat,
    messages: seq<Message>,
    pokes: nat,
    presence: Option<ServerPresence>,
    memories: seq<Memory>,
    events: seq<CalendarEvent>,
    hasNewData: bool)

  datatype FriendsSyncResult = FriendsSyncResult(
    success: bool,
    timestamp: nat,
    hasNewData: bool,
    newMessagesCount: nat,
    newPokesCount: nat,
    error: Option<string>)

  /** The reply of `sync_now` and each store it writes (`None`: left untouched). */
  datatype SyncOutcome = SyncOutcome(
    result: FriendsSyncResult,
    user: Option<LocalUserData>,
    messages: Option<seq<Message>>,
    friends: Option<seq<FriendWithDetails>>,
    memories: Option<seq<Memory>>,
    events: Option<seq<CalendarEvent>>)

  const NotRegistered := "Not registered with server"

  /** `sync_now`. `lastSync` is the in-memory sync mark; `poll` the server's answer. */
  function SyncNow(uf: UserFile, ff: Store<FriendWithDetails>, mf: Store<Message>, memf: Store<Memory>,
                   ef: Store<CalendarEvent>, lastSync: nat, poll: Result<SyncPoll>): (r: Result<SyncOutcome>)
    ensures r.Ok? <==> GetLocalUser(uf).Ok? && GetLocalUser(uf).value.authToken.Some?
    ensures GetLocalUser(uf).Ok? && GetLocalUser(uf).value.authToken.None? ==> r == Err(NotRegistered)
    ensures r.Ok? && poll.Err? ==>
      && r.value.result == FriendsSyncResult(false, lastSync, false, 0, 0, Some(poll.error))
      && r.value.user.None? && r.value.messages.None? && r.value.friends.None?
      && r.value.memories.None? && r.value.events.None?
    ensures r.Ok? && poll.Ok? ==>
      && r.value.result.success && r.value.result.timestamp == poll.value.timestamp
      && r.value.result.newMessagesCount == |poll.value.messages|
      && r.value.user == Some(GetLocalUser(uf).value.(lastSync := poll.value.timestamp))
    ensures r.Ok? && poll.Ok? ==> (r.value.messages.Some? <==> poll.value.messages != [])
    ensures r.Ok? && poll.Ok? && poll.value.messages != [] ==>
      && |r.value.messages.value| >= |CachedMessages(mf)|
      && r.value.messages.value[..|CachedMessages(mf)|] == CachedMessages(mf)
      && forall i :: 0 <= i < |poll.value.messages| ==> HasKey(r.value.messages.value, MessageId, poll.value.messages[i].id)
    ensures r.Ok? && poll.Ok? && poll.value.memories != [] ==>
      (&& r.value.memories.Some?
       && forall i :: 0 <= i < |poll.value.memories| ==> HasKey(r.value.memories.value, MemoryId, poll.value.memories[i].id))
    ensures r.Ok? && poll.Ok? && poll.value.events != [] ==>
      (&& r.value.events.Some?
       && forall i :: 0 <= i < |poll.value.events| ==> HasKey(r.value.events.value, EventId, poll.value.events[i].id))
  {
    var user :- GetLocalUser(uf);
    if user.authToken.None? then Err(NotRegistered)
    else match poll
      case Err(e) =>
        Ok(SyncOutcome(FriendsSyncResult(false, lastSync, false, 0, 0, Some(e)), None, None, None, None, None))
      case Ok(p) =>
        var messages := if p.messages == [] then None else Some(MergeNew(CachedMessages(mf), p.messages, MessageId));
        var friends := if p.presence.None? || Read(ff).Err? then None else UpdatePartnerPresence(Read(ff).value, p.presence.value);
        var memories := if p.memories == [] then None else Some(MergeNew(ReadOrEmpty(memf), p.memories, MemoryId));
        var events := if p.events == [] then None else Some(UpsertAll(ReadOrEmpty(ef), p.events, EventId));
        Ok(SyncOutcome(FriendsSyncResult(true, p.timestamp, p.hasNewData, |p.messages|, p.pokes, None),
                       Some(user.(lastSync := p.timestamp)), messages, friends, memories, events))
  }

  // ---------------------------------------------------------------- offline queue and connection

  /** `queue_offline_action`: the action joins the end of the queue. */
  function QueueOfflineAction(queue: seq<OfflineAction>, t: OfflineActionType, payload: string, id: string, now: nat): (r: seq<OfflineAction>)
    ensures |r| == |queue| + 1 && r[..|queue|] == queue
    ensures r[|queue|] == OfflineAction(id, t, payload, now)
  {
    queue + [OfflineAction(id, t, payload, now)]
  }

  /** The action types the queue processor sends; the others count as done. */
  predicate Implemented(a: OfflineAction) { a.actionType == SendMessage || a.actionType == SendPoke }

  /** The queue left in memory and what is written to the queue file (`None`: not written). */
  datatype QueueOutcome = QueueOutcome(queue: seq<OfflineAction>, persisted: Option<seq<OfflineAction>>)

  /** `process_offline_queue`: the queue is taken; without a readable profile holding a token
      it is dropped, otherwise the sends that fail (`delivered` false) are queued again in
      their original order and saved. */
  function ProcessOfflineQueue(queue: seq<OfflineAction>, uf: UserFile, delivered: OfflineAction -> bool): (r: QueueOutcome)
    ensures |r.queue| <= |queue|
    ensures r.persisted.Some? ==> r.persisted.value == r.queue
    ensures r.persisted.Some? <==> queue != [] && GetLocalUser(uf).Ok? && GetLocalUser(uf).value.authToken.Some?
    ensures forall i :: 0 <= i < |r.queue| ==> r.queue[i] in queue && Implemented(r.queue[i]) && !delivered(r.queue[i])
    ensures r.persisted.Some? ==> forall i :: 0 <= i < |queue| && Implemented(queue[i]) && !delivered(queue[i]) ==> queue[i] in r.queue
  {
    if queue == [] then QueueOutcome([], None)
    else if GetLocalUser(uf).Err? || GetLocalUser(uf).value.authToken.None? then QueueOutcome([], None)
    else
      var failed := Retain(queue, (a: OfflineAction) => Implemented(a) && !delivered(a));
      QueueOutcome(failed, Some(failed))
  }

  /** Processing the re-queued actions again, with the same failures, leaves them as they are. */
  lemma ProcessAgainStable(queue: seq<OfflineAction>, uf: UserFile, delivered: OfflineAction -> bool)
    requires ProcessOfflineQueue(queue, uf, delivered).persisted.Some?
    ensures ProcessOfflineQueue(ProcessOfflineQueue(queue, uf, delivered).queue, uf, delivered).queue
      == ProcessOfflineQueue(queue, uf, delivered).queue
  {
    RetainIdempotent(queue, (a: OfflineAction) => Implemented(a) && !delivered(a));
  }

  /** The names `get_friends_connection_status` reports. */
  function ConnectionStatusName(s: ConnectionState): string
  {
    match s
    case Connected => "connected"
    case Connecting => "connecting"
    case Disconnected => "disconnected"
    case Error => "error"
  }

  /** `is_friends_connected` agrees with the status name, and the names tell states apart. */
  lemma ConnectionNames(a: ConnectionState, b: ConnectionState)
    ensures ConnectionStatusName(a) == "connected" <==> a == Connected
    ensures ConnectionStatusName(a) == ConnectionStatusName(b) ==> a == b
  {
  }

  /** The connection state, sync mark and offline queue after `connect_to_server`. */
  datatype Connection = Connection(state: ConnectionState, lastSync: Option<nat>, queue: QueueOutcome, error: Option<string>)

  const NeedsCode := "Not registered with server. Set your friend code first."

  /** `connect_to_server`: needs a token; the probe of `/sync/state` (`probe`, its timestamp)
      decides between connected, which also runs the offline queue, and the error state.
      A failure before the probe leaves the state and the queue as they were. */
  function ConnectToServer(uf: UserFile, state: ConnectionState, queue: seq<OfflineAction>,
                           probe: Result<nat>, delivered: OfflineAction -> bool): (r: Connection)
    ensures r.error.None? <==> GetLocalUser(uf).Ok? && GetLocalUser(uf).value.authToken.Some? && probe.Ok?
    ensures GetLocalUser(uf).Ok? && GetLocalUser(uf).value.authToken.None? ==>
      r == Connection(state, None, QueueOutcome(queue, None), Some(NeedsCode))
    ensures r.error.None? ==> r.state == Connected
    ensures r.error.None? ==> r.lastSync == Some(probe.value) && r.queue == ProcessOfflineQueue(queue, uf, delivered)
    ensures GetLocalUser(uf).Ok? && GetLocalUser(uf).value.authToken.Some? && probe.Err? ==>
      r == Connection(Error, None, QueueOutcome(queue, None), Some(probe.error))
  {
    match GetLocalUser(uf)
    case Err(e) => Connection(state, None, QueueOutcome(queue, None), Some(e))
    case Ok(user) =>
      if user.authToken.None? then Connection(state, None, QueueOutcome(queue, None), Some(NeedsCode))
      else match probe
        case Err(e) => Connection(Error, None, QueueOutcome(queue, None), Some(e))
        case Ok(t) => Connection(Connected, Some(t), ProcessOfflineQueue(queue, uf, delivered), None)
  }
}

=== FILE: gacha_commands.dfy ===
/** The gacha commands: the cached list of installed gacha games, game detection,
    the web-cache lookup, the account list, reading, refreshing and deleting a
    history, and UIGF v4.0 export and import.

    The history files form a store keyed by game and uid; a key that is present
    is a file that exists, holding `None` when it cannot be read. Detected
    installations, directory listings and file existence are parameters. */
module GachaCommands {
  import opened Wrappers
  import opened Numeric
  import opened Strings
  import opened Sorting
  import opened GachaModels

  // ---------------------------------------------------------------- the cached game list

  const CACHE_VERSION: nat := 2
  const CACHE_VALIDITY_HOURS: nat := 24

  datatype DetectedGachaGame = DetectedGachaGame(
    game: GachaGame,
    installPath: string,
    cacheExists: bool,
    iconPath: Option<string>)

  datatype GachaGamesCache = GachaGamesCache(version: nat, games: seq<DetectedGachaGame>, timestamp: nat)

  /** The cached list is used when its version is current and its age, `now - timestamp`
      in whole hours on `u64` seconds, is under 24. The subtraction wraps when the
      timestamp is later than `now`. */
  predicate CacheUsable(c: GachaGamesCache, now: nat)
    requires IsU64(c.timestamp) && IsU64(now)
  {
    c.version == CACHE_VERSION && WrappingSubU64(now, c.timestamp) / 3600 < CACHE_VALIDITY_HOURS
  }

  /** For a timestamp not after `now`, the cache is used exactly when it is current and
      less than 86400 seconds old. A timestamp in the future wraps to a huge age, so
      that cache is refreshed, unless it lies within a day of the wrap-around point. */
  lemma CacheUsableIff(c: GachaGamesCache, now: nat)
    requires IsU64(c.timestamp) && IsU64(now)
    ensures c.timestamp <= now ==> (CacheUsable(c, now) <==> c.version == 2 && now - c.timestamp < 86400)
    ensures now < c.timestamp <= now + U64_MODULUS - 86400 ==> !CacheUsable(c, now)
  {
  }

  /** `get_gacha_supported_games`: the cached list when usable, else a fresh detection. */
  function SupportedGames(cache: Option<GachaGamesCache>, now: nat, detected: seq<DetectedGachaGame>): (r: seq<DetectedGachaGame>)
    requires IsU64(now) && (cache.Some? ==> IsU64(cache.value.timestamp))
    ensures cache.Some? && cache.value.version != CACHE_VERSION ==> r == detected
    ensures cache.None? ==> r == detected
  {
    if cache.Some? && CacheUsable(cache.value, now) then cache.value.games else detected
  }

  // ---------------------------------------------------------------- detection

  /** An installation reported by the launcher scan. */
  datatype InstalledGame = InstalledGame(name: string, installPath: string, iconPath: Option<string>)

  /** The launcher's game names that have gacha history. The launcher calls Star Rail
      "Star Rail", not its display name. */
  function GachaGameOf(name: string): (r: Option<GachaGame>)
    ensures r.Some? <==> name in {"Genshin Impact", "Star Rail", "Zenless Zone Zero"}
    ensures r == Some(Genshin) ==> name == DisplayName(Genshin)
    ensures r == Some(Zzz) ==> name == DisplayName(Zzz)
  {
    if name == "Genshin Impact" then Some(Genshin)
    else if name == "Star Rail" then Some(StarRail)
    else if name == "Zenless Zone Zero" then Some(Zzz)
    else None
  }

  /** The installations with a gacha game, in scan order. `cacheExists` tells whether the
      game's web cache is found under the install path. */
  function Candidates(installed: seq<InstalledGame>, cacheExists: (string, GachaGame) -> bool): (r: seq<DetectedGachaGame>)
    ensures |r| <= |installed|
    decreases |installed|
  {
    if |installed| == 0 then []
    else
      var g := installed[0];
      var head := match GachaGameOf(g.name)
        case Some(game) => [DetectedGachaGame(game, g.installPath, cacheExists(g.installPath, game), g.iconPath)]
        case None => [];
      head + Candidates(installed[1..], cacheExists)
  }

  function GameKey(d: DetectedGachaGame): int { Discriminant(d.game) }

  /** `detect_gacha_games_internal`: the candidates sorted by game, then one per game. */
  function DetectGachaGames(installed: seq<InstalledGame>, cacheExists: (string, GachaGame) -> bool): seq<DetectedGachaGame>
  {
    DedupBy(SortBy(Candidates(installed, cacheExists), KeyLe(GameKey)), SameKey(GameKey))
  }

  /** The candidates of one game, in scan order. */
  function OfGame(ds: seq<DetectedGachaGame>, g: GachaGame): (r: seq<DetectedGachaGame>)
    decreases |ds|
  {
    if |ds| == 0 then [] else (if ds[0].game == g then [ds[0]] else []) + OfGame(ds[1..], g)
  }

  lemma {:induction false} TiesAreOfGame(ds: seq<DetectedGachaGame>, v: DetectedGachaGame)
    ensures Ties(ds, KeyLe(GameKey), v) == OfGame(ds, v.game)
    decreases |ds|
  {
    if |ds| > 0 {
      TiesAreOfGame(ds[1..], v);
      GameKeysDistinct(ds[0].game, v.game);
      assert KeyLe(GameKey)(ds[0], v) <==> GameKey(ds[0]) <= GameKey(v);
      assert KeyLe(GameKey)(v, ds[0]) <==> GameKey(v) <= GameKey(ds[0]);
      assert GameKey(ds[0]) == GameKey(v) <==> ds[0].game == v.game;
    }
  }

  /** Detection yields games in strictly increasing declaration order, so at most one
      entry per game. */
  lemma DetectOrdered(installed: seq<InstalledGame>, cacheExists: (string, GachaGame) -> bool)
    ensures var r := DetectGachaGames(installed, cacheExists);
      forall i, j :: 0 <= i < j < |r| ==> Discriminant(r[i].game) < Discriminant(r[j].game)
  {
    var c := Candidates(installed, cacheExists);
    var le, same := KeyLe(GameKey), SameKey(GameKey);
    var sorted := SortBy(c, le);
    var r := DedupBy(sorted, same);
    KeyOrders(GameKey);
    SortBySorted(c, le);
    DedupSorted(sorted, same, le);
    DedupNeighbours(sorted, same);
    forall i, j | 0 <= i < j < |r|
      ensures Discriminant(r[i].game) < Discriminant(r[j].game)
    {
      StrictKeys(r, i, j);
    }
  }

  /** The entry kept for a game is that game's first installation in scan order. */
  lemma DetectKeepsFirst(installed: seq<InstalledGame>, cacheExists: (string, GachaGame) -> bool, i: nat)
    requires i < |DetectGachaGames(installed, cacheExists)|
    ensures var r := DetectGachaGames(installed, cacheExists);
      var c := Candidates(installed, cacheExists);
      |OfGame(c, r[i].game)| > 0 && r[i] == OfGame(c, r[i].game)[0]
  {
    var c := Candidates(installed, cacheExists);
    var le, same := KeyLe(GameKey), SameKey(GameKey);
    var sorted := SortBy(c, le);
    var r := DedupBy(sorted, same);
    KeyOrders(GameKey);
    SortBySorted(c, le);
    DedupSortedFirst(sorted, same, le, i);
    SortByStable(c, le, r[i]);
    TiesAreOfGame(c, r[i]);
    TiesAreOfGame(sorted, r[i]);
  }

  /** Every game found by the scan is in the result. */
  lemma DetectKeepsEveryGame(installed: seq<InstalledGame>, cacheExists: (string, GachaGame) -> bool, d: DetectedGachaGame)
    requires d in Candidates(installed, cacheExists)
    ensures var r := DetectGachaGames(installed, cacheExists);
      exists i :: 0 <= i < |r| && r[i].game == d.game
  {
    var c := Candidates(installed, cacheExists);
    var le, same := KeyLe(GameKey), SameKey(GameKey);
    var sorted := SortBy(c, le);
    var r := DedupBy(sorted, same);
    SameKeyProps(GameKey);
    SortByMembers(c, le, d);
    var k :| 0 <= k < |sorted| && sorted[k] == d;
    DedupCovers(sorted, same, k);
    var i :| 0 <= i < |r| && same(r[i], sorted[k]);
    assert same(r[i], sorted[k]) <==> GameKey(r[i]) == GameKey(sorted[k]);
    GameKeysDistinct(r[i].game, d.game);
    assert r == DetectGachaGames(installed, cacheExists);
    assert r[i].game == d.game;
  }

  /** Sorted by game with no neighbours of the same game: the games strictly increase. */
  lemma {:induction false} StrictKeys(r: seq<DetectedGachaGame>, i: nat, j: nat)
    requires SortedBy(r, KeyLe(GameKey)) && NoSameNeighbours(r, SameKey(GameKey))
    requires i < j < |r|
    ensures GameKey(r[i]) < GameKey(r[j])
    decreases j - i
  {
    assert GameKey(r[j - 1]) != GameKey(r[j]);
    assert KeyLe(GameKey)(r[j - 1], r[j]);
    if i < j - 1 {
      StrictKeys(r, i, j - 1);
    }
  }

  // ---------------------------------------------------------------- web cache lookup

  const U32_MAX: nat := 0xFFFF_FFFF

  /** The numeric dot-separated parts of a directory name; parts that are not a `u32`
      are dropped. */
  function ParseVersion(name: string): seq<nat>
  {
    NumericParts(Split(name, '.'))
  }

  function NumericParts(parts: seq<string>): (r: seq<nat>)
    ensures |r| <= |parts|
    decreases |parts|
  {
    if |parts| == 0 then []
    else
      match ParseUnsigned(parts[0], U32_MAX)
      case Some(v) => [v] + NumericParts(parts[1..])
      case None => NumericParts(parts[1..])
  }

  /** Newest version first. */
  function VersionDesc(): (string, string) -> bool
  {
    (a: string, b: string) => NatsLe(ParseVersion(b), ParseVersion(a))
  }

  lemma VersionDescOrder()
    ensures Total(VersionDesc()) && Transitive(VersionDesc())
  {
    forall a: string, b: string
      ensures VersionDesc()(a, b) || VersionDesc()(b, a)
    {
      NatsLeTotal(ParseVersion(a), ParseVersion(b));
    }
    forall a: string, b: string, c: string | VersionDesc()(a, b) && VersionDesc()(b, c)
      ensures VersionDesc()(a, c)
    {
      NatsLeTrans(ParseVersion(c), ParseVersion(b), ParseVersion(a));
    }
  }

  /** Where the web cache was found. */
  datatype CacheLocation = Direct | VersionDir(name: string)

  /** The first directory in the list holding a cache file. */
  function FirstCached(dirs: seq<string>, hasCache: string -> bool): (r: Option<nat>)
    ensures r.Some? ==> r.value < |dirs| && hasCache(dirs[r.value])
    ensures r.Some? ==> forall k :: 0 <= k < r.value ==> !hasCache(dirs[k])
    ensures r.None? <==> forall k :: 0 <= k < |dirs| ==> !hasCache(dirs[k])
    decreases |dirs|
  {
    if |dirs| == 0 then None
    else if hasCache(dirs[0]) then Some(0)
    else match FirstCached(dirs[1..], hasCache)
      case Some(k) => Some(k + 1)
      case None => None
  }

  /** `find_cache_path`: the direct cache path first; otherwise, when the `webCaches`
      directory exists, the version directories newest first, taking the first one
      whose cache file exists. */
  function FindCachePath(directExists: bool, webCachesExists: bool, versionDirs: seq<string>,
                         hasCache: string -> bool): (r: Option<CacheLocation>)
    ensures directExists ==> r == Some(Direct)
    ensures !directExists && !webCachesExists ==> r.None?
    ensures r.Some? && r.value.VersionDir? ==> r.value.name in versionDirs && hasCache(r.value.name)
  {
    if directExists then Some(Direct)
    else if !webCachesExists then None
    else
      var sorted := SortBy(versionDirs, VersionDesc());
      match FirstCached(sorted, hasCache)
      case Some(k) =>
        SortByMembers(versionDirs, VersionDesc(), sorted[k]);
        Some(VersionDir(sorted[k]))
      case None => None
  }

  /** Without a direct cache, a version directory is found exactly when one holds a
      cache, and the one found has the highest version among those that do. */
  lemma FindCachePathNewest(webCachesExists: bool, versionDirs: seq<string>, hasCache: string -> bool)
    requires webCachesExists
    ensures var r := FindCachePath(false, webCachesExists, versionDirs, hasCache);
      && (r.Some? <==> exists d :: d in versionDirs && hasCache(d))
      && (r.Some? ==> r.value.VersionDir? && forall e :: e in versionDirs && hasCache(e) ==>
            NatsLe(ParseVersion(e), ParseVersion(r.value.name)))
  {
    var sorted := SortBy(versionDirs, VersionDesc());
    var r := FindCachePath(false, webCachesExists, versionDirs, hasCache);
    VersionDescOrder();
    SortBySorted(versionDirs, VersionDesc());
    if exists d :: d in versionDirs && hasCache(d) {
      var d :| d in versionDirs && hasCache(d);
      SortByMembers(versionDirs, VersionDesc(), d);
    }
    if r.Some? {
      var k := FirstCached(sorted, hasCache).value;
      forall e | e in versionDirs && hasCache(e)
        ensures NatsLe(ParseVersion(e), ParseVersion(sorted[k]))
      {
        SortByMembers(versionDirs, VersionDesc(), e);
        var m :| 0 <= m < |sorted| && sorted[m] == e;
        if m == k {
          NatsLeTotal(ParseVersion(e), ParseVersion(e));
        } else {
          assert m > k;
          assert VersionDesc()(sorted[k], sorted[m]);
        }
      }
    }
  }

  // ---------------------------------------------------------------- accounts and the store

  datatype GachaAccount = GachaAccount(
    game: GachaGame,
    uid: string,
    lastSync: nat,
    totalRecords: nat,
    region: Option<string>)

  function AccountOf(h: GachaHistory): (a: GachaAccount)
    ensures a.game == h.game && a.uid == h.uid && a.totalRecords == |h.records|
  {
    GachaAccount(h.game, h.uid, h.lastSync, |h.records|, h.region)
  }

  function SyncKey(a: GachaAccount): int { a.lastSync }

  /** `get_gacha_accounts`: one account per readable history file, most recently synced
      first. */
  function GetGachaAccounts(histories: seq<GachaHistory>): (r: seq<GachaAccount>)
    ensures |r| == |histories|
    ensures multiset(r) == multiset(seq(|histories|, i requires 0 <= i < |histories| => AccountOf(histories[i])))
    ensures forall i, j :: 0 <= i < j < |r| ==> r[i].lastSync >= r[j].lastSync
  {
    var accounts := seq(|histories|, i requires 0 <= i < |histories| => AccountOf(histories[i]));
    KeyOrders(SyncKey);
    SortBySorted(accounts, KeyGe(SyncKey));
    var r := SortBy(accounts, KeyGe(SyncKey));
    assert forall i, j :: 0 <= i < j < |r| ==> r[i].lastSync >= r[j].lastSync by {
      forall i, j | 0 <= i < j < |r|
        ensures r[i].lastSync >= r[j].lastSync
      {
        assert KeyGe(SyncKey)(r[i], r[j]);
        assert KeyGe(SyncKey)(r[i], r[j]) <==> SyncKey(r[i]) >= SyncKey(r[j]);
      }
    }
    r
  }

  /** The history files: present keys are files that exist, `None` an unreadable one. */
  type Store = map<(GachaGame, string), Option<GachaHistory>>

  /** `get_gacha_history`. */
  function GetGachaHistory(store: Store, game: GachaGame, uid: string): (r: Result<GachaHistory>)
    ensures r.Ok? <==> (game, uid) in store && store[(game, uid)].Some?
    ensures r.Ok? ==> r.value == store[(game, uid)].value
    ensures (game, uid) !in store ==> r == Err("No history found for " + DisplayName(game) + " UID " + uid)
  {
    if (game, uid) !in store then Err("No history found for " + DisplayName(game) + " UID " + uid)
    else match store[(game, uid)]
      case None => Err("Failed to read gacha history")
      case Some(h) => Ok(h)
  }

  /** `get_gacha_stats`: the statistics of the stored history. */
  function GetGachaStats(store: Store, game: GachaGame, uid: string): (r: Result<GachaStats>)
    ensures r.Ok? <==> GetGachaHistory(store, game, uid).Ok?
    ensures r.Ok? ==> r.value.totalPulls == |store[(game, uid)].value.records|
  {
    var h :- GetGachaHistory(store, game, uid);
    Ok(CalculateStats(h))
  }

  /** The stored history, or a new one when the file is missing or unreadable. */
  function LoadOrNew(store: Store, game: GachaGame, uid: string): (h: GachaHistory)
    ensures GetGachaHistory(store, game, uid).Err? ==> h == NewHistory(game, uid)
    ensures GetGachaHistory(store, game, uid).Ok? ==> h == GetGachaHistory(store, game, uid).value
  {
    if (game, uid) in store && store[(game, uid)].Some? then store[(game, uid)].value else NewHistory(game, uid)
  }

  /** The worker's answer: the account uid, the fetched records and maybe a region. */
  datatype WorkerResult = WorkerResult(uid: string, records: seq<GachaRecord>, region: Option<string>)

  /** `refresh_gacha_history` after the worker returns: the fetched records merged into
      the stored history, the region replaced only when the worker reports one, and the
      history written back. Returns the new store, the history and the count added. */
  function RefreshGachaHistory(store: Store, game: GachaGame, w: WorkerResult, now: nat): (r: (Store, GachaHistory, nat))
    ensures r.0 == store[(game, w.uid) := Some(r.1)]
    ensures r.1.region == if w.region.Some? then w.region else LoadOrNew(store, game, w.uid).region
    ensures r.1.lastSync == now
    ensures multiset(r.1.records) == multiset(LoadOrNew(store, game, w.uid).records)
      + multiset(NewRecords(Ids(LoadOrNew(store, game, w.uid).records), w.records))
  {
    var (merged, added) := Merge(LoadOrNew(store, game, w.uid), w.records, now);
    var h := if w.region.Some? then merged.(region := w.region) else merged;
    (store[(game, w.uid) := Some(h)], h, added)
  }

  /** `delete_gacha_history`: the file is removed if present; nothing else changes. */
  function DeleteGachaHistory(store: Store, game: GachaGame, uid: string): (r: Store)
    ensures (game, uid) !in r
    ensures forall k :: k in store && k != (game, uid) ==> k in r && r[k] == store[k]
    ensures forall k :: k in r ==> k in store
  {
    map k | k in store && k != (game, uid) :: store[k]
  }

  // ---------------------------------------------------------------- UIGF v4.0

  datatype UigfRecord = UigfRecord(
    id: string,
    gachaType: string,
    itemId: Option<string>,
    name: string,
    itemType: string,
    rankType: string,
    time: string)

  datatype UigfGameData = UigfGameData(uid: string, list: seq<UigfRecord>)

  datatype UigfInfo = UigfInfo(exportTimestamp: nat, exportApp: string, exportAppVersion: string, version: string)

  datatype UigfExport = UigfExport(
    info: UigfInfo,
    hk4e: Option<seq<UigfGameData>>,
    hkrpg: Option<seq<UigfGameData>>,
    nap: Option<seq<UigfGameData>>)

  /** A record without its uid. */
  function ToUigf(r: GachaRecord): UigfRecord
  {
    UigfRecord(r.id, r.gachaType, r.itemId, r.name, r.itemType, r.rankType, r.time)
  }

  /** An imported record, given the uid of the history it joins. */
  function FromUigf(r: UigfRecord, uid: string): GachaRecord
  {
    GachaRecord(r.id, uid, r.gachaType, r.itemId, r.name, r.itemType, r.rankType, r.time)
  }

  /** Exporting and importing a record under its own uid gives the record back. */
  lemma UigfRoundTrip(r: GachaRecord)
    ensures FromUigf(ToUigf(r), r.uid) == r
  {
  }

  function ToUigfList(records: seq<GachaRecord>): (r: seq<UigfRecord>)
    ensures |r| == |records| && forall i :: 0 <= i < |r| ==> r[i] == ToUigf(records[i])
  {
    seq(|records|, i requires 0 <= i < |records| => ToUigf(records[i]))
  }

  function FromUigfList(list: seq<UigfRecord>, uid: string): (r: seq<GachaRecord>)
    ensures |r| == |list| && forall i :: 0 <= i < |r| ==> r[i] == FromUigf(list[i], uid)
  {
    seq(|list|, i requires 0 <= i < |list| => FromUigf(list[i], uid))
  }

  /** The game's list of a document, by its UIGF key. */
  function GameList(e: UigfExport, g: GachaGame): Option<seq<UigfGameData>>
  {
    match g
    case Genshin => e.hk4e
    case StarRail => e.hkrpg
    case Zzz => e.nap
  }

  /** `get_or_insert_with(Vec::new).push(d)` on the game's list. */
  function Push(e: UigfExport, g: GachaGame, d: UigfGameData): (r: UigfExport)
    ensures r.info == e.info
    ensures GameList(r, g) == Some(GameList(e, g).GetOr([]) + [d])
    ensures forall h :: h != g ==> GameList(r, h) == GameList(e, h)
  {
    var list := Some(GameList(e, g).GetOr([]) + [d]);
    match g
    case Genshin => e.(hk4e := list)
    case StarRail => e.(hkrpg := list)
    case Zzz => e.(nap := list)
  }

  /** The export entries of the accounts of one game, in account order. */
  function EntriesOf(accounts: seq<GachaAccount>, histories: seq<GachaHistory>, g: GachaGame): seq<UigfGameData>
    requires |histories| == |accounts|
    decreases |accounts|
  {
    if |accounts| == 0 then []
    else
      (if accounts[0].game == g then [UigfGameData(accounts[0].uid, ToUigfList(histories[0].records))] else [])
      + EntriesOf(accounts[1..], histories[1..], g)
  }

  /** The export loop from document `e`: each account's history is read, failing on the
      first account without one. */
  function ExportLoop(accounts: seq<GachaAccount>, store: Store, e: UigfExport): (r: Result<UigfExport>)
    ensures r.Ok? <==> forall i :: 0 <= i < |accounts| ==> GetGachaHistory(store, accounts[i].game, accounts[i].uid).Ok?
    ensures r.Ok? ==> r.value.info == e.info
    decreases |accounts|
  {
    if |accounts| == 0 then Ok(e)
    else
      var a := accounts[0];
      var h :- GetGachaHistory(store, a.game, a.uid);
      var r := ExportLoop(accounts[1..], store, Push(e, a.game, UigfGameData(a.uid, ToUigfList(h.records))));
      assert r.Ok? <==> forall i :: 1 <= i < |accounts| ==> GetGachaHistory(store, accounts[i].game, accounts[i].uid).Ok? by {
        assert forall i :: 1 <= i < |accounts| ==> accounts[1..][i - 1] == accounts[i];
      }
      r
  }

  /** The document header of an export. */
  function ExportInfo(version: string, timestamp: nat): UigfInfo
  {
    UigfInfo(timestamp, "Atlas", version, "v4.0")
  }

  /** `export_gacha_uigf`. */
  function ExportGachaUigf(accounts: seq<GachaAccount>, store: Store, version: string, timestamp: nat): (r: Result<UigfExport>)
    ensures r.Ok? <==> forall i :: 0 <= i < |accounts| ==> GetGachaHistory(store, accounts[i].game, accounts[i].uid).Ok?
    ensures r.Ok? ==> r.value.info == UigfInfo(timestamp, "Atlas", version, "v4.0")
  {
    ExportLoop(accounts, store, UigfExport(ExportInfo(version, timestamp), None, None, None))
  }

  /** Each game's list holds, in account order, one entry per account of that game with
      the account's uid and its history's records. */
  lemma {:induction false} ExportLists(accounts: seq<GachaAccount>, store: Store, e: UigfExport,
                                        histories: seq<GachaHistory>, g: GachaGame)
    requires |histories| == |accounts|
    requires forall i :: 0 <= i < |accounts| ==> GetGachaHistory(store, accounts[i].game, accounts[i].uid) == Ok(histories[i])
    ensures var r := ExportLoop(accounts, store, e);
      && r.Ok?
      && (GameList(r.value, g).Some? <==> GameList(e, g).Some? || |EntriesOf(accounts, histories, g)| > 0)
      && GameList(r.value, g).GetOr([]) == GameList(e, g).GetOr([]) + EntriesOf(accounts, histories, g)
    decreases |accounts|
  {
    if |accounts| > 0 {
      var a := accounts[0];
      var e' := Push(e, a.game, UigfGameData(a.uid, ToUigfList(histories[0].records)));
      assert forall i :: 0 <= i < |accounts| - 1 ==> accounts[1..][i] == accounts[i + 1] && histories[1..][i] == histories[i + 1];
      ExportLists(accounts[1..], store, e', histories[1..], g);
      assert ExportLoop(accounts, store, e) == ExportLoop(accounts[1..], store, e');
    }
  }

  /** A game's export list is empty exactly when no account is of that game, so a game
      without accounts is left out of the document. */
  lemma {:induction false} EntriesOfEmpty(accounts: seq<GachaAccount>, histories: seq<GachaHistory>, g: GachaGame)
    requires |histories| == |accounts|
    ensures |EntriesOf(accounts, histories, g)| == 0 <==> forall i :: 0 <= i < |accounts| ==> accounts[i].game != g
    decreases |accounts|
  {
    if |accounts| > 0 {
      EntriesOfEmpty(accounts[1..], histories[1..], g);
      assert forall i :: 1 <= i < |accounts| ==> accounts[1..][i - 1] == accounts[i];
    }
  }

  /** Importing one entry: merged into the stored history of its uid, or into a new one
      when the file is missing or unreadable, then written back. */
  function ImportEntry(store: Store, g: GachaGame, d: UigfGameData, now: nat): (r: (Store, GachaAccount))
    ensures r.1.game == g
    ensures r.0.Keys == store.Keys + {(g, d.uid)}
  {
    var h := LoadOrNew(store, g, d.uid);
    var merged := Merge(h, FromUigfList(d.list, h.uid), now).0;
    (store[(g, d.uid) := Some(merged)], ImportedAccount(g, merged))
  }

  /** The reported account: the imported game, with the merged history's fields. */
  function ImportedAccount(g: GachaGame, h: GachaHistory): (a: GachaAccount)
    ensures a.game == g && a.uid == h.uid && a.totalRecords == |h.records|
  {
    GachaAccount(g, h.uid, h.lastSync, |h.records|, h.region)
  }

  /** Importing one game's entries in order. */
  function ImportGame(store: Store, g: GachaGame, entries: seq<UigfGameData>, now: nat): (r: (Store, seq<GachaAccount>))
    ensures |r.1| == |entries|
    ensures forall i :: 0 <= i < |r.1| ==> r.1[i].game == g
    decreases |entries|
  {
    if |entries| == 0 then (store, [])
    else
      var first := ImportEntry(store, g, entries[0], now);
      var rest := ImportGame(first.0, g, entries[1..], now);
      (rest.0, [first.1] + rest.1)
  }

  /** `import_gacha_uigf`: the `hk4e`, then `hkrpg`, then `nap` entries. */
  function ImportGachaUigf(data: UigfExport, store: Store, now: nat): (r: (Store, seq<GachaAccount>))
    ensures |r.1| == |data.hk4e.GetOr([])| + |data.hkrpg.GetOr([])| + |data.nap.GetOr([])|
    ensures forall i :: 0 <= i < |r.1| ==>
      r.1[i].game == if i < |data.hk4e.GetOr([])| then Genshin
                     else if i < |data.hk4e.GetOr([])| + |data.hkrpg.GetOr([])| then StarRail
                     else Zzz
  {
    var a := ImportGame(store, Genshin, data.hk4e.GetOr([]), now);
    var b := ImportGame(a.0, StarRail, data.hkrpg.GetOr([]), now);
    var c := ImportGame(b.0, Zzz, data.nap.GetOr([]), now);
    (c.0, a.1 + b.1 + c.1)
  }

  /** Exporting one account and importing the document into a store without that account
      restores its records: the same records as a multiset, under the same uid, sorted
      newest first. */
  lemma ExportImportRoundTrip(a: GachaAccount, store: Store, version: string, timestamp: nat, target: Store, now: nat)
    requires GetGachaHistory(store, a.game, a.uid).Ok?
    requires forall x :: x in store[(a.game, a.uid)].value.records ==> x.uid == a.uid
    requires (a.game, a.uid) !in target
    ensures var e := ExportGachaUigf([a], store, version, timestamp);
      var r := ImportGachaUigf(e.value, target, now);
      var h := store[(a.game, a.uid)].value;
      && (a.game, a.uid) in r.0 && r.0[(a.game, a.uid)].Some?
      && multiset(r.0[(a.game, a.uid)].value.records) == multiset(h.records)
      && r.0[(a.game, a.uid)].value.uid == a.uid
      && SortedBy(r.0[(a.game, a.uid)].value.records, IdDesc())
      && r.1 == [ImportedAccount(a.game, r.0[(a.game, a.uid)].value)]
  {
    var h := store[(a.game, a.uid)].value;
    var e := ExportGachaUigf([a], store, version, timestamp);
    var d := UigfGameData(a.uid, ToUigfList(h.records));
    SingleExport(a, store, version, timestamp, h);
    var imported := FromUigfList(d.list, a.uid);
    assert imported == h.records by {
      forall i | 0 <= i < |h.records|
        ensures imported[i] == h.records[i]
      {
        assert h.records[i] in h.records;
        UigfRoundTrip(h.records[i]);
      }
    }
    NewRecordsAllNew(imported);
    ImportSingleGame(e.value, target, now, a.game, d);
    var merged := Merge(NewHistory(a.game, a.uid), imported, now).0;
    assert Ids([]) == {};
    assert LoadOrNew(target, a.game, a.uid) == NewHistory(a.game, a.uid);
    assert ImportEntry(target, a.game, d, now) == (target[(a.game, a.uid) := Some(merged)], ImportedAccount(a.game, merged));
    assert [d][0] == d && [d][1..] == [];
    var first := ImportEntry(target, a.game, [d][0], now);
    assert ImportGame(first.0, a.game, [d][1..], now) == (first.0, []);
    assert ImportGame(target, a.game, [d], now) == (first.0, [first.1] + []);
  }

  /** The export of a single account holds exactly its entry under its game. */
  lemma SingleExport(a: GachaAccount, store: Store, version: string, timestamp: nat, h: GachaHistory)
    requires GetGachaHistory(store, a.game, a.uid) == Ok(h)
    ensures var e := ExportGachaUigf([a], store, version, timestamp);
      && e.Ok?
      && GameList(e.value, a.game).GetOr([]) == [UigfGameData(a.uid, ToUigfList(h.records))]
      && forall g :: g != a.game ==> GameList(e.value, g).GetOr([]) == []
  {
    var e0 := UigfExport(ExportInfo(version, timestamp), None, None, None);
    var d := UigfGameData(a.uid, ToUigfList(h.records));
    assert [a][1..] == [];
    assert ExportLoop([a], store, e0) == ExportLoop([], store, Push(e0, a.game, d));
  }

  /** Into an empty history every record is new. */
  lemma {:induction false} NewRecordsAllNew(records: seq<GachaRecord>)
    ensures NewRecords({}, records) == records
    decreases |records|
  {
    if |records| > 0 {
      NewRecordsAllNew(records[1..]);
      assert [records[0]] + records[1..] == records;
    }
  }

  /** A document whose only entry is `d` under game `g` imports exactly that entry. */
  lemma ImportSingleGame(e: UigfExport, store: Store, now: nat, g: GachaGame, d: UigfGameData)
    requires GameList(e, g).GetOr([]) == [d]
    requires forall h :: h != g ==> GameList(e, h).GetOr([]) == []
    ensures ImportGachaUigf(e, store, now) == ImportGame(store, g, [d], now)
  {
    assert GameList(e, Genshin) == e.hk4e && GameList(e, StarRail) == e.hkrpg && GameList(e, Zzz) == e.nap;
    var one := ImportGame(store, g, [d], now);
    assert [d][1..] == [];
    assert one.1 + [] == one.1 && [] + one.1 == one.1;
  }
}

=== FILE: gacha_models.dfy ===
/** Gacha history of the HoYoverse games: the game keys, a record's rarity, merging a
    fetched batch into a stored history, and the pull statistics with pity counting.

    Records are kept newest first, which the game's ids make the same as descending
    id order. */
module GachaModels {
  import opened Wrappers
  import opened Strings
  import opened Sorting

  // ---------------------------------------------------------------- games

  datatype GachaGame = Genshin | StarRail | Zzz

  function DisplayName(g: GachaGame): string
  {
    match g
    case Genshin => "Genshin Impact"
    case StarRail => "Honkai: Star Rail"
    case Zzz => "Zenless Zone Zero"
  }

  /** The name used in history file names. */
  function ShortName(g: GachaGame): string
  {
    match g
    case Genshin => "genshin"
    case StarRail => "starrail"
    case Zzz => "zzz"
  }

  /** The key of the game's list in a UIGF v4 document. */
  function UigfKey(g: GachaGame): string
  {
    match g
    case Genshin => "hk4e"
    case StarRail => "hkrpg"
    case Zzz => "nap"
  }

  /** The web cache file, relative to the install directory. */
  function CachePath(g: GachaGame): string
  {
    match g
    case Genshin => "GenshinImpact_Data/webCaches/Cache/Cache_Data/data_2"
    case StarRail => "StarRail_Data/webCaches/Cache/Cache_Data/data_2"
    case Zzz => "ZenlessZoneZero_Data/webCaches/Cache/Cache_Data/data_2"
  }

  /** `game as u8`: the declaration order. */
  function Discriminant(g: GachaGame): int
  {
    match g
    case Genshin => 0
    case StarRail => 1
    case Zzz => 2
  }

  /** Each key map tells the games apart, so a file name or UIGF key names one game. */
  lemma GameKeysDistinct(a: GachaGame, b: GachaGame)
    ensures a != b ==>
      && DisplayName(a) != DisplayName(b) && ShortName(a) != ShortName(b)
      && UigfKey(a) != UigfKey(b) && Discriminant(a) != Discriminant(b)
  {
  }

  // ---------------------------------------------------------------- records

  datatype GachaRecord = GachaRecord(
    id: string,
    uid: string,
    gachaType: string,
    itemId: Option<string>,
    name: string,
    itemType: string,
    rankType: string,
    time: string)

  /** `rarity`: the rank parsed as a `u8`, and 3 when it does not parse. */
  function Rarity(r: GachaRecord): (n: nat)
    ensures n <= 255
  {
    match ParseUnsigned(r.rankType, 255)
    case Some(v) => v
    case None => 3
  }

  /** A rank written as a number up to 255 is that rarity. */
  lemma RarityOfNumber(r: GachaRecord, k: nat)
    requires r.rankType == NatToString(k) && k <= 255
    ensures Rarity(r) == k
  {
    ParseNatToString(k, 255);
  }

  /** A rank that is not a `u8` counts as three stars. */
  lemma RarityDefaults(r: GachaRecord)
    requires r.rankType in {"", "five", "-5", "256", "5 "}
    ensures Rarity(r) == 3
  {
    if r.rankType == "256" {
      assert DigitsValue("256") == 256 by {
        assert "256"[..2] == "25" && "25"[..1] == "2" && "2"[..0] == "";
      }
    } else if r.rankType == "5 " {
      assert !IsDigit(" "[0]);
      assert !AllDigits("5 ") by { assert !IsDigit("5 "[1]); }
    } else if r.rankType == "-5" {
      assert !AllDigits("-5") by { assert !IsDigit("-5"[0]); }
    } else if r.rankType == "five" {
      assert !AllDigits("five") by { assert !IsDigit("five"[0]); }
    }
  }

  // ---------------------------------------------------------------- history and merge

  datatype GachaHistory = GachaHistory(
    game: GachaGame,
    uid: string,
    records: seq<GachaRecord>,
    lastSync: nat,
    region: Option<string>)

  function NewHistory(game: GachaGame, uid: string): GachaHistory
  {
    GachaHistory(game, uid, [], 0, None)
  }

  function Ids(records: seq<GachaRecord>): set<string>
  {
    set r | r in records :: r.id
  }

  /** The incoming records whose id is not among `known`, in order; repeats within the
      batch all stay. */
  function NewRecords(known: set<string>, incoming: seq<GachaRecord>): (r: seq<GachaRecord>)
    ensures |r| <= |incoming|
    decreases |incoming|
  {
    if |incoming| == 0 then []
    else (if incoming[0].id in known then [] else [incoming[0]]) + NewRecords(known, incoming[1..])
  }

  /** A record is new exactly when it is incoming with an unknown id, and it is kept as
      many times as it comes in. */
  lemma {:induction false} NewRecordsCount(known: set<string>, incoming: seq<GachaRecord>, x: GachaRecord)
    ensures multiset(NewRecords(known, incoming))[x] == if x.id in known then 0 else multiset(incoming)[x]
    ensures x in NewRecords(known, incoming) <==> x in incoming && x.id !in known
    decreases |incoming|
  {
    if |incoming| > 0 {
      NewRecordsCount(known, incoming[1..], x);
      assert incoming == [incoming[0]] + incoming[1..];
    }
  }

  /** The order of `sort_by(|a, b| b.id.cmp(&a.id))`: larger ids first. */
  function IdDesc(): (GachaRecord, GachaRecord) -> bool
  {
    (a: GachaRecord, b: GachaRecord) => StrLe(b.id, a.id)
  }

  lemma IdDescOrder()
    ensures Total(IdDesc()) && Transitive(IdDesc())
  {
    forall a: GachaRecord, b: GachaRecord
      ensures IdDesc()(a, b) || IdDesc()(b, a)
    {
      StrLeTotal(a.id, b.id);
    }
    forall a: GachaRecord, b: GachaRecord, c: GachaRecord | IdDesc()(a, b) && IdDesc()(b, c)
      ensures IdDesc()(a, c)
    {
      StrLeTrans(c.id, b.id, a.id);
    }
  }

  /** `merge`: the incoming records with new ids are appended, the whole list is sorted
      by id, newest first, and the sync time is set to `now`. The second component is
      the number of records added. */
  function Merge(h: GachaHistory, incoming: seq<GachaRecord>, now: nat): (r: (GachaHistory, nat))
    ensures r.0.game == h.game && r.0.uid == h.uid && r.0.region == h.region && r.0.lastSync == now
    ensures multiset(r.0.records) == multiset(h.records) + multiset(NewRecords(Ids(h.records), incoming))
    ensures |r.0.records| == |h.records| + r.1
    ensures SortedBy(r.0.records, IdDesc())
  {
    var added := NewRecords(Ids(h.records), incoming);
    IdDescOrder();
    SortBySorted(h.records + added, IdDesc());
    (h.(records := SortBy(h.records + added, IdDesc()), lastSync := now), |added|)
  }

  /** Every incoming record ends up in the history, so merging the same batch again
      adds nothing and keeps the same records. */
  lemma MergeAgainAddsNothing(h: GachaHistory, incoming: seq<GachaRecord>, now: nat, later: nat)
    ensures var once := Merge(h, incoming, now).0;
      var twice := Merge(once, incoming, later);
      twice.1 == 0 && multiset(twice.0.records) == multiset(once.records)
  {
    var once := Merge(h, incoming, now).0;
    forall x | x in incoming
      ensures x.id in Ids(once.records)
    {
      NewRecordsCount(Ids(h.records), incoming, x);
      if x.id in Ids(h.records) {
        var y :| y in h.records && y.id == x.id;
        assert y in multiset(once.records);
      } else {
        assert x in multiset(once.records);
      }
    }
    NewRecordsNone(Ids(once.records), incoming);
  }

  lemma {:induction false} NewRecordsNone(known: set<string>, incoming: seq<GachaRecord>)
    requires forall x :: x in incoming ==> x.id in known
    ensures NewRecords(known, incoming) == []
    decreases |incoming|
  {
    if |incoming| > 0 {
      assert incoming[0] in incoming;
      NewRecordsNone(known, incoming[1..]);
    }
  }

  /** `latest_id`: the first record's id. */
  function LatestId(h: GachaHistory): (r: Option<string>)
    ensures r.Some? <==> |h.records| > 0
    ensures r.Some? ==> r.value in Ids(h.records)
  {
    if |h.records| == 0 then None else Some(h.records[0].id)
  }

  /** After a merge the latest id is the largest id of the history. */
  lemma LatestIdIsMax(h: GachaHistory, incoming: seq<GachaRecord>, now: nat)
    ensures var m := Merge(h, incoming, now).0;
      LatestId(m).Some? ==> forall x :: x in m.records ==> StrLe(x.id, LatestId(m).value)
  {
    var m := Merge(h, incoming, now).0;
    forall x | x in m.records
      ensures StrLe(x.id, m.records[0].id)
    {
      var k :| 0 <= k < |m.records| && m.records[k] == x;
      if k > 0 {
        SortedFirst(m.records, IdDesc(), k);
      } else {
        StrLeTotal(x.id, x.id);
      }
    }
  }

  // ---------------------------------------------------------------- counting

  /** The number of records of rarity `k`. */
  function CountRarity(records: seq<GachaRecord>, k: nat): (n: nat)
    ensures n <= |records|
    decreases |records|
  {
    if |records| == 0 then 0
    else (if Rarity(records[0]) == k then 1 else 0) + CountRarity(records[1..], k)
  }

  /** A record has one rarity, so the three counts together are at most the total. */
  lemma {:induction false} CountsDisjoint(records: seq<GachaRecord>)
    ensures CountRarity(records, 5) + CountRarity(records, 4) + CountRarity(records, 3) <= |records|
    decreases |records|
  {
    if |records| > 0 {
      CountsDisjoint(records[1..]);
    }
  }

  // ---------------------------------------------------------------- pity

  datatype FiveStarPull = FiveStarPull(name: string, pity: nat, time: string)

  datatype BannerStats = BannerStats(
    totalPulls: nat,
    fiveStarCount: nat,
    fourStarCount: nat,
    currentPity: nat,
    averagePity: real,
    fiveStarPulls: seq<FiveStarPull>)

  /** The pity scan over newest-first records: the five-star pulls met so far (oldest
      first) and the pity counter. It visits the oldest record first, so the scan of a
      list is the scan of its older part followed by its newest record. */
  function PityScan(records: seq<GachaRecord>): (r: (seq<FiveStarPull>, nat))
    decreases |records|
  {
    if |records| == 0 then ([], 0)
    else
      var prev := PityScan(records[1..]);
      var counter := prev.1 + 1;
      if Rarity(records[0]) == 5 then (prev.0 + [FiveStarPull(records[0].name, counter, records[0].time)], 0)
      else (prev.0, counter)
  }

  function SumPities(pulls: seq<FiveStarPull>): nat
    decreases |pulls|
  {
    if |pulls| == 0 then 0 else SumPities(pulls[..|pulls| - 1]) + pulls[|pulls| - 1].pity
  }

  predicate PositivePities(pulls: seq<FiveStarPull>)
  {
    forall i :: 0 <= i < |pulls| ==> pulls[i].pity >= 1
  }

  /** The pulls since the newest five-star: the records before the first five-star in
      newest-first order. */
  function PullsSinceFiveStar(records: seq<GachaRecord>): nat
    decreases |records|
  {
    if |records| == 0 || Rarity(records[0]) == 5 then 0 else 1 + PullsSinceFiveStar(records[1..])
  }

  /** Every pull is counted exactly once: in the pity of the five-star that ended its
      streak or in the current pity. Every recorded pity is at least 1, one per
      five-star record, and the current pity counts the pulls since the newest
      five-star. */
  lemma {:induction false} PityAccounting(records: seq<GachaRecord>)
    ensures var r := PityScan(records);
      && SumPities(r.0) + r.1 == |records|
      && PositivePities(r.0)
      && |r.0| == CountRarity(records, 5)
      && r.1 == PullsSinceFiveStar(records)
    decreases |records|
  {
    if |records| > 0 {
      PityAccounting(records[1..]);
      var prev := PityScan(records[1..]);
      if Rarity(records[0]) == 5 {
        var p := FiveStarPull(records[0].name, prev.1 + 1, records[0].time);
        assert (prev.0 + [p])[..|prev.0|] == prev.0;
      }
    }
  }

  /** The mean of the recorded pities, or 0 when there are none. */
  function AveragePity(pulls: seq<FiveStarPull>): (avg: real)
    ensures |pulls| > 0 ==> avg * |pulls| as real == SumPities(pulls) as real
    ensures |pulls| == 0 ==> avg == 0.0
  {
    if |pulls| == 0 then 0.0 else SumPities(pulls) as real / |pulls| as real
  }

  /** Since every pity is at least 1, so is their mean. */
  lemma {:induction false} AveragePityAtLeastOne(pulls: seq<FiveStarPull>)
    requires |pulls| > 0 && PositivePities(pulls)
    ensures AveragePity(pulls) >= 1.0
  {
    SumPitiesAtLeast(pulls);
  }

  lemma {:induction false} SumPitiesAtLeast(pulls: seq<FiveStarPull>)
    requires PositivePities(pulls)
    ensures SumPities(pulls) >= |pulls|
    decreases |pulls|
  {
    if |pulls| > 0 {
      SumPitiesAtLeast(pulls[..|pulls| - 1]);
    }
  }

  /** `calculate_banner_stats` over one banner's records, newest first. */
  function BannerStatsOf(records: seq<GachaRecord>): (b: BannerStats)
    ensures b.totalPulls == |records|
    ensures SumPities(b.fiveStarPulls) + b.currentPity == b.totalPulls
    ensures b.fiveStarCount == |b.fiveStarPulls| == CountRarity(records, 5)
    ensures PositivePities(b.fiveStarPulls)
    ensures b.currentPity == PullsSinceFiveStar(records)
  {
    var scan := PityScan(records);
    PityAccounting(records);
    BannerStats(|records|, |scan.0|, CountRarity(records, 4), scan.1, AveragePity(scan.0), scan.0)
  }

  // ---------------------------------------------------------------- overall statistics

  datatype GachaStats = GachaStats(
    totalPulls: nat,
    fiveStarCount: nat,
    fourStarCount: nat,
    threeStarCount: nat,
    bannerStats: map<string, BannerStats>)

  /** The records of one banner type, in their order. */
  function BannerRecords(records: seq<GachaRecord>, t: string): (r: seq<GachaRecord>)
    ensures forall i :: 0 <= i < |r| ==> r[i].gachaType == t && r[i] in records
    decreases |records|
  {
    if |records| == 0 then []
    else (if records[0].gachaType == t then [records[0]] else []) + BannerRecords(records[1..], t)
  }

  function GachaTypes(records: seq<GachaRecord>): set<string>
  {
    set r | r in records :: r.gachaType
  }

  /** `calculate_stats`: totals by rarity and one banner entry per banner type present. */
  function CalculateStats(h: GachaHistory): (s: GachaStats)
    ensures s.totalPulls == |h.records|
    ensures s.bannerStats.Keys == GachaTypes(h.records)
    ensures s.fiveStarCount + s.fourStarCount + s.threeStarCount <= s.totalPulls
    ensures forall t :: t in s.bannerStats ==> s.bannerStats[t].totalPulls > 0
  {
    CountsDisjoint(h.records);
    var types := GachaTypes(h.records);
    var banners := map t | t in types :: BannerStatsOf(BannerRecords(h.records, t));
    assert forall t :: t in types ==> |BannerRecords(h.records, t)| > 0 by {
      forall t | t in types
        ensures |BannerRecords(h.records, t)| > 0
      {
        var r :| r in h.records && r.gachaType == t;
        BannerRecordsHas(h.records, t, r);
      }
    }
    GachaStats(|h.records|, CountRarity(h.records, 5), CountRarity(h.records, 4), CountRarity(h.records, 3), banners)
  }

  lemma {:induction false} BannerRecordsHas(records: seq<GachaRecord>, t: string, r: GachaRecord)
    requires r in records && r.gachaType == t
    ensures r in BannerRecords(records, t)
    decreases |records|
  {
    if records[0] != r {
      BannerRecordsHas(records[1..], t, r);
    }
  }

  /** The banner totals over a list of types. */
  function SumTotals(ts: seq<string>, banners: map<string, BannerStats>): nat
    requires forall i :: 0 <= i < |ts| ==> ts[i] in banners
    decreases |ts|
  {
    if |ts| == 0 then 0 else banners[ts[0]].totalPulls + SumTotals(ts[1..], banners)
  }

  predicate Distinct(ts: seq<string>)
  {
    forall i, j :: 0 <= i < j < |ts| ==> ts[i] != ts[j]
  }

  /** Every record belongs to exactly one banner: listing the banner types once each,
      in any order, the banner totals add up to the total pulls. */
  lemma BannerTotalsSum(h: GachaHistory, ts: seq<string>)
    requires Distinct(ts) && (set i | 0 <= i < |ts| :: ts[i]) == GachaTypes(h.records)
    ensures var s := CalculateStats(h);
      (forall i :: 0 <= i < |ts| ==> ts[i] in s.bannerStats) && SumTotals(ts, s.bannerStats) == s.totalPulls
  {
    var s := CalculateStats(h);
    assert forall i :: 0 <= i < |ts| ==> ts[i] in GachaTypes(h.records);
    SumTotalsCounts(ts, s.bannerStats, h.records);
    forall r | r in h.records
      ensures r.gachaType in ts
    {
      assert r.gachaType in GachaTypes(h.records);
      var i :| 0 <= i < |ts| && ts[i] == r.gachaType;
    }
    BannerCountsSum(ts, h.records);
  }

  /** The banner totals are the banner record counts. */
  lemma {:induction false} SumTotalsCounts(ts: seq<string>, banners: map<string, BannerStats>, records: seq<GachaRecord>)
    requires forall i :: 0 <= i < |ts| ==> ts[i] in banners
    requires forall i :: 0 <= i < |ts| ==> banners[ts[i]] == BannerStatsOf(BannerRecords(records, ts[i]))
    ensures SumTotals(ts, banners) == BannerCounts(ts, records)
    decreases |ts|
  {
    if |ts| > 0 {
      SumTotalsCounts(ts[1..], banners, records);
    }
  }

  function BannerCounts(ts: seq<string>, records: seq<GachaRecord>): nat
    decreases |ts|
  {
    if |ts| == 0 then 0 else |BannerRecords(records, ts[0])| + BannerCounts(ts[1..], records)
  }

  /** Counting each record in the banner of its type counts every record once. */
  lemma {:induction false} BannerCountsSum(ts: seq<string>, records: seq<GachaRecord>)
    requires Distinct(ts)
    requires forall r :: r in records ==> r.gachaType in ts
    ensures BannerCounts(ts, records) == |records|
    decreases |records|
  {
    if |records| > 0 {
      assert records[0] in records;
      assert forall r :: r in records[1..] ==> r in records;
      BannerCountsSum(ts, records[1..]);
      BannerCountsCons(ts, records);
      OneTypeMatches(ts, records[0].gachaType);
    } else {
      BannerCountsEmpty(ts, records);
    }
  }

  lemma {:induction false} BannerCountsEmpty(ts: seq<string>, records: seq<GachaRecord>)
    requires |records| == 0
    ensures BannerCounts(ts, records) == 0
    decreases |ts|
  {
    if |ts| > 0 {
      BannerCountsEmpty(ts[1..], records);
    }
  }

  /** The number of list entries equal to `t`. */
  function Matches(ts: seq<string>, t: string): nat
    decreases |ts|
  {
    if |ts| == 0 then 0 else (if ts[0] == t then 1 else 0) + Matches(ts[1..], t)
  }

  lemma {:induction false} BannerCountsCons(ts: seq<string>, records: seq<GachaRecord>)
    requires |records| > 0
    ensures BannerCounts(ts, records) == BannerCounts(ts, records[1..]) + Matches(ts, records[0].gachaType)
    decreases |ts|
  {
    if |ts| > 0 {
      BannerCountsCons(ts[1..], records);
    }
  }

  lemma {:induction false} OneTypeMatches(ts: seq<string>, t: string)
    requires Distinct(ts) && t in ts
    ensures Matches(ts, t) == 1
    decreases |ts|
  {
    if ts[0] == t {
      NoMatches(ts[1..], t);
    } else {
      OneTypeMatches(ts[1..], t);
    }
  }

  lemma {:induction false} NoMatches(ts: seq<string>, t: string)
    requires t !in ts
    ensures Matches(ts, t) == 0
    decreases |ts|
  {
    if |ts| > 0 {
      NoMatches(ts[1..], t);
    }
  }

  // ---------------------------------------------------------------- rates

  /** A count as a percentage of the total pulls, 0 when there are none. */
  function Rate(count: nat, total: nat): real
  {
    if total == 0 then 0.0 else count as real / total as real * 100.0
  }

  function FiveStarRate(s: GachaStats): real { Rate(s.fiveStarCount, s.totalPulls) }

  function FourStarRate(s: GachaStats): real { Rate(s.fourStarCount, s.totalPulls) }

  /** The rates of a history's statistics are percentages, and 0 without pulls. */
  lemma RatesArePercentages(h: GachaHistory)
    ensures var s := CalculateStats(h);
      && 0.0 <= FiveStarRate(s) <= 100.0 && 0.0 <= FourStarRate(s) <= 100.0
      && (s.totalPulls == 0 ==> FiveStarRate(s) == 0.0 && FourStarRate(s) == 0.0)
  {
    var s := CalculateStats(h);
    RateBounds(s.fiveStarCount, s.totalPulls);
    RateBounds(s.fourStarCount, s.totalPulls);
  }

  lemma RateBounds(count: nat, total: nat)
    requires count <= total
    ensures 0.0 <= Rate(count, total) <= 100.0
  {
    if total > 0 {
      var q := count as real / total as real;
      assert q * total as real == count as real;
      if q > 1.0 {
        assert q * total as real > 1.0 * total as real;
      }
    }
  }
}

=== FILE: game_detector.dfy ===
/** The game detector: every few seconds the running processes are matched against
    the enabled whitelist entries, a session is started for each newly seen game and
    the session of a game that is no longer running is ended.

    The process list, its order, the session ids and the clock are parameters; the
    detection thread and its sleep are outside the model. */
module GameDetector {
  import opened Wrappers
  import opened Strings
  import opened Session = GamingSession
  import opened Records

  // ---------------------------------------------------------------- whitelist

  datatype GameEntry = GameEntry(name: string, processName: string, icon: Option<string>, enabled: bool)

  datatype GameWhitelist = GameWhitelist(games: seq<GameEntry>)

  function Entry(name: string, processName: string, icon: string): GameEntry
  {
    GameEntry(name, processName, Some(icon), true)
  }

  /** The ten games watched when no whitelist file can be read. */
  const DefaultWhitelist: GameWhitelist := GameWhitelist([
    Entry("Valorant", "VALORANT-Win64-Shipping.exe", "valorant"),
    Entry("League of Legends", "League of Legends.exe", "lol"),
    Entry("Counter-Strike 2", "cs2.exe", "cs2"),
    Entry("Apex Legends", "r5apex.exe", "apex"),
    Entry("Overwatch 2", "Overwatch.exe", "overwatch"),
    Entry("Fortnite", "FortniteClient-Win64-Shipping.exe", "fortnite"),
    Entry("Minecraft", "javaw.exe", "minecraft"),
    Entry("Genshin Impact", "GenshinImpact.exe", "genshin"),
    Entry("PUBG", "TslGame.exe", "pubg"),
    Entry("Dota 2", "dota2.exe", "dota2")])

  /** `load_game_whitelist`: the file's whitelist, the default one when the file cannot
      be read (`None`). */
  function LoadWhitelist(file: Option<GameWhitelist>): (r: GameWhitelist)
    ensures file.Some? ==> r == file.value
    ensures file.None? ==> |r.games| == 10 && forall i :: 0 <= i < 10 ==> r.games[i].enabled
  {
    file.GetOr(DefaultWhitelist)
  }

  // ---------------------------------------------------------------- name matching

  /** The comparison key of a process name: every trailing ".exe", then every trailing
      ".EXE", removed, then lower-cased. */
  function ProcessKey(name: string): string
  {
    Lower(TrimEndMatches(TrimEndMatches(name, ".exe"), ".EXE"))
  }

  /** A whitelist name matches a running process name when their keys agree. */
  predicate NameMatches(whitelistName: string, runningName: string)
  {
    ProcessKey(whitelistName) == ProcessKey(runningName)
  }

  /** A trailing ".exe" never matters, so an entry written with it matches the name
      reported without it. */
  lemma ProcessKeyDropsExe(s: string)
    ensures ProcessKey(s + ".exe") == ProcessKey(s)
  {
    var p := ".exe";
    assert EndsWith(s + p, p) by { assert (s + p)[|s + p| - |p|..] == p; }
    assert (s + p)[..|s + p| - |p|] == s;
  }

  /** The default Counter-Strike entry matches the process as the system lists it and
      in capitals. */
  lemma DefaultNameExamples()
    ensures NameMatches("cs2.exe", "cs2")
    ensures NameMatches("cs2.exe", "CS2")
  {
    ProcessKeyDropsExe("cs2");
    assert TrimEndMatches("cs2", ".exe") == "cs2";
    assert TrimEndMatches("cs2", ".EXE") == "cs2";
    assert TrimEndMatches("CS2", ".exe") == "CS2";
    assert TrimEndMatches("CS2", ".EXE") == "CS2";
    assert Lower("CS2") == "cs2";
    assert Lower("cs2") == "cs2";
  }

  /** An enabled entry that matches the running name. */
  predicate Watches(g: GameEntry, running: string)
  {
    g.enabled && NameMatches(g.processName, running)
  }

  /** `enabled_games.iter().find(..)`: the first enabled entry matching the name. */
  function FindGame(games: seq<GameEntry>, running: string): (r: Option<nat>)
    ensures r.Some? ==> r.value < |games| && Watches(games[r.value], running)
    ensures r.Some? ==> forall j :: 0 <= j < r.value ==> !Watches(games[j], running)
    ensures r.None? <==> forall j :: 0 <= j < |games| ==> !Watches(games[j], running)
    decreases |games|
  {
    if |games| == 0 then None
    else if Watches(games[0], running) then Some(0)
    else
      match FindGame(games[1..], running)
      case None => None
      case Some(k) => assert games[k + 1] == games[1..][k]; Some(k + 1)
  }

  /** The running processes that are watched games. */
  function CurrentGames(processes: seq<string>, games: seq<GameEntry>): (r: set<string>)
    ensures forall p :: p in r <==> p in processes && FindGame(games, p).Some?
  {
    set i | 0 <= i < |processes| && FindGame(games, processes[i]).Some? :: processes[i]
  }

  // ---------------------------------------------------------------- one detection pass

  /** The start half of a pass, from process `i` on: each watched process that was not
      seen on the previous pass asks for a session; a refused start changes nothing. */
  function StartPhase(m: Manager, detected: set<string>, processes: seq<string>, games: seq<GameEntry>,
                      ids: seq<string>, now: string, i: nat): (r: Manager)
    requires |ids| == |processes| && i <= |processes|
    ensures r.saved == m.saved
    ensures m.active.Some? ==> r == m
    decreases |processes| - i
  {
    if i == |processes| then m
    else
      var p := processes[i];
      var next :=
        match FindGame(games, p)
        case None => m
        case Some(k) =>
          if p in detected then m
          else
            match StartSession(m, ids[i], games[k].name, p, now)
            case Ok((m', _)) => m'
            case Err(_) => m;
      StartPhase(next, detected, processes, games, ids, now, i + 1)
  }

  /** A process at or after `i` seen for the first time on this pass. */
  predicate NewGameFrom(detected: set<string>, processes: seq<string>, games: seq<GameEntry>, i: nat)
  {
    exists j :: i <= j < |processes| && FindGame(games, processes[j]).Some? && processes[j] !in detected
  }

  /** Without an active session, the first newly seen game gets one: afterwards a
      session is active for one of the watched processes, under its game's name. When
      nothing is newly seen, nothing changes. */
  lemma {:induction false} StartPhaseStarts(m: Manager, detected: set<string>, processes: seq<string>,
                                            games: seq<GameEntry>, ids: seq<string>, now: string, i: nat)
    requires |ids| == |processes| && i <= |processes|
    ensures !NewGameFrom(detected, processes, games, i) ==> StartPhase(m, detected, processes, games, ids, now, i) == m
    ensures m.active.None? && NewGameFrom(detected, processes, games, i) ==>
      var a := StartPhase(m, detected, processes, games, ids, now, i).active;
      && a.Some? && a.value.session.processName in processes
      && FindGame(games, a.value.session.processName).Some?
      && a.value.session.gameName == games[FindGame(games, a.value.session.processName).value].name
    decreases |processes| - i
  {
    if i < |processes| {
      var p := processes[i];
      var r := StartPhase(m, detected, processes, games, ids, now, i);
      if FindGame(games, p).Some? && p !in detected {
        if m.active.None? {
          var k := FindGame(games, p).value;
          var m' := StartSession(m, ids[i], games[k].name, p, now).value.0;
          assert r == StartPhase(m', detected, processes, games, ids, now, i + 1);
          assert m'.active.Some?;
        }
      } else {
        assert r == StartPhase(m, detected, processes, games, ids, now, i + 1);
        if NewGameFrom(detected, processes, games, i) {
          var j :| i <= j < |processes| && FindGame(games, processes[j]).Some? && processes[j] !in detected;
          assert j != i;
        }
        StartPhaseStarts(m, detected, processes, games, ids, now, i + 1);
      }
    }
  }

  /** The stop half of a pass: the active session ends when its process was seen on
      the previous pass and is not running now. Every other stopped process finds no
      session of its own and is refused. */
  function StopPhase(m: Manager, detected: set<string>, current: set<string>, now: string): (r: Manager)
    ensures m.active.None? ==> r == m
    ensures m.active.Some? ==>
      var p := m.active.value.session.processName;
      && (p in detected && p !in current ==> r.active.None? && r == EndSession(m, now).value.0)
      && (!(p in detected && p !in current) ==> r == m)
  {
    if m.active.Some? && m.active.value.session.processName in detected - current then
      EndSessionByProcess(m, m.active.value.session.processName, now).value.0
    else m
  }

  /** `for name in detected.difference(&current) { end_session_by_process(name) }` in
      any order. */
  function EndEach(m: Manager, stopped: seq<string>, now: string): Manager
    decreases |stopped|
  {
    if |stopped| == 0 then m
    else
      var next := match EndSessionByProcess(m, stopped[0], now) case Ok((m', _)) => m' case Err(_) => m;
      EndEach(next, stopped[1..], now)
  }

  /** Ending the stopped processes one by one, in whatever order the set yields them,
      ends the active session exactly when its process is among them. */
  lemma {:induction false} EndEachOnce(m: Manager, stopped: seq<string>, now: string)
    ensures EndEach(m, stopped, now) ==
      if m.active.Some? && m.active.value.session.processName in stopped then EndSession(m, now).value.0 else m
    decreases |stopped|
  {
    if |stopped| > 0 {
      var next := match EndSessionByProcess(m, stopped[0], now) case Ok((m', _)) => m' case Err(_) => m;
      EndEachOnce(next, stopped[1..], now);
      if m.active.Some? && m.active.value.session.processName == stopped[0] {
        assert next.active.None?;
      } else {
        assert next == m;
        if m.active.Some? {
          assert m.active.value.session.processName in stopped <==> m.active.value.session.processName in stopped[1..];
        }
      }
    }
  }

  /** Hence the stop half does not depend on the order of the stopped set. */
  lemma StopOrderIrrelevant(m: Manager, detected: set<string>, current: set<string>, stopped: seq<string>, now: string)
    requires forall x :: x in stopped <==> x in detected && x !in current
    ensures EndEach(m, stopped, now) == StopPhase(m, detected, current, now)
  {
    EndEachOnce(m, stopped, now);
  }

  /** One pass of the detection loop as written: starts first, then ends; the pass's
      watched processes become the detected set. */
  function DetectionPass(m: Manager, detected: set<string>, processes: seq<string>, whitelistFile: Option<GameWhitelist>,
                         ids: seq<string>, now: string): (r: (Manager, set<string>))
    requires |ids| == |processes|
    ensures r.1 == CurrentGames(processes, LoadWhitelist(whitelistFile).games)
  {
    var games := LoadWhitelist(whitelistFile).games;
    var current := CurrentGames(processes, games);
    var started := StartPhase(m, detected, processes, games, ids, now, 0);
    (StopPhase(started, detected, current, now), current)
  }

  /** A game launched on the pass on which the tracked game exits gets no session: its
      start is refused while the old session is still active, the old session is then
      ended, and the next pass no longer counts the game as new. */
  lemma DetectionPassMissesGame()
    ensures var games := [GameEntry("A", "a", None, true), GameEntry("B", "b", None, true)];
      var s := GamingSession("1", "A", "a", "t0", None, Active, None);
      var m := Manager(Some(ActiveSession(s, NewRecorder())), Ok([s]), map[]);
      var (m1, d1) := DetectionPass(m, {"a"}, ["b"], Some(GameWhitelist(games)), ["2"], "t1");
      var (m2, d2) := DetectionPass(m1, d1, ["b"], Some(GameWhitelist(games)), ["3"], "t2");
      && "b" in d1 && "b" in d2 && m1.active.None? && m2.active.None?
  {
    var games := [GameEntry("A", "a", None, true), GameEntry("B", "b", None, true)];
    KeyOfShort("a");
    KeyOfShort("b");
    assert !Watches(games[0], "b") && Watches(games[1], "b");
    assert FindGame(games, "b") == Some(1);
    var s := GamingSession("1", "A", "a", "t0", None, Active, None);
    var m := Manager(Some(ActiveSession(s, NewRecorder())), Ok([s]), map[]);
    var (m1, d1) := DetectionPass(m, {"a"}, ["b"], Some(GameWhitelist(games)), ["2"], "t1");
    assert d1 == {"b"};
    assert !NewGameFrom(d1, ["b"], games, 0);
    PassWithoutNewGameIdle(m1, d1, ["b"], Some(GameWhitelist(games)), ["3"], "t2");
  }

  /** Without an active session, a pass that sees no new game changes nothing. */
  lemma PassWithoutNewGameIdle(m: Manager, detected: set<string>, processes: seq<string>,
                               whitelistFile: Option<GameWhitelist>, ids: seq<string>, now: string)
    requires |ids| == |processes| && m.active.None?
    requires !NewGameFrom(detected, processes, LoadWhitelist(whitelistFile).games, 0)
    ensures DetectionPass(m, detected, processes, whitelistFile, ids, now).0 == m
  {
    StartPhaseStarts(m, detected, processes, LoadWhitelist(whitelistFile).games, ids, now, 0);
  }

  /** Keys of one-letter names without a suffix are the lower-cased names. */
  lemma KeyOfShort(s: string)
    requires |s| == 1 && !IsUpper(s[0])
    ensures ProcessKey(s) == s
  {
    assert TrimEndMatches(s, ".exe") == s;
    assert TrimEndMatches(s, ".EXE") == s;
  }

  /** The pass with the ends first: the old session is ended before the new games ask
      for one. */
  function DetectionPassEndsFirst(m: Manager, detected: set<string>, processes: seq<string>,
                                  whitelistFile: Option<GameWhitelist>, ids: seq<string>, now: string)
    : (r: (Manager, set<string>))
    requires |ids| == |processes|
    ensures r.1 == CurrentGames(processes, LoadWhitelist(whitelistFile).games)
  {
    var games := LoadWhitelist(whitelistFile).games;
    var current := CurrentGames(processes, games);
    var ended := StopPhase(m, detected, current, now);
    (StartPhase(ended, detected, processes, games, ids, now, 0), current)
  }

  /** With the ends first, a pass that sees a new game always leaves a session active
      for a game that is running, provided the active session, if any, was for a game
      seen on the previous pass. */
  lemma EndsFirstTracksNewGame(m: Manager, detected: set<string>, processes: seq<string>,
                               whitelistFile: Option<GameWhitelist>, ids: seq<string>, now: string)
    requires |ids| == |processes|
    requires m.active.Some? ==> m.active.value.session.processName in detected
    requires NewGameFrom(detected, processes, LoadWhitelist(whitelistFile).games, 0)
    ensures var (m', current) := DetectionPassEndsFirst(m, detected, processes, whitelistFile, ids, now);
      m'.active.Some? && m'.active.value.session.processName in current
  {
    var games := LoadWhitelist(whitelistFile).games;
    var current := CurrentGames(processes, games);
    var ended := StopPhase(m, detected, current, now);
    StartPhaseStarts(ended, detected, processes, games, ids, now, 0);
  }

  /** The run-once guard of `start_game_detection`: the flag is set, and a detection
      thread is started only when it was clear. */
  function StartDetection(running: bool): (r: (bool, bool))
    ensures r.0
    ensures r.1 <==> !running
  {
    (true, !running)
  }

  /** `get_detected_game`: the first running process that is a watched game, with the
      game's name. */
  function DetectedGame(processes: seq<string>, games: seq<GameEntry>): (r: Option<(string, string)>)
    ensures r.None? <==> forall i :: 0 <= i < |processes| ==> FindGame(games, processes[i]).None?
    ensures r.Some? ==> exists i :: (
      && 0 <= i < |processes| && processes[i] == r.value.1
      && FindGame(games, processes[i]).Some? && games[FindGame(games, processes[i]).value].name == r.value.0
      && forall j :: 0 <= j < i ==> FindGame(games, processes[j]).None?)
  {
    var watched := (p: string) => FindGame(games, p).Some?;
    match FirstFrom(processes, watched, 0)
    case None => None
    case Some(i) =>
      var r := Some((games[FindGame(games, processes[i]).value].name, processes[i]));
      assert processes[i] == r.value.1;
      r
  }
}
=== FILE: gaming_commands.dfy ===
/** The gaming commands: whitelist edits keyed by the case-folded process name, the
    session list and its deletions, and the threshold file with its default.

    A file that cannot be read is `Err` of the reader's message (or `None` where the
    command substitutes a default); the commands return the content they would
    write, and write failures are outside the model. */
module GamingCommands {
  import opened Wrappers
  import opened Strings
  import opened Records
  import opened Bottleneck
  import opened Session = GamingSession
  import opened GameDetector

  // ---------------------------------------------------------------- whitelist

  /** The whitelist commands compare process names case-insensitively, with no
      suffix handling. */
  function Key(g: GameEntry): string { Lower(g.processName) }

  predicate Listed(games: seq<GameEntry>, processName: string)
  {
    exists i :: 0 <= i < |games| && Key(games[i]) == Lower(processName)
  }

  /** `add_game_to_whitelist`: refused when an entry has the same process name up to
      case, otherwise appended. */
  function AddGame(file: Result<GameWhitelist>, game: GameEntry): (r: Result<GameWhitelist>)
    ensures file.Err? ==> r == Err(file.error)
    ensures file.Ok? && Listed(file.value.games, game.processName) ==> r == Err("Game already exists in whitelist")
    ensures file.Ok? && !Listed(file.value.games, game.processName) ==> r == Ok(GameWhitelist(file.value.games + [game]))
  {
    if file.Err? then Err(file.error)
    else if Listed(file.value.games, game.processName) then Err("Game already exists in whitelist")
    else Ok(GameWhitelist(file.value.games + [game]))
  }

  /** The filter of `remove_game_from_whitelist`. */
  function Keeps(processName: string): GameEntry -> bool
  {
    (g: GameEntry) => Key(g) != Lower(processName)
  }

  /** `remove_game_from_whitelist`: every entry with the process name up to case is
      dropped, the rest keep their order; refused when none was there. */
  function RemoveGame(file: Result<GameWhitelist>, processName: string): (r: Result<GameWhitelist>)
    ensures file.Err? ==> r == Err(file.error)
    ensures file.Ok? ==> (r.Err? <==> !Listed(file.value.games, processName))
    ensures file.Ok? && r.Err? ==> r.error == "Game not found in whitelist"
    ensures r.Ok? ==> !Listed(r.value.games, processName)
    ensures r.Ok? ==> forall g :: g in file.value.games && Key(g) != Lower(processName) ==> g in r.value.games
    ensures r.Ok? ==> forall g :: g in r.value.games ==> g in file.value.games
  {
    if file.Err? then Err(file.error)
    else
      var games := file.value.games;
      var kept := Retain(games, Keeps(processName));
      RetainAll(games, Keeps(processName));
      if |kept| == |games| then
        assert kept == games by { SameLengthRetain(games, Keeps(processName)); }
        Err("Game not found in whitelist")
      else
        assert !Listed(kept, processName) by {
          forall i | 0 <= i < |kept| ensures Key(kept[i]) != Lower(processName) {
            assert Keeps(processName)(kept[i]);
          }
        }
        Ok(GameWhitelist(kept))
  }

  /** Retaining keeps the length only when it keeps everything. */
  lemma {:induction false} SameLengthRetain<T>(xs: seq<T>, keep: T -> bool)
    requires |Retain(xs, keep)| == |xs|
    ensures Retain(xs, keep) == xs
    decreases |xs|
  {
    if |xs| > 0 {
      if keep(xs[0]) {
        SameLengthRetain(xs[1..], keep);
      }
    }
  }

  /** Retaining after appending a dropped record to fully kept ones gives them back. */
  lemma {:induction false} RetainDropsLast<T>(xs: seq<T>, x: T, keep: T -> bool)
    requires forall i :: 0 <= i < |xs| ==> keep(xs[i])
    requires !keep(x)
    ensures Retain(xs + [x], keep) == xs
    decreases |xs|
  {
    if |xs| == 0 {
      assert [] + [x] == [x];
      assert [x][1..] == [];
    } else {
      assert (xs + [x])[0] == xs[0];
      assert (xs + [x])[1..] == xs[1..] + [x];
      RetainDropsLast(xs[1..], x, keep);
    }
  }

  /** Adding a game and then removing it by its process name restores the whitelist. */
  lemma AddThenRemove(w: GameWhitelist, game: GameEntry)
    requires AddGame(Ok(w), game).Ok?
    ensures RemoveGame(AddGame(Ok(w), game), game.processName) == Ok(w)
  {
    var keep := Keeps(game.processName);
    forall i | 0 <= i < |w.games|
      ensures keep(w.games[i])
    {
      assert Key(w.games[i]) != Lower(game.processName);
    }
    RetainDropsLast(w.games, game, keep);
    assert Listed(w.games + [game], game.processName) by {
      assert Key((w.games + [game])[|w.games|]) == Lower(game.processName);
    }
  }

  /** `toggle_game_enabled`: the first entry with the process name up to case gets the
      flag; refused when there is none. */
  function ToggleGame(file: Result<GameWhitelist>, processName: string, enabled: bool): (r: Result<GameWhitelist>)
    ensures file.Err? ==> r == Err(file.error)
    ensures file.Ok? ==> (r.Err? <==> !Listed(file.value.games, processName))
    ensures file.Ok? && r.Err? ==> r.error == "Game not found in whitelist"
    ensures r.Ok? ==>
      var (before, after) := (file.value.games, r.value.games);
      && |after| == |before|
      && exists k :: (
        && 0 <= k < |before| && Key(before[k]) == Lower(processName)
        && (forall j :: 0 <= j < k ==> Key(before[j]) != Lower(processName))
        && after[k] == before[k].(enabled := enabled)
        && forall j :: 0 <= j < |before| && j != k ==> after[j] == before[j])
  {
    if file.Err? then Err(file.error)
    else
      var games := file.value.games;
      match IndexOf(games, Key, Lower(processName))
      case None => Err("Game not found in whitelist")
      case Some(k) => Ok(GameWhitelist(games[k := games[k].(enabled := enabled)]))
  }

  /** Toggling to the same flag twice is the same as toggling once. */
  lemma ToggleIdempotent(w: GameWhitelist, processName: string, enabled: bool)
    ensures var once := ToggleGame(Ok(w), processName, enabled);
      once.Ok? ==> ToggleGame(once, processName, enabled) == once
  {
    var once := ToggleGame(Ok(w), processName, enabled);
    if once.Ok? {
      var k := IndexOf(w.games, Key, Lower(processName)).value;
      var g := once.value.games;
      assert forall j :: 0 <= j < |g| ==> Key(g[j]) == Key(w.games[j]);
      assert IndexOf(g, Key, Lower(processName)) == Some(k);
      assert g[k := g[k].(enabled := enabled)] == g;
    }
  }

  // ---------------------------------------------------------------- sessions

  /** `get_gaming_sessions`: the list, or none when the file cannot be read. */
  function GamingSessions(file: Result<seq<GamingSession>>): (r: seq<GamingSession>)
    ensures file.Ok? ==> r == file.value
    ensures file.Err? ==> r == []
  {
    ListedSessions(file)
  }

  /** `get_session_details`: the data saved for the session, `None` when there is no
      such file. */
  function SessionDetails(m: Manager, sessionId: string): (r: Option<GamingSessionData>)
    ensures r.Some? <==> sessionId in m.saved
    ensures r.Some? ==> r.value == m.saved[sessionId]
  {
    if sessionId in m.saved then Some(m.saved[sessionId]) else None
  }

  function KeepsOther(sessionId: string): GamingSession -> bool
  {
    (s: GamingSession) => s.id != sessionId
  }

  /** `delete_gaming_session`: every listed session with the id is dropped and its data
      file removed; other sessions and files are kept. The list is read as
      `get_gaming_sessions` reads it, so an unreadable list is written back empty. The
      active session, if any, is left alone. */
  function DeleteGamingSession(m: Manager, sessionId: string): (r: Manager)
    ensures r.active == m.active
    ensures r.sessions.Ok?
    ensures m.sessions.Err? ==> r.sessions == Ok([])
    ensures forall s :: s in r.sessions.value ==> s in GamingSessions(m.sessions) && s.id != sessionId
    ensures forall s :: s in GamingSessions(m.sessions) && s.id != sessionId ==> s in r.sessions.value
    ensures sessionId !in r.saved
    ensures forall id :: id in m.saved && id != sessionId ==> id in r.saved && r.saved[id] == m.saved[id]
  {
    var listed := GamingSessions(m.sessions);
    var kept := Retain(listed, KeepsOther(sessionId));
    assert forall s :: s in kept ==> s.id != sessionId by {
      forall s | s in kept ensures s.id != sessionId {
        var i :| 0 <= i < |kept| && kept[i] == s;
        assert KeepsOther(sessionId)(kept[i]);
      }
    }
    assert forall s :: s in listed && s.id != sessionId ==> s in kept by {
      forall s | s in listed && s.id != sessionId ensures s in kept {
        var i :| 0 <= i < |listed| && listed[i] == s;
        assert KeepsOther(sessionId)(listed[i]);
      }
    }
    m.(sessions := Ok(kept), saved := m.saved - {sessionId})
  }

  /** Deleting twice is deleting once. */
  lemma DeleteIdempotent(m: Manager, sessionId: string)
    ensures DeleteGamingSession(DeleteGamingSession(m, sessionId), sessionId) == DeleteGamingSession(m, sessionId)
  {
    var once := DeleteGamingSession(m, sessionId);
    var kept := once.sessions.value;
    RetainAll(kept, KeepsOther(sessionId));
    forall j | 0 <= j < |kept|
      ensures KeepsOther(sessionId)(kept[j])
    {
      assert kept[j] in kept;
    }
    assert once.saved - {sessionId} == once.saved;
  }

  // ---------------------------------------------------------------- thresholds

  /** `get_bottleneck_thresholds`: the file's thresholds, the defaults when it cannot
      be read. */
  function Thresholds(file: Option<BottleneckThresholds>): (r: BottleneckThresholds)
    ensures file.Some? ==> r == file.value
    ensures file.None? ==> r == BottleneckThresholds(
      /* cpuHigh */ 90.0, /* gpuHigh */ 90.0, /* cpuLow */ 70.0, /* gpuLow */ 70.0, /* ramHigh */ 90.0,
      /* ramAvailableMinMb */ 2048, /* vramHigh */ 90.0, /* cpuThermalLimit */ 90.0, /* gpuThermalLimit */ 85.0)
  {
    file.GetOr(DefaultThresholds)
  }
}

=== FILE: gaming_session.dfy ===
/** The gaming session manager: one active session at a time, the per-tick
    recording of metrics snapshots with the bottleneck-event tracker, and the
    summary computed when the session ends.

    The recording thread, its sleeps and the shared metrics source are outside the
    model: a run of the recorder is a sequence of readings, `None` for a tick on
    which no metrics were available. Clock values and session ids are parameters. */
module GamingSession {
  import opened Wrappers
  import opened Numeric
  import opened Sorting
  import opened Records
  import opened Bottleneck

  // ---------------------------------------------------------------- data

  datatype BottleneckEvent = BottleneckEvent(
    timestamp: int,
    bottleneckType: BottleneckType,
    severity: nat,
    durationSeconds: Option<real>,
    metrics: MetricsSnapshot)

  datatype SessionStatus = Active | Completed | Cancelled

  datatype MetricStats = MetricStats(avg: real, min: real, max: real, p95: real)

  datatype BottleneckBreakdown = BottleneckBreakdown(
    bottleneckType: BottleneckType,
    durationSeconds: real,
    percentage: real,
    eventCount: nat)

  datatype SessionSummary = SessionSummary(
    durationSeconds: real,
    cpu: MetricStats,
    topCore1: Option<MetricStats>,
    topCore2: Option<MetricStats>,
    gpu: Option<MetricStats>,
    ram: MetricStats,
    vram: Option<MetricStats>,
    cpuTemp: Option<MetricStats>,
    gpuTemp: Option<MetricStats>,
    totalBottleneckSeconds: real,
    dominantBottleneck: BottleneckType,
    bottleneckBreakdown: seq<BottleneckBreakdown>,
    totalBottleneckEvents: nat)

  datatype GamingSession = GamingSession(
    id: string,
    gameName: string,
    processName: string,
    startTime: string,
    endTime: Option<string>,
    status: SessionStatus,
    summary: Option<SessionSummary>)

  datatype GamingSessionData = GamingSessionData(
    session: GamingSession,
    snapshots: seq<MetricsSnapshot>,
    bottleneckEvents: seq<BottleneckEvent>)

  // ---------------------------------------------------------------- bottleneck events

  /** Milliseconds between two timestamps, as seconds. */
  function ElapsedSeconds(from: int, to: int): real
  {
    (to - from) as real / 1000.0
  }

  predicate IsOpen(e: BottleneckEvent) { e.durationSeconds.None? }

  /** The last event is still open. */
  predicate OpenTail(events: seq<BottleneckEvent>)
  {
    |events| > 0 && IsOpen(events[|events| - 1])
  }

  /** Closes an open last event at `ts`; a closed or missing last event is left alone. */
  function CloseLast(events: seq<BottleneckEvent>, ts: int): (r: seq<BottleneckEvent>)
    ensures |r| == |events| && !OpenTail(r)
    ensures forall i :: 0 <= i < |events| - 1 ==> r[i] == events[i]
    ensures |events| > 0 ==>
      var (e, c) := (events[|events| - 1], r[|events| - 1]);
      && c.timestamp == e.timestamp && c.bottleneckType == e.bottleneckType
      && c.severity == e.severity && c.metrics == e.metrics
      && (!IsOpen(e) ==> c == e)
      && (IsOpen(e) ==> c.durationSeconds == Some(ElapsedSeconds(e.timestamp, ts)))
  {
    if OpenTail(events) then
      var e := events[|events| - 1];
      events[|events| - 1 := e.(durationSeconds := Some(ElapsedSeconds(e.timestamp, ts)))]
    else events
  }

  /** One recording tick's bottleneck bookkeeping: when the detected type differs from
      the current one, the open event is closed at the snapshot's time and, unless the
      new type is balanced, an open event of the new type starts. */
  function Transition(events: seq<BottleneckEvent>, current: Option<BottleneckType>,
                      snapshot: MetricsSnapshot, status: CurrentBottleneckStatus)
    : (r: (seq<BottleneckEvent>, Option<BottleneckType>))
    ensures current == Some(status.bottleneckType) ==> r == (events, current)
    ensures r.1 == Some(status.bottleneckType)
    ensures current != Some(status.bottleneckType) ==>
      && |r.0| == |events| + (if status.bottleneckType == Balanced then 0 else 1)
      && r.0[..|events|] == CloseLast(events, snapshot.timestamp)
      && (status.bottleneckType != Balanced ==>
            r.0[|events|] == BottleneckEvent(snapshot.timestamp, status.bottleneckType, status.severity, None, snapshot))
  {
    var t := status.bottleneckType;
    if Some(t) == current then (events, current)
    else
      var closed := CloseLast(events, snapshot.timestamp);
      var added := if t != Balanced then closed + [BottleneckEvent(snapshot.timestamp, t, status.severity, None, snapshot)] else closed;
      assert added[..|events|] == closed;
      (added, Some(t))
  }

  /** What the tracker keeps true: no balanced events, only the last event may be
      open, and it is open exactly while the current type is a bottleneck, of which
      it is the event. */
  predicate Consistent(events: seq<BottleneckEvent>, current: Option<BottleneckType>)
  {
    && (forall i :: 0 <= i < |events| ==> events[i].bottleneckType != Balanced)
    && (forall i :: 0 <= i < |events| - 1 ==> !IsOpen(events[i]))
    && (OpenTail(events) <==> current.Some? && current.value != Balanced)
    && (OpenTail(events) ==> events[|events| - 1].bottleneckType == current.value)
  }

  lemma TransitionConsistent(events: seq<BottleneckEvent>, current: Option<BottleneckType>,
                             snapshot: MetricsSnapshot, status: CurrentBottleneckStatus)
    requires Consistent(events, current)
    ensures var r := Transition(events, current, snapshot, status); Consistent(r.0, r.1)
  {
    var r := Transition(events, current, snapshot, status);
    if current != Some(status.bottleneckType) {
      var closed := CloseLast(events, snapshot.timestamp);
      assert r.0[..|events|] == closed;
      forall i | 0 <= i < |r.0|
        ensures r.0[i].bottleneckType != Balanced
      {
        if i < |events| {
          assert r.0[i] == closed[i];
        }
      }
      forall i | 0 <= i < |r.0| - 1
        ensures !IsOpen(r.0[i])
      {
        assert r.0[i] == closed[i];
      }
    }
  }

  // ---------------------------------------------------------------- recording

  /** Readings discarded at the start of a recording. */
  const WARMUP_SAMPLES: nat := 3

  datatype Recorder = Recorder(
    snapshots: seq<MetricsSnapshot>,
    events: seq<BottleneckEvent>,
    current: Option<BottleneckType>,
    warmup: nat)

  function NewRecorder(): Recorder
  {
    Recorder([], [], None, 0)
  }

  /** One pass of the recording loop: no reading does nothing, the first readings only
      count the warm-up, later ones are stored and tracked. */
  function RecordTick(rec: Recorder, reading: Option<MetricsSnapshot>, t: BottleneckThresholds): (r: Recorder)
    ensures reading.None? ==> r == rec
    ensures reading.Some? && rec.warmup < WARMUP_SAMPLES ==> r == rec.(warmup := rec.warmup + 1)
    ensures reading.Some? && rec.warmup >= WARMUP_SAMPLES ==>
      && r.snapshots == rec.snapshots + [reading.value]
      && r.warmup == rec.warmup
      && (r.events, r.current) == Transition(rec.events, rec.current, reading.value, Analyze(reading.value, t))
  {
    match reading
    case None => rec
    case Some(s) =>
      if rec.warmup < WARMUP_SAMPLES then rec.(warmup := rec.warmup + 1)
      else
        var (events, current) := Transition(rec.events, rec.current, s, Analyze(s, t));
        Recorder(rec.snapshots + [s], events, current, rec.warmup)
  }

  /** The recorder after a run of ticks. */
  function RecordRun(rec: Recorder, readings: seq<Option<MetricsSnapshot>>, t: BottleneckThresholds): Recorder
    decreases |readings|
  {
    if |readings| == 0 then rec else RecordRun(RecordTick(rec, readings[0], t), readings[1..], t)
  }

  /** The readings that were available, in order. */
  function Available(readings: seq<Option<MetricsSnapshot>>): seq<MetricsSnapshot>
    decreases |readings|
  {
    if |readings| == 0 then []
    else (if readings[0].Some? then [readings[0].value] else []) + Available(readings[1..])
  }

  /** All but the first `k` elements (none when there are at most `k`). */
  function Drop<T>(xs: seq<T>, k: nat): (r: seq<T>)
    ensures |r| == if k >= |xs| then 0 else |xs| - k
  {
    if k >= |xs| then [] else xs[k..]
  }

  /** The recorder keeps exactly the available readings after the first three. */
  lemma {:induction false} WarmupDiscards(rec: Recorder, readings: seq<Option<MetricsSnapshot>>, t: BottleneckThresholds)
    requires rec.warmup <= WARMUP_SAMPLES
    ensures RecordRun(rec, readings, t).snapshots == rec.snapshots + Drop(Available(readings), WARMUP_SAMPLES - rec.warmup)
    decreases |readings|
  {
    if |readings| == 0 {
      assert rec.snapshots + [] == rec.snapshots;
    } else {
      var next := RecordTick(rec, readings[0], t);
      assert RecordRun(rec, readings, t) == RecordRun(next, readings[1..], t);
      WarmupDiscards(next, readings[1..], t);
      TickDrops(rec, readings[0], Available(readings[1..]), t);
    }
  }

  /** One tick moves the reading, if any, from the pending readings into the
      snapshots, or counts it against the warm-up. */
  lemma TickDrops(rec: Recorder, reading: Option<MetricsSnapshot>, rest: seq<MetricsSnapshot>, t: BottleneckThresholds)
    requires rec.warmup <= WARMUP_SAMPLES
    ensures var next := RecordTick(rec, reading, t);
      && next.warmup <= WARMUP_SAMPLES
      && next.snapshots + Drop(rest, WARMUP_SAMPLES - next.warmup)
         == rec.snapshots + Drop((if reading.Some? then [reading.value] else []) + rest, WARMUP_SAMPLES - rec.warmup)
  {
    var k := WARMUP_SAMPLES - rec.warmup;
    if reading.None? {
      assert [] + rest == rest;
    } else if rec.warmup < WARMUP_SAMPLES {
      DropCons(reading.value, rest, k);
    } else {
      assert rec.snapshots + [reading.value] + rest == rec.snapshots + ([reading.value] + rest);
    }
  }

  lemma DropCons<T>(x: T, xs: seq<T>, k: nat)
    requires k > 0
    ensures Drop([x] + xs, k) == Drop(xs, k - 1)
  {
    if k - 1 < |xs| {
      assert ([x] + xs)[k..] == xs[k - 1..];
    }
  }

  /** A fresh recorder stores nothing until three readings have been skipped. */
  lemma NewRecorderSkipsThree(readings: seq<Option<MetricsSnapshot>>, t: BottleneckThresholds)
    ensures RecordRun(NewRecorder(), readings, t).snapshots == Drop(Available(readings), 3)
  {
    WarmupDiscards(NewRecorder(), readings, t);
    assert [] + Drop(Available(readings), 3) == Drop(Available(readings), 3);
  }

  /** The recorder's invariant: the tracker is consistent, and an event exists only
      once a snapshot has been stored. */
  predicate RecorderOk(rec: Recorder)
  {
    Consistent(rec.events, rec.current) && (|rec.events| > 0 ==> |rec.snapshots| > 0)
  }

  lemma {:induction false} RecordRunOk(rec: Recorder, readings: seq<Option<MetricsSnapshot>>, t: BottleneckThresholds)
    requires RecorderOk(rec)
    ensures RecorderOk(RecordRun(rec, readings, t))
    decreases |readings|
  {
    if |readings| > 0 {
      if readings[0].Some? && rec.warmup >= WARMUP_SAMPLES {
        TransitionConsistent(rec.events, rec.current, readings[0].value, Analyze(readings[0].value, t));
      }
      RecordRunOk(RecordTick(rec, readings[0], t), readings[1..], t);
    }
  }

  // ---------------------------------------------------------------- metric statistics

  /** The smallest value (`fold(INFINITY, f32::min)` on a non-empty list). */
  function Min(xs: seq<real>): (r: real)
    requires |xs| > 0
    ensures r in xs && forall i :: 0 <= i < |xs| ==> r <= xs[i]
  {
    if |xs| == 1 then xs[0]
    else
      var m := Min(xs[..|xs| - 1]);
      assert forall i :: 0 <= i < |xs| - 1 ==> xs[..|xs| - 1][i] == xs[i];
      if xs[|xs| - 1] < m then xs[|xs| - 1] else m
  }

  /** The largest value. */
  function Max(xs: seq<real>): (r: real)
    requires |xs| > 0
    ensures r in xs && forall i :: 0 <= i < |xs| ==> xs[i] <= r
  {
    if |xs| == 1 then xs[0]
    else
      var m := Max(xs[..|xs| - 1]);
      assert forall i :: 0 <= i < |xs| - 1 ==> xs[..|xs| - 1][i] == xs[i];
      if xs[|xs| - 1] > m then xs[|xs| - 1] else m
  }

  function Ascending(): (real, real) -> bool
  {
    (a: real, b: real) => a <= b
  }

  function Below(p: real): real -> bool { (x: real) => x < p }

  function AtMost(p: real): real -> bool { (x: real) => x <= p }

  /** `min((n * 0.95) as usize, n - 1)`. */
  function P95Index(n: nat): (k: nat)
    requires n > 0
    ensures k < n
  {
    if 95 * n / 100 < n - 1 then 95 * n / 100 else n - 1
  }

  /** `calculate_stats`: zeros for no values, else mean, minimum, maximum and the value
      at the 95th-percentile position of the ascending sort. */
  function CalculateStats(values: seq<real>): (r: MetricStats)
    ensures |values| == 0 ==> r == MetricStats(0.0, 0.0, 0.0, 0.0)
    ensures |values| > 0 ==>
      && r.avg == Mean(values)
      && r.min in values && r.max in values && r.p95 in values
      && forall i :: 0 <= i < |values| ==> r.min <= values[i] <= r.max
  {
    if |values| == 0 then MetricStats(0.0, 0.0, 0.0, 0.0)
    else
      var sorted := SortBy(values, Ascending());
      var k := P95Index(|values|);
      assert sorted[k] in multiset(values) by {
        assert sorted[k] in multiset(sorted);
      }
      MetricStats(Mean(values), Min(values), Max(values), sorted[k])
  }

  /** The statistics are ordered: the minimum is at most the mean and the percentile,
      which are at most the maximum. */
  lemma StatsOrdered(values: seq<real>)
    requires |values| > 0
    ensures var r := CalculateStats(values);
      r.min <= r.avg <= r.max && r.min <= r.p95 <= r.max
  {
    var r := CalculateStats(values);
    MeanAtLeast(values, r.min);
    MeanAtMost(values, r.max);
  }

  /** The percentile is the value of rank `P95Index(n)`: fewer than that many values lie
      strictly below it, and more than that many lie at or below it. */
  lemma StatsP95Rank(values: seq<real>)
    requires |values| > 0
    ensures var p := CalculateStats(values).p95;
      CountBy(values, Below(p)) <= P95Index(|values|) < CountBy(values, AtMost(p))
  {
    var sorted := SortBy(values, Ascending());
    var k := P95Index(|values|);
    var p := sorted[k];
    assert CalculateStats(values).p95 == p;
    AscendingSorted(values);
    CountByPerm(values, sorted, Below(p));
    CountByPerm(values, sorted, AtMost(p));
    RankBelow(sorted, k);
    RankAtMost(sorted, k);
  }

  /** In an ascending list, at most `k` values lie strictly below the `k`-th. */
  lemma RankBelow(s: seq<real>, k: nat)
    requires k < |s| && Ascends(s)
    ensures CountBy(s, Below(s[k])) <= k
  {
    var p := s[k];
    var pre, post := s[..k], s[k..];
    assert s == pre + post;
    CountByAppend(pre, post, Below(p));
    forall j | 0 <= j < |post|
      ensures !Below(p)(post[j])
    {
      assert post[j] == s[k + j];
    }
    CountByNone(post, Below(p));
  }

  /** In an ascending list, more than `k` values lie at or below the `k`-th. */
  lemma RankAtMost(s: seq<real>, k: nat)
    requires k < |s| && Ascends(s)
    ensures CountBy(s, AtMost(s[k])) > k
  {
    var p := s[k];
    var pre, post := s[..k + 1], s[k + 1..];
    assert s == pre + post;
    CountByAppend(pre, post, AtMost(p));
    forall j | 0 <= j < |pre|
      ensures AtMost(p)(pre[j])
    {
      assert pre[j] == s[j];
    }
    CountByAll(pre, AtMost(p));
  }

  predicate Ascends(s: seq<real>)
  {
    forall i, j :: 0 <= i <= j < |s| ==> s[i] <= s[j]
  }

  /** The ascending sort is sorted, spelled out on the values. */
  lemma AscendingSorted(values: seq<real>)
    ensures Ascends(SortBy(values, Ascending()))
  {
    var le := Ascending();
    assert Total(le) && Transitive(le);
    SortBySorted(values, le);
    SortedAscends(SortBy(values, le));
  }

  lemma SortedAscends(s: seq<real>)
    requires SortedBy(s, Ascending())
    ensures Ascends(s)
  {
    forall i, j | 0 <= i < j < |s|
      ensures s[i] <= s[j]
    {
      assert Ascending()(s[i], s[j]);
    }
  }

  // ---------------------------------------------------------------- top cores

  /** `enumerate()` of the per-core usages. */
  function Enumerate(u: seq<real>): (r: seq<(nat, real)>)
    ensures |r| == |u| && forall i :: 0 <= i < |u| ==> r[i] == (i, u[i])
  {
    seq(|u|, i requires 0 <= i < |u| => (i, u[i]))
  }

  function CoreIndex(p: (nat, real)): int { p.0 }

  function CoreInfo(p: (nat, real)): TopCoreInfo { TopCoreInfo(p.0, p.1) }

  /** Busier first, as `partial_cmp` on the usages with the arguments swapped. */
  function CoreOrder(): ((nat, real), (nat, real)) -> bool
  {
    (a: (nat, real), b: (nat, real)) => a.1 >= b.1
  }

  lemma CoreOrderProps()
    ensures Total(CoreOrder()) && Transitive(CoreOrder())
  {
  }

  function SortedCores(u: seq<real>): seq<(nat, real)>
  {
    SortBy(Enumerate(u), CoreOrder())
  }

  /** `get_top_two_cores`: the first two of the cores stably sorted by usage, largest
      first. */
  function TopTwoCores(u: seq<real>): (r: (Option<TopCoreInfo>, Option<TopCoreInfo>))
    ensures r.0.None? <==> |u| == 0
    ensures r.1.None? <==> |u| < 2
  {
    if |u| == 0 then (None, None)
    else
      var sorted := SortedCores(u);
      (Some(CoreInfo(sorted[0])), if |sorted| > 1 then Some(CoreInfo(sorted[1])) else None)
  }

  /** The first core: a valid index, the largest usage, and the lowest index among the
      cores with that usage. */
  lemma TopCoreFirst(u: seq<real>)
    requires |u| > 0
    ensures var c := TopTwoCores(u).0.value;
      && c.coreIndex < |u| && c.usagePercent == u[c.coreIndex]
      && (forall i :: 0 <= i < |u| ==> u[i] <= c.usagePercent)
      && (forall i :: 0 <= i < |u| && u[i] == c.usagePercent ==> c.coreIndex <= i)
  {
    var s := SortedCores(u);
    SortedCoresFacts(u);
    var v := s[0];
    forall i | 0 <= i < |u|
      ensures u[i] <= v.1
    {
      var k := Position(u, i);
      assert k == 0 || s[0].1 >= s[k].1;
    }
    forall i | 0 <= i < |u| && u[i] == v.1
      ensures v.0 <= i
    {
      FirstTieIndex(u, 0, i);
    }
  }

  /** The second core: a valid index other than the first's, the largest usage among
      the other cores, and the lowest index among the other cores with that usage. */
  lemma TopCoreSecond(u: seq<real>)
    requires |u| > 1
    ensures var (c1, c2) := (TopTwoCores(u).0.value, TopTwoCores(u).1.value);
      && c2.coreIndex < |u| && c2.usagePercent == u[c2.coreIndex]
      && c2.coreIndex != c1.coreIndex && c2.usagePercent <= c1.usagePercent
      && (forall i :: 0 <= i < |u| && i != c1.coreIndex ==> u[i] <= c2.usagePercent)
      && (forall i :: 0 <= i < |u| && i != c1.coreIndex && u[i] == c2.usagePercent ==> c2.coreIndex <= i)
  {
    var s := SortedCores(u);
    SortedCoresFacts(u);
    var (v, w) := (s[0], s[1]);
    SecondDistinct(u);
    forall i | 0 <= i < |u| && i != v.0
      ensures u[i] <= w.1
    {
      var k := Position(u, i);
      assert k != 0;
      assert k == 1 || s[1].1 >= s[k].1;
    }
    forall i | 0 <= i < |u| && i != v.0 && u[i] == w.1
      ensures w.0 <= i
    {
      if w.1 == v.1 {
        SecondTieIndex(u, i);
      } else {
        FirstTieIndex(u, 1, i);
      }
    }
  }

  /** The facts of the sort used above, each spelled out on usages. */
  lemma SortedCoresFacts(u: seq<real>)
    ensures var s := SortedCores(u);
      && |s| == |u|
      && (forall i, j :: 0 <= i < j < |s| ==> s[i].1 >= s[j].1)
      && (forall k :: 0 <= k < |s| ==> s[k].0 < |u| && s[k].1 == u[s[k].0])
  {
    var xs := Enumerate(u);
    var le := CoreOrder();
    var s := SortedCores(u);
    CoreOrderProps();
    SortBySorted(xs, le);
    forall i, j | 0 <= i < j < |s|
      ensures s[i].1 >= s[j].1
    {
      assert le(s[i], s[j]);
    }
    forall k | 0 <= k < |s|
      ensures s[k].0 < |u| && s[k].1 == u[s[k].0]
    {
      assert s[k] in multiset(s);
      assert s[k] in multiset(xs);
    }
  }

  /** The sort is stable on ties of usage. */
  lemma SortedCoresStable(u: seq<real>, v: (nat, real))
    ensures Ties(SortedCores(u), CoreOrder(), v) == Ties(Enumerate(u), CoreOrder(), v)
  {
    CoreOrderProps();
    SortByStable(Enumerate(u), CoreOrder(), v);
  }

  lemma CoreOrderIff(a: (nat, real), b: (nat, real))
    ensures CoreOrder()(a, b) <==> a.1 >= b.1
  {
  }

  /** Where core `i` lands in the sorted list. */
  lemma Position(u: seq<real>, i: nat) returns (k: nat)
    requires i < |u|
    ensures k < |u| && SortedCores(u)[k] == (i, u[i])
  {
    var s := SortedCores(u);
    assert (i, u[i]) == Enumerate(u)[i];
    assert (i, u[i]) in multiset(Enumerate(u));
    assert (i, u[i]) in multiset(s);
    k :| 0 <= k < |s| && s[k] == (i, u[i]);
  }

  /** The ties of any value list the cores in index order, and contain every core of
      that usage. */
  lemma CoreTies(u: seq<real>, v: (nat, real), i: nat) returns (n: nat)
    requires i < |u| && u[i] == v.1
    ensures var t := Ties(Enumerate(u), CoreOrder(), v);
      n < |t| && t[n] == (i, u[i]) && IncreasingBy(t, CoreIndex)
  {
    var xs := Enumerate(u);
    var le := CoreOrder();
    assert IncreasingBy(xs, CoreIndex);
    TiesOrdered(xs, le, v, CoreIndex);
    assert xs[i] == (i, u[i]);
    CoreOrderIff(xs[i], v);
    CoreOrderIff(v, xs[i]);
    TiesMember(xs, le, v, i);
    var t := Ties(xs, le, v);
    n :| 0 <= n < |t| && t[n] == (i, u[i]);
  }

  /** A sorted entry not tied with the one before it has the lowest index among the
      cores of its usage. */
  lemma FirstTieIndex(u: seq<real>, k: nat, i: nat)
    requires k < |u| && (k == 0 || SortedCores(u)[k - 1].1 != SortedCores(u)[k].1)
    requires i < |u| && u[i] == SortedCores(u)[k].1
    ensures SortedCores(u)[k].0 <= i
  {
    var s := SortedCores(u);
    var le := CoreOrder();
    var v := s[k];
    SortedCoresFacts(u);
    SortedCoresStable(u, v);
    var t := Ties(s, le, v);
    assert s == s[..k] + s[k..];
    TiesAppend(s[..k], s[k..], le, v);
    forall j | 0 <= j < |s[..k]|
      ensures !(le(s[..k][j], v) && le(v, s[..k][j]))
    {
      assert s[..k][j] == s[j];
      assert s[j].1 >= s[k - 1].1 >= s[k].1;
      CoreOrderIff(v, s[j]);
    }
    TiesNone(s[..k], le, v);
    TiesCons(s[k..], le, v);
    assert s[k..][0] == v;
    CoreOrderIff(v, v);
    assert t[0] == v;
    var n := CoreTies(u, v, i);
    assert n == 0 || CoreIndex(t[0]) < CoreIndex(t[n]);
  }

  /** The first two sorted entries are different cores. */
  lemma SecondDistinct(u: seq<real>)
    requires |u| > 1
    ensures SortedCores(u)[0].0 != SortedCores(u)[1].0
  {
    var s := SortedCores(u);
    SortedCoresFacts(u);
    if s[0].1 == s[1].1 {
      HeadTies(u);
    }
  }

  /** When the first two sorted entries have the same usage, they head their ties. */
  lemma HeadTies(u: seq<real>)
    requires |u| > 1
    requires SortedCores(u)[0].1 == SortedCores(u)[1].1
    ensures var t := Ties(Enumerate(u), CoreOrder(), SortedCores(u)[0]);
      |t| > 1 && t[0] == SortedCores(u)[0] && t[1] == SortedCores(u)[1] && IncreasingBy(t, CoreIndex)
  {
    var s := SortedCores(u);
    var le := CoreOrder();
    var v := s[0];
    SortedCoresFacts(u);
    SortedCoresStable(u, v);
    TiesCons(s, le, v);
    TiesCons(s[1..], le, v);
    CoreOrderIff(v, v);
    CoreOrderIff(s[1], v);
    CoreOrderIff(v, s[1]);
    assert s[1..][0] == s[1];
    var n := CoreTies(u, v, v.0);
  }

  /** Second core tied with the first: the next tie in index order. */
  lemma SecondTieIndex(u: seq<real>, i: nat)
    requires |u| > 1 && SortedCores(u)[0].1 == SortedCores(u)[1].1
    requires i < |u| && i != SortedCores(u)[0].0 && u[i] == SortedCores(u)[1].1
    ensures SortedCores(u)[1].0 <= i
  {
    var s := SortedCores(u);
    SortedCoresFacts(u);
    HeadTies(u);
    var t := Ties(Enumerate(u), CoreOrder(), s[0]);
    var n := CoreTies(u, s[0], i);
    assert n != 0;
    assert n == 1 || CoreIndex(t[1]) < CoreIndex(t[n]);
  }

  // ---------------------------------------------------------------- bottleneck breakdown

  /** What an event adds to its type's time: its duration, nothing while still open. */
  function EventSeconds(e: BottleneckEvent): real
  {
    e.durationSeconds.GetOr(0.0)
  }

  /** Reference total of the time of the events of one type. */
  function SecondsOfType(events: seq<BottleneckEvent>, k: BottleneckType): real
  {
    if |events| == 0 then 0.0
    else
      var e := events[|events| - 1];
      SecondsOfType(events[..|events| - 1], k) + (if e.bottleneckType == k then EventSeconds(e) else 0.0)
  }

  /** Reference count of the events of one type. */
  function CountOfType(events: seq<BottleneckEvent>, k: BottleneckType): nat
  {
    if |events| == 0 then 0
    else CountOfType(events[..|events| - 1], k) + (if events[|events| - 1].bottleneckType == k then 1 else 0)
  }

  /** Reference total of the time of all events that are not balanced. */
  function BottleneckEventSeconds(events: seq<BottleneckEvent>): real
  {
    if |events| == 0 then 0.0
    else
      var e := events[|events| - 1];
      BottleneckEventSeconds(events[..|events| - 1]) + (if e.bottleneckType != Balanced then EventSeconds(e) else 0.0)
  }

  function TypesOf(events: seq<BottleneckEvent>): set<BottleneckType>
  {
    set i | 0 <= i < |events| :: events[i].bottleneckType
  }

  /** One entry of the per-type map: total seconds and number of events. */
  datatype TallyEntry = TallyEntry(bottleneckType: BottleneckType, seconds: real, count: nat)

  /** The totals recorded for a type, `(0, 0)` when it has no entry. */
  function Lookup(t: seq<TallyEntry>, k: BottleneckType): (real, nat)
  {
    if |t| == 0 then (0.0, 0)
    else if t[0].bottleneckType == k then (t[0].seconds, t[0].count)
    else Lookup(t[1..], k)
  }

  function TallyTypes(t: seq<TallyEntry>): set<BottleneckType>
  {
    set i | 0 <= i < |t| :: t[i].bottleneckType
  }

  predicate DistinctTypes(t: seq<TallyEntry>)
  {
    forall i, j :: 0 <= i < j < |t| ==> t[i].bottleneckType != t[j].bottleneckType
  }

  lemma TallyTypesCons(x: TallyEntry, t: seq<TallyEntry>)
    ensures TallyTypes([x] + t) == {x.bottleneckType} + TallyTypes(t)
  {
    var r := [x] + t;
    assert r[0] == x;
    forall y | y in TallyTypes(r) ensures y in {x.bottleneckType} + TallyTypes(t) {
      var i :| 0 <= i < |r| && r[i].bottleneckType == y;
      if i > 0 { assert r[i] == t[i - 1]; }
    }
    forall y | y in TallyTypes(t) ensures y in TallyTypes(r) {
      var i :| 0 <= i < |t| && t[i].bottleneckType == y;
      assert r[i + 1] == t[i];
    }
  }

  lemma DistinctCons(x: TallyEntry, t: seq<TallyEntry>)
    ensures DistinctTypes([x] + t) <==> DistinctTypes(t) && x.bottleneckType !in TallyTypes(t)
  {
    var r := [x] + t;
    assert r[0] == x;
    if DistinctTypes(r) {
      forall i, j | 0 <= i < j < |t|
        ensures t[i].bottleneckType != t[j].bottleneckType
      {
        assert r[i + 1] == t[i] && r[j + 1] == t[j];
      }
      forall i | 0 <= i < |t|
        ensures t[i].bottleneckType != x.bottleneckType
      {
        assert r[i + 1] == t[i];
      }
    }
    if DistinctTypes(t) && x.bottleneckType !in TallyTypes(t) {
      forall i, j | 0 <= i < j < |r|
        ensures r[i].bottleneckType != r[j].bottleneckType
      {
        assert r[j] == t[j - 1];
        if i > 0 {
          assert r[i] == t[i - 1];
        } else {
          assert t[j - 1].bottleneckType in TallyTypes(t);
        }
      }
    }
  }

  /** `entry(k).or_insert((0.0, 0))`, then add the duration and count the event. */
  function AddEvent(t: seq<TallyEntry>, k: BottleneckType, d: real): seq<TallyEntry>
    decreases |t|
  {
    if |t| == 0 then [TallyEntry(k, d, 1)]
    else if t[0].bottleneckType == k then [TallyEntry(k, t[0].seconds + d, t[0].count + 1)] + t[1..]
    else [t[0]] + AddEvent(t[1..], k, d)
  }

  /** Adding an event gives its type an entry and no other type one. */
  lemma {:induction false} AddEventTypes(t: seq<TallyEntry>, k: BottleneckType, d: real)
    ensures TallyTypes(AddEvent(t, k, d)) == TallyTypes(t) + {k}
    decreases |t|
  {
    var r := AddEvent(t, k, d);
    if |t| == 0 {
      TallyTypesCons(r[0], []);
      assert [r[0]] + [] == r;
    } else {
      var x := t[0];
      assert [x] + t[1..] == t;
      TallyTypesCons(x, t[1..]);
      if x.bottleneckType == k {
        TallyTypesCons(r[0], t[1..]);
      } else {
        AddEventTypes(t[1..], k, d);
        TallyTypesCons(x, AddEvent(t[1..], k, d));
      }
    }
  }

  /** Adding an event to a map without repeated types repeats no type. */
  lemma {:induction false} AddEventDistinct(t: seq<TallyEntry>, k: BottleneckType, d: real)
    requires DistinctTypes(t)
    ensures DistinctTypes(AddEvent(t, k, d))
    decreases |t|
  {
    var r := AddEvent(t, k, d);
    if |t| == 0 {
      assert |r| == 1;
    } else {
      var x := t[0];
      assert [x] + t[1..] == t;
      DistinctCons(x, t[1..]);
      if x.bottleneckType == k {
        TallyTypesCons(r[0], t[1..]);
        DistinctCons(r[0], t[1..]);
      } else {
        var rest := AddEvent(t[1..], k, d);
        AddEventDistinct(t[1..], k, d);
        AddEventTypes(t[1..], k, d);
        DistinctCons(x, rest);
      }
    }
  }

  /** Adding an event adds its time and one to its type's totals and leaves every
      other type's totals alone. */
  lemma {:induction false} AddEventLookup(t: seq<TallyEntry>, k: BottleneckType, d: real, j: BottleneckType)
    ensures Lookup(AddEvent(t, k, d), j) == if j == k then (Lookup(t, k).0 + d, Lookup(t, k).1 + 1) else Lookup(t, j)
    decreases |t|
  {
    var r := AddEvent(t, k, d);
    if |t| == 0 {
      LookupConsAt(r[0], [], j);
      assert [r[0]] + [] == r;
    } else {
      var x := t[0];
      assert [x] + t[1..] == t;
      LookupConsAt(x, t[1..], j);
      LookupConsAt(x, t[1..], k);
      if x.bottleneckType == k {
        LookupConsAt(r[0], t[1..], j);
      } else {
        var rest := AddEvent(t[1..], k, d);
        AddEventLookup(t[1..], k, d, j);
        LookupConsAt(x, rest, j);
      }
    }
  }

  lemma LookupConsAt(x: TallyEntry, t: seq<TallyEntry>, j: BottleneckType)
    ensures Lookup([x] + t, j) == if x.bottleneckType == j then (x.seconds, x.count) else Lookup(t, j)
  {
    assert ([x] + t)[0] == x && ([x] + t)[1..] == t;
  }

  /** The per-type map built event by event, in order of first occurrence. */
  function Tally(events: seq<BottleneckEvent>): seq<TallyEntry>
    decreases |events|
  {
    if |events| == 0 then []
    else
      var e := events[|events| - 1];
      AddEvent(Tally(events[..|events| - 1]), e.bottleneckType, EventSeconds(e))
  }

  /** The tally has no type twice. */
  lemma {:induction false} TallyDistinct(events: seq<BottleneckEvent>)
    ensures DistinctTypes(Tally(events))
    decreases |events|
  {
    if |events| > 0 {
      var n := |events| - 1;
      TallyDistinct(events[..n]);
      AddEventDistinct(Tally(events[..n]), events[n].bottleneckType, EventSeconds(events[n]));
    }
  }

  /** The tally has an entry for exactly the types among the events. */
  lemma {:induction false} TallyTypesOf(events: seq<BottleneckEvent>)
    ensures TallyTypes(Tally(events)) == TypesOf(events)
    decreases |events|
  {
    if |events| > 0 {
      var n := |events| - 1;
      TallyTypesOf(events[..n]);
      AddEventTypes(Tally(events[..n]), events[n].bottleneckType, EventSeconds(events[n]));
      TypesOfSnoc(events);
    }
  }

  /** Each type's tally is its events' total time and number. */
  lemma {:induction false} TallyLookup(events: seq<BottleneckEvent>, k: BottleneckType)
    ensures Lookup(Tally(events), k) == (SecondsOfType(events, k), CountOfType(events, k))
    decreases |events|
  {
    if |events| > 0 {
      var n := |events| - 1;
      var e := events[n];
      var t0 := Tally(events[..n]);
      TallyLookup(events[..n], k);
      assert Tally(events) == AddEvent(t0, e.bottleneckType, EventSeconds(e));
      AddEventLookup(t0, e.bottleneckType, EventSeconds(e), k);
      assert SecondsOfType(events, k) == SecondsOfType(events[..n], k) + (if e.bottleneckType == k then EventSeconds(e) else 0.0);
      assert CountOfType(events, k) == CountOfType(events[..n], k) + (if e.bottleneckType == k then 1 else 0);
    }
  }

  /** The types of the events are those before the last one plus the last one's. */
  lemma TypesOfSnoc(events: seq<BottleneckEvent>)
    requires |events| > 0
    ensures TypesOf(events) == TypesOf(events[..|events| - 1]) + {events[|events| - 1].bottleneckType}
  {
    var n := |events| - 1;
    forall x | x in TypesOf(events) ensures x in TypesOf(events[..n]) + {events[n].bottleneckType} {
      var i :| 0 <= i < |events| && events[i].bottleneckType == x;
      if i < n { assert events[..n][i] == events[i]; }
    }
    forall x | x in TypesOf(events[..n]) ensures x in TypesOf(events) {
      var i :| 0 <= i < n && events[..n][i].bottleneckType == x;
      assert events[i] == events[..n][i];
    }
  }

  /** In a map without repeated types, each entry is what a lookup of its type finds. */
  lemma {:induction false} LookupAt(t: seq<TallyEntry>, i: nat)
    requires DistinctTypes(t) && i < |t|
    ensures Lookup(t, t[i].bottleneckType) == (t[i].seconds, t[i].count)
    decreases |t|
  {
    if i > 0 {
      assert DistinctTypes(t[1..]) by {
        forall a, b | 0 <= a < b < |t[1..]|
          ensures t[1..][a].bottleneckType != t[1..][b].bottleneckType
        {
          assert t[1..][a] == t[a + 1] && t[1..][b] == t[b + 1];
        }
      }
      assert t[1..][i - 1] == t[i];
      LookupAt(t[1..], i - 1);
    }
  }

  /** A type occurs among the events exactly when some event has it. */
  lemma {:induction false} CountOfTypePositive(events: seq<BottleneckEvent>, k: BottleneckType)
    ensures CountOfType(events, k) > 0 <==> k in TypesOf(events)
    decreases |events|
  {
    if |events| > 0 {
      var n := |events| - 1;
      CountOfTypePositive(events[..n], k);
      if k in TypesOf(events[..n]) {
        var i :| 0 <= i < n && events[..n][i].bottleneckType == k;
        assert events[i] == events[..n][i];
      }
      if k in TypesOf(events) && events[n].bottleneckType != k {
        var i :| 0 <= i < |events| && events[i].bottleneckType == k;
        assert events[..n][i] == events[i];
      }
    }
  }

  /** The percentage of the session a type took, 0 for a session of no length. */
  function Percentage(seconds: real, total: real): (r: real)
    ensures total > 0.0 ==> r * total == seconds * 100.0
    ensures total <= 0.0 ==> r == 0.0
  {
    if total > 0.0 then seconds / total * 100.0 else 0.0
  }

  function ToBreakdown(e: TallyEntry, total: real): BottleneckBreakdown
  {
    BottleneckBreakdown(e.bottleneckType, e.seconds, Percentage(e.seconds, total), e.count)
  }

  function Breakdowns(t: seq<TallyEntry>, total: real): (r: seq<BottleneckBreakdown>)
    ensures |r| == |t| && forall i :: 0 <= i < |t| ==> r[i] == ToBreakdown(t[i], total)
    decreases |t|
  {
    if |t| == 0 then [] else [ToBreakdown(t[0], total)] + Breakdowns(t[1..], total)
  }

  /** `calculate_bottleneck_breakdown`: one entry per type that occurs among the events,
      no type twice, each with its events' total time, their number and its share of
      the session. */
  function CalculateBreakdown(events: seq<BottleneckEvent>, total: real): (r: seq<BottleneckBreakdown>)
    ensures forall i, j :: 0 <= i < j < |r| ==> r[i].bottleneckType != r[j].bottleneckType
    ensures forall k :: k in TypesOf(events) <==> exists i :: 0 <= i < |r| && r[i].bottleneckType == k
    ensures forall i :: 0 <= i < |r| ==>
      && r[i].durationSeconds == SecondsOfType(events, r[i].bottleneckType)
      && r[i].eventCount == CountOfType(events, r[i].bottleneckType) > 0
      && r[i].percentage == Percentage(r[i].durationSeconds, total)
  {
    var t := Tally(events);
    var r := Breakdowns(t, total);
    TallyDistinct(events);
    forall i | 0 <= i < |r|
      ensures r[i].durationSeconds == SecondsOfType(events, r[i].bottleneckType)
      ensures r[i].eventCount == CountOfType(events, r[i].bottleneckType) > 0
    {
      TallyEntryAt(events, i);
    }
    forall k
      ensures k in TypesOf(events) <==> exists i :: 0 <= i < |r| && r[i].bottleneckType == k
    {
      TallyTypeListed(events, k);
    }
    r
  }

  /** Each tally entry holds its type's total time and its positive event count. */
  lemma TallyEntryAt(events: seq<BottleneckEvent>, i: nat)
    requires i < |Tally(events)|
    ensures var e := Tally(events)[i];
      e.seconds == SecondsOfType(events, e.bottleneckType) && e.count == CountOfType(events, e.bottleneckType) > 0
  {
    var t := Tally(events);
    TallyDistinct(events);
    TallyTypesOf(events);
    LookupAt(t, i);
    TallyLookup(events, t[i].bottleneckType);
    assert t[i].bottleneckType in TallyTypes(t);
    CountOfTypePositive(events, t[i].bottleneckType);
  }

  /** A type has a tally entry exactly when some event has it. */
  lemma TallyTypeListed(events: seq<BottleneckEvent>, k: BottleneckType)
    ensures k in TypesOf(events) <==> exists i :: 0 <= i < |Tally(events)| && Tally(events)[i].bottleneckType == k
  {
    var t := Tally(events);
    TallyTypesOf(events);
    if k in TypesOf(events) {
      assert k in TallyTypes(t);
    }
  }

  // ---------------------------------------------------------------- totals

  /** Seconds of the entries that are not balanced. */
  function TallySeconds(t: seq<TallyEntry>): real
  {
    if |t| == 0 then 0.0
    else (if t[0].bottleneckType != Balanced then t[0].seconds else 0.0) + TallySeconds(t[1..])
  }

  function TallyCount(t: seq<TallyEntry>): nat
  {
    if |t| == 0 then 0 else t[0].count + TallyCount(t[1..])
  }

  /** The summary's `total_bottleneck_seconds`: the durations of the entries that are
      not balanced, added up. */
  function BottleneckSeconds(bs: seq<BottleneckBreakdown>): real
  {
    if |bs| == 0 then 0.0
    else (if bs[0].bottleneckType != Balanced then bs[0].durationSeconds else 0.0) + BottleneckSeconds(bs[1..])
  }

  function BreakdownCount(bs: seq<BottleneckBreakdown>): nat
  {
    if |bs| == 0 then 0 else bs[0].eventCount + BreakdownCount(bs[1..])
  }

  lemma {:induction false} AddEventTotals(t: seq<TallyEntry>, k: BottleneckType, d: real)
    ensures TallySeconds(AddEvent(t, k, d)) == TallySeconds(t) + (if k != Balanced then d else 0.0)
    ensures TallyCount(AddEvent(t, k, d)) == TallyCount(t) + 1
    decreases |t|
  {
    var r := AddEvent(t, k, d);
    if |t| == 0 {
      assert r == [TallyEntry(k, d, 1)];
      assert r[1..] == [];
    } else if t[0].bottleneckType == k {
      assert r == [TallyEntry(k, t[0].seconds + d, t[0].count + 1)] + t[1..];
      assert r[1..] == t[1..];
    } else {
      var rest := AddEvent(t[1..], k, d);
      assert r == [t[0]] + rest;
      assert r[1..] == rest;
      AddEventTotals(t[1..], k, d);
    }
  }

  /** Tallying keeps every event: its time when it is not balanced, and its count. */
  lemma {:induction false} TallyTotals(events: seq<BottleneckEvent>)
    ensures TallySeconds(Tally(events)) == BottleneckEventSeconds(events)
    ensures TallyCount(Tally(events)) == |events|
    decreases |events|
  {
    if |events| > 0 {
      var n := |events| - 1;
      TallyTotals(events[..n]);
      AddEventTotals(Tally(events[..n]), events[n].bottleneckType, EventSeconds(events[n]));
    }
  }

  lemma {:induction false} BreakdownsTotals(t: seq<TallyEntry>, total: real)
    ensures BottleneckSeconds(Breakdowns(t, total)) == TallySeconds(t)
    ensures BreakdownCount(Breakdowns(t, total)) == TallyCount(t)
    decreases |t|
  {
    if |t| > 0 {
      var r := Breakdowns(t, total);
      assert r[1..] == Breakdowns(t[1..], total);
      BreakdownsTotals(t[1..], total);
    }
  }

  /** The breakdown accounts for every event: its entries' counts add up to the number
      of events, and the bottleneck time is the time of the events that are not
      balanced. */
  lemma BreakdownTotals(events: seq<BottleneckEvent>, total: real)
    ensures BottleneckSeconds(CalculateBreakdown(events, total)) == BottleneckEventSeconds(events)
    ensures BreakdownCount(CalculateBreakdown(events, total)) == |events|
  {
    TallyTotals(events);
    BreakdownsTotals(Tally(events), total);
  }

  // ---------------------------------------------------------------- dominant bottleneck

  /** `max_by` on duration over the entries that are not balanced: a longest one, and
      of several equally long the last, as `max_by` keeps the later of two equals. */
  function DominantIndex(bs: seq<BottleneckBreakdown>): (r: Option<nat>)
    ensures r.None? <==> forall i :: 0 <= i < |bs| ==> bs[i].bottleneckType == Balanced
    ensures r.Some? ==>
      && r.value < |bs| && bs[r.value].bottleneckType != Balanced
      && (forall i :: 0 <= i < |bs| && bs[i].bottleneckType != Balanced ==> bs[i].durationSeconds <= bs[r.value].durationSeconds)
      && (forall i :: r.value < i < |bs| && bs[i].bottleneckType != Balanced ==> bs[i].durationSeconds < bs[r.value].durationSeconds)
    decreases |bs|
  {
    if |bs| == 0 then None
    else
      var n := |bs| - 1;
      var p := DominantIndex(bs[..n]);
      assert forall i :: 0 <= i < n ==> bs[..n][i] == bs[i];
      if bs[n].bottleneckType == Balanced then p
      else if p.Some? && bs[p.value].durationSeconds > bs[n].durationSeconds then p
      else Some(n)
  }

  /** The type of the dominant entry, balanced when every entry is balanced. */
  function DominantBottleneck(bs: seq<BottleneckBreakdown>): (r: BottleneckType)
    ensures r == Balanced <==> forall i :: 0 <= i < |bs| ==> bs[i].bottleneckType == Balanced
    ensures r != Balanced ==> exists i :: 0 <= i < |bs| && bs[i].bottleneckType == r
  {
    match DominantIndex(bs)
    case None => Balanced
    case Some(k) => bs[k].bottleneckType
  }

  // ---------------------------------------------------------------- summary

  /** Length of the session: first to last snapshot, 0 with fewer than two. */
  function SessionDuration(snapshots: seq<MetricsSnapshot>): real
  {
    if |snapshots| >= 2 then ElapsedSeconds(snapshots[0].timestamp, snapshots[|snapshots| - 1].timestamp)
    else 0.0
  }

  /** `filter_map`: the present readings, in order. */
  function Present(xs: seq<Option<real>>): (r: seq<real>)
    ensures |r| == 0 <==> forall i :: 0 <= i < |xs| ==> xs[i].None?
    ensures forall v :: v in r <==> Some(v) in xs
    decreases |xs|
  {
    if |xs| == 0 then []
    else
      var n := |xs| - 1;
      var p := Present(xs[..n]);
      assert xs == xs[..n] + [xs[n]];
      if xs[n].Some? then p + [xs[n].value] else p
  }

  function CoreUsage(c: Option<TopCoreInfo>): (r: Option<real>)
    ensures r.None? <==> c.None?
  {
    if c.Some? then Some(c.value.usagePercent) else None
  }

  function CpuValues(s: seq<MetricsSnapshot>): (r: seq<real>)
    ensures |r| == |s| && forall i :: 0 <= i < |s| ==> r[i] == s[i].cpuPercent
  {
    seq(|s|, i requires 0 <= i < |s| => s[i].cpuPercent)
  }
  function RamValues(s: seq<MetricsSnapshot>): (r: seq<real>)
    ensures |r| == |s| && forall i :: 0 <= i < |s| ==> r[i] == s[i].ramPercent
  {
    seq(|s|, i requires 0 <= i < |s| => s[i].ramPercent)
  }
  /** One optional reading of every snapshot, in order. */
  function Readings(s: seq<MetricsSnapshot>, f: MetricsSnapshot -> Option<real>): (r: seq<Option<real>>)
    ensures |r| == |s| && forall i :: 0 <= i < |s| ==> r[i] == f(s[i])
  {
    seq(|s|, i requires 0 <= i < |s| => f(s[i]))
  }

  function GpuOf(m: MetricsSnapshot): Option<real> { m.gpuPercent }
  function VramOf(m: MetricsSnapshot): Option<real> { m.vramPercent }
  function CpuTempOf(m: MetricsSnapshot): Option<real> { m.cpuTemp }
  function GpuTempOf(m: MetricsSnapshot): Option<real> { m.gpuTemp }
  function TopCore1Of(m: MetricsSnapshot): (r: Option<real>)
    ensures r.None? <==> m.topCore1.None?
  {
    CoreUsage(m.topCore1)
  }

  function TopCore2Of(m: MetricsSnapshot): (r: Option<real>)
    ensures r.None? <==> m.topCore2.None?
  {
    CoreUsage(m.topCore2)
  }

  /** Statistics of the present readings, none when there are none. */
  function OptionalStats(xs: seq<Option<real>>): (r: Option<MetricStats>)
    ensures r.None? <==> forall i :: 0 <= i < |xs| ==> xs[i].None?
  {
    var values := Present(xs);
    if |values| == 0 then None else Some(CalculateStats(values))
  }

  /** `generate_summary`. */
  function GenerateSummary(snapshots: seq<MetricsSnapshot>, events: seq<BottleneckEvent>): (r: SessionSummary)
    ensures r.durationSeconds == SessionDuration(snapshots)
    ensures r.totalBottleneckEvents == |events|
    ensures r.bottleneckBreakdown == CalculateBreakdown(events, r.durationSeconds)
    ensures r.totalBottleneckSeconds == BottleneckEventSeconds(events)
    ensures r.dominantBottleneck == Balanced <==> forall i :: 0 <= i < |events| ==> events[i].bottleneckType == Balanced
  {
    var duration := SessionDuration(snapshots);
    var breakdown := CalculateBreakdown(events, duration);
    BreakdownTotals(events, duration);
    DominantOfEvents(events, duration);
    SessionSummary(
      duration,
      CalculateStats(CpuValues(snapshots)),
      OptionalStats(Readings(snapshots, TopCore1Of)),
      OptionalStats(Readings(snapshots, TopCore2Of)),
      OptionalStats(Readings(snapshots, GpuOf)),
      CalculateStats(RamValues(snapshots)),
      OptionalStats(Readings(snapshots, VramOf)),
      OptionalStats(Readings(snapshots, CpuTempOf)),
      OptionalStats(Readings(snapshots, GpuTempOf)),
      BottleneckSeconds(breakdown),
      DominantBottleneck(breakdown),
      breakdown,
      |events|)
  }

  /** CPU and RAM usage of every snapshot lie between the summary's minimum and
      maximum. */
  lemma SummaryUsageBounds(snapshots: seq<MetricsSnapshot>, events: seq<BottleneckEvent>)
    ensures var r := GenerateSummary(snapshots, events);
      forall i :: 0 <= i < |snapshots| ==>
        && r.cpu.min <= snapshots[i].cpuPercent <= r.cpu.max
        && r.ram.min <= snapshots[i].ramPercent <= r.ram.max
  {
    var r := GenerateSummary(snapshots, events);
    assert r.cpu == CalculateStats(CpuValues(snapshots));
    assert r.ram == CalculateStats(RamValues(snapshots));
  }

  /** Each GPU statistic of the summary is present exactly when some snapshot has that
      reading. */
  lemma SummaryGpuPresence(snapshots: seq<MetricsSnapshot>, events: seq<BottleneckEvent>)
    ensures var r := GenerateSummary(snapshots, events);
      && (r.gpu.None? <==> forall i :: 0 <= i < |snapshots| ==> snapshots[i].gpuPercent.None?)
      && (r.vram.None? <==> forall i :: 0 <= i < |snapshots| ==> snapshots[i].vramPercent.None?)
      && (r.gpuTemp.None? <==> forall i :: 0 <= i < |snapshots| ==> snapshots[i].gpuTemp.None?)
  {
    ReadingPresence(snapshots, GpuOf);
    ReadingPresence(snapshots, VramOf);
    ReadingPresence(snapshots, GpuTempOf);
  }

  /** Each CPU statistic of the summary beyond the overall usage is present exactly when
      some snapshot has that reading. */
  lemma SummaryCpuPresence(snapshots: seq<MetricsSnapshot>, events: seq<BottleneckEvent>)
    ensures var r := GenerateSummary(snapshots, events);
      && (r.cpuTemp.None? <==> forall i :: 0 <= i < |snapshots| ==> snapshots[i].cpuTemp.None?)
      && (r.topCore1.None? <==> forall i :: 0 <= i < |snapshots| ==> snapshots[i].topCore1.None?)
      && (r.topCore2.None? <==> forall i :: 0 <= i < |snapshots| ==> snapshots[i].topCore2.None?)
  {
    ReadingPresence(snapshots, CpuTempOf);
    ReadingPresence(snapshots, TopCore1Of);
    ReadingPresence(snapshots, TopCore2Of);
  }

  lemma ReadingPresence(s: seq<MetricsSnapshot>, f: MetricsSnapshot -> Option<real>)
    ensures OptionalStats(Readings(s, f)).None? <==> forall i :: 0 <= i < |s| ==> f(s[i]).None?
  {
  }

  /** The dominant type is balanced exactly when no event is a bottleneck. */
  lemma DominantOfEvents(events: seq<BottleneckEvent>, total: real)
    ensures DominantBottleneck(CalculateBreakdown(events, total)) == Balanced
      <==> forall i :: 0 <= i < |events| ==> events[i].bottleneckType == Balanced
  {
    var bs := CalculateBreakdown(events, total);
    SameTypesBalanced(events, bs);
  }

  /** A breakdown listing exactly the events' types is all balanced exactly when the
      events are. */
  lemma SameTypesBalanced(events: seq<BottleneckEvent>, bs: seq<BottleneckBreakdown>)
    requires forall k :: k in TypesOf(events) <==> exists i :: 0 <= i < |bs| && bs[i].bottleneckType == k
    ensures (forall j :: 0 <= j < |bs| ==> bs[j].bottleneckType == Balanced)
      <==> forall i :: 0 <= i < |events| ==> events[i].bottleneckType == Balanced
  {
    if exists i :: 0 <= i < |events| && events[i].bottleneckType != Balanced {
      var i :| 0 <= i < |events| && events[i].bottleneckType != Balanced;
      var k := events[i].bottleneckType;
      assert k in TypesOf(events);
      var j :| 0 <= j < |bs| && bs[j].bottleneckType == k;
    }
    if exists j :: 0 <= j < |bs| && bs[j].bottleneckType != Balanced {
      var j :| 0 <= j < |bs| && bs[j].bottleneckType != Balanced;
      var k := bs[j].bottleneckType;
      assert k in TypesOf(events);
      var i :| 0 <= i < |events| && events[i].bottleneckType == k;
    }
  }

  // ---------------------------------------------------------------- session manager

  /** The session being recorded and its recorder. */
  datatype ActiveSession = ActiveSession(session: GamingSession, recorder: Recorder)

  /** The manager's state: at most one active session, the sessions list file (`Err`
      when it cannot be read), and the per-session data files keyed by session id. */
  datatype Manager = Manager(
    active: Option<ActiveSession>,
    sessions: Result<seq<GamingSession>>,
    saved: map<string, GamingSessionData>)

  function SessionId(s: GamingSession): string { s.id }

  /** The sessions list as the manager reads it: an unreadable file reads as empty. */
  function ListedSessions(file: Result<seq<GamingSession>>): seq<GamingSession>
  {
    if file.Ok? then file.value else []
  }

  /** `start_session`: refused while a session is active; otherwise an active session
      with no end, no summary and a fresh recorder, appended to the sessions list. An
      unreadable list is replaced by one holding only the new session. The id and the
      start time are parameters. */
  function StartSession(m: Manager, id: string, gameName: string, processName: string, now: string)
    : (r: Result<(Manager, GamingSession)>)
    ensures r.Err? <==> m.active.Some?
    ensures r.Err? ==> r.error == "A session is already active"
    ensures r.Ok? ==>
      var (m', s) := r.value;
      && s.id == id && s.gameName == gameName && s.processName == processName && s.startTime == now
      && s.status == Active && s.endTime.None? && s.summary.None?
      && m'.active == Some(ActiveSession(s, NewRecorder()))
      && (m.sessions.Ok? ==> m'.sessions == Ok(m.sessions.value + [s]))
      && (m.sessions.Err? ==> m'.sessions == Ok([s]))
      && m'.saved == m.saved
  {
    if m.active.Some? then Err("A session is already active")
    else
      var s := GamingSession(id, gameName, processName, now, None, Active, None);
      Ok((Manager(Some(ActiveSession(s, NewRecorder())), Ok(if m.sessions.Ok? then m.sessions.value + [s] else [s]), m.saved), s))
  }

  /** One pass of the recording loop against the active session, if any. */
  function Tick(m: Manager, reading: Option<MetricsSnapshot>, t: BottleneckThresholds): (r: Manager)
    ensures r.sessions == m.sessions && r.saved == m.saved
    ensures m.active.None? ==> r == m
    ensures m.active.Some? ==>
      r.active == Some(ActiveSession(m.active.value.session, RecordTick(m.active.value.recorder, reading, t)))
  {
    match m.active
    case None => m
    case Some(a) => m.(active := Some(a.(recorder := RecordTick(a.recorder, reading, t))))
  }

  function TickRun(m: Manager, readings: seq<Option<MetricsSnapshot>>, t: BottleneckThresholds): Manager
    decreases |readings|
  {
    if |readings| == 0 then m else TickRun(Tick(m, readings[0], t), readings[1..], t)
  }

  /** A run of ticks records into the active session and touches nothing else. */
  lemma {:induction false} TickRunRecords(m: Manager, readings: seq<Option<MetricsSnapshot>>, t: BottleneckThresholds)
    requires m.active.Some?
    ensures var r := TickRun(m, readings, t);
      && r.sessions == m.sessions && r.saved == m.saved
      && r.active == Some(ActiveSession(m.active.value.session, RecordRun(m.active.value.recorder, readings, t)))
    decreases |readings|
  {
    if |readings| > 0 {
      TickRunRecords(Tick(m, readings[0], t), readings[1..], t);
    }
  }

  /** The events as saved: the last one closed at the last snapshot's time when it is
      still open and a snapshot exists. */
  function FinalEvents(rec: Recorder): (r: seq<BottleneckEvent>)
    ensures |r| == |rec.events|
    ensures |rec.snapshots| == 0 ==> r == rec.events
  {
    if |rec.snapshots| > 0 then CloseLast(rec.events, rec.snapshots[|rec.snapshots| - 1].timestamp)
    else rec.events
  }

  /** `end_session`: refused without an active session; otherwise the session is
      completed at `now` with its summary, its data is saved under its id, it replaces
      the first list entry with its id, and no session is active any more. An unreadable
      list is replaced by an empty one, so the ended session is not listed. */
  function EndSession(m: Manager, now: string): (r: Result<(Manager, GamingSession)>)
    ensures r.Err? <==> m.active.None?
    ensures r.Err? ==> r.error == "No active session"
    ensures r.Ok? ==>
      var (m', s) := r.value;
      var a := m.active.value;
      && m'.active.None?
      && s == a.session.(endTime := Some(now), status := Completed,
                         summary := Some(GenerateSummary(a.recorder.snapshots, FinalEvents(a.recorder))))
      && (m.sessions.Ok? ==> m'.sessions == Ok(ReplaceFirst(m.sessions.value, SessionId, s)))
      && (m.sessions.Err? ==> m'.sessions == Ok([]))
      && m'.saved == m.saved[s.id := GamingSessionData(s, a.recorder.snapshots, FinalEvents(a.recorder))]
  {
    match m.active
    case None => Err("No active session")
    case Some(a) =>
      var events := FinalEvents(a.recorder);
      var summary := GenerateSummary(a.recorder.snapshots, events);
      var s := a.session.(endTime := Some(now), status := Completed, summary := Some(summary));
      var data := GamingSessionData(s, a.recorder.snapshots, events);
      Ok((Manager(None, Ok(ReplaceFirst(ListedSessions(m.sessions), SessionId, s)), m.saved[s.id := data]), s))
  }

  /** `end_session_by_process`: ends the active session only when it belongs to the
      process. */
  function EndSessionByProcess(m: Manager, processName: string, now: string): (r: Result<(Manager, GamingSession)>)
    ensures r.Err? <==> m.active.None? || m.active.value.session.processName != processName
    ensures r.Err? ==> r.error == "No active session for this process"
    ensures r.Ok? ==> r == EndSession(m, now) && r.value.1.processName == processName
  {
    if m.active.Some? && m.active.value.session.processName == processName then EndSession(m, now)
    else Err("No active session for this process")
  }

  /** `get_active_session`. */
  function GetActiveSession(m: Manager): (r: Option<GamingSession>)
    ensures r.Some? <==> m.active.Some?
    ensures r.Some? ==> r.value == m.active.value.session
  {
    if m.active.Some? then Some(m.active.value.session) else None
  }

  /** At the end of a session recorded by a consistent recorder every saved event is
      closed, and every event has a bottleneck type. */
  lemma EndClosesEvents(m: Manager, now: string)
    requires m.active.Some? && RecorderOk(m.active.value.recorder)
    ensures var data := EndSession(m, now).value.0.saved[m.active.value.session.id];
      forall i :: 0 <= i < |data.bottleneckEvents| ==>
        !IsOpen(data.bottleneckEvents[i]) && data.bottleneckEvents[i].bottleneckType != Balanced
  {
    var rec := m.active.value.recorder;
    var events := FinalEvents(rec);
    if |rec.events| > 0 {
      assert |rec.snapshots| > 0;
      assert events == CloseLast(rec.events, rec.snapshots[|rec.snapshots| - 1].timestamp);
      assert !OpenTail(events);
    }
    forall i | 0 <= i < |events|
      ensures !IsOpen(events[i]) && events[i].bottleneckType != Balanced
    {
      assert events[i].bottleneckType == rec.events[i].bottleneckType;
    }
  }

  /** A whole session: started when none is active with a fresh id, recorded for any
      run of readings, then ended. The list ends with the completed session after the
      previous ones (none when the list could not be read), the session's data is saved under its id, and ending again is
      refused. */
  lemma SessionLifecycle(m: Manager, id: string, gameName: string, processName: string,
                         start: string, end: string,
                         readings: seq<Option<MetricsSnapshot>>, t: BottleneckThresholds)
    requires m.active.None? && !HasKey(ListedSessions(m.sessions), SessionId, id)
    ensures StartSession(m, id, gameName, processName, start).Ok?
    ensures var m1 := TickRun(StartSession(m, id, gameName, processName, start).value.0, readings, t);
      var r := EndSession(m1, end);
      && r.Ok?
      && var (m2, s) := r.value;
      && s.id == id && s.status == Completed && s.endTime == Some(end) && s.startTime == start
      && m2.sessions == Ok(ListedSessions(m.sessions) + [s])
      && id in m2.saved && m2.saved[id].session == s
      && m2.saved[id].snapshots == Drop(Available(readings), WARMUP_SAMPLES)
      && EndSession(m2, end).Err?
  {
    var (m0, s0) := StartSession(m, id, gameName, processName, start).value;
    assert m0.sessions == Ok(ListedSessions(m.sessions) + [s0]) by {
      if m.sessions.Err? { assert [] + [s0] == [s0]; }
    }
    var m1 := TickRun(m0, readings, t);
    TickRunRecords(m0, readings, t);
    NewRecorderSkipsThree(readings, t);
    var (m2, s) := EndSession(m1, end).value;
    ReplaceNewLast(ListedSessions(m.sessions), s0, s);
  }

  /** A session started while the list cannot be read ends up the only listed session:
      the earlier sessions are lost, not kept. */
  lemma UnreadableListReplaced(m: Manager, id: string, gameName: string, processName: string,
                               start: string, end: string)
    requires m.active.None? && m.sessions.Err?
    ensures StartSession(m, id, gameName, processName, start).Ok?
    ensures var r := EndSession(StartSession(m, id, gameName, processName, start).value.0, end);
      r.Ok? && r.value.0.sessions == Ok([r.value.1])
  {
    var (m0, s0) := StartSession(m, id, gameName, processName, start).value;
    var (m2, s) := EndSession(m0, end).value;
    assert [] + [s0] == [s0] && [] + [s] == [s];
    ReplaceNewLast([], s0, s);
  }

  /** Replacing the session just appended, whose id was new, replaces the last one. */
  lemma ReplaceNewLast(prev: seq<GamingSession>, s0: GamingSession, s: GamingSession)
    requires !HasKey(prev, SessionId, s0.id) && s.id == s0.id
    ensures ReplaceFirst(prev + [s0], SessionId, s) == prev + [s]
  {
    var xs := prev + [s0];
    assert HasKey(xs, SessionId, s.id) by {
      assert SessionId(xs[|prev|]) == s.id;
    }
    var ys := ReplaceFirst(xs, SessionId, s);
    forall j | 0 <= j < |prev|
      ensures ys[j] == xs[j] && ys[j] != s
    {
      assert SessionId(xs[j]) != s.id;
    }
    var k :| 0 <= k < |ys| && ys[k] == s;
    assert ys == prev + [s];
  }
}

=== FILE: launcher.dfy ===
/** The game launcher's library: the games the user has added, found by id, by
    process name or by executable path, and the commands that scan for, add, remove
    and launch them. Adding a game also puts its process on the gaming whitelist.

    The library and whitelist files are read whole and written back whole; a write
    that fails is a parameter. New ids and the clock are parameters too. */
module Launcher {
  import opened Wrappers
  import opened Strings
  import opened Records
  import opened WinPaths
  import GameDetector

  type GameEntry = GameDetector.GameEntry
  type GameWhitelist = GameDetector.GameWhitelist

  // ---------------------------------------------------------------- data

  /** Where a game was found. `Riot` is used by the Riot detector. */
  datatype GameSource = Steam | HoyoPlay | Manual | Riot

  datatype AddGameRequest = AddGameRequest(name: string, executablePath: string, iconPath: Option<string>)

  /** A game found by a scanner but not yet in the library. The Riot detector also
      fills `launchArgs`; the other scanners leave it `None`. */
  datatype DetectedGame = DetectedGame(
    name: string,
    executablePath: string,
    installPath: string,
    source: GameSource,
    appId: Option<string>,
    iconPath: Option<string>,
    launchArgs: Option<string>)

  datatype LibraryGame = LibraryGame(
    id: string,
    name: string,
    executablePath: string,
    installPath: string,
    source: GameSource,
    appId: Option<string>,
    iconPath: Option<string>,
    processName: string,
    addedAt: string,
    lastPlayed: Option<string>,
    totalPlaytimeSeconds: nat)

  datatype GameLibrary = GameLibrary(games: seq<LibraryGame>)

  // ---------------------------------------------------------------- library queries

  function IdOf(g: LibraryGame): string { g.id }

  function ProcessKey(g: LibraryGame): string { Lower(g.processName) }

  /** `find_by_id`: the first game with the id. */
  function FindById(lib: GameLibrary, id: string): (r: Option<LibraryGame>)
    ensures r.Some? <==> exists i :: 0 <= i < |lib.games| && lib.games[i].id == id
    ensures r.Some? ==> exists i :: (0 <= i < |lib.games| && lib.games[i] == r.value && r.value.id == id
      && forall j :: 0 <= j < i ==> lib.games[j].id != id)
  {
    match IndexOf(lib.games, IdOf, id)
    case None => None
    case Some(i) => Some(lib.games[i])
  }

  /** `find_by_process_name`: the first game whose process name equals the given one
      ignoring case. */
  function FindByProcessName(lib: GameLibrary, name: string): (r: Option<LibraryGame>)
    ensures r.Some? <==> exists i :: 0 <= i < |lib.games| && EqualsIgnoreCase(lib.games[i].processName, name)
    ensures r.Some? ==> exists i :: (0 <= i < |lib.games| && lib.games[i] == r.value
      && EqualsIgnoreCase(r.value.processName, name)
      && forall j :: 0 <= j < i ==> !EqualsIgnoreCase(lib.games[j].processName, name))
  {
    match IndexOf(lib.games, ProcessKey, Lower(name))
    case None =>
      assert forall j :: 0 <= j < |lib.games| ==> ProcessKey(lib.games[j]) != Lower(name);
      None
    case Some(i) => Some(lib.games[i])
  }

  /** Some game of the list has the executable path, ignoring case. */
  predicate HasPath(games: seq<LibraryGame>, path: string)
  {
    exists i :: 0 <= i < |games| && EqualsIgnoreCase(games[i].executablePath, path)
  }

  /** `has_game_with_path`. */
  function HasGameWithPath(lib: GameLibrary, path: string): (r: bool)
    ensures r <==> HasPath(lib.games, path)
  {
    AnyPath(lib.games, Lower(path))
  }

  function AnyPath(games: seq<LibraryGame>, key: string): (r: bool)
    ensures r <==> exists i :: 0 <= i < |games| && Lower(games[i].executablePath) == key
  {
    if |games| == 0 then false
    else
      assert forall i :: 1 <= i < |games| ==> games[i] == games[1..][i - 1];
      Lower(games[0].executablePath) == key || AnyPath(games[1..], key)
  }

  /** No two games have executable paths that differ only in case. */
  predicate PathsUnique(games: seq<LibraryGame>)
  {
    forall i, j :: 0 <= i < j < |games| ==> !EqualsIgnoreCase(games[i].executablePath, games[j].executablePath)
  }

  // ---------------------------------------------------------------- library updates

  /** `add_game`: the game is appended. */
  function AddGame(lib: GameLibrary, g: LibraryGame): (r: GameLibrary)
    ensures |r.games| == |lib.games| + 1
  {
    GameLibrary(lib.games + [g])
  }

  /** Adding keeps every earlier answer: a game found by id before is still the one
      found; an id that was absent now finds the added game; its path is present. */
  lemma AddGameKeepsFinds(lib: GameLibrary, g: LibraryGame, id: string)
    ensures var r := AddGame(lib, g);
      && HasGameWithPath(r, g.executablePath)
      && (FindById(lib, id).Some? ==> FindById(r, id) == FindById(lib, id))
      && (FindById(lib, id).None? && g.id == id ==> FindById(r, id) == Some(g))
      && (forall p :: HasGameWithPath(lib, p) ==> HasGameWithPath(r, p))
  {
    var r := AddGame(lib, g);
    assert r.games[|lib.games|] == g;
    assert forall i :: 0 <= i < |lib.games| ==> r.games[i] == lib.games[i];
    if FindById(lib, id).Some? {
      var i :| 0 <= i < |lib.games| && lib.games[i] == FindById(lib, id).value && lib.games[i].id == id
        && forall j :: 0 <= j < i ==> lib.games[j].id != id;
      IndexOfAt(r.games, IdOf, id, i);
    } else if g.id == id {
      IndexOfAt(r.games, IdOf, id, |lib.games|);
    }
  }

  /** `remove_game`: every game with the id goes, the others stay in order, and the
      answer says whether anything went. */
  function RemoveGame(lib: GameLibrary, id: string): (r: (GameLibrary, bool))
    ensures r.1 <==> exists i :: 0 <= i < |lib.games| && lib.games[i].id == id
    ensures forall g :: g in r.0.games <==> g in lib.games && g.id != id
  {
    var kept := Retain(lib.games, (g: LibraryGame) => g.id != id);
    RetainDrops(lib.games, (g: LibraryGame) => g.id != id);
    (GameLibrary(kept), |kept| < |lib.games|)
  }

  /** Retain shortens the list exactly when some element fails the test. */
  lemma {:induction false} RetainDrops<T>(xs: seq<T>, keep: T -> bool)
    ensures |Retain(xs, keep)| < |xs| <==> exists i :: 0 <= i < |xs| && !keep(xs[i])
    decreases |xs|
  {
    if |xs| > 0 {
      RetainDrops(xs[1..], keep);
      if exists i :: 0 <= i < |xs[1..]| && !keep(xs[1..][i]) {
        var i :| 0 <= i < |xs[1..]| && !keep(xs[1..][i]);
        assert xs[i + 1] == xs[1..][i];
      }
      if exists i :: 0 <= i < |xs| && !keep(xs[i]) {
        var i :| 0 <= i < |xs| && !keep(xs[i]);
        if i > 0 { assert xs[1..][i - 1] == xs[i]; }
      }
    }
  }

  /** Removing twice is removing once, and the second removal reports nothing found. */
  lemma RemoveGameIdempotent(lib: GameLibrary, id: string)
    ensures var (once, _) := RemoveGame(lib, id);
      RemoveGame(once, id) == (once, false) && FindById(once, id).None?
  {
    var (once, _) := RemoveGame(lib, id);
    assert forall i :: 0 <= i < |once.games| ==> once.games[i].id != id by {
      forall i | 0 <= i < |once.games| ensures once.games[i].id != id {
        assert once.games[i] in once.games;
      }
    }
    RetainAll(once.games, (g: LibraryGame) => g.id != id);
  }

  // ---------------------------------------------------------------- HoYoPlay games

  datatype HoyoPlayGameConfig = HoyoPlayGameConfig(name: string, folderName: string, executableName: string, processName: string)

  /** `HoyoPlayGameConfig::all`: Genshin Impact, Star Rail, Zenless Zone Zero and
      Honkai Impact 3rd, in that order. */
  const HoyoPlayGames: seq<HoyoPlayGameConfig> := [
    HoyoPlayGameConfig("Genshin Impact", "Genshin Impact Game", "GenshinImpact.exe", "GenshinImpact.exe"),
    HoyoPlayGameConfig("Star Rail", "Star Rail Games", "StarRail.exe", "StarRail.exe"),
    HoyoPlayGameConfig("Zenless Zone Zero", "ZenlessZoneZero Game", "ZenlessZoneZero.exe", "ZenlessZoneZero.exe"),
    HoyoPlayGameConfig("Honkai Impact 3rd", "Honkai Impact 3rd", "BH3.exe", "BH3.exe")]

  /** Each HoYoPlay game watches the process of its own executable, and no two share
      an executable. */
  lemma HoyoPlayGamesDistinct()
    ensures |HoyoPlayGames| == 4
    ensures forall i :: 0 <= i < 4 ==> HoyoPlayGames[i].processName == HoyoPlayGames[i].executableName
    ensures forall i, j :: 0 <= i < j < 4 ==> HoyoPlayGames[i].executableName != HoyoPlayGames[j].executableName
  {
    assert HoyoPlayGames[0].executableName[0] == 'G';
    assert HoyoPlayGames[1].executableName[0] == 'S';
    assert HoyoPlayGames[2].executableName[0] == 'Z';
    assert HoyoPlayGames[3].executableName[0] == 'B';
  }

  // ---------------------------------------------------------------- icons

  const Jpeg := "image/jpeg"
  const Png := "image/png"
  const Gif := "image/gif"
  const Webp := "image/webp"

  /** The MIME type of an icon from its file extension, case-sensitively; anything
      unknown is PNG. */
  function MimeType(ext: Option<string>): (r: string)
    ensures r == Jpeg <==> ext == Some("jpg") || ext == Some("jpeg")
    ensures r == Gif <==> ext == Some("gif")
    ensures r == Webp <==> ext == Some("webp")
    ensures r == Png <==> !(ext in {Some("jpg"), Some("jpeg"), Some("gif"), Some("webp")})
  {
    match ext
    case Some("jpg") => Jpeg
    case Some("jpeg") => Jpeg
    case Some("png") => Png
    case Some("gif") => Gif
    case Some("webp") => Webp
    case _ => Png
  }

  const DataScheme := "data:"
  const Base64Marker := ";base64,"

  /** `get_icon_base64`: the icon as a data URL. The file is `None` when missing and
      an error when unreadable; the base64 encoder is a parameter. */
  function IconDataUrl(path: string, file: Option<Result<seq<bv8>>>, encode: seq<bv8> -> string): (r: Result<string>)
    ensures file.None? ==> r == Err("Icon file not found")
    ensures file.Some? && file.value.Err? ==> r == Err(file.value.error)
    ensures file.Some? && file.value.Ok? ==> r.Ok?
  {
    match file
    case None => Err("Icon file not found")
    case Some(Err(e)) => Err(e)
    case Some(Ok(data)) => Ok(DataScheme + MimeType(Extension(path)) + Base64Marker + encode(data))
  }

  /** Reads a data URL back into its MIME type and payload. */
  function ParseDataUrl(s: string): (r: Option<(string, string)>)
  {
    if !StartsWith(s, DataScheme) then None
    else
      var rest := s[|DataScheme|..];
      match Find(rest, Base64Marker)
      case None => None
      case Some(i) => Some((rest[..i], rest[i + |Base64Marker|..]))
  }

  /** A MIME type has no ';', so the marker after it is found where it was put. */
  lemma MimeNoSemicolon(ext: Option<string>)
    ensures ';' !in MimeType(ext)
  {
    var m := MimeType(ext);
    assert m == Jpeg || m == Png || m == Gif || m == Webp;
    assert forall i :: 0 <= i < |m| ==> m[i] != ';' by {
      if m == Jpeg { assert forall i :: 0 <= i < |Jpeg| ==> Jpeg[i] != ';'; }
      else if m == Png { assert forall i :: 0 <= i < |Png| ==> Png[i] != ';'; }
      else if m == Gif { assert forall i :: 0 <= i < |Gif| ==> Gif[i] != ';'; }
      else { assert forall i :: 0 <= i < |Webp| ==> Webp[i] != ';'; }
    }
  }

  /** A data URL built from a type without ';' reads back as that type and payload. */
  lemma {:induction false} DataUrlReadBack(mime: string, payload: string)
    requires ';' !in mime
    ensures ParseDataUrl(DataScheme + mime + Base64Marker + payload) == Some((mime, payload))
  {
    var body := mime + Base64Marker + payload;
    var s := DataScheme + body;
    assert DataScheme + mime + Base64Marker + payload == s;
    assert s[..|DataScheme|] == DataScheme;
    assert s[|DataScheme|..] == body;
    assert Base64Marker[0] == ';';
    FindAfter(mime, Base64Marker, payload);
    assert body[..|mime|] == mime;
    assert body[|mime| + |Base64Marker|..] == payload;
  }

  /** The data URL of a readable icon reads back as the icon's MIME type and the
      encoder's output. */
  lemma IconDataUrlReadBack(path: string, data: seq<bv8>, encode: seq<bv8> -> string)
    ensures var mime := MimeType(Extension(path));
      ParseDataUrl(IconDataUrl(path, Some(Ok(data)), encode).value) == Some((mime, encode(data)))
  {
    MimeNoSemicolon(Extension(path));
    DataUrlReadBack(MimeType(Extension(path)), encode(data));
  }

  // ---------------------------------------------------------------- files

  /** The library and whitelist files. `Err` stands for a file that is missing or
      cannot be read or parsed. */
  datatype Disk = Disk(library: Result<GameLibrary>, whitelist: Result<GameWhitelist>)

  /** Which writes fail, with the error each reports. */
  datatype WriteFaults = WriteFaults(library: Option<string>, whitelist: Option<string>)

  /** `read_json_file(..).unwrap_or_default()`. */
  function LibraryOrEmpty(d: Disk): GameLibrary { if d.library.Ok? then d.library.value else GameLibrary([]) }

  function WhitelistOrEmpty(d: Disk): GameWhitelist
  {
    if d.whitelist.Ok? then d.whitelist.value else GameDetector.GameWhitelist([])
  }

  const SaveLibraryFailed := "Failed to save game library: "
  const SaveWhitelistFailed := "Failed to save whitelist: "
  const ReadLibraryFailed := "Failed to read game library: "

  /** Writes the library, then the whitelist: the first failure stops and is reported,
      and what was written before it stays written. */
  function SaveBoth(d: Disk, lib: GameLibrary, wl: GameWhitelist, faults: WriteFaults): (r: (Disk, Result<GameLibrary>))
    ensures r.1.Ok? <==> faults.library.None? && faults.whitelist.None?
    ensures r.1.Ok? ==> r == (Disk(Ok(lib), Ok(wl)), Ok(lib))
    ensures faults.library.Some? ==> r.0 == d
    ensures faults.library.None? ==> r.0.library == Ok(lib)
  {
    if faults.library.Some? then (d, Err(SaveLibraryFailed + faults.library.value))
    else if faults.whitelist.Some? then (d.(library := Ok(lib)), Err(SaveWhitelistFailed + faults.whitelist.value))
    else (Disk(Ok(lib), Ok(wl)), Ok(lib))
  }

  // ---------------------------------------------------------------- scanning

  /** `scan_for_games`: the Steam then HoYoPlay detections, in order, without the
      ones whose executable is already in the library. */
  function ScanForGames(steam: seq<DetectedGame>, hoyoplay: seq<DetectedGame>, d: Disk): (r: seq<DetectedGame>)
    ensures forall g :: g in r <==> (g in steam + hoyoplay && !HasGameWithPath(LibraryOrEmpty(d), g.executablePath))
  {
    var lib := LibraryOrEmpty(d);
    Retain(steam + hoyoplay, (g: DetectedGame) => !HasGameWithPath(lib, g.executablePath))
  }

  // ---------------------------------------------------------------- adding games

  const UnknownExe := "unknown.exe"

  /** The process to watch: the executable's file name, or "unknown.exe". */
  function ProcessName(path: string): (r: string)
    ensures r != ""
    ensures FileName(path).None? ==> r == UnknownExe
    ensures FileName(path).Some? ==> NoSep(r) && EndsWith(Tidy(path), r)
  {
    FileName(path).GetOr(UnknownExe)
  }

  /** The library record for a detected game: no playtime and never played yet. */
  function FromDetected(g: DetectedGame, id: string, now: string): (r: LibraryGame)
  {
    LibraryGame(id, g.name, g.executablePath, g.installPath, g.source, g.appId, g.iconPath,
                ProcessName(g.executablePath), now, None, 0)
  }

  /** The whitelist holds the process name, ignoring case. */
  predicate Watches(wl: seq<GameEntry>, processName: string)
  {
    exists i :: 0 <= i < |wl| && EqualsIgnoreCase(wl[i].processName, processName)
  }

  /** No two whitelist entries have process names that differ only in case. */
  predicate NamesUnique(wl: seq<GameEntry>)
  {
    forall i, j :: 0 <= i < j < |wl| ==> !EqualsIgnoreCase(wl[i].processName, wl[j].processName)
  }

  /** Puts an enabled entry for the process on the whitelist unless one is already
      there. */
  function WatchProcess(wl: seq<GameEntry>, name: string, processName: string): (r: seq<GameEntry>)
    ensures Watches(r, processName)
    ensures Watches(wl, processName) ==> r == wl
    ensures !Watches(wl, processName) ==> r == wl + [GameDetector.GameEntry(name, processName, None, true)]
  {
    if AnyProcess(wl, Lower(processName)) then wl
    else
      var r := wl + [GameDetector.GameEntry(name, processName, None, true)];
      assert r[|wl|].processName == processName;
      r
  }

  function AnyProcess(wl: seq<GameEntry>, key: string): (r: bool)
    ensures r <==> exists i :: 0 <= i < |wl| && Lower(wl[i].processName) == key
  {
    if |wl| == 0 then false
    else
      assert forall i :: 1 <= i < |wl| ==> wl[i] == wl[1..][i - 1];
      Lower(wl[0].processName) == key || AnyProcess(wl[1..], key)
  }

  /** The library and whitelist as a batch add builds them. */
  datatype Lists = Lists(games: seq<LibraryGame>, whitelist: seq<GameEntry>)

  /** One step of `add_detected_games`: a game whose path is already present is
      skipped; otherwise it is added and its process watched. */
  function AddDetected(s: Lists, g: DetectedGame, id: string, now: string): (r: Lists)
  {
    if HasGameWithPath(GameLibrary(s.games), g.executablePath) then s
    else
      var game := FromDetected(g, id, now);
      Lists(s.games + [game], WatchProcess(s.whitelist, g.name, game.processName))
  }

  /** The batch, one game after another; `idOf(i)` is the id drawn for the i-th game. */
  function AddBatch(s: Lists, games: seq<DetectedGame>, idOf: nat -> string, now: string): (r: Lists)
    ensures s.games <= r.games && s.whitelist <= r.whitelist
    decreases |games|
  {
    if |games| == 0 then s
    else AddDetected(AddBatch(s, games[..|games| - 1], idOf, now), games[|games| - 1], idOf(|games| - 1), now)
  }

  /** A skipped step changes nothing; an added game is new, never played, and keeps
      the paths unique and the watched names unique. */
  lemma AddDetectedProps(s: Lists, g: DetectedGame, id: string, now: string)
    ensures var r := AddDetected(s, g, id, now);
      && HasPath(r.games, g.executablePath)
      && (PathsUnique(s.games) ==> PathsUnique(r.games))
      && (NamesUnique(s.whitelist) ==> NamesUnique(r.whitelist))
      && (forall q :: HasPath(s.games, q) ==> HasPath(r.games, q))
      && (forall q :: Watches(s.whitelist, q) ==> Watches(r.whitelist, q))
      && (r != s ==> r.games == s.games + [FromDetected(g, id, now)] && Watches(r.whitelist, ProcessName(g.executablePath)))
  {
    AddDetectedFinds(s, g, id, now);
    AddDetectedUnique(s, g, id, now);
    AddDetectedWatches(s, g, id, now);
  }

  /** After a step the path is in the library, and so is every path that was. */
  lemma AddDetectedFinds(s: Lists, g: DetectedGame, id: string, now: string)
    ensures var r := AddDetected(s, g, id, now);
      && HasPath(r.games, g.executablePath)
      && (forall q :: HasPath(s.games, q) ==> HasPath(r.games, q))
  {
    var r := AddDetected(s, g, id, now);
    if r != s {
      AppendKeepsPaths(s.games, FromDetected(g, id, now));
    }
  }

  /** Appending a game adds its path and keeps every path already present. */
  lemma AppendKeepsPaths(games: seq<LibraryGame>, game: LibraryGame)
    ensures HasPath(games + [game], game.executablePath)
    ensures forall q :: HasPath(games, q) ==> HasPath(games + [game], q)
  {
    var r := games + [game];
    assert r[|games|] == game;
    assert forall i :: 0 <= i < |games| ==> r[i] == games[i];
  }

  /** A step keeps the paths unique and the watched names unique. */
  lemma AddDetectedUnique(s: Lists, g: DetectedGame, id: string, now: string)
    ensures var r := AddDetected(s, g, id, now);
      && (PathsUnique(s.games) ==> PathsUnique(r.games))
      && (NamesUnique(s.whitelist) ==> NamesUnique(r.whitelist))
  {
    var r := AddDetected(s, g, id, now);
    if r != s {
      var game := FromDetected(g, id, now);
      assert !HasPath(s.games, game.executablePath);
      AppendNewPath(s.games, game);
      WatchProcessUnique(s.whitelist, g.name, game.processName);
    }
  }

  /** Appending a game whose path is absent keeps the paths unique. */
  lemma AppendNewPath(games: seq<LibraryGame>, game: LibraryGame)
    requires !HasPath(games, game.executablePath)
    ensures PathsUnique(games) ==> PathsUnique(games + [game])
  {
    var r := games + [game];
    assert forall i :: 0 <= i < |games| ==> r[i] == games[i];
  }

  /** Watching a process keeps the watched names unique. */
  lemma WatchProcessUnique(wl: seq<GameEntry>, name: string, p: string)
    ensures NamesUnique(wl) ==> NamesUnique(WatchProcess(wl, name, p))
  {
    if !Watches(wl, p) {
      var r := wl + [GameDetector.GameEntry(name, p, None, true)];
      assert forall i :: 0 <= i < |wl| ==> r[i] == wl[i];
    }
  }

  /** A step keeps every watched name; an added game is appended and its process
      watched. */
  lemma AddDetectedWatches(s: Lists, g: DetectedGame, id: string, now: string)
    ensures var r := AddDetected(s, g, id, now);
      && (forall q :: Watches(s.whitelist, q) ==> Watches(r.whitelist, q))
      && (r != s ==> r.games == s.games + [FromDetected(g, id, now)] && Watches(r.whitelist, ProcessName(g.executablePath)))
  {
    var r := AddDetected(s, g, id, now);
    if r != s {
      WatchProcessKeeps(s.whitelist, g.name, ProcessName(g.executablePath));
    }
  }

  /** Watching a process keeps every name already watched. */
  lemma WatchProcessKeeps(wl: seq<GameEntry>, name: string, p: string)
    ensures forall q :: Watches(wl, q) ==> Watches(WatchProcess(wl, name, p), q)
  {
    if !Watches(wl, p) {
      var r := wl + [GameDetector.GameEntry(name, p, None, true)];
      assert forall i :: 0 <= i < |wl| ==> r[i] == wl[i];
    }
  }

  /** Over a whole batch every detected path ends up in the library. */
  lemma {:induction false} AddBatchCovers(s: Lists, games: seq<DetectedGame>, idOf: nat -> string, now: string)
    ensures var r := AddBatch(s, games, idOf, now);
      forall i :: 0 <= i < |games| ==> HasPath(r.games, games[i].executablePath)
    decreases |games|
  {
    if |games| > 0 {
      var front := games[..|games| - 1];
      var p := AddBatch(s, front, idOf, now);
      var g := games[|games| - 1];
      AddBatchCovers(s, front, idOf, now);
      AddDetectedFinds(p, g, idOf(|games| - 1), now);
      var r := AddDetected(p, g, idOf(|games| - 1), now);
      forall i | 0 <= i < |games| ensures HasPath(r.games, games[i].executablePath) {
        if i < |games| - 1 {
          assert front[i] == games[i];
          assert HasPath(p.games, front[i].executablePath);
        }
      }
    }
  }

  /** Paths that were unique ignoring case stay unique, however often a path repeats
      within the batch, and so do the watched process names. */
  lemma {:induction false} AddBatchUnique(s: Lists, games: seq<DetectedGame>, idOf: nat -> string, now: string)
    ensures var r := AddBatch(s, games, idOf, now);
      && (PathsUnique(s.games) ==> PathsUnique(r.games))
      && (NamesUnique(s.whitelist) ==> NamesUnique(r.whitelist))
    decreases |games|
  {
    if |games| > 0 {
      var front := games[..|games| - 1];
      AddBatchUnique(s, front, idOf, now);
      AddDetectedUnique(AddBatch(s, front, idOf, now), games[|games| - 1], idOf(|games| - 1), now);
    }
  }

  /** Every game added since `s` has its process watched. */
  predicate AddedWatched(s: Lists, r: Lists)
  {
    forall k :: |s.games| <= k < |r.games| ==> Watches(r.whitelist, r.games[k].processName)
  }

  /** Every game the batch adds has its process watched. */
  lemma {:induction false} AddBatchWatched(s: Lists, games: seq<DetectedGame>, idOf: nat -> string, now: string)
    ensures AddedWatched(s, AddBatch(s, games, idOf, now))
    decreases |games|
  {
    if |games| > 0 {
      var front := games[..|games| - 1];
      var p := AddBatch(s, front, idOf, now);
      var g := games[|games| - 1];
      var r := AddDetected(p, g, idOf(|games| - 1), now);
      AddBatchWatched(s, front, idOf, now);
      AddDetectedWatches(p, g, idOf(|games| - 1), now);
      forall k | |s.games| <= k < |r.games| ensures Watches(r.whitelist, r.games[k].processName) {
        if k < |p.games| {
          assert r.games[k] == p.games[k];
          assert Watches(p.whitelist, p.games[k].processName);
        } else {
          assert r.games[k] == FromDetected(g, idOf(|games| - 1), now);
        }
      }
    }
  }

  /** A new library game has no playtime and has never been played. */
  lemma AddBatchNewGames(s: Lists, games: seq<DetectedGame>, idOf: nat -> string, now: string, k: nat)
    requires |s.games| <= k < |AddBatch(s, games, idOf, now).games|
    ensures var g := AddBatch(s, games, idOf, now).games[k];
      g.totalPlaytimeSeconds == 0 && g.lastPlayed.None? && g.addedAt == now
      && exists i :: 0 <= i < |games| && g.executablePath == games[i].executablePath && g.source == games[i].source
    decreases |games|
  {
    var front := games[..|games| - 1];
    var p := AddBatch(s, front, idOf, now);
    var r := AddBatch(s, games, idOf, now);
    AddDetectedAt(p, games[|games| - 1], idOf(|games| - 1), now, k);
    if k < |p.games| {
      AddBatchNewGames(s, front, idOf, now, k);
      var i :| 0 <= i < |front| && p.games[k].executablePath == front[i].executablePath && p.games[k].source == front[i].source;
      assert front[i] == games[i];
    }
  }

  /** A step keeps every game in its place and puts the added one last. */
  lemma AddDetectedAt(s: Lists, g: DetectedGame, id: string, now: string, k: nat)
    requires k < |AddDetected(s, g, id, now).games|
    ensures k < |s.games| ==> AddDetected(s, g, id, now).games[k] == s.games[k]
    ensures k >= |s.games| ==> AddDetected(s, g, id, now).games[k] == FromDetected(g, id, now)
  {
  }

  /** `add_detected_games`: both files read with an empty default, the batch added,
      both files written. */
  function AddDetectedGames(d: Disk, games: seq<DetectedGame>, idOf: nat -> string, now: string, faults: WriteFaults)
    : (r: (Disk, Result<GameLibrary>))
    ensures r.1.Ok? <==> faults.library.None? && faults.whitelist.None?
    ensures r.1.Ok? ==> LibraryOrEmpty(d).games <= r.1.value.games
    ensures r.1.Ok? ==> forall i :: 0 <= i < |games| ==> HasGameWithPath(r.1.value, games[i].executablePath)
    ensures r.1.Ok? && PathsUnique(LibraryOrEmpty(d).games) ==> PathsUnique(r.1.value.games)
  {
    var s := Lists(LibraryOrEmpty(d).games, WhitelistOrEmpty(d).games);
    var t := AddBatch(s, games, idOf, now);
    AddBatchCovers(s, games, idOf, now);
    AddBatchUnique(s, games, idOf, now);
    SaveBoth(d, GameLibrary(t.games), GameDetector.GameWhitelist(t.whitelist), faults)
  }

  /** `add_manual_game`: refused when the path is already in the library; otherwise
      a manual game installed in the executable's folder (or at the executable when
      it has no parent) is added and its process watched. */
  function AddManualGame(d: Disk, req: AddGameRequest, id: string, now: string, faults: WriteFaults)
    : (r: (Disk, Result<GameLibrary>))
    ensures HasGameWithPath(LibraryOrEmpty(d), req.executablePath) ==> r == (d, Err("Game already in library"))
    ensures r.1.Ok? ==> (
      var games := r.1.value.games;
      && |games| > 0
      && games[..|games| - 1] == LibraryOrEmpty(d).games
      && games[|games| - 1].source == Manual && games[|games| - 1].appId.None?
      && games[|games| - 1].installPath == Parent(req.executablePath).GetOr(req.executablePath)
      && games[|games| - 1].totalPlaytimeSeconds == 0)
    ensures r.1.Ok? && PathsUnique(LibraryOrEmpty(d).games) ==> PathsUnique(r.1.value.games)
  {
    var lib := LibraryOrEmpty(d);
    if HasGameWithPath(lib, req.executablePath) then (d, Err("Game already in library"))
    else
      var path := req.executablePath;
      var g := LibraryGame(id, req.name, path, Parent(path).GetOr(path), Manual, None, req.iconPath,
                           ProcessName(path), now, None, 0);
      var added := AddGame(lib, g);
      assert added.games[..|added.games| - 1] == lib.games;
      assert PathsUnique(lib.games) ==> PathsUnique(added.games) by {
        assert forall i :: 0 <= i < |lib.games| ==> added.games[i] == lib.games[i];
      }
      SaveBoth(d, added, GameDetector.GameWhitelist(WatchProcess(WhitelistOrEmpty(d).games, req.name, g.processName)), faults)
  }

  /** `remove_game_from_library`: an unreadable library and an unknown id are errors;
      otherwise every game with the id is removed and the library written. */
  function RemoveFromLibrary(d: Disk, id: string, fault: Option<string>): (r: (Disk, Result<GameLibrary>))
    ensures d.library.Err? ==> r == (d, Err(ReadLibraryFailed + d.library.error))
    ensures d.library.Ok? && FindById(d.library.value, id).None? ==> r == (d, Err("Game not found in library"))
    ensures r.1.Ok? ==> (fault.None? && r.0.library == r.1 && FindById(r.1.value, id).None?
      && forall g :: g in r.1.value.games <==> g in d.library.value.games && g.id != id)
  {
    match d.library
    case Err(e) => (d, Err(ReadLibraryFailed + e))
    case Ok(lib) =>
      var (kept, removed) := RemoveGame(lib, id);
      if !removed then (d, Err("Game not found in library"))
      else if fault.Some? then (d, Err(SaveLibraryFailed + fault.value))
      else
        RemoveGameIdempotent(lib, id);
        (d.(library := Ok(kept)), Ok(kept))
  }

  /** `launch_game` up to the spawn: the first game with the id gets `now` as its last
      play time and the library is written back; a failed write is ignored. The
      spawn's outcome is a parameter. */
  function LaunchGame(d: Disk, id: string, now: string, written: bool, spawnError: Option<string>)
    : (r: (Disk, Result<string>))
    ensures d.library.Err? ==> r == (d, Err(ReadLibraryFailed + d.library.error))
    ensures d.library.Ok? && FindById(d.library.value, id).None? ==> r == (d, Err("Game not found"))
    ensures r.1.Ok? ==> spawnError.None? && r.1.value == FindById(d.library.value, id).value.executablePath
  {
    match d.library
    case Err(e) => (d, Err(ReadLibraryFailed + e))
    case Ok(lib) =>
      match FindById(lib, id)
      case None => (d, Err("Game not found"))
      case Some(g) =>
        var stamped := GameLibrary(ReplaceFirst(lib.games, IdOf, g.(lastPlayed := Some(now))));
        var d' := if written then d.(library := Ok(stamped)) else d;
        if spawnError.Some? then (d', Err("Failed to launch game: " + spawnError.value))
        else (d', Ok(g.executablePath))
  }

  /** Launching stamps only the first game with the id; every other game and the
      number of games stay the same. */
  lemma LaunchStampsOneGame(d: Disk, id: string, now: string, spawnError: Option<string>)
    requires d.library.Ok? && FindById(d.library.value, id).Some?
    ensures var games := d.library.value.games;
      var r := LaunchGame(d, id, now, true, spawnError).0.library.value.games;
      && |r| == |games|
      && (exists i :: 0 <= i < |r| && r[i].id == id && r[i].lastPlayed == Some(now) && r[i] == games[i].(lastPlayed := Some(now)))
      && forall j :: 0 <= j < |games| && games[j].id != id ==> r[j] == games[j]
  {
    var games := d.library.value.games;
    var g := FindById(d.library.value, id).value;
    var i := IndexOf(games, IdOf, id).value;
    assert games[i] == g;
    var r := ReplaceFirst(games, IdOf, g.(lastPlayed := Some(now)));
    assert r == games[i := g.(lastPlayed := Some(now))];
    assert r[i].id == id;
  }
}

=== FILE: ml_jobs.dfy ===
/** The audio-separation jobs: the job file and the lifecycle of one job (submitted
    as pending, started, completed or failed by the separator worker, cancelled,
    deleted), the debounced progress writes while the worker runs, the output files
    read from the worker's reply, and the list of separation models.

    The job file is `None` when it does not exist and `Some(Err(..))` when it cannot
    be read; the commands return the list they write back. File existence, fresh
    ids and the clock are parameters. */
module MlJobs {
  import opened Wrappers
  import opened Records

  // ---------------------------------------------------------------- data

  datatype MlJobStatus = Pending | Processing | Completed | Failed | Cancelled

  /** The name `{:?}` prints for a status. */
  function StatusName(s: MlJobStatus): string
  {
    match s
    case Pending => "Pending"
    case Processing => "Processing"
    case Completed => "Completed"
    case Failed => "Failed"
    case Cancelled => "Cancelled"
  }

  datatype OutputFile = OutputFile(stem: string, path: string)

  datatype MlJob = MlJob(
    id: string,
    inputFile: string,
    model: string,
    outputDir: Option<string>,
    status: MlJobStatus,
    progress: nat,
    stage: Option<string>,
    outputFiles: Option<seq<OutputFile>>,
    error: Option<string>,
    createdAt: string,
    completedAt: Option<string>)

  type JobFile = Option<Result<seq<MlJob>>>

  function Id(j: MlJob): string { j.id }

  const NoFile := "No ML jobs file found"

  // ---------------------------------------------------------------- submitting

  /** `MLJob::new`: pending, no progress, nothing produced yet. */
  function NewJob(id: string, inputFile: string, model: string, outputDir: Option<string>, now: string): (r: MlJob)
    ensures r.id == id && r.inputFile == inputFile && r.model == model && r.outputDir == outputDir
    ensures r.status == Pending && r.progress == 0 && r.stage.None? && r.outputFiles.None?
    ensures r.error.None? && r.createdAt == now && r.completedAt.None?
  {
    MlJob(id, inputFile, model, outputDir, Pending, 0, None, None, None, now, None)
  }

  /** `list_ml_jobs`: nothing when there is no file. */
  function ListJobs(f: JobFile): (r: Result<seq<MlJob>>)
    ensures f.None? ==> r == Ok([])
    ensures f.Some? ==> r == f.value
  {
    if f.None? then Ok([]) else f.value
  }

  /** `submit_ml_job`: refused for a missing input file; otherwise one new pending job
      is appended to the list. */
  function SubmitJob(f: JobFile, inputExists: bool, id: string, inputFile: string, model: string,
                     outputDir: Option<string>, now: string): (r: Result<seq<MlJob>>)
    ensures !inputExists ==> r == Err("Input file not found: " + inputFile)
    ensures inputExists ==> (r.Ok? <==> ListJobs(f).Ok?)
    ensures r.Ok? ==> r.value == ListJobs(f).value + [NewJob(id, inputFile, model, outputDir, now)]
  {
    if !inputExists then Err("Input file not found: " + inputFile)
    else
      var jobs :- ListJobs(f);
      Ok(jobs + [NewJob(id, inputFile, model, outputDir, now)])
  }

  // ---------------------------------------------------------------- starting

  /** What a start hands the worker besides the written list. */
  datatype Started = Started(jobs: seq<MlJob>, inputFile: string, model: string, outputDir: string)

  /** `start_ml_job`, up to the worker: the first job with the id must be pending; it
      becomes processing, and its output directory defaults to the separated-audio
      directory. */
  function StartJob(f: JobFile, jobId: string, separatedDir: string): (r: Result<Started>)
    ensures f.None? ==> r == Err(NoFile)
    ensures f.Some? && f.value.Ok? && !HasKey(f.value.value, Id, jobId) ==> r == Err("ML job not found: " + jobId)
    ensures r.Ok? ==> f.Some? && f.value.Ok?
    ensures r.Ok? ==> var jobs := f.value.value;
      exists k :: (
        && 0 <= k < |jobs| && jobs[k].id == jobId && jobs[k].status == Pending
        && (forall j :: 0 <= j < k ==> jobs[j].id != jobId)
        && r.value.jobs == jobs[k := jobs[k].(status := Processing)]
        && r.value.inputFile == jobs[k].inputFile && r.value.model == jobs[k].model
        && (jobs[k].outputDir.Some? ==> r.value.outputDir == jobs[k].outputDir.value)
        && (jobs[k].outputDir.None? ==> r.value.outputDir == separatedDir))
  {
    if f.None? then Err(NoFile)
    else if f.value.Err? then Err(f.value.error)
    else
      var jobs := f.value.value;
      HasKeyIndex(jobs, Id, jobId);
      match IndexOf(jobs, Id, jobId)
      case None => Err("ML job not found: " + jobId)
      case Some(k) =>
        var job := jobs[k];
        if job.status != Pending then Err("Cannot start job with status " + StatusName(job.status))
        else Ok(Started(jobs[k := job.(status := Processing)], job.inputFile, job.model,
                        job.outputDir.GetOr(separatedDir)))
  }

  /** A job can be started once: the list a start writes refuses a second start. */
  lemma StartOnce(f: JobFile, jobId: string, separatedDir: string)
    requires StartJob(f, jobId, separatedDir).Ok?
    ensures StartJob(Some(Ok(StartJob(f, jobId, separatedDir).value.jobs)), jobId, separatedDir)
      == Err("Cannot start job with status Processing")
  {
    var jobs := f.value.value;
    var k := IndexOf(jobs, Id, jobId).value;
    IndexOfAt(StartJob(f, jobId, separatedDir).value.jobs, Id, jobId, k);
  }

  // ---------------------------------------------------------------- progress while running

  const ProgressWriteDebounceMs: int := 500

  /** One progress message from the worker and the moment it arrived, in ms. */
  datatype ProgressMessage = ProgressMessage(percent: nat, stage: string, atMs: int)

  /** A message is written to the file when it reports completion or when the last
      write is at least the debounce interval old. */
  predicate ShouldWrite(m: ProgressMessage, lastWrite: int)
  {
    m.percent == 100 || m.atMs - lastWrite >= ProgressWriteDebounceMs
  }

  /** Which messages of a run are written, starting from the time of the last write. */
  function WriteFlags(msgs: seq<ProgressMessage>, lastWrite: int): (r: seq<bool>)
    ensures |r| == |msgs|
    decreases |msgs|
  {
    if |msgs| == 0 then []
    else
      var w := ShouldWrite(msgs[0], lastWrite);
      [w] + WriteFlags(msgs[1..], if w then msgs[0].atMs else lastWrite)
  }

  /** The progress task starts as if the last write were one interval before the
      worker started, so the first message after the start is written. */
  function Debounced(msgs: seq<ProgressMessage>, startMs: int): (r: seq<bool>)
    ensures |r| == |msgs|
    ensures |msgs| > 0 && msgs[0].atMs >= startMs ==> r[0]
  {
    WriteFlags(msgs, startMs - ProgressWriteDebounceMs)
  }

  /** Messages arrive in time order, none before the given moment. */
  predicate Chronological(msgs: seq<ProgressMessage>, from: int)
  {
    && (forall i :: 0 <= i < |msgs| ==> from <= msgs[i].atMs)
    && (forall i, j :: 0 <= i < j < |msgs| ==> msgs[i].atMs <= msgs[j].atMs)
  }

  /** A completion message is always written. */
  lemma {:induction false} CompletionWritten(msgs: seq<ProgressMessage>, lastWrite: int, i: nat)
    requires i < |msgs| && msgs[i].percent == 100
    ensures WriteFlags(msgs, lastWrite)[i]
    decreases i
  {
    if i > 0 {
      var w := ShouldWrite(msgs[0], lastWrite);
      CompletionWritten(msgs[1..], if w then msgs[0].atMs else lastWrite, i - 1);
    }
  }

  /** Every written message other than a completion is at least the interval after
      the starting write and after every earlier written message. */
  lemma {:induction false} WritesSpaced(msgs: seq<ProgressMessage>, lastWrite: int)
    requires Chronological(msgs, lastWrite)
    ensures var w := WriteFlags(msgs, lastWrite);
      forall j :: 0 <= j < |msgs| && w[j] && msgs[j].percent != 100 ==>
        && msgs[j].atMs - lastWrite >= ProgressWriteDebounceMs
        && forall i :: 0 <= i < j && w[i] ==> msgs[j].atMs - msgs[i].atMs >= ProgressWriteDebounceMs
    decreases |msgs|
  {
    if |msgs| > 0 {
      var w := WriteFlags(msgs, lastWrite);
      var next := if w[0] then msgs[0].atMs else lastWrite;
      var rest := msgs[1..];
      assert Chronological(rest, next) by {
        forall i | 0 <= i < |rest| ensures next <= rest[i].atMs {
          assert rest[i] == msgs[i + 1];
        }
      }
      WritesSpaced(rest, next);
      assert w[1..] == WriteFlags(rest, next);
      forall j | 0 < j < |msgs| && w[j] && msgs[j].percent != 100
        ensures msgs[j].atMs - lastWrite >= ProgressWriteDebounceMs
        ensures forall i :: 0 <= i < j && w[i] ==> msgs[j].atMs - msgs[i].atMs >= ProgressWriteDebounceMs
      {
        assert rest[j - 1] == msgs[j] && w[1..][j - 1] == w[j];
        forall i | 0 < i < j && w[i] ensures msgs[j].atMs - msgs[i].atMs >= ProgressWriteDebounceMs {
          assert rest[i - 1] == msgs[i] && w[1..][i - 1] == w[i];
        }
      }
    }
  }

  /** A message that is not written is not a completion and comes within the
      interval of the starting write or of an earlier written message. */
  lemma {:induction false} SkipsAreRecent(msgs: seq<ProgressMessage>, lastWrite: int)
    ensures var w := WriteFlags(msgs, lastWrite);
      forall j :: 0 <= j < |msgs| && !w[j] ==>
        && msgs[j].percent != 100
        && (|| msgs[j].atMs - lastWrite < ProgressWriteDebounceMs
            || exists i :: 0 <= i < j && w[i] && msgs[j].atMs - msgs[i].atMs < ProgressWriteDebounceMs)
    decreases |msgs|
  {
    if |msgs| > 0 {
      var w := WriteFlags(msgs, lastWrite);
      var next := if w[0] then msgs[0].atMs else lastWrite;
      var rest := msgs[1..];
      SkipsAreRecent(rest, next);
      assert w[1..] == WriteFlags(rest, next);
      forall j | 0 < j < |msgs| && !w[j]
        ensures msgs[j].percent != 100
        ensures || msgs[j].atMs - lastWrite < ProgressWriteDebounceMs
                || exists i :: 0 <= i < j && w[i] && msgs[j].atMs - msgs[i].atMs < ProgressWriteDebounceMs
      {
        assert rest[j - 1] == msgs[j] && w[1..][j - 1] == w[j];
        if msgs[j].atMs - next >= ProgressWriteDebounceMs {
          var i' :| 0 <= i' < j - 1 && w[1..][i'] && rest[j - 1].atMs - rest[i'].atMs < ProgressWriteDebounceMs;
          assert w[i' + 1] && msgs[i' + 1] == rest[i'];
        } else if w[0] {
          assert msgs[j].atMs - msgs[0].atMs < ProgressWriteDebounceMs;
        }
      }
    }
  }

  /** A written message sets the first job with the id to its percent and stage. */
  function ApplyProgress(jobs: seq<MlJob>, jobId: string, m: ProgressMessage): (r: seq<MlJob>)
    ensures |r| == |jobs|
    ensures forall j :: 0 <= j < |jobs| ==> r[j].id == jobs[j].id
    ensures IndexOf(jobs, Id, jobId).None? ==> r == jobs
    ensures IndexOf(jobs, Id, jobId).Some? ==> var k := IndexOf(jobs, Id, jobId).value;
      r == jobs[k := jobs[k].(progress := m.percent, stage := Some(m.stage))]
  {
    match IndexOf(jobs, Id, jobId)
    case None => jobs
    case Some(k) => jobs[k := jobs[k].(progress := m.percent, stage := Some(m.stage))]
  }

  /** The job list after the progress task has handled every message. */
  function ApplyWrites(jobs: seq<MlJob>, jobId: string, msgs: seq<ProgressMessage>, lastWrite: int): (r: seq<MlJob>)
    ensures |r| == |jobs|
    ensures forall j :: 0 <= j < |jobs| ==> r[j].id == jobs[j].id
    decreases |msgs|
  {
    if |msgs| == 0 then jobs
    else
      var w := ShouldWrite(msgs[0], lastWrite);
      ApplyWrites(if w then ApplyProgress(jobs, jobId, msgs[0]) else jobs, jobId, msgs[1..],
                  if w then msgs[0].atMs else lastWrite)
  }

  /** Lists with the same ids find the same first index. */
  lemma SameIdsSameIndex(a: seq<MlJob>, b: seq<MlJob>, jobId: string)
    requires |a| == |b| && forall j :: 0 <= j < |a| ==> a[j].id == b[j].id
    ensures IndexOf(a, Id, jobId) == IndexOf(b, Id, jobId)
  {
    if IndexOf(a, Id, jobId).Some? {
      IndexOfAt(b, Id, jobId, IndexOf(a, Id, jobId).value);
    }
  }

  /** When the run ends with a completion message, the file records it, whatever
      was skipped before. */
  lemma {:induction false} CompletionRecorded(jobs: seq<MlJob>, jobId: string, msgs: seq<ProgressMessage>, lastWrite: int)
    requires |msgs| > 0 && msgs[|msgs| - 1].percent == 100
    requires HasKey(jobs, Id, jobId)
    ensures var r := ApplyWrites(jobs, jobId, msgs, lastWrite);
      var k := IndexOf(jobs, Id, jobId).value;
      r[k].progress == 100 && r[k].stage == Some(msgs[|msgs| - 1].stage)
    decreases |msgs|
  {
    HasKeyIndex(jobs, Id, jobId);
    var w := ShouldWrite(msgs[0], lastWrite);
    var jobs' := if w then ApplyProgress(jobs, jobId, msgs[0]) else jobs;
    var next := if w then msgs[0].atMs else lastWrite;
    SameIdsSameIndex(jobs, jobs', jobId);
    HasKeyIndex(jobs', Id, jobId);
    if |msgs| > 1 {
      assert msgs[1..][|msgs[1..]| - 1] == msgs[|msgs| - 1];
      CompletionRecorded(jobs', jobId, msgs[1..], next);
    } else {
      assert ApplyWrites(jobs', jobId, msgs[1..], next) == jobs';
    }
  }

  // ---------------------------------------------------------------- finishing

  /** One entry of the worker's `output_files`: each field `None` when missing or not
      a string. */
  datatype OutputEntry = OutputEntry(stem: Option<string>, path: Option<string>)

  predicate Complete(e: OutputEntry) { e.stem.Some? && e.path.Some? }

  /** The entries with both a stem and a path, in order. */
  function OutputFiles(entries: seq<OutputEntry>): (r: seq<OutputFile>)
    ensures |r| <= |entries|
    ensures forall i :: 0 <= i < |r| ==> exists e :: e in entries && Complete(e) && r[i] == OutputFile(e.stem.value, e.path.value)
    ensures forall e :: e in entries && Complete(e) ==> OutputFile(e.stem.value, e.path.value) in r
    ensures (forall i :: 0 <= i < |entries| ==> Complete(entries[i])) ==> |r| == |entries|
  {
    if |entries| == 0 then []
    else
      var e := entries[0];
      var tail := OutputFiles(entries[1..]);
      assert forall x :: x in entries[1..] ==> x in entries;
      if Complete(e) then [OutputFile(e.stem.value, e.path.value)] + tail else tail
  }

  /** What the separator reports: on success the `output_files` array if the reply
      has one, or its error. */
  datatype WorkerResult = WorkerOk(outputFiles: Option<seq<OutputEntry>>) | WorkerErr(message: string)

  datatype Finished = Finished(jobs: seq<MlJob>, reply: Result<Option<seq<OutputFile>>>)

  function Outcome(job: MlJob, w: WorkerResult, now: string): (r: MlJob)
    ensures r.id == job.id && r.inputFile == job.inputFile && r.model == job.model
    ensures w.WorkerOk? ==> && r.status == Completed && r.progress == 100 && r.stage.None?
                            && r.completedAt == Some(now) && r.error == job.error
                            && (w.outputFiles.None? <==> r.outputFiles.None?)
                            && (w.outputFiles.Some? ==> r.outputFiles == Some(OutputFiles(w.outputFiles.value)))
    ensures w.WorkerErr? ==> r == job.(status := Failed, error := Some(w.message))
  {
    match w
    case WorkerOk(entries) =>
      var files := if entries.Some? then Some(OutputFiles(entries.value)) else None;
      job.(status := Completed, progress := 100, stage := None, completedAt := Some(now), outputFiles := files)
    case WorkerErr(message) => job.(status := Failed, error := Some(message))
  }

  /** `start_ml_job`, after the worker: the list is read again and the first job with
      the id records the outcome. */
  function FinishJob(file: Result<seq<MlJob>>, jobId: string, w: WorkerResult, now: string): (r: Result<Finished>)
    ensures file.Err? ==> r == Err(file.error)
    ensures file.Ok? ==> (r.Err? <==> !HasKey(file.value, Id, jobId))
    ensures file.Ok? && r.Err? ==> r.error == "ML job not found after worker: " + jobId
    ensures r.Ok? ==> var jobs := file.value;
      exists k :: (
        && 0 <= k < |jobs| && jobs[k].id == jobId
        && (forall j :: 0 <= j < k ==> jobs[j].id != jobId)
        && r.value.jobs == jobs[k := Outcome(jobs[k], w, now)])
    ensures r.Ok? ==> (w.WorkerOk? ==> r.value.reply == Ok(if w.outputFiles.Some? then Some(OutputFiles(w.outputFiles.value)) else None))
    ensures r.Ok? ==> (w.WorkerErr? ==> r.value.reply == Err(w.message))
  {
    if file.Err? then Err(file.error)
    else
      var jobs := file.value;
      HasKeyIndex(jobs, Id, jobId);
      match IndexOf(jobs, Id, jobId)
      case None => Err("ML job not found after worker: " + jobId)
      case Some(k) =>
        var done := Outcome(jobs[k], w, now);
        Ok(Finished(jobs[k := done], if w.WorkerOk? then Ok(done.outputFiles) else Err(w.message)))
  }

  // ---------------------------------------------------------------- cancelling and deleting

  /** `cancel_ml_job`: the first job with the id, if pending or processing, becomes
      cancelled; any other status, or no such job, is refused. */
  function CancelJob(f: JobFile, jobId: string): (r: Result<seq<MlJob>>)
    ensures f.None? ==> r == Err(NoFile)
    ensures f.Some? && f.value.Ok? && !HasKey(f.value.value, Id, jobId) ==> r == Err("ML job not found: " + jobId)
    ensures r.Ok? ==> f.Some? && f.value.Ok?
    ensures r.Ok? ==> var jobs := f.value.value;
      exists k :: (
        && 0 <= k < |jobs| && jobs[k].id == jobId
        && (forall j :: 0 <= j < k ==> jobs[j].id != jobId)
        && jobs[k].status in {Pending, Processing}
        && |r.value| == |jobs| && r.value[k] == jobs[k].(status := Cancelled)
        && forall j :: 0 <= j < |jobs| && j != k ==> r.value[j] == jobs[j])
  {
    if f.None? then Err(NoFile)
    else if f.value.Err? then Err(f.value.error)
    else
      var jobs := f.value.value;
      HasKeyIndex(jobs, Id, jobId);
      match IndexOf(jobs, Id, jobId)
      case None => Err("ML job not found: " + jobId)
      case Some(k) =>
        if jobs[k].status == Pending || jobs[k].status == Processing then Ok(jobs[k := jobs[k].(status := Cancelled)])
        else Err("Cannot cancel job with status " + StatusName(jobs[k].status))
  }

  /** A cancelled job can be neither cancelled again nor started. */
  lemma CancelIsFinal(f: JobFile, jobId: string, separatedDir: string)
    requires CancelJob(f, jobId).Ok?
    ensures var after := Some(CancelJob(f, jobId));
      && CancelJob(after, jobId) == Err("Cannot cancel job with status Cancelled")
      && StartJob(after, jobId, separatedDir) == Err("Cannot start job with status Cancelled")
  {
    var jobs := f.value.value;
    var k := IndexOf(jobs, Id, jobId).value;
    var after := CancelJob(f, jobId).value;
    IndexOfAt(after, Id, jobId, k);
    CancelledRefused(after, jobId, k, separatedDir);
  }

  /** A list whose first job with the id is cancelled refuses to cancel or start it. */
  lemma CancelledRefused(jobs: seq<MlJob>, jobId: string, k: nat, separatedDir: string)
    requires k < |jobs| && IndexOf(jobs, Id, jobId) == Some(k) && jobs[k].status == Cancelled
    ensures CancelJob(Some(Ok(jobs)), jobId) == Err("Cannot cancel job with status Cancelled")
    ensures StartJob(Some(Ok(jobs)), jobId, separatedDir) == Err("Cannot start job with status Cancelled")
  {
  }

  datatype Deleted = Deleted(jobs: seq<MlJob>, removedFiles: seq<string>)

  /** The output files a deletion removes: those present, when asked for. Failures to
      remove one are only logged. */
  function FilesToRemove(job: MlJob, deleteOutput: bool, present: string -> bool): (r: seq<string>)
    ensures !deleteOutput || job.outputFiles.None? ==> r == []
    ensures forall p :: p in r ==> present(p)
    ensures deleteOutput && job.outputFiles.Some? ==>
      forall o :: o in job.outputFiles.value && present(o.path) ==> o.path in r
  {
    if deleteOutput && job.outputFiles.Some? then PresentPaths(job.outputFiles.value, present) else []
  }

  function PresentPaths(files: seq<OutputFile>, present: string -> bool): (r: seq<string>)
    ensures forall p :: p in r ==> present(p)
    ensures forall o :: o in files && present(o.path) ==> o.path in r
  {
    if |files| == 0 then []
    else
      var tail := PresentPaths(files[1..], present);
      assert forall o :: o in files && o != files[0] ==> o in files[1..];
      if present(files[0].path) then [files[0].path] + tail else tail
  }

  /** `delete_ml_job`: the first job with the id is removed, after its present output
      files when that was asked for. */
  function DeleteJob(f: JobFile, jobId: string, deleteOutput: bool, present: string -> bool): (r: Result<Deleted>)
    ensures f.None? ==> r == Err(NoFile)
    ensures f.Some? && f.value.Ok? ==> (r.Err? <==> !HasKey(f.value.value, Id, jobId))
    ensures f.Some? && f.value.Ok? && r.Err? ==> r.error == "ML job not found: " + jobId
    ensures r.Ok? ==> f.Some? && f.value.Ok?
    ensures r.Ok? ==> var jobs := f.value.value;
      exists k :: (
        && 0 <= k < |jobs| && jobs[k].id == jobId
        && (forall j :: 0 <= j < k ==> jobs[j].id != jobId)
        && r.value.jobs == RemoveAt(jobs, k)
        && r.value.removedFiles == FilesToRemove(jobs[k], deleteOutput, present))
  {
    if f.None? then Err(NoFile)
    else if f.value.Err? then Err(f.value.error)
    else
      var jobs := f.value.value;
      HasKeyIndex(jobs, Id, jobId);
      match IndexOf(jobs, Id, jobId)
      case None => Err("ML job not found: " + jobId)
      case Some(k) => Ok(Deleted(RemoveAt(jobs, k), FilesToRemove(jobs[k], deleteOutput, present)))
  }

  /** Deleting a freshly submitted job restores the list. */
  lemma SubmitThenDelete(jobs: seq<MlJob>, id: string, inputFile: string, model: string,
                         outputDir: Option<string>, now: string, present: string -> bool)
    requires !HasKey(jobs, Id, id)
    ensures var submitted := SubmitJob(Some(Ok(jobs)), true, id, inputFile, model, outputDir, now);
      DeleteJob(Some(submitted), id, true, present) == Ok(Deleted(jobs, []))
  {
    var submitted := jobs + [NewJob(id, inputFile, model, outputDir, now)];
    IndexOfAt(submitted, Id, id, |jobs|);
    assert RemoveAt(submitted, |jobs|) == jobs;
  }

  // ---------------------------------------------------------------- models

  datatype Model = Model(id: string, name: string, description: string, isDownloaded: bool)

  const ModelIds: seq<string> := ["htdemucs_ft", "htdemucs", "htdemucs_6s"]

  /** `get_available_models`: the three separation models, each downloaded exactly
      when the demucs directory and the model's directory under it exist. */
  function AvailableModels(demucsPresent: bool, modelPresent: string -> bool): (r: seq<Model>)
    ensures |r| == 3
    ensures forall i :: 0 <= i < 3 ==> r[i].id == ModelIds[i]
    ensures forall i :: 0 <= i < 3 ==> (r[i].isDownloaded <==> demucsPresent && modelPresent(r[i].id))
  {
    var d := (id: string) => demucsPresent && modelPresent(id);
    [ Model("htdemucs_ft", "Demucs Fine-Tuned",
            "Best quality audio separation model (4 stems: vocals, drums, bass, other)", d("htdemucs_ft")),
      Model("htdemucs", "Demucs", "Standard audio separation model (4 stems)", d("htdemucs")),
      Model("htdemucs_6s", "Demucs 6-Stem", "6-stem separation (includes guitar and piano)", d("htdemucs_6s")) ]
  }
}

=== FILE: model_enhancer.dfy ===
/** The model-enhancer worker's data preparation: input validation, the
    fine-tuning defaults, sorting feedback into positives and negatives,
    slicing bulk files into fixed windows, the sample-count guards and the
    progress percentages.

    File existence, audio durations and the outcome of each segment
    extraction are parameters; training itself is opaque. */
module ModelEnhancer {
  import opened Wrappers
  import opened Numeric
  import opened DetectionJobs

  // ---------------------------------------------------------------- input

  /** `validate_input`: at least one of the three lists must be present and non-empty. */
  function ValidateInput(feedbackSessions: Option<seq<FeedbackSession>>, bulkPositive: Option<seq<BulkFile>>,
                         bulkNegative: Option<seq<BulkFile>>): (err: Option<string>)
    ensures err.None? <==>
      (feedbackSessions.Some? && |feedbackSessions.value| > 0)
      || (bulkPositive.Some? && |bulkPositive.value| > 0)
      || (bulkNegative.Some? && |bulkNegative.value| > 0)
  {
    if NonEmpty(feedbackSessions) || NonEmpty(bulkPositive) || NonEmpty(bulkNegative) then None
    else Some("Need either feedback_sessions or bulk files")
  }

  /** Python truthiness of an optional list. */
  predicate NonEmpty<T>(xs: Option<seq<T>>) { xs.Some? && |xs.value| > 0 }

  /** The `config` object of a training request; every key may be missing. */
  datatype EnhanceConfigDict = EnhanceConfigDict(
    fineTune: Option<bool>,
    freezeLayers: Option<bool>,
    unfreezeAfter: Option<int>,
    epochs: Option<int>,
    learningRate: Option<real>,
    bulkWindowSize: Option<real>,
    bulkHopSize: Option<real>)

  datatype EnhanceParams = EnhanceParams(
    fineTune: bool,
    freezeLayers: bool,
    unfreezeAfter: int,
    epochs: int,
    learningRate: real,
    bulkWindowSize: real,
    bulkHopSize: real)

  /** Defaults: fine-tuning on, layers frozen, unfrozen after 5 epochs; 15 epochs at
      learning rate 0.0001 when fine-tuning, else 30 at 0.001; windows of 1 s every 0.5 s. */
  function Params(d: EnhanceConfigDict): (p: EnhanceParams)
    ensures d.fineTune.None? ==> p.fineTune
    ensures d.epochs.None? ==> p.epochs == if p.fineTune then 15 else 30
    ensures d.learningRate.None? ==> p.learningRate == if p.fineTune then 0.0001 else 0.001
    ensures d.epochs.Some? ==> p.epochs == d.epochs.value
    ensures d.learningRate.Some? ==> p.learningRate == d.learningRate.value
    ensures d.bulkWindowSize.None? ==> p.bulkWindowSize == 1.0
    ensures d.bulkHopSize.None? ==> p.bulkHopSize == 0.5
  {
    var fineTune := d.fineTune.GetOr(true);
    EnhanceParams(
      fineTune,
      d.freezeLayers.GetOr(true),
      d.unfreezeAfter.GetOr(5),
      d.epochs.GetOr(if fineTune then 15 else 30),
      d.learningRate.GetOr(if fineTune then 0.0001 else 0.001),
      d.bulkWindowSize.GetOr(1.0),
      d.bulkHopSize.GetOr(0.5))
  }

  /** A pretrained checkpoint is used only when fine-tuning, an original model path is
      given, and `best_model.pt` exists beside it. */
  function PretrainedPath(fineTune: bool, originalModelPath: Option<string>, checkpointBeside: string -> string,
                          fileExists: string -> bool): (r: Option<string>)
    ensures r.Some? <==>
      && fineTune && originalModelPath.Some? && originalModelPath.value != ""
      && fileExists(checkpointBeside(originalModelPath.value))
    ensures r.Some? ==> r.value == checkpointBeside(originalModelPath.value)
  {
    if fineTune && originalModelPath.Some? && originalModelPath.value != "" then
      var pt := checkpointBeside(originalModelPath.value);
      if fileExists(pt) then Some(pt) else None
    else None
  }

  // ---------------------------------------------------------------- samples

  /** A span of a source file to extract. */
  datatype Span = Span(sourceFile: string, startSeconds: real, endSeconds: real)

  function SampleSpan(file: string, s: FeedbackSample): Span { Span(file, s.startSeconds, s.endSeconds) }

  /** The reviewed samples of the sessions whose verdict is (or is not) "correct", and
      the manual positives, each tagged with its session's source file. */
  function Reviewed(sessions: seq<FeedbackSession>, correct: bool): (r: seq<Span>)
  {
    if |sessions| == 0 then []
    else
      var s := sessions[0];
      ReviewedOf(s.sourceFile, s.samples, correct) + Reviewed(sessions[1..], correct)
  }

  function ReviewedOf(file: string, samples: seq<FeedbackSample>, correct: bool): (r: seq<Span>)
    ensures |r| <= |samples|
  {
    if |samples| == 0 then []
    else
      var rest := ReviewedOf(file, samples[1..], correct);
      if (samples[0].userLabel == "correct") == correct then [SampleSpan(file, samples[0])] + rest else rest
  }

  function Manual(sessions: seq<FeedbackSession>): seq<Span>
  {
    if |sessions| == 0 then []
    else
      var s := sessions[0];
      seq(|s.manualPositives|, k requires 0 <= k < |s.manualPositives| =>
        Span(s.sourceFile, s.manualPositives[k].startSeconds, s.manualPositives[k].endSeconds))
      + Manual(sessions[1..])
  }

  /** Every reviewed sample is either correct or wrong: the two lists split the samples. */
  lemma {:induction false} ReviewedSplit(file: string, samples: seq<FeedbackSample>)
    ensures |ReviewedOf(file, samples, true)| + |ReviewedOf(file, samples, false)| == |samples|
    decreases |samples|
  {
    if |samples| > 0 {
      ReviewedSplit(file, samples[1..]);
    }
  }

  lemma {:induction false} ReviewedSplitAll(sessions: seq<FeedbackSession>)
    ensures |Reviewed(sessions, true)| + |Reviewed(sessions, false)| == ReviewedCount(sessions)
    decreases |sessions|
  {
    if |sessions| > 0 {
      ReviewedSplit(sessions[0].sourceFile, sessions[0].samples);
      ReviewedSplitAll(sessions[1..]);
    }
  }

  function ReviewedCount(sessions: seq<FeedbackSession>): nat
  {
    if |sessions| == 0 then 0 else |sessions[0].samples| + ReviewedCount(sessions[1..])
  }

  /** A sample is a positive exactly when the user marked it "correct". */
  lemma {:induction false} ReviewedLabels(file: string, samples: seq<FeedbackSample>, correct: bool, k: nat)
    requires k < |samples|
    ensures (samples[k].userLabel == "correct") == correct ==>
      SampleSpan(file, samples[k]) in ReviewedOf(file, samples, correct)
    decreases k
  {
    if k > 0 {
      ReviewedLabels(file, samples[1..], correct, k - 1);
    }
  }

  // ---------------------------------------------------------------- bulk windows

  /** A bulk file is listed as a path string or as an object with an optional path. */
  datatype BulkFile = PathString(p: string) | PathObject(path: Option<string>)

  function BulkPath(b: BulkFile): Option<string>
  {
    match b
    case PathString(p) => Some(p)
    case PathObject(path) => path
  }

  /** How many windows of width `w` every `h` seconds fit in `duration`. */
  function WindowCount(duration: real, w: real, h: real): nat
    requires h > 0.0
  {
    if w > duration then 0 else ((duration - w) / h).Floor + 1
  }

  /** The windows `[k h, k h + w]` for k below the count. */
  function BulkWindows(file: string, duration: real, w: real, h: real): (r: seq<Span>)
    requires h > 0.0
    ensures |r| == WindowCount(duration, w, h)
  {
    seq(WindowCount(duration, w, h), k requires 0 <= k < WindowCount(duration, w, h) =>
      Span(file, k as real * h, k as real * h + w))
  }

  /** Window k fits exactly when k is below the count. */
  lemma WindowFits(duration: real, w: real, h: real, k: nat)
    requires h > 0.0
    ensures k as real * h + w <= duration <==> k < WindowCount(duration, w, h)
  {
    var kh := k as real * h;
    MulNonNeg(k as real, h);
    if w <= duration {
      var q := (duration - w) / h;
      var f := q.Floor;
      assert WindowCount(duration, w, h) == f + 1;
      DivMulCancel(duration - w, h);
      assert q * h == duration - w;
      if k <= f {
        MulMono(k as real, q, h);
        assert kh <= duration - w;
      } else {
        assert q < k as real;
        MulStrict(q, k as real, h);
        assert kh > duration - w;
      }
    } else {
      assert WindowCount(duration, w, h) == 0;
      assert kh + w > duration;
    }
  }

  /** Every bulk window lies inside the file. */
  lemma BulkWindowsInside(file: string, duration: real, w: real, h: real)
    requires h > 0.0 && w >= 0.0
    ensures var r := BulkWindows(file, duration, w, h);
      forall k :: 0 <= k < |r| ==>
        && r[k].sourceFile == file
        && 0.0 <= r[k].startSeconds
        && r[k].endSeconds <= duration
        && r[k].endSeconds - r[k].startSeconds == w
  {
    var r := BulkWindows(file, duration, w, h);
    forall k | 0 <= k < |r|
      ensures 0.0 <= r[k].startSeconds && r[k].endSeconds <= duration
    {
      WindowFits(duration, w, h, k);
      MulNonNeg(k as real, h);
    }
  }

  /** The loop as written with a hop of zero or less, when one window fits: after any
      number `k` of iterations the guard still holds, so the loop never ends. The app
      never passes a hop, so the default of 0.5 s applies there. */
  lemma NonPositiveHopNeverEnds(duration: real, w: real, h: real, k: nat)
    requires h <= 0.0 && w <= duration
    ensures k as real * h + w <= duration
  {
    MulMono(0.0, k as real, -h);
  }

  /** The slicing loop: `current_time` starts at 0 and advances by the hop while a
      whole window still fits. The hop must be positive for the loop to end (see
      `NonPositiveHopNeverEnds`). */
  method SliceBulk(file: string, duration: real, w: real, h: real) returns (windows: seq<Span>)
    requires h > 0.0
    ensures windows == BulkWindows(file, duration, w, h)
  {
    var n := WindowCount(duration, w, h);
    windows := [];
    var t := 0.0;
    var k := 0;
    WindowFits(duration, w, h, 0);
    while t + w <= duration
      invariant 0 <= k <= n
      invariant t == k as real * h
      invariant (t + w <= duration) <==> k < n
      invariant windows == BulkWindows(file, duration, w, h)[..k]
      decreases n - k
    {
      ghost var all := BulkWindows(file, duration, w, h);
      assert k < n;
      assert all[k] == Span(file, t, t + w);
      assert all[..k + 1] == all[..k] + [all[k]];
      windows := windows + [Span(file, t, t + w)];
      t := t + h;
      k := k + 1;
      WindowFits(duration, w, h, k);
    }
  }

  /** The windows of the usable bulk files, in list order: a file without a path, that
      does not exist, or whose duration cannot be read is skipped. */
  function BulkSamples(files: seq<BulkFile>, w: real, h: real, fileExists: string -> bool,
                       duration: string -> Option<real>): seq<Span>
    requires h > 0.0
  {
    if |files| == 0 then []
    else
      var rest := BulkSamples(files[1..], w, h, fileExists, duration);
      var p := BulkPath(files[0]);
      if p.None? || p.value == "" || !fileExists(p.value) || duration(p.value).None? then rest
      else BulkWindows(p.value, duration(p.value).value, w, h) + rest
  }

  // ---------------------------------------------------------------- assembling the training set

  datatype TrainingSet = TrainingSet(positives: seq<Span>, negatives: seq<Span>, total: nat)

  /** Positives are the correct samples, the manual positives and the bulk positive
      windows; negatives are the wrong samples and the bulk negative windows. Fewer
      than two in all is an error. */
  function Assemble(sessions: seq<FeedbackSession>, bulkPos: seq<Span>, bulkNeg: seq<Span>): (r: Result<TrainingSet>)
    ensures r.Ok? ==> |r.value.positives| + |r.value.negatives| == r.value.total
    ensures r.Ok? <==> ReviewedCount(sessions) + |Manual(sessions)| + |bulkPos| + |bulkNeg| >= 2
    ensures r.Ok? ==> r.value.positives == Reviewed(sessions, true) + Manual(sessions) + bulkPos
    ensures r.Ok? ==> r.value.negatives == Reviewed(sessions, false) + bulkNeg
  {
    var correct := Reviewed(sessions, true);
    var wrong := Reviewed(sessions, false);
    var manual := Manual(sessions);
    ReviewedSplitAll(sessions);
    var total := |correct| + |wrong| + |manual| + |bulkPos| + |bulkNeg|;
    if total < 2 then Err("Need at least 2 samples to train")
    else Ok(TrainingSet(correct + manual + bulkPos, wrong + bulkNeg, total))
  }

  /** How many spans were extracted successfully. */
  function Extracted(spans: seq<Span>, extract: Span -> bool): (n: nat)
    ensures n <= |spans|
  {
    if |spans| == 0 then 0 else (if extract(spans[0]) then 1 else 0) + Extracted(spans[1..], extract)
  }

  /** With no positive extracted, training is refused; missing negatives only warn. */
  function ExtractionGuard(ts: TrainingSet, extract: Span -> bool): (r: Result<(nat, nat)>)
    ensures r.Ok? <==> Extracted(ts.positives, extract) > 0
    ensures r.Ok? ==> r.value.0 <= |ts.positives| && r.value.1 <= |ts.negatives|
  {
    var pos := Extracted(ts.positives, extract);
    var neg := Extracted(ts.negatives, extract);
    if pos == 0 then Err("No positive samples could be extracted. Check that audio files exist.")
    else Ok((pos, neg))
  }

  // ---------------------------------------------------------------- progress

  /** `15 + int((i / max(1, total_samples)) * 10)` during extraction. */
  function ExtractionPercent(i: nat, total: nat): (p: int)
    requires i <= total
    ensures 15 <= p <= 25
  {
    var d := if total > 1 then total else 1;
    RatioBelowOne(i, d);
    MulMono(i as real / d as real, 1.0, 10.0);
    Trunc(i as real / d as real * 10.0) + 15
  }

  /** `30 + int((epoch / total_epochs) * 65)` during training. */
  function TrainingPercent(epoch: nat, totalEpochs: nat): (p: int)
    requires 0 < totalEpochs && epoch <= totalEpochs
    ensures 30 <= p <= 95
    ensures epoch == totalEpochs ==> p == 95
  {
    RatioBelowOne(epoch, totalEpochs);
    MulMono(epoch as real / totalEpochs as real, 1.0, 65.0);
    Trunc(epoch as real / totalEpochs as real * 65.0) + 30
  }

  lemma RatioBelowOne(a: nat, b: nat)
    requires 0 < b && a <= b
    ensures 0.0 <= a as real / b as real <= 1.0
    ensures a == b ==> a as real / b as real == 1.0
  {
    var d := b as real;
    DivSelf(d);
    DivMono(0.0, a as real, d);
    DivMono(a as real, d, d);
  }
}

=== FILE: numeric.dfy ===
/** Numeric conventions of the modelled code, written out on exact reals and
    unbounded integers: Python's `int()` on a float, Python's `round(x, n)`,
    `sum` and `numpy.mean`, and Rust's wrapping `u64` subtraction.

    Floating-point values are modelled as exact reals, so results agree with the
    source except where IEEE rounding moves a value across a boundary. */
module Numeric {

  // ---------------------------------------------------------------- truncation

  /** Python's `int(x)` for a float: truncation toward zero. */
  function Trunc(x: real): (r: int)
    ensures x >= 0.0 ==> r as real <= x < r as real + 1.0
    ensures x < 0.0 ==> r as real - 1.0 < x <= r as real
  {
    if x >= 0.0 then x.Floor else -((-x).Floor)
  }

  // ---------------------------------------------------------------- rounding

  /** Nearest integer to `y`, ties to the even neighbour (Python's `round(y)`). */
  function RoundHalfEven(y: real): (r: int)
    ensures y - 0.5 <= r as real <= y + 0.5
    ensures r as real == y - 0.5 || r as real == y + 0.5 ==> r % 2 == 0
  {
    var f := y.Floor;
    var d := y - f as real;
    if d < 0.5 then f
    else if d > 0.5 then f + 1
    else if f % 2 == 0 then f else f + 1
  }

  /** Python's `round(x, n)` on the exact value of `x`, for `scale` = 10^n:
      `Hundredths` for two decimals, `Thousandths` for three. */
  function PyRound(x: real, scale: real): (r: real)
    requires scale >= 1.0
  {
    RoundHalfEven(x * scale) as real / scale
  }

  const Hundredths: real := 100.0
  const Thousandths: real := 1000.0

  /** Rounding moves a value by at most half a unit in the last kept decimal. */
  lemma RoundError(x: real, scale: real)
    requires scale >= 1.0
    ensures x - 0.5 / scale <= PyRound(x, scale) <= x + 0.5 / scale
  {
    var k := RoundHalfEven(x * scale) as real;
    ScaleBack(x, scale, k);
  }

  /** Dividing `k`, which lies within 1/2 of `x * p`, by `p` lands within `0.5 / p` of `x`. */
  lemma ScaleBack(x: real, p: real, k: real)
    requires p > 0.0
    requires x * p - 0.5 <= k <= x * p + 0.5
    ensures x - 0.5 / p <= k / p <= x + 0.5 / p
  {
    var q := 1.0 / p;
    assert p * q == 1.0;
    var e := k - x * p;
    assert -0.5 <= e <= 0.5;
    assert k / p == k * q;
    assert k * q == x * p * q + e * q;
    assert x * p * q == x;
    assert q > 0.0;
    assert -0.5 * q <= e * q <= 0.5 * q;
    assert 0.5 / p == 0.5 * q;
  }

  lemma DivMulCancel(a: real, p: real)
    requires p > 0.0
    ensures a / p * p == a
  {
  }

  lemma DivSelf(p: real)
    requires p > 0.0
    ensures p / p == 1.0
  {
  }

  lemma DivMono(a: real, b: real, p: real)
    requires a <= b && p > 0.0
    ensures a / p <= b / p
  {
    var q := 1.0 / p;
    assert a / p == a * q && b / p == b * q;
    assert q > 0.0;
  }

  /** A value that already has the kept number of decimals is left unchanged. */
  lemma RoundExact(k: int, scale: real)
    requires scale >= 1.0
    ensures PyRound(k as real / scale, scale) == k as real / scale
  {
    var y := k as real / scale;
    DivMulCancel(k as real, scale);
    RoundInteger(k);
    RoundAt(y, scale, k as real);
  }

  lemma RoundInteger(k: int)
    ensures RoundHalfEven(k as real) == k
  {
    assert (k as real).Floor == k;
  }

  /** `PyRound` unfolded at a point whose scaled value is already known. */
  lemma RoundAt(x: real, scale: real, y: real)
    requires scale >= 1.0 && x * scale == y
    ensures PyRound(x, scale) == RoundHalfEven(y) as real / scale
  {
  }

  /** Rounding twice to the same precision is rounding once. */
  lemma RoundIdempotent(x: real, scale: real)
    requires scale >= 1.0
    ensures PyRound(PyRound(x, scale), scale) == PyRound(x, scale)
  {
    RoundExact(RoundHalfEven(x * scale), scale);
  }

  /** Rounding preserves sign: a non-negative value never rounds below zero. */
  lemma RoundNonNegative(x: real, scale: real)
    requires x >= 0.0 && scale >= 1.0
    ensures PyRound(x, scale) >= 0.0
  {
    var k := RoundHalfEven(x * scale);
    assert x * scale >= 0.0;
    assert k >= 0;
  }

  // ---------------------------------------------------------------- products

  /** Multiplying both sides by a non-negative factor keeps `<=`. */
  lemma MulMono(a: real, b: real, h: real)
    requires a <= b && h >= 0.0
    ensures a * h <= b * h
  {
  }

  /** Multiplying both sides by a positive factor keeps `<`. */
  lemma MulStrict(a: real, b: real, h: real)
    requires a < b && h > 0.0
    ensures a * h < b * h
  {
  }

  lemma MulNonNeg(a: real, b: real)
    requires a >= 0.0 && b >= 0.0
    ensures a * b >= 0.0
  {
  }

  // ---------------------------------------------------------------- sums and means

  function Sum(xs: seq<real>): real
  {
    if |xs| == 0 then 0.0 else Sum(xs[..|xs| - 1]) + xs[|xs| - 1]
  }

  lemma {:induction false} SumAppend(xs: seq<real>, ys: seq<real>)
    ensures Sum(xs + ys) == Sum(xs) + Sum(ys)
    decreases |ys|
  {
    if |ys| == 0 {
      assert xs + ys == xs;
    } else {
      assert (xs + ys)[..|xs + ys| - 1] == xs + ys[..|ys| - 1];
      SumAppend(xs, ys[..|ys| - 1]);
    }
  }

  /** Every element at least `lo` bounds the sum from below by the count. */
  lemma {:induction false} SumAtLeast(xs: seq<real>, lo: real)
    requires forall i :: 0 <= i < |xs| ==> lo <= xs[i]
    ensures |xs| as real * lo <= Sum(xs)
    decreases |xs|
  {
    if |xs| > 0 {
      var n := |xs| as real;
      SumAtLeast(xs[..|xs| - 1], lo);
      assert (n - 1.0) * lo + lo == n * lo;
    }
  }

  /** Every element at most `hi` bounds the sum from above by the count. */
  lemma {:induction false} SumAtMost(xs: seq<real>, hi: real)
    requires forall i :: 0 <= i < |xs| ==> xs[i] <= hi
    ensures Sum(xs) <= |xs| as real * hi
    decreases |xs|
  {
    if |xs| > 0 {
      var n := |xs| as real;
      SumAtMost(xs[..|xs| - 1], hi);
      assert (n - 1.0) * hi + hi == n * hi;
    }
  }

  /** `numpy.mean`: the arithmetic mean of a non-empty list. */
  function Mean(xs: seq<real>): (r: real)
    requires |xs| > 0
  {
    Sum(xs) / |xs| as real
  }

  /** The mean is at least any lower bound of the elements. */
  lemma MeanAtLeast(xs: seq<real>, lo: real)
    requires |xs| > 0
    requires forall i :: 0 <= i < |xs| ==> lo <= xs[i]
    ensures lo <= Mean(xs)
  {
    SumAtLeast(xs, lo);
    var n := |xs| as real;
    DivMono(n * lo, Sum(xs), n);
    assert n * lo / n == lo;
  }

  /** The mean is at most any upper bound of the elements. */
  lemma MeanAtMost(xs: seq<real>, hi: real)
    requires |xs| > 0
    requires forall i :: 0 <= i < |xs| ==> xs[i] <= hi
    ensures Mean(xs) <= hi
  {
    SumAtMost(xs, hi);
    var n := |xs| as real;
    DivMono(Sum(xs), n * hi, n);
    assert n * hi / n == hi;
  }

  // ---------------------------------------------------------------- fixed-width integers

  const U64_MODULUS: int := 0x1_0000_0000_0000_0000

  predicate IsU64(x: int) { 0 <= x < U64_MODULUS }

  /** `a - b` on `u64` in a release build: wraps modulo 2^64. */
  function WrappingSubU64(a: int, b: int): (r: int)
    requires IsU64(a) && IsU64(b)
    ensures IsU64(r)
    ensures a >= b ==> r == a - b
    ensures a < b ==> r == a - b + U64_MODULUS
  {
    (a - b) % U64_MODULUS
  }
}

=== FILE: paths.dfy ===
/** File-system paths as strings with '/' separators: the final component and
    the extension, as Python's `pathlib` and Rust's `std::path` compute them. */
module Paths {
  import opened Wrappers
  import opened Strings

  /** The final component: everything after the last separator. */
  function FileName(path: string): (r: string)
    ensures '/' !in r
    ensures EndsWith(path, r)
  {
    match RFindChar(path, '/')
    case None => path
    case Some(i) => path[i + 1..]
  }

  /** `PurePath.suffix`: from the last dot of the name, when that dot is neither the
      first nor the last character of the name; otherwise empty. */
  function PySuffix(path: string): (r: string)
    ensures r != [] ==> r[0] == '.' && |r| >= 2 && EndsWith(FileName(path), r) && |r| < |FileName(path)|
    ensures r != [] ==> '.' !in r[1..]
  {
    var name := FileName(path);
    match RFindChar(name, '.')
    case None => ""
    case Some(i) => if 0 < i < |name| - 1 then name[i..] else ""
  }

  /** `Path::extension`: the text after the last dot of the name, unless the name has
      no dot or its only dot is the first character. */
  function RustExtension(path: string): (r: Option<string>)
    ensures r.Some? ==> '.' !in r.value && EndsWith(FileName(path), "." + r.value)
  {
    var name := FileName(path);
    match RFindChar(name, '.')
    case None => None
    case Some(i) =>
      if i == 0 then None
      else
        DotTail(name, i);
        Some(name[i + 1..])
  }

  /** The text after the last dot holds no dot, and the name ends with the dot and it. */
  lemma DotTail(name: string, i: nat)
    requires i < |name| && name[i] == '.'
    requires forall j :: i < j < |name| ==> name[j] != '.'
    ensures '.' !in name[i + 1..] && EndsWith(name, "." + name[i + 1..])
  {
    var t := name[i + 1..];
    forall k | 0 <= k < |t|
      ensures t[k] != '.'
    {
      assert t[k] == name[i + 1 + k];
    }
    assert "." + t == name[i..];
  }

  /** Python keeps the dot and the letter case of the suffix. */
  lemma PySuffixExample()
    ensures PySuffix("music/Song.MP3") == ".MP3"
  {
    RFindCharAt("music/Song.MP3", '/', 5);
    assert FileName("music/Song.MP3") == "Song.MP3";
    RFindCharAt("Song.MP3", '.', 4);
  }

  /** A leading dot starts a hidden name, not a suffix. */
  lemma PySuffixHidden()
    ensures PySuffix("music/.wav") == ""
  {
    RFindCharAt("music/.wav", '/', 5);
    assert FileName("music/.wav") == ".wav";
    RFindCharAt(".wav", '.', 0);
  }

  /** A trailing dot gives Python no suffix but Rust an empty extension. */
  lemma TrailingDot()
    ensures PySuffix("take.") == ""
    ensures RustExtension("take.") == Some("")
  {
    assert RFindChar("take.", '/') == None;
    RFindCharAt("take.", '.', 4);
  }

  lemma RustExtensionExample()
    ensures RustExtension("C:/Games/game.exe") == Some("exe")
  {
    RFindCharAt("C:/Games/game.exe", '/', 8);
    assert FileName("C:/Games/game.exe") == "game.exe";
    RFindCharAt("game.exe", '.', 4);
  }

  /** The last occurrence is the one with no occurrence after it. */
  lemma RFindCharAt(s: string, c: char, i: nat)
    requires i < |s| && s[i] == c
    requires forall j :: i < j < |s| ==> s[j] != c
    ensures RFindChar(s, c) == Some(i)
  {
  }
}

=== FILE: profiles.dfy ===
/** Gaming profiles: named lists of processes to kill before playing, one of which
    may be the default.

    The profile file is `None` when it does not exist and `Err` when it cannot be
    read; a failed write is a parameter, and so are the fresh ids the default
    profiles get. */
module Profiles {
  import opened Wrappers
  import opened Records

  datatype GamingProfile = GamingProfile(id: string, name: string, processesToKill: seq<string>, isDefault: bool)

  datatype GamingProfileList = GamingProfileList(profiles: seq<GamingProfile>)

  function ProfileId(p: GamingProfile): string { p.id }

  const PrepareForGaming: seq<string> := [
    "msedge.exe", "searchindexer.exe", "searchapp.exe", "cortana.exe", "widgets.exe",
    "widgetservice.exe", "onedrive.exe", "yourphone.exe", "msteams.exe", "compattelrunner.exe"]

  const LightCleanup: seq<string> := ["searchindexer.exe", "widgets.exe", "compattelrunner.exe"]

  const HeavyCleanup: seq<string> := [
    "msedge.exe", "chrome.exe", "firefox.exe", "searchindexer.exe", "searchapp.exe",
    "cortana.exe", "widgets.exe", "widgetservice.exe", "onedrive.exe", "yourphone.exe",
    "msteams.exe", "slack.exe", "spotify.exe", "compattelrunner.exe", "gamebar.exe"]

  /** `get_default_profiles`, with the three fresh ids given. */
  function DefaultProfiles(ids: (string, string, string)): (r: seq<GamingProfile>)
    ensures |r| == 3 && r[0].id == ids.0 && r[1].id == ids.1 && r[2].id == ids.2
    ensures r[0].isDefault && !r[1].isDefault && !r[2].isDefault
  {
    [ GamingProfile(ids.0, "Prepare for Gaming", PrepareForGaming, true),
      GamingProfile(ids.1, "Light Cleanup", LightCleanup, false),
      GamingProfile(ids.2, "Heavy Cleanup", HeavyCleanup, false) ]
  }

  /** Exactly this many profiles are marked default. */
  function DefaultCount(ps: seq<GamingProfile>): nat
  {
    if |ps| == 0 then 0 else DefaultCount(ps[..|ps| - 1]) + (if ps[|ps| - 1].isDefault then 1 else 0)
  }

  /** There are three default profiles, the first is the default one and the only one. */
  lemma DefaultProfilesProps(ids: (string, string, string))
    ensures |DefaultProfiles(ids)| == 3
    ensures DefaultCount(DefaultProfiles(ids)) == 1 && DefaultProfiles(ids)[0].isDefault
  {
    var ps := DefaultProfiles(ids);
    var p1, p2 := ps[..1], ps[..2];
    assert p1[..0] == [];
    assert DefaultCount(p1) == 1;
    assert p2[..1] == p1;
    assert DefaultCount(p2) == 1;
    assert ps[..2] == p2;
  }

  /** `get_profiles`: without a file, the defaults. */
  function GetProfiles(file: Option<Result<GamingProfileList>>, ids: (string, string, string))
    : (r: Result<seq<GamingProfile>>)
    ensures file.None? ==> r == Ok(DefaultProfiles(ids))
    ensures file.Some? && file.value.Err? ==> r.Err?
    ensures file.Some? && file.value.Ok? ==> r == Ok(file.value.value.profiles)
  {
    match file
    case None => Ok(DefaultProfiles(ids))
    case Some(Err(e)) => Err(e)
    case Some(Ok(list)) => Ok(list.profiles)
  }

  /** `get_default_profile`: the first profile marked default. */
  function GetDefaultProfile(file: Option<Result<GamingProfileList>>, ids: (string, string, string))
    : (r: Result<Option<GamingProfile>>)
    ensures file.None? ==> r == Ok(Some(DefaultProfiles(ids)[0]))
    ensures r.Ok? ==> GetProfiles(file, ids).Ok?
    ensures r.Ok? && r.value.Some? ==> r.value.value.isDefault && r.value.value in GetProfiles(file, ids).value
    ensures r.Ok? && r.value.Some? ==> var ps := GetProfiles(file, ids).value;
      exists i :: 0 <= i < |ps| && ps[i] == r.value.value && NoDefaultBefore(ps, i)
    ensures r.Ok? && r.value.None? ==> forall p :: p in GetProfiles(file, ids).value ==> !p.isDefault
  {
    match GetProfiles(file, ids)
    case Err(e) => Err(e)
    case Ok(ps) => Ok(FirstDefault(ps))
  }

  /** No profile before index `i` is the default. */
  predicate NoDefaultBefore(ps: seq<GamingProfile>, i: nat)
  {
    forall j :: 0 <= j < i && j < |ps| ==> !ps[j].isDefault
  }

  /** `iter().find(|p| p.is_default)`: the first profile marked default. */
  function FirstDefault(ps: seq<GamingProfile>): (r: Option<GamingProfile>)
    ensures r.Some? ==> r.value in ps && r.value.isDefault
    ensures r.Some? ==> exists i :: 0 <= i < |ps| && ps[i] == r.value && NoDefaultBefore(ps, i)
    ensures r.None? ==> forall p :: p in ps ==> !p.isDefault
  {
    if |ps| == 0 then None
    else if ps[0].isDefault then
      assert ps[0] == ps[0] && NoDefaultBefore(ps, 0);
      Some(ps[0])
    else
      var r := FirstDefault(ps[1..]);
      assert r.Some? ==> exists i :: 0 <= i < |ps| && ps[i] == r.value && NoDefaultBefore(ps, i) by {
        if r.Some? {
          var i :| 0 <= i < |ps[1..]| && ps[1..][i] == r.value && NoDefaultBefore(ps[1..], i);
          assert ps[i + 1] == r.value;
          assert NoDefaultBefore(ps, i + 1) by {
            forall j | 0 <= j < i + 1 && j < |ps| ensures !ps[j].isDefault {
              if j > 0 { assert ps[j] == ps[1..][j - 1]; }
            }
          }
        }
      }
      r
  }

  // ---------------------------------------------------------------- writing

  /** `save_profile`: the profile replaces the first one with its id, or is appended;
      a missing file starts an empty list. Returns the result and the list written. */
  function SaveProfile(file: Option<Result<GamingProfileList>>, profile: GamingProfile, fault: Option<string>)
    : (r: (Result<()>, Option<GamingProfileList>))
    ensures file.Some? && file.value.Err? ==> r == (Err(file.value.error), None)
    ensures r.1.Some? ==> profile in r.1.value.profiles && (r.0.Ok? <==> fault.None?)
    ensures file.None? ==> r.1 == Some(GamingProfileList([profile]))
    ensures file.Some? && file.value.Ok? ==>
      r.1.Some? && Upsert(file.value.value.profiles, ProfileId, profile) == r.1.value.profiles
  {
    var loaded := match file case None => Ok(GamingProfileList([])) case Some(content) => content;
    match loaded
    case Err(e) => (Err(e), None)
    case Ok(list) =>
      var saved := GamingProfileList(Upsert(list.profiles, ProfileId, profile));
      UpsertProperties(list.profiles, ProfileId, profile);
      assert |list.profiles| == 0 ==> saved.profiles == [profile] by {
        if |list.profiles| == 0 { assert saved.profiles[0] == profile; }
      }
      (if fault.Some? then Err(fault.value) else Ok(()), Some(saved))
  }

  /** Saving a profile whose id is listed keeps the number of profiles and every other
      profile; a new id is appended at the end. */
  lemma SaveProfileReplaces(list: GamingProfileList, profile: GamingProfile)
    ensures var r := SaveProfile(Some(Ok(list)), profile, None).1.value.profiles;
      && (HasKey(list.profiles, ProfileId, profile.id) ==>
            |r| == |list.profiles| && forall i :: 0 <= i < |r| && list.profiles[i].id != profile.id ==> r[i] == list.profiles[i])
      && (!HasKey(list.profiles, ProfileId, profile.id) ==> r == list.profiles + [profile])
  {
    UpsertProperties(list.profiles, ProfileId, profile);
    HasKeyIndex(list.profiles, ProfileId, profile.id);
  }

  const ProfileNotFound := "Profile not found"
  const NoProfilesExist := "No profiles exist"

  /** The profiles without the id. */
  function Other(id: string): GamingProfile -> bool { (p: GamingProfile) => p.id != id }

  /** `delete_profile`: every profile with the id is removed; a missing file or an id
      that removes nothing is an error and nothing is written. */
  function DeleteProfile(file: Option<Result<GamingProfileList>>, id: string, fault: Option<string>)
    : (r: (Result<()>, Option<GamingProfileList>))
    ensures file.None? ==> r == (Err(ProfileNotFound), None)
    ensures file.Some? && file.value.Ok? && !HasKey(file.value.value.profiles, ProfileId, id) ==>
      r == (Err(ProfileNotFound), None)
    ensures r.1.Some? ==>
      file.Some? && file.value.Ok? && HasKey(file.value.value.profiles, ProfileId, id)
      && (forall p :: p in r.1.value.profiles <==> p in file.value.value.profiles && p.id != id)
      && (r.0.Ok? <==> fault.None?)
  {
    match file
    case None => (Err(ProfileNotFound), None)
    case Some(Err(e)) => (Err(e), None)
    case Some(Ok(list)) =>
      var kept := Retain(list.profiles, Other(id));
      RetainAll(list.profiles, Other(id));
      if |kept| == |list.profiles| then
        assert kept == list.profiles by { RetainSameLength(list.profiles, Other(id)); }
        assert !HasKey(list.profiles, ProfileId, id);
        (Err(ProfileNotFound), None)
      else
        assert HasKey(list.profiles, ProfileId, id);
        (if fault.Some? then Err(fault.value) else Ok(()), Some(GamingProfileList(kept)))
  }

  /** Retaining drops something exactly when it shortens the list. */
  lemma {:induction false} RetainSameLength<T>(xs: seq<T>, keep: T -> bool)
    requires |Retain(xs, keep)| == |xs|
    ensures Retain(xs, keep) == xs
    decreases |xs|
  {
    if |xs| > 0 {
      if keep(xs[0]) {
        RetainSameLength(xs[1..], keep);
      }
    }
  }

  /** Every profile with the id becomes the default and every other one stops being. */
  function WithDefault(ps: seq<GamingProfile>, id: string): (r: seq<GamingProfile>)
    ensures |r| == |ps|
    ensures forall i :: 0 <= i < |ps| ==> r[i] == ps[i].(isDefault := ps[i].id == id)
  {
    seq(|ps|, i requires 0 <= i < |ps| => ps[i].(isDefault := ps[i].id == id))
  }

  /** After setting the default, a profile is default exactly when it has the id;
      with unique ids that is one profile. */
  lemma WithDefaultOne(ps: seq<GamingProfile>, id: string, i: nat)
    requires UniqueKeys(ps, ProfileId) && i < |ps| && ps[i].id == id
    ensures DefaultCount(WithDefault(ps, id)) == 1
  {
    WithDefaultCount(ps, id, |ps|, i);
    assert WithDefault(ps, id)[..|ps|] == WithDefault(ps, id);
  }

  lemma {:induction false} WithDefaultCount(ps: seq<GamingProfile>, id: string, n: nat, i: nat)
    requires UniqueKeys(ps, ProfileId) && i < |ps| && ps[i].id == id && n <= |ps|
    ensures DefaultCount(WithDefault(ps, id)[..n]) == if i < n then 1 else 0
    decreases n
  {
    var r := WithDefault(ps, id);
    if n > 0 {
      assert r[..n][..n - 1] == r[..n - 1];
      WithDefaultCount(ps, id, n - 1, i);
      assert r[..n][n - 1] == r[n - 1];
      if n - 1 != i {
        assert ps[n - 1].id != id by {
          if n - 1 < i { assert ProfileId(ps[n - 1]) != ProfileId(ps[i]); }
          else { assert ProfileId(ps[i]) != ProfileId(ps[n - 1]); }
        }
      }
    }
  }

  /** `set_default_profile`: a missing file and an unknown id are errors and write
      nothing; otherwise the profiles are written with the new default. */
  function SetDefaultProfile(file: Option<Result<GamingProfileList>>, id: string, fault: Option<string>)
    : (r: (Result<()>, Option<GamingProfileList>))
    ensures file.None? ==> r == (Err(NoProfilesExist), None)
    ensures file.Some? && file.value.Ok? && !HasKey(file.value.value.profiles, ProfileId, id) ==>
      r == (Err(ProfileNotFound), None)
    ensures r.1.Some? ==>
      file.Some? && file.value.Ok? && HasKey(file.value.value.profiles, ProfileId, id)
      && r.1.value.profiles == WithDefault(file.value.value.profiles, id)
      && (r.0.Ok? <==> fault.None?)
  {
    match file
    case None => (Err(NoProfilesExist), None)
    case Some(Err(e)) => (Err(e), None)
    case Some(Ok(list)) =>
      HasKeyIndex(list.profiles, ProfileId, id);
      if IndexOf(list.profiles, ProfileId, id).None? then (Err(ProfileNotFound), None)
      else (if fault.Some? then Err(fault.value) else Ok(()), Some(GamingProfileList(WithDefault(list.profiles, id))))
  }

  /** `initialize_profiles`: the defaults are written only when there is no file. */
  function InitializeProfiles(fileExists: bool, ids: (string, string, string), fault: Option<string>)
    : (r: (Result<()>, Option<GamingProfileList>))
    ensures fileExists ==> r == (Ok(()), None)
    ensures !fileExists ==> r.1 == Some(GamingProfileList(DefaultProfiles(ids))) && (r.0.Ok? <==> fault.None?)
  {
    if fileExists then (Ok(()), None)
    else (if fault.Some? then Err(fault.value) else Ok(()), Some(GamingProfileList(DefaultProfiles(ids))))
  }
}

=== FILE: python_worker.dfy ===
/** The message-stream fold of `spawn_python_worker_async`: a worker's stdout is a
    sequence of lines, each either a worker message or unparsable text; the fold
    remembers the last result and the last error, forwards progress and console
    log messages, and decides the call's outcome from those and the exit code.

    Spawning, pipes and waiting are I/O: the lines read, the exit code and whether
    the script exists are parameters. The result payload is opaque (`D`). */
module PythonWorker {
  import opened Wrappers
  import opened Strings

  datatype WorkerMessage<D> =
    | Progress(percent: int, stage: string)
    | ResultMsg(data: D)
    | ErrorMsg(message: string)
    | Log(level: string, message: string)

  /** A stdout line: a parsed worker message or text that did not parse as one. */
  datatype Line<D> = Parsed(msg: WorkerMessage<D>) | Unparsed(text: string)

  /** A message is forwarded to the progress channel: every progress message, and log
      messages whose level is "stdout" or "stderr". */
  predicate Forwardable<D>(m: WorkerMessage<D>)
  {
    m.Progress? || (m.Log? && (m.level == "stdout" || m.level == "stderr"))
  }

  // ---------------------------------------------------------------- reference definitions

  /** The data of the last result message, if any. */
  function LastResult<D>(lines: seq<Line<D>>): Option<D>
  {
    if |lines| == 0 then None
    else
      var l := lines[|lines| - 1];
      if l.Parsed? && l.msg.ResultMsg? then Some(l.msg.data) else LastResult(lines[..|lines| - 1])
  }

  /** The text of the last error message, if any. */
  function LastError<D>(lines: seq<Line<D>>): Option<string>
  {
    if |lines| == 0 then None
    else
      var l := lines[|lines| - 1];
      if l.Parsed? && l.msg.ErrorMsg? then Some(l.msg.message) else LastError(lines[..|lines| - 1])
  }

  /** The forwarded messages, in stream order. */
  function Forwarded<D>(lines: seq<Line<D>>): seq<WorkerMessage<D>>
  {
    if |lines| == 0 then []
    else
      var l := lines[|lines| - 1];
      Forwarded(lines[..|lines| - 1]) + (if l.Parsed? && Forwardable(l.msg) then [l.msg] else [])
  }

  /** The last error is the message of some error line, and no later line is an error. */
  lemma {:induction false} LastErrorIsLast<D>(lines: seq<Line<D>>)
    ensures LastError(lines).None? <==> forall i :: 0 <= i < |lines| ==> !(lines[i].Parsed? && lines[i].msg.ErrorMsg?)
    ensures LastError(lines).Some? ==>
      exists i :: 0 <= i < |lines| && lines[i] == Parsed(ErrorMsg(LastError(lines).value))
        && (forall j :: i < j < |lines| ==> !(lines[j].Parsed? && lines[j].msg.ErrorMsg?))
    decreases |lines|
  {
    if |lines| > 0 {
      var init := lines[..|lines| - 1];
      LastErrorIsLast(init);
      var l := lines[|lines| - 1];
      if !(l.Parsed? && l.msg.ErrorMsg?) {
        assert forall i :: 0 <= i < |init| ==> init[i] == lines[i];
        if LastError(lines).Some? {
          var i :| 0 <= i < |init| && init[i] == Parsed(ErrorMsg(LastError(init).value))
            && forall j :: i < j < |init| ==> !(init[j].Parsed? && init[j].msg.ErrorMsg?);
          assert lines[i] == Parsed(ErrorMsg(LastError(lines).value));
        }
      } else {
        assert lines[|lines| - 1] == Parsed(ErrorMsg(LastError(lines).value));
      }
    }
  }

  /** The last result is the data of some result line, and no later line is a result. */
  lemma {:induction false} LastResultIsLast<D>(lines: seq<Line<D>>)
    ensures LastResult(lines).None? <==> forall i :: 0 <= i < |lines| ==> !(lines[i].Parsed? && lines[i].msg.ResultMsg?)
    ensures LastResult(lines).Some? ==>
      exists i :: 0 <= i < |lines| && lines[i] == Parsed(ResultMsg(LastResult(lines).value))
        && (forall j :: i < j < |lines| ==> !(lines[j].Parsed? && lines[j].msg.ResultMsg?))
    decreases |lines|
  {
    if |lines| > 0 {
      var init := lines[..|lines| - 1];
      LastResultIsLast(init);
      var l := lines[|lines| - 1];
      if !(l.Parsed? && l.msg.ResultMsg?) {
        assert forall i :: 0 <= i < |init| ==> init[i] == lines[i];
        if LastResult(lines).Some? {
          var i :| 0 <= i < |init| && init[i] == Parsed(ResultMsg(LastResult(init).value))
            && forall j :: i < j < |init| ==> !(init[j].Parsed? && init[j].msg.ResultMsg?);
          assert lines[i] == Parsed(ResultMsg(LastResult(lines).value));
        }
      } else {
        assert lines[|lines| - 1] == Parsed(ResultMsg(LastResult(lines).value));
      }
    }
  }

  /** A message is forwarded iff it is forwardable and appears on some line. */
  lemma {:induction false} ForwardedMembers<D>(lines: seq<Line<D>>, m: WorkerMessage<D>)
    ensures m in Forwarded(lines) <==> Forwardable(m) && Parsed(m) in lines
    decreases |lines|
  {
    if |lines| > 0 {
      var init := lines[..|lines| - 1];
      ForwardedMembers(init, m);
      assert lines == init + [lines[|lines| - 1]];
    }
  }

  // ---------------------------------------------------------------- unparsable lines

  /** The lines that parsed, in order. */
  function ParsedOnly<D>(lines: seq<Line<D>>): seq<Line<D>>
  {
    if |lines| == 0 then []
    else
      var l := lines[|lines| - 1];
      ParsedOnly(lines[..|lines| - 1]) + (if l.Parsed? then [l] else [])
  }

  /** Dropping the unparsable lines changes neither remembered value nor the forwarded
      messages, so such lines cannot affect the outcome. */
  lemma {:induction false} UnparsedIgnored<D>(lines: seq<Line<D>>)
    ensures LastResult(ParsedOnly(lines)) == LastResult(lines)
    ensures LastError(ParsedOnly(lines)) == LastError(lines)
    ensures Forwarded(ParsedOnly(lines)) == Forwarded(lines)
    decreases |lines|
  {
    if |lines| > 0 {
      var init := lines[..|lines| - 1];
      var l := lines[|lines| - 1];
      UnparsedIgnored(init);
      if l.Parsed? {
        var p := ParsedOnly(init) + [l];
        assert ParsedOnly(lines) == p;
        assert p[..|p| - 1] == ParsedOnly(init);
        assert p[|p| - 1] == l;
      } else {
        assert ParsedOnly(lines) == ParsedOnly(init);
      }
    }
  }

  // ---------------------------------------------------------------- the fold and the outcome

  datatype WorkerRun<D> = WorkerRun(outcome: Result<D>, forwarded: seq<WorkerMessage<D>>)

  /** The outcome after the stream ends: any error wins, then a non-zero exit code
      (a missing code counts as -1), then the last result. */
  function Outcome<D>(lastResult: Option<D>, lastError: Option<string>, exitCode: Option<int>): (r: Result<D>)
    ensures lastError.Some? ==> r == Err(lastError.value)
    ensures lastError.None? && exitCode != Some(0) ==> r.Err?
    ensures lastError.None? && exitCode == Some(0) && lastResult.Some? ==> r == Ok(lastResult.value)
    ensures lastError.None? && exitCode == Some(0) && lastResult.None? ==> r == Err("No result from Python worker")
  {
    var code := exitCode.GetOr(-1);
    if lastError.Some? then Err(lastError.value)
    else if code != 0 then Err("Python worker exited with code: " + IntToString(code))
    else if lastResult.Some? then Ok(lastResult.value)
    else Err("No result from Python worker")
  }

  /** `spawn_python_worker_async`: a missing script fails before anything runs;
      otherwise the lines are folded one by one and the outcome decided. */
  method SpawnWorker<D>(scriptExists: bool, lines: seq<Line<D>>, exitCode: Option<int>) returns (run: WorkerRun<D>)
    ensures !scriptExists ==> run.outcome.Err? && run.forwarded == []
    ensures scriptExists ==> run.outcome == Outcome(LastResult(lines), LastError(lines), exitCode)
    ensures scriptExists ==> run.forwarded == Forwarded(lines)
  {
    if !scriptExists {
      return WorkerRun(Err("Worker script not found"), []);
    }
    var lastResult: Option<D> := None;
    var lastError: Option<string> := None;
    var forwarded: seq<WorkerMessage<D>> := [];
    var i := 0;
    while i < |lines|
      invariant 0 <= i <= |lines|
      invariant lastResult == LastResult(lines[..i])
      invariant lastError == LastError(lines[..i])
      invariant forwarded == Forwarded(lines[..i])
    {
      assert lines[..i + 1][..i] == lines[..i];
      var line := lines[i];
      if line.Parsed? {
        match line.msg {
          case Progress(_, _) =>
            forwarded := forwarded + [line.msg];
          case ResultMsg(data) =>
            lastResult := Some(data);
          case ErrorMsg(message) =>
            lastError := Some(message);
          case Log(level, _) =>
            if level == "stdout" || level == "stderr" {
              forwarded := forwarded + [line.msg];
            }
        }
      }
      i := i + 1;
    }
    assert lines[..|lines|] == lines;
    return WorkerRun(Outcome(lastResult, lastError, exitCode), forwarded);
  }

  /** Error messages decide the call whatever the exit code and the results. */
  lemma AnyErrorFails<D>(lines: seq<Line<D>>, exitCode: Option<int>, i: nat)
    requires i < |lines| && lines[i].Parsed? && lines[i].msg.ErrorMsg?
    ensures LastError(lines).Some?
    ensures Outcome(LastResult(lines), LastError(lines), exitCode) == Err(LastError(lines).value)
  {
    LastErrorIsLast(lines);
  }
}

=== FILE: records.dfy ===
/** List operations shared by the JSON-backed record stores: the records of a
    store are a sequence read whole from its file, changed, and written back
    whole. Records are identified by a string key. */
module Records {
  import opened Wrappers

  /** The first position from `i` on whose element satisfies `hit`. */
  function FirstFrom<T>(xs: seq<T>, hit: T -> bool, i: nat): (r: Option<nat>)
    requires i <= |xs|
    ensures r.Some? ==> i <= r.value < |xs| && hit(xs[r.value])
    ensures r.Some? ==> forall j :: i <= j < r.value ==> !hit(xs[j])
    ensures r.None? ==> forall j :: i <= j < |xs| ==> !hit(xs[j])
    decreases |xs| - i
  {
    if i == |xs| then None
    else if hit(xs[i]) then Some(i)
    else FirstFrom(xs, hit, i + 1)
  }

  /** The first index at or after `from` whose record has key `id`. */
  function IndexFrom<T>(xs: seq<T>, key: T -> string, id: string, from: nat): (r: Option<nat>)
    ensures r.Some? ==> from <= r.value < |xs| && key(xs[r.value]) == id
    ensures r.Some? ==> forall j :: from <= j < r.value ==> key(xs[j]) != id
    ensures r.None? ==> forall j :: from <= j < |xs| ==> key(xs[j]) != id
    decreases |xs| - from
  {
    if from >= |xs| then None
    else if key(xs[from]) == id then Some(from)
    else IndexFrom(xs, key, id, from + 1)
  }

  /** `iter().position(|x| x.id == id)`: the first record with the key. */
  function IndexOf<T>(xs: seq<T>, key: T -> string, id: string): (r: Option<nat>)
    ensures r.Some? ==> r.value < |xs| && key(xs[r.value]) == id
    ensures r.Some? ==> forall j :: 0 <= j < r.value ==> key(xs[j]) != id
    ensures r.None? <==> forall j :: 0 <= j < |xs| ==> key(xs[j]) != id
  {
    IndexFrom(xs, key, id, 0)
  }

  predicate HasKey<T>(xs: seq<T>, key: T -> string, id: string)
  {
    exists j :: 0 <= j < |xs| && key(xs[j]) == id
  }

  lemma HasKeyIndex<T>(xs: seq<T>, key: T -> string, id: string)
    ensures HasKey(xs, key, id) <==> IndexOf(xs, key, id).Some?
  {
    if IndexOf(xs, key, id).Some? {
      assert key(xs[IndexOf(xs, key, id).value]) == id;
    }
  }

  /** No two records share a key. */
  predicate UniqueKeys<T>(xs: seq<T>, key: T -> string)
  {
    forall i, j :: 0 <= i < j < |xs| ==> key(xs[i]) != key(xs[j])
  }

  /** `Vec::remove(i)`: the record at `i` is gone, the others keep their order. */
  function RemoveAt<T>(xs: seq<T>, i: nat): (r: seq<T>)
    requires i < |xs|
    ensures |r| == |xs| - 1
    ensures forall j :: 0 <= j < i ==> r[j] == xs[j]
    ensures forall j :: i <= j < |r| ==> r[j] == xs[j + 1]
  {
    xs[..i] + xs[i + 1..]
  }

  /** Replace the first record with the same key, or else append. */
  function Upsert<T>(xs: seq<T>, key: T -> string, x: T): (r: seq<T>)
  {
    match IndexOf(xs, key, key(x))
    case Some(i) => xs[i := x]
    case None => xs + [x]
  }

  /** `iter_mut().find(..)` then assign: replace the first record with the same key;
      without one nothing changes. */
  function ReplaceFirst<T>(xs: seq<T>, key: T -> string, x: T): (r: seq<T>)
    ensures |r| == |xs|
    ensures !HasKey(xs, key, key(x)) ==> r == xs
    ensures HasKey(xs, key, key(x)) ==> x in r
    ensures forall j :: 0 <= j < |xs| && key(xs[j]) != key(x) ==> r[j] == xs[j]
    ensures IndexOf(xs, key, key(x)).Some? ==> var i := IndexOf(xs, key, key(x)).value;
      && r[i] == x
      && (forall j :: 0 <= j < |xs| && j != i ==> r[j] == xs[j])
  {
    HasKeyIndex(xs, key, key(x));
    match IndexOf(xs, key, key(x))
    case Some(i) => assert xs[i := x][i] == x; xs[i := x]
    case None => xs
  }

  /** After an upsert the new record is present, the length grows by one exactly when
      the key was new, every record with another key is kept in place, and keys that
      were unique stay unique. */
  lemma UpsertProperties<T>(xs: seq<T>, key: T -> string, x: T)
    ensures x in Upsert(xs, key, x)
    ensures |Upsert(xs, key, x)| == if HasKey(xs, key, key(x)) then |xs| else |xs| + 1
    ensures forall j :: 0 <= j < |xs| && key(xs[j]) != key(x) ==> Upsert(xs, key, x)[j] == xs[j]
    ensures UniqueKeys(xs, key) ==> UniqueKeys(Upsert(xs, key, x), key)
  {
    HasKeyIndex(xs, key, key(x));
    var r := Upsert(xs, key, x);
    match IndexOf(xs, key, key(x))
    case Some(i) =>
      assert r[i] == x;
      if UniqueKeys(xs, key) {
        forall a, b | 0 <= a < b < |r|
          ensures key(r[a]) != key(r[b])
        {
          if a == i {
            assert key(xs[b]) != key(xs[i]);
          } else if b == i {
            assert key(xs[a]) != key(xs[i]);
          }
        }
      }
    case None =>
      assert r[|xs|] == x;
  }

  /** Upserting a record with a key already present keeps the count; upserting twice
      is upserting once. */
  lemma UpsertIdempotent<T>(xs: seq<T>, key: T -> string, x: T)
    ensures Upsert(Upsert(xs, key, x), key, x) == Upsert(xs, key, x)
  {
    var r := Upsert(xs, key, x);
    match IndexOf(xs, key, key(x))
    case Some(i) =>
      IndexOfAt(r, key, key(x), i);
    case None =>
      IndexOfAt(r, key, key(x), |xs|);
  }

  /** The first index is determined by a matching record with no match before it. */
  lemma IndexOfAt<T>(xs: seq<T>, key: T -> string, id: string, i: nat)
    requires i < |xs| && key(xs[i]) == id
    requires forall j :: 0 <= j < i ==> key(xs[j]) != id
    ensures IndexOf(xs, key, id) == Some(i)
  {
  }

  /** `retain(|x| keep(x))`: the records satisfying `keep`, in order. */
  function Retain<T>(xs: seq<T>, keep: T -> bool): (r: seq<T>)
    ensures |r| <= |xs|
    ensures forall i :: 0 <= i < |r| ==> r[i] in xs && keep(r[i])
    ensures forall i :: 0 <= i < |xs| && keep(xs[i]) ==> xs[i] in r
  {
    if |xs| == 0 then []
    else if keep(xs[0]) then [xs[0]] + Retain(xs[1..], keep)
    else Retain(xs[1..], keep)
  }

  /** Retaining everything keeps the list; retaining drops exactly the failing records. */
  lemma {:induction false} RetainAll<T>(xs: seq<T>, keep: T -> bool)
    ensures (forall j :: 0 <= j < |xs| ==> keep(xs[j])) <==> Retain(xs, keep) == xs
    decreases |xs|
  {
    if |xs| > 0 {
      RetainAll(xs[1..], keep);
      if Retain(xs, keep) == xs {
        assert Retain(xs[1..], keep) == xs[1..];
      }
      if forall j :: 0 <= j < |xs| ==> keep(xs[j]) {
        assert forall j :: 0 <= j < |xs[1..]| ==> keep(xs[1..][j]);
      }
    }
  }
}

=== FILE: restore.dfy ===
/** The restore list: processes the task monitor killed and may start again after a
    gaming session.

    A killed process is recorded once per executable path. A process that comes back
    on its own is marked self-restoring and is never started again. Restoring the list
    starts every other process and counts what happened.

    The list file is `None` when it does not exist and `Err` when it cannot be read;
    a failed write is a parameter. Whether an executable exists and what the shell
    returns when asked to open it are parameters too. */
module Restore {
  import opened Wrappers
  import opened Strings
  import opened Sorting

  datatype KilledProcessInfo = KilledProcessInfo(
    exePath: string,
    name: string,
    killedAt: int,
    isSelfRestoring: bool,
    workingDir: Option<string>)

  datatype RestoreList = RestoreList(
    sessionId: Option<string>,
    processes: seq<KilledProcessInfo>,
    createdAt: int,
    detectedRespawns: seq<string>)

  /** `RestoreList::default()`. */
  const EmptyList := RestoreList(None, [], 0, [])

  datatype RestoreError = RestoreError(exePath: string, error: string)

  datatype RestoreResult = RestoreResult(restored: nat, skippedSelfRestoring: nat, failed: nat, errors: seq<RestoreError>)

  /** `load_restore_list`: a missing file is the empty list. */
  function LoadRestoreList(file: Option<Result<RestoreList>>): (r: Result<RestoreList>)
    ensures file.None? ==> r == Ok(EmptyList) && |r.value.processes| == 0
    ensures file.Some? ==> r == file.value
  {
    match file
    case None => Ok(EmptyList)
    case Some(content) => content
  }

  // ---------------------------------------------------------------- adding

  predicate Listed(list: RestoreList, path: string)
  {
    exists i :: 0 <= i < |list.processes| && list.processes[i].exePath == path
  }

  function AnyPath(ps: seq<KilledProcessInfo>, path: string): (r: bool)
    ensures r <==> exists i :: 0 <= i < |ps| && ps[i].exePath == path
  {
    if |ps| == 0 then false
    else
      assert forall i :: 1 <= i < |ps| ==> ps[i] == ps[1..][i - 1];
      ps[0].exePath == path || AnyPath(ps[1..], path)
  }

  /** No executable path is recorded twice. */
  predicate PathsUnique(list: RestoreList)
  {
    forall i, j :: 0 <= i < j < |list.processes| ==> list.processes[i].exePath != list.processes[j].exePath
  }

  /** The list with the process recorded, unless its path already is. */
  function Added(list: RestoreList, process: KilledProcessInfo): (r: RestoreList)
    ensures Listed(r, process.exePath)
    ensures r.sessionId == list.sessionId && r.createdAt == list.createdAt && r.detectedRespawns == list.detectedRespawns
    ensures forall path :: Listed(r, path) <==> Listed(list, path) || path == process.exePath
    ensures Listed(list, process.exePath) ==> r == list
    ensures !Listed(list, process.exePath) ==> r.processes == list.processes + [process]
  {
    if AnyPath(list.processes, process.exePath) then list
    else
      var r := list.(processes := list.processes + [process]);
      assert r.processes[|list.processes|] == process;
      assert forall i :: 0 <= i < |list.processes| ==> r.processes[i] == list.processes[i];
      r
  }

  /** Adding keeps paths unique and adding the same path again changes nothing. */
  lemma AddedKeepsUnique(list: RestoreList, process: KilledProcessInfo, again: KilledProcessInfo)
    requires PathsUnique(list) && again.exePath == process.exePath
    ensures PathsUnique(Added(list, process))
    ensures Added(Added(list, process), again) == Added(list, process)
  {
    var r := Added(list, process);
    if !Listed(list, process.exePath) {
      forall i, j | 0 <= i < j < |r.processes| ensures r.processes[i].exePath != r.processes[j].exePath {
        assert r.processes[i] == list.processes[i];
        if j < |list.processes| { assert r.processes[j] == list.processes[j]; }
      }
    }
  }

  /** `add_to_restore_list`: the result and the list written, if any. A path already
      listed is a success that writes nothing. */
  function AddToRestoreList(file: Option<Result<RestoreList>>, process: KilledProcessInfo, fault: Option<string>)
    : (r: (Result<()>, Option<RestoreList>))
    ensures LoadRestoreList(file).Err? ==> r == (Err(LoadRestoreList(file).error), None)
    ensures LoadRestoreList(file).Ok? && Listed(LoadRestoreList(file).value, process.exePath) ==> r == (Ok(()), None)
    ensures LoadRestoreList(file).Ok? && !Listed(LoadRestoreList(file).value, process.exePath) ==>
      && r.1 == Some(Added(LoadRestoreList(file).value, process))
      && (r.0.Ok? <==> fault.None?)
  {
    match LoadRestoreList(file)
    case Err(e) => (Err(e), None)
    case Ok(list) =>
      if AnyPath(list.processes, process.exePath) then (Ok(()), None)
      else (if fault.Some? then Err(fault.value) else Ok(()), Some(Added(list, process)))
  }

  // ---------------------------------------------------------------- marking

  /** The list with every entry of the path marked self-restoring and the path noted
      as a respawn once. */
  function Marked(list: RestoreList, path: string): (r: RestoreList)
    ensures |r.processes| == |list.processes|
    ensures forall i :: 0 <= i < |r.processes| ==>
      r.processes[i] == (if list.processes[i].exePath == path then list.processes[i].(isSelfRestoring := true) else list.processes[i])
    ensures path in list.detectedRespawns ==> r.detectedRespawns == list.detectedRespawns
    ensures path !in list.detectedRespawns ==> r.detectedRespawns == list.detectedRespawns + [path]
    ensures r.sessionId == list.sessionId && r.createdAt == list.createdAt
  {
    var ps := seq(|list.processes|, i requires 0 <= i < |list.processes| =>
      if list.processes[i].exePath == path then list.processes[i].(isSelfRestoring := true) else list.processes[i]);
    var respawns := if path in list.detectedRespawns then list.detectedRespawns else list.detectedRespawns + [path];
    RestoreList(list.sessionId, ps, list.createdAt, respawns)
  }

  /** Marking twice is marking once: the respawn is noted at most once. */
  lemma MarkedIdempotent(list: RestoreList, path: string)
    ensures Marked(Marked(list, path), path) == Marked(list, path)
    ensures path in Marked(list, path).detectedRespawns
  {
    var once := Marked(list, path);
    var twice := Marked(once, path);
    assert twice.processes == once.processes;
  }

  /** Marking keeps the recorded paths and flags exactly the entries of the path. */
  lemma MarkedFlags(list: RestoreList, path: string)
    ensures forall p :: Listed(Marked(list, path), p) <==> Listed(list, p)
    ensures forall i :: 0 <= i < |list.processes| ==>
      Marked(list, path).processes[i].isSelfRestoring == (list.processes[i].isSelfRestoring || list.processes[i].exePath == path)
  {
    var r := Marked(list, path);
    forall p ensures Listed(r, p) <==> Listed(list, p) {
      if Listed(r, p) {
        var i :| 0 <= i < |r.processes| && r.processes[i].exePath == p;
        assert list.processes[i].exePath == p;
      }
      if Listed(list, p) {
        var i :| 0 <= i < |list.processes| && list.processes[i].exePath == p;
        assert r.processes[i].exePath == p;
      }
    }
  }

  /** `mark_as_self_restoring`: the result and the list written, if any. */
  function MarkAsSelfRestoring(file: Option<Result<RestoreList>>, path: string, fault: Option<string>)
    : (r: (Result<()>, Option<RestoreList>))
    ensures LoadRestoreList(file).Err? ==> r == (Err(LoadRestoreList(file).error), None)
    ensures LoadRestoreList(file).Ok? ==> r.1 == Some(Marked(LoadRestoreList(file).value, path)) && (r.0.Ok? <==> fault.None?)
  {
    match LoadRestoreList(file)
    case Err(e) => (Err(e), None)
    case Ok(list) => (if fault.Some? then Err(fault.value) else Ok(()), Some(Marked(list, path)))
  }

  // ---------------------------------------------------------------- restoring

  const SelfRestoringSkipped := "Process is self-restoring, skipped"
  const ExeNotFound := "Executable not found: "
  const ShellFailed := "ShellExecuteW failed for "
  const ErrorCode := ": error code "

  /** The shell reports success with a value above 32. */
  const ShellOk := 32

  /** `restore_process`: a self-restoring entry is refused before anything else, a
      missing executable is an error, and otherwise the shell is asked to open it. */
  function RestoreProcess(p: KilledProcessInfo, present: string -> bool, shell: string -> nat): (r: Result<()>)
    ensures r.Ok? <==> !p.isSelfRestoring && present(p.exePath) && shell(p.exePath) > ShellOk
    ensures p.isSelfRestoring ==> r == Err(SelfRestoringSkipped)
    ensures !p.isSelfRestoring && !present(p.exePath) ==> r == Err(ExeNotFound + p.exePath)
  {
    if p.isSelfRestoring then Err(SelfRestoringSkipped)
    else if !present(p.exePath) then Err(ExeNotFound + p.exePath)
    else if shell(p.exePath) > ShellOk then Ok(())
    else Err(ShellFailed + p.name + ErrorCode + NatToString(shell(p.exePath)))
  }

  /** Whether restoring the entry reaches the shell. */
  predicate Launches(p: KilledProcessInfo, present: string -> bool)
  {
    !p.isSelfRestoring && present(p.exePath)
  }

  /** A self-restoring entry is refused with a message saying so, and the shell is
      reached only for an entry that is not self-restoring and whose file exists. */
  lemma RestoreProcessProps(p: KilledProcessInfo, present: string -> bool, shell: string -> nat)
    ensures p.isSelfRestoring ==>
      RestoreProcess(p, present, shell).Err? && Contains(RestoreProcess(p, present, shell).error, "self-restoring")
    ensures RestoreProcess(p, present, shell).Ok? ==> Launches(p, present) && shell(p.exePath) > ShellOk
  {
    if p.isSelfRestoring {
      assert SelfRestoringSkipped == "Process is " + "self-restoring" + ", skipped";
      ContainsIn(SelfRestoringSkipped, "self-restoring", "Process is ", ", skipped");
    }
  }

  function IsSelfRestoring(): KilledProcessInfo -> bool { (p: KilledProcessInfo) => p.isSelfRestoring }

  function Restores(present: string -> bool, shell: string -> nat): KilledProcessInfo -> bool
  {
    (p: KilledProcessInfo) => RestoreProcess(p, present, shell).Ok?
  }

  function FailsToRestore(present: string -> bool, shell: string -> nat): KilledProcessInfo -> bool
  {
    (p: KilledProcessInfo) => !p.isSelfRestoring && RestoreProcess(p, present, shell).Err?
  }

  /** The errors restoring produces, in list order. */
  function ErrorsOf(ps: seq<KilledProcessInfo>, present: string -> bool, shell: string -> nat): seq<RestoreError>
  {
    if |ps| == 0 then []
    else
      var p := ps[|ps| - 1];
      ErrorsOf(ps[..|ps| - 1], present, shell)
      + (if !p.isSelfRestoring && RestoreProcess(p, present, shell).Err?
         then [RestoreError(p.exePath, RestoreProcess(p, present, shell).error)] else [])
  }

  /** The executables handed to the shell, in list order. */
  function LaunchedOf(ps: seq<KilledProcessInfo>, present: string -> bool): seq<string>
  {
    if |ps| == 0 then []
    else
      var p := ps[|ps| - 1];
      LaunchedOf(ps[..|ps| - 1], present) + (if Launches(p, present) then [p.exePath] else [])
  }

  /** Only entries that are not self-restoring are ever handed to the shell. */
  lemma {:induction false} LaunchedNotSelfRestoring(ps: seq<KilledProcessInfo>, present: string -> bool, path: string)
    requires path in LaunchedOf(ps, present)
    ensures exists i :: 0 <= i < |ps| && ps[i].exePath == path && !ps[i].isSelfRestoring && present(path)
    decreases |ps|
  {
    var front := ps[..|ps| - 1];
    if path in LaunchedOf(front, present) {
      LaunchedNotSelfRestoring(front, present, path);
      var i :| 0 <= i < |front| && front[i].exePath == path && !front[i].isSelfRestoring && present(path);
      assert ps[i] == front[i];
    } else {
      assert ps[|ps| - 1].exePath == path;
    }
  }

  /** `restore_all_processes`: every entry is counted once, as restored, skipped
      because it restores itself, or failed with one error; the executables handed to
      the shell are returned in order. The pause after each start is not modelled. */
  method RestoreAll(list: RestoreList, present: string -> bool, shell: string -> nat)
    returns (r: RestoreResult, launched: seq<string>)
    ensures r.restored + r.skippedSelfRestoring + r.failed == |list.processes|
    ensures |r.errors| == r.failed
    ensures r.skippedSelfRestoring == CountBy(list.processes, IsSelfRestoring())
    ensures r.restored == CountBy(list.processes, Restores(present, shell))
    ensures r.failed == CountBy(list.processes, FailsToRestore(present, shell))
    ensures r.errors == ErrorsOf(list.processes, present, shell)
    ensures launched == LaunchedOf(list.processes, present)
  {
    var ps := list.processes;
    r := RestoreResult(0, 0, 0, []);
    launched := [];
    var i := 0;
    while i < |ps|
      invariant 0 <= i <= |ps|
      invariant r.restored + r.skippedSelfRestoring + r.failed == i
      invariant |r.errors| == r.failed
      invariant r.skippedSelfRestoring == CountBy(ps[..i], IsSelfRestoring())
      invariant r.restored == CountBy(ps[..i], Restores(present, shell))
      invariant r.failed == CountBy(ps[..i], FailsToRestore(present, shell))
      invariant r.errors == ErrorsOf(ps[..i], present, shell)
      invariant launched == LaunchedOf(ps[..i], present)
    {
      var p := ps[i];
      assert ps[..i + 1][..i] == ps[..i];
      assert ps[..i + 1][i] == p;
      if p.isSelfRestoring {
        r := r.(skippedSelfRestoring := r.skippedSelfRestoring + 1);
      } else {
        if present(p.exePath) {
          launched := launched + [p.exePath];
        }
        match RestoreProcess(p, present, shell)
        case Ok(_) =>
          r := r.(restored := r.restored + 1);
        case Err(e) =>
          r := r.(failed := r.failed + 1, errors := r.errors + [RestoreError(p.exePath, e)]);
      }
      i := i + 1;
    }
    assert ps[..i] == ps;
  }
}

=== FILE: riot_detector.dfy ===
/** The Riot scanner: the three Riot games, the arguments that launch each through
    the Riot Client, how an install folder leads back to the "Riot Games" root, how
    the candidate roots are ordered and de-duplicated, and which games a set of roots
    yields.

    Where the roots come from (the client's install file, the registry, a scan of
    fixed drives), whether a path exists and which icon is found are parameters. */
module RiotDetector {
  import opened Wrappers
  import opened Strings
  import opened Sorting
  import opened WinPaths
  import opened Launcher

  // ---------------------------------------------------------------- games

  datatype RiotGameConfig = RiotGameConfig(
    name: string,
    folderName: string,
    gameExePath: string,
    iconExePath: Option<string>,
    processName: string,
    productId: string,
    patchline: string)

  const Valorant := RiotGameConfig("Valorant", "VALORANT", "live\\ShooterGame\\Binaries\\Win64\\VALORANT-Win64-Shipping.exe",
    Some("live\\VALORANT.exe"), "VALORANT-Win64-Shipping.exe", "valorant", "live")
  const LeagueOfLegends := RiotGameConfig("League of Legends", "League of Legends", "LeagueClient.exe",
    None, "LeagueClient.exe", "league_of_legends", "live")
  const LegendsOfRuneterra := RiotGameConfig("Legends of Runeterra", "LoR", "Legends of Runeterra.exe",
    None, "Legends of Runeterra.exe", "bacon", "live")

  /** `RiotGameConfig::all`, in this order. */
  const RiotGames: seq<RiotGameConfig> := [Valorant, LeagueOfLegends, LegendsOfRuneterra]

  /** The three games have different product ids, none holding a space, and all are
      on the live patchline. */
  lemma RiotGamesDistinct()
    ensures |RiotGames| == 3
    ensures forall i, j :: 0 <= i < j < 3 ==> RiotGames[i].productId != RiotGames[j].productId
    ensures forall i :: 0 <= i < 3 ==> ' ' !in RiotGames[i].productId && RiotGames[i].patchline == "live"
  {
    assert RiotGames[0].productId[0] == 'v';
    assert RiotGames[1].productId[0] == 'l';
    assert RiotGames[2].productId[0] == 'b';
    assert forall i :: 0 <= i < 3 ==> ' ' !in RiotGames[i].productId by {
      assert forall k :: 0 <= k < |Valorant.productId| ==> Valorant.productId[k] != ' ';
      assert forall k :: 0 <= k < |LeagueOfLegends.productId| ==> LeagueOfLegends.productId[k] != ' ';
      assert forall k :: 0 <= k < |LegendsOfRuneterra.productId| ==> LegendsOfRuneterra.productId[k] != ' ';
    }
  }

  const ProductFlag := "--launch-product="
  const PatchlineFlag := " --launch-patchline="

  /** `get_launch_args`. */
  function LaunchArgs(c: RiotGameConfig): string
  {
    ProductFlag + c.productId + PatchlineFlag + c.patchline
  }

  /** Reads launch arguments back into the product id and patchline. */
  function ParseLaunchArgs(s: string): (r: Option<(string, string)>)
  {
    if !StartsWith(s, ProductFlag) then None
    else
      var rest := s[|ProductFlag|..];
      match Find(rest, PatchlineFlag)
      case None => None
      case Some(i) => Some((rest[..i], rest[i + |PatchlineFlag|..]))
  }

  /** The launch arguments of a product id without spaces read back as that id and
      patchline. */
  lemma LaunchArgsReadBack(c: RiotGameConfig)
    requires ' ' !in c.productId
    ensures ParseLaunchArgs(LaunchArgs(c)) == Some((c.productId, c.patchline))
  {
    var body := c.productId + PatchlineFlag + c.patchline;
    var s := ProductFlag + body;
    assert LaunchArgs(c) == s;
    assert s[..|ProductFlag|] == ProductFlag;
    assert s[|ProductFlag|..] == body;
    assert PatchlineFlag[0] == ' ';
    FindAfter(c.productId, PatchlineFlag, c.patchline);
    assert body[..|c.productId|] == c.productId;
    assert body[|c.productId| + |PatchlineFlag|..] == c.patchline;
  }

  // ---------------------------------------------------------------- the Riot Games root

  const RiotGamesName := "riot games"

  /** The path's last component is "Riot Games" in any case. */
  predicate IsRiotRoot(path: string)
  {
    Lower(FileName(path).GetOr("")) == RiotGamesName
  }

  /** The loop of `find_riot_root_from_install`: up to `steps` paths, starting at
      `current` and going up one parent at a time. */
  function RootFrom(current: string, steps: nat, original: string): string
    decreases steps
  {
    if steps == 0 then original
    else if IsRiotRoot(current) then current
    else
      match Parent(current)
      case None => original
      case Some(p) => RootFrom(p, steps - 1, original)
  }

  /** `find_riot_root_from_install`: the path itself, its parent or its grandparent,
      whichever comes first named "Riot Games"; otherwise the path unchanged. */
  function FindRiotRoot(installPath: string): string
  {
    RootFrom(installPath, 3, installPath)
  }

  /** The `k`-th ancestor exists and is a Riot Games root. */
  predicate RootAt(path: string, k: nat)
  {
    Ancestor(path, k).Some? && IsRiotRoot(Ancestor(path, k).value)
  }

  /** The root is the first of the path, its parent and its grandparent that is named
      "Riot Games", or the path itself when none is. */
  lemma FindRiotRootFirst(installPath: string)
    ensures FindRiotRoot(installPath) ==
      if RootAt(installPath, 0) then installPath
      else if RootAt(installPath, 1) then Ancestor(installPath, 1).value
      else if RootAt(installPath, 2) then Ancestor(installPath, 2).value
      else installPath
  {
    match Parent(installPath)
    case None =>
    case Some(p) =>
      assert Ancestor(installPath, 1) == Some(p);
      assert Ancestor(installPath, 2) == Ancestor(p, 1);
      match Parent(p)
      case None =>
      case Some(q) =>
        assert Ancestor(p, 1) == Some(q);
  }

  // ---------------------------------------------------------------- candidate roots

  function LowerLe(): (string, string) -> bool { (a: string, b: string) => StrLe(Lower(a), Lower(b)) }

  function SameLower(): (string, string) -> bool { (a: string, b: string) => Lower(a) == Lower(b) }

  lemma LowerOrderProps()
    ensures Total(LowerLe()) && Transitive(LowerLe()) && Equivalence(SameLower(), LowerLe())
    ensures Reflexive(SameLower()) && Symmetric(SameLower())
  {
    forall a: string, b: string ensures LowerLe()(a, b) || LowerLe()(b, a) {
      StrLeTotal(Lower(a), Lower(b));
    }
    forall a: string, b: string, c: string | LowerLe()(a, b) && LowerLe()(b, c)
      ensures LowerLe()(a, c)
    {
      StrLeTrans(Lower(a), Lower(b), Lower(c));
    }
    forall a: string, b: string ensures SameLower()(a, b) <==> LowerLe()(a, b) && LowerLe()(b, a) {
      StrLeTotal(Lower(a), Lower(a));
      if StrLe(Lower(a), Lower(b)) && StrLe(Lower(b), Lower(a)) { StrLeAntisym(Lower(a), Lower(b)); }
    }
  }

  lemma LoweredDistinct(r: seq<string>)
    requires forall i, j :: 0 <= i < j < |r| ==> StrLe(Lower(r[i]), Lower(r[j]))
    requires forall i :: 0 < i < |r| ==> Lower(r[i]) != Lower(r[i - 1])
    ensures forall i, j :: 0 <= i < j < |r| ==> Lower(r[i]) != Lower(r[j])
  {
    forall i, j | 0 <= i < j < |r| ensures Lower(r[i]) != Lower(r[j]) {
      if j == i + 1 {
        assert Lower(r[j]) != Lower(r[j - 1]);
      } else if Lower(r[i]) == Lower(r[j]) {
        StrLeAntisym(Lower(r[i]), Lower(r[i + 1]));
        assert false;
      }
    }
  }

  /** The end of `find_riot_games_paths`: sorted and de-duplicated ignoring case. */
  function CandidateRoots(paths: seq<string>): seq<string>
  {
    DedupBy(SortBy(paths, LowerLe()), SameLower())
  }

  /** The roots are in case-insensitive order, no two differ only in case, each is one
      of the inputs, and every input is represented. */
  lemma CandidateRootsProps(paths: seq<string>)
    ensures var r := CandidateRoots(paths);
      && (forall i, j :: 0 <= i < j < |r| ==> StrLe(Lower(r[i]), Lower(r[j])) && Lower(r[i]) != Lower(r[j]))
      && (forall i :: 0 <= i < |r| ==> r[i] in paths)
      && (forall k :: 0 <= k < |paths| ==> exists i :: 0 <= i < |r| && Lower(r[i]) == Lower(paths[k]))
  {
    var le, same := LowerLe(), SameLower();
    var sorted := SortBy(paths, le);
    var r := DedupBy(sorted, same);
    LowerOrderProps();
    SortBySorted(paths, le);
    DedupSorted(sorted, same, le);
    DedupNeighbours(sorted, same);
    forall i, j | 0 <= i < j < |r| ensures StrLe(Lower(r[i]), Lower(r[j])) {
      assert le(r[i], r[j]);
    }
    forall i | 0 < i < |r| ensures Lower(r[i]) != Lower(r[i - 1]) {
      assert !same(r[i], r[i - 1]);
    }
    LoweredDistinct(r);
    forall i | 0 <= i < |r| ensures r[i] in paths {
      SortByMembers(paths, le, r[i]);
    }
    forall k | 0 <= k < |paths| ensures exists i :: 0 <= i < |r| && Lower(r[i]) == Lower(paths[k]) {
      SortByMembers(paths, le, paths[k]);
      var m :| 0 <= m < |sorted| && sorted[m] == paths[k];
      DedupCovers(sorted, same, m);
    }
  }

  // ---------------------------------------------------------------- detection

  const RiotClientDir := "Riot Client"
  const RiotClientExe := "RiotClientServices.exe"
  const AppIdPrefix := "riot_"

  function ClientPath(root: string): string { JoinPath(JoinPath(root, RiotClientDir), RiotClientExe) }

  function GameFolder(root: string, c: RiotGameConfig): string { JoinPath(root, c.folderName) }

  function GameExe(root: string, c: RiotGameConfig): string { JoinPath(GameFolder(root, c), c.gameExePath) }

  function AppId(c: RiotGameConfig): string { AppIdPrefix + c.productId }

  /** The root has the Riot Client and the game's executable. */
  predicate Installed(root: string, c: RiotGameConfig, present: string -> bool)
  {
    present(ClientPath(root)) && present(GameExe(root, c))
  }

  /** The detected game: launched through the Riot Client with its product's
      arguments. The icon search is a parameter. */
  function RiotGame(root: string, c: RiotGameConfig, icon: (string, RiotGameConfig) -> Option<string>): DetectedGame
  {
    DetectedGame(c.name, ClientPath(root), GameFolder(root, c), Riot, Some(AppId(c)), icon(root, c), Some(LaunchArgs(c)))
  }

  predicate HasAppId(games: seq<DetectedGame>, id: string)
  {
    exists i :: 0 <= i < |games| && games[i].appId == Some(id)
  }

  function AnyAppId(games: seq<DetectedGame>, id: string): (r: bool)
    ensures r <==> HasAppId(games, id)
  {
    if |games| == 0 then false
    else
      assert forall i :: 1 <= i < |games| ==> games[i] == games[1..][i - 1];
      games[0].appId == Some(id) || AnyAppId(games[1..], id)
  }

  /** The first `k` games of the list tried at one root; a game already detected at an
      earlier root is skipped. */
  function ScanRoot(games: seq<DetectedGame>, root: string, k: nat, present: string -> bool,
                    icon: (string, RiotGameConfig) -> Option<string>): (r: seq<DetectedGame>)
    requires k <= |RiotGames|
    ensures games <= r
    decreases k
  {
    if k == 0 || !present(ClientPath(root)) then games
    else
      var before := ScanRoot(games, root, k - 1, present, icon);
      var c := RiotGames[k - 1];
      if present(GameExe(root, c)) && !AnyAppId(before, AppId(c)) then before + [RiotGame(root, c, icon)] else before
  }

  /** `detect_riot_games` over the candidate roots, in order. */
  function DetectRiotGames(roots: seq<string>, present: string -> bool, icon: (string, RiotGameConfig) -> Option<string>)
    : (r: seq<DetectedGame>)
    decreases |roots|
  {
    if |roots| == 0 then []
    else ScanRoot(DetectRiotGames(roots[..|roots| - 1], present, icon), roots[|roots| - 1], |RiotGames|, present, icon)
  }

  /** No two detected games share an app id. */
  predicate UniqueAppIds(games: seq<DetectedGame>)
  {
    forall i, j :: 0 <= i < j < |games| ==> games[i].appId != games[j].appId
  }

  /** Each detected game is one of the Riot games, launched through a Riot Client. */
  predicate WellFormed(g: DetectedGame)
  {
    exists k :: 0 <= k < |RiotGames| && g.appId == Some(AppId(RiotGames[k])) && g.name == RiotGames[k].name
      && g.launchArgs == Some(LaunchArgs(RiotGames[k])) && g.source == Riot
  }

  lemma AppIdsDistinct(a: nat, b: nat)
    requires a < b < |RiotGames|
    ensures AppId(RiotGames[a]) != AppId(RiotGames[b])
  {
    RiotGamesDistinct();
    assert AppId(RiotGames[a])[|AppIdPrefix|..] == RiotGames[a].productId;
    assert AppId(RiotGames[b])[|AppIdPrefix|..] == RiotGames[b].productId;
  }

  /** One more game tried at a root adds at most that game. */
  lemma ScanRootStep(games: seq<DetectedGame>, root: string, k: nat, present: string -> bool,
                     icon: (string, RiotGameConfig) -> Option<string>)
    requires 0 < k <= |RiotGames|
    ensures var r := ScanRoot(games, root, k, present, icon);
      var before := ScanRoot(games, root, k - 1, present, icon);
      var c := RiotGames[k - 1];
      r == if present(ClientPath(root)) && present(GameExe(root, c)) && !HasAppId(before, AppId(c))
           then before + [RiotGame(root, c, icon)] else before
  {
  }

  /** The roots are scanned in order, each after the ones before it. */
  lemma DetectStep(roots: seq<string>, present: string -> bool, icon: (string, RiotGameConfig) -> Option<string>)
    requires |roots| > 0
    ensures DetectRiotGames(roots, present, icon)
      == ScanRoot(DetectRiotGames(roots[..|roots| - 1], present, icon), roots[|roots| - 1], |RiotGames|, present, icon)
  {
  }

  /** Scanning a root adds only well-formed games. */
  lemma {:induction false} ScanRootWellFormed(games: seq<DetectedGame>, root: string, k: nat, present: string -> bool,
                                              icon: (string, RiotGameConfig) -> Option<string>)
    requires k <= |RiotGames|
    ensures var r := ScanRoot(games, root, k, present, icon);
      forall i :: |games| <= i < |r| ==> WellFormed(r[i])
    decreases k
  {
    if k > 0 && present(ClientPath(root)) {
      ScanRootWellFormed(games, root, k - 1, present, icon);
      var before := ScanRoot(games, root, k - 1, present, icon);
      var c := RiotGames[k - 1];
      var g := RiotGame(root, c, icon);
      assert WellFormed(g) by { assert g.appId == Some(AppId(RiotGames[k - 1])); }
      var r := ScanRoot(games, root, k, present, icon);
      ScanRootStep(games, root, k, present, icon);
      forall i | |games| <= i < |r| ensures WellFormed(r[i]) {
        if i < |before| { assert r[i] == before[i]; } else { assert r[i] == g; }
      }
    }
  }

  /** Scanning a root keeps app ids unique: a game is added only when its id is new. */
  lemma {:induction false} ScanRootUnique(games: seq<DetectedGame>, root: string, k: nat, present: string -> bool,
                                          icon: (string, RiotGameConfig) -> Option<string>)
    requires k <= |RiotGames| && UniqueAppIds(games)
    ensures UniqueAppIds(ScanRoot(games, root, k, present, icon))
    decreases k
  {
    if k > 0 && present(ClientPath(root)) {
      ScanRootUnique(games, root, k - 1, present, icon);
      var before := ScanRoot(games, root, k - 1, present, icon);
      var c := RiotGames[k - 1];
      if present(GameExe(root, c)) && !AnyAppId(before, AppId(c)) {
        var r := before + [RiotGame(root, c, icon)];
        forall i, j | 0 <= i < j < |r| ensures r[i].appId != r[j].appId {
          assert r[i] == before[i];
          if j < |before| { assert r[j] == before[j]; }
        }
      }
    }
  }

  /** After scanning the first `k` games at a root, a game's id is present exactly when
      it was before or it is among those `k` and the root has it. */
  lemma {:induction false} ScanRootFinds(games: seq<DetectedGame>, root: string, k: nat, present: string -> bool,
                                         icon: (string, RiotGameConfig) -> Option<string>, m: nat)
    requires k <= |RiotGames| && m < |RiotGames|
    ensures HasAppId(ScanRoot(games, root, k, present, icon), AppId(RiotGames[m]))
      <==> HasAppId(games, AppId(RiotGames[m])) || (m < k && Installed(root, RiotGames[m], present))
    decreases k
  {
    if k > 0 && present(ClientPath(root)) {
      ScanRootFinds(games, root, k - 1, present, icon, m);
      ScanRootStep(games, root, k, present, icon);
      var before := ScanRoot(games, root, k - 1, present, icon);
      var r := ScanRoot(games, root, k, present, icon);
      var c := RiotGames[k - 1];
      var id := AppId(RiotGames[m]);
      var added := present(GameExe(root, c)) && !HasAppId(before, AppId(c));
      if added {
        assert r == before + [RiotGame(root, c, icon)];
        HasAppIdAppend(before, RiotGame(root, c, icon), id);
        if m < k - 1 { AppIdsDistinct(m, k - 1); } else if m > k - 1 { AppIdsDistinct(k - 1, m); }
        assert HasAppId(r, id) <==> HasAppId(before, id) || m == k - 1;
      } else {
        assert r == before;
      }
    }
  }

  lemma {:induction false} HasAppIdAppend(games: seq<DetectedGame>, g: DetectedGame, id: string)
    ensures HasAppId(games + [g], id) <==> HasAppId(games, id) || g.appId == Some(id)
  {
    var r := games + [g];
    if HasAppId(r, id) {
      var i :| 0 <= i < |r| && r[i].appId == Some(id);
      if i < |games| { assert games[i] == r[i]; }
    }
    if HasAppId(games, id) {
      var i :| 0 <= i < |games| && games[i].appId == Some(id);
      assert r[i] == games[i];
    }
    assert r[|games|] == g;
  }

  /** Over all roots: app ids stay unique and every game is a well-formed Riot game. */
  lemma {:induction false} DetectRiotGamesProps(roots: seq<string>, present: string -> bool,
                                                icon: (string, RiotGameConfig) -> Option<string>)
    ensures var r := DetectRiotGames(roots, present, icon);
      UniqueAppIds(r) && forall i :: 0 <= i < |r| ==> WellFormed(r[i])
    decreases |roots|
  {
    if |roots| > 0 {
      var front := roots[..|roots| - 1];
      DetectRiotGamesProps(front, present, icon);
      DetectStep(roots, present, icon);
      var p := DetectRiotGames(front, present, icon);
      ScanRootUnique(p, roots[|roots| - 1], |RiotGames|, present, icon);
      ScanRootWellFormed(p, roots[|roots| - 1], |RiotGames|, present, icon);
      var r := DetectRiotGames(roots, present, icon);
      forall i | 0 <= i < |r| ensures WellFormed(r[i]) {
        if i < |p| { assert r[i] == p[i]; }
      }
    }
  }

  /** The roots that have the Riot Client and the game. */
  function InstalledIn(c: RiotGameConfig, present: string -> bool): string -> bool
  {
    root => Installed(root, c, present)
  }

  /** Some root has the Riot Client and the game. */
  predicate SomeRootHas(roots: seq<string>, c: RiotGameConfig, present: string -> bool)
  {
    exists i :: 0 <= i < |roots| && InstalledIn(c, present)(roots[i])
  }

  lemma {:induction false} SomeSplit(xs: seq<string>, front: seq<string>, p: string -> bool)
    requires |xs| > 0 && front == xs[..|xs| - 1]
    ensures (exists i :: 0 <= i < |xs| && p(xs[i]))
      <==> (exists i :: 0 <= i < |front| && p(front[i])) || p(xs[|xs| - 1])
  {
    if exists i :: 0 <= i < |xs| && p(xs[i]) {
      var i :| 0 <= i < |xs| && p(xs[i]);
      if i < |front| { assert front[i] == xs[i]; }
    }
    if exists i :: 0 <= i < |front| && p(front[i]) {
      var i :| 0 <= i < |front| && p(front[i]);
      assert front[i] == xs[i];
    }
  }

  /** A game is detected exactly when some root has both the Riot Client and that game. */
  lemma {:induction false} DetectRiotGamesFinds(roots: seq<string>, present: string -> bool,
                                                icon: (string, RiotGameConfig) -> Option<string>, m: nat)
    requires m < |RiotGames|
    ensures HasAppId(DetectRiotGames(roots, present, icon), AppId(RiotGames[m]))
      <==> SomeRootHas(roots, RiotGames[m], present)
    decreases |roots|
  {
    if |roots| > 0 {
      var front := roots[..|roots| - 1];
      DetectRiotGamesFinds(front, present, icon, m);
      DetectStep(roots, present, icon);
      ScanRootFinds(DetectRiotGames(front, present, icon), roots[|roots| - 1], |RiotGames|, present, icon, m);
      SomeSplit(roots, front, InstalledIn(RiotGames[m], present));
    }
  }
}

=== FILE: server.dfy ===
/** The server panel: its connection settings, the saved SSH password, and the three
    requests sent to the SSH worker (run a command, read the system status, test the
    connection), plus the SFTP upload.

    Files are `None` when missing and `Some(Err(..))` when unreadable. The SSH worker is
    a function from the request to its reply, `Err` when the worker fails. */
module ServerCommands {
  import opened Wrappers
  import opened Strings

  // ---------------------------------------------------------------- configuration

  datatype ServerConfig = ServerConfig(host: string, port: nat, username: string, domain: Option<string>)

  /** No host, port 22, no user, no domain. */
  const DefaultConfig := ServerConfig("", 22, "", None)

  type ConfigFile = Option<Result<ServerConfig>>

  /** `get_server_config`: the defaults when there is no file. */
  function GetServerConfig(file: ConfigFile): (r: Result<ServerConfig>)
    ensures file.None? ==> r == Ok(DefaultConfig)
    ensures file.Some? ==> r == file.value
  {
    if file.None? then Ok(DefaultConfig) else file.value
  }

  datatype UpdateServerConfigParams = UpdateServerConfigParams(
    host: Option<string>, port: Option<nat>, username: Option<string>, domain: Option<string>)

  /** `update_server_config`: the given fields replace the current ones, a domain
      becoming present; the result is also what is written back. */
  function UpdateServerConfig(file: ConfigFile, p: UpdateServerConfigParams): (r: Result<ServerConfig>)
    requires p.port.Some? ==> p.port.value < 0x1_0000
    ensures r.Ok? <==> GetServerConfig(file).Ok?
    ensures r.Ok? ==> var c := GetServerConfig(file).value;
      && r.value.host == p.host.GetOr(c.host)
      && r.value.port == p.port.GetOr(c.port)
      && r.value.username == p.username.GetOr(c.username)
      && r.value.domain == (if p.domain.Some? then p.domain else c.domain)
  {
    var c :- GetServerConfig(file);
    Ok(ServerConfig(
      if p.host.Some? then p.host.value else c.host,
      if p.port.Some? then p.port.value else c.port,
      if p.username.Some? then p.username.value else c.username,
      if p.domain.Some? then Some(p.domain.value) else c.domain))
  }

  /** Updating with the same fields again changes nothing more, and an update with no
      fields leaves the configuration as it was. */
  lemma UpdateServerConfigIdempotent(file: ConfigFile, p: UpdateServerConfigParams)
    requires p.port.Some? ==> p.port.value < 0x1_0000
    requires UpdateServerConfig(file, p).Ok?
    ensures UpdateServerConfig(Some(UpdateServerConfig(file, p)), p) == UpdateServerConfig(file, p)
    ensures UpdateServerConfig(file, UpdateServerConfigParams(None, None, None, None)) == GetServerConfig(file)
  {
  }

  // ---------------------------------------------------------------- credentials

  datatype SshCredentials = SshCredentials(password: string, savedAt: string)

  type CredentialsFile = Option<Result<SshCredentials>>

  /** `save_ssh_credentials`: the file now holds the password and the time. */
  function SaveSshCredentials(password: string, now: string): (r: CredentialsFile)
    ensures r.Some? && r.value.Ok? && r.value.value.password == password
  {
    Some(Ok(SshCredentials(password, now)))
  }

  /** `get_ssh_credentials`: none without a file. */
  function GetSshCredentials(file: CredentialsFile): (r: Result<Option<SshCredentials>>)
    ensures file.None? ==> r == Ok(None)
    ensures file.Some? && file.value.Ok? ==> r == Ok(Some(file.value.value))
    ensures file.Some? && file.value.Err? ==> r == Err(file.value.error)
  {
    match file
    case None => Ok(None)
    case Some(Err(e)) => Err(e)
    case Some(Ok(c)) => Ok(Some(c))
  }

  /** `has_ssh_credentials`: whether the file exists, readable or not. */
  function HasSshCredentials(file: CredentialsFile): (r: bool)
    ensures r <==> GetSshCredentials(file) != Ok(None)
  {
    file.Some?
  }

  /** `clear_ssh_credentials`: the file is removed; failing to remove it is an error. */
  function ClearSshCredentials(file: CredentialsFile, removeError: Option<string>): (r: Result<CredentialsFile>)
    ensures r.Ok? ==> r.value.None?
    ensures r.Err? <==> file.Some? && removeError.Some?
  {
    if file.Some? && removeError.Some? then Err("Failed to delete credentials file: " + removeError.value)
    else Ok(None)
  }

  const NoPassword := "No SSH credentials saved. Please provide a password."

  /** The password of a request: the one given, else the saved one. */
  function ResolvePassword(password: Option<string>, file: CredentialsFile): (r: Result<string>)
    ensures password.Some? ==> r == Ok(password.value)
    ensures password.None? && file.None? ==> r == Err(NoPassword)
    ensures password.None? && file.Some? && file.value.Ok? ==> r == Ok(file.value.value.password)
  {
    if password.Some? then Ok(password.value)
    else
      var saved :- GetSshCredentials(file);
      if saved.None? then Err(NoPassword) else Ok(saved.value.password)
  }

  /** A saved password is used when none is given, and clearing it makes a request
      without a password fail. */
  lemma SavedPasswordUsed(password: string, now: string, removeError: Option<string>)
    ensures ResolvePassword(None, SaveSshCredentials(password, now)) == Ok(password)
    ensures var cleared := ClearSshCredentials(SaveSshCredentials(password, now), removeError);
      cleared.Ok? ==> ResolvePassword(None, cleared.value) == Err(NoPassword)
  {
  }

  // ---------------------------------------------------------------- commands

  const PathExport := "export PATH=\"/root/.nvm/versions/node/v24.13.0/bin:$PATH\" && "

  /** The command sent to the server: process-manager commands first put the Node
      installation on the path. */
  function FinalCommand(command: string): (r: string)
    ensures Contains(command, "pm2") ==> r == PathExport + command
    ensures !Contains(command, "pm2") ==> r == command
    ensures EndsWith(r, command)
  {
    if Contains(command, "pm2") then PathExport + command else command
  }

  /** What the SSH worker is asked: to run a command, or for the host's status
      (`"action": "system_status"`, with no command). The fresh `session_id` of a
      command request is not part of the model. */
  datatype WorkerRequest =
    | RunCommand(host: string, port: nat, username: string, password: string, command: string)
    | StatusQuery(host: string, port: nat, username: string, password: string)

  /** The fields of the worker's reply the commands read; each is `None` when missing
      or of the wrong JSON type. */
  datatype SshReply = SshReply(exitCode: Option<int>, output: Option<string>, error: Option<string>)

  datatype CommandStatus = Running | Completed | Failed

  datatype CommandResult = CommandResult(
    command: string,
    status: CommandStatus,
    exitCode: Option<int>,
    output: string,
    error: Option<string>,
    startedAt: string,
    completedAt: Option<string>)

  /** Rust's `v as i32` on an `i64`: the low 32 bits, read as two's complement. */
  function ToI32(v: int): (r: int)
    ensures -0x8000_0000 <= r < 0x8000_0000
    ensures -0x8000_0000 <= v < 0x8000_0000 ==> r == v
    ensures (r - v) % 0x1_0000_0000 == 0
  {
    var low := v % 0x1_0000_0000;
    if low >= 0x8000_0000 then low - 0x1_0000_0000 else low
  }

  /** The result of a worker reply for `command`. */
  function ResultOf(command: string, reply: Result<SshReply>, startedAt: string, completedAt: string): (r: CommandResult)
    ensures r.command == command && r.startedAt == startedAt && r.completedAt == Some(completedAt)
    ensures r.status == Completed <==> r.exitCode == Some(0)
    ensures r.status != Running
    ensures reply.Err? ==> r.status == Failed && r.exitCode.None? && r.output == "" && r.error == Some(reply.error)
    ensures reply.Ok? ==> r.error == reply.value.error && r.output == reply.value.output.GetOr("")
  {
    match reply
    case Ok(out) =>
      var code := if out.exitCode.Some? then Some(ToI32(out.exitCode.value)) else None;
      CommandResult(command, if code == Some(0) then Completed else Failed, code, out.output.GetOr(""),
                    out.error, startedAt, Some(completedAt))
    case Err(e) => CommandResult(command, Failed, None, "", Some(e), startedAt, Some(completedAt))
  }

  /** `execute_ssh_command`: fails only when the configuration or the saved password
      cannot be had; a failed worker is reported as a failed command. The original
      command is what is reported; the request carries the final one. */
  function ExecuteSshCommand(config: ConfigFile, creds: CredentialsFile, password: Option<string>, command: string,
                             worker: WorkerRequest -> Result<SshReply>, startedAt: string, completedAt: string)
    : (r: Result<CommandResult>)
    requires GetServerConfig(config).Ok? ==> GetServerConfig(config).value.port < 0x1_0000
    ensures r.Ok? <==> GetServerConfig(config).Ok? && ResolvePassword(password, creds).Ok?
    ensures r.Ok? ==> r.value.command == command
    ensures r.Ok? ==> var c := GetServerConfig(config).value;
      r.value == ResultOf(command,
        worker(RunCommand(c.host, c.port, c.username, ResolvePassword(password, creds).value, FinalCommand(command))),
        startedAt, completedAt)
  {
    var c :- GetServerConfig(config);
    var pwd :- ResolvePassword(password, creds);
    var reply := worker(RunCommand(c.host, c.port, c.username, pwd, FinalCommand(command)));
    Ok(ResultOf(command, reply, startedAt, completedAt))
  }

  /** An exit code of 2^32 reads as 0 after the cast, so the command counts as
      completed; an exit code of 1 does not. */
  lemma ExitCodeCast(command: string, s: string, t: string)
    ensures ResultOf(command, Ok(SshReply(Some(0x1_0000_0000), None, None)), s, t).status == Completed
    ensures ResultOf(command, Ok(SshReply(Some(1), None, None)), s, t).status == Failed
  {
  }

  // ---------------------------------------------------------------- status and test

  datatype StatusReply = StatusReply(
    uptime: Option<string>, loadAverage: Option<string>, memoryUsed: Option<string>, memoryTotal: Option<string>,
    diskUsed: Option<string>, diskTotal: Option<string>, cpuUsage: Option<string>)

  datatype SystemStatus = SystemStatus(
    uptime: string, loadAverage: string, memoryUsed: string, memoryTotal: string,
    diskUsed: string, diskTotal: string, cpuUsage: string)

  const Unknown := "Unknown"

  /** A status field shows the worker's value when it reported one, "Unknown" otherwise. */
  predicate ReadsAs(reported: Option<string>, shown: string)
  {
    && (reported.Some? ==> shown == reported.value)
    && (reported.None? ==> shown == Unknown)
  }

  /** `get_system_status`: the worker is sent a status query, not a command; every
      field it leaves out reads "Unknown", and a failed worker is an error. */
  function GetSystemStatus(config: ConfigFile, creds: CredentialsFile, password: Option<string>,
                           worker: WorkerRequest -> Result<StatusReply>): (r: Result<SystemStatus>)
    requires GetServerConfig(config).Ok? ==> GetServerConfig(config).value.port < 0x1_0000
    ensures r.Ok? ==> GetServerConfig(config).Ok? && ResolvePassword(password, creds).Ok?
    ensures GetServerConfig(config).Ok? && ResolvePassword(password, creds).Ok? ==>
      var c := GetServerConfig(config).value;
      var reply := worker(StatusQuery(c.host, c.port, c.username, ResolvePassword(password, creds).value));
      && (r.Ok? <==> reply.Ok?)
      && (r.Ok? ==>
            && ReadsAs(reply.value.uptime, r.value.uptime)
            && ReadsAs(reply.value.loadAverage, r.value.loadAverage)
            && ReadsAs(reply.value.memoryUsed, r.value.memoryUsed)
            && ReadsAs(reply.value.memoryTotal, r.value.memoryTotal)
            && ReadsAs(reply.value.diskUsed, r.value.diskUsed)
            && ReadsAs(reply.value.diskTotal, r.value.diskTotal)
            && ReadsAs(reply.value.cpuUsage, r.value.cpuUsage))
  {
    var c :- GetServerConfig(config);
    var pwd :- ResolvePassword(password, creds);
    match worker(StatusQuery(c.host, c.port, c.username, pwd))
    case Err(e) => Err("Failed to get system status: " + e)
    case Ok(s) =>
      Ok(SystemStatus(s.uptime.GetOr(Unknown), s.loadAverage.GetOr(Unknown), s.memoryUsed.GetOr(Unknown),
                      s.memoryTotal.GetOr(Unknown), s.diskUsed.GetOr(Unknown), s.diskTotal.GetOr(Unknown),
                      s.cpuUsage.GetOr(Unknown)))
  }

  /** The status depends only on the worker's answer to the status query: what it
      would answer to any command request makes no difference. */
  lemma StatusOnlyAsksStatus(config: ConfigFile, creds: CredentialsFile, password: Option<string>,
                             w1: WorkerRequest -> Result<StatusReply>, w2: WorkerRequest -> Result<StatusReply>)
    requires GetServerConfig(config).Ok? ==> GetServerConfig(config).value.port < 0x1_0000
    requires forall q: WorkerRequest :: q.StatusQuery? ==> w1(q) == w2(q)
    ensures GetSystemStatus(config, creds, password, w1) == GetSystemStatus(config, creds, password, w2)
  {
  }

  /** A worker that answers nothing gives a status of "Unknown" everywhere. */
  lemma EmptyStatusIsUnknown(config: ConfigFile, password: string, worker: WorkerRequest -> Result<StatusReply>)
    requires GetServerConfig(config).Ok? && GetServerConfig(config).value.port < 0x1_0000
    requires forall q :: worker(q) == Ok(StatusReply(None, None, None, None, None, None, None))
    ensures GetSystemStatus(config, None, Some(password), worker)
      == Ok(SystemStatus(Unknown, Unknown, Unknown, Unknown, Unknown, Unknown, Unknown))
  {
  }

  const EchoCommand := "echo 'Connection successful'"

  /** `test_ssh_connection`: true exactly when the worker answers exit code 0; a failed
      worker is false, and only an unreadable configuration is an error. */
  function TestSshConnection(config: ConfigFile, password: string, worker: WorkerRequest -> Result<SshReply>)
    : (r: Result<bool>)
    requires GetServerConfig(config).Ok? ==> GetServerConfig(config).value.port < 0x1_0000
    ensures r.Err? <==> GetServerConfig(config).Err?
    ensures r.Ok? ==> var c := GetServerConfig(config).value;
      var reply := worker(RunCommand(c.host, c.port, c.username, password, EchoCommand));
      (r.value <==> reply.Ok? && reply.value.exitCode == Some(0))
  {
    var c :- GetServerConfig(config);
    var reply := worker(RunCommand(c.host, c.port, c.username, password, EchoCommand));
    Ok(reply.Ok? && reply.value.exitCode == Some(0))
  }

  /** The connection test compares the exit code before any cast: where a command run
      reports success for an exit code of 2^32, the test reports failure. */
  lemma TestDoesNotCast(config: ConfigFile, password: string, worker: WorkerRequest -> Result<SshReply>)
    requires GetServerConfig(config).Ok? && GetServerConfig(config).value.port < 0x1_0000
    requires forall q :: worker(q) == Ok(SshReply(Some(0x1_0000_0000), None, None))
    ensures TestSshConnection(config, password, worker) == Ok(false)
    ensures ExecuteSshCommand(config, None, Some(password), EchoCommand, worker, "", "").value.status == Completed
  {
    EchoHasNoPm2();
  }

  /** The echo command is sent unchanged. */
  lemma EchoHasNoPm2()
    ensures FinalCommand(EchoCommand) == EchoCommand
  {
    assert 'p' !in EchoCommand;
    MissingFirstChar(EchoCommand, "pm2");
  }

  // ---------------------------------------------------------------- files

  /** `upload_file_to_server`: the worker's reply as is, or the failure. */
  function UploadFileToServer(config: ConfigFile, creds: CredentialsFile, password: Option<string>,
                              reply: Result<string>): (r: Result<string>)
    ensures r.Ok? <==> GetServerConfig(config).Ok? && ResolvePassword(password, creds).Ok? && reply.Ok?
    ensures r.Ok? ==> r.value == reply.value
  {
    var _ :- GetServerConfig(config);
    var _ :- ResolvePassword(password, creds);
    match reply
    case Ok(v) => Ok(v)
    case Err(e) => Err("Failed to upload file: " + e)
  }

  /** `read_local_file`: the content of an existing, readable file. */
  function ReadLocalFile(path: string, file: Option<Result<string>>): (r: Result<string>)
    ensures file.None? ==> r == Err("File not found: " + path)
    ensures r.Ok? <==> file.Some? && file.value.Ok?
    ensures r.Ok? ==> r.value == file.value.value
  {
    match file
    case None => Err("File not found: " + path)
    case Some(Err(e)) => Err("Failed to read file: " + e)
    case Some(Ok(s)) => Ok(s)
  }

  // ---------------------------------------------------------------- quick actions

  datatype QuickAction = QuickAction(id: string, tag: string, command: string, category: string, icon: string, description: string)

  /** `get_quick_actions`: the built-in list when there is no file. */
  function GetQuickActions(file: Option<Result<seq<QuickAction>>>, builtIn: seq<QuickAction>): (r: Result<seq<QuickAction>>)
    ensures file.None? ==> r == Ok(builtIn)
    ensures file.Some? ==> r == file.value
  {
    if file.None? then Ok(builtIn) else file.value
  }
}

=== FILE: settings.dfy ===
/** The application settings file and its partial update.

    The record holds every field the update command writes; the settings file is
    `None` when it does not exist and `Some(Err(..))` when it cannot be read. */
module AppSettings {
  import opened Wrappers

  // ---------------------------------------------------------------- data

  /** The stored Riot account: the user name, the region, and the player id. */
  datatype ValorantCredentials = ValorantCredentials(
    username: Option<string>,
    region: string,
    puuid: Option<string>)

  datatype Settings = Settings(
    downloadPath: string,
    defaultQuality: string,
    maxConcurrentDownloads: nat,
    maxConcurrentMlJobs: nat,
    valorantCredentials: Option<ValorantCredentials>,
    atlasProjectPath: Option<string>,
    remoteUpdatePath: Option<string>,
    updateUrlBase: Option<string>,
    developerModeEnabled: bool,
    sidebarOrder: Option<seq<string>>,
    hiddenSidebarItems: Option<seq<string>>,
    discordRichPresenceEnabled: bool,
    runOnStartup: bool,
    closeToTray: bool)

  /** The defaults: downloads into "downloads", best quality, three concurrent
      downloads and one concurrent ML job. */
  const DefaultSettings: Settings :=
    Settings("downloads", "best", 3, 1, None, None, None, None, false, None, None, false, false, false)

  /** One file state of the settings: missing, unreadable, or read. */
  type SettingsFile = Option<Result<Settings>>

  /** The parameters of `update_settings`: `None` leaves a field alone. */
  datatype UpdateSettingsParams = UpdateSettingsParams(
    downloadPath: Option<string>,
    defaultQuality: Option<string>,
    maxConcurrentDownloads: Option<nat>,
    maxConcurrentMlJobs: Option<nat>,
    atlasProjectPath: Option<string>,
    remoteUpdatePath: Option<string>,
    updateUrlBase: Option<string>,
    developerModeEnabled: Option<bool>,
    sidebarOrder: Option<seq<string>>,
    hiddenSidebarItems: Option<seq<string>>,
    discordRichPresenceEnabled: Option<bool>,
    runOnStartup: Option<bool>,
    closeToTray: Option<bool>)

  const NoChanges: UpdateSettingsParams :=
    UpdateSettingsParams(None, None, None, None, None, None, None, None, None, None, None, None, None)

  // ---------------------------------------------------------------- reading

  /** `get_settings`: the defaults when there is no file, else what the file holds. */
  function GetSettings(file: SettingsFile): (r: Result<Settings>)
    ensures file.None? ==> r == Ok(DefaultSettings)
    ensures file.Some? ==> r == file.value
  {
    if file.None? then Ok(DefaultSettings) else file.value
  }

  /** The settings other commands use: the defaults also when the file is unreadable. */
  function CurrentSettings(file: SettingsFile): (r: Settings)
    ensures GetSettings(file).Ok? ==> r == GetSettings(file).value
    ensures GetSettings(file).Err? ==> r == DefaultSettings
  {
    if file.Some? && file.value.Ok? then file.value.value else DefaultSettings
  }

  // ---------------------------------------------------------------- updating

  /** A present value replaces the old one. */
  function Pick<T>(update: Option<T>, current: T): T
  {
    if update.Some? then update.value else current
  }

  /** An empty string clears an optional text setting. */
  function TextOrNone(s: string): (r: Option<string>)
    ensures r.None? <==> s == []
    ensures r.Some? ==> r.value == s
  {
    if s == [] then None else Some(s)
  }

  /** An empty list clears an optional list setting. */
  function ListOrNone(xs: seq<string>): (r: Option<seq<string>>)
    ensures r.None? <==> xs == []
    ensures r.Some? ==> r.value == xs
  {
    if xs == [] then None else Some(xs)
  }

  /** A present text replaces the optional setting, cleared by the empty string. */
  function PickText(update: Option<string>, current: Option<string>): Option<string>
  {
    if update.Some? then TextOrNone(update.value) else current
  }

  function PickList(update: Option<seq<string>>, current: Option<seq<string>>): Option<seq<string>>
  {
    if update.Some? then ListOrNone(update.value) else current
  }

  /** The field-by-field partial update. */
  function Apply(s: Settings, p: UpdateSettingsParams): (r: Settings)
    ensures r.valorantCredentials == s.valorantCredentials
  {
    s.(downloadPath := Pick(p.downloadPath, s.downloadPath),
       defaultQuality := Pick(p.defaultQuality, s.defaultQuality),
       maxConcurrentDownloads := Pick(p.maxConcurrentDownloads, s.maxConcurrentDownloads),
       maxConcurrentMlJobs := Pick(p.maxConcurrentMlJobs, s.maxConcurrentMlJobs),
       atlasProjectPath := PickText(p.atlasProjectPath, s.atlasProjectPath),
       remoteUpdatePath := PickText(p.remoteUpdatePath, s.remoteUpdatePath),
       updateUrlBase := PickText(p.updateUrlBase, s.updateUrlBase),
       developerModeEnabled := Pick(p.developerModeEnabled, s.developerModeEnabled),
       sidebarOrder := PickList(p.sidebarOrder, s.sidebarOrder),
       hiddenSidebarItems := PickList(p.hiddenSidebarItems, s.hiddenSidebarItems),
       discordRichPresenceEnabled := Pick(p.discordRichPresenceEnabled, s.discordRichPresenceEnabled),
       runOnStartup := Pick(p.runOnStartup, s.runOnStartup),
       closeToTray := Pick(p.closeToTray, s.closeToTray))
  }

  /** `update_settings`: the current settings (the defaults when there is no file)
      with the given fields replaced; the result is what is written back. */
  function UpdateSettings(file: SettingsFile, p: UpdateSettingsParams): (r: Result<Settings>)
    ensures file.Some? && file.value.Err? ==> r == Err(file.value.error)
    ensures r.Ok? <==> GetSettings(file).Ok?
    ensures r.Ok? ==> r.value == Apply(GetSettings(file).value, p)
  {
    if file.Some? && file.value.Err? then Err(file.value.error)
    else Ok(Apply(GetSettings(file).value, p))
  }

  /** What a present field does to the settings, field by field: plain fields are
      assigned verbatim, the three optional texts and the two lists are cleared by an
      empty value and set otherwise. */
  lemma ApplyFields(s: Settings, p: UpdateSettingsParams)
    ensures var r := Apply(s, p);
      && (p.downloadPath.Some? ==> r.downloadPath == p.downloadPath.value)
      && (p.maxConcurrentDownloads.Some? ==> r.maxConcurrentDownloads == p.maxConcurrentDownloads.value)
      && (p.maxConcurrentMlJobs.Some? ==> r.maxConcurrentMlJobs == p.maxConcurrentMlJobs.value)
      && (p.atlasProjectPath.Some? ==>
            (r.atlasProjectPath.None? <==> p.atlasProjectPath.value == []))
      && (p.atlasProjectPath.Some? && r.atlasProjectPath.Some? ==>
            r.atlasProjectPath.value == p.atlasProjectPath.value)
      && (p.updateUrlBase.Some? ==> (r.updateUrlBase.None? <==> p.updateUrlBase.value == []))
      && (p.updateUrlBase.Some? && r.updateUrlBase.Some? ==> r.updateUrlBase.value == p.updateUrlBase.value)
      && (p.remoteUpdatePath.Some? ==> (r.remoteUpdatePath.None? <==> p.remoteUpdatePath.value == []))
      && (p.remoteUpdatePath.Some? && r.remoteUpdatePath.Some? ==>
            r.remoteUpdatePath.value == p.remoteUpdatePath.value)
      && (p.sidebarOrder.Some? ==> (r.sidebarOrder.None? <==> p.sidebarOrder.value == []))
      && (p.sidebarOrder.Some? && r.sidebarOrder.Some? ==> r.sidebarOrder.value == p.sidebarOrder.value)
      && (p.hiddenSidebarItems.Some? ==> (r.hiddenSidebarItems.None? <==> p.hiddenSidebarItems.value == []))
      && (p.hiddenSidebarItems.Some? && r.hiddenSidebarItems.Some? ==>
            r.hiddenSidebarItems.value == p.hiddenSidebarItems.value)
      && (p.defaultQuality.Some? ==> r.defaultQuality == p.defaultQuality.value)
      && (p.developerModeEnabled.Some? ==> r.developerModeEnabled == p.developerModeEnabled.value)
      && (p.discordRichPresenceEnabled.Some? ==> r.discordRichPresenceEnabled == p.discordRichPresenceEnabled.value)
      && (p.runOnStartup.Some? ==> r.runOnStartup == p.runOnStartup.value)
      && (p.closeToTray.Some? ==> r.closeToTray == p.closeToTray.value)
  {
  }

  /** A field passed as `None` keeps its setting. */
  lemma AbsentFieldsKept(s: Settings, p: UpdateSettingsParams)
    ensures var r := Apply(s, p);
      && (p.downloadPath.None? ==> r.downloadPath == s.downloadPath)
      && (p.defaultQuality.None? ==> r.defaultQuality == s.defaultQuality)
      && (p.maxConcurrentDownloads.None? ==> r.maxConcurrentDownloads == s.maxConcurrentDownloads)
      && (p.maxConcurrentMlJobs.None? ==> r.maxConcurrentMlJobs == s.maxConcurrentMlJobs)
      && (p.atlasProjectPath.None? ==> r.atlasProjectPath == s.atlasProjectPath)
      && (p.remoteUpdatePath.None? ==> r.remoteUpdatePath == s.remoteUpdatePath)
      && (p.updateUrlBase.None? ==> r.updateUrlBase == s.updateUrlBase)
      && (p.developerModeEnabled.None? ==> r.developerModeEnabled == s.developerModeEnabled)
      && (p.sidebarOrder.None? ==> r.sidebarOrder == s.sidebarOrder)
      && (p.hiddenSidebarItems.None? ==> r.hiddenSidebarItems == s.hiddenSidebarItems)
      && (p.discordRichPresenceEnabled.None? ==> r.discordRichPresenceEnabled == s.discordRichPresenceEnabled)
      && (p.runOnStartup.None? ==> r.runOnStartup == s.runOnStartup)
      && (p.closeToTray.None? ==> r.closeToTray == s.closeToTray)
  {
  }

  /** An update with no fields rewrites the settings unchanged. */
  lemma NoChangesIsIdentity(s: Settings)
    ensures Apply(s, NoChanges) == s
  {
  }

  /** Applying the same update twice is applying it once. */
  lemma UpdateIdempotent(file: SettingsFile, p: UpdateSettingsParams)
    requires UpdateSettings(file, p).Ok?
    ensures UpdateSettings(Some(UpdateSettings(file, p)), p) == UpdateSettings(file, p)
  {
  }

  /** Reading the file back after an update gives the updated settings. */
  lemma UpdateThenGet(file: SettingsFile, p: UpdateSettingsParams)
    requires UpdateSettings(file, p).Ok?
    ensures GetSettings(Some(UpdateSettings(file, p))) == UpdateSettings(file, p)
  {
  }
}

=== FILE: sorting.dfy ===
/** Sorting and de-duplication as the standard libraries do them: `sort_by`
    (a stable sort under a comparison given as "may come before"), `dedup_by`
    (drop each element equal to the one kept before it) and lexicographic
    orders on strings and number lists. */
module Sorting {

  // ---------------------------------------------------------------- orders

  /** `le(a, b)`: `a` may come before `b`. */
  ghost predicate Total<T(!new)>(le: (T, T) -> bool)
  {
    forall a, b :: le(a, b) || le(b, a)
  }

  ghost predicate Transitive<T(!new)>(le: (T, T) -> bool)
  {
    forall a, b, c :: le(a, b) && le(b, c) ==> le(a, c)
  }

  predicate SortedBy<T>(xs: seq<T>, le: (T, T) -> bool)
  {
    forall i, j :: 0 <= i < j < |xs| ==> le(xs[i], xs[j])
  }

  // ---------------------------------------------------------------- stable insertion sort

  /** Inserts `x` after every element it does not strictly precede. */
  function InsertBy<T>(x: T, s: seq<T>, le: (T, T) -> bool): (r: seq<T>)
    ensures |r| == |s| + 1
    ensures multiset(r) == multiset(s) + multiset{x}
  {
    if |s| == 0 then [x]
    else if le(x, s[0]) && !le(s[0], x) then [x] + s
    else
      assert s == [s[0]] + s[1..];
      [s[0]] + InsertBy(x, s[1..], le)
  }

  lemma {:induction false} InsertBySorted<T(!new)>(x: T, s: seq<T>, le: (T, T) -> bool)
    requires Total(le) && Transitive(le) && SortedBy(s, le)
    ensures SortedBy(InsertBy(x, s, le), le)
    decreases |s|
  {
    if |s| > 0 && !(le(x, s[0]) && !le(s[0], x)) {
      InsertBySorted(x, s[1..], le);
      assert le(s[0], x);
      HeadBeforeInserted(x, s, le);
      ConsSorted(s[0], InsertBy(x, s[1..], le), le);
    } else if |s| > 0 {
      InsertedFirstSorted(x, s, le);
    }
  }

  /** Inserting after the head keeps the head before everything inserted. */
  lemma {:induction false} HeadBeforeInserted<T>(x: T, s: seq<T>, le: (T, T) -> bool)
    requires SortedBy(s, le) && |s| > 0 && le(s[0], x)
    ensures forall j :: 0 <= j < |InsertBy(x, s[1..], le)| ==> le(s[0], InsertBy(x, s[1..], le)[j])
  {
    var t := InsertBy(x, s[1..], le);
    forall j | 0 <= j < |t|
      ensures le(s[0], t[j])
    {
      assert t[j] in multiset(s[1..]) + multiset{x} by {
        assert t[j] in multiset(t);
      }
      if t[j] != x {
        assert t[j] in multiset(s[1..]);
        var k :| 0 <= k < |s[1..]| && s[1..][k] == t[j];
        assert s[k + 1] == t[j];
      }
    }
  }

  /** A head before every element of a sorted list keeps it sorted. */
  lemma {:induction false} ConsSorted<T>(h: T, t: seq<T>, le: (T, T) -> bool)
    requires SortedBy(t, le) && forall j :: 0 <= j < |t| ==> le(h, t[j])
    ensures SortedBy([h] + t, le)
  {
    var r := [h] + t;
    forall i, j | 0 <= i < j < |r|
      ensures le(r[i], r[j])
    {
      assert r[j] == t[j - 1];
      if i > 0 {
        assert r[i] == t[i - 1];
      }
    }
  }

  /** Inserting strictly before the head puts the element first. */
  lemma {:induction false} InsertedFirstSorted<T(!new)>(x: T, s: seq<T>, le: (T, T) -> bool)
    requires Transitive(le) && SortedBy(s, le) && |s| > 0 && le(x, s[0]) && !le(s[0], x)
    ensures SortedBy(InsertBy(x, s, le), le)
  {
    assert InsertBy(x, s, le) == [x] + s;
    forall j | 0 <= j < |s|
      ensures le(x, s[j])
    {
      if j > 0 {
        assert le(s[0], s[j]);
      }
    }
    ConsSorted(x, s, le);
  }

  /** `sort_by`: each element in turn is inserted after the ones before it that it
      does not strictly precede, which keeps equal elements in input order. */
  function SortBy<T>(xs: seq<T>, le: (T, T) -> bool): (r: seq<T>)
    ensures |r| == |xs|
    ensures multiset(r) == multiset(xs)
    decreases |xs|
  {
    if |xs| == 0 then []
    else
      assert xs == xs[..|xs| - 1] + [xs[|xs| - 1]];
      InsertBy(xs[|xs| - 1], SortBy(xs[..|xs| - 1], le), le)
  }

  /** Under a total, transitive order the result is sorted. */
  lemma {:induction false} SortBySorted<T(!new)>(xs: seq<T>, le: (T, T) -> bool)
    requires Total(le) && Transitive(le)
    ensures SortedBy(SortBy(xs, le), le)
    decreases |xs|
  {
    if |xs| > 0 {
      SortBySorted(xs[..|xs| - 1], le);
      InsertBySorted(xs[|xs| - 1], SortBy(xs[..|xs| - 1], le), le);
    }
  }

  /** A sorted list's first element may come before every element. */
  lemma SortedFirst<T>(xs: seq<T>, le: (T, T) -> bool, k: nat)
    requires SortedBy(xs, le) && 0 < k < |xs|
    ensures le(xs[0], xs[k])
  {
  }

  /** Every element of the input is in the sorted output and conversely. */
  lemma SortByMembers<T>(xs: seq<T>, le: (T, T) -> bool, x: T)
    ensures x in SortBy(xs, le) <==> x in xs
  {
    assert x in multiset(SortBy(xs, le)) <==> x in multiset(xs);
  }

  // ---------------------------------------------------------------- stability

  /** The elements tied with `v` (each may come before the other), in order. */
  function Ties<T>(xs: seq<T>, le: (T, T) -> bool, v: T): (r: seq<T>)
    ensures |r| <= |xs|
    decreases |xs|
  {
    if |xs| == 0 then []
    else (if le(xs[0], v) && le(v, xs[0]) then [xs[0]] else []) + Ties(xs[1..], le, v)
  }

  lemma {:induction false} TiesAppend<T>(a: seq<T>, b: seq<T>, le: (T, T) -> bool, v: T)
    ensures Ties(a + b, le, v) == Ties(a, le, v) + Ties(b, le, v)
    decreases |a|
  {
    if |a| > 0 {
      assert (a + b)[1..] == a[1..] + b;
      TiesAppend(a[1..], b, le, v);
    } else {
      assert a + b == b;
    }
  }

  lemma {:induction false} TiesCons<T>(s: seq<T>, le: (T, T) -> bool, v: T)
    requires |s| > 0
    ensures Ties(s, le, v) == Ties([s[0]], le, v) + Ties(s[1..], le, v)
  {
    TiesAppend([s[0]], s[1..], le, v);
    assert [s[0]] + s[1..] == s;
  }

  lemma {:induction false} TiesNone<T>(xs: seq<T>, le: (T, T) -> bool, v: T)
    requires forall j :: 0 <= j < |xs| ==> !(le(xs[j], v) && le(v, xs[j]))
    ensures Ties(xs, le, v) == []
    decreases |xs|
  {
    if |xs| > 0 {
      TiesNone(xs[1..], le, v);
    }
  }

  /** Nothing in a sorted list is tied with a value tied with something strictly
      before the list's head. */
  lemma NotTiedAfterStrict<T(!new)>(x: T, s: seq<T>, le: (T, T) -> bool, v: T, j: nat)
    requires Transitive(le) && SortedBy(s, le) && j < |s|
    requires le(x, s[0]) && !le(s[0], x) && le(x, v) && le(v, x)
    ensures !(le(s[j], v) && le(v, s[j]))
  {
    if j > 0 {
      assert le(s[0], s[j]);
    }
  }

  lemma {:induction false} InsertByStable<T(!new)>(x: T, s: seq<T>, le: (T, T) -> bool, v: T)
    requires Total(le) && Transitive(le) && SortedBy(s, le)
    ensures Ties(InsertBy(x, s, le), le, v) == Ties(s, le, v) + Ties([x], le, v)
    decreases |s|
  {
    if |s| == 0 {
      assert InsertBy(x, s, le) == [x];
    } else if le(x, s[0]) && !le(s[0], x) {
      if le(x, v) && le(v, x) {
        NoTiesAfterStrict(x, s, le, v);
      }
      InsertFrontStable(x, s, le, v);
    } else {
      InsertByStable(x, s[1..], le, v);
      InsertLaterStable(x, s, le, v);
    }
  }

  lemma {:induction false} InsertFrontStable<T>(x: T, s: seq<T>, le: (T, T) -> bool, v: T)
    requires |s| > 0 && le(x, s[0]) && !le(s[0], x)
    requires le(x, v) && le(v, x) ==> Ties(s, le, v) == []
    ensures Ties(InsertBy(x, s, le), le, v) == Ties(s, le, v) + Ties([x], le, v)
  {
    assert InsertBy(x, s, le) == [x] + s;
    TiesAppend([x], s, le, v);
    assert Ties([x], le, v) + [] == Ties([x], le, v);
  }

  /** A value tied with something strictly before a sorted list's head has no ties in
      the list. */
  lemma {:induction false} NoTiesAfterStrict<T(!new)>(x: T, s: seq<T>, le: (T, T) -> bool, v: T)
    requires Transitive(le) && SortedBy(s, le)
    requires |s| > 0 && le(x, s[0]) && !le(s[0], x) && le(x, v) && le(v, x)
    ensures Ties(s, le, v) == []
  {
    forall j | 0 <= j < |s|
      ensures !(le(s[j], v) && le(v, s[j]))
    {
      NotTiedAfterStrict(x, s, le, v, j);
    }
    TiesNone(s, le, v);
  }

  lemma {:induction false} InsertLaterStable<T>(x: T, s: seq<T>, le: (T, T) -> bool, v: T)
    requires |s| > 0 && !(le(x, s[0]) && !le(s[0], x))
    requires Ties(InsertBy(x, s[1..], le), le, v) == Ties(s[1..], le, v) + Ties([x], le, v)
    ensures Ties(InsertBy(x, s, le), le, v) == Ties(s, le, v) + Ties([x], le, v)
  {
    var rest := InsertBy(x, s[1..], le);
    var a, b, c := Ties([s[0]], le, v), Ties(s[1..], le, v), Ties([x], le, v);
    calc {
      Ties(InsertBy(x, s, le), le, v);
      { InsertByLater(x, s, le); }
      Ties([s[0]] + rest, le, v);
      { TiesAppend([s[0]], rest, le, v); }
      a + (b + c);
      { ConcatAssoc(a, b, c); }
      (a + b) + c;
      { TiesCons(s, le, v); }
      Ties(s, le, v) + c;
    }
  }

  lemma ConcatAssoc<T>(a: seq<T>, b: seq<T>, c: seq<T>)
    ensures a + (b + c) == (a + b) + c
  {
  }

  lemma InsertByLater<T>(x: T, s: seq<T>, le: (T, T) -> bool)
    requires |s| > 0 && !(le(x, s[0]) && !le(s[0], x))
    ensures InsertBy(x, s, le) == [s[0]] + InsertBy(x, s[1..], le)
  {
  }

  /** Every element tied with `v` is among the ties. */
  lemma {:induction false} TiesMember<T>(xs: seq<T>, le: (T, T) -> bool, v: T, i: nat)
    requires i < |xs| && le(xs[i], v) && le(v, xs[i])
    ensures xs[i] in Ties(xs, le, v)
    decreases i
  {
    TiesCons(xs, le, v);
    if i > 0 {
      TiesMember(xs[1..], le, v, i - 1);
    }
  }

  predicate IncreasingBy<T>(xs: seq<T>, f: T -> int)
  {
    forall a, b :: 0 <= a < b < |xs| ==> f(xs[a]) < f(xs[b])
  }

  /** The ties keep the input order: a key that increases along the input increases
      along the ties. */
  lemma {:induction false} TiesOrdered<T>(xs: seq<T>, le: (T, T) -> bool, v: T, f: T -> int)
    requires IncreasingBy(xs, f)
    ensures IncreasingBy(Ties(xs, le, v), f)
    ensures forall y :: y in Ties(xs, le, v) ==> y in xs
    decreases |xs|
  {
    if |xs| > 0 {
      TiesOrdered(xs[1..], le, v, f);
      var rest := Ties(xs[1..], le, v);
      forall y | y in rest
        ensures f(xs[0]) < f(y)
      {
        var k :| 0 <= k < |xs[1..]| && xs[1..][k] == y;
        assert xs[k + 1] == y;
      }
      var t := Ties(xs, le, v);
      if le(xs[0], v) && le(v, xs[0]) {
        assert t == [xs[0]] + rest;
        forall a, b | 0 <= a < b < |t|
          ensures f(t[a]) < f(t[b])
        {
          assert t[b] == rest[b - 1] && rest[b - 1] in rest;
          if a > 0 {
            assert t[a] == rest[a - 1];
            assert f(rest[a - 1]) < f(rest[b - 1]);
          }
        }
      } else {
        assert t == rest;
      }
    }
  }

  /** `sort_by` is stable: the elements tied with any value keep their input order. */
  lemma {:induction false} SortByStable<T(!new)>(xs: seq<T>, le: (T, T) -> bool, v: T)
    requires Total(le) && Transitive(le)
    ensures Ties(SortBy(xs, le), le, v) == Ties(xs, le, v)
    decreases |xs|
  {
    if |xs| > 0 {
      var p := xs[..|xs| - 1];
      SortByStable(p, le, v);
      SortBySorted(p, le);
      InsertByStable(xs[|xs| - 1], SortBy(p, le), le, v);
      TiesAppend(p, [xs[|xs| - 1]], le, v);
      SplitLast(xs);
    }
  }

  // ---------------------------------------------------------------- orders by an integer key

  /** The order of `sort_by_key(key)`. */
  function KeyLe<T>(key: T -> int): (T, T) -> bool
  {
    (a: T, b: T) => key(a) <= key(b)
  }

  /** The order of `sort_by(|a, b| key(b).cmp(&key(a)))`: larger keys first. */
  function KeyGe<T>(key: T -> int): (T, T) -> bool
  {
    (a: T, b: T) => key(a) >= key(b)
  }

  function SameKey<T>(key: T -> int): (T, T) -> bool
  {
    (a: T, b: T) => key(a) == key(b)
  }

  lemma KeyOrders<T(!new)>(key: T -> int)
    ensures Total(KeyLe(key)) && Transitive(KeyLe(key))
    ensures Total(KeyGe(key)) && Transitive(KeyGe(key))
    ensures Equivalence(SameKey(key), KeyLe(key))
  {
  }

  /** Equal keys are reflexive and symmetric. */
  lemma SameKeyProps<T(!new)>(key: T -> int)
    ensures Reflexive(SameKey(key)) && Symmetric(SameKey(key))
  {
  }

  /** The order of `sort_by(|a, b| a.partial_cmp(b))` on a real key: smaller first. */
  function RealKeyLe<T>(key: T -> real): (T, T) -> bool
  {
    (a: T, b: T) => key(a) <= key(b)
  }

  /** The order of `sort_by(|a, b| b.partial_cmp(a))` on a real key: larger first. */
  function RealKeyGe<T>(key: T -> real): (T, T) -> bool
  {
    (a: T, b: T) => key(a) >= key(b)
  }

  lemma RealKeyOrders<T(!new)>(key: T -> real)
    ensures Total(RealKeyLe(key)) && Transitive(RealKeyLe(key))
    ensures Total(RealKeyGe(key)) && Transitive(RealKeyGe(key))
  {
  }

  // ---------------------------------------------------------------- counting

  /** How many elements satisfy `p`. */
  function CountBy<T>(xs: seq<T>, p: T -> bool): (r: nat)
    ensures r <= |xs|
  {
    if |xs| == 0 then 0 else CountBy(xs[..|xs| - 1], p) + (if p(xs[|xs| - 1]) then 1 else 0)
  }

  lemma {:induction false} CountByAppend<T>(a: seq<T>, b: seq<T>, p: T -> bool)
    ensures CountBy(a + b, p) == CountBy(a, p) + CountBy(b, p)
    decreases |b|
  {
    if |b| == 0 {
      assert a + b == a;
    } else {
      assert (a + b)[..|a + b| - 1] == a + b[..|b| - 1];
      CountByAppend(a, b[..|b| - 1], p);
    }
  }

  lemma {:induction false} CountByAll<T>(xs: seq<T>, p: T -> bool)
    requires forall i :: 0 <= i < |xs| ==> p(xs[i])
    ensures CountBy(xs, p) == |xs|
    decreases |xs|
  {
    if |xs| > 0 {
      CountByAll(xs[..|xs| - 1], p);
    }
  }

  lemma {:induction false} CountByNone<T>(xs: seq<T>, p: T -> bool)
    requires forall i :: 0 <= i < |xs| ==> !p(xs[i])
    ensures CountBy(xs, p) == 0
    decreases |xs|
  {
    if |xs| > 0 {
      CountByNone(xs[..|xs| - 1], p);
    }
  }

  /** Counting does not depend on the order: a permutation has the same count. */
  lemma {:induction false} CountByPerm<T>(a: seq<T>, b: seq<T>, p: T -> bool)
    requires multiset(a) == multiset(b)
    ensures CountBy(a, p) == CountBy(b, p)
    decreases |a|
  {
    if |a| == 0 {
      assert |b| == |multiset(b)| == 0;
    } else {
      var x := a[|a| - 1];
      var a' := a[..|a| - 1];
      assert a == a' + [x];
      assert x in multiset(b);
      var i :| 0 <= i < |b| && b[i] == x;
      var b' := b[..i] + b[i + 1..];
      RemoveAtMultiset(b, i);
      assert multiset(a) == multiset(a') + multiset{x};
      MultisetCancel(multiset(a'), multiset(b'), x);
      CountByPerm(a', b', p);
      CountRemoveAt(b, i, p);
      CountByAppend(a', [x], p);
      CountSingle(x, p);
    }
  }

  lemma {:induction false} RemoveAtMultiset<T>(b: seq<T>, i: nat)
    requires i < |b|
    ensures multiset(b) == multiset(b[..i] + b[i + 1..]) + multiset{b[i]}
  {
    assert b == b[..i] + [b[i]] + b[i + 1..];
  }

  lemma MultisetCancel<T>(m: multiset<T>, n: multiset<T>, x: T)
    requires m + multiset{x} == n + multiset{x}
    ensures m == n
  {
    forall y ensures m[y] == n[y] {
      assert (m + multiset{x})[y] == (n + multiset{x})[y];
    }
  }

  lemma CountSingle<T>(x: T, p: T -> bool)
    ensures CountBy([x], p) == if p(x) then 1 else 0
  {
    assert [x][..0] == [];
  }

  /** Removing one element lowers the count by that element's contribution. */
  lemma {:induction false} CountRemoveAt<T>(b: seq<T>, i: nat, p: T -> bool)
    requires i < |b|
    ensures CountBy(b, p) == CountBy(b[..i] + b[i + 1..], p) + (if p(b[i]) then 1 else 0)
  {
    assert b == (b[..i] + [b[i]]) + b[i + 1..];
    CountByAppend(b[..i] + [b[i]], b[i + 1..], p);
    CountByAppend(b[..i], [b[i]], p);
    CountByAppend(b[..i], b[i + 1..], p);
    CountSingle(b[i], p);
  }

  // ---------------------------------------------------------------- lexicographic orders

  /** `a <= b` in code-point order, which for UTF-8 text is Rust's byte order. */
  predicate StrLe(a: string, b: string)
    decreases |a|
  {
    if |a| == 0 then true
    else if |b| == 0 then false
    else if a[0] != b[0] then a[0] < b[0]
    else StrLe(a[1..], b[1..])
  }

  lemma {:induction false} StrLeTotal(a: string, b: string)
    ensures StrLe(a, b) || StrLe(b, a)
    decreases |a|
  {
    if |a| > 0 && |b| > 0 && a[0] == b[0] {
      StrLeTotal(a[1..], b[1..]);
    }
  }

  lemma {:induction false} StrLeTrans(a: string, b: string, c: string)
    requires StrLe(a, b) && StrLe(b, c)
    ensures StrLe(a, c)
    decreases |a|
  {
    if |a| > 0 && |b| > 0 && |c| > 0 && a[0] == b[0] && b[0] == c[0] {
      StrLeTrans(a[1..], b[1..], c[1..]);
    }
  }

  lemma {:induction false} StrLeAntisym(a: string, b: string)
    requires StrLe(a, b) && StrLe(b, a)
    ensures a == b
    decreases |a|
  {
    if |a| > 0 && |b| > 0 {
      StrLeAntisym(a[1..], b[1..]);
      assert a == [a[0]] + a[1..] && b == [b[0]] + b[1..];
    }
  }

  /** `Vec<u32>` comparison: element by element, a proper prefix first. */
  predicate NatsLe(a: seq<nat>, b: seq<nat>)
    decreases |a|
  {
    if |a| == 0 then true
    else if |b| == 0 then false
    else if a[0] != b[0] then a[0] < b[0]
    else NatsLe(a[1..], b[1..])
  }

  lemma {:induction false} NatsLeTotal(a: seq<nat>, b: seq<nat>)
    ensures NatsLe(a, b) || NatsLe(b, a)
    decreases |a|
  {
    if |a| > 0 && |b| > 0 && a[0] == b[0] {
      NatsLeTotal(a[1..], b[1..]);
    }
  }

  lemma {:induction false} NatsLeTrans(a: seq<nat>, b: seq<nat>, c: seq<nat>)
    requires NatsLe(a, b) && NatsLe(b, c)
    ensures NatsLe(a, c)
    decreases |a|
  {
    if |a| > 0 && |b| > 0 && |c| > 0 && a[0] == b[0] && b[0] == c[0] {
      NatsLeTrans(a[1..], b[1..], c[1..]);
    }
  }

  // ---------------------------------------------------------------- dedup

  /** `dedup_by(same)`: an element is dropped when it is the same as the last element
      kept, so of each run of same elements the first stays. */
  function DedupBy<T>(xs: seq<T>, same: (T, T) -> bool): (r: seq<T>)
    ensures |r| <= |xs|
    ensures |xs| > 0 ==> |r| > 0 && r[0] == xs[0]
    ensures forall i :: 0 <= i < |r| ==> r[i] in xs
    decreases |xs|
  {
    if |xs| <= 1 then xs
    else
      var rest := DedupBy(xs[..|xs| - 1], same);
      if same(xs[|xs| - 1], rest[|rest| - 1]) then rest else rest + [xs[|xs| - 1]]
  }

  /** `same` holds exactly for the pairs tied under `le`. */
  ghost predicate Equivalence<T(!new)>(same: (T, T) -> bool, le: (T, T) -> bool)
  {
    forall a, b :: same(a, b) <==> le(a, b) && le(b, a)
  }

  predicate NoSameNeighbours<T>(r: seq<T>, same: (T, T) -> bool)
  {
    forall i :: 0 < i < |r| ==> !same(r[i], r[i - 1])
  }

  /** After dedup no two neighbours are the same. */
  lemma {:induction false} DedupNeighbours<T>(xs: seq<T>, same: (T, T) -> bool)
    ensures NoSameNeighbours(DedupBy(xs, same), same)
    decreases |xs|
  {
    if |xs| > 1 {
      DedupNeighbours(xs[..|xs| - 1], same);
      var rest := DedupBy(xs[..|xs| - 1], same);
      var r := DedupBy(xs, same);
      if !same(xs[|xs| - 1], rest[|rest| - 1]) {
        assert r == rest + [xs[|xs| - 1]];
        forall i | 0 < i < |r|
          ensures !same(r[i], r[i - 1])
        {
          if i < |rest| {
            assert r[i] == rest[i] && r[i - 1] == rest[i - 1];
            assert !same(rest[i], rest[i - 1]);
          } else {
            assert i == |rest| && r[i] == xs[|xs| - 1] && r[i - 1] == rest[|rest| - 1];
          }
        }
      } else {
        assert r == rest;
      }
    }
  }

  /** Dropping elements of a sorted list leaves it sorted. */
  lemma {:induction false} DedupSorted<T>(xs: seq<T>, same: (T, T) -> bool, le: (T, T) -> bool)
    requires SortedBy(xs, le)
    ensures SortedBy(DedupBy(xs, same), le)
    decreases |xs|
  {
    if |xs| > 1 {
      var p := xs[..|xs| - 1];
      var l := xs[|xs| - 1];
      var rest := DedupBy(p, same);
      DedupSorted(p, same, le);
      var r := DedupBy(xs, same);
      if !same(l, rest[|rest| - 1]) {
        forall i, j | 0 <= i < j < |r|
          ensures le(r[i], r[j])
        {
          if j == |rest| {
            assert rest[i] in p;
            var m :| 0 <= m < |p| && p[m] == rest[i];
            assert xs[m] == rest[i] && xs[|xs| - 1] == l;
          } else {
            assert r[i] == rest[i] && r[j] == rest[j];
          }
        }
      }
    }
  }

  /** The last element kept is tied with the input's last element. */
  lemma {:induction false} DedupLast<T(!new)>(xs: seq<T>, same: (T, T) -> bool)
    requires Reflexive(same) && Symmetric(same) && |xs| > 0
    ensures var r := DedupBy(xs, same); same(r[|r| - 1], xs[|xs| - 1])
    decreases |xs|
  {
    if |xs| > 1 {
      DedupLast(xs[..|xs| - 1], same);
    }
  }

  /** A non-empty list is its front followed by its last element. */
  lemma SplitLast<T>(xs: seq<T>)
    requires |xs| > 0
    ensures xs == xs[..|xs| - 1] + [xs[|xs| - 1]]
  {
  }

  lemma SortedPrefix<T>(xs: seq<T>, le: (T, T) -> bool)
    requires SortedBy(xs, le) && |xs| > 0
    ensures SortedBy(xs[..|xs| - 1], le)
  {
  }

  /** Deduplicating a sorted list keeps, of each group of tied elements, the first
      one. */
  lemma {:induction false} DedupSortedFirst<T(!new)>(xs: seq<T>, same: (T, T) -> bool, le: (T, T) -> bool, k: nat)
    requires Total(le) && Transitive(le) && Equivalence(same, le) && SortedBy(xs, le)
    requires k < |DedupBy(xs, same)|
    ensures FirstTie(xs, le, DedupBy(xs, same)[k])
    decreases |xs|
  {
    var r := DedupBy(xs, same);
    if |xs| == 1 {
      assert xs == [xs[0]];
      assert Ties(xs, le, xs[0]) == [xs[0]] + Ties(xs[1..], le, xs[0]);
    } else {
      var p := xs[..|xs| - 1];
      var l := xs[|xs| - 1];
      SplitLast(xs);
      var rest := DedupBy(p, same);
      SortedPrefix(xs, le);
      if k < |rest| {
        DedupSortedFirst(p, same, le, k);
        assert r[k] == rest[k];
        FirstTieExtend(p, l, le, rest[k]);
      } else {
        assert !same(l, rest[|rest| - 1]) && r == rest + [l];
        EquivalenceProps(same, le);
        DedupLast(p, same);
        NewGroupFirst(p, l, same, le, rest[|rest| - 1]);
      }
    }
  }

  /** Every group of tied elements keeps a representative. */
  lemma {:induction false} DedupCovers<T(!new)>(xs: seq<T>, same: (T, T) -> bool, k: nat)
    requires Reflexive(same) && Symmetric(same) && k < |xs|
    ensures exists i :: 0 <= i < |DedupBy(xs, same)| && same(DedupBy(xs, same)[i], xs[k])
    decreases |xs|
  {
    var r := DedupBy(xs, same);
    if |xs| == 1 {
      assert same(r[0], xs[k]);
    } else {
      var p := xs[..|xs| - 1];
      var rest := DedupBy(p, same);
      if k < |xs| - 1 {
        DedupCovers(p, same, k);
        var i :| 0 <= i < |rest| && same(rest[i], p[k]);
        assert r[i] == rest[i];
        assert same(r[i], xs[k]);
      } else if same(xs[k], rest[|rest| - 1]) {
        assert r == rest;
        assert same(r[|rest| - 1], xs[k]);
      } else {
        assert r[|rest|] == xs[k];
        assert same(r[|rest|], xs[k]);
      }
    }
  }

  ghost predicate Reflexive<T(!new)>(same: (T, T) -> bool) { forall a :: same(a, a) }

  ghost predicate Symmetric<T(!new)>(same: (T, T) -> bool) { forall a, b :: same(a, b) ==> same(b, a) }

  lemma EquivalenceProps<T(!new)>(same: (T, T) -> bool, le: (T, T) -> bool)
    requires Total(le) && Equivalence(same, le)
    ensures Reflexive(same) && Symmetric(same)
  {
  }

  /** `v` is the first element of `xs` tied with it. */
  ghost predicate FirstTie<T>(xs: seq<T>, le: (T, T) -> bool, v: T)
  {
    |Ties(xs, le, v)| > 0 && Ties(xs, le, v)[0] == v
  }

  lemma {:induction false} FirstTieExtend<T>(p: seq<T>, l: T, le: (T, T) -> bool, v: T)
    requires FirstTie(p, le, v)
    ensures FirstTie(p + [l], le, v)
  {
    TiesAppend(p, [l], le, v);
  }

  /** An element that is not tied with the end of a sorted prefix starts a new group. */
  lemma {:induction false} NewGroupFirst<T(!new)>(p: seq<T>, l: T, same: (T, T) -> bool, le: (T, T) -> bool, k: T)
    requires Total(le) && Transitive(le) && Equivalence(same, le)
    requires |p| > 0 && SortedBy(p + [l], le)
    requires !same(l, k) && same(k, p[|p| - 1])
    ensures FirstTie(p + [l], le, l)
  {
    var xs := p + [l];
    assert le(p[|p| - 1], l) by {
      assert xs[|p| - 1] == p[|p| - 1] && xs[|p|] == l;
    }
    assert !le(l, p[|p| - 1]);
    forall j | 0 <= j < |p|
      ensures !(le(p[j], l) && le(l, p[j]))
    {
      if j < |p| - 1 {
        assert xs[j] == p[j] && xs[|p| - 1] == p[|p| - 1];
        assert le(p[j], p[|p| - 1]);
      }
    }
    TiesNone(p, le, l);
    TiesAppend(p, [l], le, l);
    assert Ties([l], le, l) == [l] + Ties([l][1..], le, l);
  }
}

=== FILE: steam_detector.dfy ===
/** The Steam scanner's pure parts: which executable of an installed game is the
    game, how the `libraryfolders.vdf` and `appmanifest_*.acf` files are read, and
    which library folders are searched.

    The registry lookup of the Steam path and the directory walk of `detect_steam_games`
    are outside the model; directory listings, file contents and the existence of
    paths are parameters. */
module SteamDetector {
  import opened Wrappers
  import opened Strings
  import opened WinPaths
  import ChineseText
  import opened Records

  // ---------------------------------------------------------------- executable names

  /** Executables never chosen as the game: launchers, updaters, installers, crash
      handlers, redistributables, anti-cheat setup and settings tools. */
  const Blacklist: seq<string> := [
    "launcher.exe", "updater.exe", "update.exe", "patcher.exe",
    "setup.exe", "install.exe", "installer.exe",
    "uninstall.exe", "unins000.exe", "unins001.exe",
    "crashhandler.exe", "crash_handler.exe", "crashreporter.exe",
    "crashpad_handler.exe", "unitycrashandler64.exe", "unitycrashandler32.exe",
    "vcredist.exe", "dxsetup.exe", "dotnetfx.exe",
    "easyanticheat_setup.exe", "battleye_launcher.exe",
    "config.exe", "settings.exe", "options.exe", "benchmark.exe"]

  /** Executable names that are preferred as the game. */
  const Whitelist: seq<string> := ["game.exe", "play.exe", "client.exe", "start.exe"]

  const CrashPrefix := "crash"
  const ExeSuffix := ".exe"

  /** `is_blacklisted`: the lower-cased name is listed, or it is a `crash*.exe`. */
  predicate IsBlacklisted(name: string)
  {
    var lower := Lower(name);
    lower in Blacklist || (StartsWith(lower, CrashPrefix) && EndsWith(lower, ExeSuffix))
  }

  /** `is_whitelisted`: the lower-cased name is listed. */
  predicate IsWhitelisted(name: string)
  {
    Lower(name) in Whitelist
  }

  /** Both lists are matched ignoring case. */
  lemma ListsIgnoreCase(name: string)
    ensures IsBlacklisted(name) <==> IsBlacklisted(Lower(name))
    ensures IsWhitelisted(name) <==> IsWhitelisted(Lower(name))
  {
    LowerIdempotent(name);
  }

  /** Letters and digits count for matching; CJK ideographs count as letters. */
  predicate IsAlphanumeric(c: char)
  {
    ('a' <= c <= 'z') || ('A' <= c <= 'Z') || ('0' <= c <= '9') || ChineseText.IsCjk(c)
  }

  /** The lower-cased letters and digits of a name. */
  function Normalized(s: string): (r: string)
    ensures forall i :: 0 <= i < |r| ==> IsAlphanumeric(r[i])
  {
    Keep(Lower(s), IsAlphanumeric)
  }

  /** `matches_game_name`: after removing ".exe" and keeping only letters and digits,
      one name contains the other. */
  predicate MatchesGameName(exeName: string, gameName: string)
  {
    var exe := Keep(ReplaceAll(Lower(exeName), ExeSuffix, ""), IsAlphanumeric);
    var game := Normalized(gameName);
    Contains(exe, game) || Contains(game, exe)
  }

  /** A game name with no letters or digits matches every executable. */
  lemma EmptyGameNameMatchesAll(exeName: string, gameName: string)
    requires Normalized(gameName) == ""
    ensures MatchesGameName(exeName, gameName)
  {
    var exe := Keep(ReplaceAll(Lower(exeName), ExeSuffix, ""), IsAlphanumeric);
    assert OccursAt(exe, "", 0);
  }

  /** An executable named after the game matches it, whatever the case. */
  lemma NamedAfterGame(gameName: string)
    requires '.' !in gameName
    ensures MatchesGameName(gameName + ExeSuffix, gameName)
  {
    var lower := Lower(gameName);
    LowerConcat(gameName, ExeSuffix);
    assert Lower(ExeSuffix) == ExeSuffix;
    assert '.' !in lower by {
      forall i | 0 <= i < |lower| ensures lower[i] != '.' {
        assert gameName[i] in gameName;
      }
    }
    ReplaceAtEnd(lower, ExeSuffix, "");
    assert lower + "" == lower;
    var n := Normalized(gameName);
    assert OccursAt(n, n, 0);
  }

  // ---------------------------------------------------------------- VDF values

  /** `extract_vdf_value`: the fourth piece of the line split at '"'. */
  function ExtractVdfValue(line: string): (r: Option<string>)
    ensures r.Some? ==> '"' !in r.value
    ensures r.None? <==> |Split(line, '"')| < 4
  {
    var parts := Split(line, '"');
    if |parts| >= 4 then Some(parts[3]) else None
  }

  /** The value of a `"key"  "value"` line is read back. */
  lemma VdfValueReadBack(key: string, gap: string, value: string)
    requires '"' !in key && '"' !in gap && '"' !in value
    ensures ExtractVdfValue("\"" + key + "\"" + gap + "\"" + value + "\"") == Some(value)
  {
    var parts := ["", key, gap, value, ""];
    JoinSplit(parts, '"');
    assert Join(parts, ['"']) == "\"" + key + "\"" + gap + "\"" + value + "\"" by {
      assert Join(parts[4..], ['"']) == "";
      assert Join(parts[3..], ['"']) == value + "\"";
      assert Join(parts[2..], ['"']) == gap + "\"" + value + "\"";
      assert Join(parts[1..], ['"']) == key + "\"" + gap + "\"" + value + "\"";
    }
  }

  /** Rust's `lines()` followed by `trim()`: a carriage return before the newline is trimmed away
      with the other whitespace. */
  function TrimmedLines(content: string): (r: seq<string>)
    ensures |r| >= 1
  {
    var lines := Split(content, '\n');
    seq(|lines|, i requires 0 <= i < |lines| => Trim(lines[i]))
  }

  // ---------------------------------------------------------------- app manifests

  datatype AcfData = AcfData(appId: Option<string>, name: Option<string>, installDir: Option<string>)

  const AppIdKey := "\"appid\""
  const NameKey := "\"name\""
  const InstallDirKey := "\"installdir\""

  /** One line of a manifest: a line starting with a key sets that field to the line's
      value, which is `None` when the line has none. */
  function AcfLine(d: AcfData, line: string): AcfData
  {
    if StartsWith(line, AppIdKey) then d.(appId := ExtractVdfValue(line))
    else if StartsWith(line, NameKey) then d.(name := ExtractVdfValue(line))
    else if StartsWith(line, InstallDirKey) then d.(installDir := ExtractVdfValue(line))
    else d
  }

  function AcfLines(lines: seq<string>): AcfData
    decreases |lines|
  {
    if |lines| == 0 then AcfData(None, None, None)
    else AcfLine(AcfLines(lines[..|lines| - 1]), lines[|lines| - 1])
  }

  /** The value the last line starting with `key` gives, if there is such a line. */
  function LastValue(lines: seq<string>, key: string): Option<string>
    decreases |lines|
  {
    if |lines| == 0 then None
    else if StartsWith(lines[|lines| - 1], key) then ExtractVdfValue(lines[|lines| - 1])
    else LastValue(lines[..|lines| - 1], key)
  }

  /** The keys start differently, so a line sets at most one field. */
  lemma KeysExclusive(line: string)
    ensures StartsWith(line, AppIdKey) ==> !StartsWith(line, NameKey) && !StartsWith(line, InstallDirKey)
    ensures StartsWith(line, NameKey) ==> !StartsWith(line, InstallDirKey)
  {
    if StartsWith(line, AppIdKey) {
      assert line[1] == 'a';
      assert NameKey[1] == 'n' && InstallDirKey[1] == 'i';
    }
    if StartsWith(line, NameKey) {
      assert line[1] == 'n' && InstallDirKey[1] == 'i';
    }
  }

  /** Each field holds the value of the last line that starts with its key. */
  lemma {:induction false} AcfFieldsFromLastLine(lines: seq<string>)
    ensures AcfLines(lines) == AcfData(LastValue(lines, AppIdKey), LastValue(lines, NameKey), LastValue(lines, InstallDirKey))
    decreases |lines|
  {
    if |lines| > 0 {
      AcfFieldsFromLastLine(lines[..|lines| - 1]);
      KeysExclusive(lines[|lines| - 1]);
    }
  }

  /** `parse_acf_file`: `None` when the file cannot be read or one of the three fields
      is missing at the end. */
  function ParseAcf(content: Option<string>): (r: Option<AcfData>)
    ensures r.Some? <==> (content.Some? && LastValue(TrimmedLines(content.value), AppIdKey).Some?
      && LastValue(TrimmedLines(content.value), NameKey).Some?
      && LastValue(TrimmedLines(content.value), InstallDirKey).Some?)
    ensures r.Some? ==> r.value.appId.Some? && r.value.name.Some? && r.value.installDir.Some?
  {
    match content
    case None => None
    case Some(text) =>
      var d := AcfLines(TrimmedLines(text));
      AcfFieldsFromLastLine(TrimmedLines(text));
      if d.appId.Some? && d.name.Some? && d.installDir.Some? then Some(d) else None
  }

  // ---------------------------------------------------------------- choosing the executable

  /** A directory entry: its path, whether it is a file, and its size when the
      metadata can be read. */
  datatype DirEntry = DirEntry(path: string, isFile: bool, size: Option<nat>)

  /** A file whose extension is "exe" in any case. */
  predicate IsExe(e: DirEntry)
  {
    e.isFile && Extension(e.path).Some? && Lower(Extension(e.path).value) == "exe"
  }

  function ExeFiles(entries: seq<DirEntry>): (r: seq<string>)
    ensures forall p :: p in r <==> exists e :: e in entries && IsExe(e) && e.path == p
    decreases |entries|
  {
    if |entries| == 0 then []
    else
      var rest := ExeFiles(entries[1..]);
      assert forall e :: e in entries <==> e == entries[0] || e in entries[1..];
      if IsExe(entries[0]) then [entries[0].path] + rest else rest
  }

  /** The executable's file name is neither missing nor blacklisted. */
  predicate Eligible(path: string)
  {
    FileName(path).Some? && !IsBlacklisted(FileName(path).value)
  }

  /** The first path satisfying `p` (`iter().find(..)`). */
  function FirstWith(paths: seq<string>, p: string -> bool): (r: Option<string>)
    ensures r.Some? ==> r.value in paths && p(r.value)
    ensures r.Some? ==> exists i :: 0 <= i < |paths| && paths[i] == r.value && forall j :: 0 <= j < i ==> !p(paths[j])
    ensures r.None? <==> forall i :: 0 <= i < |paths| ==> !p(paths[i])
  {
    match FirstFrom(paths, p, 0)
    case None => None
    case Some(i) => Some(paths[i])
  }

  /** `max_by_key`: the index of a path of greatest size, the last one on a tie. */
  function LargestIndex(paths: seq<string>, size: string -> nat): (r: Option<nat>)
    ensures |paths| == 0 <==> r.None?
    ensures r.Some? ==> r.value < |paths| && forall j :: 0 <= j < |paths| ==> size(paths[j]) <= size(paths[r.value])
    ensures r.Some? ==> forall j :: r.value < j < |paths| ==> size(paths[j]) < size(paths[r.value])
    decreases |paths|
  {
    if |paths| == 0 then None
    else
      var k := LargestIndex(paths[..|paths| - 1], size);
      if k.None? || size(paths[|paths| - 1]) >= size(paths[k.value]) then Some(|paths| - 1) else k
  }

  function LastLargest(paths: seq<string>, size: string -> nat): (r: Option<string>)
    ensures |paths| == 0 <==> r.None?
    ensures r.Some? ==> r.value in paths && forall j :: 0 <= j < |paths| ==> size(paths[j]) <= size(r.value)
  {
    match LargestIndex(paths, size)
    case None => None
    case Some(i) => Some(paths[i])
  }

  /** The size of a path as listed, 0 when its metadata cannot be read. */
  function SizeIn(entries: seq<DirEntry>, path: string): nat
    decreases |entries|
  {
    if |entries| == 0 then 0
    else if entries[0].path == path then entries[0].size.GetOr(0)
    else SizeIn(entries[1..], path)
  }

  predicate Preferred(path: string)
  {
    FileName(path).Some? && IsWhitelisted(FileName(path).value) && !IsBlacklisted(FileName(path).value)
  }

  predicate NameMatch(game: string, path: string)
  {
    FileName(path).Some? && MatchesGameName(FileName(path).value, game) && !IsBlacklisted(FileName(path).value)
  }

  /** The test for an executable named like the game. */
  function Named(game: string): string -> bool
  {
    p => NameMatch(game, p)
  }

  /** The size of a listed path. */
  function Sizes(entries: seq<DirEntry>): string -> nat
  {
    p => SizeIn(entries, p)
  }

  /** The executables that may be chosen, in listing order. */
  function Candidates(entries: seq<DirEntry>): seq<string>
  {
    Retain(ExeFiles(entries), Eligible)
  }

  function Retain(xs: seq<string>, keep: string -> bool): (r: seq<string>)
    ensures forall x :: x in r <==> x in xs && keep(x)
    ensures |r| <= |xs|
    decreases |xs|
  {
    if |xs| == 0 then []
    else
      assert forall x :: x in xs <==> x == xs[0] || x in xs[1..];
      if keep(xs[0]) then [xs[0]] + Retain(xs[1..], keep) else Retain(xs[1..], keep)
  }

  /** The last resort: the only candidate, else the largest. */
  function Fallback(candidates: seq<string>, entries: seq<DirEntry>): (r: Option<string>)
    ensures r.None? <==> candidates == []
    ensures r.Some? ==> r.value in candidates
    ensures r.Some? ==> forall j :: 0 <= j < |candidates| ==> SizeIn(entries, candidates[j]) <= SizeIn(entries, r.value)
  {
    if |candidates| == 1 then Some(candidates[0]) else LastLargest(candidates, Sizes(entries))
  }

  /** `find_game_executable`. `listing` is `None` when the install folder is missing
      and the folder's entries otherwise; a folder that cannot be read lists nothing.
      The order of preference: the first whitelisted executable, then the first
      whose name matches the game's, then the only eligible one, then the largest
      eligible one. */
  function FindGameExecutable(listing: Option<seq<DirEntry>>, gameName: Option<string>): (r: Option<string>)
    ensures r.Some? ==> listing.Some? && r.value in ExeFiles(listing.value) && Eligible(r.value)
    ensures r.None? <==> listing.None? || Candidates(listing.value) == []
  {
    match listing
    case None => None
    case Some(entries) =>
      var exes := ExeFiles(entries);
      var candidates := Candidates(entries);
      match FirstWith(exes, Preferred)
      case Some(p) => assert p in candidates; Some(p)
      case None =>
        var named := if gameName.Some? then FirstWith(exes, Named(gameName.value)) else None;
        if named.Some? then assert named.value in candidates; named
        else Fallback(candidates, entries)
  }

  /** A whitelisted executable always wins. */
  lemma PreferredWins(entries: seq<DirEntry>, gameName: Option<string>)
    requires FirstWith(ExeFiles(entries), Preferred).Some?
    ensures FindGameExecutable(Some(entries), gameName) == FirstWith(ExeFiles(entries), Preferred)
  {
  }

  /** Without a whitelisted executable, the first one named like the game wins. */
  lemma NamedNext(entries: seq<DirEntry>, game: string)
    requires FirstWith(ExeFiles(entries), Preferred).None?
    requires FirstWith(ExeFiles(entries), Named(game)).Some?
    ensures FindGameExecutable(Some(entries), Some(game)) == FirstWith(ExeFiles(entries), Named(game))
  {
  }

  /** Otherwise the pick is an eligible executable no smaller than any other. */
  lemma LargestLast(entries: seq<DirEntry>, gameName: Option<string>)
    requires FirstWith(ExeFiles(entries), Preferred).None?
    requires gameName.None? || FirstWith(ExeFiles(entries), Named(gameName.value)).None?
    ensures FindGameExecutable(Some(entries), gameName) == Fallback(Candidates(entries), entries)
  {
  }

  // ---------------------------------------------------------------- library folders

  const PathKey := "\"path\""
  const DoubleBackslash := "\\\\"
  const Backslash := "\\"

  /** One line of `libraryfolders.vdf`: a `"path"` line names a folder, with doubled
      backslashes undone, that is added when it exists and is not listed yet. */
  function LibraryLine(libraries: seq<string>, line: string, present: string -> bool): (r: seq<string>)
    ensures libraries <= r && |r| <= |libraries| + 1
  {
    if !StartsWith(line, PathKey) then libraries
    else
      match ExtractVdfValue(line)
      case None => libraries
      case Some(v) =>
        var path := ReplaceAll(v, DoubleBackslash, Backslash);
        if present(path) && path !in libraries then libraries + [path] else libraries
  }

  function LibraryLines(libraries: seq<string>, lines: seq<string>, present: string -> bool): (r: seq<string>)
    ensures libraries <= r
    decreases |lines|
  {
    if |lines| == 0 then libraries
    else LibraryLine(LibraryLines(libraries, lines[..|lines| - 1], present), lines[|lines| - 1], present)
  }

  /** No folder is listed twice. */
  predicate Distinct(xs: seq<string>)
  {
    forall i, j :: 0 <= i < j < |xs| ==> xs[i] != xs[j]
  }

  /** `get_library_folders`: the Steam folder, then the existing folders the VDF file
      names. `vdf` is `None` when the file is missing and `Err` when it cannot be read. */
  function LibraryFolders(steamPath: string, vdf: Option<Result<string>>, present: string -> bool): (r: seq<string>)
    ensures |r| >= 1 && r[0] == steamPath
    ensures vdf.None? || vdf.value.Err? ==> r == [steamPath]
  {
    if vdf.None? || vdf.value.Err? then [steamPath]
    else LibraryLines([steamPath], TrimmedLines(vdf.value.value), present)
  }

  /** Every folder after the Steam folder exists, and none is listed twice. */
  lemma {:induction false} LibraryLinesProps(libraries: seq<string>, lines: seq<string>, present: string -> bool)
    requires Distinct(libraries)
    ensures var r := LibraryLines(libraries, lines, present);
      Distinct(r) && forall i :: |libraries| <= i < |r| ==> present(r[i])
    decreases |lines|
  {
    if |lines| > 0 {
      LibraryLinesProps(libraries, lines[..|lines| - 1], present);
      var p := LibraryLines(libraries, lines[..|lines| - 1], present);
      var r := LibraryLine(p, lines[|lines| - 1], present);
      if |r| > |p| {
        assert r[..|p|] == p;
        assert r[|p|] !in p;
      }
    }
  }

  lemma LibraryFoldersProps(steamPath: string, vdf: Option<Result<string>>, present: string -> bool)
    ensures var r := LibraryFolders(steamPath, vdf, present);
      Distinct(r) && forall i :: 1 <= i < |r| ==> present(r[i])
  {
    if vdf.Some? && vdf.value.Ok? {
      LibraryLinesProps([steamPath], TrimmedLines(vdf.value.value), present);
    }
  }
}

=== FILE: strings.dfy ===
/** String helpers shared by the model: case folding, trimming, searching,
    splitting and joining on `seq<char>`.

    Case folding is ASCII-only: both Rust's `to_lowercase` and Python's `lower`
    fold the full Unicode range, which this model does not. Whitespace is the
    ASCII whitespace set that both languages strip by default. */
module Strings {
  import opened Wrappers

  // ---------------------------------------------------------------- case

  predicate IsUpper(c: char) { 'A' <= c <= 'Z' }

  function LowerChar(c: char): (r: char)
    ensures !IsUpper(r)
    ensures !IsUpper(c) ==> r == c
  {
    if IsUpper(c) then (c as int + 32) as char else c
  }

  function Lower(s: string): (r: string)
    ensures |r| == |s|
    ensures forall i :: 0 <= i < |s| ==> r[i] == LowerChar(s[i])
  {
    if |s| == 0 then [] else [LowerChar(s[0])] + Lower(s[1..])
  }

  lemma LowerIdempotent(s: string)
    ensures Lower(Lower(s)) == Lower(s)
  {
    assert forall i :: 0 <= i < |s| ==> LowerChar(LowerChar(s[i])) == LowerChar(s[i]);
  }

  lemma LowerConcat(a: string, b: string)
    ensures Lower(a + b) == Lower(a) + Lower(b)
  {
    assert forall i :: 0 <= i < |a + b| ==> Lower(a + b)[i] == (Lower(a) + Lower(b))[i];
  }

  /** Case-insensitive string equality as the source writes it: both sides lower-cased. */
  predicate EqualsIgnoreCase(a: string, b: string) { Lower(a) == Lower(b) }

  // ---------------------------------------------------------------- prefixes and suffixes

  predicate StartsWith(s: string, p: string) { |p| <= |s| && s[..|p|] == p }

  predicate EndsWith(s: string, p: string) { |p| <= |s| && s[|s| - |p|..] == p }

  // ---------------------------------------------------------------- trimming

  const Whitespace: set<char> := {' ', '\t', '\n', '\r', '\U{0B}', '\U{0C}'}

  /** Drops every leading character in `cs`. */
  function StripStart(s: string, cs: set<char>): (r: string)
    ensures |r| <= |s| && r == s[|s| - |r|..]
    ensures |r| > 0 ==> r[0] !in cs
    ensures forall i :: 0 <= i < |s| - |r| ==> s[i] in cs
  {
    if |s| > 0 && s[0] in cs then
      var r := StripStart(s[1..], cs);
      StripStartStep(s, cs, r);
      r
    else s
  }

  /** One dropped leading character: a suffix of the tail is a suffix of the whole. */
  lemma StripStartStep(s: string, cs: set<char>, r: string)
    requires |s| > 0 && s[0] in cs && |r| <= |s| - 1 && r == s[1..][|s| - 1 - |r|..]
    requires forall i :: 0 <= i < |s| - 1 - |r| ==> s[1..][i] in cs
    ensures r == s[|s| - |r|..]
    ensures forall i :: 0 <= i < |s| - |r| ==> s[i] in cs
  {
    forall i | 0 <= i < |s| - |r|
      ensures s[i] in cs
    {
      if i > 0 {
        assert s[i] == s[1..][i - 1];
      }
    }
  }

  /** Drops every trailing character in `cs`. */
  function StripEnd(s: string, cs: set<char>): (r: string)
    ensures |r| <= |s| && r == s[..|r|]
    ensures |r| > 0 ==> r[|r| - 1] !in cs
    ensures forall i :: |r| <= i < |s| ==> s[i] in cs
  {
    if |s| > 0 && s[|s| - 1] in cs then
      var r := StripEnd(s[..|s| - 1], cs);
      StripEndStep(s, s[..|s| - 1], cs, r);
      r
    else s
  }

  /** One dropped trailing character: a prefix of the front is a prefix of the whole. */
  lemma StripEndStep(s: string, front: string, cs: set<char>, r: string)
    requires |s| > 0 && s[|s| - 1] in cs && front == s[..|s| - 1] && |r| <= |front| && r == front[..|r|]
    requires forall i :: |r| <= i < |front| ==> front[i] in cs
    ensures r == s[..|r|]
    ensures forall i :: |r| <= i < |s| ==> s[i] in cs
  {
    forall i | |r| <= i < |s|
      ensures s[i] in cs
    {
      if i < |s| - 1 {
        assert s[i] == front[i];
      }
    }
  }

  /** Python's `s.strip(cs)` and Rust's `trim_matches`. */
  function Strip(s: string, cs: set<char>): (r: string)
    ensures |r| > 0 ==> r[0] !in cs && r[|r| - 1] !in cs
    ensures exists k :: OccursAt(s, r, k)
  {
    var a := StripStart(s, cs);
    var r := StripEnd(a, cs);
    assert OccursAt(s, r, |s| - |a|);
    r
  }

  /** `trim()` in Rust, `strip()` in Python. */
  function Trim(s: string): (r: string)
    ensures |r| > 0 ==> r[0] !in Whitespace && r[|r| - 1] !in Whitespace
  {
    Strip(s, Whitespace)
  }

  /** A string that neither starts nor ends with whitespace is its own trim. */
  lemma TrimUnchanged(s: string)
    requires |s| > 0 && s[0] !in Whitespace && s[|s| - 1] !in Whitespace
    ensures Trim(s) == s
  {
  }

  /** Trimming twice is trimming once. */
  lemma TrimIdempotent(s: string)
    ensures Trim(Trim(s)) == Trim(s)
  {
    if |Trim(s)| > 0 {
      TrimUnchanged(Trim(s));
    }
  }

  /** `re.sub(r'\s+', ' ', s)`: every maximal run of whitespace becomes one space. */
  function CollapseWhitespace(s: string): (r: string)
    ensures |r| == 0 <==> |s| == 0
    ensures |r| > 0 ==> (r[0] in Whitespace <==> s[0] in Whitespace)
    decreases |s|
  {
    if |s| == 0 then ""
    else if s[0] in Whitespace then
      var t := StripStart(s, Whitespace);
      assert |t| < |s|;
      " " + CollapseWhitespace(t)
    else [s[0]] + CollapseWhitespace(s[1..])
  }

  /** After collapsing, every whitespace character is a space. */
  lemma {:induction false} CollapseSpaces(s: string)
    ensures forall i :: 0 <= i < |CollapseWhitespace(s)| && CollapseWhitespace(s)[i] in Whitespace ==> CollapseWhitespace(s)[i] == ' '
    decreases |s|
  {
    if |s| > 0 {
      var r := CollapseWhitespace(s);
      var rest := if s[0] in Whitespace then CollapseWhitespace(StripStart(s, Whitespace)) else CollapseWhitespace(s[1..]);
      if s[0] in Whitespace { CollapseSpaces(StripStart(s, Whitespace)); } else { CollapseSpaces(s[1..]); }
      assert r[1..] == rest;
      forall i | 0 <= i < |r| && r[i] in Whitespace ensures r[i] == ' ' {
        if i > 0 { assert r[i] == rest[i - 1]; }
      }
    }
  }

  /** After collapsing, no two whitespace characters are neighbours. */
  lemma {:induction false} CollapseNoRuns(s: string)
    ensures forall i :: 0 <= i < |CollapseWhitespace(s)| - 1 && CollapseWhitespace(s)[i] in Whitespace ==> CollapseWhitespace(s)[i + 1] !in Whitespace
    decreases |s|
  {
    if |s| > 0 {
      var r := CollapseWhitespace(s);
      var rest := if s[0] in Whitespace then CollapseWhitespace(StripStart(s, Whitespace)) else CollapseWhitespace(s[1..]);
      if s[0] in Whitespace { CollapseNoRuns(StripStart(s, Whitespace)); } else { CollapseNoRuns(s[1..]); }
      assert r[1..] == rest;
      forall i | 0 <= i < |r| - 1 && r[i] in Whitespace ensures r[i + 1] !in Whitespace {
        if i > 0 { assert r[i] == rest[i - 1] && r[i + 1] == rest[i]; }
      }
    }
  }

  /** The collapsed text ends in whitespace exactly when the input does. */
  lemma {:induction false} CollapseLast(s: string)
    requires |s| > 0
    ensures CollapseWhitespace(s)[|CollapseWhitespace(s)| - 1] in Whitespace <==> s[|s| - 1] in Whitespace
    decreases |s|
  {
    if s[0] in Whitespace {
      var t := StripStart(s, Whitespace);
      if |t| > 0 {
        CollapseLast(t);
        assert t[|t| - 1] == s[|s| - 1];
      }
    } else if |s| > 1 {
      CollapseLast(s[1..]);
    }
  }

  /** Collapsing only adds spaces: every other character comes from the input. */
  lemma {:induction false} CollapseChars(s: string)
    ensures forall i :: 0 <= i < |CollapseWhitespace(s)| ==> CollapseWhitespace(s)[i] == ' ' || CollapseWhitespace(s)[i] in s
    decreases |s|
  {
    if |s| > 0 {
      var r := CollapseWhitespace(s);
      if s[0] in Whitespace {
        var t := StripStart(s, Whitespace);
        CollapseChars(t);
        assert r == [' '] + CollapseWhitespace(t);
        ConsSpaceOrFrom(' ', CollapseWhitespace(t), t, s);
      } else {
        CollapseChars(s[1..]);
        assert r == [s[0]] + CollapseWhitespace(s[1..]);
        ConsSpaceOrFrom(s[0], CollapseWhitespace(s[1..]), s[1..], s);
      }
    }
  }

  /** A character that is a space or from `s`, followed by characters that are spaces
      or from a suffix of `s`. */
  lemma ConsSpaceOrFrom(c: char, rest: string, t: string, s: string)
    requires c == ' ' || c in s
    requires forall i :: 0 <= i < |rest| ==> rest[i] == ' ' || rest[i] in t
    requires |t| <= |s| && t == s[|s| - |t|..]
    ensures forall i :: 0 <= i < |[c] + rest| ==> ([c] + rest)[i] == ' ' || ([c] + rest)[i] in s
  {
    var r := [c] + rest;
    forall i | 0 < i < |r| && r[i] != ' ' ensures r[i] in s {
      assert r[i] == rest[i - 1];
      var k :| 0 <= k < |t| && t[k] == rest[i - 1];
      assert s[|s| - |t| + k] == t[k];
    }
  }

  /** Collapsing twice is collapsing once. */
  lemma {:induction false} CollapseIdempotent(s: string)
    ensures CollapseWhitespace(CollapseWhitespace(s)) == CollapseWhitespace(s)
    decreases |s|
  {
    if |s| > 0 {
      var r := CollapseWhitespace(s);
      if s[0] in Whitespace {
        var t := StripStart(s, Whitespace);
        var rest := CollapseWhitespace(t);
        assert r == " " + rest;
        assert StripStart(r, Whitespace) == rest by {
          assert r[1..] == rest;
          if |rest| > 0 {
            assert rest[0] !in Whitespace;
          }
        }
        CollapseIdempotent(t);
      } else {
        assert r == [s[0]] + CollapseWhitespace(s[1..]);
        assert r[1..] == CollapseWhitespace(s[1..]);
        CollapseIdempotent(s[1..]);
      }
    }
  }

  /** A text without whitespace is its own collapse. */
  lemma {:induction false} CollapseNoWhitespace(s: string)
    requires forall i :: 0 <= i < |s| ==> s[i] !in Whitespace
    ensures CollapseWhitespace(s) == s
    decreases |s|
  {
    if |s| > 0 {
      CollapseNoWhitespace(s[1..]);
    }
  }

  /** Rust's `trim_end_matches(p)`: strips EVERY repetition of `p` at the end. */
  function TrimEndMatches(s: string, p: string): (r: string)
    ensures |r| <= |s| && r == s[..|r|]
    ensures |p| > 0 ==> !EndsWith(r, p)
    ensures |p| == 0 ==> r == s
    decreases |s|
  {
    if |p| > 0 && EndsWith(s, p) then TrimEndMatches(s[..|s| - |p|], p) else s
  }

  // ---------------------------------------------------------------- searching

  /** `p` occurs in `s` at index `i`. */
  predicate OccursAt(s: string, p: string, i: int) {
    0 <= i && i + |p| <= |s| && s[i..i + |p|] == p
  }

  /** The first index at which `p` occurs in `s` at or after `from`. */
  function FindFrom(s: string, p: string, from: nat): (r: Option<nat>)
    ensures r.Some? ==> from <= r.value && OccursAt(s, p, r.value)
    ensures r.Some? ==> forall j :: from <= j < r.value ==> !OccursAt(s, p, j)
    ensures r.None? ==> forall j :: from <= j ==> !OccursAt(s, p, j)
    decreases |s| - from
  {
    if from + |p| > |s| then None
    else if s[from..from + |p|] == p then Some(from)
    else FindFrom(s, p, from + 1)
  }

  /** Python's `s.find(p)` / Rust's `s.find(p)`: the first occurrence of `p`. */
  function Find(s: string, p: string): (r: Option<nat>)
    ensures r.Some? ==> OccursAt(s, p, r.value)
    ensures r.Some? ==> forall j :: 0 <= j < r.value ==> !OccursAt(s, p, j)
    ensures r.None? <==> forall j :: !OccursAt(s, p, j)
  {
    FindFrom(s, p, 0)
  }

  /** The last index of `c` in `s` (`rfind` of one character). */
  function RFindChar(s: string, c: char): (r: Option<nat>)
    ensures r.Some? ==> r.value < |s| && s[r.value] == c
    ensures r.Some? ==> forall j :: r.value < j < |s| ==> s[j] != c
    ensures r.None? <==> forall j :: 0 <= j < |s| ==> s[j] != c
  {
    if |s| == 0 then None
    else if s[|s| - 1] == c then Some(|s| - 1)
    else RFindChar(s[..|s| - 1], c)
  }

  /** `p in s` in Python, `s.contains(p)` in Rust. */
  predicate Contains(s: string, p: string) { Find(s, p).Some? }

  lemma ContainsIff(s: string, p: string)
    ensures Contains(s, p) <==> exists i :: OccursAt(s, p, i)
  {
  }

  lemma ContainsAt(s: string, p: string, i: int)
    requires OccursAt(s, p, i)
    ensures Contains(s, p)
  {
  }

  lemma ContainsIn(s: string, p: string, a: string, b: string)
    requires s == a + p + b
    ensures Contains(s, p)
  {
    assert s[|a|..|a| + |p|] == p;
    ContainsAt(s, p, |a|);
  }

  /** The first occurrence of `p` in `a + p + b` is right after `a` when `a` holds no
      character that starts `p`. */
  lemma FindAfter(a: string, p: string, b: string)
    requires |p| > 0 && p[0] !in a
    ensures Find(a + p + b, p) == Some(|a|)
  {
    var s := a + p + b;
    assert s[|a|..|a| + |p|] == p;
    forall j | 0 <= j < |a| ensures !OccursAt(s, p, j) {
      assert a[j] in a;
      assert s[j] == a[j];
    }
    var r := Find(s, p);
    assert OccursAt(s, p, |a|);
    assert r.Some?;
    assert r.value <= |a|;
  }

  /** A text without the first character of `p` does not contain `p`. */
  lemma MissingFirstChar(s: string, p: string)
    requires |p| > 0 && p[0] !in s
    ensures !Contains(s, p)
  {
    forall j | 0 <= j < |s| ensures s[j] != p[0] {
      assert s[j] in s;
    }
  }

  /** A single character is contained iff it is an element. */
  lemma ContainsChar(s: string, c: char)
    ensures Contains(s, [c]) <==> c in s
  {
    if c in s {
      var i :| 0 <= i < |s| && s[i] == c;
      assert OccursAt(s, [c], i);
    }
    if Contains(s, [c]) {
      var i := Find(s, [c]).value;
      assert s[i..i + 1] == [c];
      assert s[i] == c;
    }
  }

  // ---------------------------------------------------------------- splitting and joining

  /** Splits on every occurrence of `sep`, as Python's `s.split(sep)` and Rust's
      `s.split(sep)` do for a one-character separator: n separators give n+1 pieces. */
  function Split(s: string, sep: char): (r: seq<string>)
    ensures |r| >= 1
    ensures forall i :: 0 <= i < |r| ==> sep !in r[i]
    decreases |s|
  {
    if |s| == 0 then [""]
    else
      var rest := Split(s[1..], sep);
      if s[0] == sep then [""] + rest
      else [[s[0]] + rest[0]] + rest[1..]
  }

  /** Joins pieces with `sep` between consecutive pieces. */
  function Join(parts: seq<string>, sep: string): string
  {
    if |parts| == 0 then ""
    else if |parts| == 1 then parts[0]
    else parts[0] + sep + Join(parts[1..], sep)
  }

  /** Joining the pieces of a split with the separator gives back the input. */
  lemma {:induction false} SplitJoin(s: string, sep: char)
    ensures Join(Split(s, sep), [sep]) == s
    decreases |s|
  {
    if |s| == 0 {
    } else {
      var rest := Split(s[1..], sep);
      SplitJoin(s[1..], sep);
      if s[0] == sep {
        assert Split(s, sep) == [""] + rest;
        assert ([""] + rest)[1..] == rest;
        assert s == [sep] + s[1..];
      } else {
        var r := [[s[0]] + rest[0]] + rest[1..];
        assert Split(s, sep) == r;
        if |rest| == 1 {
          assert Join(rest, [sep]) == rest[0];
        } else {
          assert r[1..] == rest[1..];
          assert Join(rest, [sep]) == rest[0] + [sep] + Join(rest[1..], [sep]);
        }
        assert s == [s[0]] + s[1..];
      }
    }
  }

  /** A text holding the separator splits into at least two pieces. */
  lemma {:induction false} SplitWithSep(s: string, sep: char)
    requires sep in s
    ensures |Split(s, sep)| >= 2
    decreases |s|
  {
    if s[0] != sep {
      assert sep in s[1..] by {
        var i :| 0 <= i < |s| && s[i] == sep;
        assert s[1..][i - 1] == sep;
      }
      SplitWithSep(s[1..], sep);
    }
  }

  /** A join of pieces avoids every character that the pieces and the separator avoid. */
  lemma {:induction false} JoinAvoids(parts: seq<string>, sep: string, c: char)
    requires c !in sep
    requires forall i :: 0 <= i < |parts| ==> c !in parts[i]
    ensures c !in Join(parts, sep)
    decreases |parts|
  {
    if |parts| > 1 {
      JoinAvoids(parts[1..], sep, c);
    }
  }

  /** A text without the separator is a single piece. */
  lemma {:induction false} SplitNoSep(a: string, sep: char)
    requires sep !in a
    ensures Split(a, sep) == [a]
    decreases |a|
  {
    if |a| > 0 {
      assert a[0] in a;
      assert forall c :: c in a[1..] ==> c in a;
      SplitNoSep(a[1..], sep);
      assert a == [a[0]] + a[1..];
    }
  }

  /** The first separator ends the first piece. */
  lemma {:induction false} SplitAround(a: string, b: string, sep: char)
    requires sep !in a
    ensures Split(a + [sep] + b, sep) == [a] + Split(b, sep)
    decreases |a|
  {
    var s := a + [sep] + b;
    if |a| == 0 {
      assert s[0] == sep && s[1..] == b;
    } else {
      assert a[0] in a;
      assert forall c :: c in a[1..] ==> c in a;
      assert s[0] == a[0] && s[1..] == a[1..] + [sep] + b;
      SplitAround(a[1..], b, sep);
      assert a == [a[0]] + a[1..];
    }
  }

  /** Splitting a join of separator-free pieces gives the pieces back. */
  lemma {:induction false} JoinSplit(parts: seq<string>, sep: char)
    requires |parts| >= 1
    requires forall i :: 0 <= i < |parts| ==> sep !in parts[i]
    ensures Split(Join(parts, [sep]), sep) == parts
    decreases |parts|
  {
    if |parts| == 1 {
      SplitNoSep(parts[0], sep);
    } else {
      JoinSplit(parts[1..], sep);
      SplitAround(parts[0], Join(parts[1..], [sep]), sep);
      assert parts == [parts[0]] + parts[1..];
    }
  }

  // ---------------------------------------------------------------- replacing and filtering

  /** `s.replace(p, rep)` for a non-empty pattern: every occurrence, left to right,
      without overlaps. */
  function ReplaceAll(s: string, p: string, rep: string): (r: string)
    requires |p| > 0
    ensures |rep| <= |p| ==> |r| <= |s|
    decreases |s|
  {
    if |s| < |p| then s
    else if s[..|p|] == p then rep + ReplaceAll(s[|p|..], p, rep)
    else [s[0]] + ReplaceAll(s[1..], p, rep)
  }

  /** Text without the pattern's first character is left alone, and a pattern at its
      end is replaced. */
  lemma ReplaceAtEnd(a: string, p: string, rep: string)
    requires |p| > 0 && p[0] !in a
    ensures ReplaceAll(a, p, rep) == a
    ensures ReplaceAll(a + p, p, rep) == a + rep
  {
    ReplaceWithoutFirst(a, p, rep);
    ReplacePatternAtEnd(a, p, rep);
  }

  lemma {:induction false} ReplaceWithoutFirst(a: string, p: string, rep: string)
    requires |p| > 0 && p[0] !in a
    ensures ReplaceAll(a, p, rep) == a
    decreases |a|
  {
    if |a| > 0 {
      if |a| >= |p| {
        assert a[..|p|][0] == a[0];
      }
      assert forall c :: c in a[1..] ==> c in a;
      ReplaceWithoutFirst(a[1..], p, rep);
      assert [a[0]] + a[1..] == a;
    }
  }

  lemma {:induction false} ReplacePatternAtEnd(a: string, p: string, rep: string)
    requires |p| > 0 && p[0] !in a
    ensures ReplaceAll(a + p, p, rep) == a + rep
    decreases |a|
  {
    var s := a + p;
    if |a| == 0 {
      assert s == p;
      assert p[|p|..] == [];
    } else {
      assert s[..|p|][0] == a[0];
      assert s[1..] == a[1..] + p;
      assert forall c :: c in a[1..] ==> c in a;
      ReplacePatternAtEnd(a[1..], p, rep);
      calc {
        ReplaceAll(s, p, rep);
        [a[0]] + ReplaceAll(a[1..] + p, p, rep);
        [a[0]] + (a[1..] + rep);
        { ConcatAssocStr([a[0]], a[1..], rep); }
        ([a[0]] + a[1..]) + rep;
        { assert [a[0]] + a[1..] == a; }
        a + rep;
      }
    }
  }

  lemma ConcatAssocStr(x: string, y: string, z: string)
    ensures x + (y + z) == (x + y) + z
  {
  }

  /** The characters of `s` that pass `keep`, in order (`chars().filter(..).collect()`). */
  function Keep(s: string, keep: char -> bool): (r: string)
    ensures |r| <= |s|
    ensures forall i :: 0 <= i < |r| ==> keep(r[i])
    ensures forall c :: c in r <==> c in s && keep(c)
  {
    if |s| == 0 then ""
    else
      var rest := Keep(s[1..], keep);
      assert forall c :: c in s <==> c == s[0] || c in s[1..];
      if keep(s[0]) then [s[0]] + rest else rest
  }

  // ---------------------------------------------------------------- character maps

  /** Replaces each character by a string (Python's chained `replace` of
      single characters, or removal when the image is empty). */
  function MapChars(s: string, f: char -> string): (r: string)
  {
    if |s| == 0 then "" else f(s[0]) + MapChars(s[1..], f)
  }

  /** A character is in the image iff some input character's replacement holds it. */
  lemma {:induction false} MapCharsMembers(s: string, f: char -> string, c: char)
    ensures c in MapChars(s, f) <==> exists i :: 0 <= i < |s| && c in f(s[i])
    decreases |s|
  {
    if |s| > 0 {
      MapCharsMembers(s[1..], f, c);
      if c in MapChars(s[1..], f) {
        var i :| 0 <= i < |s[1..]| && c in f(s[1..][i]);
        assert c in f(s[i + 1]);
      }
      if exists i :: 0 <= i < |s| && c in f(s[i]) {
        var i :| 0 <= i < |s| && c in f(s[i]);
        if i > 0 {
          assert c in f(s[1..][i - 1]);
        }
      }
    }
  }

  /** Python's `str(n)` for a natural number. */
  function NatToString(n: nat): (r: string)
    ensures |r| >= 1
    ensures forall i :: 0 <= i < |r| ==> '0' <= r[i] <= '9'
  {
    if n < 10 then [('0' as int + n) as char]
    else NatToString(n / 10) + [('0' as int + n % 10) as char]
  }

  /** The value of a string of decimal digits. */
  function DigitsValue(s: string): nat
  {
    if |s| == 0 then 0
    else DigitsValue(s[..|s| - 1]) * 10 + (if '0' <= s[|s| - 1] <= '9' then (s[|s| - 1] as int - '0' as int) else 0)
  }

  /** Reading back the digits of a natural number gives the number. */
  lemma {:induction false} NatToStringValue(n: nat)
    ensures DigitsValue(NatToString(n)) == n
    decreases n
  {
    if n >= 10 {
      NatToStringValue(n / 10);
      var s := NatToString(n);
      assert s[..|s| - 1] == NatToString(n / 10);
    }
  }

  /** Leading zeros do not change the value. */
  lemma {:induction false} LeadingZerosValue(k: nat, s: string)
    ensures DigitsValue(seq(k, _ => '0') + s) == DigitsValue(s)
    decreases |s|, k
  {
    var z: string := seq(k, _ => '0');
    if |s| == 0 {
      assert z + s == z;
      if k > 0 {
        assert z[..k - 1] == seq(k - 1, _ => '0');
        LeadingZerosValue(k - 1, "");
        assert seq(k - 1, _ => '0') + "" == seq(k - 1, _ => '0');
      }
    } else {
      assert (z + s)[..|z + s| - 1] == z + s[..|s| - 1];
      LeadingZerosValue(k, s[..|s| - 1]);
    }
  }

  predicate IsDigit(c: char) { '0' <= c <= '9' }

  predicate AllDigits(s: string) { forall i :: 0 <= i < |s| ==> IsDigit(s[i]) }

  /** `str::parse` into an unsigned integer type whose largest value is `max`: one
      optional leading `+`, then at least one decimal digit and nothing else, and a
      value that fits. Leading zeros are accepted. */
  function ParseUnsigned(s: string, max: nat): (r: Option<nat>)
    ensures r.Some? ==> r.value <= max
    ensures r.Some? ==> |s| > 0 && (IsDigit(s[0]) || s[0] == '+')
  {
    var digits := if |s| > 0 && s[0] == '+' then s[1..] else s;
    if |digits| == 0 || !AllDigits(digits) then None
    else if DigitsValue(digits) > max then None
    else Some(DigitsValue(digits))
  }

  /** Every number that fits parses back from its decimal form, and nothing that does
      not fit parses. */
  lemma ParseNatToString(n: nat, max: nat)
    ensures ParseUnsigned(NatToString(n), max) == if n <= max then Some(n) else None
  {
    NatToStringValue(n);
  }

  /** `{}` formatting of an integer: a minus sign before the digits of a negative value. */
  function IntToString(n: int): (r: string)
    ensures |r| >= 1
    ensures n < 0 <==> r[0] == '-'
  {
    if n < 0 then "-" + NatToString(-n) else NatToString(n)
  }

  /** Left-pads `s` with `c` to at least `width` characters. */
  function PadLeft(s: string, width: nat, c: char): (r: string)
    ensures |r| == if |s| >= width then |s| else width
    ensures EndsWith(r, s)
    ensures forall i :: 0 <= i < |r| - |s| ==> r[i] == c
  {
    if |s| >= width then s else seq(width - |s|, _ => c) + s
  }
}

=== FILE: task_monitor.dfy ===
/** The task monitor's kill commands: killing one process, a list of processes, a
    whole category, the processes named by a profile, and recommending what to kill.

    The running processes are one snapshot passed in; whether the system lets a
    process be opened and terminated is a parameter, as are the auto-restore setting
    and the clock. */
module TaskMonitor {
  import opened Wrappers
  import opened Strings
  import opened Sorting
  import opened Records
  import WinPaths
  import opened Categorizer
  import opened Restore
  import opened Profiles

  datatype ProcessInfo = ProcessInfo(
    pid: nat,
    name: string,
    displayName: string,
    exePath: Option<string>,
    memoryMb: real,
    category: ProcessCategory,
    description: Option<string>,
    canKill: bool,
    parentPid: Option<nat>)

  datatype KillResult = KillResult(killed: nat, failed: nat, errors: seq<string>)

  /** What the system answers: whether a process can be opened for termination and
      whether terminating it succeeds. */
  datatype System = System(opens: nat -> bool, terminates: nat -> bool)

  const ProcessNotFound := "Process not found"
  const CannotKillProtected := "Cannot kill protected process: "
  const OpenFailed := "Failed to open process (Access Denied or process no longer exists)"
  const TerminateFailed := "Failed to terminate process"
  const CannotKillCategory := "Cannot kill processes in category: "

  /** The first process with the pid. */
  function FindPid(ps: seq<ProcessInfo>, pid: nat): (r: Option<ProcessInfo>)
    ensures r.Some? ==> r.value in ps && r.value.pid == pid
    ensures r.None? <==> forall i :: 0 <= i < |ps| ==> ps[i].pid != pid
  {
    if |ps| == 0 then None
    else if ps[0].pid == pid then Some(ps[0])
    else
      assert forall i :: 1 <= i < |ps| ==> ps[i] == ps[1..][i - 1];
      FindPid(ps[1..], pid)
  }

  // ---------------------------------------------------------------- one process

  /** `kill_process`: an unknown pid and a protected process are refused; otherwise
      the system is asked to open and terminate it. */
  function KillOutcome(ps: seq<ProcessInfo>, pid: nat, sys: System): (r: Result<()>)
    ensures r.Ok? <==>
      FindPid(ps, pid).Some? && FindPid(ps, pid).value.canKill && sys.opens(pid) && sys.terminates(pid)
    ensures FindPid(ps, pid).None? ==> r == Err(ProcessNotFound)
    ensures FindPid(ps, pid).Some? && !FindPid(ps, pid).value.canKill ==>
      r == Err(CannotKillProtected + FindPid(ps, pid).value.name)
  {
    match FindPid(ps, pid)
    case None => Err(ProcessNotFound)
    case Some(p) =>
      if !p.canKill then Err(CannotKillProtected + p.name)
      else if !sys.opens(pid) then Err(OpenFailed)
      else if !sys.terminates(pid) then Err(TerminateFailed)
      else Ok(())
  }

  /** The record `kill_process` hands to the restore list before terminating: only for
      a killable process with a known executable, and only with auto-restore on. The
      working directory is the executable's folder. */
  function Tracked(ps: seq<ProcessInfo>, pid: nat, autoRestore: bool, now: int): (r: Option<KilledProcessInfo>)
    ensures r.Some? <==>
      autoRestore && FindPid(ps, pid).Some? && FindPid(ps, pid).value.canKill && FindPid(ps, pid).value.exePath.Some?
    ensures r.Some? ==>
      r.value.exePath == FindPid(ps, pid).value.exePath.value && r.value.name == FindPid(ps, pid).value.name
      && !r.value.isSelfRestoring && r.value.killedAt == now
  {
    match FindPid(ps, pid)
    case None => None
    case Some(p) =>
      if !p.canKill || p.exePath.None? || !autoRestore then None
      else Some(KilledProcessInfo(p.exePath.value, p.name, now, false, WinPaths.Parent(p.exePath.value)))
  }

  // ---------------------------------------------------------------- many processes

  function PidError(pid: nat, e: string): string { "PID " + NatToString(pid) + ": " + e }

  function Kills(ps: seq<ProcessInfo>, sys: System): nat -> bool { (pid: nat) => KillOutcome(ps, pid, sys).Ok? }

  function Fails(ps: seq<ProcessInfo>, sys: System): nat -> bool { (pid: nat) => KillOutcome(ps, pid, sys).Err? }

  /** The error lines for the pids, in pid order. */
  function KillErrors(ps: seq<ProcessInfo>, pids: seq<nat>, sys: System): seq<string>
  {
    if |pids| == 0 then []
    else
      var pid := pids[|pids| - 1];
      KillErrors(ps, pids[..|pids| - 1], sys)
      + (match KillOutcome(ps, pid, sys) case Ok(_) => [] case Err(e) => [PidError(pid, e)])
  }

  /** The records handed to the restore list, in pid order. */
  function TrackedAll(ps: seq<ProcessInfo>, pids: seq<nat>, autoRestore: bool, now: int): seq<KilledProcessInfo>
  {
    if |pids| == 0 then []
    else
      TrackedAll(ps, pids[..|pids| - 1], autoRestore, now)
      + (match Tracked(ps, pids[|pids| - 1], autoRestore, now) case None => [] case Some(t) => [t])
  }

  /** `kill_multiple_processes`: each pid is killed in turn; every pid is counted once,
      as killed or as failed with one error line. */
  method KillMultiple(ps: seq<ProcessInfo>, pids: seq<nat>, autoRestore: bool, now: int, sys: System)
    returns (r: KillResult, tracked: seq<KilledProcessInfo>)
    ensures r.killed + r.failed == |pids|
    ensures |r.errors| == r.failed
    ensures r.killed == CountBy(pids, Kills(ps, sys))
    ensures r.failed == CountBy(pids, Fails(ps, sys))
    ensures r.errors == KillErrors(ps, pids, sys)
    ensures tracked == TrackedAll(ps, pids, autoRestore, now)
  {
    r := KillResult(0, 0, []);
    tracked := [];
    var i := 0;
    while i < |pids|
      invariant 0 <= i <= |pids|
      invariant r.killed + r.failed == i
      invariant |r.errors| == r.failed
      invariant r.killed == CountBy(pids[..i], Kills(ps, sys))
      invariant r.failed == CountBy(pids[..i], Fails(ps, sys))
      invariant r.errors == KillErrors(ps, pids[..i], sys)
      invariant tracked == TrackedAll(ps, pids[..i], autoRestore, now)
    {
      var pid := pids[i];
      assert pids[..i + 1][..i] == pids[..i];
      assert pids[..i + 1][i] == pid;
      var record := Tracked(ps, pid, autoRestore, now);
      if record.Some? {
        tracked := tracked + [record.value];
      }
      var outcome := KillOutcome(ps, pid, sys);
      if outcome.Ok? {
        r := r.(killed := r.killed + 1);
      } else {
        r := r.(failed := r.failed + 1, errors := r.errors + [PidError(pid, outcome.error)]);
      }
      i := i + 1;
    }
    assert pids[..i] == pids;
  }

  // ---------------------------------------------------------------- choosing targets

  function PidsOf(ps: seq<ProcessInfo>): (r: seq<nat>)
    ensures |r| == |ps| && forall i :: 0 <= i < |ps| ==> r[i] == ps[i].pid
  {
    seq(|ps|, i requires 0 <= i < |ps| => ps[i].pid)
  }

  function InCategory(c: ProcessCategory): ProcessInfo -> bool
  {
    (p: ProcessInfo) => p.category == c && p.canKill
  }

  /** The killable processes of the category, in snapshot order. */
  function CategoryTargets(ps: seq<ProcessInfo>, c: ProcessCategory): seq<nat>
  {
    PidsOf(Retain(ps, InCategory(c)))
  }

  /** `{:?}` of a category: the variant's name. */
  function CategoryDebug(c: ProcessCategory): string
  {
    match c
    case AntiCheatProtected => "AntiCheatProtected"
    case SystemCritical => "SystemCritical"
    case SystemService => "SystemService"
    case MicrosoftBloat => "MicrosoftBloat"
    case SecuritySoftware => "SecuritySoftware"
    case UserApplication => "UserApplication"
    case BackgroundService => "BackgroundService"
    case DriverHardware => "DriverHardware"
    case Unknown => "Unknown"
  }

  /** `kill_by_category`: a category that may not be killed attempts nothing and
      reports one error; otherwise its killable processes are killed. */
  method KillByCategory(ps: seq<ProcessInfo>, c: ProcessCategory, autoRestore: bool, now: int, sys: System)
    returns (r: KillResult, tracked: seq<KilledProcessInfo>)
    ensures !CanKill(c) ==> r == KillResult(0, 0, [CannotKillCategory + CategoryDebug(c)]) && tracked == []
    ensures CanKill(c) ==>
      r.killed + r.failed == |CategoryTargets(ps, c)|
      && r.errors == KillErrors(ps, CategoryTargets(ps, c), sys)
      && tracked == TrackedAll(ps, CategoryTargets(ps, c), autoRestore, now)
  {
    if !CanKill(c) {
      return KillResult(0, 0, [CannotKillCategory + CategoryDebug(c)]), [];
    }
    r, tracked := KillMultiple(ps, CategoryTargets(ps, c), autoRestore, now, sys);
  }

  /** The targets of a category are exactly the pids of its killable processes. */
  lemma CategoryTargetsExact(ps: seq<ProcessInfo>, c: ProcessCategory, pid: nat)
    ensures pid in CategoryTargets(ps, c) <==>
      exists i :: 0 <= i < |ps| && ps[i].pid == pid && ps[i].category == c && ps[i].canKill
  {
    var kept := Retain(ps, InCategory(c));
    if pid in CategoryTargets(ps, c) {
      var k :| 0 <= k < |kept| && kept[k].pid == pid;
      assert InCategory(c)(kept[k]);
      var i :| 0 <= i < |ps| && ps[i] == kept[k];
    }
    if exists i :: 0 <= i < |ps| && ps[i].pid == pid && ps[i].category == c && ps[i].canKill {
      var i :| 0 <= i < |ps| && ps[i].pid == pid && ps[i].category == c && ps[i].canKill;
      assert InCategory(c)(ps[i]);
      var k :| 0 <= k < |kept| && kept[k] == ps[i];
      assert CategoryTargets(ps, c)[k] == pid;
    }
  }

  /** The lower-cased process name contains one of the lower-cased names. */
  predicate NamedBy(p: ProcessInfo, names: seq<string>)
  {
    exists k :: 0 <= k < |names| && Contains(Lower(p.name), Lower(names[k]))
  }

  function AnyName(p: ProcessInfo, names: seq<string>): (r: bool)
    ensures r <==> NamedBy(p, names)
  {
    if |names| == 0 then false
    else
      assert forall k :: 1 <= k < |names| ==> names[k] == names[1..][k - 1];
      Contains(Lower(p.name), Lower(names[0])) || AnyName(p, names[1..])
  }

  function NameTarget(names: seq<string>): ProcessInfo -> bool
  {
    (p: ProcessInfo) => p.canKill && AnyName(p, names)
  }

  /** The killable processes whose name contains one of the names, ignoring case. */
  function NameTargets(ps: seq<ProcessInfo>, names: seq<string>): seq<nat>
  {
    PidsOf(Retain(ps, NameTarget(names)))
  }

  /** `kill_by_names`. */
  method KillByNames(ps: seq<ProcessInfo>, names: seq<string>, autoRestore: bool, now: int, sys: System)
    returns (r: KillResult, tracked: seq<KilledProcessInfo>)
    ensures r.killed + r.failed == |NameTargets(ps, names)|
    ensures r.errors == KillErrors(ps, NameTargets(ps, names), sys)
    ensures tracked == TrackedAll(ps, NameTargets(ps, names), autoRestore, now)
  {
    r, tracked := KillMultiple(ps, NameTargets(ps, names), autoRestore, now, sys);
  }

  /** The targets by name are exactly the pids of killable processes named by one of
      the names. */
  lemma NameTargetsExact(ps: seq<ProcessInfo>, names: seq<string>, pid: nat)
    ensures pid in NameTargets(ps, names) <==>
      exists i :: 0 <= i < |ps| && ps[i].pid == pid && ps[i].canKill && NamedBy(ps[i], names)
  {
    var kept := Retain(ps, NameTarget(names));
    if pid in NameTargets(ps, names) {
      var k :| 0 <= k < |kept| && kept[k].pid == pid;
      assert NameTarget(names)(kept[k]);
      var i :| 0 <= i < |ps| && ps[i] == kept[k];
    }
    if exists i :: 0 <= i < |ps| && ps[i].pid == pid && ps[i].canKill && NamedBy(ps[i], names) {
      var i :| 0 <= i < |ps| && ps[i].pid == pid && ps[i].canKill && NamedBy(ps[i], names);
      assert NameTarget(names)(ps[i]);
      var k :| 0 <= k < |kept| && kept[k] == ps[i];
      assert NameTargets(ps, names)[k] == pid;
    }
  }

  /** Every name contains the empty string, so an empty entry among the names targets
      every killable process. */
  lemma EmptyNameTargetsAll(ps: seq<ProcessInfo>, names: seq<string>, k: nat)
    requires k < |names| && names[k] == ""
    ensures forall i :: 0 <= i < |ps| && ps[i].canKill ==> ps[i].pid in NameTargets(ps, names)
  {
    forall i | 0 <= i < |ps| && ps[i].canKill ensures ps[i].pid in NameTargets(ps, names) {
      ContainsAt(Lower(ps[i].name), Lower(names[k]), 0);
      assert NamedBy(ps[i], names);
      NameTargetsExact(ps, names, ps[i].pid);
    }
  }

  // ---------------------------------------------------------------- profiles

  /** `execute_profile`: the profiles are read, an unknown id is an error, and the
      processes the profile names are killed. */
  method ExecuteProfile(file: Option<Result<GamingProfileList>>, ids: (string, string, string), profileId: string,
                        ps: seq<ProcessInfo>, autoRestore: bool, now: int, sys: System)
    returns (r: Result<KillResult>, tracked: seq<KilledProcessInfo>)
    ensures GetProfiles(file, ids).Err? ==> r == Err(GetProfiles(file, ids).error) && tracked == []
    ensures GetProfiles(file, ids).Ok? && !HasKey(GetProfiles(file, ids).value, ProfileId, profileId) ==>
      r == Err(ProfileNotFound) && tracked == []
    ensures r.Ok? ==> GetProfiles(file, ids).Ok? && HasKey(GetProfiles(file, ids).value, ProfileId, profileId)
    ensures r.Ok? ==>
      var profile := GetProfiles(file, ids).value[IndexOf(GetProfiles(file, ids).value, ProfileId, profileId).value];
      r.value.killed + r.value.failed == |NameTargets(ps, profile.processesToKill)|
      && tracked == TrackedAll(ps, NameTargets(ps, profile.processesToKill), autoRestore, now)
  {
    match GetProfiles(file, ids)
    case Err(e) =>
      return Err(e), [];
    case Ok(profiles) =>
      HasKeyIndex(profiles, ProfileId, profileId);
      match IndexOf(profiles, ProfileId, profileId)
      case None =>
        return Err(ProfileNotFound), [];
      case Some(i) =>
        var res;
        res, tracked := KillByNames(ps, profiles[i].processesToKill, autoRestore, now, sys);
        r := Ok(res);
  }

  // ---------------------------------------------------------------- recommendations

  predicate Recommended(p: ProcessInfo, minMemoryMb: real)
  {
    p.canKill && p.memoryMb >= minMemoryMb && (p.category == MicrosoftBloat || p.category == BackgroundService)
  }

  function RecommendedAt(minMemoryMb: real): ProcessInfo -> bool
  {
    (p: ProcessInfo) => Recommended(p, minMemoryMb)
  }

  /** `get_kill_recommendations`: the killable bloat and background processes using at
      least the given memory, in snapshot order. */
  function KillRecommendations(ps: seq<ProcessInfo>, minMemoryMb: real): (r: seq<ProcessInfo>)
    ensures forall p :: p in r <==> p in ps && Recommended(p, minMemoryMb)
    ensures |r| <= |ps|
  {
    var r := Retain(ps, RecommendedAt(minMemoryMb));
    assert forall p :: p in r ==> p in ps && Recommended(p, minMemoryMb) by {
      forall p | p in r ensures p in ps && Recommended(p, minMemoryMb) {
        var k :| 0 <= k < |r| && r[k] == p;
        assert RecommendedAt(minMemoryMb)(r[k]);
      }
    }
    assert forall p :: p in ps && Recommended(p, minMemoryMb) ==> p in r by {
      forall p | p in ps && Recommended(p, minMemoryMb) ensures p in r {
        var i :| 0 <= i < |ps| && ps[i] == p;
        assert RecommendedAt(minMemoryMb)(ps[i]);
      }
    }
    r
  }

  /** Raising the memory threshold never adds a recommendation. */
  lemma RecommendationsMonotone(ps: seq<ProcessInfo>, low: real, high: real)
    requires low <= high
    ensures forall p :: p in KillRecommendations(ps, high) ==> p in KillRecommendations(ps, low)
  {
  }
}

=== FILE: train.dfy ===
/** The training script's control logic: the early-stopping state machine, the
    best-checkpoint rule of the epoch loop, the dataset's labelling and when
    augmentation applies.

    Training and evaluating an epoch are opaque: the loop is given the validation
    F1 score of each epoch. */
module Train {
  import opened Wrappers
  import opened AudioTypes
  import opened FeatureExtraction

  // ---------------------------------------------------------------- early stopping

  datatype EarlyStopping = EarlyStopping(
    patience: int,
    minDelta: real,
    counter: nat,
    bestScore: Option<real>,
    earlyStop: bool)

  function NewEarlyStopping(patience: int, minDelta: real): EarlyStopping
  {
    EarlyStopping(patience, minDelta, 0, None, false)
  }

  /** A score improves on the best unless it is below `best + min_delta`. */
  predicate Improves(es: EarlyStopping, score: real)
  {
    es.bestScore.None? || score >= es.bestScore.value + es.minDelta
  }

  /** `EarlyStopping.__call__`: the new state; its `earlyStop` is the return value. */
  function Step(es: EarlyStopping, score: real): (r: EarlyStopping)
    ensures r.patience == es.patience && r.minDelta == es.minDelta
    ensures r.bestScore.Some?
    ensures es.earlyStop ==> r.earlyStop
    ensures Improves(es, score) ==> r.bestScore == Some(score) && r.earlyStop == es.earlyStop
    ensures es.bestScore.None? ==> r.counter == es.counter
    ensures es.bestScore.Some? && Improves(es, score) ==> r.counter == 0
    ensures !Improves(es, score) ==>
      && r.bestScore == es.bestScore && r.counter == es.counter + 1
      && r.earlyStop == (es.earlyStop || es.counter + 1 >= es.patience)
  {
    if es.bestScore.None? then es.(bestScore := Some(score))
    else if score < es.bestScore.value + es.minDelta then
      var c := es.counter + 1;
      es.(counter := c, earlyStop := es.earlyStop || c >= es.patience)
    else es.(bestScore := Some(score), counter := 0)
  }

  /** The states after each call on a sequence of scores. */
  function Run(es: EarlyStopping, scores: seq<real>): EarlyStopping
    decreases |scores|
  {
    if |scores| == 0 then es else Run(Step(es, scores[0]), scores[1..])
  }

  /** Stopping, once signalled, stays signalled for any further scores. */
  lemma {:induction false} RunSticky(es: EarlyStopping, scores: seq<real>)
    ensures es.earlyStop ==> Run(es, scores).earlyStop
    ensures Run(es, scores).patience == es.patience
    decreases |scores|
  {
    if |scores| > 0 {
      RunSticky(Step(es, scores[0]), scores[1..]);
    }
  }

  /** With positive patience, stopping is signalled only after some prefix of the
      scores ends in a streak of `patience` misses; while it is not signalled the
      current streak is shorter than the patience. */
  lemma {:induction false} StopMeansStreak(es: EarlyStopping, scores: seq<real>)
    requires es.patience > 0 && !es.earlyStop && es.counter < es.patience
    ensures !Run(es, scores).earlyStop ==> Run(es, scores).counter < es.patience
    ensures Run(es, scores).earlyStop ==> exists k :: 0 <= k < |scores| && StreakAt(es, scores, k)
    decreases |scores|
  {
    if |scores| > 0 {
      var next := Step(es, scores[0]);
      if next.earlyStop {
        assert scores[..1] == [scores[0]];
        assert Run(es, scores[..1]) == Run(next, []);
        RunSticky(next, scores[1..]);
        assert StreakAt(es, scores, 0);
      } else {
        StopMeansStreak(next, scores[1..]);
        if Run(es, scores).earlyStop {
          var k :| 0 <= k < |scores[1..]| && StreakAt(next, scores[1..], k);
          assert scores[..k + 2][1..] == scores[1..][..k + 1];
          assert Run(es, scores[..k + 2]) == Run(next, scores[1..][..k + 1]);
          assert StreakAt(es, scores, k + 1);
        }
      }
    }
  }

  /** The first `k + 1` calls end with a streak of at least `patience` misses. */
  predicate StreakAt(es: EarlyStopping, scores: seq<real>, k: nat)
    requires k < |scores|
  {
    Run(es, scores[..k + 1]).counter >= es.patience
  }

  /** With a non-negative `min_delta` the best score never decreases. */
  lemma BestNonDecreasing(es: EarlyStopping, score: real)
    requires es.minDelta >= 0.0 && es.bestScore.Some?
    ensures Step(es, score).bestScore.value >= es.bestScore.value
  {
  }

  // ---------------------------------------------------------------- epoch loop

  /** What the loop leaves behind: the best F1, the epochs at which the checkpoint was
      written, and how many epochs ran. */
  datatype TrainingOutcome = TrainingOutcome(bestF1: real, checkpoints: seq<nat>, epochsRun: nat)

  /** Epoch `k`'s validation F1 is above 0 and above every earlier epoch's: the epochs
      at which the loop writes a checkpoint. */
  predicate NewBest(valF1: seq<real>, k: nat)
    requires k < |valF1|
  {
    valF1[k] > 0.0 && forall j :: 0 <= j < k ==> valF1[j] < valF1[k]
  }

  /** The best F1 after the first `n` epochs, starting from 0. */
  function BestUpTo(valF1: seq<real>, n: nat): real
    requires n <= |valF1|
  {
    if n == 0 then 0.0
    else
      var b := BestUpTo(valF1, n - 1);
      if valF1[n - 1] > b then valF1[n - 1] else b
  }

  /** The checkpoint epochs among the first `n`. */
  function SavedUpTo(valF1: seq<real>, n: nat): seq<nat>
    requires n <= |valF1|
  {
    if n == 0 then []
    else SavedUpTo(valF1, n - 1) + (if valF1[n - 1] > BestUpTo(valF1, n - 1) then [n - 1] else [])
  }

  /** The best is at least 0 and every epoch's F1; when above 0 it is the last
      checkpoint's F1. */
  lemma {:induction false} BestUpToProps(valF1: seq<real>, n: nat)
    requires n <= |valF1|
    ensures var b, s := BestUpTo(valF1, n), SavedUpTo(valF1, n);
      && b >= 0.0
      && (forall k :: 0 <= k < n ==> valF1[k] <= b)
      && (forall i :: 0 <= i < |s| ==> s[i] < n)
      && (b > 0.0 ==> |s| > 0)
      && (|s| > 0 ==> valF1[s[|s| - 1]] == b)
  {
    if n > 0 {
      BestUpToProps(valF1, n - 1);
    }
  }

  /** An epoch is a new best exactly when its F1 beats the best before it. */
  lemma NewBestIff(valF1: seq<real>, k: nat)
    requires k < |valF1|
    ensures NewBest(valF1, k) <==> valF1[k] > BestUpTo(valF1, k)
  {
    BestUpToProps(valF1, k);
  }

  /** Every new-best epoch among the first `n` is a checkpoint. */
  lemma {:induction false} SavedComplete(valF1: seq<real>, n: nat)
    requires n <= |valF1|
    ensures forall k :: 0 <= k < n && NewBest(valF1, k) ==> k in SavedUpTo(valF1, n)
  {
    if n > 0 {
      SavedComplete(valF1, n - 1);
      NewBestIff(valF1, n - 1);
      var s := SavedUpTo(valF1, n);
      assert s[..|SavedUpTo(valF1, n - 1)|] == SavedUpTo(valF1, n - 1);
      forall k | 0 <= k < n && NewBest(valF1, k) ensures k in s {
        if k < n - 1 {
          var i :| 0 <= i < |SavedUpTo(valF1, n - 1)| && SavedUpTo(valF1, n - 1)[i] == k;
          assert s[i] == k;
        } else {
          assert s[|s| - 1] == k;
        }
      }
    }
  }

  /** Every listed epoch is below `n` and a new best, and the list increases. */
  predicate SoundCheckpoints(valF1: seq<real>, s: seq<nat>, n: nat)
  {
    && (forall i :: 0 <= i < |s| ==> s[i] < n && s[i] < |valF1| && NewBest(valF1, s[i]))
    && (forall i, j :: 0 <= i < j < |s| ==> s[i] < s[j])
  }

  /** Every checkpoint among the first `n` epochs is a new-best epoch, in increasing order. */
  lemma {:induction false} SavedSound(valF1: seq<real>, n: nat)
    requires n <= |valF1|
    ensures SoundCheckpoints(valF1, SavedUpTo(valF1, n), n)
  {
    if n > 0 {
      SavedSound(valF1, n - 1);
      NewBestIff(valF1, n - 1);
      var p := SavedUpTo(valF1, n - 1);
      var s := SavedUpTo(valF1, n);
      assert forall i :: 0 <= i < |p| ==> s[i] == p[i];
      assert |s| > |p| ==> |s| == |p| + 1 && s[|p|] == n - 1;
      forall i | 0 <= i < |s| ensures s[i] < n && s[i] < |valF1| && NewBest(valF1, s[i]) {
        if i < |p| { assert s[i] == p[i]; }
      }
      forall i, j | 0 <= i < j < |s| ensures s[i] < s[j] {
        if j < |p| { assert s[i] == p[i] && s[j] == p[j]; }
        else { assert s[i] == p[i]; }
      }
    }
  }

  /** Increasing new-best epochs have increasing F1. */
  lemma CheckpointsImprove(valF1: seq<real>, s: seq<nat>, n: nat)
    requires SoundCheckpoints(valF1, s, n)
    ensures forall i, j :: 0 <= i < j < |s| ==> valF1[s[i]] < valF1[s[j]]
  {
    forall i, j | 0 <= i < j < |s| ensures valF1[s[i]] < valF1[s[j]] {
      assert NewBest(valF1, s[j]);
    }
  }

  /** The epoch loop: the checkpoint is rewritten when the validation F1 is strictly
      above the best so far (starting from 0), then early stopping may end the loop. */
  method TrainLoop(epochs: int, valF1: seq<real>, patience: int) returns (out: TrainingOutcome)
    requires epochs <= |valF1|
    ensures out.epochsRun <= if epochs < 0 then 0 else epochs
    ensures forall i :: 0 <= i < |out.checkpoints| ==> out.checkpoints[i] < out.epochsRun
    ensures forall k :: 0 <= k < out.epochsRun ==> valF1[k] <= out.bestF1
    ensures out.bestF1 >= 0.0
    ensures out.bestF1 > 0.0 ==> |out.checkpoints| > 0 && valF1[out.checkpoints[|out.checkpoints| - 1]] == out.bestF1
    ensures forall i, j :: 0 <= i < j < |out.checkpoints| ==>
      out.checkpoints[i] < out.checkpoints[j] && valF1[out.checkpoints[i]] < valF1[out.checkpoints[j]]
    ensures forall k :: 0 <= k < out.epochsRun && NewBest(valF1, k) ==> k in out.checkpoints
    ensures forall i :: 0 <= i < |out.checkpoints| ==> out.checkpoints[i] < |valF1| && NewBest(valF1, out.checkpoints[i])
    ensures out.epochsRun < epochs ==> Run(NewEarlyStopping(patience, 0.0), valF1[..out.epochsRun]).earlyStop
    ensures forall k :: 0 <= k < out.epochsRun ==> !Run(NewEarlyStopping(patience, 0.0), valF1[..k]).earlyStop
  {
    var best := 0.0;
    var saved: seq<nat> := [];
    var es := NewEarlyStopping(patience, 0.0);
    var epoch := 0;
    var n := if epochs < 0 then 0 else epochs;
    while epoch < n && !es.earlyStop
      invariant 0 <= epoch <= n
      invariant best == BestUpTo(valF1, epoch) && saved == SavedUpTo(valF1, epoch)
      invariant es == Run(NewEarlyStopping(patience, 0.0), valF1[..epoch])
      invariant forall k :: 0 <= k < epoch ==> !Run(NewEarlyStopping(patience, 0.0), valF1[..k]).earlyStop
    {
      var f1 := valF1[epoch];
      if f1 > best {
        best := f1;
        saved := saved + [epoch];
      }
      RunSnoc(NewEarlyStopping(patience, 0.0), valF1, epoch);
      es := Step(es, f1);
      epoch := epoch + 1;
    }
    BestUpToProps(valF1, epoch);
    SavedComplete(valF1, epoch);
    SavedSound(valF1, epoch);
    CheckpointsImprove(valF1, saved, epoch);
    out := TrainingOutcome(best, saved, epoch);
  }

  /** One more call extends the run by one score. */
  lemma {:induction false} RunSnoc(es: EarlyStopping, scores: seq<real>, n: nat)
    requires n < |scores|
    ensures Run(es, scores[..n + 1]) == Step(Run(es, scores[..n]), scores[n])
    decreases n
  {
    if n > 0 {
      assert scores[..n + 1][1..] == scores[1..][..n];
      assert scores[..n][1..] == scores[1..][..n - 1];
      RunSnoc(Step(es, scores[0]), scores[1..], n - 1);
    }
  }

  // ---------------------------------------------------------------- dataset

  /** `AudioDataset.samples`: every positive file labelled 1, then every negative file
      labelled 0. */
  function DatasetSamples<F>(positives: seq<F>, negatives: seq<F>): (r: seq<(F, int)>)
    ensures |r| == |positives| + |negatives|
  {
    seq(|positives|, i requires 0 <= i < |positives| => (positives[i], 1))
    + seq(|negatives|, i requires 0 <= i < |negatives| => (negatives[i], 0))
  }

  /** Sample i is labelled 1 exactly when it comes from the positive list, and it is that
      list's file. */
  lemma DatasetLabels<F>(positives: seq<F>, negatives: seq<F>, i: nat)
    requires i < |positives| + |negatives|
    ensures DatasetSamples(positives, negatives)[i].1 == 1 <==> i < |positives|
    ensures DatasetSamples(positives, negatives)[i].0 ==
      if i < |positives| then positives[i] else negatives[i - |positives|]
  {
  }

  /** `_apply_augmentation`: three coin flips below 0.5 enable time masking, frequency
      masking and gain, with the configured widths and gain range. */
  function TrainAugment(spec: Spectrogram, cfg: TrainingConfig, coins: (real, real, real), d: AugmentDraws): Spectrogram
    requires |cfg.gainRange| >= 2
    requires ValidDraws(spec, TrainAugmentOptions(cfg, coins), d)
  {
    Augment(spec, TrainAugmentOptions(cfg, coins), d)
  }

  function TrainAugmentOptions(cfg: TrainingConfig, coins: (real, real, real)): AugmentOptions
    requires |cfg.gainRange| >= 2
  {
    AugmentOptions(cfg.timeMaskMaxWidth, cfg.freqMaskMaxWidth, cfg.gainRange[0], cfg.gainRange[1],
      coins.0 < 0.5, coins.1 < 0.5, coins.2 < 0.5)
  }

  /** `__getitem__`: the loaded spectrogram, augmented only for an augmenting training
      split. */
  function GetItem(spec: Spectrogram, split: string, augment: bool, cfg: TrainingConfig,
                   coins: (real, real, real), d: AugmentDraws): (r: Spectrogram)
    requires |cfg.gainRange| >= 2
    requires ValidDraws(spec, TrainAugmentOptions(cfg, coins), d)
    ensures !(augment && split == "train") ==> r == spec
    ensures SameShape(r, spec)
  {
    if augment && split == "train" then TrainAugment(spec, cfg, coins, d) else spec
  }

  /** When no coin enables a step, the training sample is unchanged. */
  lemma NoCoinNoChange(spec: Spectrogram, cfg: TrainingConfig, coins: (real, real, real), d: AugmentDraws)
    requires |cfg.gainRange| >= 2
    requires coins.0 >= 0.5 && coins.1 >= 0.5 && coins.2 >= 0.5
    ensures GetItem(spec, "train", true, cfg, coins, d) == spec
  {
  }
}

=== FILE: valorant.dfy ===
/** The Valorant store commands: the daily rotation boundary, the auto-refresh test,
    the store read from the checker worker's reply and saved one entry per day, and
    the history listing.

    Times are whole seconds since the Unix epoch, UTC. The store history file is
    `None` when it does not exist and `Some(Err(..))` when it cannot be read. Parsing
    an RFC 3339 time, the clock and the worker itself are parameters. */
module ValorantCommands {
  import opened Wrappers
  import opened Records
  import opened Sorting

  // ---------------------------------------------------------------- data

  datatype ValorantItem = ValorantItem(name: string, price: nat, imageUrl: Option<string>, itemType: string)

  datatype ValorantStore = ValorantStore(
    date: string,
    items: seq<ValorantItem>,
    checkedAt: string,
    isRealData: Option<bool>)

  type StoreFile = Option<Result<seq<ValorantStore>>>

  function Date(s: ValorantStore): string { s.date }

  // ---------------------------------------------------------------- rotation

  const Day: int := 86400
  const Hour: int := 3600
  /** GMT+8, where the store resets at 08:00. */
  const Offset: int := 8 * Hour

  /** `get_current_rotation_start`: 08:00 GMT+8 of the current GMT+8 day when that
      day's hour is 8 or later, else 08:00 of the day before. */
  function RotationStart(now: int): (r: int)
    ensures r <= now < r + Day
  {
    var local := now + Offset;
    var dayStart := (local / Day) * Day;
    assert 0 <= local - dayStart < Day;
    var hour := (local - dayStart) / Hour;
    assert hour >= 8 <==> local - dayStart >= Offset;
    var rotationLocal := (if hour >= 8 then dayStart else dayStart - Day) + 8 * Hour;
    rotationLocal - Offset
  }

  /** 08:00 GMT+8 is midnight UTC: the rotation starts at the UTC day boundary at or
      before now. */
  lemma RotationIsUtcMidnight(now: int)
    ensures RotationStart(now) == (now / Day) * Day
  {
    var r := RotationStart(now);
    var local := now + Offset;
    assert r % Day == 0 by {
      assert (local / Day) * Day % Day == 0;
    }
    var q := now / Day;
    assert q * Day <= now < q * Day + Day;
    var k := r / Day;
    assert r == k * Day;
  }

  /** Two moments share a rotation exactly when they lie in the same UTC day. */
  lemma SameRotation(a: int, b: int)
    requires a <= b
    ensures RotationStart(a) == RotationStart(b) <==> RotationStart(b) <= a
  {
    RotationIsUtcMidnight(a);
    RotationIsUtcMidnight(b);
    var ra := RotationStart(a);
    var rb := RotationStart(b);
    if rb <= a {
      assert ra == rb by {
        var qa := a / Day;
        var qb := b / Day;
        assert qb * Day <= a;
        assert qa * Day <= a < qa * Day + Day;
      }
    }
  }

  // ---------------------------------------------------------------- auto refresh

  /** `should_auto_refresh_store`: refresh when there is no file, no entry, or the last
      entry's check time does not parse; otherwise exactly when that check precedes
      the current rotation. */
  function ShouldAutoRefresh(file: StoreFile, parseTime: string -> Option<int>, now: int): (r: Result<bool>)
    ensures file.None? ==> r == Ok(true)
    ensures file.Some? && file.value.Err? ==> r == Err(file.value.error)
    ensures file.Some? && file.value.Ok? ==> r.Ok?
    ensures r == Ok(false) <==>
      && file.Some? && file.value.Ok? && |file.value.value| > 0
      && var last := file.value.value[|file.value.value| - 1];
         parseTime(last.checkedAt).Some? && RotationStart(now) <= parseTime(last.checkedAt).value
  {
    if file.None? then Ok(true)
    else if file.value.Err? then Err(file.value.error)
    else
      var stores := file.value.value;
      if |stores| == 0 then Ok(true)
      else match parseTime(stores[|stores| - 1].checkedAt)
        case None => Ok(true)
        case Some(lastChecked) => Ok(lastChecked < RotationStart(now))
  }

  /** `get_valorant_store`: the last saved entry, if any. */
  function GetValorantStore(file: StoreFile): (r: Result<Option<ValorantStore>>)
    ensures file.None? ==> r == Ok(None)
    ensures file.Some? && file.value.Err? ==> r == Err(file.value.error)
    ensures file.Some? && file.value.Ok? ==>
      var stores := file.value.value;
      && r.Ok?
      && (r.value.None? <==> |stores| == 0)
      && (r.value.Some? ==> r.value.value == stores[|stores| - 1])
  {
    if file.None? then Ok(None)
    else if file.value.Err? then Err(file.value.error)
    else if |file.value.value| == 0 then Ok(None)
    else Ok(Some(file.value.value[|file.value.value| - 1]))
  }

  // ---------------------------------------------------------------- checking the store

  const U32Modulus: nat := 0x1_0000_0000

  /** One entry of the worker's `items` array: each field `None` when missing or of
      the wrong type; a price is present only when it is a non-negative integer. */
  datatype ItemEntry = ItemEntry(name: Option<string>, price: Option<nat>, imageUrl: Option<string>, itemType: Option<string>)

  predicate Usable(e: ItemEntry) { e.name.Some? && e.price.Some? }

  /** The item an entry with a name and a price gives: the price cast to `u32`, the
      type "skin" when missing. */
  function ItemOf(e: ItemEntry): (r: ValorantItem)
    requires Usable(e)
    ensures r.price < U32Modulus
    ensures e.price.value < U32Modulus ==> r.price == e.price.value
    ensures r.itemType == e.itemType.GetOr("skin")
  {
    ValorantItem(e.name.value, e.price.value % U32Modulus, e.imageUrl, e.itemType.GetOr("skin"))
  }

  /** The items of the reply: entries without a name or a price are skipped. */
  function Items(entries: seq<ItemEntry>): (r: seq<ValorantItem>)
    ensures |r| <= |entries|
    ensures forall i :: 0 <= i < |r| ==> exists e :: e in entries && Usable(e) && r[i] == ItemOf(e)
    ensures forall e :: e in entries && Usable(e) ==> ItemOf(e) in r
    ensures (forall i :: 0 <= i < |entries| ==> Usable(entries[i])) ==> |r| == |entries|
  {
    if |entries| == 0 then []
    else
      var e := entries[0];
      var tail := Items(entries[1..]);
      assert forall x :: x in entries[1..] ==> x in entries;
      if Usable(e) then [ItemOf(e)] + tail else tail
  }

  /** The checker's reply; a field is `None` when missing or of the wrong type. */
  datatype CheckerReply = CheckerReply(
    date: Option<string>,
    checkedAt: Option<string>,
    items: Option<seq<ItemEntry>>,
    isRealData: Option<bool>)

  /** The store built from a reply: missing texts become empty, missing items none. */
  function StoreOf(reply: CheckerReply): (r: ValorantStore)
    ensures r.date == reply.date.GetOr("") && r.checkedAt == reply.checkedAt.GetOr("")
    ensures reply.items.None? ==> r.items == []
    ensures reply.items.Some? ==> r.items == Items(reply.items.value)
    ensures r.isRealData == reply.isRealData
  {
    ValorantStore(reply.date.GetOr(""), if reply.items.Some? then Items(reply.items.value) else [],
                  reply.checkedAt.GetOr(""), reply.isRealData)
  }

  /** The region the worker is asked about: "na" unless one is given. */
  function WorkerRegion(region: Option<string>): (r: string)
    ensures region.Some? ==> r == region.value
    ensures region.None? ==> r == "na"
  {
    region.GetOr("na")
  }

  /** Saving a store: the first entry dated today is replaced, else it is appended. */
  function SaveStore(stores: seq<ValorantStore>, store: ValorantStore, today: string): (r: seq<ValorantStore>)
    ensures HasKey(stores, Date, today) ==> |r| == |stores|
    ensures !HasKey(stores, Date, today) ==> r == stores + [store]
    ensures store in r
    ensures forall i :: 0 <= i < |stores| && stores[i].date != today ==> i < |r| && r[i] == stores[i]
  {
    HasKeyIndex(stores, Date, today);
    match IndexOf(stores, Date, today)
    case Some(i) =>
      assert stores[i := store][i] == store;
      stores[i := store]
    case None => stores + [store]
  }

  /** When the store is dated today, saving keeps at most one entry per date. */
  lemma SaveKeepsDatesUnique(stores: seq<ValorantStore>, store: ValorantStore, today: string)
    requires UniqueKeys(stores, Date) && store.date == today
    ensures UniqueKeys(SaveStore(stores, store, today), Date)
  {
    var r := SaveStore(stores, store, today);
    HasKeyIndex(stores, Date, today);
    if !HasKey(stores, Date, today) {
      forall i, j | 0 <= i < j < |r| ensures Date(r[i]) != Date(r[j]) {
        if j == |stores| {
          assert Date(r[i]) == Date(stores[i]);
        }
      }
    }
  }

  /** `check_valorant_store`: the store read from the worker's reply, and the history
      with it saved; a failing worker or an unreadable history is an error. */
  function CheckStore(worker: Result<CheckerReply>, file: StoreFile, today: string): (r: Result<(ValorantStore, seq<ValorantStore>)>)
    ensures worker.Err? ==> r == Err(worker.error)
    ensures worker.Ok? && file.Some? && file.value.Err? ==> r == Err(file.value.error)
    ensures worker.Ok? && (file.None? || file.value.Ok?) ==>
      r == Ok((StoreOf(worker.value), SaveStore(if file.None? then [] else file.value.value, StoreOf(worker.value), today)))
  {
    var reply :- worker;
    var store := StoreOf(reply);
    var stores :- if file.None? then Ok([]) else file.value;
    Ok((store, SaveStore(stores, store, today)))
  }

  /** A check that saves a new day's store, with a check time of now, ends the need to
      refresh for the rest of the rotation. */
  lemma CheckEndsRefresh(reply: CheckerReply, stores: seq<ValorantStore>, today: string,
                         parseTime: string -> Option<int>, now: int, later: int)
    requires !HasKey(stores, Date, today)
    requires reply.checkedAt.Some? && parseTime(reply.checkedAt.value) == Some(now)
    requires now <= later && RotationStart(later) <= now
    ensures var saved := CheckStore(Ok(reply), Some(Ok(stores)), today).value.1;
      ShouldAutoRefresh(Some(Ok(saved)), parseTime, later) == Ok(false)
  {
  }

  // ---------------------------------------------------------------- history

  const DefaultHistoryLimit: nat := 30

  /** The order of `sort_by(|a, b| b.date.cmp(&a.date))`: later dates first. */
  function DateDesc(): (ValorantStore, ValorantStore) -> bool
  {
    (a: ValorantStore, b: ValorantStore) => StrLe(b.date, a.date)
  }

  lemma DateDescOrder()
    ensures Total(DateDesc()) && Transitive(DateDesc())
  {
    forall a: ValorantStore, b: ValorantStore
      ensures DateDesc()(a, b) || DateDesc()(b, a)
    {
      StrLeTotal(a.date, b.date);
    }
    forall a: ValorantStore, b: ValorantStore, c: ValorantStore | DateDesc()(a, b) && DateDesc()(b, c)
      ensures DateDesc()(a, c)
    {
      StrLeTrans(c.date, b.date, a.date);
    }
  }

  /** `get_store_history`: every entry, latest date first, cut to the limit (30 when
      none is given). */
  function StoreHistory(file: StoreFile, limit: Option<nat>): (r: Result<seq<ValorantStore>>)
    ensures file.None? ==> r == Ok([])
    ensures file.Some? && file.value.Err? ==> r == Err(file.value.error)
    ensures file.Some? && file.value.Ok? ==> r.Ok?
    ensures r.Ok? && file.Some? ==>
      var n := |file.value.value|;
      var cap := limit.GetOr(DefaultHistoryLimit);
      && |r.value| == (if n > cap then cap else n)
      && SortedBy(r.value, DateDesc())
      && r.value == SortBy(file.value.value, DateDesc())[..|r.value|]
  {
    if file.None? then Ok([])
    else if file.value.Err? then Err(file.value.error)
    else
      var sorted := SortBy(file.value.value, DateDesc());
      DateDescOrder();
      SortBySorted(file.value.value, DateDesc());
      var cap := limit.GetOr(DefaultHistoryLimit);
      if |sorted| > cap then Ok(sorted[..cap]) else Ok(sorted)
  }

  /** The history keeps the latest dates: every entry it drops is dated no later than
      every entry it keeps, and every entry it keeps is stored. */
  lemma HistoryKeepsLatest(stores: seq<ValorantStore>, limit: Option<nat>)
    ensures var h := StoreHistory(Some(Ok(stores)), limit).value;
      var sorted := SortBy(stores, DateDesc());
      && (forall x :: x in h ==> x in stores)
      && forall i, j :: 0 <= i < |h| <= j < |sorted| ==> StrLe(sorted[j].date, h[i].date)
  {
    var h := StoreHistory(Some(Ok(stores)), limit).value;
    var sorted := SortBy(stores, DateDesc());
    DateDescOrder();
    SortBySorted(stores, DateDesc());
    forall x | x in h ensures x in stores {
      SortByMembers(stores, DateDesc(), x);
    }
    forall i, j | 0 <= i < |h| <= j < |sorted| ensures StrLe(sorted[j].date, h[i].date) {
      assert h[i] == sorted[i];
      assert DateDesc()(sorted[i], sorted[j]);
    }
  }
}

=== FILE: valorant_checker.dfy ===
/** The Valorant store checker worker: the region's shard, the token fragment of the
    re-authorisation redirect, the skin-name clean-up, the storefront's daily offers,
    and the reply it prints.

    Every request to Riot or to the public skin catalogue is a function parameter of
    `RiotApi` that answers `None` when the request fails; percent-decoding is the
    `unquote` parameter. */
module ValorantChecker {
  import opened Wrappers
  import opened Strings

  // ---------------------------------------------------------------- shards

  const RegionShards: map<string, string> :=
    map["na" := "na", "latam" := "na", "br" := "na", "eu" := "eu", "ap" := "ap", "kr" := "kr", "pbe" := "pbe"]

  const Shards: set<string> := {"na", "eu", "ap", "kr", "pbe"}

  /** The shard the store lives on: Latin America and Brazil share North America's,
      and a region that is not given or not known goes to Asia-Pacific. */
  function Shard(region: Option<string>): (r: string)
    ensures r in Shards
    ensures region == Some("latam") || region == Some("br") ==> r == "na"
    ensures region.Some? && region.value in Shards ==> r == region.value
    ensures region.None? || region.value !in RegionShards ==> r == "ap"
  {
    var name := region.GetOr("ap");
    if name in RegionShards then RegionShards[name] else "ap"
  }

  /** A shard is its own shard. */
  lemma ShardIdempotent(region: Option<string>)
    ensures Shard(Some(Shard(region))) == Shard(region)
  {
  }

  // ---------------------------------------------------------------- skin names

  predicate IsSpace(c: char) { c in Whitespace }

  /** The length of the longest suffix of `s` whose characters all satisfy `p`. */
  function TrailingCount(s: string, p: char -> bool): (n: nat)
    ensures n <= |s|
    ensures forall i :: |s| - n <= i < |s| ==> p(s[i])
    ensures n < |s| ==> !p(s[|s| - n - 1])
    decreases |s|
  {
    if |s| > 0 && p(s[|s| - 1]) then 1 + TrailingCount(s[..|s| - 1], p) else 0
  }

  /** Where the match of `\s+Level\s+\d+$` (case-insensitive) starts in `body`, if it
      matches: the trailing digits, the whitespace before them, the five letters of
      "level" in any case, and the whole whitespace run before those. */
  function LevelSuffixStart(body: string): (r: Option<nat>)
    ensures r.Some? ==> r.value < |body|
  {
    var d := TrailingCount(body, IsDigit);
    if d == 0 then None else BeforeDigits(body[..|body| - d])
  }

  /** The match in the body left once the trailing digits are cut off. */
  function BeforeDigits(b1: string): (r: Option<nat>)
    ensures r.Some? ==> r.value < |b1|
  {
    var w2 := TrailingCount(b1, IsSpace);
    if w2 == 0 then None else BeforeSpace(b1[..|b1| - w2])
  }

  /** The match once the whitespace before the digits is cut off too. */
  function BeforeSpace(b2: string): (r: Option<nat>)
    ensures r.Some? ==> r.value < |b2|
  {
    if |b2| < 5 || Lower(b2[|b2| - 5..]) != "level" then None else BeforeLevel(b2[..|b2| - 5])
  }

  /** The match once "level" is cut off: where the whitespace before it begins. */
  function BeforeLevel(b3: string): (r: Option<nat>)
    ensures r.Some? ==> r.value < |b3|
  {
    var w1 := TrailingCount(b3, IsSpace);
    if w1 == 0 then None else Some(|b3| - w1)
  }

  /** `_clean_skin_name`: drops one trailing " Level N" and trims. The pattern's `$`
      also matches just before a final newline, which then stays until the trim. */
  function CleanSkinName(name: string): (r: string)
    ensures |r| > 0 ==> !IsSpace(r[0]) && !IsSpace(r[|r| - 1])
  {
    var body := if |name| > 0 && name[|name| - 1] == '\n' then name[..|name| - 1] else name;
    var tail := name[|body|..];
    match LevelSuffixStart(body)
    case None => Trim(name)
    case Some(k) => Trim(body[..k] + tail)
  }

  /** A name without digits only gets trimmed. */
  lemma CleanWithoutDigits(name: string)
    requires forall i :: 0 <= i < |name| ==> !IsDigit(name[i])
    ensures CleanSkinName(name) == Trim(name)
  {
    var body := if |name| > 0 && name[|name| - 1] == '\n' then name[..|name| - 1] else name;
    if |body| > 0 {
      assert body[|body| - 1] == name[|body| - 1];
    }
    assert TrailingCount(body, IsDigit) == 0;
  }

  /** A level suffix after a name that ends in a visible character is removed, and
      only that one suffix: an earlier "Level N" inside the name stays. */
  lemma {:induction false} CleanRemovesLevel(n: string, w1: string, level: string, w2: string, digits: string)
    requires |n| == 0 || !IsSpace(n[|n| - 1])
    requires |w1| > 0 && forall i :: 0 <= i < |w1| ==> IsSpace(w1[i])
    requires |level| == 5 && Lower(level) == "level"
    requires |w2| > 0 && forall i :: 0 <= i < |w2| ==> IsSpace(w2[i])
    requires |digits| > 0 && AllDigits(digits)
    ensures CleanSkinName(n + w1 + level + w2 + digits) == Trim(n)
  {
    var name := n + w1 + level + w2 + digits;
    assert name[|name| - 1] == digits[|digits| - 1];
    LevelSuffixFound(n, w1, level, w2, digits);
    assert name[..|n|] == n;
    assert name[|name|..] == [];
    assert n + [] == n;
  }

  /** The suffix pattern matches where the whitespace before "level" begins. */
  lemma LevelSuffixFound(n: string, w1: string, level: string, w2: string, digits: string)
    requires |n| == 0 || !IsSpace(n[|n| - 1])
    requires |w1| > 0 && forall i :: 0 <= i < |w1| ==> IsSpace(w1[i])
    requires |level| == 5 && Lower(level) == "level"
    requires |w2| > 0 && forall i :: 0 <= i < |w2| ==> IsSpace(w2[i])
    requires |digits| > 0 && AllDigits(digits)
    ensures LevelSuffixStart(n + w1 + level + w2 + digits) == Some(|n|)
  {
    var b3 := n + w1;
    var b2 := b3 + level;
    var b1 := b2 + w2;
    assert b1[|b1| - 1] == w2[|w2| - 1];
    SpaceNotDigit(w2[|w2| - 1]);
    DigitsStage(b1, digits);
    assert b2[|b2| - 1] == level[4];
    LevelEndsInLetter(level);
    SpaceStage(b2, w2);
    LevelStage(b3, level);
    LevelStart(n, w1);
  }

  lemma SpaceNotDigit(c: char)
    requires IsSpace(c)
    ensures !IsDigit(c)
  {
  }

  /** The last letter of any spelling of "level" is an L, not whitespace. */
  lemma LevelEndsInLetter(level: string)
    requires |level| == 5 && Lower(level) == "level"
    ensures !IsSpace(level[4])
  {
    assert LowerChar(level[4]) == 'l';
  }

  lemma DigitsStage(b1: string, digits: string)
    requires |digits| > 0 && AllDigits(digits) && (|b1| == 0 || !IsDigit(b1[|b1| - 1]))
    ensures LevelSuffixStart(b1 + digits) == BeforeDigits(b1)
  {
    TrailingExact(b1, digits, IsDigit);
    SplitEnd(b1, digits);
  }

  lemma SpaceStage(b2: string, w2: string)
    requires |w2| > 0 && (forall i :: 0 <= i < |w2| ==> IsSpace(w2[i])) && (|b2| == 0 || !IsSpace(b2[|b2| - 1]))
    ensures BeforeDigits(b2 + w2) == BeforeSpace(b2)
  {
    TrailingExact(b2, w2, IsSpace);
    SplitEnd(b2, w2);
  }

  lemma LevelStage(b3: string, level: string)
    requires |level| == 5 && Lower(level) == "level"
    ensures BeforeSpace(b3 + level) == BeforeLevel(b3)
  {
    SplitEnd(b3, level);
  }

  lemma LevelStart(n: string, w1: string)
    requires |w1| > 0 && (forall i :: 0 <= i < |w1| ==> IsSpace(w1[i])) && (|n| == 0 || !IsSpace(n[|n| - 1]))
    ensures BeforeLevel(n + w1) == Some(|n|)
  {
    TrailingExact(n, w1, IsSpace);
  }

  /** Both halves of a concatenation are recovered by slicing. */
  lemma SplitEnd(a: string, b: string)
    ensures (a + b)[..|a + b| - |b|] == a && (a + b)[|a + b| - |b|..] == b
  {
  }

  /** The trailing run of `a + b` is `b` when `b` satisfies `p` throughout and `a`
      does not end in such a character. */
  lemma {:induction false} TrailingExact(a: string, b: string, p: char -> bool)
    requires forall i :: 0 <= i < |b| ==> p(b[i])
    requires |a| == 0 || !p(a[|a| - 1])
    ensures TrailingCount(a + b, p) == |b|
    decreases |b|
  {
    if |b| > 0 {
      var s := a + b;
      assert s[..|s| - 1] == a + b[..|b| - 1];
      TrailingExact(a, b[..|b| - 1], p);
    } else {
      assert a + b == a;
    }
  }

  // ---------------------------------------------------------------- tokens

  /** The tokens `_cookie_reauth` hands back. */
  datatype Tokens = Tokens(accessToken: string, idToken: string, tokenType: string, expiresIn: string)

  /** The index of the first `c` in `s`. */
  function IndexOfChar(s: string, c: char): (r: Option<nat>)
    ensures r.None? <==> c !in s
    ensures r.Some? ==> r.value < |s| && s[r.value] == c && c !in s[..r.value]
  {
    if |s| == 0 then None
    else if s[0] == c then Some(0)
    else
      var rest := IndexOfChar(s[1..], c);
      if rest.None? then None
      else
        assert s[..rest.value + 1] == [s[0]] + s[1..][..rest.value];
        Some(rest.value + 1)
  }

  /** `p.split("=", 1)` of a piece that holds an equals sign. */
  function PairOf(p: string): (r: Option<(string, string)>)
    ensures r.None? <==> '=' !in p
    ensures r.Some? ==> p == r.value.0 + "=" + r.value.1 && '=' !in r.value.0
  {
    match IndexOfChar(p, '=')
    case None => None
    case Some(i) =>
      assert p == p[..i] + "=" + p[i + 1..];
      Some((p[..i], p[i + 1..]))
  }

  /** The key/value pairs of the pieces that hold an equals sign, in order. */
  function PairsOf(parts: seq<string>): (r: seq<(string, string)>)
    ensures |r| <= |parts|
  {
    if |parts| == 0 then []
    else
      match PairOf(parts[0])
      case None => PairsOf(parts[1..])
      case Some(kv) => [kv] + PairsOf(parts[1..])
  }

  /** The value of `key` in the dictionary built from `pairs`: a later pair wins. */
  function Lookup(pairs: seq<(string, string)>, key: string): (r: Option<string>)
    ensures r.None? <==> forall i :: 0 <= i < |pairs| ==> pairs[i].0 != key
    ensures r.Some? ==> exists i :: 0 <= i < |pairs| && pairs[i] == (key, r.value)
  {
    if |pairs| == 0 then None
    else if pairs[|pairs| - 1].0 == key then Some(pairs[|pairs| - 1].1)
    else
      var r := Lookup(pairs[..|pairs| - 1], key);
      assert forall i :: 0 <= i < |pairs| - 1 ==> pairs[..|pairs| - 1][i] == pairs[i];
      r
  }

  /** The text between the first '#' and the next one, when there is a '#'. */
  function Fragment(uri: string): (r: Option<string>)
    ensures r.None? <==> '#' !in uri
  {
    if '#' in uri then
      SplitWithSep(uri, '#');
      Some(Split(uri, '#')[1])
    else None
  }

  /** The token dictionary of a redirect uri. */
  function TokenPairs(fragment: string): seq<(string, string)>
  {
    PairsOf(Split(fragment, '&'))
  }

  /** The tokens of a redirect uri: there must be a fragment holding an access token;
      the access and id tokens are percent-decoded, and the token type and lifetime
      default to "Bearer" and "3600". */
  function ParseTokenUri(uri: string, unquote: string -> string): (r: Option<Tokens>)
    ensures r.Some? ==> '#' in uri
    ensures r.Some? <==> Fragment(uri).Some? && Lookup(TokenPairs(Fragment(uri).value), "access_token").Some?
  {
    match Fragment(uri)
    case None => None
    case Some(f) =>
      var d := TokenPairs(f);
      match Lookup(d, "access_token")
      case None => None
      case Some(access) =>
        Some(Tokens(unquote(access), unquote(Lookup(d, "id_token").GetOr("")),
                    Lookup(d, "token_type").GetOr("Bearer"), Lookup(d, "expires_in").GetOr("3600")))
  }

  /** Pairs the fragment syntax can carry: keys without '=', '&' or '#', values
      without '&' or '#'. */
  predicate Encodable(ps: seq<(string, string)>)
  {
    forall i :: 0 <= i < |ps| ==>
      && '=' !in ps[i].0 && '&' !in ps[i].0 && '#' !in ps[i].0
      && '&' !in ps[i].1 && '#' !in ps[i].1
  }

  function EncodePair(kv: (string, string)): string { kv.0 + "=" + kv.1 }

  /** The fragment `k1=v1&k2=v2&…`. */
  function EncodePairs(ps: seq<(string, string)>): string
  {
    Join(seq(|ps|, i requires 0 <= i < |ps| => EncodePair(ps[i])), "&")
  }

  lemma PairOfEncoded(kv: (string, string))
    requires '=' !in kv.0
    ensures PairOf(EncodePair(kv)) == Some(kv)
  {
    var p := EncodePair(kv);
    assert p[|kv.0|] == '=';
    assert '=' in p;
    var r := PairOf(p).value;
    assert p == r.0 + "=" + r.1;
    assert r.0 == p[..|kv.0|] == kv.0;
    assert r.1 == p[|kv.0| + 1..] == kv.1;
  }

  lemma {:induction false} PairsOfEncoded(ps: seq<(string, string)>)
    requires Encodable(ps)
    ensures PairsOf(seq(|ps|, i requires 0 <= i < |ps| => EncodePair(ps[i]))) == ps
    decreases |ps|
  {
    var parts := seq(|ps|, i requires 0 <= i < |ps| => EncodePair(ps[i]));
    if |ps| > 0 {
      PairOfEncoded(ps[0]);
      assert parts[1..] == seq(|ps[1..]|, i requires 0 <= i < |ps[1..]| => EncodePair(ps[1..][i]));
      PairsOfEncoded(ps[1..]);
      assert ps == [ps[0]] + ps[1..];
    }
  }

  /** Parsing the encoded fragment gives back exactly the pairs. */
  lemma PairsRoundTrip(ps: seq<(string, string)>)
    requires Encodable(ps)
    ensures TokenPairs(EncodePairs(ps)) == ps
  {
    var parts := seq(|ps|, i requires 0 <= i < |ps| => EncodePair(ps[i]));
    if |ps| == 0 {
      assert EncodePairs(ps) == "";
      assert Split("", '&') == [""];
      assert '=' !in "";
    } else {
      forall i | 0 <= i < |parts| ensures '&' !in parts[i] {
        assert parts[i] == ps[i].0 + "=" + ps[i].1;
      }
      JoinSplit(parts, '&');
      PairsOfEncoded(ps);
    }
  }

  /** A redirect uri whose fragment encodes the pairs yields the tokens those pairs
      name, the last value of a repeated key winning and absent optional keys taking
      their defaults. */
  lemma TokenUriRoundTrip(base: string, ps: seq<(string, string)>, unquote: string -> string)
    requires '#' !in base && Encodable(ps)
    requires Lookup(ps, "access_token").Some?
    ensures ParseTokenUri(base + "#" + EncodePairs(ps), unquote)
      == Some(Tokens(unquote(Lookup(ps, "access_token").value), unquote(Lookup(ps, "id_token").GetOr("")),
                     Lookup(ps, "token_type").GetOr("Bearer"), Lookup(ps, "expires_in").GetOr("3600")))
  {
    var parts := seq(|ps|, i requires 0 <= i < |ps| => EncodePair(ps[i]));
    forall i | 0 <= i < |parts| ensures '#' !in parts[i] {
      assert parts[i] == ps[i].0 + "=" + ps[i].1;
    }
    JoinAvoids(parts, "&", '#');
    var frag := EncodePairs(ps);
    var uri := base + "#" + frag;
    assert '#' in uri by { assert uri[|base|] == '#'; }
    SplitAround(base, frag, '#');
    SplitNoSep(frag, '#');
    assert Split(uri, '#') == [base, frag];
    assert Fragment(uri) == Some(frag);
    PairsRoundTrip(ps);
  }

  // ---------------------------------------------------------------- storefront

  const VpUuid := "85ad13f7-3d1b-5128-9eb2-7cd8ee0b5741"

  datatype Reward = Reward(itemId: string)

  /** One daily offer: the cost per currency, the offer id, and the rewards. */
  datatype Offer = Offer(cost: map<string, int>, offerId: string, rewards: seq<Reward>)

  /** The skins panel; an absent offer list is empty. */
  datatype SkinsPanel = SkinsPanel(singleItemStoreOffers: seq<Offer>, singleItemOffers: seq<Offer>)

  /** The storefront; `None` stands for a missing or empty skins panel. */
  datatype Storefront = Storefront(skinsPanel: Option<SkinsPanel>)

  datatype SkinInfo = SkinInfo(displayName: Option<string>, displayIcon: Option<string>)

  /** The two catalogue endpoints, skin levels first and skins second. */
  datatype SkinCatalogue = SkinCatalogue(skinLevels: string -> Option<SkinInfo>, skins: string -> Option<SkinInfo>)

  datatype StoreItem = StoreItem(name: string, price: int, imageUrl: Option<string>, itemType: string, uuid: string)

  /** The price in Valorant Points, 0 when the offer has none. */
  function Cost(o: Offer): (r: int)
    ensures VpUuid !in o.cost ==> r == 0
  {
    if VpUuid in o.cost then o.cost[VpUuid] else 0
  }

  /** Python's `s[:8]`. */
  function Prefix8(s: string): (r: string)
    ensures |r| == if |s| < 8 then |s| else 8
    ensures StartsWith(s, r)
  {
    if |s| <= 8 then s else s[..8]
  }

  /** `_get_skin_info`: a skin level's name has its level suffix cleaned (and is
      "Unknown" when missing); a skin found only by the second endpoint is taken as is. */
  function SkinInfoOf(c: SkinCatalogue, uuid: string): (r: Option<SkinInfo>)
    ensures c.skinLevels(uuid).Some? ==> r.Some? && r.value.displayName.Some?
    ensures r.None? <==> c.skinLevels(uuid).None? && c.skins(uuid).None?
  {
    match c.skinLevels(uuid)
    case Some(info) => Some(info.(displayName := Some(CleanSkinName(info.displayName.GetOr("Unknown")))))
    case None => c.skins(uuid)
  }

  /** The item for one skin uuid at one price. */
  function ItemFor(c: SkinCatalogue, uuid: string, price: int): (r: StoreItem)
    ensures r.uuid == uuid && r.price == price && r.itemType == "skin"
  {
    match SkinInfoOf(c, uuid)
    case Some(info) => StoreItem(info.displayName.GetOr("Unknown Skin"), price, info.displayIcon, "skin", uuid)
    case None => StoreItem("Skin " + Prefix8(uuid), price, None, "skin", uuid)
  }

  /** An item whose skin is in neither catalogue is named after its uuid's first eight
      characters and has no image. */
  lemma UnknownSkinName(c: SkinCatalogue, uuid: string, price: int)
    requires c.skinLevels(uuid).None? && c.skins(uuid).None?
    ensures ItemFor(c, uuid, price).name == "Skin " + Prefix8(uuid)
    ensures ItemFor(c, uuid, price).imageUrl.None?
  {
  }

  /** How many items an offer yields. */
  function OfferCount(o: Offer): nat
  {
    if |o.rewards| > 0 then |o.rewards| else if o.offerId != "" then 1 else 0
  }

  function ItemCount(offers: seq<Offer>): nat
  {
    if |offers| == 0 then 0 else OfferCount(offers[0]) + ItemCount(offers[1..])
  }

  /** The uuids an offer's items carry: its rewards' item ids, or its own id. */
  predicate FromOffer(o: Offer, uuid: string)
  {
    if |o.rewards| > 0 then exists k :: 0 <= k < |o.rewards| && o.rewards[k].itemId == uuid
    else uuid == o.offerId && uuid != ""
  }

  /** The items of one offer: one per reward at the offer's price, or, without
      rewards, one for the offer id unless it is empty. */
  function OfferItems(c: SkinCatalogue, o: Offer): (r: seq<StoreItem>)
    ensures |r| == OfferCount(o)
    ensures forall i :: 0 <= i < |r| ==> r[i].price == Cost(o) && r[i].itemType == "skin" && FromOffer(o, r[i].uuid)
    ensures |o.rewards| > 0 ==> forall k :: 0 <= k < |r| ==> r[k].uuid == o.rewards[k].itemId
  {
    if |o.rewards| > 0 then
      seq(|o.rewards|, k requires 0 <= k < |o.rewards| => ItemFor(c, o.rewards[k].itemId, Cost(o)))
    else if o.offerId != "" then [ItemFor(c, o.offerId, Cost(o))]
    else []
  }

  /** The items of the offers, in order. */
  function OffersItems(c: SkinCatalogue, offers: seq<Offer>): (r: seq<StoreItem>)
    ensures |r| == ItemCount(offers)
    ensures forall i :: 0 <= i < |r| ==> r[i].itemType == "skin"
  {
    if |offers| == 0 then [] else OfferItems(c, offers[0]) + OffersItems(c, offers[1..])
  }

  /** Every item comes from some offer, at that offer's price. */
  lemma {:induction false} ItemsFromOffers(c: SkinCatalogue, offers: seq<Offer>, i: nat)
    requires i < |OffersItems(c, offers)|
    ensures exists j :: (
      && 0 <= j < |offers|
      && OffersItems(c, offers)[i].price == Cost(offers[j])
      && FromOffer(offers[j], OffersItems(c, offers)[i].uuid))
    decreases |offers|
  {
    var first := OfferItems(c, offers[0]);
    var items := OffersItems(c, offers);
    if i < |first| {
      assert items[i] == first[i];
    } else {
      ItemsFromOffers(c, offers[1..], i - |first|);
      var j :| 0 <= j < |offers[1..]|
        && OffersItems(c, offers[1..])[i - |first|].price == Cost(offers[1..][j])
        && FromOffer(offers[1..][j], OffersItems(c, offers[1..])[i - |first|].uuid);
      assert items[i] == OffersItems(c, offers[1..])[i - |first|];
      assert offers[1..][j] == offers[j + 1];
    }
  }

  /** The offers are parsed one by one: the items of two lists are the items of each. */
  lemma {:induction false} OffersItemsAppend(c: SkinCatalogue, a: seq<Offer>, b: seq<Offer>)
    ensures OffersItems(c, a + b) == OffersItems(c, a) + OffersItems(c, b)
    decreases |a|
  {
    if |a| == 0 {
      assert a + b == b;
    } else {
      assert (a + b)[0] == a[0];
      assert (a + b)[1..] == a[1..] + b;
      OffersItemsAppend(c, a[1..], b);
    }
  }

  /** `_parse_storefront`: nothing without a skins panel; otherwise the store offers,
      falling back to the plain single-item offers when there are none. */
  function ParseStorefront(c: SkinCatalogue, sf: Storefront): (r: seq<StoreItem>)
    ensures sf.skinsPanel.None? ==> r == []
    ensures sf.skinsPanel.Some? && |sf.skinsPanel.value.singleItemStoreOffers| > 0
      ==> r == OffersItems(c, sf.skinsPanel.value.singleItemStoreOffers)
    ensures sf.skinsPanel.Some? && |sf.skinsPanel.value.singleItemStoreOffers| == 0
      ==> r == OffersItems(c, sf.skinsPanel.value.singleItemOffers)
  {
    match sf.skinsPanel
    case None => []
    case Some(panel) =>
      var offers := if |panel.singleItemStoreOffers| > 0 then panel.singleItemStoreOffers else panel.singleItemOffers;
      OffersItems(c, offers)
  }

  // ---------------------------------------------------------------- the check

  /** The five Riot cookies the worker is given. */
  datatype Cookies = Cookies(tdid: Option<string>, clid: Option<string>, csid: Option<string>,
                             ssid: Option<string>, sub: Option<string>)

  datatype CheckerInput = CheckerInput(region: Option<string>, cookies: Option<Cookies>)

  /** Python truthiness of an optional text. */
  predicate Truthy(s: Option<string>) { s.Some? && s.value != "" }

  /** The requests the worker makes, each `None` on failure: the re-authorisation's
      redirect uri, the entitlement token, the player id of the user info, and the
      storefront for (access token, entitlement, player id, shard). */
  datatype RiotApi = RiotApi(
    reauthUri: Cookies -> Option<string>,
    entitlement: string -> Option<string>,
    playerSub: string -> Option<string>,
    storefront: (string, string, string, string) -> Option<Storefront>,
    catalogue: SkinCatalogue,
    unquote: string -> string)

  /** The printed reply; the date and check time come from the clock. */
  datatype CheckerReply = CheckerReply(date: string, items: seq<StoreItem>, checkedAt: string, isRealData: bool)

  /** The player id the storefront is asked for: the fresh one from the user info,
      else the cookie's. */
  function PlayerId(api: RiotApi, accessToken: string, cookies: Cookies): (r: Option<string>)
    ensures Truthy(api.playerSub(accessToken)) ==> r == api.playerSub(accessToken)
    ensures !Truthy(api.playerSub(accessToken)) ==> r == cookies.sub
  {
    if Truthy(api.playerSub(accessToken)) then api.playerSub(accessToken) else cookies.sub
  }

  /** The authenticated chain up to the storefront; `None` when a step fails. Nothing
      is requested without an `ssid` cookie. */
  function FetchStorefront(input: CheckerInput, api: RiotApi): (r: Option<Storefront>)
    ensures r.Some? ==> input.cookies.Some? && Truthy(input.cookies.value.ssid)
  {
    if input.cookies.None? || !Truthy(input.cookies.value.ssid) then None
    else
      var cookies := input.cookies.value;
      var uri := api.reauthUri(cookies);
      var tokens := if uri.Some? then ParseTokenUri(uri.value, api.unquote) else None;
      if tokens.None? || tokens.value.accessToken == "" then None
      else
        var access := tokens.value.accessToken;
        var entitlement := api.entitlement(access);
        if !Truthy(entitlement) then None
        else
          var puuid := PlayerId(api, access, cookies);
          if !Truthy(puuid) then None
          else api.storefront(access, entitlement.value, puuid.value, Shard(input.region))
  }

  /** `process`: the parsed store when the storefront was fetched, an empty store
      otherwise. */
  function Process(input: CheckerInput, api: RiotApi, today: string, now: string): (r: CheckerReply)
    ensures r.isRealData <==> FetchStorefront(input, api).Some?
    ensures !r.isRealData ==> r.items == []
    ensures r.isRealData ==> r.items == ParseStorefront(api.catalogue, FetchStorefront(input, api).value)
    ensures r.date == today && r.checkedAt == now
  {
    match FetchStorefront(input, api)
    case Some(sf) => CheckerReply(today, ParseStorefront(api.catalogue, sf), now, true)
    case None => CheckerReply(today, [], now, false)
  }

  /** Without an `ssid` cookie the reply does not depend on any request's answer: the
      worker asks nothing and reports an empty, unreal store. */
  lemma NoSsidNoRequests(input: CheckerInput, api1: RiotApi, api2: RiotApi, today: string, now: string)
    requires input.cookies.None? || !Truthy(input.cookies.value.ssid)
    ensures Process(input, api1, today, now) == Process(input, api2, today, now)
    ensures Process(input, api1, today, now) == CheckerReply(today, [], now, false)
  {
  }

  /** When every step answers, the storefront is asked for on the region's shard with
      the redirect's decoded access token and the user info's player id (the cookie's
      only when the user info has none). */
  lemma StorefrontRequest(input: CheckerInput, api: RiotApi, t: Tokens, entitlement: string)
    requires input.cookies.Some? && Truthy(input.cookies.value.ssid)
    requires api.reauthUri(input.cookies.value).Some?
    requires ParseTokenUri(api.reauthUri(input.cookies.value).value, api.unquote) == Some(t)
    requires t.accessToken != "" && api.entitlement(t.accessToken) == Some(entitlement) && entitlement != ""
    requires Truthy(PlayerId(api, t.accessToken, input.cookies.value))
    ensures FetchStorefront(input, api)
      == api.storefront(t.accessToken, entitlement, PlayerId(api, t.accessToken, input.cookies.value).value, Shard(input.region))
  {
  }
}

=== FILE: vps_sync.dfy ===
/** Syncing the music library with the Discord bot's server: reading and extending the
    `.addChoices(...)` list of the bot's `playlist.js`, merging the track index, the
    remote playlist file name and the track upload tally. The SFTP session is a
    parameter: what the remote side holds and whether each transfer succeeds. */
module VpsSync {
  import opened Wrappers
  import opened Strings
  import opened Sorting
  import opened PlaylistDownloader
  import Numeric

  // ---------------------------------------------------------------- scanning helpers

  /** The first index at or after `i` that is not whitespace. */
  function WsEnd(s: string, i: nat): (r: nat)
    requires i <= |s|
    ensures i <= r <= |s|
    ensures forall j :: i <= j < r ==> s[j] in Whitespace
    ensures r < |s| ==> s[r] !in Whitespace
    decreases |s| - i
  {
    if i < |s| && s[i] in Whitespace then WsEnd(s, i + 1) else i
  }

  /** The first index at or after `i` whose character satisfies `stop`, or `|s|`. */
  function RunEnd(s: string, i: nat, stop: char -> bool): (r: nat)
    requires i <= |s|
    ensures i <= r <= |s|
    ensures forall j :: i <= j < r ==> !stop(s[j])
    ensures r < |s| ==> stop(s[r])
    decreases |s| - i
  {
    if i < |s| && !stop(s[i]) then RunEnd(s, i + 1, stop) else i
  }

  predicate IsQuote(c: char) { c == '\'' || c == '"' }

  // ---------------------------------------------------------------- reading the choices

  const ChoicesKey: string := ".addChoices"
  const NameKey: string := "name:"

  /** `\.addChoices\s*\(([\s\S]*?)\)` tried at index `p`: the bounds of the group. */
  function BlockAt(s: string, p: nat): (r: Option<(nat, nat)>)
    requires p <= |s|
    ensures r.Some? ==> p < r.value.0 <= r.value.1 < |s| && s[r.value.1] == ')'
    ensures r.Some? ==> OccursAt(s, ChoicesKey, p) && s[r.value.0 - 1] == '('
    ensures r.Some? ==> forall j :: r.value.0 <= j < r.value.1 ==> s[j] != ')'
  {
    if !OccursAt(s, ChoicesKey, p) then None
    else
      var q := WsEnd(s, p + |ChoicesKey|);
      if q < |s| && s[q] == '(' then
        var e := RunEnd(s, q + 1, c => c == ')');
        if e < |s| then Some((q + 1, e)) else None
      else None
  }

  /** `re.search`: the group of the leftmost match at or after `p`. */
  function BlockFrom(s: string, p: nat): (r: Option<string>)
    requires p <= |s|
    ensures r.None? ==> forall j :: p <= j <= |s| ==> BlockAt(s, j).None?
    ensures r.Some? ==> exists j :: (
      && p <= j <= |s| && BlockAt(s, j).Some?
      && r.value == s[BlockAt(s, j).value.0..BlockAt(s, j).value.1])
    decreases |s| - p
  {
    match BlockAt(s, p)
    case Some((a, b)) => Some(s[a..b])
    case None => if p == |s| then None else BlockFrom(s, p + 1)
  }

  /** `\{\s*name:\s*['"]([^'"]+)['"]` tried at index `i` of the block: the name and the
      index after the match. With `matched`, the name instead runs to the quote that
      opened it. */
  function NameAt(b: string, i: nat, matched: bool): (r: Option<(string, nat)>)
    requires i <= |b|
    ensures r.Some? ==> i < r.value.1 <= |b| && r.value.0 != ""
    ensures r.Some? && !matched ==> forall k :: 0 <= k < |r.value.0| ==> !IsQuote(r.value.0[k])
  {
    if i < |b| && b[i] == '{' then
      var j := WsEnd(b, i + 1);
      if OccursAt(b, NameKey, j) then
        var k := WsEnd(b, j + |NameKey|);
        if k < |b| && IsQuote(b[k]) then
          var q := b[k];
          var m := if matched then RunEnd(b, k + 1, c => c == q) else RunEnd(b, k + 1, IsQuote);
          if k + 1 < m < |b| then Some((b[k + 1..m], m + 1)) else None
        else None
      else None
    else None
  }

  /** A scanner's attempt at each index: the name matched there and the index after
      the match. */
  type Step = nat -> Option<(string, nat)>

  /** Every match ends past where it starts and within the first `n` characters. */
  predicate Advancing(at: Step, n: nat)
  {
    forall j: nat :: j <= n && at(j).Some? ==> j < at(j).value.1 <= n
  }

  /** `re.findall` with the attempts `at` over `n` characters, from index `i`: a match
      is listed and the scan resumes after it; otherwise it resumes at the next index. */
  function Scan(at: Step, n: nat, i: nat): seq<string>
    requires i <= n && Advancing(at, n)
    decreases n - i
  {
    if i == n then []
    else if at(i).Some? then [at(i).value.0] + Scan(at, n, at(i).value.1)
    else Scan(at, n, i + 1)
  }

  /** Every name listed is matched at some index the scan passes. */
  lemma {:induction false} ScanMatched(at: Step, n: nat, i: nat, x: string)
    requires i <= n && Advancing(at, n) && x in Scan(at, n, i)
    ensures exists j: nat :: i <= j <= n && at(j).Some? && at(j).value.0 == x
    decreases n - i
  {
    if i < n {
      if at(i).Some? {
        if x != at(i).value.0 {
          ScanMatched(at, n, at(i).value.1, x);
        }
      } else {
        ScanMatched(at, n, i + 1, x);
      }
    }
  }

  /** The name pattern's attempts over a block. */
  function NameStep(b: string, matched: bool): Step
  {
    (j: nat) => if j <= |b| then NameAt(b, j, matched) else None
  }

  lemma NameStepAdvancing(b: string, matched: bool)
    ensures Advancing(NameStep(b, matched), |b|)
  {
  }

  /** `re.findall` of the name pattern over the block, from index `i`. */
  function NamesFrom(b: string, i: nat, matched: bool): (r: seq<string>)
    requires i <= |b|
    ensures forall x :: x in r ==> exists j :: i <= j <= |b| && NameAt(b, j, matched).Some? && NameAt(b, j, matched).value.0 == x
  {
    NameStepAdvancing(b, matched);
    var at := NameStep(b, matched);
    var r := Scan(at, |b|, i);
    assert forall x :: x in r ==> exists j :: i <= j <= |b| && NameAt(b, j, matched).Some? && NameAt(b, j, matched).value.0 == x by {
      forall x | x in r
        ensures exists j :: i <= j <= |b| && NameAt(b, j, matched).Some? && NameAt(b, j, matched).value.0 == x
      {
        ScanMatched(at, |b|, i, x);
        var j: nat :| i <= j <= |b| && at(j).Some? && at(j).value.0 == x;
        assert at(j) == NameAt(b, j, matched);
      }
    }
    r
  }

  function ParseChoices(s: string, matched: bool): (r: seq<string>)
  {
    match BlockFrom(s, 0)
    case None => []
    case Some(b) => NamesFrom(b, 0, matched)
  }

  /** `parse_playlist_choices`: the names listed in the first `.addChoices(...)` block,
      in textual order; none when there is no block. */
  function ParsePlaylistChoices(s: string): (r: seq<string>)
    ensures forall k :: 0 <= k < |r| ==> r[k] != "" && forall c :: 0 <= c < |r[k]| ==> !IsQuote(r[k][c])
    ensures BlockFrom(s, 0).None? ==> r == []
  {
    var r := ParseChoices(s, false);
    assert forall k :: 0 <= k < |r| ==> r[k] != "" && forall c :: 0 <= c < |r[k]| ==> !IsQuote(r[k][c]) by {
      if BlockFrom(s, 0).Some? {
        var b := BlockFrom(s, 0).value;
        forall k | 0 <= k < |r| ensures r[k] != "" && forall c :: 0 <= c < |r[k]| ==> !IsQuote(r[k][c]) {
          assert r[k] in r;
          var j :| 0 <= j <= |b| && NameAt(b, j, false).Some? && NameAt(b, j, false).value.0 == r[k];
        }
      }
    }
    r
  }

  /** The same reading, with each name running to the quote that opened it. */
  function ParseChoicesMatched(s: string): (r: seq<string>)
    ensures BlockFrom(s, 0).None? ==> r == []
  {
    ParseChoices(s, true)
  }

  /** A text without `.addChoices` lists no choices. */
  lemma NoBlockNoChoices(s: string)
    requires !Contains(s, ChoicesKey)
    ensures ParsePlaylistChoices(s) == [] && ParseChoicesMatched(s) == []
  {
    forall j | 0 <= j <= |s| ensures BlockAt(s, j).None? {
      if OccursAt(s, ChoicesKey, j) {
        ContainsAt(s, ChoicesKey, j);
      }
    }
  }

  /** A name with a quote in it is never among the choices read by the code as written. */
  lemma QuotedNameNeverListed(s: string, n: string, c: nat)
    requires c < |n| && IsQuote(n[c])
    ensures n !in ParsePlaylistChoices(s)
  {
  }

  /** Scanning from `i` reaches the match at `e` when no match that starts in between
      runs past `e`. */
  lemma {:induction false} ScanReaches(at: Step, n: nat, i: nat, e: nat)
    requires Advancing(at, n) && i <= e <= n && at(e).Some?
    requires forall j :: i <= j < e && at(j).Some? ==> at(j).value.1 <= e
    ensures at(e).value.0 in Scan(at, n, i)
    decreases e - i
  {
    var x := at(e).value.0;
    if i < e {
      var here := at(i);
      if here.Some? {
        ScanReaches(at, n, here.value.1, e);
        InTail(x, here.value.0, Scan(at, n, here.value.1));
      } else {
        ScanReaches(at, n, i + 1, e);
      }
    } else {
      assert Scan(at, n, i)[0] == x;
    }
  }

  lemma InTail(x: string, h: string, s: seq<string>)
    requires x in s
    ensures x in [h] + s
  {
    assert ([h] + s)[1..] == s;
  }

  // ---------------------------------------------------------------- adding a choice

  /** The quote a new entry uses: double quotes for a name holding an apostrophe. */
  function QuoteFor(n: string): (r: char)
    ensures r == '"' <==> '\'' in n
    ensures r == '\'' <==> '\'' !in n
  {
    if '\'' in n then '"' else '\''
  }

  const EntryOpen: string := "{ name: "
  const EntryMid: string := ", value: "
  const EntryClose: string := " }"

  /** `{ name: 'n', value: 'n' }` with the chosen quote. */
  function NewEntry(n: string): string
  {
    var q := [QuoteFor(n)];
    EntryOpen + q + n + q + EntryMid + q + n + q + EntryClose
  }

  /** The corrected reader reads a new entry's name back, wherever the entry sits. */
  lemma EntryReadBack(pre: string, n: string, rest: string)
    requires n != "" && !('\'' in n && '"' in n)
    ensures var b := pre + NewEntry(n) + rest;
      NameAt(b, |pre|, true) == Some((n, |pre| + |EntryOpen| + |n| + 2))
  {
    var b := pre + NewEntry(n) + rest;
    var o := |pre|;
    var k := o + |EntryOpen|;
    EntryParts(pre, n, rest);
    NameAtMatched(b, o, o + 2, k, k + 1 + |n|);
  }

  /** The parts of the name pattern in a new entry: the brace, the key, the opening
      quote, the name and the matching closing quote. */
  lemma EntryParts(pre: string, n: string, rest: string)
    requires n != "" && !('\'' in n && '"' in n)
    ensures var b := pre + NewEntry(n) + rest;
      var o := |pre|;
      var k := o + |EntryOpen|;
      && k + 1 + |n| < |b| && b[o] == '{' && WsEnd(b, o + 1) == o + 2 && OccursAt(b, NameKey, o + 2)
      && WsEnd(b, o + 2 + |NameKey|) == k && IsQuote(b[k])
      && RunEnd(b, k + 1, c => c == b[k]) == k + 1 + |n| && b[k + 1..k + 1 + |n|] == n
  {
    var b := pre + NewEntry(n) + rest;
    var q := QuoteFor(n);
    var o := |pre|;
    var k := o + |EntryOpen|;
    EntryLayout(pre, n, rest);
    assert WsEnd(b, o + 1) == o + 2;
    assert WsEnd(b, o + 7) == k;
    assert forall j :: k + 1 <= j < k + 1 + |n| ==> b[j] == n[j - k - 1];
    RunEndAt(b, k + 1, k + 1 + |n|, c => c == q);
  }

  /** The matched-quote reading at `i` when its parts are where they are: the opening
      brace, the key at `j`, the quote at `k` and the closing quote at `m`. */
  lemma NameAtMatched(b: string, i: nat, j: nat, k: nat, m: nat)
    requires i < |b| && b[i] == '{' && j <= |b| && WsEnd(b, i + 1) == j && OccursAt(b, NameKey, j)
    requires WsEnd(b, j + |NameKey|) == k && k + 1 < m < |b| && IsQuote(b[k])
    requires RunEnd(b, k + 1, c => c == b[k]) == m
    ensures NameAt(b, i, true) == Some((b[k + 1..m], m + 1))
  {
  }

  /** Where the parts of a new entry sit in the text around it. */
  lemma EntryLayout(pre: string, n: string, rest: string)
    ensures var b := pre + NewEntry(n) + rest;
      var o, q := |pre|, QuoteFor(n);
      var k := o + |EntryOpen|;
      && k + 2 + |n| <= |b|
      && b[o] == '{' && b[o + 1] == ' ' && b[o + 2] == 'n' && OccursAt(b, NameKey, o + 2)
      && b[o + 7] == ' ' && b[k] == q && b[k + 1..k + 1 + |n|] == n && b[k + 1 + |n|] == q
  {
    var b := pre + NewEntry(n) + rest;
    var e := NewEntry(n);
    var o := |pre|;
    var k := o + |EntryOpen|;
    assert b[o..o + |e|] == e;
    assert e[..|EntryOpen|] == EntryOpen;
    assert b[o..k] == EntryOpen;
    assert b[o + 2..o + 7] == EntryOpen[2..7];
  }

  /** With the corrected reader, a block holding the new entry lists its name, provided
      no match starting before the entry runs into it. */
  lemma AddedEntryListed(pre: string, n: string, rest: string)
    requires n != "" && !('\'' in n && '"' in n)
    requires var b := pre + NewEntry(n) + rest;
      forall j :: 0 <= j < |pre| && NameAt(b, j, true).Some? ==> NameAt(b, j, true).value.1 <= |pre|
    ensures n in NamesFrom(pre + NewEntry(n) + rest, 0, true)
  {
    var b := pre + NewEntry(n) + rest;
    var at := NameStep(b, true);
    EntryReadBack(pre, n, rest);
    NameStepAdvancing(b, true);
    assert at(|pre|) == NameAt(b, |pre|, true);
    assert forall j :: 0 <= j < |pre| && at(j).Some? ==> at(j).value.1 <= |pre|;
    ScanReaches(at, |b|, 0, |pre|);
  }

  /** A run ends at the first stopping character. */
  lemma RunEndAt(s: string, i: nat, m: nat, stop: char -> bool)
    requires i <= m < |s| && stop(s[m])
    requires forall j :: i <= j < m ==> !stop(s[j])
    ensures RunEnd(s, i, stop) == m
  {
  }

  /** With the code as written, a new entry for a name holding an apostrophe is read
      as a different name, or not at all. */
  lemma EntryNotReadBack(n: string, rest: string)
    requires '\'' in n
    ensures NameAt(NewEntry(n) + rest, 0, false).None? || NameAt(NewEntry(n) + rest, 0, false).value.0 != n
  {
  }

  /** `(\.addChoices\s*\(\s*\n)([\s\S]*?)(\s*\))` tried at index `p`: the ends of the
      three groups. The first group ends after the last newline of the whitespace that
      follows the parenthesis; the second ends where the whitespace before the first
      `)` begins. */
  function AddMatchAt(s: string, p: nat): (r: Option<(nat, nat, nat)>)
    requires p <= |s|
    ensures r.Some? ==> p < r.value.0 <= r.value.1 < r.value.2 <= |s|
    ensures r.Some? ==> OccursAt(s, ChoicesKey, p) && s[r.value.0 - 1] == '\n' && s[r.value.2 - 1] == ')'
    ensures r.Some? ==> forall j :: r.value.0 <= j < r.value.2 - 1 ==> s[j] != ')'
    ensures r.Some? ==> forall j :: r.value.1 <= j < r.value.2 - 1 ==> s[j] in Whitespace
  {
    if !OccursAt(s, ChoicesKey, p) then None
    else
      var q := WsEnd(s, p + |ChoicesKey|);
      if q < |s| && s[q] == '(' then
        var w := WsEnd(s, q + 1);
        var nl := LastNewline(s, q + 1, w);
        if nl.None? then None
        else
          var e := RunEnd(s, nl.value + 1, c => c == ')');
          if e < |s| then Some((nl.value + 1, WsRunStart(s, nl.value + 1, e), e + 1)) else None
      else None
  }

  /** The last newline in `s[lo..hi]`. */
  function LastNewline(s: string, lo: nat, hi: nat): (r: Option<nat>)
    requires lo <= hi <= |s|
    ensures r.Some? ==> lo <= r.value < hi && s[r.value] == '\n'
    ensures r.Some? ==> forall j :: r.value < j < hi ==> s[j] != '\n'
    ensures r.None? ==> forall j :: lo <= j < hi ==> s[j] != '\n'
    decreases hi - lo
  {
    if hi == lo then None
    else if s[hi - 1] == '\n' then Some(hi - 1)
    else LastNewline(s, lo, hi - 1)
  }

  /** Where the whitespace run that ends at `e` begins, but not before `lo`. */
  function WsRunStart(s: string, lo: nat, e: nat): (r: nat)
    requires lo <= e <= |s|
    ensures lo <= r <= e
    ensures forall j :: r <= j < e ==> s[j] in Whitespace
    ensures r > lo ==> s[r - 1] !in Whitespace
    decreases e - lo
  {
    if e > lo && s[e - 1] in Whitespace then WsRunStart(s, lo, e - 1) else e
  }

  /** `^(\s+)\{` under MULTILINE: the whitespace that starts a line and leads to `{`,
      at the first such line start from `p`; `None` when there is none. */
  function IndentFrom(s: string, p: nat): (r: Option<string>)
    requires p <= |s|
    ensures r.Some? ==> r.value != "" && forall j :: 0 <= j < |r.value| ==> r.value[j] in Whitespace
    decreases |s| - p
  {
    if p == |s| then None
    else if (p == 0 || s[p - 1] == '\n') && s[p] in Whitespace && WsEnd(s, p) < |s| && s[WsEnd(s, p)] == '{' then
      Some(s[p..WsEnd(s, p)])
    else IndentFrom(s, p + 1)
  }

  /** Twenty spaces. */
  const DefaultIndent: string := "                    "

  /** The entries with a trailing comma ensured. */
  function WithComma(entries: string): (r: string)
    ensures EndsWith(r, ",")
    ensures r == entries || r == entries + ","
  {
    if EndsWith(entries, ",") then entries else entries + ","
  }

  /** The replacement for one match: the existing entries, right-trimmed and ending with
      a comma, then the new entry on a line of its own, then the closing group. */
  function Replacement(s: string, p: nat, m: (nat, nat, nat), n: string): (r: string)
    requires p <= |s| && AddMatchAt(s, p) == Some(m)
    ensures |r| > m.2 - p
  {
    var entries := StripEnd(s[m.0..m.1], Whitespace);
    GroupTrimmed(s, p);
    var indent := match IndentFrom(entries, 0) case Some(x) => x case None => DefaultIndent;
    s[p..m.0] + WithComma(entries) + "\n" + indent + NewEntry(n) + "\n" + s[m.1..m.2]
  }

  /** The first match of the add pattern at or after `i`. */
  function NextAddMatch(s: string, i: nat): (r: Option<nat>)
    requires i <= |s|
    ensures r.Some? ==> i <= r.value <= |s| && AddMatchAt(s, r.value).Some?
    ensures r.Some? ==> forall j :: i <= j < r.value ==> AddMatchAt(s, j).None?
    ensures r.None? ==> forall j :: i <= j <= |s| ==> AddMatchAt(s, j).None?
    decreases |s| - i
  {
    if AddMatchAt(s, i).Some? then Some(i)
    else if i == |s| then None
    else NextAddMatch(s, i + 1)
  }

  /** `re.sub` from index `i`: every non-overlapping match replaced, the rest copied. */
  function SubFrom(s: string, i: nat, n: string): (r: string)
    requires i <= |s|
    ensures NextAddMatch(s, i).None? ==> r == s[i..]
    ensures NextAddMatch(s, i).Some? ==> |r| > |s| - i
    decreases |s| - i
  {
    match NextAddMatch(s, i)
    case None => s[i..]
    case Some(p) =>
      var m := AddMatchAt(s, p).value;
      s[i..p] + Replacement(s, p, m, n) + SubFrom(s, m.2, n)
  }

  /** `add_playlist_choice`, reading the existing names with the corrected reader. */
  function AddPlaylistChoice(s: string, n: string): (r: string)
    ensures n in ParseChoicesMatched(s) ==> r == s
    ensures NextAddMatch(s, 0).None? ==> r == s
    ensures n !in ParseChoicesMatched(s) && NextAddMatch(s, 0).Some? ==> |r| > |s|
  {
    if n in ParseChoicesMatched(s) then s else SubFrom(s, 0, n)
  }

  /** `add_playlist_choice` as written, reading the names with `parse_playlist_choices`. */
  function AddPlaylistChoiceAsWritten(s: string, n: string): (r: string)
    ensures n in ParsePlaylistChoices(s) ==> r == s
    ensures NextAddMatch(s, 0).None? ==> r == s
  {
    if n in ParsePlaylistChoices(s) then s else SubFrom(s, 0, n)
  }

  /** As written, a name with an apostrophe is never found among the existing choices,
      so every call appends its entry again. */
  lemma ApostropheAlwaysAppended(s: string, n: string)
    requires '\'' in n && NextAddMatch(s, 0).Some?
    ensures AddPlaylistChoiceAsWritten(s, n) == SubFrom(s, 0, n)
    ensures |AddPlaylistChoiceAsWritten(s, n)| > |s|
  {
    var c :| 0 <= c < |n| && n[c] == '\'';
    QuotedNameNeverListed(s, n, c);
  }

  /** The replacement keeps the opening group, then the existing entries with a comma
      ensured, then the new entry on a line of its own, indented with whitespace, then
      the closing group. */
  lemma ReplacementShape(s: string, p: nat, n: string)
    requires p <= |s| && AddMatchAt(s, p).Some?
    ensures var m := AddMatchAt(s, p).value;
      exists indent: string :: (
        && (forall j :: 0 <= j < |indent| ==> indent[j] in Whitespace)
        && Replacement(s, p, m, n)
           == s[p..m.0] + WithComma(s[m.0..m.1]) + "\n" + indent + NewEntry(n) + "\n" + s[m.1..m.2])
  {
    var m := AddMatchAt(s, p).value;
    GroupTrimmed(s, p);
    var entries := s[m.0..m.1];
    var indent := match IndentFrom(entries, 0) case Some(x) => x case None => DefaultIndent;
    if IndentFrom(entries, 0).None? {
      DefaultIndentBlank();
    }
    assert forall j :: 0 <= j < |indent| ==> indent[j] in Whitespace;
  }

  lemma DefaultIndentBlank()
    ensures forall j :: 0 <= j < |DefaultIndent| ==> DefaultIndent[j] in Whitespace
  {
    forall j | 0 <= j < |DefaultIndent| ensures DefaultIndent[j] in Whitespace {
      assert DefaultIndent[j] == ' ';
    }
  }

  /** The entries group never ends in whitespace, so right-trimming keeps it whole. */
  lemma GroupTrimmed(s: string, p: nat)
    requires p <= |s| && AddMatchAt(s, p).Some?
    ensures var m := AddMatchAt(s, p).value;
      StripEnd(s[m.0..m.1], Whitespace) == s[m.0..m.1]
  {
    var m := AddMatchAt(s, p).value;
    var g := s[m.0..m.1];
    if |g| > 0 {
      assert g[|g| - 1] == s[m.1 - 1];
    }
  }

  /** `update_local_playlist_js` as written: whether the file was rewritten, and its new
      text. The existing names are read with `parse_playlist_choices`, so a name holding
      an apostrophe is never found and its entry is appended again. */
  function UpdateLocalPlaylistJs(file: Option<Result<string>>, n: string): (r: (bool, Option<string>))
    ensures r.0 <==> r.1.Some?
    ensures file.None? || file.value.Err? ==> !r.0
    ensures r.0 ==> (
      && file.Some? && file.value.Ok? && n !in ParsePlaylistChoices(file.value.value)
      && r.1.value == AddPlaylistChoiceAsWritten(file.value.value, n))
    ensures file.Some? && file.value.Ok? && n in ParsePlaylistChoices(file.value.value) ==> !r.0
  {
    if file.None? || file.value.Err? then (false, None)
    else
      var content := file.value.value;
      if n in ParsePlaylistChoices(content) then (false, None)
      else (true, Some(AddPlaylistChoiceAsWritten(content, n)))
  }

  /** As written, a readable file is rewritten with one more entry for a name holding an
      apostrophe on every call, however often the name was added before. */
  lemma UpdateAlwaysRewritesApostrophe(content: string, n: string)
    requires '\'' in n && NextAddMatch(content, 0).Some?
    ensures var r := UpdateLocalPlaylistJs(Some(Ok(content)), n);
      r.0 && r.1 == Some(SubFrom(content, 0, n)) && |r.1.value| > |content|
  {
    var c :| 0 <= c < |n| && n[c] == '\'';
    QuotedNameNeverListed(content, n, c);
    ApostropheAlwaysAppended(content, n);
  }

  /** `update_local_playlist_js` with the corrected reader: a name already listed, in
      either quote, leaves the file alone. */
  function UpdateLocalPlaylistJsCorrected(file: Option<Result<string>>, n: string): (r: (bool, Option<string>))
    ensures r.0 <==> r.1.Some?
    ensures file.None? || file.value.Err? ==> !r.0
    ensures r.0 ==> (
      && file.Some? && file.value.Ok? && n !in ParseChoicesMatched(file.value.value)
      && r.1.value == AddPlaylistChoice(file.value.value, n))
    ensures file.Some? && file.value.Ok? && n in ParseChoicesMatched(file.value.value) ==> !r.0
  {
    if file.None? || file.value.Err? then (false, None)
    else
      var content := file.value.value;
      if n in ParseChoicesMatched(content) then (false, None)
      else (true, Some(AddPlaylistChoice(content, n)))
  }

  // ---------------------------------------------------------------- the index

  datatype Number = IntNum(i: int) | FloatNum(f: real)

  /** An index record as JSON: its duration and its other members. */
  datatype Track = Track(duration: Option<Number>, fields: map<string, string>)

  function IntDuration(t: Track): (r: Track)
    ensures r.fields == t.fields && (r.duration.None? <==> t.duration.None?)
    ensures r.duration.Some? ==> r.duration.value.IntNum?
    ensures t.duration.Some? && t.duration.value.IntNum? ==> r == t
  {
    match t.duration
    case Some(FloatNum(f)) => t.(duration := Some(IntNum(Numeric.Trunc(f))))
    case _ => t
  }

  /** `pull_index`: the local index (empty when missing or unreadable) updated with the
      remote one (empty when unreadable), every float duration made an integer. */
  function PullIndex(local: Option<Result<map<string, Track>>>, remote: Result<map<string, Track>>): (r: map<string, Track>)
    ensures var l := if local.Some? && local.value.Ok? then local.value.value else map[];
      var rm := if remote.Ok? then remote.value else map[];
      && r.Keys == l.Keys + rm.Keys
      && (forall k :: k in rm ==> r[k] == IntDuration(rm[k]))
      && (forall k :: k in l && k !in rm ==> r[k] == IntDuration(l[k]))
    ensures forall k :: k in r && r[k].duration.Some? ==> r[k].duration.value.IntNum?
  {
    var l := if local.Some? && local.value.Ok? then local.value.value else map[];
    var rm := if remote.Ok? then remote.value else map[];
    var merged := l + rm;
    map k | k in merged :: IntDuration(merged[k])
  }

  // ---------------------------------------------------------------- pushing

  /** `push_playlist`'s file name: colon replaced, forbidden characters removed,
      whitespace trimmed. */
  function PushFileName(n: string): string
  {
    Trim(CleanChars(n)) + Json
  }

  /** `push_playlist` as written: the upload happens only when the local file exists. */
  function PushPlaylist(n: string, localExists: string -> bool, uploaded: bool): (r: bool)
    ensures r <==> localExists(PushFileName(n)) && uploaded
  {
    localExists(PushFileName(n)) && uploaded
  }

  /** The file name `save_playlist` writes for the same name. */
  function PushFileNameSanitized(n: string): string
  {
    SanitizeFilename(n) + Json
  }

  /** `push_playlist` looking for the file `save_playlist` wrote. */
  function PushPlaylistSanitized(n: string, localExists: string -> bool, uploaded: bool): (r: bool)
    ensures r <==> localExists(PushFileNameSanitized(n)) && uploaded
  {
    localExists(PushFileNameSanitized(n)) && uploaded
  }

  /** The corrected push looks exactly for the file the downloader saved. */
  lemma PushFindsSavedPlaylist(n: string, videos: seq<Video>, hasTrack: string -> bool, uploaded: bool)
    ensures var file := SavePlaylist(n, videos, hasTrack).0.fileName;
      PushPlaylistSanitized(n, f => f == file, uploaded) == uploaded
  {
  }

  /** As written, push does not find the file "Mix.json" the downloader saved for the
      name "Mix.": it looks for "Mix..json" instead. */
  lemma PushMissesTrailingDot(videos: seq<Video>, hasTrack: string -> bool)
    ensures var file := SavePlaylist("Mix.", videos, hasTrack).0.fileName;
      !PushPlaylist("Mix.", f => f == file, true)
  {
    PushNameOfMix();
    SanitizedMix();
  }

  /** The uploader worker writes the playlist under push's own cleaned name just before
      pushing, so in the app the push finds that copy, a second file beside the
      downloader's. */
  lemma PushFindsUploaderCopy(n: string, uploaded: bool)
    ensures PushPlaylist(n, f => f == PushFileName(n), uploaded) == uploaded
  {
  }

  lemma CleanMix()
    ensures CleanChars("Mix.") == "Mix."
  {
    assert MapChars("Mix.", ColonToDash) == "Mix.";
  }

  lemma PushNameOfMix()
    ensures |PushFileName("Mix.")| == 4 + |Json|
  {
    CleanMix();
    TrimUnchanged("Mix.");
  }

  lemma SanitizedMix()
    ensures SanitizeFilename("Mix.") == "Mix"
  {
    CleanMix();
    assert forall i :: 0 <= i < |"Mix."| ==> "Mix."[i] !in Whitespace;
    CollapseNoWhitespace("Mix.");
    StripMix();
  }

  /** Stripping spaces and dots from "Mix." removes only the final dot. */
  lemma StripMix()
    ensures Strip("Mix.", {' ', '.'}) == "Mix"
  {
    var cs := {' ', '.'};
    var s := "Mix.";
    assert s[0] == 'M' && s[3] == '.' && s[..3] == "Mix" && "Mix"[2] == 'x';
    StripOneTrailing(s, cs);
  }

  /** A string with no character of `cs` at its start and exactly one at its end
      loses just that last character. */
  lemma StripOneTrailing(s: string, cs: set<char>)
    requires |s| >= 2 && s[0] !in cs && s[|s| - 1] in cs && s[|s| - 2] !in cs
    ensures Strip(s, cs) == s[..|s| - 1]
  {
    assert StripStart(s, cs) == s;
    var front := s[..|s| - 1];
    assert front[|front| - 1] == s[|s| - 2];
    assert StripEnd(front, cs) == front;
  }

  const Opus: string := ".opus"

  predicate Skipped(id: string, localExists: string -> bool, remote: set<string>)
  {
    localExists(id + Opus) && id + Opus in remote
  }

  predicate Uploaded(id: string, localExists: string -> bool, remote: set<string>, put: string -> bool)
  {
    localExists(id + Opus) && id + Opus !in remote && put(id)
  }

  /** `push_tracks`: uploads each track whose file exists locally and is not on the
      remote listing (an unreadable listing counts as empty). `dirReady` is whether
      the remote directory could be made; without it nothing is counted. */
  method PushTracks(ids: seq<string>, localExists: string -> bool, dirReady: bool,
                    listing: Result<set<string>>, put: string -> bool)
    returns (uploaded: nat, skipped: nat)
    ensures uploaded + skipped <= |ids|
    ensures ids == [] || !dirReady ==> uploaded == 0 && skipped == 0
    ensures dirReady ==>
      var remote := if listing.Ok? then listing.value else {};
      && skipped == CountBy(ids, id => Skipped(id, localExists, remote))
      && uploaded == CountBy(ids, id => Uploaded(id, localExists, remote, put))
  {
    uploaded, skipped := 0, 0;
    if ids == [] || !dirReady {
      return;
    }
    var remote := if listing.Ok? then listing.value else {};
    var skip := id => Skipped(id, localExists, remote);
    var up := id => Uploaded(id, localExists, remote, put);
    var i := 0;
    while i < |ids|
      invariant 0 <= i <= |ids|
      invariant skipped == CountBy(ids[..i], skip)
      invariant uploaded == CountBy(ids[..i], up)
      invariant uploaded + skipped <= i
    {
      var id := ids[i];
      assert ids[..i + 1] == ids[..i] + [id];
      CountByAppend(ids[..i], [id], skip);
      CountByAppend(ids[..i], [id], up);
      var file := id + Opus;
      if localExists(file) {
        if file in remote {
          skipped := skipped + 1;
        } else if put(id) {
          uploaded := uploaded + 1;
        }
      }
      i := i + 1;
    }
    assert ids[..i] == ids;
  }
}

=== FILE: win_paths.dfy ===
/** Windows paths as Rust's `std::path` reads them: both '\' and '/' separate
    components, `file_name` is the last component and `parent` drops it, and
    `join` adds one separator between two parts.

    Only the shapes the launcher meets are modelled: relative paths, rooted paths
    and paths under a drive letter (`C:\...`). A `.` component in the middle of a
    path and verbatim `\\?\` prefixes are not. */
module WinPaths {
  import opened Wrappers
  import opened Strings

  const Seps: set<char> := {'\\', '/'}

  /** The separator Rust writes when it joins two Windows path parts. */
  const Sep: char := '\\'

  predicate NoSep(s: string) { forall i :: 0 <= i < |s| ==> s[i] !in Seps }

  /** A bare drive prefix such as `C:`. */
  predicate IsDrive(s: string) { |s| == 2 && s[1] == ':' && s[0] !in Seps }

  /** The last index of a separator. */
  function LastSep(s: string): (r: Option<nat>)
    ensures r.Some? ==> r.value < |s| && s[r.value] in Seps && NoSep(s[r.value + 1..])
    ensures r.None? ==> NoSep(s)
  {
    if |s| == 0 then None
    else if s[|s| - 1] in Seps then Some(|s| - 1)
    else
      var r := LastSep(s[..|s| - 1]);
      assert r.Some? ==> s[r.value + 1..] == s[..|s| - 1][r.value + 1..] + [s[|s| - 1]];
      r
  }

  /** The path without its trailing separators, which Rust ignores. */
  function Tidy(path: string): (r: string)
    ensures StartsWith(path, r)
    ensures r == [] || r[|r| - 1] !in Seps
  {
    var r := StripEnd(path, Seps);
    assert path[..|r|] == r;
    r
  }

  /** `Path::file_name`: the last component, or `None` when the path ends in a root,
      a drive prefix or `..`. */
  function FileName(path: string): (r: Option<string>)
    ensures r.Some? ==> r.value != "" && r.value != ".." && NoSep(r.value)
    ensures r.Some? ==> EndsWith(Tidy(path), r.value)
  {
    var t := Tidy(path);
    var name := match LastSep(t) case None => t case Some(i) => t[i + 1..];
    if name == "" || name == ".." || IsDrive(t) then None else Some(name)
  }

  /** `Path::parent`: the path without its last component. A path with a single
      relative component has the empty parent; a root or drive has none. A parent
      that would be a bare root or drive keeps its separator. */
  function Parent(path: string): (r: Option<string>)
    ensures r.Some? ==> |r.value| < |Tidy(path)| && StartsWith(path, r.value)
  {
    var t := Tidy(path);
    if t == "" || IsDrive(t) then None
    else
      match LastSep(t)
      case None => Some("")
      case Some(i) =>
        var d := Tidy(t[..i]);
        assert t[..i][..|d|] == d;
        if d == "" || IsDrive(d) then Some(t[..|d| + 1]) else Some(d)
  }

  /** `Path::extension`: the text after the last dot of the file name, unless the name
      has no dot or its only dot is its first character. */
  function Extension(path: string): (r: Option<string>)
    ensures r.Some? ==> '.' !in r.value && FileName(path).Some? && EndsWith(FileName(path).value, r.value)
  {
    match FileName(path)
    case None => None
    case Some(name) =>
      match RFindChar(name, '.')
      case None => None
      case Some(i) =>
        if i == 0 then None
        else
          assert name[|name| - |name[i + 1..]|..] == name[i + 1..];
          Some(name[i + 1..])
  }

  /** `Path::join` of a relative part: one separator in between, unless the base is
      empty or already ends in one. */
  function JoinPath(base: string, part: string): (r: string)
    ensures StartsWith(r, base) && EndsWith(r, part)
  {
    if base == "" || base[|base| - 1] in Seps then base + part else base + [Sep] + part
  }

  /** Splitting a joined path gives the parts back: the name is the last part and the
      parent is the base. */
  lemma JoinPathSplits(base: string, part: string)
    requires base != "" && base[|base| - 1] !in Seps && !IsDrive(base)
    requires part != "" && part != ".." && NoSep(part)
    ensures FileName(JoinPath(base, part)) == Some(part)
    ensures Parent(JoinPath(base, part)) == Some(base)
  {
    var p := JoinPath(base, part);
    assert p == base + [Sep] + part;
    assert Tidy(p) == p;
    assert LastSep(p) == Some(|base|) by {
      LastSepAt(p, |base|);
    }
    assert p[..|base|] == base;
    assert Tidy(base) == base;
  }

  lemma LastSepAt(s: string, i: nat)
    requires i < |s| && s[i] in Seps && NoSep(s[i + 1..])
    ensures LastSep(s) == Some(i)
    decreases |s|
  {
    if i < |s| - 1 {
      assert s[i + 1..][|s| - i - 2] == s[|s| - 1];
      assert s[..|s| - 1][i + 1..] == s[i + 1..][..|s| - i - 2];
      LastSepAt(s[..|s| - 1], i);
    }
  }

  /** The `k`-th ancestor: the path itself, its parent, its grandparent, and so on;
      `None` once a root is passed. */
  function Ancestor(path: string, k: nat): Option<string>
  {
    if k == 0 then Some(path)
    else
      match Parent(path)
      case None => None
      case Some(p) => Ancestor(p, k - 1)
  }
}

=== FILE: wrappers.dfy ===
/** Option and Result datatypes shared by every module of the model.
    Errors of the modelled system are plain strings, as in `Result<T, String>`. */
module Wrappers {

  datatype Option<+T> = None | Some(value: T) {
    /** The value, or `default` when absent. */
    function GetOr(default: T): T {
      match this
      case Some(v) => v
      case None => default
    }
  }

  datatype Result<+T> = Ok(value: T) | Err(error: string) {
    predicate IsFailure() { Err? }

    function PropagateFailure<U>(): Result<U>
      requires Err?
    {
      Err(error)
    }

    function Extract(): T
      requires Ok?
    {
      value
    }
  }
}
